=== FILE: README.md ===
# Venice front ends in Dafny

Venice is a small statically typed language that its author implemented
several times over. This project models the front end of each generation,
one Dafny module (or a few) per component, and proves properties of them:

- **pycompiler** (Python): the character lexer and the recursive-descent
  parser with one-token pushback (`PyLexer`, `PyParser`, tree `PyAst`), the
  type checker with its chained symbol tables (`PyAnalyzer`), and the
  generator that writes the program back out as Python source
  (`PyGenerator`, with Python's `repr` of strings in `PyRepr`).
- **venice** (Python): the line-and-column lexer (`VeniceLexer`), the parser
  with a single push-back slot (`VeniceParser`, tree `VeniceAst`), and the C
  code generator with its symbol tables and function typedefs
  (`VeniceCodegen`).
- **Go**: the lexer with its newline-keeping and newline-skipping views
  (`GoLexer`), the precedence-climbing parser and its desugarings
  (`GoParser`, `GoParserFacts`, tree `GoAst`) with the import paths it
  resolves through Go's `path` package (`GoPath`), the type relation and generic
  substitution (`GoTypes`), the symbol tables (`GoSymbols`), and the
  bytecode compiler for statements with its jump patching (`GoCompiler`,
  `GoCompilerScopes`, `GoCompilerFacts`).
- **Go virtual machine values**: the 256-bucket hash map (`VmMap`,
  `VmMapFacts`), value equality, hashing and iterators (`VmValues`), and the
  pure list and string builtins (`VmBuiltins`).
- **Rust**: the lexer (`RustLexer`), the types and their `matches` relation
  (`RustAst`), the parse tree the analyzer reads (`RustParseTree`), and the
  analyzer with its scoped symbol table and unique names (`RustAnalyzer`).

`Wrappers` holds `Option` and `Result`; `Text` holds the string helpers the
modules share. Every operation is a pure function over immutable values.
Where the source mutates an object (a lexer's position, an analyzer's error
list, a symbol table), the model passes the state in and returns the new
state. Parsers read a token sequence that the lexer has already produced.
This changes nothing the parser can observe, because none of the lexers
takes input from its parser. The exceptions are in the Go parser: its
bracket depth, which the Go model keeps explicitly, and its choice of
when to skip newlines, which changes how a `###` comment is lexed (see
"## Left out").

Where the source has a defect (see "## Findings"), the affected operation
takes a `Variant` parameter, `AsWritten` or `Corrected`. In `PyLexer` the
as-written step is a separate function instead. The as-written
variant follows the code line by line. The corrected variant is what the
surrounding code and tests evidently intend. Each defect has a lemma that
exhibits it on the as-written variant and a lemma that proves the intended
property of the corrected one.

## Model

| member | source | states |
|---|---|---|
| PyLexer.Keyword | pycompiler/parser.py:337-352 | a word is a keyword exactly when it is one of the twelve reserved words, and a keyword never gets the end, symbol, integer, string, `not` or unknown type |
| PyLexer.Escape | pycompiler/parser.py:463-466 | a known escape letter decodes to its single character; an unknown one keeps the backslash in front of the letter |
| PyLexer.NewLexer | pycompiler/parser.py:382-387 | a fresh lexer has the whole input pending and has not reached the end |
| PyLexer.Read | pycompiler/parser.py:502-509 | reading takes the next pending character, or yields the end marker and sets `done` once nothing is pending |
| PyLexer.PushBack | pycompiler/parser.py:468-469 | a pushed-back character is the next one read; pushing back the end marker changes nothing |
| PyLexer.LongestRun | pycompiler/parser.py:489-500 | the run is the longest prefix whose characters all satisfy the predicate: every character in it does, the next one does not |
| PyLexer.ReadWhile | pycompiler/parser.py:489-500 | reading a run stops right after the longest accepted prefix; with a predicate that accepts the end marker it does not stop at the end of input |
| PyLexer.StoppedStep | pycompiler/parser.py:491-495 | one more accepted character in front of a finished run extends the run |
| PyLexer.SlashFallbackAsWritten | pycompiler/parser.py:476-484 | as written, a `/` not followed by `/` leaves `//` pending, and the character after the `/` is lost |
| PyLexer.SlashFallback | pycompiler/parser.py:476-484 | corrected: a lone `/` leaves `/` and then the character read after it pending, so no input is lost |
| PyLexer.TriviaStep | pycompiler/parser.py:471-487 | one round of skipping either stops with the next character pushed back, or consumes whitespace or a comment |
| PyLexer.AfterSlash | pycompiler/parser.py:476-484 | after a `/`, a second `/` starts a comment that runs up to the newline; anything else puts the `/` back and stops |
| PyLexer.SkipTrivia | pycompiler/parser.py:471-487 | skipping whitespace and comments never grows the pending input and keeps `done` once set |
| PyLexer.ReadString | pycompiler/parser.py:442-461 | a closed string consumes its closing quote; input that ends inside a string, or right after a backslash, leaves the literal unterminated at the end of input |
| PyLexer.Prepend | pycompiler/parser.py:443-459 | adding a decoded character in front of a string read keeps whether it was closed |
| PyLexer.Comparison | pycompiler/parser.py:412-432 | `>`, `<` and `=` become the two-character operator when `=` follows, and otherwise the one-character operator with the next character left unread |
| PyLexer.WordKind | pycompiler/parser.py:399-404 | `not` is the NOT token, a keyword gets its own type, and every other word is a SYMBOL |
| PyLexer.ReadRun | pycompiler/parser.py:436-440 | a symbol or integer run starts with the character already read and stops at the first character outside the class |
| PyLexer.Next | pycompiler/parser.py:389-434 | every token other than END consumes input; once the input is done every call returns END |
| PyLexer.TokenStartingWith | pycompiler/parser.py:395-434 | a token read after trivia is never END and never grows the pending input |
| PyLexer.Tokenize | pycompiler/parser.py:389-434 | the token list read up to the end marker contains no END token |
| PyLexer.NextAfterNoTrivia | pycompiler/parser.py:389-395 | with no whitespace or comment in front, `next` dispatches on the first pending character |
| PyLexer.RunOfPrefix | pycompiler/parser.py:489-500 | the run over `w + rest` is exactly `w` when all of `w` is accepted and `rest` starts outside the class |
| PyLexer.WordToken | pycompiler/parser.py:396-404 | a word is read whole into one token of its word kind, and the text after it is still pending |
| PyLexer.IntToken | pycompiler/parser.py:405-408 | a run of digits is read whole into one INT token |
| PyLexer.ComparisonToken | pycompiler/parser.py:412-432 | the comparison operators are decided by one character of lookahead, which is consumed only when it is `=` |
| PyLexer.Quote | pycompiler/parser.py:442-466 | quoting escapes quotes and backslashes, so the quoted text is at least as long as the string |
| PyLexer.ReadQuoted | pycompiler/parser.py:442-461 | reading the quoted form of a string gives back the string and stops after the closing quote |
| PyLexer.StringToken | pycompiler/parser.py:409-411 | a string literal lexes to a STRING token holding exactly the string it quotes |
| PyLexer.NoNewlineRun | pycompiler/parser.py:479 | the comment run covers all of a text that has no newline |
| PyLexer.CommentAtEndHangsAsWritten | pycompiler/parser.py:479 | as written, the comment predicate accepts the end marker, so a comment at the end of the input is never finished |
| PyLexer.CommentAtEnd | pycompiler/parser.py:479 | corrected: a comment with no newline after it runs to the end of the input |
| PyLexer.CommentSkipped | pycompiler/parser.py:476-480 | a `//` comment is skipped up to, not including, its newline |
| PyLexer.CommentToken | pycompiler/parser.py:471-487 | a comment produces no token: the NEWLINE that ends it is the next token |
| PyLexer.OneCharToken | pycompiler/parser.py:353-368 | a character of the special table is a token of its own type, with no lookahead |
| PyLexer.SlashLosesCharacterAsWritten | pycompiler/parser.py:476-484 | as written, after `a/b` has been read up to `b`, the text left is `//` rather than `/b` |
| PyLexer.SlashToken | pycompiler/parser.py:362 | corrected: a lone `/` is a SLASH token and the character after it is still to be read |
| PyLexer.EndToken | pycompiler/parser.py:392-393 | at the end of the input `next` returns END |
| PyLexer.SlashThenWord | pycompiler/parser.py:389-434 | corrected: `/` followed by a word lexes as SLASH and that word |
| PyLexer.SlashBetweenWords | pycompiler/parser.py:389-434 | corrected: a division between two words lexes as the word, SLASH and the word |
| PyParser.Precedence | pycompiler/parser.py:13-36 | only the thirteen operator tokens continue an expression, each with a precedence from ASSIGN up to CALL; END never does |
| PyParser.At | pycompiler/parser.py:309-315 | past the last token the parser sees only END |
| PyParser.After | pycompiler/parser.py:309-315 | reading a token moves one position on, except that END is read again and again |
| PyParser.Unexpected | pycompiler/parser.py:328-331 | the error for an unwanted token is "premature end of input" exactly when that token is END |
| PyParser.Expect | pycompiler/parser.py:320-333 | `expect` succeeds exactly when the next token has one of the wanted types, returns that token and moves past it, and otherwise fails with the message for the token found |
| PyParser.SkipNewlines | pycompiler/parser.py:300-307 | skipping newlines stops at the first token that is not a NEWLINE, having passed only NEWLINE tokens |
| PyParser.MatchExpression | pycompiler/parser.py:180-189 | a parsed expression consumes at least one token and stays within the input |
| PyParser.InfixLoop | pycompiler/parser.py:183-189 | the operator loop never moves backwards, and returns the left operand unchanged when it consumes nothing |
| PyParser.MatchPrefix | pycompiler/parser.py:191-226 | a prefix expression consumes at least one token |
| PyParser.MatchInfix | pycompiler/parser.py:228-245 | the right-hand part of an infix form (call arguments, index, assigned value, field name, right operand) consumes at least one token |
| PyParser.ExpressionList | pycompiler/parser.py:284-298 | a comma-separated list of expressions keeps the items read so far and never moves backwards |
| PyParser.MatchArgument | pycompiler/parser.py:247-259 | an argument consumes at least one token |
| PyParser.ArgumentList | pycompiler/parser.py:284-298 | the argument list keeps the arguments read so far and never moves backwards |
| PyParser.MatchPair | pycompiler/parser.py:267-271 | a key-value pair consumes at least one token |
| PyParser.PairList | pycompiler/parser.py:284-298 | the pair list keeps the pairs read so far and never moves backwards |
| PyParser.MatchType | pycompiler/parser.py:273-282 | a type consumes at least one token |
| PyParser.TypeList | pycompiler/parser.py:277 | the type-parameter list keeps the types read so far and never moves backwards |
| PyParser.MatchParameter | pycompiler/parser.py:261-265 | a parameter consumes at least one token |
| PyParser.ParameterList | pycompiler/parser.py:64 | the parameter list keeps the parameters read so far and never moves backwards |
| PyParser.MatchStatement | pycompiler/parser.py:92-113 | a statement consumes at least one token |
| PyParser.MatchLet | pycompiler/parser.py:115-120 | a `let` statement consumes at least one token |
| PyParser.MatchReturn | pycompiler/parser.py:122-125 | a `return` statement consumes at least one token |
| PyParser.MatchIf | pycompiler/parser.py:127-146 | an `if` statement consumes input and has at least one clause |
| PyParser.IfLoop | pycompiler/parser.py:133-146 | the `elif`/`else` loop keeps every clause read so far and yields an `if` statement |
| PyParser.MatchWhile | pycompiler/parser.py:148-151 | a `while` statement consumes at least one token |
| PyParser.MatchFor | pycompiler/parser.py:153-160 | a `for` statement consumes at least one token |
| PyParser.MatchStruct | pycompiler/parser.py:162-178 | a struct declaration consumes input and has at least one field |
| PyParser.FieldList | pycompiler/parser.py:166-175 | the field loop reads at least one field and keeps the fields read so far |
| PyParser.MatchBlock | pycompiler/parser.py:76-90 | a block consumes at least one token |
| PyParser.BlockLoop | pycompiler/parser.py:80-90 | the statement loop of a block keeps the statements read so far and consumes input |
| PyParser.MatchFunction | pycompiler/parser.py:61-74 | a function definition consumes input and yields a function node |
| PyParser.ParseLoop | pycompiler/parser.py:44-59 | the top-level loop keeps every statement and function read so far |
| PyParser.ExpectAtEnd | pycompiler/parser.py:328-329 | `expect` at the end of input reports a premature end unless END is what it expects |
| PyParser.ExpectUnexpected | pycompiler/parser.py:330-331 | `expect` on a token of an unwanted type reports that token |
| PyParser.InfixLoopStops | pycompiler/parser.py:184-189 | the operator loop stops, leaving the token unread, at a token that does not bind tighter than the current precedence |
| PyParser.SymbolExpression | pycompiler/parser.py:180-200 | a symbol followed by a token that does not continue an expression is the whole expression |
| PyParser.BinaryPrecedence | pycompiler/parser.py:21-31 | every binary operator's precedence lies between comparison and multiplication |
| PyParser.TighterNestsRight | pycompiler/parser.py:180-189 | in `a o1 b o2 c` with `o2` binding tighter, the second operation nests on the right |
| PyParser.OtherwiseNestsLeft | pycompiler/parser.py:180-189 | in `a o1 b o2 c` with `o2` not binding tighter, the first operation nests on the left, so equal precedence associates left |
| PyParser.PrefixBindsTighter | pycompiler/parser.py:206-207 | prefix `-` takes only the operand before any binary operator |
| PyParser.KeywordArgumentParsed | pycompiler/parser.py:247-254 | a bare symbol, a colon and an expression form a keyword argument |
| PyParser.PositionalArgument | pycompiler/parser.py:247-257 | a symbol not followed by a colon is a positional argument and the next token stays unread |
| PyParser.TrailingComma | pycompiler/parser.py:284-298 | a list literal may end with a comma |
| PyParser.AssignmentStatement | pycompiler/parser.py:106-111 | `x = y` on a line of its own is an assignment statement, not an expression statement |
| PyParser.OnlyNewlines | pycompiler/parser.py:44-59 | blank lines are skipped, so a token sequence of newlines alone is the empty program |
| PyAnalyzer.Child | pycompiler/analyzer.py:299-302 | a new table is empty and has the given parent |
| PyAnalyzer.Get | pycompiler/analyzer.py:328-334 | lookup finds the binding of this table first, otherwise answers what the parent's lookup answers, and fails at a root without the name |
| PyAnalyzer.Put | pycompiler/analyzer.py:336-337 | binding a name adds it to this table and keeps the parent |
| PyAnalyzer.Globals | pycompiler/analyzer.py:304-318 | the global table is a root that binds `print` alone |
| PyAnalyzer.HasIffGet | pycompiler/analyzer.py:320-334 | `has` is true exactly when `get` finds a binding |
| PyAnalyzer.PutThenGet | pycompiler/analyzer.py:328-337 | after `put`, `get` finds the new binding and every other name resolves as before |
| PyAnalyzer.ChildGet | pycompiler/analyzer.py:299-302 | lookup in a fresh child table is lookup in its parent |
| PyAnalyzer.GlobalsGet | pycompiler/analyzer.py:304-318 | the global table resolves `print` to `fn(x: any) -> void` and nothing else |
| PyAnalyzer.CompatiblePreorder | pycompiler/analyzer.py:268-272 | type compatibility is reflexive and transitive, and `any` accepts every type |
| PyAnalyzer.LabeledStrings | pycompiler/analyzer.py:284 | a function type's parameters are shown one string each |
| PyAnalyzer.TypeToStringShapes | pycompiler/analyzer.py:275-296 | list, map and function types print with their `list<`, `map<` and `fn<` prefixes |
| PyAnalyzer.ResolveType | pycompiler/analyzer.py:239-265 | a plain type name resolves exactly when it is boolean, integer or string, and a resolved type is never a function, struct, `any` or `void` |
| PyAnalyzer.ResolveTypeSyntax | pycompiler/analyzer.py:239-259 | every resolvable type is the resolution of its own syntax |
| PyAnalyzer.ResolvedIsResolvable | pycompiler/analyzer.py:239-259 | whatever resolves is built from boolean, integer, string, list and map alone |
| PyAnalyzer.ResolveParams | pycompiler/analyzer.py:16-19 | a parameter list resolves exactly when each of its types does, into one labelled type per parameter in order |
| PyAnalyzer.CheckAgainst | pycompiler/analyzer.py:231-236 | `vassert` succeeds exactly when the expression checks with a type the expected type accepts |
| PyAnalyzer.LiteralType | pycompiler/analyzer.py:158-169 | strings, booleans and integers have their types; only a literal of another Python class is an error |
| PyAnalyzer.IndexType | pycompiler/analyzer.py:170-191 | indexing succeeds exactly for a list indexed by an integer or a map by a key its key type accepts, with the item or value type |
| PyAnalyzer.FieldType | pycompiler/analyzer.py:213-226 | field access succeeds exactly on a struct that has a field of that label, with that field's type |
| PyAnalyzer.FirstField | pycompiler/analyzer.py:220-222 | the field found is the first of that label |
| PyAnalyzer.LabelMismatch | pycompiler/analyzer.py:132-136 | the wrong-keyword message starts by naming the expected label |
| PyAnalyzer.PutAll | pycompiler/analyzer.py:29-30 | binding a list of parameters keeps the table's parent and every name it already bound |
| PyAnalyzer.AssignmentKey | pycompiler/analyzer.py:52-55 | the lookup key of an assignment target is the symbol's name; for any target other than a symbol or keyword argument the lookup fails |
| PyAnalyzer.Names | pycompiler/analyzer.py:16-19 | the name set of a parameter list is exactly the set of its labels |
| PyAnalyzer.PutAllOther | pycompiler/analyzer.py:29-30 | binding a list of parameters leaves every other name as it was |
| PyAnalyzer.PutAllBinds | pycompiler/analyzer.py:29-30 | with distinct labels, each parameter is bound to its own type |
| PyAnalyzer.FunctionVisibleInBody | pycompiler/analyzer.py:21-32 | a function is bound before its body is checked, so the body can call it recursively |
| PyAnalyzer.ParametersVisibleInBody | pycompiler/analyzer.py:28-32 | the body sees each parameter at its declared type |
| PyAnalyzer.ParametersLeakAsWritten | pycompiler/analyzer.py:29-30 | as written, parameters are put into the enclosing table, so code after the function still sees them |
| PyAnalyzer.FunctionDeclarationScoped | pycompiler/analyzer.py:28-32 | corrected, a function declaration binds its name and nothing else the following statements can see |
| PyAnalyzer.FunctionStatement | pycompiler/analyzer.py:15-32 | a checked function declaration has resolvable parameter and return types and leaves its name bound to its function type |
| PyAnalyzer.ReturnOutsideFunction | pycompiler/analyzer.py:33-35 | `return` outside a function is an error whatever it returns |
| PyAnalyzer.ReturnInsideFunction | pycompiler/analyzer.py:36-42 | inside a function, `return e` checks exactly when `e` has a type the return type accepts, and binds nothing |
| PyAnalyzer.NestedReturnRejectedAsWritten | pycompiler/analyzer.py:43-49 | as written, a `return` inside an `if` inside a function is reported as outside any function |
| PyAnalyzer.NestedReturnChecked | pycompiler/analyzer.py:43-49 | corrected, that `return` is checked against the function's return type |
| PyAnalyzer.AssignUndefined | pycompiler/analyzer.py:52-55 | assigning to a name no table binds is an error naming the target |
| PyAnalyzer.AssignBound | pycompiler/analyzer.py:52-57 | assigning to a bound name checks exactly when the value has a type the name's type accepts, and binds nothing |
| PyAnalyzer.LetBinds | pycompiler/analyzer.py:50-51 | `let` checks exactly when its value does, and binds the name to the value's type |
| PyAnalyzer.ForLoop | pycompiler/analyzer.py:61-70 | a `for` needs a list; its body is checked in a child table binding the loop variable to the item type, and nothing it binds survives |
| PyAnalyzer.LoopVariableBound | pycompiler/analyzer.py:66-68 | inside the loop the variable has the item type and every other name resolves as outside |
| PyAnalyzer.InfixRule | pycompiler/analyzer.py:93-99 | infix operands must both be integers; comparisons give a boolean and other operators an integer |
| PyAnalyzer.PrefixRule | pycompiler/analyzer.py:100-106 | `not` needs and gives a boolean; any other prefix operator needs and gives an integer |
| PyAnalyzer.CallArity | pycompiler/analyzer.py:110-114 | a call with the wrong number of arguments is reported with both counts |
| PyAnalyzer.ArgumentsCompatible | pycompiler/analyzer.py:116-124 | every argument of a checked call has a type its parameter accepts |
| PyAnalyzer.StructArgumentsByPosition | pycompiler/analyzer.py:125-138 | a checked struct construction names the fields position by position, each value of a type the field accepts |
| PyAnalyzer.StructCallType | pycompiler/analyzer.py:125-140 | calling a struct type builds that struct, and extra or missing arguments go unnoticed |
| PyAnalyzer.LabelMessageAsWritten | pycompiler/analyzer.py:133-136 | as written, the message does not depend on the label given and ends with the literal text `{argument.label}` |
| PyAnalyzer.LabelMessageCorrected | pycompiler/analyzer.py:133-136 | corrected, the message ends with the label given, so different labels give different messages |
| PyAnalyzer.UnknownParameterizedAsWritten | pycompiler/analyzer.py:260-261 | as written, type parameters on a name other than `map` or `list` escape as a Python ValueError |
| PyAnalyzer.UnknownParameterizedCorrected | pycompiler/analyzer.py:260-261 | corrected, they are a checker error naming the type |
| PyAnalyzer.IndexRule | pycompiler/analyzer.py:170-191 | indexing gives a list's item type for an integer index and a map's value type for a key its key type accepts |
| PyAnalyzer.ItemsCompatible | pycompiler/analyzer.py:146-155 | when the items after the first check against a given item type, each has a type that item type accepts |
| PyAnalyzer.ListLiteral | pycompiler/analyzer.py:143-157 | a checked list literal is not empty, has the list type of its first item, and every later item has a type the first one's accepts |
| PyAnalyzer.EmptyLiterals | pycompiler/analyzer.py:143-145 | an empty list or map literal escapes as a Python IndexError |
| PyAnalyzer.CheckExpr | pycompiler/analyzer.py:86-228 | a symbol checks exactly when some table in the chain binds it; arithmetic and logic give an integer or a boolean; a checked list or map literal is non-empty and has a list or map type; keyword arguments and assignments are not expressions |
| PyAnalyzer.CheckStmt | pycompiler/analyzer.py:14-83 | a checked statement leaves a table with the same parent that still binds every name bound before |
| PyAnalyzer.CheckClauses | pycompiler/analyzer.py:43-47 | checking the clauses of an `if` keeps the table's parent and every name bound before |
| PyAnalyzer.CheckBlock | pycompiler/analyzer.py:9-11 | a checked block keeps the table's parent and every name bound before |
| PyAnalyzer.Check | pycompiler/analyzer.py:5-6 | a checked program ends in a root table that still binds `print` |
| PyAnalyzer.CheckBlockAppend | pycompiler/analyzer.py:9-11 | checking `a + b` is checking `a`, then `b` in the table `a` left |
| PyAst.ExprRepr | pycompiler/analyzer.py:55 | the text an expression node shows in the undefined-assignment message is never empty |
| PyRepr.QuoteFor | pycompiler/generator_python.py:116 | `repr()` quotes with a double quote exactly when the string holds a single quote and no double quote |
| PyRepr.HexValue | pycompiler/generator_python.py:116 | a hexadecimal digit of a `\x` escape reads back to a value below 16 |
| PyRepr.EscapeChar | pycompiler/generator_python.py:116 | a character is written with a backslash exactly when it is a backslash, the chosen quote, a newline, return, tab or a control character |
| PyRepr.EscapeBody | pycompiler/generator_python.py:116 | escaping never shortens the text |
| PyRepr.StrRepr | pycompiler/generator_python.py:116 | a string literal is written between two copies of the chosen quote |
| PyRepr.StrListRepr | pycompiler/generator_python.py:151 | the field-name list is written as a bracketed Python list |
| PyRepr.Map | pycompiler/generator_python.py:151 | each field name of the list is written as its own string literal |
| PyRepr.HexRoundTrip | pycompiler/generator_python.py:116 | a hexadecimal digit reads back to the value it was written for |
| PyRepr.UnescapeEscapeChar | pycompiler/generator_python.py:116 | reading an escaped character back gives the character, followed by whatever the rest reads back to |
| PyRepr.StrReprRoundTrip | pycompiler/generator_python.py:116 | `repr()` of a string reads back to that string, so a generated string literal is the literal the program wrote |
| PyRepr.EscapeBodyRoundTrip | pycompiler/generator_python.py:116 | the escaped body of a string reads back to the string |
| PyGenerator.Indentation | pycompiler/generator_python.py:21 | indentation is two spaces per level and nothing else |
| PyGenerator.RenderAppend | pycompiler/generator_python.py:14-16 | the text of a block is the text of its statements one after the other |
| PyGenerator.Wrap | pycompiler/generator_python.py:77-94 | a bracketed operation is its text inside one pair of parentheses; unbracketed, it is the text alone |
| PyGenerator.GenArguments | pycompiler/generator_python.py:98-106 | a call writes one argument text per argument |
| PyGenerator.GenItems | pycompiler/generator_python.py:108-114 | a list literal writes one item text per item |
| PyGenerator.GenPairs | pycompiler/generator_python.py:122-131 | a map literal writes one entry text per entry |
| PyGenerator.GenStmt | pycompiler/generator_python.py:19-70 | a statement's first line is at its own indentation, and nothing it writes is shallower |
| PyGenerator.GenElse | pycompiler/generator_python.py:41-43 | an `else` part, when written, starts with `else:` at the statement's level |
| PyGenerator.GenClauses | pycompiler/generator_python.py:30-39 | the clauses of an `if` start at the statement's level and nothing they write is shallower |
| PyGenerator.GenBlock | pycompiler/generator_python.py:14-16 | nothing in a block is shallower than the block's level |
| PyGenerator.ParamNames | pycompiler/generator_python.py:22 | the parameter names are the parameters' labels in order |
| PyGenerator.FieldAssignments | pycompiler/generator_python.py:144-147 | the constructor stores every field under its own name, in order |
| PyGenerator.StrMethod | pycompiler/generator_python.py:151-166 | `__str__` is the ten-line template, with the field list on its third line, at one level |
| PyGenerator.GenStruct | pycompiler/generator_python.py:140-152 | a struct becomes a class header, a constructor storing each field, a blank line and `__str__`: 13 lines more than it has fields |
| PyGenerator.BracketedParenthesises | pycompiler/generator_python.py:76-94 | only infix and prefix operations gain parentheses when bracketed; every other expression is written the same either way |
| PyGenerator.InfixText | pycompiler/generator_python.py:76-85 | an infix operation is its bracketed operands around the operator |
| PyGenerator.KeywordArgumentText | pycompiler/generator_python.py:99-101 | a keyword argument is written `label=value` |
| PyGenerator.KeywordArgumentAlone | pycompiler/generator_python.py:136-137 | outside a call a keyword argument is not an expression the generator can write |
| PyGenerator.FunctionBodyIndented | pycompiler/generator_python.py:20-24 | a function body sits one level deeper than its `def` line |
| PyGenerator.IfElifElse | pycompiler/generator_python.py:29-43 | an `if` writes `if`, then `elif` for each later clause, then `else`, each followed by its block one level deeper |
| PyGenerator.EmptyElse | pycompiler/generator_python.py:41 | an empty `else` block writes nothing, as if there were none |
| PyGenerator.StructConstructor | pycompiler/generator_python.py:140-141 | the constructor takes every field by keyword, in declaration order |
| PyGenerator.StructStoresField | pycompiler/generator_python.py:142-145 | the constructor stores every field, each on its own line in declaration order |
| PyGenerator.StructStrFields | pycompiler/generator_python.py:151-152 | `__str__` lists the fields in declaration order as a Python list of their names |
| VeniceLexer.NewLexer | venice/frontend/lexer.py:52-58 | a new lexer stands at the first character of the program, at line 1, column 1 |
| VeniceLexer.Advance | venice/frontend/lexer.py:145-155 | advancing consumes one character and keeps the line and column equal to the position after the text consumed; at the end it does nothing |
| VeniceLexer.AdvanceWhile | venice/frontend/lexer.py:100-105 | a scan consumes the longest run of characters satisfying its test |
| VeniceLexer.SkipTrivia | venice/frontend/lexer.py:131-143 | after skipping, the lexer is at the end or at a character that is neither blank nor the start of a `//` comment |
| VeniceLexer.ConsumeString | venice/frontend/lexer.py:107-122 | a string literal is an error exactly when no closing quote follows; otherwise both quotes are consumed |
| VeniceLexer.LexToken | venice/frontend/lexer.py:66-92 | a token consumes at least one character, is located at its first character, is never END, and (strings aside) its value is exactly the text consumed |
| VeniceLexer.Next | venice/frontend/lexer.py:60-92 | `next` skips trivia, locates the token at its first character, and returns END exactly when nothing but trivia is left |
| VeniceLexer.DebugFrom | venice/frontend/lexer.py:172-179 | `debug` of a finished lexer is the empty list |
| VeniceLexer.ArrowBeatsMinus | venice/frontend/lexer.py:69-79 | `->` is one ARROW token; a `-` not followed by `>` is MINUS |
| VeniceLexer.WordToken | venice/frontend/lexer.py:80-83 | a word is the longest run of symbol characters and gets its keyword type, or SYMBOL when it is no keyword |
| VeniceLexer.IntegerToken | venice/frontend/lexer.py:84-86 | an integer token is the longest run of digits |
| VeniceLexer.StringToken | venice/frontend/lexer.py:87-89 | a string without a closing quote is an "unclosed string literal" error; otherwise the token's value is the text between the quotes |
| VeniceLexer.EndRepeats | venice/frontend/lexer.py:63-64 | once the input is exhausted every call returns END with an empty value and stays put |
| VeniceLexer.SkipAtMostOneBlank | venice/frontend/lexer.py:131-143 | at a character that starts neither a blank nor a comment nothing is skipped; a single blank before such a character is skipped alone |
| VeniceLexer.SkipNothing | venice/frontend/lexer.py:131-143 | skipping at a non-blank character that does not start a comment changes nothing |
| VeniceLexer.WordEndsAt | venice/frontend/lexer.py:124-129 | a word ending before a non-symbol character is read up to that character |
| VeniceLexer.SingleCharAt | venice/frontend/lexer.py:76-79 | a character of the single-character table is a token by itself |
| VeniceLexer.At | venice/frontend/lexer.py:52-58 | every lexer state is fixed by its program and index: line and column follow from the text before the index |
| VeniceLexer.DebugStep | venice/frontend/lexer.py:172-179 | `debug` lists a token's type and value followed by the pairs of the tokens after it |
| VeniceParser.Tokenize | venice/frontend/lexer.py:60-92 | the token stream holds no END before its end, every INTEGER token is a non-empty run of digits, and lexing can stop early only at an unclosed string literal |
| VeniceParser.TokenizeStartsWithNext | venice/frontend/lexer.py:60-92 | the stream starts with the lexer's first token, or, when that is END or an error, that is the stream's end |
| VeniceParser.NextToken | venice/frontend/parser.py:201-207 | `_next` returns the first unconsumed token, from the push-back slot or the lexer, and fails only with the lexer's syntax error |
| VeniceParser.PushBack | venice/frontend/parser.py:209-213 | pushing back fails with "cannot push back multiple tokens" exactly when the slot is full; otherwise the token is put back in front |
| VeniceParser.PushBackThenNext | venice/frontend/parser.py:201-213 | a pushed-back token is the next one read, and reading it restores the state from before the push |
| VeniceParser.Expect | venice/frontend/parser.py:195-199 | `_expect` consumes a token of the given type, or fails with a syntax error naming the type wanted, the type found and its location |
| VeniceParser.MatchPrefix | venice/frontend/parser.py:155-164 | a prefix is an integer, string or symbol and consumes a token; anything else is a syntax error |
| VeniceParser.MatchExpression | venice/frontend/parser.py:127-153 | an expression consumes input, and every failure is a syntax error |
| VeniceParser.InfixLoop | venice/frontend/parser.py:130-153 | the operator loop never moves backwards, and every failure is a syntax error |
| VeniceParser.InfixLoopEndsAtStop | venice/frontend/parser.py:130-153 | whenever the operator loop succeeds, the token it pushed back is not an operator binding tighter than the current precedence |
| VeniceParser.MatchArgumentList | venice/frontend/parser.py:166-186 | an argument list consumes its closing parenthesis |
| VeniceParser.MatchType | venice/frontend/parser.py:188-193 | a type succeeds exactly on a SYMBOL token, and is the type of that name |
| VeniceParser.MatchParameterList | venice/frontend/parser.py:102-125 | a parameter list consumes its closing parenthesis |
| VeniceParser.MatchLet | venice/frontend/parser.py:90-95 | a `let` statement ends with its semicolon consumed |
| VeniceParser.MatchReturn | venice/frontend/parser.py:97-100 | a `return` statement always has a value and ends with its semicolon consumed |
| VeniceParser.MatchStatement | venice/frontend/parser.py:78-88 | a statement ends with its semicolon consumed, and is a `let` or `return` exactly when it starts with that keyword |
| VeniceParser.MatchBodyLoop | venice/frontend/parser.py:65-76 | the statement loop of a body ends with the closing brace consumed |
| VeniceParser.MatchBody | venice/frontend/parser.py:62-76 | a body is `{`, statements, `}`, with the brace consumed |
| VeniceParser.MatchReturnType | venice/frontend/parser.py:48-55 | an arrow is followed by the return type; a `{` means no return type and is pushed back for the body; anything else is a syntax error |
| VeniceParser.MatchFunction | venice/frontend/parser.py:43-60 | a function ends with the closing brace of its body consumed |
| VeniceParser.MatchModuleLoop | venice/frontend/parser.py:29-41 | the module loop reads functions until it has consumed every token and reached END |
| VeniceParser.NewParser | venice/frontend/parser.py:25-27 | a new parser stands before the first token with an empty push-back slot |
| VeniceParser.ParseModule | venice/frontend/parser.py:9-11 | a successful parse reads the whole program, which therefore lexes without error; every failure is a syntax error |
| VeniceParser.InfixLoopStops | venice/frontend/parser.py:131-153 | the loop stops at a token that is not an operator binding tighter than the current precedence, and pushes it back untouched |
| VeniceParser.SymbolExpression | venice/frontend/parser.py:127-153 | a symbol followed by a token that does not continue the expression is the whole expression |
| VeniceParser.TighterNestsRight | venice/frontend/parser.py:144-147 | `a + b * c` parses as `a + (b * c)` |
| VeniceParser.OtherwiseNestsLeft | venice/frontend/parser.py:131-150 | equal precedence associates to the left: `a - b - c` is `(a - b) - c` |
| VeniceParser.CallOnNonSymbol | venice/frontend/parser.py:134-140 | call syntax after anything but a symbol is the syntax error "function must be symbol" |
| VeniceAst.ExprRepr | venice/codegen.py:145 | the dataclass text an expression shows in a type error is never empty |
| VeniceCodegen.MatchesIsEquality | venice/codegen.py:175-189 | `match` holds exactly between equal types: atomic types by name, function types by arity, return type and each parameter |
| VeniceCodegen.MatchesAllIsEquality | venice/codegen.py:185-187 | the parameter loop of `match` holds exactly for equal parameter lists |
| VeniceCodegen.CType | venice/codegen.py:219-220 | the C name of an atomic type is its name |
| VeniceCodegen.CTypes | venice/codegen.py:193-195 | the C names of a list of types are the names of its members in order |
| VeniceCodegen.CTypeList | venice/codegen.py:204-207 | a typedef's parameter list names each parameter type in order |
| VeniceCodegen.ToTypedef | venice/codegen.py:197-209 | a typedef line starts `typedef`, the return type's C name, the function type's C name and `(`, and ends `);` |
| VeniceCodegen.FirstSeparator | venice/codegen.py:193-195 | the first `__` of a C type name is found, with none before it |
| VeniceCodegen.Segments | venice/codegen.py:193-195 | splitting a C type name at its `__` separators gives at least one segment |
| VeniceCodegen.BuiltinNamesClean | venice/codegen.py:223-226 | the builtin atomic C names contain no `__` and are not empty |
| VeniceCodegen.FirstSeparatorAfterName | venice/codegen.py:193-195 | in a joined name, the first separator follows the first clean name |
| VeniceCodegen.FirstSeparatorOfName | venice/codegen.py:223-226 | a clean name contains no separator |
| VeniceCodegen.SegmentsOfJoin | venice/codegen.py:193-195 | splitting a `__`-joined list of clean names gives the names back |
| VeniceCodegen.JoinHead | venice/codegen.py:193-195 | a joined name starts with the first character of its first part |
| VeniceCodegen.TypedefNameSegments | venice/codegen.py:191-195 | the C name of a function type over builtin types splits back into its parameters' names and then its return type's |
| VeniceCodegen.TypedefNamesDistinct | venice/codegen.py:191-195 | distinct function types over the builtin types get distinct typedef names |
| VeniceCodegen.TypeRepr | venice/codegen.py:150-152 | the dataclass text of a type in a type error is never empty |
| VeniceCodegen.Chain | venice/codegen.py:23-29 | the chain of a table starts with its own bindings |
| VeniceCodegen.Get | venice/codegen.py:31-38 | `get` finds a name bound here first, and fails only with "undefined symbol" and the name |
| VeniceCodegen.GetFollowsChain | venice/codegen.py:31-38 | `get` finds exactly the innermost binding of the chain of enclosing tables |
| VeniceCodegen.Put | venice/codegen.py:40-44 | `put` fails with "redefinition of symbol" exactly when the name is bound in this table; enclosing tables are not consulted, so shadowing is allowed |
| VeniceCodegen.GetAfterPut | venice/codegen.py:31-44 | after a successful `put`, `get` finds the new binding and every other name resolves as before |
| VeniceCodegen.ResolveType | venice/codegen.py:155-167 | a type name resolves exactly when it is `bool`, `int` or `str`, to a builtin atomic type other than void; any other name is "unknown type name" with its repr |
| VeniceCodegen.ComputeType | venice/codegen.py:133-145 | integers are int, strings are str, a symbol has the type `get` gives it, and a call is "unknown expression type" |
| VeniceCodegen.AssertType | venice/codegen.py:147-153 | `assert_type` succeeds exactly when the computed type equals the expected one, and otherwise reports both types and the expression |
| VeniceCodegen.InfixTyping | venice/codegen.py:134-137 | an infix expression type-checks exactly when both operands are ints, and is an int |
| VeniceCodegen.GenerateExpr | venice/codegen.py:121-131 | an expression can be written exactly when it contains no call, because calls have no visitor |
| VeniceCodegen.GenerateStmt | venice/codegen.py:114-119 | only a `let` whose value is typed and call-free can be written; it binds the name to the value's type in the current table; `return` and expression statements have no visitor |
| VeniceCodegen.GenerateBody | venice/codegen.py:106-110 | a generated body consists of `let` statements only, and leaves the enclosing table in place |
| VeniceCodegen.GenerateParameters | venice/codegen.py:83-94 | each parameter's type is resolved in order and written as its C name followed by the parameter name |
| VeniceCodegen.FunctionScope | venice/codegen.py:82-87 | the function's table holds its parameters and is enclosed by the outer table |
| VeniceCodegen.GenerateFunction | venice/codegen.py:70-112 | a generated function adds one typedef, binds its name to it in the outer table, and has return type void exactly when none was written |
| VeniceCodegen.FunctionNameInScope | venice/codegen.py:101-103 | a function's name is visible in its own body, so it can call itself, unless a parameter shadows it |
| VeniceCodegen.GenerateFunctions | venice/codegen.py:60-61 | the module loop generates one text and one typedef per function |
| VeniceCodegen.TypedefLines | venice/codegen.py:65 | one typedef line per function type |
| VeniceCodegen.GenerateModule | venice/codegen.py:58-68 | a module's code starts with the header include and records one typedef per function |
| VeniceCodegen.TypedefsStayFunctions | venice/codegen.py:96-100 | every typedef the generator records is a function type |
| VeniceCodegen.Codegen | venice/codegen.py:8-10 | `codegen` dispatches to the visitor of the node, and nodes without a visitor fail |
| VeniceCodegen.LetExample | venice/codegen.py:114-125 | `let x = 42;` is generated as `venice_int_t x = 42;` |
| VeniceCodegen.NullaryVoidName | venice/codegen.py:191-209 | a function with no parameters and no return type gets the C type name `void`, so its typedef line reads `typedef void void();` |
| GoLexer.WordKind | src/lexer/lexer.go:102-108 | a word gets its keyword's type when it is a keyword and SYMBOL otherwise, never NEWLINE |
| GoLexer.Keyword | src/lexer/lexer.go:414-444 | the keyword table answers exactly for the reserved words |
| GoLexer.OneCharToken | src/lexer/lexer.go:446-465 | a one-byte token is NEWLINE exactly for the newline byte |
| GoLexer.TwoCharToken | src/lexer/lexer.go:467-479 | a two-byte token is never NEWLINE |
| GoLexer.ThreeCharToken | src/lexer/lexer.go:481-483 | the only three-byte token is ELLIPSIS |
| GoLexer.NewLexer | src/lexer/lexer.go:27-37 | a new lexer stands at the first byte, at line 1, column 1 |
| GoLexer.Advance | src/lexer/lexer.go:295-305 | advancing consumes one byte and moves the location past it (a newline starts the next line); at the end it does nothing |
| GoLexer.Advance3 | src/lexer/lexer.go:59-61 | three advances consume three bytes, or stop at the end |
| GoLexer.SkipAll | src/lexer/lexer.go:135-154 | skipping all blanks stops at the end or at a byte that is neither blank nor `#`, and moves nowhere when there is nothing to skip |
| GoLexer.SkipExceptNewlines | src/lexer/lexer.go:156-188 | skipping stops at the end, at a newline, or at a byte that is not blank |
| GoLexer.ReadDigits | src/lexer/lexer.go:205-215 | the digit loop accepts the run of symbol bytes when all are digits of the base, and otherwise consumes up to and including the first byte that is not |
| GoLexer.ReadInteger | src/lexer/lexer.go:195-267 | reading an integer always consumes at least one byte |
| GoLexer.SkipSign | src/lexer/lexer.go:198-200 | a leading `-` is stepped over |
| GoLexer.BasePrefix | src/lexer/lexer.go:202-244 | `0b`, `0o` and `0x` select binary, octal and hexadecimal digits, tried in that order; anything else is decimal |
| GoLexer.ReadSymbol | src/lexer/lexer.go:269-276 | a symbol is the current byte and every symbol byte after it |
| GoLexer.SymbolRun | src/lexer/lexer.go:272-274 | the symbol loop consumes the longest run of symbol bytes |
| GoLexer.ScanQuoted | src/lexer/lexer.go:281-290 | the string loop stops at the delimiter or the end, stepping over the byte after each backslash |
| GoLexer.ReadString | src/lexer/lexer.go:278-293 | a string literal is unquoted from its text including both delimiters |
| GoLexer.IntegerToken | src/lexer/lexer.go:81-101 | an integer literal gives an INT token or an ERROR token, and consumes input either way |
| GoLexer.WordAt | src/lexer/lexer.go:102-108 | a word token is located at its first byte and is never NEWLINE |
| GoLexer.Scan | src/lexer/lexer.go:49-133 | a token is located where it starts, and is EOF exactly at the end of the program |
| GoLexer.ScanSingle | src/lexer/lexer.go:76-133 | a token that is not EOF consumes input, and is NEWLINE only for a newline byte |
| GoLexer.NextToken | src/lexer/lexer.go:39-42 | `NextToken` returns EOF exactly when only blanks and comments are left, and otherwise consumes input |
| GoLexer.NextTokenSkipNewlines | src/lexer/lexer.go:44-47 | `NextTokenSkipNewlines` never returns NEWLINE, and returns EOF exactly when only blanks, newlines and comments are left |
| GoLexer.At | src/lexer/lexer.go:295-305 | a lexer state is fixed by its program and index, the location being the position after the text before the index |
| GoLexer.ValidIsAt | src/lexer/lexer.go:295-305 | every reachable lexer state is the state at its index |
| GoLexer.EllipsisToken | src/lexer/lexer.go:55-64 | three-byte tokens are tried first: `...` is one ELLIPSIS |
| GoLexer.TwoCharBeatsOneChar | src/lexer/lexer.go:66-74 | two-byte tokens are tried before one-byte ones |
| GoLexer.OneCharFallback | src/lexer/lexer.go:89-93 | a one-byte token is taken when no longer token starts here and the byte is not the `-` of a negative integer |
| GoLexer.NegativeInteger | src/lexer/lexer.go:78-87 | `-` followed by a digit starts one integer literal (or one error token), never MINUS |
| GoLexer.IntegerText | src/lexer/lexer.go:215-265 | an accepted integer literal is exactly the text it was read from |
| GoLexer.PrefixedLiteralAccepted | src/lexer/lexer.go:202-243 | after a base prefix the literal is the longest run of symbol bytes, accepted when each is a digit of the base |
| GoLexer.PrefixedLiteralRejected | src/lexer/lexer.go:205-212 | otherwise the error names the first byte of the run that is not a digit of the base |
| GoLexer.LeadingZero | src/lexer/lexer.go:257-263 | a decimal literal of two or more bytes starting with `0` or `-0` is rejected once read whole |
| GoLexer.DecimalRun | src/lexer/lexer.go:246-255 | a run of decimal digits ending at a non-symbol byte is read whole |
| GoLexer.WordToken | src/lexer/lexer.go:102-108 | a word is the longest run of symbol bytes, with its keyword type or SYMBOL |
| GoLexer.ZIsUnknownAsWritten | src/lexer/lexer.go:333-335 | as written, `Z` is not a symbol byte, so a lone `Z` is an UNKNOWN token |
| GoLexer.ZIsSymbolCorrected | src/lexer/lexer.go:333-339 | corrected, the symbol bytes are exactly the ASCII letters, digits and `_`, and `Z` is a word |
| GoLexer.NewlineKept | src/lexer/lexer.go:39-42 | `NextToken` returns a newline as a NEWLINE token |
| GoLexer.InCommentSkipAll | src/lexer/lexer.go:140-143 | inside a `#` comment, skipping runs to the next newline and consumes it |
| GoLexer.LineCommentSkipped | src/lexer/lexer.go:44-47 | `NextTokenSkipNewlines` skips a `#` comment together with its newline |
| GoLexer.LineCommentRuns | src/lexer/lexer.go:162-165 | inside a line comment, skipping runs up to its newline |
| GoLexer.LineCommentEnd | src/lexer/lexer.go:173-179 | a `#` that does not open `###` starts a line comment running to the newline |
| GoLexer.CommentEatsNewlineAsWritten | src/lexer/lexer.go:162-186 | as written, the newline that ends a `#` comment never becomes a NEWLINE token |
| GoLexer.CommentKeepsNewline | src/lexer/lexer.go:162-186 | corrected, a `#` comment is followed by the NEWLINE token of the newline that ends it |
| GoLexer.BlockCommentRuns | src/lexer/lexer.go:166-171 | inside a block comment the first `###` closes it |
| GoLexer.BlockCommentSkipped | src/lexer/lexer.go:173-177 | `###` opens a block comment, and the token after it is the token after the closing `###` |
| GoParser.Precedence | src/compiler/parser.go:1219-1253 | only the operator tokens of the table continue an expression, each between TERNARY_IF and DOT; EOF and NEWLINE never do |
| GoParser.CompoundOperator | src/compiler/parser.go:1262-1267 | exactly the four `op=` tokens are compound assignments |
| GoParser.At | src/compiler/parser.go:1200-1212 | past the last token the parser sees only EOF |
| GoParser.After | src/compiler/parser.go:1200-1212 | reading moves one token on, except at the end |
| GoParser.SkipNewlines | src/compiler/parser.go:1209-1212 | skipping newlines stops at the first token that is not NEWLINE, having passed only NEWLINE tokens |
| GoParser.Next | src/compiler/parser.go:1200-1207 | `nextToken` moves forward, keeps the bracket counter, and inside brackets never stops at a NEWLINE |
| GoParser.NextSkipNewlines | src/compiler/parser.go:1209-1212 | `nextTokenSkipNewlines` never stops at a NEWLINE, whatever the counter |
| GoParser.Unexpected | src/compiler/parser.go:1282-1296 | an unexpected-token error is located at the token; at EOF it starts "premature end of input", and for an ERROR token it is the lexer's message |
| GoParser.ParseInt | src/compiler/parser.go:795-802 | a base-0 integer literal converts only to a value that fits in 64 signed bits |
| GoParser.BaseOf | src/compiler/parser.go:798 | a base-0 literal announces base 2, 8, 10 or 16, and its digits follow the prefix |
| GoParser.DigitValue | src/compiler/parser.go:798 | a character's digit value is at most 36, which stands for "no digit" |
| GoParser.MatchExpression | src/compiler/parser.go:650-755 | an expression consumes input and leaves the bracket counter as it found it (the corrected map literal included) |
| GoParser.InfixLoop | src/compiler/parser.go:656-752 | the operator loop never moves backwards, returns the left operand unchanged when it consumes nothing, and (corrected) keeps the counter |
| GoParser.InfixStep | src/compiler/parser.go:657-745 | one operator with its right part consumes input |
| GoParser.IndexSuffix | src/compiler/parser.go:666-678 | `[index]` consumes input, up to the closing bracket |
| GoParser.DotSuffix | src/compiler/parser.go:679-693 | `.name` or `.position` consumes the dot and the name, keeping the counter |
| GoParser.TernarySuffix | src/compiler/parser.go:694-715 | `if condition else otherwise` consumes input |
| GoParser.NotInSuffix | src/compiler/parser.go:716-739 | `not in right` consumes input |
| GoParser.MatchInfix | src/compiler/parser.go:757-783 | a binary operator and its right operand consume input |
| GoParser.Combine | src/compiler/parser.go:765-782 | an operator always yields an infix node, also when it rewrites a chained comparison |
| GoParser.MatchPrefix | src/compiler/parser.go:785-873 | a prefix expression consumes input, and EOF cannot start one |
| GoParser.IntegerLiteral | src/compiler/parser.go:795-802 | an integer token becomes an integer node exactly when it converts, and consumes one token |
| GoParser.SymbolPrefix | src/compiler/parser.go:853-867 | a symbol not followed by `::` is a plain symbol node |
| GoParser.MatchArglist | src/compiler/parser.go:1143-1172 | an argument list consumes input and leaves the counter as it found it |
| GoParser.ArglistItems | src/compiler/parser.go:1148-1170 | the argument loop keeps the items read so far and lowers the counter once at the terminator |
| GoParser.MatchMapPairs | src/compiler/parser.go:942-979 | the map loop lowers the counter once by the end (as written, not on the empty `{}`) |
| GoParser.MatchMapPair | src/compiler/parser.go:951-966 | one `key: value` pair consumes input |
| GoParser.MatchConstructor | src/compiler/parser.go:876-940 | a constructor consumes input and leaves the counter as it found it |
| GoParser.ConstructorFields | src/compiler/parser.go:894-934 | the field loop lowers the counter once by the end |
| GoParser.MatchTypeNode | src/compiler/parser.go:985-1081 | a type consumes input and never touches the counter |
| GoParser.MapType | src/compiler/parser.go:1000-1022 | `{K, V}` consumes input, up to the closing brace |
| GoParser.TupleTypes | src/compiler/parser.go:1023-1040 | a tuple type yields a tuple node; as written it stops in front of `)`, corrected it reads past it |
| GoParser.TypeArguments | src/compiler/parser.go:1054-1068 | type arguments keep those read so far and consume the closing `>` |
| GoParser.MatchPatternNode | src/compiler/parser.go:1087-1137 | a pattern consumes input and keeps the counter |
| GoParser.PatternRest | src/compiler/parser.go:1102-1125 | the rest of a compound pattern keeps the patterns read so far and consumes the closing `)` |
| GoParser.MatchStatement | src/compiler/parser.go:71-161 | a statement consumes input and keeps the counter |
| GoParser.MatchCompoundStatement | src/compiler/parser.go:79-103 | statements ending at their own brace consume input |
| GoParser.MatchSimpleStatement | src/compiler/parser.go:76-139 | statements needing a terminator consume input |
| GoParser.Terminated | src/compiler/parser.go:145-158 | a simple statement is accepted exactly when NEWLINE, `;`, EOF or `}` follows, and a NEWLINE or `;` is consumed with the newlines after it |
| GoParser.MatchExpressionStatement | src/compiler/parser.go:104-138 | an expression statement, assignment or compound assignment consumes input |
| GoParser.MatchBlock | src/compiler/parser.go:1174-1194 | a block consumes input and keeps the counter |
| GoParser.BlockStatements | src/compiler/parser.go:1181-1192 | the statement loop of a block consumes the closing brace |
| GoParser.MatchClassDeclaration | src/compiler/parser.go:163-235 | a class declaration consumes input |
| GoParser.NoConstructorClause | src/compiler/parser.go:173-181 | a class has no constructor exactly when `no` follows its name |
| GoParser.ClassFields | src/compiler/parser.go:188-227 | the field loop consumes input up to and including `}` |
| GoParser.MatchEnumDeclaration | src/compiler/parser.go:237-330 | an enum declaration consumes input |
| GoParser.EnumTypeParameter | src/compiler/parser.go:246-260 | an enum without `<` has no type parameter |
| GoParser.EnumCases | src/compiler/parser.go:267-327 | the case loop consumes input up to and including `}` |
| GoParser.EnumCaseTypes | src/compiler/parser.go:282-316 | a case with parentheses holds at least one type; without them it holds none |
| GoParser.TypeList | src/compiler/parser.go:285-306 | the case type loop consumes input and keeps the types read so far |
| GoParser.MatchFunctionDeclaration | src/compiler/parser.go:367-407 | a function declaration consumes input |
| GoParser.OptionalType | src/compiler/parser.go:392-399 | a type annotation is present exactly when its marker is there |
| GoParser.FunctionParams | src/compiler/parser.go:409-440 | the parameter loop keeps the parameters read so far and stops in front of `)` |
| GoParser.MatchForLoop | src/compiler/parser.go:332-365 | a `for` loop consumes input |
| GoParser.ForVariables | src/compiler/parser.go:336-351 | the loop variables are at least one name and stop in front of `in` |
| GoParser.MatchIfStatement | src/compiler/parser.go:442-485 | an `if` statement consumes input and has at least one clause |
| GoParser.ElseClauses | src/compiler/parser.go:455-482 | the `else` loop keeps every clause read so far and (corrected) the counter |
| GoParser.MatchImportStatement | src/compiler/parser.go:487-514 | an import consumes input and yields an import node |
| GoParser.ImportPath | src/compiler/parser.go:495-499 | a path not starting `./` becomes a rooted, cleaned path with the `.vn` extension; a `./` path is kept as written when the importing file has no path, and is otherwise a cleaned path rooted exactly when that file's path is |
| GoParser.LibraryImport | src/compiler/parser.go:495-496 | a plain library name `x` names `/usr/lib/venice0.1/x.vn` |
| GoParser.LibraryImportClimbs | src/compiler/parser.go:495-496 | a library path `../x` climbs out of the library directory to `/usr/lib/x.vn` |
| GoParser.SiblingImport | src/compiler/parser.go:497-498 | `./x` imported from `/d1/.../dn/base` names `/d1/.../dn/x` |
| GoParser.DirOfFile | src/compiler/parser.go:497-498 | the directory of `/d1/.../dn/base` is `/d1/.../dn` |
| GoParser.CleanChild | src/compiler/parser.go:497-498 | cleaning `/d1/.../dn/./x` drops the `.` segment |
| GoPath.Segments | src/compiler/parser.go:495-499 | a path splits into at least one segment, none holding a slash |
| GoPath.Resolve | src/compiler/parser.go:495-499 | the segment loop of `path.Clean` keeps its stack canonical: no empty or `.` segment, every `..` in front, none under the root |
| GoPath.Clean | src/compiler/parser.go:495-499 | a cleaned path is never empty and is rooted exactly when the input is |
| GoPath.JoinPath | src/compiler/parser.go:495-499 | `path.Join` of two elements is empty only when both are, and rooted exactly when its first non-empty element is |
| GoPath.AfterLastSlash | src/compiler/parser.go:497-498 | the split point of `path.Dir` follows the last slash, with no slash after it |
| GoPath.Dir | src/compiler/parser.go:497-498 | the directory of a path is never empty and is rooted exactly when the path is |
| GoPath.JoinSegments | src/compiler/parser.go:495-499 | joining the segments of a path with slashes gives the path back |
| GoPath.SegmentsOfJoin | src/compiler/parser.go:495-499 | splitting slash-free parts joined with slashes gives the parts back |
| GoPath.ResolveCanonical | src/compiler/parser.go:495-499 | canonical segments pass through the loop of `path.Clean` unchanged |
| GoPath.ResolveAppend | src/compiler/parser.go:495-499 | the loop of `path.Clean` over two runs of segments runs over the second from where the first stopped |
| GoPath.CleanRender | src/compiler/parser.go:495-499 | a path built from canonical segments is already clean |
| GoPath.CleanIdempotent | src/compiler/parser.go:495-499 | cleaning twice is cleaning once |
| GoPath.JoinPathClean | src/compiler/parser.go:495-499 | what `path.Join` returns is already clean |
| GoParser.MatchLetStatement | src/compiler/parser.go:516-552 | a `let` or `var` consumes input and records which keyword it was |
| GoParser.MatchMatchStatement | src/compiler/parser.go:554-613 | a `match` statement consumes input |
| GoParser.DefaultClause | src/compiler/parser.go:593-606 | the optional `default` block and the closing brace consume input |
| GoParser.MatchClauses | src/compiler/parser.go:568-591 | the `case` loop stops in front of `default` or `}` |
| GoParser.MatchReturnStatement | src/compiler/parser.go:615-628 | a `return` consumes input, with a value unless NEWLINE or `;` follows |
| GoParser.MatchWhileLoop | src/compiler/parser.go:630-644 | a `while` loop consumes input |
| GoParser.ParseProgram | src/compiler/parser.go:43-65 | a parsed program has at least one statement |
| GoParser.ProgramStatements | src/compiler/parser.go:48-58 | the top-level loop adds a statement on every round |
| GoParserFacts.InfixLoopStops | src/compiler/parser.go:656-658 | the operator loop stops, consuming nothing, at a token that does not bind tighter than the current level |
| GoParserFacts.SymbolExpression | src/compiler/parser.go:650-658 | a symbol followed by a token that does not continue the expression is the whole expression |
| GoParserFacts.BracketedSymbolExpression | src/compiler/parser.go:650-658 | the same inside brackets, where newlines are skipped |
| GoParserFacts.PrefixThenLoop | src/compiler/parser.go:650-655 | an expression is its prefix part followed by the operator loop |
| GoParserFacts.SymbolThenLoop | src/compiler/parser.go:650-655 | a plain symbol starts the loop as the left operand |
| GoParserFacts.BinaryStep | src/compiler/parser.go:740-745 | a binary operator reads its right operand at its own precedence, then the loop goes on |
| GoParserFacts.BinaryPrecedence | src/compiler/parser.go:1219-1253 | every binary operator binds less tightly than a prefix operator and more than the ternary |
| GoParserFacts.TighterNestsRight | src/compiler/parser.go:656-658 | `a o1 b o2 c` with `o2` tighter is `a o1 (b o2 c)` |
| GoParserFacts.OtherwiseNestsLeft | src/compiler/parser.go:656-658 | with `o2` not tighter it is `(a o1 b) o2 c`, apart from chained comparisons |
| GoParserFacts.ChainedComparison | src/compiler/parser.go:765-780 | `a < b <= c` is `(a < b) and (b <= c)` |
| GoParserFacts.NoChainAfterNonComparison | src/compiler/parser.go:765-782 | a comparison whose left side is no comparison is not split |
| GoParserFacts.PrefixBindsTighter | src/compiler/parser.go:828-835 | prefix `-` takes only the operand before a binary operator |
| GoParserFacts.NotInRewritten | src/compiler/parser.go:716-739 | `a not in b` is `not (a in b)` |
| GoParserFacts.CompoundAssignment | src/compiler/parser.go:121-135 | `a op= b` assigns `a op b` to `a` |
| GoParserFacts.PlainAssignment | src/compiler/parser.go:110-120 | `a = b` is a plain assignment |
| GoParserFacts.LastArgument | src/compiler/parser.go:1148-1170 | the last item before the closing token ends an argument list and lowers the counter |
| GoParserFacts.NextArgument | src/compiler/parser.go:1148-1170 | an item followed by a comma continues the list |
| GoParserFacts.ArglistStart | src/compiler/parser.go:1143-1147 | an argument list starts inside a bracket at the next token |
| GoParserFacts.ParenthesesPrefix | src/compiler/parser.go:811-821 | a parenthesised list is its one item, or else a tuple |
| GoParserFacts.OneItemParentheses | src/compiler/parser.go:811-821 | `(a)` is `a` itself |
| GoParserFacts.EmptyParentheses | src/compiler/parser.go:811-821 | `()` is the empty tuple |
| GoParserFacts.PairParentheses | src/compiler/parser.go:811-821 | `(a, b)` is a two-item tuple |
| GoParserFacts.BreakNeedsTerminator | src/compiler/parser.go:140-153 | `break` parses exactly when a terminator follows, and the error names the token otherwise |
| GoParserFacts.StatementAtEnd | src/compiler/parser.go:1282-1292 | every statement at the end of the input fails with "premature end of input" |
| GoParserFacts.BlankProgram | src/compiler/parser.go:43-65 | a program of newlines only fails the same way |
| GoParserFacts.EmptyEnumCase | src/compiler/parser.go:308-312 | `Name()` in an enum is an error with the source's message |
| GoParserFacts.DecimalBaseValue | src/compiler/parser.go:798 | decimal digits read in base 10 have their decimal value |
| GoParserFacts.DecimalRead | src/compiler/parser.go:798 | a decimal rendering without leading zero is read in base 10 |
| GoParserFacts.UnsignedDecimalRead | src/compiler/parser.go:798 | a decimal rendering reads as its value when below 2^63 and fails otherwise |
| GoParserFacts.NegativeDecimalRead | src/compiler/parser.go:798 | a minus sign and a rendering read as the negated value when at least -2^63 |
| GoParserFacts.IntegerRoundTrip | src/compiler/parser.go:795-802 | reading back a rendered integer gives it back exactly when it fits in 64 bits |
| GoParserFacts.BasePrefixes | src/compiler/parser.go:798 | `0x10` is 16, `010` is 8, `-0b11` is -3, a digit outside the base is rejected |
| GoParserFacts.LeadingZeroDecimal | src/compiler/parser.go:798 | without prefix bases a leading zero is just a digit |
| GoParserFacts.MapPairsClose | src/compiler/parser.go:946-949 | `}` ends the pairs; only the corrected parser lowers the counter when no pair precedes it |
| GoParserFacts.MapPrefix | src/compiler/parser.go:803-810 | a map literal is its pairs |
| GoParserFacts.EmptyMapLiteral | src/compiler/parser.go:803-810 | `{}` is the empty map, with the counter left raised as written |
| GoParserFacts.SimpleStatementThen | src/compiler/parser.go:140-158 | a statement that opens no block is its simple part followed by the terminator check |
| GoParserFacts.SimpleStatementFails | src/compiler/parser.go:140-144 | and fails as its simple part fails |
| GoParserFacts.LetDispatch | src/compiler/parser.go:94-95 | a statement starting with `let` is a `let` declaration |
| GoParserFacts.LetWithValue | src/compiler/parser.go:516-552 | `let x [: T] = e` declares `x` with the annotation and the value |
| GoParserFacts.LetWithoutEquals | src/compiler/parser.go:533-535 | `let x [: T]` not followed by `=` is an error naming the token |
| GoParserFacts.UntypedLet | src/compiler/parser.go:516-552 | `let x = e` declares `x` without a type |
| GoParserFacts.LetDeclaresEmptyMap | src/compiler/parser.go:516-552 | `let x = {}` declares the empty map |
| GoParserFacts.LetReadsEmptyMap | src/compiler/parser.go:516-552 | the `let` statement of `let x = {}` reads as that declaration |
| GoParserFacts.EmptyMapLeaksBracketAsWritten | src/compiler/parser.go:946-949 | as written, after `let x = {}` the newline is skipped and the next line's token is taken as the terminator |
| GoParserFacts.EmptyMapRestoresBracketCorrected | src/compiler/parser.go:970-973 | corrected, the statement ends at the newline and the parser stands on the next line |
| GoParserFacts.OneItemTupleType | src/compiler/parser.go:1023-1040 | `: (T)` reads as a one-item tuple type, stopping in front of `)` as written |
| GoParserFacts.TupleTypeKeepsParenAsWritten | src/compiler/parser.go:1023-1040 | as written, `let x: (T) = e` fails |
| GoParserFacts.TupleTypeLetAsWritten | src/compiler/parser.go:1023-1040 | and the error is "expected equals sign" at the `)` |
| GoParserFacts.TupleTypeReadsParenCorrected | src/compiler/parser.go:1023-1040 | corrected, the declaration reads with a one-item tuple type |
| GoTypes.OptionalOf | src/compiler/vtype.go:115-131 | `Optional` at a concrete type is a non-generic enum whose `Some` case carries that type and whose `None` case carries nothing |
| GoTypes.TypeTextAgrees | src/compiler/vtype.go:133-228 | the String methods produce a type's text exactly when no printed position holds the nil type, and then it is the type's written form |
| GoTypes.TypeListTextAgrees | src/compiler/vtype.go:153-228 | a comma-separated list of types prints exactly when every item prints |
| GoTypes.UnionAcceptsMember | src/compiler/compiler.go:1724-1729 | a union accepts every type that one of its members accepts |
| GoTypes.UnionRejects | src/compiler/compiler.go:1724-1731 | a union rejects a type that none of its members accepts |
| GoTypes.EverythingAccepted | src/compiler/compiler.go:1656-1657 | `any`, and a union with such a member, accepts every type |
| GoTypes.UnionAcceptedOnlyByEverything | src/compiler/compiler.go:1650-1734 | a union actual type is accepted only by a type that accepts everything |
| GoTypes.AcceptsItself | src/compiler/compiler.go:1650-1734 | a type accepts itself exactly when it holds no type symbol and its unions accept everything, so `union<int, string>` does not accept itself |
| GoTypes.AcceptsTransitive | src/compiler/compiler.go:1650-1734 | compatibility is transitive |
| GoTypes.SubstituteOccurs | src/compiler/compiler.go:1737-1827 | after substitution a symbol occurs exactly where it occurred unbound, or inside the binding of a symbol that occurred |
| GoTypes.SubstituteEliminates | src/compiler/compiler.go:1737-1827 | with closed bindings, substitution removes every bound symbol and keeps every unbound one |
| GoTypes.SubstituteUnbound | src/compiler/compiler.go:1737-1827 | a type mentioning no bound symbol and carrying no generic parameter list is unchanged |
| GoSymbols.Scopes | src/compiler/symbol_table.go:7-10 | a table is a non-empty chain of scopes whose first is its own |
| GoSymbols.SpawnChild | src/compiler/symbol_table.go:282-287 | a child adds one empty scope in front of its parent's chain |
| GoSymbols.Put | src/compiler/symbol_table.go:313-315 | `Put` binds a constant in the innermost scope and leaves the enclosing scopes alone |
| GoSymbols.PutVar | src/compiler/symbol_table.go:317-319 | `PutVar` binds a variable in the innermost scope and leaves the enclosing scopes alone |
| GoSymbols.GetBindingSearchesScopes | src/compiler/symbol_table.go:289-299 | lookup finds the binding of the innermost scope that binds the name, and fails exactly when no scope binds it |
| GoSymbols.GetAgreesWithGetBinding | src/compiler/symbol_table.go:301-311 | `Get` returns the type of the binding `GetBinding` finds |
| GoSymbols.ChildSeesParent | src/compiler/symbol_table.go:282-311 | a fresh child sees exactly what its parent sees |
| GoSymbols.PutThenGet | src/compiler/symbol_table.go:289-319 | after `Put` or `PutVar` the name is found with the new type and binding kind, whatever enclosing scopes say |
| GoSymbols.PutKeepsOthers | src/compiler/symbol_table.go:289-319 | `Put` and `PutVar` leave every other name as it was |
| GoSymbols.ShadowInChild | src/compiler/symbol_table.go:282-319 | a binding in a child shadows the parent's, and the parent's view is untouched |
| GoSymbols.BuiltinSymbolTable | src/compiler/symbol_table.go:25-104 | the root table binds exactly `int`, `length`, `print`, `range`, `real`, `string`, each as a constant builtin function |
| GoSymbols.BuiltinTypeTable | src/compiler/symbol_table.go:106-115 | the root type table binds exactly `bool`, `int`, `real`, `string`, `Optional`, as constants |
| GoSymbols.ListBuiltins | src/compiler/symbol_table.go:117-165 | the list methods are exactly `append`, `extend`, `length`, `remove`, `slice`, each taking the list first |
| GoSymbols.MapBuiltins | src/compiler/symbol_table.go:167-220 | the map methods are exactly `entries`, `keys`, `remove`, `values`, each taking the map first |
| GoSymbols.StringBuiltins | src/compiler/symbol_table.go:222-280 | the string methods are exactly the eight listed, each taking the string first; `find` and `find_last` return an optional integer |
| GoSymbols.LengthParameterAccepts | src/compiler/symbol_table.go:38-52 | `length` accepts strings, lists and maps |
| GoSymbols.LengthParameterRejects | src/compiler/symbol_table.go:38-52 | `length` rejects integers and reals |
| GoSymbols.StringParameterAccepts | src/compiler/symbol_table.go:81-97 | `string` accepts booleans, characters, integers and strings |
| GoSymbols.StringParameterRejects | src/compiler/symbol_table.go:81-97 | `string` rejects reals |
| GoCompiler.NewCompiler | src/compiler/compiler.go:24-32 | a new compiler is outside any function and loop, has compiled nothing, and starts from the builtin symbol and type tables |
| GoCompiler.Show | src/compiler/vtype.go:133-228 | a type in an error message prints its text; as written it fails exactly on the types whose text would dereference the nil type |
| GoCompiler.Patch | src/compiler/compiler.go:801-809 | patching keeps the code length, leaves no placeholder of the name, and turns each into a jump landing on the target |
| GoCompiler.PatchPattern | src/compiler/compiler.go:715-720 | every failed-pattern placeholder becomes a conditional jump to the target, and none is left |
| GoCompiler.StoreNames | src/compiler/compiler.go:456-458 | the loop variables are stored in order, one instruction each |
| GoCompiler.ZipMap | src/compiler/compiler.go:1873-1884 | the generic parameter map binds exactly the declared parameters |
| GoCompiler.ResolveTypes | src/compiler/compiler.go:1903-1912 | resolving a list of type nodes yields one type per node |
| GoCompiler.FieldIndex | src/compiler/compiler.go:195-213 | the field found is the first with the name, and none is found exactly when no field has it |
| GoCompiler.CaseIndex | src/compiler/compiler.go:675-687 | the case found is the first with the label, and none is found exactly when no case has it |
| GoCompiler.ResolveFields | src/compiler/compiler.go:330-347 | class fields keep their names, visibility and order, each with its resolved type |
| GoCompiler.ResolveCases | src/compiler/compiler.go:373-390 | enum cases keep their labels and order, each with one resolved type per payload |
| GoCompiler.ResolveParams | src/compiler/compiler.go:468-479 | a function gets one resolved type per parameter |
| GoCompiler.StoreParams | src/compiler/compiler.go:516-520 | the parameters are stored last first, so the first argument pushed ends in the first parameter |
| GoCompilerScopes.StatementFrame | src/compiler/compiler.go:105-133 | a compiled statement may bind names in the current scope but keeps that scope's place in the chain, the type table, the program, the loop depth and the enclosing function |
| GoCompilerScopes.AssignFrame | src/compiler/compiler.go:135-148 | an assignment changes no compiler state |
| GoCompilerScopes.LetFrame | src/compiler/compiler.go:577-611 | a `let` binds in the current scope and keeps the rest of the state |
| GoCompilerScopes.ReturnFrame | src/compiler/compiler.go:737-771 | a `return` keeps the scope chain, the type table, the program and the loop depth |
| GoCompilerScopes.BlockFrame | src/compiler/compiler.go:814-830 | a block leaves the compiler in exactly the scope it started in |
| GoCompilerScopes.StatementsFrame | src/compiler/compiler.go:822-829 | a statement sequence keeps the frame of its scope |
| GoCompilerScopes.LoopScopeParent | src/compiler/compiler.go:409-431 | the loop variables are bound in a child of the current scope |
| GoCompilerScopes.ForFrame | src/compiler/compiler.go:401-463 | a `for` loop restores the scope and the loop depth it started with |
| GoCompilerScopes.WhileFrame | src/compiler/compiler.go:773-812 | a `while` loop restores the loop depth it started with |
| GoCompilerScopes.IfFrame | src/compiler/compiler.go:525-575 | an `if` statement keeps the frame |
| GoCompilerScopes.IfClausesFrame | src/compiler/compiler.go:533-556 | each `if`/`else` clause keeps the frame |
| GoCompilerScopes.MatchFrame | src/compiler/compiler.go:612-662 | a `match` statement keeps the frame |
| GoCompilerScopes.MatchClausesFrame | src/compiler/compiler.go:629-649 | each `case` clause keeps the frame |
| GoCompilerScopes.PatternParent | src/compiler/compiler.go:664-735 | a pattern binds its names into the scope it is given, never beyond |
| GoCompilerScopes.SubpatternsParent | src/compiler/compiler.go:708-714 | the same for the sub-patterns of a compound pattern |
| GoCompilerScopes.PatchAmong | src/compiler/compiler.go:801-809 | patching a name removes it from the placeholders that may remain |
| GoCompilerScopes.PatchPatternAmong | src/compiler/compiler.go:715-720 | patching the failure jumps removes the `pattern` placeholder |
| GoCompilerScopes.PatchExits | src/compiler/compiler.go:801-809 | patching `break` and `continue` in loop code leaves no placeholder |
| GoCompilerScopes.StatementPlaceholders | src/compiler/compiler.go:150-172 | a compiled statement leaves only `break`/`continue` placeholders, and none outside loops once `for` patches its own |
| GoCompilerScopes.AssignPlaceholders | src/compiler/compiler.go:135-148 | an assignment leaves no placeholder |
| GoCompilerScopes.FieldAssignPlaceholders | src/compiler/compiler.go:174-219 | assignment to a field leaves no placeholder |
| GoCompilerScopes.IndexAssignPlaceholders | src/compiler/compiler.go:221-293 | assignment to an index leaves no placeholder |
| GoCompilerScopes.SymbolAssignPlaceholders | src/compiler/compiler.go:295-328 | assignment to a name leaves no placeholder |
| GoCompilerScopes.LetPlaceholders | src/compiler/compiler.go:577-611 | a `let` leaves no placeholder |
| GoCompilerScopes.ReturnPlaceholders | src/compiler/compiler.go:737-771 | a `return` leaves no placeholder |
| GoCompilerScopes.BlockPlaceholders | src/compiler/compiler.go:814-830 | a block leaves only the loop exits its statements may leave |
| GoCompilerScopes.StatementsPlaceholders | src/compiler/compiler.go:822-829 | the same for a statement sequence |
| GoCompilerScopes.LoopRawAmong | src/compiler/compiler.go:794-799 | a loop's code before patching holds only its body's exits |
| GoCompilerScopes.WhileCodeAmong | src/compiler/compiler.go:794-809 | the `while` layout patches both exits of its body |
| GoCompilerScopes.ForCodeAmong | src/compiler/compiler.go:444-463 | the `for` layout keeps its body's exits as written, and patches them when corrected |
| GoCompilerScopes.WhilePlaceholders | src/compiler/compiler.go:773-812 | a `while` loop leaves no placeholder of its own body |
| GoCompilerScopes.ForPlaceholders | src/compiler/compiler.go:401-463 | a `for` loop leaves only loop exits, and none when corrected outside loops |
| GoCompilerScopes.IfPlaceholders | src/compiler/compiler.go:525-575 | an `if` statement patches its own `if` jumps and leaves only loop exits |
| GoCompilerScopes.IfClausesPlaceholders | src/compiler/compiler.go:533-556 | the clauses leave only loop exits and `if` placeholders |
| GoCompilerScopes.MatchPlaceholders | src/compiler/compiler.go:612-662 | a `match` statement patches its own `match` jumps and leaves only loop exits |
| GoCompilerScopes.MatchClausesPlaceholders | src/compiler/compiler.go:629-649 | the clauses leave only loop exits and `match` placeholders |
| GoCompilerScopes.PatternPlaceholders | src/compiler/compiler.go:664-735 | a pattern's code resolves its own failure jumps |
| GoCompilerScopes.SubpatternsPlaceholders | src/compiler/compiler.go:708-714 | the same for the sub-patterns |
| GoCompilerScopes.TopLevelCodeHasNoPlaceholders | src/compiler/compiler.go:105-133 | with the corrected `for` loop a statement compiled outside any loop leaves no placeholder: every jump has its target |
| GoCompilerFacts.LoopExitsNeedALoop | src/compiler/compiler.go:150-172 | `break` and `continue` are errors outside loops; inside one they leave a placeholder and change nothing else |
| GoCompilerFacts.WhileJumps | src/compiler/compiler.go:794-809 | in a `while` loop the false condition jumps past the loop, the back jump lands on the condition, `break` past the loop and `continue` on the condition |
| GoCompilerFacts.ForHeadLayout | src/compiler/compiler.go:444-458 | a `for` loop's head ends where the body starts, and its iterator step follows the iterable and GetIter |
| GoCompilerFacts.ForRawLayout | src/compiler/compiler.go:444-463 | a `for` loop is its head, its body and a jump back to the iterator step, whose exit lands past the loop |
| GoCompilerFacts.ForLayout | src/compiler/compiler.go:444-463 | the `for` layout: as written its body's placeholders stay as they were |
| GoCompilerFacts.ExitPatch | src/compiler/compiler.go:801-809 | patching sends each `break` to its target and each `continue` to its own, leaving no placeholder |
| GoCompilerFacts.ForExitsCorrected | src/compiler/compiler.go:444-463 | corrected, `break` in a `for` body jumps past the loop and `continue` to the iterator step |
| GoCompilerFacts.ForBreakUnpatchedAsWritten | src/compiler/compiler.go:401-463 | as written, `for x in xs { break }` compiles with the `break` placeholder still in it |
| GoCompilerFacts.ForBreakPatchedCorrected | src/compiler/compiler.go:773-812 | corrected, the same loop compiles `break` to a jump past the loop's end |
| GoCompilerFacts.BreakBlock | src/compiler/compiler.go:150-160 | inside a loop, a block holding only `break` compiles to the break placeholder |
| GoCompilerFacts.WhileBreakJumpsPastLoop | src/compiler/compiler.go:773-812 | a `break` directly in a `while` body jumps past the loop |
| GoCompilerFacts.ClauseSkipsToNext | src/compiler/compiler.go:550-555 | a false `if` condition skips its body and exit placeholder, landing on the next clause |
| GoCompilerFacts.ClauseExitLayout | src/compiler/compiler.go:567-572 | for one clause, the conditional jump and the exit jump both land just past the clause |
| GoCompilerFacts.OneClause | src/compiler/compiler.go:533-556 | the code of a single `if` clause is condition, conditional jump, body and exit placeholder |
| GoCompilerFacts.EmptyBlock | src/compiler/compiler.go:814-830 | an empty block compiles to no code |
| GoCompilerFacts.SingleClauseIf | src/compiler/compiler.go:525-575 | a one-clause `if` skips body and exit when false, and its exit jump lands just past the statement |
| GoCompilerFacts.SymbolPatternBinds | src/compiler/compiler.go:722-730 | a symbol pattern matches anything and binds the value in the clause's scope |
| GoCompilerFacts.CompoundPatternChecks | src/compiler/compiler.go:667-700 | a compound pattern compiles exactly when the subject is an enum with that case and the pattern count fits the case |
| GoCompilerFacts.CompoundPatternFailsToEnd | src/compiler/compiler.go:702-720 | a compound pattern's failure jump lands just past the pattern's code |
| GoCompilerFacts.MatchNeedsEnum | src/compiler/compiler.go:612-627 | `match` on a subject that is no enum is an error |
| GoCompilerFacts.LetRejectsRedeclaration | src/compiler/compiler.go:580-582 | a name visible from the current scope cannot be declared again |
| GoCompilerFacts.LetBinds | src/compiler/compiler.go:577-611 | `let` binds the name in the current scope with the value's type, as a variable exactly for `var`, leaving other names alone |
| GoCompilerFacts.AssignToUndeclaredFails | src/compiler/compiler.go:295-328 | assigning to a name no scope declares is an error |
| GoCompilerFacts.LetThenAssign | src/compiler/compiler.go:295-328 | after `var x = e` an assignment of an accepted value stores it; after `let x = e` every assignment is refused |
| GoCompilerFacts.ReturnNeedsAFunction | src/compiler/compiler.go:740-744 | `return` outside a function is an error |
| GoCompilerFacts.ReturnChecksDeclaredType | src/compiler/compiler.go:746-770 | a returned value must be accepted by the declared type, and a bare `return` is allowed only without a return type |
| GoCompilerFacts.VoidFunctionReturnPanicsAsWritten | src/compiler/compiler.go:752-758 | as written, returning a value from a function without a return type dereferences the nil type |
| GoCompilerFacts.VoidFunctionReturnReportedCorrected | src/compiler/compiler.go:752-758 | corrected, that return is reported as a conflicting return type |
| GoCompilerFacts.MapIndexMessageAsWritten | src/compiler/compiler.go:270-280 | as written, a wrong map key type is reported as "map index must be of type integer" |
| GoCompilerFacts.MapIndexMessageCorrected | src/compiler/compiler.go:270-280 | corrected, the message names the map's key type |
| GoCompilerFacts.ListIndexAssign | src/compiler/compiler.go:221-255 | a list element is stored only when the list accepts the value and the index is an integer |
| GoCompilerFacts.UnknownTypeRejected | src/compiler/compiler.go:1855-1862 | an unbound type name is an error, plain or with parameters |
| GoCompilerFacts.GenericArityChecked | src/compiler/compiler.go:1863-1871 | a parameterised type takes exactly as many arguments as the named type has generic parameters |
| GoCompilerFacts.OptionalInstance | src/compiler/compiler.go:1886-1894 | substituting a type for `T` in `Optional` gives the optional of that type |
| GoCompilerFacts.OptionalIntResolves | src/compiler/compiler.go:1855-1894 | `Optional<int>` resolves to the optional of int |
| GoCompilerFacts.ArgumentCountChecked | src/compiler/compiler.go:1153-1220 | a call with the wrong number of arguments is refused; a method's receiver counts as one |
| GoCompilerFacts.ConcreteArguments | src/compiler/compiler.go:1153-1220 | against non-generic parameters the arguments compile exactly when each compiles and its parameter accepts its type, and the type table is unchanged |
| GoCompilerFacts.GenericIdentityCall | src/compiler/compiler.go:931-939 | a generic identity function returns the type of its argument |
| GoCompilerFacts.ClassDeclared | src/compiler/compiler.go:330-354 | a class declaration binds the class in the type table with its fields in order and their visibility, touching nothing else |
| GoCompilerFacts.ConstructorNamesDiffer | src/compiler/compiler.go:385-388 | different cases of one enum get different constructor functions |
| GoCompilerFacts.CaseConstructorKeys | src/compiler/compiler.go:374-390 | an enum declaration adds exactly one function per case |
| GoCompilerFacts.CaseConstructorCode | src/compiler/compiler.go:385-388 | each constructor pushes its case with its payload count, and other functions are kept |
| GoCompilerFacts.EnumDeclared | src/compiler/compiler.go:356-399 | an enum binds one case per declared case in order, with its type parameter as its only generic parameter |
| GoCompilerFacts.FunctionDeclared | src/compiler/compiler.go:465-524 | a function declaration binds the function's type, and its code stores the parameters before the body's code |
| GoCompilerFacts.EmptyBodyNeedsReturn | src/compiler/compiler.go:505-507 | a function with a return type and an empty body is refused |
| GoCompilerFacts.ImportedFunctionsQualified | src/compiler/compiler.go:74-83 | an import adds each of the module's functions except `main` as `module::function`, and nothing else |
| GoCompilerFacts.TopLevelAppendsToMain | src/compiler/compiler.go:85-91 | top-level statement code is appended to `main`, and every other function is kept |
| VmMap.Slot | src/vm/vval.go:710-714 | a hash lands in one of the 256 buckets |
| VmMap.Flatten | src/vm/vval.go:608-618 | listing the buckets chain by chain yields exactly as many entries as the chains hold |
| VmMap.Keys | src/vm/vval.go:633-643 | the keys are the entries' keys, in the same order |
| VmMap.Values | src/vm/vval.go:698-708 | the values are the entries' values, in the same order |
| VmMap.NewMapEmpty | src/vm/vval.go:576-580 | a new map has 256 empty buckets and size 0 |
| VmMap.Find | src/vm/vval.go:620-631 | the chain position found is the first whose key equals the query, and none is found exactly when no key of the chain does |
| VmMap.Put | src/vm/vval.go:645-676 | `Put` keeps the 256 buckets |
| VmMap.Remove | src/vm/vval.go:678-696 | `Remove` keeps the 256 buckets |
| VmMap.Clear | src/vm/vval.go:592-597 | `Clear` keeps the 256 buckets, all empty, with size 0 |
| VmMapFacts.CountUpdate | src/vm/vval.go:43-47 | replacing one bucket's chain changes the entry count by the difference of the chain lengths |
| VmMapFacts.CountEmpty | src/vm/vval.go:592-597 | a table of empty buckets counts no entries |
| VmMapFacts.EntriesCounted | src/vm/vval.go:43-47 | in a valid map, `Size` is the number of entries `Entries` lists |
| VmMapFacts.EmptyMaps | src/vm/vval.go:576-597 | a new map and a cleared map are valid, empty and find nothing |
| VmMapFacts.PutValid | src/vm/vval.go:645-676 | `Put` keeps the map valid and counts one more entry exactly when no equal key was present |
| VmMapFacts.GetAfterPut | src/vm/vval.go:620-676 | after `Put`, a key equal to the one put finds the new value, and any other key finds what it found before |
| VmMapFacts.FindSameKeys | src/vm/vval.go:620-631 | chains with the same keys in the same order find the same position |
| VmMapFacts.FindAppend | src/vm/vval.go:660-673 | appending an entry at the end of a chain matters only when no earlier key matches |
| VmMapFacts.RemoveValid | src/vm/vval.go:678-696 | the corrected `Remove` keeps the map valid and uncounts exactly the entry it removes |
| VmMapFacts.Unlinked | src/vm/vval.go:685-687 | unlinking one entry keeps the other entries of the chain, in order |
| VmMapFacts.GetAfterRemove | src/vm/vval.go:620-696 | after the corrected `Remove`, keys equal to the removed one find nothing and all other keys find what they found before |
| VmMapFacts.FindRemoved | src/vm/vval.go:620-631 | removing an entry whose key does not match leaves the same entry found |
| VmMapFacts.RemoveHeadLosesChain | src/vm/vval.go:684-685 | as written, removing the head of a chain of two or more drops the rest of the chain while `Size` drops by one only |
| VmMapFacts.RemoveHeadExample | src/vm/vval.go:684-685 | with integer keys hashed to themselves, after putting 24 and 280 and removing 24, 280 is gone |
| VmMapFacts.FlattenAppend | src/vm/vval.go:608-618 | listing a table split in two lists the halves one after the other |
| VmMapFacts.FlattenFront | src/vm/vval.go:608-618 | listing from bucket t on lists bucket t's chain, then the rest |
| VmMapFacts.StartRemainsAll | src/vm/vval.go:582-584 | a fresh iterator has every entry still to yield |
| VmMapFacts.ChainEndRemaining | src/vm/vval.go:549-566 | an iterator past the end of its chain has what the start of the next bucket has |
| VmMapFacts.NextYieldsRemaining | src/vm/vval.go:549-566 | each step yields the first remaining entry, and the iterator returns nil exactly when nothing remains |
| VmMapFacts.EntriesFoundMeans | src/vm/vval.go:406-416 | corrected, the entry loop answers true exactly when every entry is found with an equal value |
| VmMapFacts.EntriesFoundAgree | src/vm/vval.go:406-416 | as written, the loop answers as corrected whenever it does not dereference nil |
| VmMapFacts.MapEqualsMeans | src/vm/vval.go:396-417 | corrected, two maps are equal exactly when their sizes agree and every entry of the first is found in the second with an equal value |
| VmMapFacts.MapEqualsMissingKey | src/vm/vval.go:411 | as written, two maps of one size where the second lacks the first's first key dereference nil; corrected, the answer is false |
| VmMapFacts.MapEqualsAgree | src/vm/vval.go:396-417 | as written, map equality answers as corrected whenever it answers |
| VmValues.OptionalOf | src/vm/vval.go:100-102 | `VeniceOptionalOf` is the `Some` case carrying exactly the one value |
| VmValues.Hash | src/vm/vval.go:465-535 | an integer hashes to its value taken modulo 2^64 |
| VmValues.ListNext | src/vm/vval.go:539-547 | the list iterator returns nil exactly at the end, and otherwise the element at its index, moving on by one |
| VmValues.ElementsEqualMeans | src/vm/vval.go:373-390 | the element loop answers true exactly when every pair of components is equal |
| VmValues.SequenceEquality | src/vm/vval.go:373-390 | lists and tuples are equal exactly when their lengths agree and their elements are pairwise equal; a list never equals a tuple (the tuple method at vval.go:442-459 is the same loop) |
| VmValues.ClassNameIgnored | src/vm/vval.go:313-333 | class objects compare only their field values, not their class names |
| VmValues.EqualsSymmetric | src/vm/vval.go:304-459 | equality is symmetric |
| VmValues.EqualsTransitive | src/vm/vval.go:304-459 | over values without reals, maps and iterators, equality is transitive |
| VmValues.EqualsReflexive | src/vm/vval.go:304-459 | over values without reals, maps and iterators, a value equals itself exactly when no function object occurs in it |
| VmValues.HashRespectsEquals | src/vm/vval.go:465-535 | over values without reals, maps and iterators, equal values hash alike, whatever the digest |
| VmValues.ValuesAreKeys | src/vm/vval.go:620-714 | over values without reals, maps and iterators, `Equals` and `Hash` meet what the map needs of its keys |
| VmValues.DrainYieldsRest | src/vm/vval.go:539-547 | draining the list iterator from an index yields the rest of the list, in order |
| VmValues.ListIteratorYieldsAll | src/vm/vval.go:539-547 | a fresh list iterator yields the whole list, then nil (the end test at vval.go:572-574) |
| VmBuiltins.Range | src/vm/builtins.go:73-88 | `range(a, b)` is a, a+1, ..., b-1, and empty when b <= a |
| VmBuiltins.Find | src/vm/builtins.go:139-150 | `find` returns the first index whose element equals the needle, and none exactly when no element does |
| VmBuiltins.FindLast | src/vm/builtins.go:152-163 | `find_last` returns the last such index, and none exactly when no element does |
| VmBuiltins.FoundValue | src/vm/builtins.go:139-163 | an index found is returned as `Some(index)`, and nothing found as `None` |
| VmBuiltins.Pop | src/vm/builtins.go:165-176 | `pop` fails with "index out of bounds" exactly on the empty list, and otherwise returns the last element and the list before it |
| VmBuiltins.RemoveAt | src/vm/builtins.go:178-190 | `remove` fails with "index out of bounds" exactly off the list, and otherwise drops that one element |
| VmBuiltins.Slice | src/vm/builtins.go:217-232 | `slice` succeeds exactly when start is on the list, end at most its length and start <= end, giving the elements between them |
| VmBuiltins.Reverse | src/vm/builtins.go:192-209 | the reversed list has the same length, element k being element n-1-k |
| VmBuiltins.ReverseInPlace | src/vm/builtins.go:200-209 | swapping the ends inwards reverses the list |
| VmBuiltins.Insert | src/vm/builtins.go:242-250 | inserting adds exactly the one element |
| VmBuiltins.Sort | src/vm/builtins.go:234-250 | sorting permutes the list |
| VmBuiltins.RemovePrefix | src/vm/builtins.go:587-597 | `remove_prefix` strips the prefix exactly when it is present, and otherwise returns the input |
| VmBuiltins.RemoveSuffix | src/vm/builtins.go:599-609 | `remove_suffix` strips the suffix exactly when it is present, and otherwise returns the input |
| VmBuiltins.LastIndex | src/vm/builtins.go:627-642 | the position found is an occurrence with none after it, or -1 when there is none |
| VmBuiltins.LastIndexFrom | src/vm/builtins.go:627-642 | searching backwards from a position finds the last occurrence at or before it |
| VmBuiltins.ReplaceLast | src/vm/builtins.go:627-642 | `replace_last` returns the input when the needle is absent, and otherwise replaces only its last occurrence |
| VmBuiltins.Utf8Size | src/vm/builtins.go:657-663 | a code point takes one to four UTF-8 bytes |
| VmBuiltins.Utf8Length | src/vm/builtins.go:657-663 | the length the bounds check uses, a string's byte count, is at least its code-point count |
| VmBuiltins.Utf8Slice | src/vm/builtins.go:731-750 | `getUtf8Slice` writes one code point per index from start to end |
| VmBuiltins.StringSlice | src/vm/builtins.go:650-665 | a string slice fails with "index out of bounds" exactly when the bounds check fails; as written the bound is the byte length |
| VmBuiltins.PopAfterAppend | src/vm/builtins.go:165-176 | popping after an append (builtins.go:118-123) gives back the value and the list |
| VmBuiltins.RemoveAtDropsOne | src/vm/builtins.go:178-190 | `remove` at a valid index drops exactly the element there |
| VmBuiltins.SliceWhole | src/vm/builtins.go:217-232 | slicing a non-empty list from 0 to its length copies it |
| VmBuiltins.SliceBackwardsAsWritten | src/vm/builtins.go:217-232 | as written, a start past the end passes both checks and the slice expression crashes the machine |
| VmBuiltins.SliceBackwardsCorrected | src/vm/builtins.go:217-232 | corrected, a start past the end is the "index out of bounds" panic |
| VmBuiltins.ReverseInvolutive | src/vm/builtins.go:192-209 | reversing twice restores the list |
| VmBuiltins.StringLessAsymmetric | src/vm/vval.go:225-300 | string order is asymmetric |
| VmBuiltins.StringLessTotal | src/vm/vval.go:225-300 | string order is total |
| VmBuiltins.StringLessTransitive | src/vm/vval.go:225-300 | string order is transitive |
| VmBuiltins.NotLessTransitive | src/vm/vval.go:225-300 | among comparable values, not being less is transitive, as sorting needs |
| VmBuiltins.LessAsymmetric | src/vm/vval.go:225-300 | the value order is asymmetric |
| VmBuiltins.OrderedCons | src/vm/builtins.go:242-250 | a value no later element is less than keeps an ordered list ordered in front |
| VmBuiltins.InsertOrdered | src/vm/builtins.go:242-250 | inserting into an ordered list keeps it ordered |
| VmBuiltins.InsertAfterHead | src/vm/builtins.go:242-250 | the case of insertion after the head keeps the order |
| VmBuiltins.SortOrdered | src/vm/builtins.go:234-250 | sorting a list of one kind orders it |
| VmBuiltins.RemovePrefixRoundTrip | src/vm/builtins.go:587-597 | `remove_prefix` undoes prepending the prefix |
| VmBuiltins.RemoveSuffixRoundTrip | src/vm/builtins.go:599-609 | `remove_suffix` undoes appending the suffix |
| VmBuiltins.ReplaceLastSame | src/vm/builtins.go:627-642 | replacing the last occurrence with itself changes nothing |
| VmBuiltins.AsciiLength | src/vm/builtins.go:657-663 | an ASCII string has as many bytes as code points |
| VmBuiltins.Utf8SliceInside | src/vm/builtins.go:731-750 | within the string, `getUtf8Slice` returns the code points in [start, end) |
| VmBuiltins.StringSliceCorrected | src/vm/builtins.go:650-665 | corrected, a successful slice is the code points in [start, end) |
| VmBuiltins.StringSliceAscii | src/vm/builtins.go:650-665 | on ASCII strings the byte-length check is the code-point check |
| VmBuiltins.StringSlicePastEndAsWritten | src/vm/builtins.go:650-665 | as written, slicing "é" from 1 to 2 passes the byte-length check and yields U+FFFD; corrected, it is out of bounds |
| RustLexer.LineEnd | src/lexer.rs:278-280 | a comment runs to the first newline at or after its start, or to the end |
| RustLexer.SkipTrivia | src/lexer.rs:272-286 | skipping stops at the end or at a character that is neither whitespace nor the start of `//`; corrected it never fails, as written it fails only on a final `/` |
| RustLexer.ReadWhile | src/lexer.rs:232-237 | a run ends at the first character outside the class, or at the end (its use at lexer.rs:260-263) |
| RustLexer.StringEnd | src/lexer.rs:239-258 | a string ends just after its closing quote, or at the end of the program when it is not closed |
| RustLexer.MakeToken | src/lexer.rs:288-299 | a token's text is the characters from its start to where the lexer stands |
| RustLexer.Scan | src/lexer.rs:203-225 | a token's text is the characters it spans, located where it starts, and never End; corrected, every token consumes something |
| RustLexer.Next | src/lexer.rs:193-226 | `next` never moves backwards, and returns End exactly at the end of the program |
| RustLexer.Tokens | src/lexer.rs:193-226 | lexing a program yields tokens ending with exactly one End |
| RustLexer.EndRepeats | src/lexer.rs:196-198 | once the program is used up, `next` keeps returning an empty End token |
| RustLexer.TwoCharFirst | src/lexer.rs:205-211 | a two-character token wins over the one-character token of its first character |
| RustLexer.OneCharOtherwise | src/lexer.rs:214-216 | without a two-character match, a one-character token is that character alone |
| RustLexer.ArrowNotMinus | src/lexer.rs:124-133 | `->` is one Arrow, not Minus then GreaterThan |
| RustLexer.WordToken | src/lexer.rs:260-270 | a word is the longest run of symbol characters, a keyword exactly when the keyword table has it and a Symbol otherwise |
| RustLexer.StringToken | src/lexer.rs:239-258 | a quote starts a String token running to its closing quote, escapes included |
| RustLexer.ScanString | src/lexer.rs:219-220 | a quote starts a string token, whatever follows |
| RustLexer.EscapedQuote | src/lexer.rs:247-250 | a backslash hides the quote after it |
| RustLexer.CommentSkipped | src/lexer.rs:278-281 | a `//` comment is skipped up to its newline |
| RustLexer.UnknownStallsAsWritten | src/lexer.rs:223-224 | as written, an unknown character yields an empty Unknown token and the lexer does not move |
| RustLexer.UnknownConsumedCorrected | src/lexer.rs:223-224 | corrected, an unknown character is consumed and is the token's text |
| RustLexer.TrailingSlashAsWritten | src/lexer.rs:278 | as written, a final `/` makes the comment check read past the end |
| RustLexer.TrailingSlashCorrected | src/lexer.rs:278 | corrected, a final `/` is a Slash token |
| RustAst.StorageSize | src/ast.rs:342-349 | every type takes 0 or 8 bytes |
| RustAst.ItemsMatchMeans | src/ast.rs:316-323 | the tuple loop answers true exactly when every pair of components matches |
| RustAst.AnyMatchesEverything | src/ast.rs:310-311 | `Any` matches every type, on either side |
| RustAst.AtomicMatchesOnlyItself | src/ast.rs:312-315 | boolean, i64, string and file types match only themselves and `Any` |
| RustAst.CompoundMatchesByComponent | src/ast.rs:316-336 | tuples of one length, lists and maps match component by component |
| RustAst.OtherPairsFail | src/ast.rs:337 | without `Any`, types of different forms never match, and void, function, record and error types match nothing |
| RustAst.MatchesSymmetric | src/ast.rs:306-339 | compatibility is symmetric |
| RustAst.MatchesReflexive | src/ast.rs:306-339 | a type matches itself exactly when it can hold a value |
| RustAst.MatchesNotTransitive | src/ast.rs:306-339 | compatibility is not transitive: `Any` bridges i64 and boolean |
| RustAst.StorageOfInhabited | src/ast.rs:342-349 | every type that can hold a value takes 8 bytes, and exactly void and the error type take none |
| RustAnalyzer.Get | src/analyzer.rs:882-889 | a name is found exactly when some scope defines it, and the entry found is a definition of it |
| RustAnalyzer.ClaimUniqueName | src/analyzer.rs:787-791 | the claimed name is the prefix, "__" and the current counter, and the counter moves on by one |
| RustAnalyzer.ResolveType | src/analyzer.rs:755-785 | resolving a type only ever adds errors, and an unresolvable type is reported |
| RustAnalyzer.AnalyzeExpression | src/analyzer.rs:338-365 | analysis only adds errors and never touches scopes or counter; an expression it rejects is reported |
| RustAnalyzer.AnalyzeSymbol | src/analyzer.rs:367-377 | a defined name takes its innermost entry and that entry's type; an undefined one is exactly one error |
| RustAnalyzer.AnalyzeBinary | src/analyzer.rs:379-458 | an accepted binary expression has the type its operator gives: `++` the type of its left operand, a string or a list, `and`/`or` a boolean, arithmetic an integer; a rejected one is reported; an `and`/`or` operand that is not a boolean, or an arithmetic operand that is not an integer, is reported |
| RustAnalyzer.AnalyzeComparison | src/analyzer.rs:460-494 | a comparison is always a boolean; `==`/`!=` operands that do not match each other are reported, and so is an ordering operand that is not an integer |
| RustAnalyzer.AnalyzeUnary | src/analyzer.rs:496-528 | negation gives an integer; `not` gives an integer as written and a boolean corrected; an operand that is not an integer (negation) or not a boolean (`not`) is reported |
| RustAnalyzer.AnalyzeCall | src/analyzer.rs:530-571 | an accepted call names a defined function entry and has its return type; a rejected one is reported; an argument count that differs from the parameter count is reported, and so is an argument whose type does not match its parameter |
| RustAnalyzer.AnalyzeArguments | src/analyzer.rs:546-551 | one typed argument per parameter paired, only errors added; an argument whose type does not match its parameter is reported |
| RustAnalyzer.AnalyzeIndex | src/analyzer.rs:573-616 | indexing a list becomes a `venice_list_index` call with the item type; a map gives its value type; anything else is reported; a list index that is not an integer, or a map index that does not match the key type, is reported |
| RustAnalyzer.AnalyzeTupleIndex | src/analyzer.rs:618-642 | an accepted `t.k` has a tuple with more than `k` components and takes component `k`'s type |
| RustAnalyzer.AnalyzeList | src/analyzer.rs:652-694 | a list literal is rejected exactly when it is empty, with exactly one error; a later item whose type does not match the first item's is reported |
| RustAnalyzer.AnalyzeListItems | src/analyzer.rs:670-680 | one typed item per later item, only errors added; an item whose type does not match the first item's is reported |
| RustAnalyzer.AnalyzeTuple | src/analyzer.rs:696-708 | a tuple literal has one component type per element, in order |
| RustAnalyzer.AnalyzeItems | src/analyzer.rs:697-703 | one typed item per element, only errors added |
| RustAnalyzer.AnalyzeMap | src/analyzer.rs:710-747 | a map literal is rejected exactly when it is empty, with exactly one error; a later entry whose key or value type does not match the first entry's is reported |
| RustAnalyzer.AnalyzeMapPairs | src/analyzer.rs:721-738 | one typed entry per later entry, only errors added; an entry whose key or value type does not match the first entry's is reported |
| RustAnalyzer.AnalyzeEntry | src/analyzer.rs:723-737 | an entry's key and value are analyzed, only adding errors; a key or value whose type does not match the first entry's is reported |
| RustAnalyzer.AnalyzeStatement | src/analyzer.rs:185-198 | a statement keeps every enclosing scope and the frame, and only adds errors and claimed names; an `assert` whose condition is not a boolean is reported (analyze_assert_statement, line 326) |
| RustAnalyzer.AnalyzeAssign | src/analyzer.rs:230-245 | assigning to an undefined name is an error; a defined target keeps its entry and the value must match its type |
| RustAnalyzer.AnalyzeIf | src/analyzer.rs:247-285 | an `if` with `elif` clauses is rejected as not implemented; without them it becomes an `if` with else body, and a condition that is not boolean adds an error |
| RustAnalyzer.AnalyzeWhile | src/analyzer.rs:287-298 | a `while` keeps its body statement for statement, and a condition that is not boolean adds an error |
| RustAnalyzer.AnalyzeReturn | src/analyzer.rs:306-324 | outside a function a return is an error; inside one the value matches the return type or an error is recorded |
| RustAnalyzer.AnalyzeLet | src/analyzer.rs:200-228 | a `let` claims a fresh unique name, takes the current stack slot, is not constant, has the declared type, and defines the name in the innermost scope; a value that does not match the declared type is reported |
| RustAnalyzer.AnalyzeBlock | src/analyzer.rs:177-183 | a block analyzes every statement in order without opening a scope |
| RustAnalyzer.AnalyzeParameters | src/analyzer.rs:69-91 | parameters take consecutive slots downward from -8, and the frame size plus the final offset is -8 |
| RustAnalyzer.DefineParameters | src/analyzer.rs:116-120 | defining the parameters touches only the innermost scope |
| RustAnalyzer.FunctionHeader | src/analyzer.rs:93-113 | `main` keeps its name; any other function claims the name after its parameters'; the entry is a constant function type |
| RustAnalyzer.AnalyzeFunction | src/analyzer.rs:64-139 | the declaration carries the header's entry and parameters, and afterwards only the function's own name is added to the outer scopes |
| RustAnalyzer.AnalyzeConst | src/analyzer.rs:141-166 | a constant claims a unique name, is marked constant and is defined in the current scope |
| RustAnalyzer.AnalyzeDeclaration | src/analyzer.rs:56-62 | a declaration keeps the scope depth and only adds errors; a record declaration is one "not implemented" error |
| RustAnalyzer.AnalyzeDeclarations | src/analyzer.rs:48-54 | one typed declaration per declaration, in order, keeping the scope depth |
| RustAnalyzer.Analyze | src/analyzer.rs:15-23 | a rejected program carries at least one error; an accepted one has one declaration per declaration |
| RustAnalyzer.GetAfterInsert | src/analyzer.rs:882-893 | after inserting, the name is found with its new entry and other names are found as before |
| RustAnalyzer.GetAfterRemove | src/analyzer.rs:882-897 | after removing, the name is found in the enclosing scopes again and other names are unaffected |
| RustAnalyzer.PushAndPop | src/analyzer.rs:899-905 | pushing a scope hides nothing, and popping it restores the table |
| RustAnalyzer.Shadowing | src/analyzer.rs:882-905 | a definition in an inner scope shadows outer ones until the scope is popped |
| RustAnalyzer.DigitSuffix | src/analyzer.rs:787-791 | the digits after the "__" determine the counter value |
| RustAnalyzer.DigitTail | src/analyzer.rs:787-791 | in a unique name the counter's digits end the string, right after an underscore |
| RustAnalyzer.UniqueNamesDistinct | src/analyzer.rs:787-791 | names claimed at different counter values never collide, whatever their prefixes |
| RustAnalyzer.ClaimedNamesDiffer | src/analyzer.rs:787-791 | two successive claims give different names |
| RustAnalyzer.UniqueNameEndsInDigit | src/analyzer.rs:787-791 | every unique name ends in a digit, so it never equals a name such as `main` |
| RustAnalyzer.FunctionNamesDistinct | src/analyzer.rs:64-113 | within one function the parameters' unique names differ from each other and from the function's name |
| RustAnalyzer.HeaderNamesDistinct | src/analyzer.rs:73-98 | names claimed for the parameters and the function at consecutive counter values are pairwise distinct |
| RustAnalyzer.FirstDeclarationErrorRejects | src/analyzer.rs:15-23 | an error in the first declaration rejects the whole program |
| RustAnalyzer.EmptyLiteralRejects | src/analyzer.rs:652-668 | a constant initialised with an empty list or map literal rejects the program |
| RustAnalyzer.EmptyProgramAccepted | src/analyzer.rs:15-23 | a program without declarations is accepted as the empty typed program |
| RustAnalyzer.NotTypedIntegerAsWritten | src/analyzer.rs:524 | as written, `assert not true` is rejected, because `not` is typed as an integer |
| RustAnalyzer.NotTypedBooleanCorrected | src/analyzer.rs:496-528 | corrected, `assert not true` is accepted |
| RustAnalyzer.MapLiteralLosesFirstAsWritten | src/analyzer.rs:720-737 | as written, a one-entry map literal yields a typed literal with no entries |
| RustAnalyzer.MapLiteralKeepsEntriesCorrected | src/analyzer.rs:710-747 | corrected, the typed literal keeps its entry |

## Left out

- Command-line drivers, the REPL, file I/O, subprocesses and the wasm entry points: these are I/O glue around the front ends.
- The virtual machine's executor (src/vm/vm.go), the bytecode readers and writers, the native back end (src/codegen.rs, src/vil.rs, src/x86.rs) and the C runtime: these are large dispatchers over I/O, pointers and machine state. Only the VM's value layer is modelled.
- Floating point: real literals are lexed, but real arithmetic, real comparison and the `int`, `real` and `string` conversions are not modelled.
- The Go compiler's expression compiler (src/compiler/compiler.go:836-1565) is not modelled in detail. `GoCompiler` takes it as the parameter `ec`, and its statement rules hold for any expression compiler.
- Go type identity: the default case of `checkTypeCore` compares class, function and module types by pointer. The model compares them structurally, so two distinct declarations with the same shape are identified.
- Go recursive enum types: the Go parser builds them by mutating a placeholder in place. An immutable value cannot be its own component, so the cycle is not represented.
- The Go parser reads one token stream, lexed with `###` block comments, and skips NEWLINE tokens where the parser skips newlines. The real lexer skips newlines with `skipCommentsAndAllWhitespace` (src/lexer/lexer.go:135-154), which reads every `#`, `###` included, as a line comment. The parser skips newlines at the start of the file and after every statement terminator (src/compiler/parser.go:45, 157), among other places. There, a `###` block comment ends at the end of its first line in the source, and the lines inside it are lexed as code. The model reads the whole block as a comment.
- GoParser.MatchImportStatement: the token model carries no file path, so the parser resolves a `./` import as for a source read without one, keeping it as written. `GoParser.ImportPath` takes the file path as a parameter and models both cases.
- GoParser.MatchPrefix: a character literal keeps the whole decoded text of the literal. The source keeps `value[0]`, the first byte of the text (src/compiler/parser.go:788-791), and an empty literal makes that index panic. Strings are sequences of code points here, so the byte is not available.
- The VM values have no real numbers, maps or iterators. Their `Equals` and `Hash` are left out with them, so the lemmas below hold only over the values that are modelled.
- VmValues.EqualsTransitive: stated without reals. With reals the source's equality is not transitive: an integer equals a real when it converts to it exactly, and the integers 2^53 and 2^53 + 1 both convert to the real 2^53.
- VmValues.EqualsReflexive: stated without reals, maps and iterators. An iterator equals nothing, like a function object, and the real NaN does not equal itself.
- VmValues.HashRespectsEquals: stated without reals, maps and iterators. An integer and the real it equals are hashed by two different `uint64` conversions, which are not modelled.
- VmValues.ValuesAreKeys: stated without reals, maps and iterators, for the reasons given for the three lemmas above.
- pycompiler node names: pycompiler/ast.py and the parser name the nodes with a `Node` suffix (`ast.SymbolNode`). The analyzer and the Python generator test for names without it (`ast.Symbol`), which ast.py does not define, so as written they raise Python's AttributeError on the first node they look at. The parser also builds `ParameterNode(type_label=...)`, while ast.py's field is `type` (pycompiler/parser.py:265, pycompiler/ast.py:22-25), which raises TypeError. The model uses one set of nodes throughout, as evidently intended.
- The pycompiler generator writes its output as it goes and may raise `VeniceError` part way through. The model returns either the whole output or the error, so the partial output written before the error is not modelled.
- Go's `strconv.Unquote` (string literal escapes) and `hash/maphash` (the map's hash) are foreign code. They are parameters of the lexer and of the map and value hash.
- `GoAst` nodes keep no source location. The parser's error messages keep theirs.
- Integer widths: integers are unbounded. The 64-bit limit appears only where the source checks it explicitly, in the Go parser's integer reading. Go `int` overflow in list builtins and Rust `i64` arithmetic are not modelled.
- VmMap `Copy` (src/vm/vval.go:599-606) is not modelled. It is a loop of `Put` calls over the iterator, and both are modelled.
- VM list builtins that are plain slice operations are not modelled: `append`, `copy`, `extend` and `size` (src/vm/builtins.go:118-137, 211-215).
- VM string builtins that call the Go library are not modelled: `split`, `join`, `trim`, `to_upper`, `to_lower`, `starts_with`, `ends_with`, `replace_all` and the `is_*` Unicode predicates. Neither are `min`, `max`, `input` and `print`.
- Go's `sort.Slice` is not stable, while the model's insertion sort is. The order of equivalent values after sorting is therefore not modelled; sortedness and permutation are.
- `sorted` and `reversed` copy the list before changing it. Values are immutable in the model, so the argument trivially keeps its order.
- Python byte strings, encodings and Unicode categories: strings are sequences of code points. The Go byte-level operations are modelled at code-point level, with byte lengths computed by a UTF-8 length function where the source uses `len`.
- The Rust lexer's `read_number` uses Unicode `is_numeric`. The model accepts ASCII digits only.
- Rust `stack_size`: the analyzer calls `t.stack_size()`, which src/ast.rs does not define; only `storage_size` is defined there. The model uses `StorageSize` for it.
- Rust analyzer features the source leaves unimplemented: `for` statements, attribute expressions, record literals and record declarations (src/analyzer.rs:168-175, 300-304, 644-650, 749-753). These are modelled only as the errors or placeholders the source produces.
- The venice lexer and parser raise `VeniceSyntaxError` and `VeniceInternalError`, but venice/common.py defines only `VeniceError`, `VeniceParseError` and `VeniceTypeError`. The model keeps the names the raising code uses, as the error values `SyntaxError` and `InternalError`.
- The concrete lexer test that lexes a whole function header (tests/test_lexer.py:62-81) is not restated as one concrete lemma. The token lemmas of `VeniceLexer` cover each of its tokens.
- The concrete output test of venice/codegen.py is not restated as one lemma. `VeniceCodegen.LetExample` and the typedef lemmas cover its parts.
- RustAnalyzer.AnalyzeItems: states only the number of items produced and that only errors are added, not which expression each item came from. The tuple loop checks no type, so no error clause applies; `RustAnalyzer.AnalyzeTuple` states the component types.

## Findings

| source | as written | input that shows it | evidently intended | confidence | as-written member | corrected member |
|---|---|---|---|---|---|---|
| pycompiler/parser.py:476-484 | a `/` not followed by `/` pushes `/` back twice, dropping the character read after it | `a/b`: after the `/`, the pending text is `//` and `b` is lost | push back the second character, then the `/`, and lex a SLASH token | high, not executed | PyLexer.SlashLosesCharacterAsWritten | PyLexer.SlashToken |
| pycompiler/parser.py:479 | the comment loop stops only at `"\n"`, and at the end of the input `read()` returns the empty string (pycompiler/parser.py:502-509), which is not `"\n"`, so the loop keeps reading | a `//` comment on the last line with no newline after it: the loop never ends | a comment also ends at the end of the input | high, not executed | PyLexer.CommentAtEndHangsAsWritten | PyLexer.CommentAtEnd |
| pycompiler/analyzer.py:29-30 | a function's parameters are put into the enclosing symbol table | a function with a parameter `x`: after the declaration, `x` is still bound | parameters are visible only in the function's own table | medium, not executed | PyAnalyzer.ParametersLeakAsWritten | PyAnalyzer.FunctionDeclarationScoped |
| pycompiler/analyzer.py:43-49 | nested blocks are checked without the enclosing function's return type | a `return` inside an `if` inside a function is reported as outside any function | the return type is passed on to nested blocks | high, not executed | PyAnalyzer.NestedReturnRejectedAsWritten | PyAnalyzer.NestedReturnChecked |
| pycompiler/analyzer.py:133-136 | the error message is a plain string, not an f-string, so it ends with the text `{argument.label}` | a struct call with a wrong label | the message names the label | high, not executed | PyAnalyzer.LabelMessageAsWritten | PyAnalyzer.LabelMessageCorrected |
| pycompiler/analyzer.py:260-261 | type parameters on a name other than `map` or `list` raise Python's ValueError | the type `int<int>` | a checker error naming the type | medium, not executed | PyAnalyzer.UnknownParameterizedAsWritten | PyAnalyzer.UnknownParameterizedCorrected |
| src/lexer/lexer.go:333-335 | the upper-case test reads `ch < +'Z'`, which excludes `Z` | the program `Z` lexes as an UNKNOWN token | `ch <= 'Z'`, so `Z` starts a word | high, not executed | GoLexer.ZIsUnknownAsWritten | GoLexer.ZIsSymbolCorrected |
| src/lexer/lexer.go:162-186 | a `#` comment consumes the newline that ends it | `# c`, a newline, then `x`: the next token is `x`, not NEWLINE | the newline still ends the statement | medium, not executed | GoLexer.CommentEatsNewlineAsWritten | GoLexer.CommentKeepsNewline |
| src/compiler/parser.go:946-949 | the empty map `{}` returns before the bracket counter is lowered again | `let x = {}` then a newline: the newline is skipped and the next line's token is taken as the terminator | lower the counter on the `{}` path as well | high, not executed | GoParserFacts.EmptyMapLeaksBracketAsWritten | GoParserFacts.EmptyMapRestoresBracketCorrected |
| src/compiler/parser.go:1023-1040 | a parenthesised type list stops in front of `)` and never consumes it | `let x: (T) = e` fails with "expected equals sign" at the `)` | consume the closing `)` | high, not executed | GoParserFacts.TupleTypeKeepsParenAsWritten | GoParserFacts.TupleTypeReadsParenCorrected |
| src/compiler/compiler.go:401-463 | the `for` loop compiler never replaces its body's `break` and `continue` placeholders, unlike the `while` compiler | `for x in xs { break }` compiles with the placeholder in the code | patch them as the `while` compiler does | high, not executed | GoCompilerFacts.ForBreakUnpatchedAsWritten | GoCompilerFacts.ForBreakPatchedCorrected |
| src/compiler/compiler.go:752-758 | returning a value from a function without a return type formats the nil expected type | `func f() { return 1 }` dereferences nil | report a conflicting return type | medium, not executed | GoCompilerFacts.VoidFunctionReturnPanicsAsWritten | GoCompilerFacts.VoidFunctionReturnReportedCorrected |
| src/compiler/compiler.go:270-280 | a wrong map key type is reported as "map index must be of type integer" | `m[k] = v` where `m` maps strings to integers and `k` is a boolean: the message says "integer" | the message names the map's key type | medium, not executed | GoCompilerFacts.MapIndexMessageAsWritten | GoCompilerFacts.MapIndexMessageCorrected |
| src/vm/vval.go:684-685 | removing the first entry of a bucket's chain sets the bucket to nil | with keys hashed to themselves, put 24 and 280 (same bucket), remove 24: 280 is gone but Size is 1 | set the bucket to the next entry | high, not executed | VmMapFacts.RemoveHeadLosesChain | VmMapFacts.RemoveValid |
| src/vm/vval.go:411 | `other.Get(key)` is nil for a missing key and `Equals` is called on it | two one-entry maps with different keys | a missing key makes the maps unequal | high, not executed | VmMapFacts.MapEqualsMissingKey | VmMapFacts.MapEqualsMeans |
| src/vm/builtins.go:217-232 | a start index past the end index passes both bounds checks | slicing `[1, 2]` from 1 to 0: the Go slice expression panics at run time | the "index out of bounds" panic | high, not executed | VmBuiltins.SliceBackwardsAsWritten | VmBuiltins.SliceBackwardsCorrected |
| src/vm/builtins.go:650-665 | string slice bounds are checked against the byte length, not the number of code points | slicing "é" from 1 to 2 passes and yields U+FFFD | bounds against the code-point count | medium, not executed | VmBuiltins.StringSlicePastEndAsWritten | VmBuiltins.StringSliceCorrected |
| src/lexer.rs:223-224 | an unknown character becomes a token without the lexer advancing | the input `$`: every call returns an empty Unknown token at the same place | consume the character and make it the token's text | high, not executed | RustLexer.UnknownStallsAsWritten | RustLexer.UnknownConsumedCorrected |
| src/lexer.rs:278 | the comment check peeks one character past a final `/` | the input `/` reads past the end | a final `/` is a Slash token | high, not executed | RustLexer.TrailingSlashAsWritten | RustLexer.TrailingSlashCorrected |
| src/analyzer.rs:524 | a `not` expression is given the type i64 | `assert not true` is rejected as a type mismatch | `not` gives a boolean | high, not executed | RustAnalyzer.NotTypedIntegerAsWritten | RustAnalyzer.NotTypedBooleanCorrected |
| src/analyzer.rs:720-737 | the first entry of a map literal is analyzed but never added to its items | `{1: 2}` becomes a typed map literal with no entries | keep the first entry | high, not executed | RustAnalyzer.MapLiteralLosesFirstAsWritten | RustAnalyzer.MapLiteralKeepsEntriesCorrected |

=== FILE: go_ast.dfy ===
/** The syntax tree the Go generation's parser builds (the node types of
    src/compiler/ast.go, which is not part of this model beyond their
    shape). Nodes carry no source locations here: the parser copies them
    from tokens, and only error messages use them. */
module GoAst {
  /** Expressions. A character literal keeps the decoded text of its token
      (the Go code keeps that text's first byte). */
  datatype Expr =
    | BooleanNode(truth: bool)
    | CharacterNode(text: string)
    | IntegerNode(number: int)
    | RealNumberNode(text: string)
    | StringNode(text: string)
    | SymbolNode(name: string)
    | QualifiedSymbolNode(enumName: string, caseName: string)
    | MapNode(pairs: seq<MapPair>)
    | ListNode(items: seq<Expr>)
    | TupleNode(items: seq<Expr>)
    | UnaryNode(operator: string, operand: Expr)
    | InfixNode(operator: string, left: Expr, right: Expr)
    | CallNode(callee: Expr, args: seq<Expr>)
    | IndexNode(container: Expr, index: Expr)
    | FieldAccessNode(target: Expr, fieldName: string)
    | TupleFieldAccessNode(target: Expr, position: int)
    | TernaryIfNode(condition: Expr, trueClause: Expr, falseClause: Expr)
    | ConstructorNode(className: string, fields: seq<ConstructorField>)

  datatype MapPair = MapPair(key: Expr, value: Expr)

  datatype ConstructorField = ConstructorField(name: string, value: Expr)

  /** Type annotations. */
  datatype TypeNode =
    | ListTypeNode(item: TypeNode)
    | MapTypeNode(key: TypeNode, value: TypeNode)
    | TupleTypeNode(items: seq<TypeNode>)
    | SymbolType(name: string)
    | ParameterizedTypeNode(name: string, parameters: seq<TypeNode>)

  /** Patterns of `case` clauses; a trailing `...` leaves no trace. */
  datatype Pattern =
    | SymbolPattern(name: string)
    | CompoundPattern(caseName: string, patterns: seq<Pattern>)

  datatype ClassField = ClassField(name: string, public: bool, fieldType: TypeNode)

  datatype EnumCase = EnumCase(name: string, types: seq<TypeNode>)

  datatype Param = Param(name: string, paramType: TypeNode)

  /** Statements. An absent return type, `let` type or returned value is
      `None`; an enum without a type parameter has `""` there, as the Go
      code leaves the string empty. */
  datatype Stmt =
    | BreakStatement
    | ContinueStatement
    | ClassDeclaration(name: string, noConstructor: bool, fields: seq<ClassField>)
    | EnumDeclaration(name: string, typeParameter: string, enumCases: seq<EnumCase>)
    | ForLoop(variables: seq<string>, iterable: Expr, body: seq<Stmt>)
    | FunctionDeclaration(name: string, params: seq<Param>, returnType: Annotation, body: seq<Stmt>)
    | IfStatement(clauses: seq<IfClause>, elseClause: seq<Stmt>)
    | ImportStatement(path: string, name: string)
    | LetStatement(symbol: string, declared: Annotation, isVar: bool, value: Expr)
    | MatchStatementNode(subject: Expr, cases: seq<MatchClause>, defaultBody: seq<Stmt>)
    | ReturnStatement(result: ReturnValue)
    | WhileLoop(condition: Expr, body: seq<Stmt>)
    | AssignStatement(destination: Expr, value: Expr)
    | ExpressionStatement(expr: Expr)

  datatype IfClause = IfClause(condition: Expr, body: seq<Stmt>)

  datatype MatchClause = MatchClause(pattern: Pattern, body: seq<Stmt>)

  /** An optional type annotation (a return type or a `let` type). */
  datatype Annotation = NoType | HasType(typeNode: TypeNode)

  /** The optional value of a `return`. */
  datatype ReturnValue = NoValue | HasValue(value: Expr)
}

=== FILE: go_compiler.dfy ===
/** The Go generation's statement compiler (src/compiler/compiler.go): type
    checks statements against the scoped symbol tables and lays out their
    bytecode, including the relative jumps of conditionals and loops.

    Expression compilation (1000 lines of its own) is a parameter `ec`: it
    receives the compiler state, the expression and a type hint (Void for
    none) and returns the expression's code and type. In Go the state is a
    mutable object; here every operation returns the updated state.

    The `Variant` selects the code as written or with three corrections:
    `break`/`continue` patched inside `for` loops, a missing (void) type
    printed as "void" in error messages instead of dereferencing nil, and
    the map-index message naming the key type. */
module GoCompiler {
  import opened Wrappers
  import opened Text
  import opened GoTypes
  import opened GoSymbols
  import A = GoAst
  import L = GoLexer

  /** The instructions the statement compiler emits itself; code produced by
      the expression compiler is opaque to it. Jump offsets are relative to
      the jumping instruction's own index. */
  datatype Bytecode =
    | RelJump(offset: int)
    | RelJumpIfFalse(offset: int)
    | RelJumpIfFalseOrPop(offset: int)
    | ForIter(offset: int)
    | GetIter
    | UnpackTuple
    | Placeholder(name: string)
    | StoreName(name: string)
    | StoreField(index: nat)
    | StoreIndex
    | StoreMapIndex
    | CheckLabel(caseName: string)
    | PushEnumIndex(index: nat)
    | PushEnum(caseName: string, count: nat)
    | PushConstBool(truth: bool)
    | Return
    | Opaque(text: string)

  type Code = seq<Bytecode>

  /** A compile error, or the runtime panic of calling String() on the nil
      type while formatting one. */
  datatype Failure = CompileError(error: ErrorKind) | NilDereference

  /** The compile errors of the statement compiler; the strings they carry
      are names, and types as `Show` printed them. */
  datatype ErrorKind =
    | UnknownStatementType(statement: A.Stmt)
    | AssignToNonSymbol
    | BreakOutsideLoop
    | ContinueOutsideLoop
    | AssignToFieldOnType(shown: string)
    | AssignToNonPublicField
    | ExpectedType(expected: string, got: string)
    | NoSuchField(field: string, className: string)
    | ListIndexNotInteger(got: string)
    | MapIndexWrongType(expected: string, got: string)
    | AssignToIndexOnType(shown: string)
    | AssignToConst(name: string)
    | AssignToUndeclared(name: string)
    | AssignMismatch(got: string, expected: string)
    | TooManyLoopVariables
    | NotIterable
    | IfWithoutClauses
    | IfConditionNotBoolean
    | Redeclaration(name: string)
    | LetMismatch(expected: string, got: string)
    | MatchOnNonEnum(shown: string)
    | PatternOnNonEnum
    | CaseNotFound(caseName: string)
    | TooManyPatterns(enumName: string)
    | TooFewPatterns(enumName: string)
    | ReturnOutsideFunction
    | ConflictingReturnTypes(got: string, expected: string)
    | VoidReturnFromNonVoid
    | WhileConditionNotBoolean
    | UnknownType(name: string)
    | GenericArity(parameterCount: nat, argumentCount: nat)
    | WrongArgumentCount(parameterCount: nat, argumentCount: nat)
    | WrongParameterType
    | MissingReturn

  /** A declaration's Go node type, as `%T` prints it. */
  function GoTypeName(s: A.Stmt): string {
    match s
    case ClassDeclaration(_, _, _) => "*compiler.ClassDeclarationNode"
    case EnumDeclaration(_, _, _) => "*compiler.EnumDeclarationNode"
    case FunctionDeclaration(_, _, _, _) => "*compiler.FunctionDeclarationNode"
    case ImportStatement(_, _) => "*compiler.ImportStatementNode"
    case _ => "*compiler.StatementNode"
  }

  /** The error text the Go compiler formats for each kind. */
  function Message(e: ErrorKind): string {
    match e
    case UnknownStatementType(statement) => "unknown statement type: " + GoTypeName(statement)
    case AssignToNonSymbol => "cannot assign to non-symbol"
    case BreakOutsideLoop => "break statement outside of loop"
    case ContinueOutsideLoop => "continue statement outside of loop"
    case AssignToFieldOnType(t) => "cannot assign to field on type " + t
    case AssignToNonPublicField => "cannot assign to non-public field"
    case ExpectedType(expected, got) => "expected type " + expected + ", got " + got
    case NoSuchField(field, className) => "field `" + field + "` does not exist on " + className
    case ListIndexNotInteger(got) => "list index must be of type integer, not " + got
    case MapIndexWrongType(expected, got) => "map index must be of type " + expected + ", not " + got
    case AssignToIndexOnType(t) => "cannot assign to index on type " + t
    case AssignToConst(name) => "cannot assign to const symbol `" + Quote(name) + "`"
    case AssignToUndeclared(name) => "cannot assign to undeclared symbol `" + name + "`"
    case AssignMismatch(got, expected) => "cannot assign " + got + " to symbol of type " + expected
    case TooManyLoopVariables => "too many for loop variables"
    case NotIterable => "for loop must be of list, map, or string"
    case IfWithoutClauses => "`if` statement with no clauses"
    case IfConditionNotBoolean => "condition of `if` statement must be a boolean"
    case Redeclaration(name) => "re-declaration of symbol `" + Quote(name) + "`"
    case LetMismatch(expected, got) => "expected " + expected + ", got " + got
    case MatchOnNonEnum(t) => "cannot match a non-enum type (" + t + ")"
    case PatternOnNonEnum => "does not match enum type"
    case CaseNotFound(caseName) => "enum case `" + caseName + "` not found"
    case TooManyPatterns(enumName) => "too many patterns for " + enumName
    case TooFewPatterns(enumName) => "too few patterns for " + enumName
    case ReturnOutsideFunction => "return statement outside of function definition"
    case ConflictingReturnTypes(got, expected) =>
      "conflicting function return types: got " + got + ", expected " + expected
    case VoidReturnFromNonVoid => "function cannot return void"
    case WhileConditionNotBoolean => "condition of `while` loop must be a boolean"
    case UnknownType(name) => "unknown type `" + name + "`"
    case GenericArity(expected, got) =>
      "expected " + NatToString(expected) + " generic parameter(s), got " + NatToString(got)
    case WrongArgumentCount(expected, got) =>
      "wrong number of arguments: expected " + NatToString(expected) + ", got " + NatToString(got)
    case WrongParameterType => "wrong function parameter type"
    case MissingReturn => "non-void function has no return statement"
  }

  datatype FunctionInfo = FunctionInfo(declaredReturnType: VeniceType, seenReturnStatement: bool)

  datatype Compiler = Compiler(
    symbols: SymbolTable,
    types: SymbolTable,
    functionInfo: Option<FunctionInfo>,
    nestedLoopCount: nat,
    program: map<string, Code>)

  type ExprCompiler = (Compiler, A.Expr, VeniceType) -> Result<(Code, VeniceType), Failure>

  /** Resolves an imported module's path and name to its compiled program
      and module type (parsing and compiling another file). */
  type Importer = (string, string) -> Result<(map<string, Code>, VeniceType), Failure>

  function NewCompiler(): (c: Compiler)
    ensures c.functionInfo.None? && c.nestedLoopCount == 0 && c.program == map[]
    ensures Get(c.symbols, "print").Some? && Get(c.types, "int") == Some(IntegerType)
  {
    var c := Compiler(BuiltinSymbolTable(), BuiltinTypeTable(), None, 0, map[]);
    assert "print" in c.symbols.symbols && "int" in c.types.symbols;
    c
  }

  /** A compile error of the given kind. */
  function Fail<X>(e: ErrorKind): Result<X, Failure> {
    Err(CompileError(e))
  }

  /** A type as an error message prints it. */
  function Show(v: L.Variant, t: VeniceType): (r: Result<string, Failure>)
    ensures v == L.Corrected ==> r == Ok(TypeString(t))
    ensures v == L.AsWritten ==> (r.Ok? <==> Printable(t))
  {
    TypeTextAgrees(t);
    if v == L.Corrected then Ok(TypeString(t))
    else match TypeText(t)
      case Some(text) => Ok(text)
      case None => Err(NilDereference)
  }

  /** Go's %q of a string without escapes. */
  function Quote(s: string): string {
    "\"" + s + "\""
  }

  /** The table a scope was spawned from (Go's `.Parent`). */
  function Parent(t: SymbolTable): SymbolTable {
    match t.parent
    case Some(p) => p
    case None => t
  }

  // ---------------------------------------------------------------------
  // Jump layout

  predicate NoPlaceholder(code: Code, name: string) {
    forall i :: 0 <= i < |code| ==> code[i] != Placeholder(name)
  }

  /** Replaces every `name` placeholder by a relative jump to `target`. */
  function Patch(code: Code, name: string, target: int): (r: Code)
    ensures |r| == |code|
    ensures NoPlaceholder(r, name)
    ensures forall i :: 0 <= i < |code| && code[i] == Placeholder(name) ==>
      r[i].RelJump? && i + r[i].offset == target
    ensures forall i :: 0 <= i < |code| && code[i] != Placeholder(name) ==> r[i] == code[i]
  {
    seq(|code|, i requires 0 <= i < |code| =>
      if code[i] == Placeholder(name) then RelJump(target - i) else code[i])
  }

  /** Like Patch, with the conditional jump a failed pattern takes. */
  function PatchPattern(code: Code, target: int): (r: Code)
    ensures |r| == |code|
    ensures NoPlaceholder(r, "pattern")
    ensures forall i :: 0 <= i < |code| && code[i] == Placeholder("pattern") ==>
      r[i].RelJumpIfFalseOrPop? && i + r[i].offset == target
    ensures forall i :: 0 <= i < |code| && code[i] != Placeholder("pattern") ==> r[i] == code[i]
  {
    seq(|code|, i requires 0 <= i < |code| =>
      if code[i] == Placeholder("pattern") then RelJumpIfFalseOrPop(target - i) else code[i])
  }

  /** One `if` clause: skip the body when the condition is false, otherwise
      run it and leave through a placeholder patched to the end. */
  function ClauseCode(cond: Code, body: Code): Code {
    cond + [RelJumpIfFalse(|body| + 2)] + body + [Placeholder("if")]
  }

  function WhileCode(cond: Code, body: Code): Code {
    var raw := cond + [RelJumpIfFalse(|body| + 2)] + body + [RelJump(-(|cond| + |body| + 1))];
    Patch(Patch(raw, "break", |raw|), "continue", 0)
  }

  function StoreNames(names: seq<string>): (r: Code)
    ensures |r| == |names| && forall i :: 0 <= i < |names| ==> r[i] == StoreName(names[i])
  {
    seq(|names|, i requires 0 <= i < |names| => StoreName(names[i]))
  }

  /** The distance from the end of a `for` body back to its ForIter. */
  function ForJump(variables: seq<string>, bodyLength: nat): int {
    |variables| + bodyLength + 1 + (if |variables| > 1 then 1 else 0)
  }

  /** Everything a `for` loop runs before its body: the iterable, the
      iterator step, unpacking a key/value pair and binding the variables. */
  function ForHead(iterable: Code, variables: seq<string>, bodyLength: nat): Code {
    iterable + [GetIter, ForIter(ForJump(variables, bodyLength) + 1)]
    + (if |variables| > 1 then [UnpackTuple] else []) + StoreNames(variables)
  }

  /** Iterate, unpack a key/value pair, bind the variables, run the body and
      jump back to the iterator; when it is exhausted ForIter leaves the loop. */
  function ForCode(v: L.Variant, iterable: Code, variables: seq<string>, body: Code): Code {
    var raw := ForHead(iterable, variables, |body|) + body + [RelJump(-ForJump(variables, |body|))];
    if v == L.AsWritten then raw
    else Patch(Patch(raw, "break", |raw|), "continue", |iterable| + 1)
  }

  // ---------------------------------------------------------------------
  // Types

  /** The generic parameters a named type takes in a parameterised type
      expression: only enums declare them. */
  function GenericParameters(t: VeniceType): seq<string> {
    if t.EnumType? then t.genericParameters else []
  }

  /** Binds keys to values in order; a repeated key keeps the last value. */
  function ZipMap(keys: seq<string>, values: seq<VeniceType>): (m: map<string, VeniceType>)
    requires |keys| == |values|
    ensures m.Keys == set i | 0 <= i < |keys| :: keys[i]
    decreases |keys|
  {
    if |keys| == 0 then map[]
    else
      var n := |keys| - 1;
      var m := ZipMap(keys[..n], values[..n]);
      assert forall i :: 0 <= i < n ==> keys[..n][i] == keys[i];
      m[keys[n] := values[n]]
  }

  function ResolveType(types: SymbolTable, node: A.TypeNode): Result<VeniceType, Failure>
    decreases node, 1
  {
    match node
    case ListTypeNode(item) =>
      var itemType :- ResolveType(types, item);
      Ok(ListType(itemType))
    case MapTypeNode(key, value) =>
      var keyType :- ResolveType(types, key);
      var valueType :- ResolveType(types, value);
      Ok(MapType(keyType, valueType))
    case TupleTypeNode(items) =>
      var itemTypes :- ResolveTypes(types, items);
      Ok(TupleType(itemTypes))
    case SymbolType(name) =>
      (match Get(types, name)
       case None => Fail(UnknownType(name))
       case Some(t) => Ok(t))
    case ParameterizedTypeNode(name, parameters) =>
      (match Get(types, name)
       case None => Fail(UnknownType(name))
       case Some(t) =>
         var generics := GenericParameters(t);
         if |parameters| != |generics| then
           Fail(GenericArity(|generics|, |parameters|))
         else
           var arguments :- ResolveTypes(types, parameters);
           Ok(Substitute(ZipMap(generics, arguments), t)))
  }

  function ResolveTypes(types: SymbolTable, nodes: seq<A.TypeNode>): (r: Result<seq<VeniceType>, Failure>)
    ensures r.Ok? ==> |r.value| == |nodes|
    decreases nodes, 0
  {
    if |nodes| == 0 then Ok([])
    else
      var first :- ResolveType(types, nodes[0]);
      var rest :- ResolveTypes(types, nodes[1..]);
      Ok([first] + rest)
  }

  /** An omitted annotation resolves to the nil type. */
  function ResolveAnnotation(types: SymbolTable, a: A.Annotation): Result<VeniceType, Failure> {
    match a
    case NoType => Ok(Void)
    case HasType(node) => ResolveType(types, node)
  }

  // ---------------------------------------------------------------------
  // Statements

  function CompileStatement(ec: ExprCompiler, v: L.Variant, c: Compiler, s: A.Stmt): Result<(Code, Compiler), Failure>
    decreases s, 2
  {
    match s
    case AssignStatement(destination, value) => CompileAssign(ec, v, c, destination, value)
    case BreakStatement =>
      if c.nestedLoopCount == 0 then Fail(BreakOutsideLoop)
      else Ok(([Placeholder("break")], c))
    case ContinueStatement =>
      if c.nestedLoopCount == 0 then Fail(ContinueOutsideLoop)
      else Ok(([Placeholder("continue")], c))
    case ExpressionStatement(e) =>
      var (code, _) :- ec(c, e, Void);
      Ok((code, c))
    case ForLoop(_, _, _) => CompileForLoop(ec, v, c, s)
    case IfStatement(_, _) => CompileIf(ec, v, c, s)
    case LetStatement(symbol, declared, isVar, value) => CompileLet(ec, v, c, symbol, declared, isVar, value)
    case MatchStatementNode(_, _, _) => CompileMatch(ec, v, c, s)
    case ReturnStatement(result) => CompileReturn(ec, v, c, result)
    case WhileLoop(_, _) => CompileWhile(ec, v, c, s)
    case ClassDeclaration(_, _, _) => Fail(UnknownStatementType(s))
    case EnumDeclaration(_, _, _) => Fail(UnknownStatementType(s))
    case FunctionDeclaration(_, _, _, _) => Fail(UnknownStatementType(s))
    case ImportStatement(_, _) => Fail(UnknownStatementType(s))
  }

  /** A block runs in a fresh child scope, left again afterwards. */
  function CompileBlock(ec: ExprCompiler, v: L.Variant, c: Compiler, block: seq<A.Stmt>): Result<(Code, Compiler), Failure>
    decreases block, 1
  {
    var (code, c1) :- CompileStatements(ec, v, c.(symbols := SpawnChild(c.symbols)), block);
    Ok((code, c1.(symbols := Parent(c1.symbols))))
  }

  function CompileStatements(ec: ExprCompiler, v: L.Variant, c: Compiler, ss: seq<A.Stmt>): Result<(Code, Compiler), Failure>
    decreases ss, 0
  {
    if |ss| == 0 then Ok(([], c))
    else
      var (first, c1) :- CompileStatement(ec, v, c, ss[0]);
      var (rest, c2) :- CompileStatements(ec, v, c1, ss[1..]);
      Ok((first + rest, c2))
  }

  function CompileAssign(ec: ExprCompiler, v: L.Variant, c: Compiler, destination: A.Expr, value: A.Expr): Result<(Code, Compiler), Failure>
  {
    if destination.FieldAccessNode? then
      var code :- CompileAssignToField(ec, v, c, destination.target, destination.fieldName, value);
      Ok((code, c))
    else if destination.IndexNode? then
      var code :- CompileAssignToIndex(ec, v, c, destination.container, destination.index, value);
      Ok((code, c))
    else if destination.SymbolNode? then
      var code :- CompileAssignToSymbol(ec, v, c, destination.name, value);
      Ok((code, c))
    else Fail(AssignToNonSymbol)
  }

  /** The index of the first field called `name`, if any. */
  function FieldIndex(fields: seq<ClassField>, name: string): (r: Option<nat>)
    ensures r.Some? ==>
      r.value < |fields| && fields[r.value].name == name && forall j :: 0 <= j < r.value ==> fields[j].name != name
    ensures r.None? ==> forall j :: 0 <= j < |fields| ==> fields[j].name != name
  {
    if |fields| == 0 then None
    else if fields[0].name == name then Some(0)
    else match FieldIndex(fields[1..], name)
      case None => None
      case Some(i) => Some(i + 1)
  }

  function CompileAssignToField(ec: ExprCompiler, v: L.Variant, c: Compiler, target: A.Expr, name: string, value: A.Expr): Result<Code, Failure>
  {
    var (code, eType) :- ec(c, value, Void);
    var (targetCode, targetType) :- ec(c, target, Void);
    if !targetType.ClassType? then
      var shown :- Show(v, targetType);
      Fail(AssignToFieldOnType(shown))
    else match FieldIndex(targetType.fields, name)
      case None => Fail(NoSuchField(name, targetType.name))
      case Some(i) =>
        var field := targetType.fields[i];
        if !field.public then Fail(AssignToNonPublicField)
        else if !Accepts(field.fieldType, eType) then
          var expected :- Show(v, field.fieldType);
          var got :- Show(v, eType);
          Fail(ExpectedType(expected, got))
        else Ok(code + targetCode + [StoreField(i)])
  }

  function CompileAssignToIndex(ec: ExprCompiler, v: L.Variant, c: Compiler, container: A.Expr, index: A.Expr, value: A.Expr): Result<Code, Failure>
  {
    var (code, eType) :- ec(c, value, Void);
    var (containerCode, containerType) :- ec(c, container, Void);
    if containerType.ListType? then
      if !Accepts(containerType.itemType, eType) then
        var expected :- Show(v, containerType.itemType);
        var got :- Show(v, eType);
        Fail(ExpectedType(expected, got))
      else
        var (indexCode, indexType) :- ec(c, index, Void);
        if !Accepts(IntegerType, indexType) then
          var got :- Show(v, indexType);
          Fail(ListIndexNotInteger(got))
        else Ok(code + indexCode + containerCode + [StoreIndex])
    else if containerType.MapType? then
      if !Accepts(containerType.valueType, eType) then
        var expected :- Show(v, containerType.valueType);
        var got :- Show(v, eType);
        Fail(ExpectedType(expected, got))
      else
        var (indexCode, indexType) :- ec(c, index, Void);
        if !Accepts(containerType.keyType, indexType) then
          var got :- Show(v, indexType);
          var expected := if v == L.AsWritten then "integer" else TypeString(containerType.keyType);
          Fail(MapIndexWrongType(expected, got))
        else Ok(code + indexCode + containerCode + [StoreMapIndex])
    else
      var shown :- Show(v, containerType);
      Fail(AssignToIndexOnType(shown))
  }

  function CompileAssignToSymbol(ec: ExprCompiler, v: L.Variant, c: Compiler, name: string, value: A.Expr): Result<Code, Failure>
  {
    var (code, eType) :- ec(c, value, Void);
    var binding := GetBinding(c.symbols, name);
    if binding.Some? && !binding.value.isVar then
      Fail(AssignToConst(name))
    else match Get(c.symbols, name)
      case None => Fail(AssignToUndeclared(name))
      case Some(expected) =>
        if !Accepts(expected, eType) then
          var got :- Show(v, eType);
          var wanted :- Show(v, expected);
          Fail(AssignMismatch(got, wanted))
        else Ok(code + [StoreName(name)])
  }

  /** The loop scope binding the variables to the iterable's element types. */
  function LoopScope(t: SymbolTable, variables: seq<string>, iterableType: VeniceType): Result<SymbolTable, Failure> {
    if iterableType.ListType? then
      if |variables| != 1 then Fail(TooManyLoopVariables)
      else Ok(Put(t, variables[0], iterableType.itemType))
    else if iterableType.MapType? then
      if |variables| != 2 then Fail(TooManyLoopVariables)
      else Ok(Put(Put(t, variables[0], iterableType.keyType), variables[1], iterableType.valueType))
    else if iterableType.StringType? then
      if |variables| != 1 then Fail(TooManyLoopVariables)
      else Ok(Put(t, variables[0], StringType))
    else Fail(NotIterable)
  }

  function CompileForLoop(ec: ExprCompiler, v: L.Variant, c: Compiler, s: A.Stmt): Result<(Code, Compiler), Failure>
    requires s.ForLoop?
    decreases s, 1
  {
    var (iterableCode, iterableType) :- ec(c, s.iterable, Void);
    var loopScope :- LoopScope(SpawnChild(c.symbols), s.variables, iterableType);
    var inner := c.(symbols := loopScope, nestedLoopCount := c.nestedLoopCount + 1);
    var (body, c1) :- CompileBlock(ec, v, inner, s.body);
    Ok((ForCode(v, iterableCode, s.variables, body),
        c1.(symbols := Parent(c1.symbols), nestedLoopCount := c.nestedLoopCount)))
  }

  function CompileWhile(ec: ExprCompiler, v: L.Variant, c: Compiler, s: A.Stmt): Result<(Code, Compiler), Failure>
    requires s.WhileLoop?
    decreases s, 1
  {
    var (cond, condType) :- ec(c, s.condition, Void);
    if !Accepts(BooleanType, condType) then Fail(WhileConditionNotBoolean)
    else
      var (body, c1) :- CompileBlock(ec, v, c.(nestedLoopCount := c.nestedLoopCount + 1), s.body);
      Ok((WhileCode(cond, body), c1.(nestedLoopCount := c.nestedLoopCount)))
  }

  function CompileIf(ec: ExprCompiler, v: L.Variant, c: Compiler, s: A.Stmt): Result<(Code, Compiler), Failure>
    requires s.IfStatement?
    decreases s, 1
  {
    if |s.clauses| == 0 then Fail(IfWithoutClauses)
    else
      var (clauses, c1) :- CompileIfClauses(ec, v, c, s.clauses);
      var (elseCode, c2) :- CompileBlock(ec, v, c1, s.elseClause);
      var raw := clauses + elseCode;
      Ok((Patch(raw, "if", |raw|), c2))
  }

  function CompileIfClauses(ec: ExprCompiler, v: L.Variant, c: Compiler, clauses: seq<A.IfClause>): Result<(Code, Compiler), Failure>
    decreases clauses, 0
  {
    if |clauses| == 0 then Ok(([], c))
    else
      var (cond, condType) :- ec(c, clauses[0].condition, Void);
      if !Accepts(BooleanType, condType) then Fail(IfConditionNotBoolean)
      else
        var (body, c1) :- CompileBlock(ec, v, c, clauses[0].body);
        var (rest, c2) :- CompileIfClauses(ec, v, c1, clauses[1..]);
        Ok((ClauseCode(cond, body) + rest, c2))
  }

  function CompileLet(ec: ExprCompiler, v: L.Variant, c: Compiler, symbol: string, declared: A.Annotation, isVar: bool, value: A.Expr): Result<(Code, Compiler), Failure>
  {
    if Get(c.symbols, symbol).Some? then Fail(Redeclaration(symbol))
    else
      var declaredType :- ResolveAnnotation(c.types, declared);
      var (code, eType) :- ec(c, value, declaredType);
      if declaredType != Void && !Accepts(declaredType, eType) then
        var expected :- Show(v, declaredType);
        var got :- Show(v, eType);
        Fail(LetMismatch(expected, got))
      else
        var scope := if isVar then PutVar(c.symbols, symbol, eType) else Put(c.symbols, symbol, eType);
        Ok((code + [StoreName(symbol)], c.(symbols := scope)))
  }

  function CompileMatch(ec: ExprCompiler, v: L.Variant, c: Compiler, s: A.Stmt): Result<(Code, Compiler), Failure>
    requires s.MatchStatementNode?
    decreases s, 1
  {
    var (subject, subjectType) :- ec(c, s.subject, Void);
    if !subjectType.EnumType? then
      var shown :- Show(v, subjectType);
      Fail(MatchOnNonEnum(shown))
    else
      var (clauses, c1) :- CompileMatchClauses(ec, v, c, subjectType, s.cases);
      var raw := subject + clauses;
      Ok((Patch(raw, "match", |raw|), c1))
  }

  /** Each clause binds its pattern's symbols in a scope of its own. */
  function CompileMatchClauses(ec: ExprCompiler, v: L.Variant, c: Compiler, enumType: VeniceType, clauses: seq<A.MatchClause>): Result<(Code, Compiler), Failure>
    decreases clauses, 0
  {
    if |clauses| == 0 then Ok(([], c))
    else
      var (pattern, scope) :- CompilePattern(clauses[0].pattern, enumType, SpawnChild(c.symbols));
      var (body, c1) :- CompileBlock(ec, v, c.(symbols := scope), clauses[0].body);
      var (rest, c2) :- CompileMatchClauses(ec, v, c1.(symbols := Parent(c1.symbols)), enumType, clauses[1..]);
      Ok((pattern + [RelJumpIfFalseOrPop(|body| + 2)] + body + [Placeholder("match")] + rest, c2))
  }

  /** The index of the first case labelled `name`, if any. */
  function CaseIndex(cases: seq<CaseType>, name: string): (r: Option<nat>)
    ensures r.Some? ==>
      r.value < |cases| && cases[r.value].caseName == name && forall j :: 0 <= j < r.value ==> cases[j].caseName != name
    ensures r.None? ==> forall j :: 0 <= j < |cases| ==> cases[j].caseName != name
  {
    if |cases| == 0 then None
    else if cases[0].caseName == name then Some(0)
    else match CaseIndex(cases[1..], name)
      case None => None
      case Some(i) => Some(i + 1)
  }

  /** A pattern's code leaves whether the value matched; a symbol pattern
      binds the value in the given scope. */
  function CompilePattern(p: A.Pattern, t: VeniceType, scope: SymbolTable): Result<(Code, SymbolTable), Failure>
    decreases p, 1
  {
    match p
    case SymbolPattern(name) => Ok(([StoreName(name), PushConstBool(true)], Put(scope, name, t)))
    case CompoundPattern(caseName, patterns) =>
      if !t.EnumType? then Fail(PatternOnNonEnum)
      else match CaseIndex(t.cases, caseName)
        case None => Fail(CaseNotFound(caseName))
        case Some(k) =>
          var caseTypes := t.cases[k].types;
          if |patterns| > |caseTypes| then Fail(TooManyPatterns(t.name))
          else if |patterns| < |caseTypes| then Fail(TooFewPatterns(t.name))
          else
            var (sub, scope1) :- CompileSubpatterns(patterns, caseTypes, 0, scope);
            var code := [CheckLabel(caseName), Placeholder("pattern")] + sub;
            Ok((PatchPattern(code, |code|), scope1))
  }

  /** Sub-patterns from position `i` on, each applied to the enum's i-th value. */
  function CompileSubpatterns(patterns: seq<A.Pattern>, types: seq<VeniceType>, i: nat, scope: SymbolTable): Result<(Code, SymbolTable), Failure>
    requires |patterns| <= |types|
    decreases patterns, 0, |patterns| - i
  {
    if i >= |patterns| then Ok(([], scope))
    else
      var (first, scope1) :- CompilePattern(patterns[i], types[i], scope);
      var (rest, scope2) :- CompileSubpatterns(patterns, types, i + 1, scope1);
      Ok(([PushEnumIndex(i)] + first + rest, scope2))
  }

  function CompileReturn(ec: ExprCompiler, v: L.Variant, c: Compiler, result: A.ReturnValue): Result<(Code, Compiler), Failure>
  {
    match c.functionInfo
    case None => Fail(ReturnOutsideFunction)
    case Some(info) =>
      match result
      case HasValue(e) =>
        var (code, eType) :- ec(c, e, Void);
        if !Accepts(info.declaredReturnType, eType) then
          var got :- Show(v, eType);
          var expected :- Show(v, info.declaredReturnType);
          Fail(ConflictingReturnTypes(got, expected))
        else
          Ok((code + [Return], c.(functionInfo := Some(info.(seenReturnStatement := true)))))
      case NoValue =>
        if info.declaredReturnType != Void then Fail(VoidReturnFromNonVoid)
        else Ok(([Return], c))
  }

  // ---------------------------------------------------------------------
  // Calls

  /** Binds a generic parameter to the argument's type, or checks the
      argument against a concrete parameter type. */
  function CheckAndBind(types: SymbolTable, expected: VeniceType, actual: VeniceType): (bool, SymbolTable) {
    if expected.SymbolType? then (true, Put(types, expected.symbol, actual))
    else (Accepts(expected, actual), types)
  }

  /** Arguments i-1 down to 0, matched against the parameters after `skip`. */
  function CompileArgumentsFrom(ec: ExprCompiler, c: Compiler, args: seq<A.Expr>, params: seq<VeniceType>, skip: nat, i: nat): Result<(Code, Compiler), Failure>
    requires i <= |args| && |params| == |args| + skip
    decreases i
  {
    if i == 0 then Ok(([], c))
    else
      var (argCode, argType) :- ec(c, args[i - 1], Void);
      var (ok, types) := CheckAndBind(c.types, params[i - 1 + skip], argType);
      if !ok then Fail(WrongParameterType)
      else
        var (rest, c1) :- CompileArgumentsFrom(ec, c.(types := types), args, params, skip, i - 1);
        Ok((argCode + rest, c1))
  }

  /** Compiles a call's arguments, last first, in a scope of generic
      bindings of its own, and the return type with those bindings
      substituted. A method's receiver is its first parameter and is not
      among the arguments. */
  function CompileArguments(ec: ExprCompiler, c: Compiler, args: seq<A.Expr>, f: VeniceType, isMethod: bool): Result<(Code, VeniceType), Failure>
    requires f.FunctionType?
  {
    var actual := |args| + (if isMethod then 1 else 0);
    if |f.paramTypes| != actual then
      Fail(WrongArgumentCount(|f.paramTypes|, actual))
    else
      var (code, c1) :- CompileArgumentsFrom(ec, c.(types := SpawnChild(c.types)), args, f.paramTypes,
        if isMethod then 1 else 0, |args|);
      var bindings := map k | k in c1.types.symbols :: c1.types.symbols[k].bindingType;
      Ok((code, Substitute(bindings, f.returnType)))
  }

  // ---------------------------------------------------------------------
  // Declarations and modules

  function ResolveFields(types: SymbolTable, fields: seq<A.ClassField>): (r: Result<seq<ClassField>, Failure>)
    ensures r.Ok? ==> |r.value| == |fields| && forall i :: 0 <= i < |fields| ==>
      r.value[i].name == fields[i].name && r.value[i].public == fields[i].public
  {
    if |fields| == 0 then Ok([])
    else
      var t :- ResolveType(types, fields[0].fieldType);
      var rest :- ResolveFields(types, fields[1..]);
      Ok([ClassField(fields[0].name, fields[0].public, t)] + rest)
  }

  function CompileClassDeclaration(c: Compiler, name: string, fields: seq<A.ClassField>): Result<Compiler, Failure> {
    var resolved :- ResolveFields(c.types, fields);
    Ok(c.(types := Put(c.types, name, ClassType(name, [], resolved, []))))
  }

  function ResolveCases(types: SymbolTable, cases: seq<A.EnumCase>): (r: Result<seq<CaseType>, Failure>)
    ensures r.Ok? ==> |r.value| == |cases| && forall i :: 0 <= i < |cases| ==>
      r.value[i].caseName == cases[i].name && |r.value[i].types| == |cases[i].types|
  {
    if |cases| == 0 then Ok([])
    else
      var ts :- ResolveTypes(types, cases[0].types);
      var rest :- ResolveCases(types, cases[1..]);
      Ok([CaseType(cases[0].name, ts)] + rest)
  }

  /** The name of the function constructing an enum case: `Enum__Case`. */
  function ConstructorName(enumName: string, caseName: string): string {
    enumName + "__" + caseName
  }

  /** Each case's constructor function pushes the case. */
  function CaseConstructors(program: map<string, Code>, name: string, cases: seq<A.EnumCase>): map<string, Code>
    decreases |cases|
  {
    if |cases| == 0 then program
    else
      var last := cases[|cases| - 1];
      CaseConstructors(program, name, cases[..|cases| - 1])[ConstructorName(name, last.name) := [PushEnum(last.name, |last.types|)]]
  }

  /** The case types are resolved while the enum itself is bound to an
      empty placeholder enum (so a case may refer to it) and, for a generic
      enum, its type parameter to itself. */
  function CompileEnumDeclaration(c: Compiler, name: string, parameter: string, cases: seq<A.EnumCase>): Result<Compiler, Failure> {
    var outer := Put(c.types, name, EnumType(name, [], []));
    var scope := if parameter != "" then Put(SpawnChild(outer), parameter, SymbolType(parameter)) else outer;
    var caseTypes :- ResolveCases(scope, cases);
    var generics := if parameter != "" then [parameter] else [];
    Ok(c.(types := Put(outer, name, EnumType(name, generics, caseTypes)),
          program := CaseConstructors(c.program, name, cases)))
  }

  function ResolveParams(types: SymbolTable, params: seq<A.Param>): (r: Result<seq<VeniceType>, Failure>)
    ensures r.Ok? ==> |r.value| == |params|
  {
    if |params| == 0 then Ok([])
    else
      var t :- ResolveType(types, params[0].paramType);
      var rest :- ResolveParams(types, params[1..]);
      Ok([t] + rest)
  }

  function PutParams(t: SymbolTable, params: seq<A.Param>, types: seq<VeniceType>): SymbolTable
    requires |params| == |types|
    decreases |params|
  {
    if |params| == 0 then t
    else PutParams(Put(t, params[0].name, types[0]), params[1..], types[1..])
  }

  /** The parameter names in reverse order: the caller pushes the arguments
      last first, so the first parameter is on top. */
  function StoreParams(params: seq<A.Param>): (r: Code)
    ensures |r| == |params|
    ensures forall i :: 0 <= i < |params| ==> r[i] == StoreName(params[|params| - 1 - i].name)
  {
    if |params| == 0 then []
    else StoreParams(params[1..]) + [StoreName(params[0].name)]
  }

  /** The function is bound before its body is compiled, so it may call
      itself; the parameters live in a scope between the two. */
  function CompileFunctionDeclaration(ec: ExprCompiler, v: L.Variant, c: Compiler, name: string,
    params: seq<A.Param>, returnType: A.Annotation, body: seq<A.Stmt>): Result<Compiler, Failure>
  {
    var paramTypes :- ResolveParams(c.types, params);
    var declared :- ResolveAnnotation(c.types, returnType);
    var outer := Put(c.symbols, name, FunctionType(name, false, [], paramTypes, declared, false));
    var inner := c.(symbols := PutParams(SpawnChild(outer), params, paramTypes),
                    functionInfo := Some(FunctionInfo(declared, false)));
    var (code, c1) :- CompileBlock(ec, v, inner, body);
    var seen := c1.functionInfo.Some? && c1.functionInfo.value.seenReturnStatement;
    if declared != Void && !seen then Fail(MissingReturn)
    else Ok(c1.(symbols := outer, functionInfo := None,
                program := c1.program[name := StoreParams(params) + code]))
  }

  /** The imported program's functions under `module::name`, except its
      top-level code. */
  function ImportedFunctions(moduleName: string, imported: map<string, Code>): (r: map<string, Code>) {
    var prefix := moduleName + "::";
    var names := set k | k in imported && k != "main" :: prefix + k;
    map q | q in names && |prefix| <= |q| && q[|prefix|..] in imported :: imported[q[|prefix|..]]
  }

  function CompileModuleStatement(ec: ExprCompiler, importer: Importer, v: L.Variant, c: Compiler, s: A.Stmt): Result<Compiler, Failure>
  {
    match s
    case ClassDeclaration(name, _, fields) => CompileClassDeclaration(c, name, fields)
    case EnumDeclaration(name, parameter, cases) => CompileEnumDeclaration(c, name, parameter, cases)
    case FunctionDeclaration(name, params, returnType, body) =>
      CompileFunctionDeclaration(ec, v, c, name, params, returnType, body)
    case ImportStatement(path, name) =>
      var (imported, moduleType) :- importer(path, name);
      Ok(c.(program := c.program + ImportedFunctions(name, imported),
            symbols := Put(c.symbols, name, moduleType)))
    case _ =>
      var (code, c1) :- CompileStatement(ec, v, c, s);
      var main := if "main" in c1.program then c1.program["main"] else [];
      Ok(c1.(program := c1.program["main" := main + code]))
  }

  function CompileModule(ec: ExprCompiler, importer: Importer, v: L.Variant, c: Compiler, ss: seq<A.Stmt>): Result<Compiler, Failure>
    decreases |ss|
  {
    if |ss| == 0 then Ok(c)
    else
      var c1 :- CompileModuleStatement(ec, importer, v, c, ss[0]);
      CompileModule(ec, importer, v, c1, ss[1..])
  }

  /** A whole file, from the builtin tables: the compiled program. */
  function Compile(ec: ExprCompiler, importer: Importer, v: L.Variant, ss: seq<A.Stmt>): Result<map<string, Code>, Failure> {
    var c :- CompileModule(ec, importer, v, NewCompiler(), ss);
    Ok(c.program)
  }
}

=== FILE: go_compiler_facts.dfy ===
/** Properties of the Go statement compiler: the error rules of each
    statement, the jump layout of loops and conditionals, declarations and
    calls, and the three places where the corrected variant differs. */
module GoCompilerFacts {
  import opened Wrappers
  import opened GoTypes
  import opened GoSymbols
  import opened GoCompiler
  import opened GoCompilerScopes
  import A = GoAst
  import L = GoLexer

  // ---------------------------------------------------------------------
  // Loop exits

  /** `break` and `continue` are errors outside loops; inside one they
      leave a placeholder for the loop to patch, and change nothing else. */
  lemma LoopExitsNeedALoop(ec: ExprCompiler, v: L.Variant, c: Compiler)
    ensures var r := CompileStatement(ec, v, c, A.BreakStatement);
      (r.Err? <==> c.nestedLoopCount == 0)
      && (r.Err? ==> r.error == CompileError(BreakOutsideLoop))
      && (r.Ok? ==> r.value == ([Placeholder("break")], c))
    ensures var r := CompileStatement(ec, v, c, A.ContinueStatement);
      (r.Err? <==> c.nestedLoopCount == 0)
      && (r.Err? ==> r.error == CompileError(ContinueOutsideLoop))
      && (r.Ok? ==> r.value == ([Placeholder("continue")], c))
  {
  }

  /** The layout of `while`: a false condition leaves the loop, the end of
      the body jumps back to the condition, `break` jumps past the loop and
      `continue` back to the condition. */
  lemma WhileJumps(cond: Code, body: Code)
    requires PlaceholdersAmong(cond, {})
    ensures var code := WhileCode(cond, body);
      |code| == |cond| + |body| + 2
      && code[|cond|].RelJumpIfFalse? && |cond| + code[|cond|].offset == |code|
      && code[|code| - 1].RelJump? && |code| - 1 + code[|code| - 1].offset == 0
      && (forall j :: 0 <= j < |body| && body[j] == Placeholder("break") ==>
            code[|cond| + 1 + j].RelJump? && |cond| + 1 + j + code[|cond| + 1 + j].offset == |code|)
      && (forall j :: 0 <= j < |body| && body[j] == Placeholder("continue") ==>
            code[|cond| + 1 + j].RelJump? && |cond| + 1 + j + code[|cond| + 1 + j].offset == 0)
      && (forall j :: 0 <= j < |body| && !body[j].Placeholder? ==> code[|cond| + 1 + j] == body[j])
  {
    var raw := cond + [RelJumpIfFalse(|body| + 2)] + body + [RelJump(-(|cond| + |body| + 1))];
    assert forall j :: 0 <= j < |body| ==> raw[|cond| + 1 + j] == body[j];
    assert raw[|cond|] == RelJumpIfFalse(|body| + 2);
    assert raw[|raw| - 1] == RelJump(-(|cond| + |body| + 1));
  }

  /** The head of a `for` loop ends where the body starts, and its
      iterator step follows the iterable and GetIter. */
  lemma ForHeadLayout(iterable: Code, variables: seq<string>, n: nat)
    ensures var head := ForHead(iterable, variables, n);
      |head| == |iterable| + 2 + (if |variables| > 1 then 1 else 0) + |variables|
      && head[|iterable| + 1] == ForIter(ForJump(variables, n) + 1)
  {
    var first := iterable + [GetIter, ForIter(ForJump(variables, n) + 1)];
    assert first[|iterable| + 1] == ForIter(ForJump(variables, n) + 1);
  }

  /** The unpatched `for` layout: head, body, and the jump back. */
  lemma ForRawLayout(iterable: Code, variables: seq<string>, body: Code)
    ensures var raw := ForHead(iterable, variables, |body|) + body + [RelJump(-ForJump(variables, |body|))];
      var start := |iterable| + 2 + (if |variables| > 1 then 1 else 0) + |variables|;
      |raw| == start + |body| + 1
      && raw[|iterable| + 1] == ForIter(ForJump(variables, |body|) + 1)
      && raw[|raw| - 1] == RelJump(-ForJump(variables, |body|))
      && (forall j :: 0 <= j < |body| ==> raw[start + j] == body[j])
  {
    var head := ForHead(iterable, variables, |body|);
    ForHeadLayout(iterable, variables, |body|);
    var raw := head + body + [RelJump(-ForJump(variables, |body|))];
    assert raw[|iterable| + 1] == head[|iterable| + 1];
    assert forall j :: 0 <= j < |body| ==> raw[|head| + j] == body[j];
  }

  /** Where the layout of `for` places things: the iterator step leaves
      the loop when the iterator is exhausted, the end of the body jumps
      back to the iterator step, and (as written) the body is copied
      unchanged. */
  lemma ForLayout(v: L.Variant, iterable: Code, variables: seq<string>, body: Code)
    ensures var code := ForCode(v, iterable, variables, body);
      var start := |iterable| + 2 + (if |variables| > 1 then 1 else 0) + |variables|;
      |code| == start + |body| + 1
      && code[|iterable| + 1].ForIter? && |iterable| + 1 + code[|iterable| + 1].offset == |code|
      && code[|code| - 1].RelJump? && |code| - 1 + code[|code| - 1].offset == |iterable| + 1
      && (v == L.AsWritten ==> forall j :: 0 <= j < |body| ==> code[start + j] == body[j])
  {
    var raw := ForHead(iterable, variables, |body|) + body + [RelJump(-ForJump(variables, |body|))];
    ForRawLayout(iterable, variables, body);
    var broken := Patch(raw, "break", |raw|);
    var code := ForCode(v, iterable, variables, body);
    assert code == if v == L.AsWritten then raw else Patch(broken, "continue", |iterable| + 1);
    assert broken[|iterable| + 1] == raw[|iterable| + 1];
    assert broken[|raw| - 1] == raw[|raw| - 1];
  }

  /** Patching both loop exits: each `break` jumps to one target, each
      `continue` to the other, nothing else changes, and no exit
      placeholder is left. */
  lemma ExitPatch(raw: Code, breakTo: int, continueTo: int)
    ensures var code := Patch(Patch(raw, "break", breakTo), "continue", continueTo);
      |code| == |raw|
      && (forall i :: 0 <= i < |raw| && raw[i] == Placeholder("break") ==>
            code[i].RelJump? && i + code[i].offset == breakTo)
      && (forall i :: 0 <= i < |raw| && raw[i] == Placeholder("continue") ==>
            code[i].RelJump? && i + code[i].offset == continueTo)
      && (forall i :: 0 <= i < |raw| && !raw[i].Placeholder? ==> code[i] == raw[i])
      && NoPlaceholder(code, "break") && NoPlaceholder(code, "continue")
  {
    var broken := Patch(raw, "break", breakTo);
    var code := Patch(broken, "continue", continueTo);
    forall i | 0 <= i < |code|
      ensures code[i] != Placeholder("break")
    {
      if broken[i] == Placeholder("continue") {
        assert code[i].RelJump?;
      }
    }
  }

  /** With the correction, `break` in a `for` body jumps past the loop and
      `continue` to the iterator step, and no exit placeholder is left. */
  lemma ForExitsCorrected(iterable: Code, variables: seq<string>, body: Code)
    ensures var code := ForCode(L.Corrected, iterable, variables, body);
      var start := |iterable| + 2 + (if |variables| > 1 then 1 else 0) + |variables|;
      |code| == start + |body| + 1
      && (forall j :: 0 <= j < |body| && body[j] == Placeholder("break") ==>
           code[start + j].RelJump? && start + j + code[start + j].offset == |code|)
      && (forall j :: 0 <= j < |body| && body[j] == Placeholder("continue") ==>
           code[start + j].RelJump? && start + j + code[start + j].offset == |iterable| + 1)
      && NoPlaceholder(code, "break") && NoPlaceholder(code, "continue")
  {
    var raw := ForHead(iterable, variables, |body|) + body + [RelJump(-ForJump(variables, |body|))];
    ForRawLayout(iterable, variables, body);
    ExitPatch(raw, |raw|, |iterable| + 1);
    var start := |iterable| + 2 + (if |variables| > 1 then 1 else 0) + |variables|;
    var code := Patch(Patch(raw, "break", |raw|), "continue", |iterable| + 1);
    assert code == ForCode(L.Corrected, iterable, variables, body);
    forall j | 0 <= j < |body|
      ensures raw[start + j] == body[j]
    {
    }
  }

  /** As written, a `break` in a `for` body stays a placeholder in the
      compiled code, which the virtual machine rejects as an unknown
      instruction. */
  lemma ForBreakUnpatchedAsWritten(ec: ExprCompiler, c: Compiler, iterable: A.Expr, x: string)
    requires ec(c, iterable, Void).Ok? && ec(c, iterable, Void).value.1.ListType?
    ensures var r := CompileStatement(ec, L.AsWritten, c, A.ForLoop([x], iterable, [A.BreakStatement]));
      r.Ok? && Placeholder("break") in r.value.0
  {
    var s := A.ForLoop([x], iterable, [A.BreakStatement]);
    var icode := ec(c, iterable, Void).value.0;
    var scope := Put(SpawnChild(c.symbols), x, ec(c, iterable, Void).value.1.itemType);
    var inner := c.(symbols := scope, nestedLoopCount := c.nestedLoopCount + 1);
    BreakBlock(ec, L.AsWritten, inner);
    assert CompileStatement(ec, L.AsWritten, c, s) == CompileForLoop(ec, L.AsWritten, c, s);
    var code := ForCode(L.AsWritten, icode, [x], [Placeholder("break")]);
    ForLayout(L.AsWritten, icode, [x], [Placeholder("break")]);
    assert code[|icode| + 3] == Placeholder("break");
  }

  /** Corrected, the same loop compiles to a jump past its end. */
  lemma ForBreakPatchedCorrected(ec: ExprCompiler, c: Compiler, iterable: A.Expr, x: string)
    requires ec(c, iterable, Void).Ok? && ec(c, iterable, Void).value.1.ListType?
    ensures var r := CompileStatement(ec, L.Corrected, c, A.ForLoop([x], iterable, [A.BreakStatement]));
      var k := |ec(c, iterable, Void).value.0| + 3;
      r.Ok? && Placeholder("break") !in r.value.0
      && k < |r.value.0| && r.value.0[k].RelJump? && k + r.value.0[k].offset == |r.value.0|
  {
    var s := A.ForLoop([x], iterable, [A.BreakStatement]);
    var icode := ec(c, iterable, Void).value.0;
    var scope := Put(SpawnChild(c.symbols), x, ec(c, iterable, Void).value.1.itemType);
    var inner := c.(symbols := scope, nestedLoopCount := c.nestedLoopCount + 1);
    BreakBlock(ec, L.Corrected, inner);
    assert CompileStatement(ec, L.Corrected, c, s) == CompileForLoop(ec, L.Corrected, c, s);
    ForExitsCorrected(icode, [x], [Placeholder("break")]);
    ForLayout(L.Corrected, icode, [x], [Placeholder("break")]);
  }

  /** Inside a loop, a block holding only `break` compiles to the break
      placeholder. */
  lemma BreakBlock(ec: ExprCompiler, v: L.Variant, c: Compiler)
    requires c.nestedLoopCount > 0
    ensures CompileBlock(ec, v, c, [A.BreakStatement]).Ok?
    ensures CompileBlock(ec, v, c, [A.BreakStatement]).value.0 == [Placeholder("break")]
  {
    var child := c.(symbols := SpawnChild(c.symbols));
    assert CompileStatement(ec, v, child, A.BreakStatement) == Ok(([Placeholder("break")], child));
    assert [A.BreakStatement][1..] == [];
    assert CompileStatements(ec, v, child, []) == Ok(([], child));
    assert [Placeholder("break")] + [] == [Placeholder("break")];
  }

  /** A `break` directly in a `while` body jumps past the loop. */
  lemma WhileBreakJumpsPastLoop(ec: ExprCompiler, v: L.Variant, c: Compiler, cond: A.Expr)
    requires ec(c, cond, Void).Ok? && ec(c, cond, Void).value.1 == BooleanType
    requires PlaceholdersAmong(ec(c, cond, Void).value.0, {})
    ensures var r := CompileStatement(ec, v, c, A.WhileLoop(cond, [A.BreakStatement]));
      var k := |ec(c, cond, Void).value.0| + 1;
      r.Ok? && k < |r.value.0| && r.value.0[k].RelJump? && k + r.value.0[k].offset == |r.value.0|
  {
    var s := A.WhileLoop(cond, [A.BreakStatement]);
    var inner := c.(nestedLoopCount := c.nestedLoopCount + 1);
    BreakBlock(ec, v, inner);
    assert CompileStatement(ec, v, c, s) == CompileWhile(ec, v, c, s);
    WhileJumps(ec(c, cond, Void).value.0, [Placeholder("break")]);
  }

  // ---------------------------------------------------------------------
  // Conditionals and patterns

  /** Each `if` clause skips its body, and the placeholder after it, when
      its condition is false: the jump lands on the next clause. */
  lemma ClauseSkipsToNext(cond: Code, body: Code)
    ensures var code := ClauseCode(cond, body);
      code[|cond|].RelJumpIfFalse? && |cond| + code[|cond|].offset == |code|
      && code[|code| - 1] == Placeholder("if")
  {
  }

  /** Patching the exit of a single clause: the conditional jump and the
      exit jump both land just past the clause. */
  lemma ClauseExitLayout(cond: Code, body: Code)
    ensures var code := Patch(ClauseCode(cond, body) + [], "if", |ClauseCode(cond, body)|);
      |code| == |cond| + |body| + 2
      && code[|cond|] == RelJumpIfFalse(|body| + 2)
      && code[|code| - 1] == RelJump(1)
  {
    var raw := ClauseCode(cond, body);
    assert raw + [] == raw;
    assert raw[|cond|] == RelJumpIfFalse(|body| + 2);
  }

  /** The code of a single `if` clause. */
  lemma OneClause(ec: ExprCompiler, v: L.Variant, c: Compiler, clause: A.IfClause)
    ensures var r := CompileIfClauses(ec, v, c, [clause]);
      r.Ok? ==> r.value.0 == ClauseCode(ec(c, clause.condition, Void).value.0, CompileBlock(ec, v, c, clause.body).value.0)
  {
    var r := CompileIfClauses(ec, v, c, [clause]);
    if r.Ok? {
      var c1 := CompileBlock(ec, v, c, clause.body).value.1;
      assert [clause][1..] == [];
      assert CompileIfClauses(ec, v, c1, []) == Ok(([], c1));
    }
  }

  /** An empty block compiles to no code. */
  lemma EmptyBlock(ec: ExprCompiler, v: L.Variant, c: Compiler)
    ensures CompileBlock(ec, v, c, []).Ok? && CompileBlock(ec, v, c, []).value.0 == []
  {
    assert CompileStatements(ec, v, c.(symbols := SpawnChild(c.symbols)), []).value.0 == [];
  }

  /** A one-clause `if` without `else`: the false branch skips the body and
      the exit jump, and the exit jump lands just past the statement. */
  lemma SingleClauseIf(ec: ExprCompiler, v: L.Variant, c: Compiler, cond: A.Expr, body: seq<A.Stmt>)
    requires ec(c, cond, Void).Ok?
    ensures var r := CompileStatement(ec, v, c, A.IfStatement([A.IfClause(cond, body)], []));
      r.Ok? ==>
        var n := |ec(c, cond, Void).value.0|;
        n < |r.value.0| && r.value.0[n].RelJumpIfFalse? && n + r.value.0[n].offset == |r.value.0|
        && r.value.0[|r.value.0| - 1] == RelJump(1)
  {
    var s := A.IfStatement([A.IfClause(cond, body)], []);
    assert CompileStatement(ec, v, c, s) == CompileIf(ec, v, c, s);
    var r := CompileStatement(ec, v, c, s);
    if r.Ok? {
      var clauses := CompileIfClauses(ec, v, c, [A.IfClause(cond, body)]).value;
      OneClause(ec, v, c, A.IfClause(cond, body));
      EmptyBlock(ec, v, clauses.1);
      ClauseExitLayout(ec(c, cond, Void).value.0, CompileBlock(ec, v, c, body).value.0);
    }
  }

  /** A symbol pattern matches anything and binds the value in the
      clause's scope. */
  lemma SymbolPatternBinds(name: string, t: VeniceType, scope: SymbolTable)
    ensures var r := CompilePattern(A.SymbolPattern(name), t, scope);
      r.Ok? && r.value.0 == [StoreName(name), PushConstBool(true)]
      && Get(r.value.1, name) == Some(t)
  {
    PutThenGet(scope, name, t);
  }

  /** A compound pattern names a case of the matched enum and gives
      exactly one sub-pattern per value the case carries. */
  lemma CompoundPatternChecks(caseName: string, patterns: seq<A.Pattern>, t: VeniceType, scope: SymbolTable)
    ensures var r := CompilePattern(A.CompoundPattern(caseName, patterns), t, scope);
      && (!t.EnumType? ==> r == Err(CompileError(PatternOnNonEnum)))
      && (t.EnumType? && (forall k :: 0 <= k < |t.cases| ==> t.cases[k].caseName != caseName) ==>
            r == Err(CompileError(CaseNotFound(caseName))))
      && (r.Ok? ==> exists k :: 0 <= k < |t.cases| && t.cases[k].caseName == caseName
                      && |t.cases[k].types| == |patterns|)
  {
    var r := CompilePattern(A.CompoundPattern(caseName, patterns), t, scope);
    if r.Ok? {
      var k := CaseIndex(t.cases, caseName).value;
      assert t.cases[k].caseName == caseName && |t.cases[k].types| == |patterns|;
    }
  }

  /** A compound pattern's first jump, taken when the label differs, lands
      just past the pattern's code. */
  lemma CompoundPatternFailsToEnd(caseName: string, patterns: seq<A.Pattern>, t: VeniceType, scope: SymbolTable)
    ensures var r := CompilePattern(A.CompoundPattern(caseName, patterns), t, scope);
      r.Ok? ==>
        |r.value.0| >= 2 && r.value.0[0] == CheckLabel(caseName)
        && r.value.0[1].RelJumpIfFalseOrPop? && 1 + r.value.0[1].offset == |r.value.0|
  {
    var r := CompilePattern(A.CompoundPattern(caseName, patterns), t, scope);
    if r.Ok? {
      var k := CaseIndex(t.cases, caseName).value;
      var sub := CompileSubpatterns(patterns, t.cases[k].types, 0, scope).value.0;
      var code := [CheckLabel(caseName), Placeholder("pattern")] + sub;
      assert code[1] == Placeholder("pattern") && code[0] == CheckLabel(caseName);
    }
  }

  /** `match` requires an enum subject. */
  lemma MatchNeedsEnum(ec: ExprCompiler, c: Compiler, subject: A.Expr, cases: seq<A.MatchClause>, default: seq<A.Stmt>)
    requires ec(c, subject, Void).Ok? && !ec(c, subject, Void).value.1.EnumType?
    ensures var r := CompileStatement(ec, L.Corrected, c, A.MatchStatementNode(subject, cases, default));
      r == Err(CompileError(MatchOnNonEnum(TypeString(ec(c, subject, Void).value.1))))
  {
    var s := A.MatchStatementNode(subject, cases, default);
    assert CompileStatement(ec, L.Corrected, c, s) == CompileMatch(ec, L.Corrected, c, s);
  }

  // ---------------------------------------------------------------------
  // Declarations by `let` and assignment

  /** A name visible from the current scope cannot be declared again. */
  lemma LetRejectsRedeclaration(ec: ExprCompiler, v: L.Variant, c: Compiler, symbol: string,
    declared: A.Annotation, isVar: bool, value: A.Expr)
    requires Get(c.symbols, symbol).Some?
    ensures CompileStatement(ec, v, c, A.LetStatement(symbol, declared, isVar, value))
      == Err(CompileError(Redeclaration(symbol)))
  {
  }

  /** A successful `let` binds the symbol in the current scope to the
      value's type (accepted by the annotation, if any), as a variable
      exactly when declared with `var`, and leaves every other name alone. */
  lemma LetBinds(ec: ExprCompiler, v: L.Variant, c: Compiler, symbol: string,
    declared: A.Annotation, isVar: bool, value: A.Expr)
    ensures var r := CompileStatement(ec, v, c, A.LetStatement(symbol, declared, isVar, value));
      r.Ok? ==>
        var t := ResolveAnnotation(c.types, declared).value;
        var e := ec(c, value, t).value;
        GetBinding(r.value.1.symbols, symbol) == Some(Binding(isVar, e.1))
        && (t != Void ==> Accepts(t, e.1))
        && r.value.0 == e.0 + [StoreName(symbol)]
        && (forall y :: y != symbol ==> GetBinding(r.value.1.symbols, y) == GetBinding(c.symbols, y))
  {
  }

  /** Assigning to a name no scope declares is an error. */
  lemma AssignToUndeclaredFails(ec: ExprCompiler, v: L.Variant, c: Compiler, name: string, value: A.Expr)
    requires ec(c, value, Void).Ok? && Get(c.symbols, name).None?
    ensures CompileStatement(ec, v, c, A.AssignStatement(A.SymbolNode(name), value))
      == Err(CompileError(AssignToUndeclared(name)))
  {
    GetAgreesWithGetBinding(c.symbols, name);
  }

  /** After `let var x = e`, assigning x a value its type accepts stores
      it; after `let x = e`, any assignment to x is refused. */
  lemma LetThenAssign(ec: ExprCompiler, v: L.Variant, c: Compiler, symbol: string,
    declared: A.Annotation, isVar: bool, value: A.Expr, newValue: A.Expr)
    requires CompileStatement(ec, v, c, A.LetStatement(symbol, declared, isVar, value)).Ok?
    ensures var c1 := CompileStatement(ec, v, c, A.LetStatement(symbol, declared, isVar, value)).value.1;
      var eType := ec(c, value, ResolveAnnotation(c.types, declared).value).value.1;
      var n := ec(c1, newValue, Void);
      var r := CompileStatement(ec, v, c1, A.AssignStatement(A.SymbolNode(symbol), newValue));
      n.Ok? ==>
        (!isVar ==> r == Err(CompileError(AssignToConst(symbol))))
        && (isVar && Accepts(eType, n.value.1) ==> r == Ok((n.value.0 + [StoreName(symbol)], c1)))
  {
    LetBinds(ec, v, c, symbol, declared, isVar, value);
    var c1 := CompileStatement(ec, v, c, A.LetStatement(symbol, declared, isVar, value)).value.1;
    GetAgreesWithGetBinding(c1.symbols, symbol);
    var r := CompileStatement(ec, v, c1, A.AssignStatement(A.SymbolNode(symbol), newValue));
    assert r == CompileAssign(ec, v, c1, A.SymbolNode(symbol), newValue);
  }

  // ---------------------------------------------------------------------
  // Return statements

  /** `return` outside a function body is an error, with or without a value. */
  lemma ReturnNeedsAFunction(ec: ExprCompiler, v: L.Variant, c: Compiler, result: A.ReturnValue)
    requires c.functionInfo.None?
    ensures CompileStatement(ec, v, c, A.ReturnStatement(result)) == Err(CompileError(ReturnOutsideFunction))
  {
  }

  /** A returned value must be accepted by the declared return type; once
      one is, the function is marked as returning. A bare `return` is only
      allowed in a function without a return type. */
  lemma ReturnChecksDeclaredType(ec: ExprCompiler, v: L.Variant, c: Compiler, result: A.ReturnValue)
    requires c.functionInfo.Some?
    ensures var r := CompileStatement(ec, v, c, A.ReturnStatement(result));
      var declared := c.functionInfo.value.declaredReturnType;
      && (result.HasValue? && r.Ok? ==>
            Accepts(declared, ec(c, result.value, Void).value.1)
            && r.value.1.functionInfo == Some(FunctionInfo(declared, true))
            && r.value.0 == ec(c, result.value, Void).value.0 + [Return])
      && (result.NoValue? ==>
            r == if declared == Void then Ok(([Return], c)) else Err(CompileError(VoidReturnFromNonVoid)))
  {
  }

  /** As written, returning a value from a function without a return type
      formats the nil declared type and panics. */
  lemma VoidFunctionReturnPanicsAsWritten(ec: ExprCompiler, c: Compiler, e: A.Expr)
    requires c.functionInfo == Some(FunctionInfo(Void, false))
    requires ec(c, e, Void).Ok? && ec(c, e, Void).value.1 == IntegerType
    ensures CompileStatement(ec, L.AsWritten, c, A.ReturnStatement(A.HasValue(e))) == Err(NilDereference)
  {
    assert TypeText(IntegerType) == Some("int");
  }

  /** Corrected, the same return is reported as a type conflict. */
  lemma VoidFunctionReturnReportedCorrected(ec: ExprCompiler, c: Compiler, e: A.Expr)
    requires c.functionInfo == Some(FunctionInfo(Void, false))
    requires ec(c, e, Void).Ok? && ec(c, e, Void).value.1 == IntegerType
    ensures CompileStatement(ec, L.Corrected, c, A.ReturnStatement(A.HasValue(e)))
      == Err(CompileError(ConflictingReturnTypes("int", "void")))
  {
  }

  // ---------------------------------------------------------------------
  // Index assignment messages

  /** As written, a map index of the wrong type is reported as not being
      an integer, whatever the map's key type. */
  lemma MapIndexMessageAsWritten(ec: ExprCompiler, c: Compiler, container: A.Expr, index: A.Expr, value: A.Expr)
    requires ec(c, value, Void).Ok? && ec(c, container, Void).Ok? && ec(c, index, Void).Ok?
    requires ec(c, container, Void).value.1.MapType?
    requires Accepts(ec(c, container, Void).value.1.valueType, ec(c, value, Void).value.1)
    requires !Accepts(ec(c, container, Void).value.1.keyType, ec(c, index, Void).value.1)
    requires Printable(ec(c, index, Void).value.1)
    ensures CompileStatement(ec, L.AsWritten, c, A.AssignStatement(A.IndexNode(container, index), value))
      == Err(CompileError(MapIndexWrongType("integer", TypeString(ec(c, index, Void).value.1))))
  {
    TypeTextAgrees(ec(c, index, Void).value.1);
  }

  /** Corrected, the message names the key type the map expects. */
  lemma MapIndexMessageCorrected(ec: ExprCompiler, c: Compiler, container: A.Expr, index: A.Expr, value: A.Expr)
    requires ec(c, value, Void).Ok? && ec(c, container, Void).Ok? && ec(c, index, Void).Ok?
    requires ec(c, container, Void).value.1.MapType?
    requires Accepts(ec(c, container, Void).value.1.valueType, ec(c, value, Void).value.1)
    requires !Accepts(ec(c, container, Void).value.1.keyType, ec(c, index, Void).value.1)
    ensures CompileStatement(ec, L.Corrected, c, A.AssignStatement(A.IndexNode(container, index), value))
      == Err(CompileError(MapIndexWrongType(
           TypeString(ec(c, container, Void).value.1.keyType), TypeString(ec(c, index, Void).value.1))))
  {
  }

  /** A list element is stored only when the list accepts the value and
      the index is an integer. */
  lemma ListIndexAssign(ec: ExprCompiler, v: L.Variant, c: Compiler, container: A.Expr, index: A.Expr, value: A.Expr)
    requires ec(c, value, Void).Ok? && ec(c, container, Void).Ok? && ec(c, index, Void).Ok?
    requires ec(c, container, Void).value.1.ListType?
    ensures var r := CompileStatement(ec, v, c, A.AssignStatement(A.IndexNode(container, index), value));
      r.Ok? <==>
        Accepts(ec(c, container, Void).value.1.itemType, ec(c, value, Void).value.1)
        && Accepts(IntegerType, ec(c, index, Void).value.1)
    ensures var r := CompileStatement(ec, v, c, A.AssignStatement(A.IndexNode(container, index), value));
      r.Ok? ==> r.value == (ec(c, value, Void).value.0 + ec(c, index, Void).value.0
                            + ec(c, container, Void).value.0 + [StoreIndex], c)
  {
  }

  // ---------------------------------------------------------------------
  // Type expressions

  /** A type name no scope of the type table binds is an error, plain or
      with parameters. */
  lemma UnknownTypeRejected(types: SymbolTable, name: string, parameters: seq<A.TypeNode>)
    requires Get(types, name).None?
    ensures ResolveType(types, A.SymbolType(name)) == Err(CompileError(UnknownType(name)))
    ensures ResolveType(types, A.ParameterizedTypeNode(name, parameters)) == Err(CompileError(UnknownType(name)))
  {
  }

  /** A parameterised type takes exactly as many arguments as the named
      type declares generic parameters. */
  lemma GenericArityChecked(types: SymbolTable, name: string, parameters: seq<A.TypeNode>)
    requires Get(types, name).Some?
    requires |parameters| != |GenericParameters(Get(types, name).value)|
    ensures ResolveType(types, A.ParameterizedTypeNode(name, parameters))
      == Err(CompileError(GenericArity(|GenericParameters(Get(types, name).value)|, |parameters|)))
  {
  }

  /** Instantiating `Optional` at a type gives the optional of that type. */
  lemma OptionalInstance(t: VeniceType)
    ensures Substitute(map["T" := t], Optional) == OptionalOf(t)
  {
    var cases := Substitute(map["T" := t], Optional).cases;
    assert cases[0] == CaseType("Some", [t]);
    assert cases[1] == CaseType("None", []);
    assert cases == [CaseType("Some", [t]), CaseType("None", [])];
  }

  /** `Optional<int>` in the builtin type table is the optional of int. */
  lemma OptionalIntResolves()
    ensures ResolveType(BuiltinTypeTable(), A.ParameterizedTypeNode("Optional", [A.SymbolType("int")]))
      == Ok(OptionalOf(IntegerType))
  {
    var types := BuiltinTypeTable();
    assert Get(types, "Optional") == Some(Optional);
    assert Get(types, "int") == Some(IntegerType);
    assert [A.SymbolType("int")][1..] == [];
    assert ResolveType(types, A.SymbolType("int")) == Ok(IntegerType);
    assert ResolveTypes(types, []) == Ok([]);
    assert [IntegerType] + [] == [IntegerType];
    assert ResolveTypes(types, [A.SymbolType("int")]) == Ok([IntegerType]);
    assert ZipMap(["T"], [IntegerType]) == map["T" := IntegerType];
    OptionalInstance(IntegerType);
  }

  // ---------------------------------------------------------------------
  // Calls

  /** A call with the wrong number of arguments is refused before any
      argument is compiled; a method's receiver counts as one. */
  lemma ArgumentCountChecked(ec: ExprCompiler, c: Compiler, args: seq<A.Expr>, f: VeniceType, isMethod: bool)
    requires f.FunctionType?
    requires |f.paramTypes| != |args| + (if isMethod then 1 else 0)
    ensures CompileArguments(ec, c, args, f, isMethod)
      == Err(CompileError(WrongArgumentCount(|f.paramTypes|, |args| + (if isMethod then 1 else 0))))
  {
  }

  /** Against concrete parameter types, the arguments compile exactly when
      each compiles and its parameter accepts its type, and the type table
      is left as it was. */
  lemma {:induction false} ConcreteArguments(ec: ExprCompiler, c: Compiler, args: seq<A.Expr>,
    params: seq<VeniceType>, skip: nat, i: nat)
    requires i <= |args| && |params| == |args| + skip
    requires forall k :: skip <= k < |params| ==> !params[k].SymbolType?
    ensures var r := CompileArgumentsFrom(ec, c, args, params, skip, i);
      (r.Ok? <==> forall k :: 0 <= k < i ==>
                    ec(c, args[k], Void).Ok? && Accepts(params[k + skip], ec(c, args[k], Void).value.1))
      && (r.Ok? ==> r.value.1 == c)
    decreases i
  {
    if i > 0 {
      ConcreteArguments(ec, c, args, params, skip, i - 1);
      var a := ec(c, args[i - 1], Void);
      if a.Ok? {
        assert CheckAndBind(c.types, params[i - 1 + skip], a.value.1) == (Accepts(params[i - 1 + skip], a.value.1), c.types);
        assert c.(types := c.types) == c;
      }
    }
  }

  /** A generic identity function returns the type of its argument. */
  lemma GenericIdentityCall(ec: ExprCompiler, c: Compiler, arg: A.Expr, name: string)
    requires ec(c.(types := SpawnChild(c.types)), arg, Void).Ok?
    ensures var f := FunctionType(name, false, ["T"], [SymbolType("T")], SymbolType("T"), false);
      var r := CompileArguments(ec, c, [arg], f, false);
      r.Ok? && r.value.1 == ec(c.(types := SpawnChild(c.types)), arg, Void).value.1
  {
    var f := FunctionType(name, false, ["T"], [SymbolType("T")], SymbolType("T"), false);
    var c0 := c.(types := SpawnChild(c.types));
    var t := ec(c0, arg, Void).value.1;
    var c1 := c0.(types := Put(c0.types, "T", t));
    assert CompileArgumentsFrom(ec, c1, [arg], f.paramTypes, 0, 0) == Ok(([], c1));
    assert c1.types.symbols == map["T" := Binding(false, t)];
    var bindings := map k | k in c1.types.symbols :: c1.types.symbols[k].bindingType;
    assert bindings == map["T" := t];
  }

  // ---------------------------------------------------------------------
  // Declarations

  /** A class declaration binds the class in the type table, with its
      fields in order and their visibility, and touches nothing else. */
  lemma ClassDeclared(c: Compiler, name: string, fields: seq<A.ClassField>)
    ensures var r := CompileClassDeclaration(c, name, fields);
      (r.Ok? <==> ResolveFields(c.types, fields).Ok?)
      && (r.Ok? ==>
            var t := Get(r.value.types, name);
            t.Some? && t.value.ClassType? && t.value.name == name && |t.value.fields| == |fields|
            && (forall i :: 0 <= i < |fields| ==>
                  t.value.fields[i].name == fields[i].name && t.value.fields[i].public == fields[i].public)
            && r.value.symbols == c.symbols && r.value.program == c.program)
  {
    var r := CompileClassDeclaration(c, name, fields);
    if r.Ok? {
      PutThenGet(c.types, name, ClassType(name, [], ResolveFields(c.types, fields).value, []));
    }
  }

  /** Different cases of one enum have different constructor functions. */
  lemma ConstructorNamesDiffer(enumName: string, a: string, b: string)
    requires a != b
    ensures ConstructorName(enumName, a) != ConstructorName(enumName, b)
  {
    var x, y := ConstructorName(enumName, a), ConstructorName(enumName, b);
    assert x[|enumName| + 2..] == a && y[|enumName| + 2..] == b;
  }

  /** The constructors of an enum's cases. */
  function Constructors(name: string, cases: seq<A.EnumCase>): set<string> {
    set i | 0 <= i < |cases| :: ConstructorName(name, cases[i].name)
  }

  /** Declaring an enum adds exactly one function per case name. */
  lemma {:induction false} CaseConstructorKeys(program: map<string, Code>, name: string, cases: seq<A.EnumCase>)
    ensures CaseConstructors(program, name, cases).Keys == program.Keys + Constructors(name, cases)
    decreases |cases|
  {
    if |cases| > 0 {
      var n := |cases| - 1;
      CaseConstructorKeys(program, name, cases[..n]);
      assert forall i :: 0 <= i < n ==> cases[..n][i] == cases[i];
      assert Constructors(name, cases) == Constructors(name, cases[..n]) + {ConstructorName(name, cases[n].name)};
    }
  }

  /** With distinct case names, each case's constructor pushes that case
      with its number of values, and the program's other functions are
      kept. */
  lemma {:induction false} CaseConstructorCode(program: map<string, Code>, name: string, cases: seq<A.EnumCase>)
    requires forall i, j :: 0 <= i < j < |cases| ==> cases[i].name != cases[j].name
    ensures var r := CaseConstructors(program, name, cases);
      (forall i :: 0 <= i < |cases| ==>
         ConstructorName(name, cases[i].name) in r
         && r[ConstructorName(name, cases[i].name)] == [PushEnum(cases[i].name, |cases[i].types|)])
      && (forall k :: k in program && k !in Constructors(name, cases) ==> k in r && r[k] == program[k])
    decreases |cases|
  {
    if |cases| > 0 {
      var n := |cases| - 1;
      var init := cases[..n];
      assert forall i :: 0 <= i < n ==> init[i] == cases[i];
      CaseConstructorCode(program, name, init);
      var prev := CaseConstructors(program, name, init);
      var last := ConstructorName(name, cases[n].name);
      var r := CaseConstructors(program, name, cases);
      assert r == prev[last := [PushEnum(cases[n].name, |cases[n].types|)]];
      forall i | 0 <= i < |cases|
        ensures ConstructorName(name, cases[i].name) in r
        ensures r[ConstructorName(name, cases[i].name)] == [PushEnum(cases[i].name, |cases[i].types|)]
      {
        if i < n {
          ConstructorNamesDiffer(name, cases[i].name, cases[n].name);
          assert ConstructorName(name, init[i].name) in prev;
        }
      }
      forall k | k in program && k !in Constructors(name, cases)
        ensures k in r && r[k] == program[k]
      {
        assert k != last;
        assert k !in Constructors(name, init);
      }
    }
  }

  /** An enum declaration binds the enum, with one case per declared case
      in order and its type parameter as its only generic parameter. */
  lemma EnumDeclared(c: Compiler, name: string, parameter: string, cases: seq<A.EnumCase>)
    ensures var r := CompileEnumDeclaration(c, name, parameter, cases);
      r.Ok? ==>
        var t := Get(r.value.types, name);
        t.Some? && t.value.EnumType? && t.value.name == name
        && t.value.genericParameters == (if parameter != "" then [parameter] else [])
        && |t.value.cases| == |cases|
        && (forall i :: 0 <= i < |cases| ==>
              t.value.cases[i].caseName == cases[i].name && |t.value.cases[i].types| == |cases[i].types|)
        && r.value.symbols == c.symbols
  {
    var r := CompileEnumDeclaration(c, name, parameter, cases);
    if r.Ok? {
      var outer := Put(c.types, name, EnumType(name, [], []));
      var scope := if parameter != "" then Put(SpawnChild(outer), parameter, SymbolType(parameter)) else outer;
      var generics := if parameter != "" then [parameter] else [];
      PutThenGet(outer, name, EnumType(name, generics, ResolveCases(scope, cases).value));
    }
  }

  /** A function declaration binds the function's name to its signature,
      leaves the function context, and stores the code that binds the
      parameters followed by the body's code. */
  lemma FunctionDeclared(ec: ExprCompiler, v: L.Variant, c: Compiler, name: string,
    params: seq<A.Param>, returnType: A.Annotation, body: seq<A.Stmt>)
    ensures var r := CompileFunctionDeclaration(ec, v, c, name, params, returnType, body);
      r.Ok? ==>
        var f := Get(r.value.symbols, name);
        f.Some? && f.value.FunctionType? && f.value.name == name
        && f.value.paramTypes == ResolveParams(c.types, params).value
        && f.value.returnType == ResolveAnnotation(c.types, returnType).value
        && r.value.functionInfo.None?
        && name in r.value.program && |params| <= |r.value.program[name]|
        && r.value.program[name][..|params|] == StoreParams(params)
  {
    var r := CompileFunctionDeclaration(ec, v, c, name, params, returnType, body);
    if r.Ok? {
      var paramTypes := ResolveParams(c.types, params).value;
      var declared := ResolveAnnotation(c.types, returnType).value;
      PutThenGet(c.symbols, name, FunctionType(name, false, [], paramTypes, declared, false));
    }
  }

  /** A function with a return type whose body is empty is refused. */
  lemma EmptyBodyNeedsReturn(ec: ExprCompiler, v: L.Variant, c: Compiler, name: string,
    params: seq<A.Param>, returnType: A.Annotation)
    requires ResolveParams(c.types, params).Ok?
    requires ResolveAnnotation(c.types, returnType).Ok? && ResolveAnnotation(c.types, returnType).value != Void
    ensures CompileFunctionDeclaration(ec, v, c, name, params, returnType, []) == Err(CompileError(MissingReturn))
  {
    var paramTypes := ResolveParams(c.types, params).value;
    var declared := ResolveAnnotation(c.types, returnType).value;
    var outer := Put(c.symbols, name, FunctionType(name, false, [], paramTypes, declared, false));
    var inner := c.(symbols := PutParams(SpawnChild(outer), params, paramTypes),
                    functionInfo := Some(FunctionInfo(declared, false)));
    assert CompileStatements(ec, v, inner.(symbols := SpawnChild(inner.symbols)), []).value.1.functionInfo
      == Some(FunctionInfo(declared, false));
  }

  // ---------------------------------------------------------------------
  // Modules

  /** An import makes each of the module's functions, except its top-level
      code, available as `module::function`, and nothing else. */
  lemma ImportedFunctionsQualified(moduleName: string, imported: map<string, Code>)
    ensures var r := ImportedFunctions(moduleName, imported);
      (forall k :: k in imported && k != "main" ==>
         moduleName + "::" + k in r && r[moduleName + "::" + k] == imported[k])
      && (forall q :: q in r ==> exists k :: k in imported && k != "main" && q == moduleName + "::" + k)
      && moduleName + "::" + "main" !in r
  {
    var prefix := moduleName + "::";
    forall k | k in imported && k != "main"
      ensures prefix + k in ImportedFunctions(moduleName, imported)
      ensures ImportedFunctions(moduleName, imported)[prefix + k] == imported[k]
    {
      assert (prefix + k)[|prefix|..] == k;
    }
    forall q | q in ImportedFunctions(moduleName, imported)
      ensures exists k :: k in imported && k != "main" && q == prefix + k
    {
      var k :| k in imported && k != "main" && q == prefix + k;
    }
  }

  /** Top-level code is appended to `main`; every other function of the
      program is kept as it was. */
  lemma TopLevelAppendsToMain(ec: ExprCompiler, importer: Importer, v: L.Variant, c: Compiler, s: A.Stmt)
    requires !s.ClassDeclaration? && !s.EnumDeclaration? && !s.FunctionDeclaration? && !s.ImportStatement?
    ensures var r := CompileModuleStatement(ec, importer, v, c, s);
      r.Ok? ==>
        var before := if "main" in c.program then c.program["main"] else [];
        "main" in r.value.program
        && r.value.program["main"] == before + CompileStatement(ec, v, c, s).value.0
        && (forall k :: k != "main" ==> (k in r.value.program <==> k in c.program))
        && (forall k :: k != "main" && k in c.program ==> r.value.program[k] == c.program[k])
  {
    var r := CompileModuleStatement(ec, importer, v, c, s);
    if r.Ok? {
      StatementFrame(ec, v, c, s);
    }
  }
}

=== FILE: go_compiler_scopes.dfy ===
/** Invariants of the Go statement compiler, proved by induction over the
    statement tree: what a statement may change in the compiler state, and
    which jump placeholders may survive in the code it produces. */
module GoCompilerScopes {
  import opened Wrappers
  import opened GoTypes
  import opened GoSymbols
  import opened GoCompiler
  import A = GoAst
  import L = GoLexer

  /** Both states are inside the same function (or both outside one), with
      the same declared return type. */
  predicate SameFunction(a: Option<FunctionInfo>, b: Option<FunctionInfo>) {
    (a.None? <==> b.None?) &&
    (a.Some? && b.Some? ==> a.value.declaredReturnType == b.value.declaredReturnType)
  }

  /** Everything but the current scope is as before. */
  predicate FrameRest(c: Compiler, d: Compiler) {
    d.types == c.types && d.program == c.program && d.nestedLoopCount == c.nestedLoopCount
    && SameFunction(c.functionInfo, d.functionInfo)
  }

  /** A statement may bind names in the current scope, but it leaves that
      scope's place in the chain and the rest of the state alone. */
  predicate Frame(c: Compiler, d: Compiler) {
    d.symbols.parent == c.symbols.parent && FrameRest(c, d)
  }

  lemma {:induction false} StatementFrame(ec: ExprCompiler, v: L.Variant, c: Compiler, s: A.Stmt)
    ensures var r := CompileStatement(ec, v, c, s); r.Ok? ==> Frame(c, r.value.1)
    decreases s, 2
  {
    match s
    case ForLoop(_, _, _) => ForFrame(ec, v, c, s);
    case IfStatement(_, _) => IfFrame(ec, v, c, s);
    case MatchStatementNode(_, _, _) => MatchFrame(ec, v, c, s);
    case WhileLoop(_, _) => WhileFrame(ec, v, c, s);
    case AssignStatement(_, _) => AssignFrame(ec, v, c, s);
    case LetStatement(_, _, _, _) => LetFrame(ec, v, c, s);
    case ReturnStatement(_) => ReturnFrame(ec, v, c, s);
    case BreakStatement =>
    case ContinueStatement =>
    case ExpressionStatement(_) =>
    case ClassDeclaration(_, _, _) =>
    case EnumDeclaration(_, _, _) =>
    case FunctionDeclaration(_, _, _, _) =>
    case ImportStatement(_, _) =>
  }

  /** An assignment changes no compiler state. */
  lemma AssignFrame(ec: ExprCompiler, v: L.Variant, c: Compiler, s: A.Stmt)
    requires s.AssignStatement?
    ensures var r := CompileStatement(ec, v, c, s); r.Ok? ==> r.value.1 == c
  {
  }

  lemma LetFrame(ec: ExprCompiler, v: L.Variant, c: Compiler, s: A.Stmt)
    requires s.LetStatement?
    ensures var r := CompileStatement(ec, v, c, s); r.Ok? ==> Frame(c, r.value.1)
  {
  }

  lemma ReturnFrame(ec: ExprCompiler, v: L.Variant, c: Compiler, s: A.Stmt)
    requires s.ReturnStatement?
    ensures var r := CompileStatement(ec, v, c, s); r.Ok? ==> Frame(c, r.value.1)
  {
  }

  /** A block leaves the compiler in the scope it started in. */
  lemma {:induction false} BlockFrame(ec: ExprCompiler, v: L.Variant, c: Compiler, block: seq<A.Stmt>)
    ensures var r := CompileBlock(ec, v, c, block);
      r.Ok? ==> r.value.1.symbols == c.symbols && FrameRest(c, r.value.1)
    decreases block, 1
  {
    StatementsFrame(ec, v, c.(symbols := SpawnChild(c.symbols)), block);
  }

  lemma {:induction false} StatementsFrame(ec: ExprCompiler, v: L.Variant, c: Compiler, ss: seq<A.Stmt>)
    ensures var r := CompileStatements(ec, v, c, ss); r.Ok? ==> Frame(c, r.value.1)
    decreases ss, 0
  {
    if |ss| > 0 {
      StatementFrame(ec, v, c, ss[0]);
      var first := CompileStatement(ec, v, c, ss[0]);
      if first.Ok? {
        StatementsFrame(ec, v, first.value.1, ss[1..]);
      }
    }
  }

  lemma LoopScopeParent(t: SymbolTable, variables: seq<string>, iterableType: VeniceType)
    ensures var r := LoopScope(t, variables, iterableType); r.Ok? ==> r.value.parent == t.parent
  {
  }

  lemma {:induction false} ForFrame(ec: ExprCompiler, v: L.Variant, c: Compiler, s: A.Stmt)
    requires s.ForLoop?
    ensures var r := CompileStatement(ec, v, c, s); r.Ok? ==> Frame(c, r.value.1) && r.value.1.symbols == c.symbols
    decreases s, 1
  {
    assert CompileStatement(ec, v, c, s) == CompileForLoop(ec, v, c, s);
    var r := CompileStatement(ec, v, c, s);
    if r.Ok? {
      var iterableType := ec(c, s.iterable, Void).value.1;
      LoopScopeParent(SpawnChild(c.symbols), s.variables, iterableType);
      var scope := LoopScope(SpawnChild(c.symbols), s.variables, iterableType).value;
      BlockFrame(ec, v, c.(symbols := scope, nestedLoopCount := c.nestedLoopCount + 1), s.body);
    }
  }

  lemma {:induction false} WhileFrame(ec: ExprCompiler, v: L.Variant, c: Compiler, s: A.Stmt)
    requires s.WhileLoop?
    ensures var r := CompileStatement(ec, v, c, s); r.Ok? ==> Frame(c, r.value.1)
    decreases s, 1
  {
    assert CompileStatement(ec, v, c, s) == CompileWhile(ec, v, c, s);
    BlockFrame(ec, v, c.(nestedLoopCount := c.nestedLoopCount + 1), s.body);
  }

  lemma {:induction false} IfFrame(ec: ExprCompiler, v: L.Variant, c: Compiler, s: A.Stmt)
    requires s.IfStatement?
    ensures var r := CompileStatement(ec, v, c, s); r.Ok? ==> Frame(c, r.value.1)
    decreases s, 1
  {
    assert CompileStatement(ec, v, c, s) == CompileIf(ec, v, c, s);
    if |s.clauses| > 0 {
      IfClausesFrame(ec, v, c, s.clauses);
      var clauses := CompileIfClauses(ec, v, c, s.clauses);
      if clauses.Ok? {
        BlockFrame(ec, v, clauses.value.1, s.elseClause);
      }
    }
  }

  lemma {:induction false} IfClausesFrame(ec: ExprCompiler, v: L.Variant, c: Compiler, clauses: seq<A.IfClause>)
    ensures var r := CompileIfClauses(ec, v, c, clauses);
      r.Ok? ==> r.value.1.symbols == c.symbols && FrameRest(c, r.value.1)
    decreases clauses, 0
  {
    if |clauses| > 0 {
      BlockFrame(ec, v, c, clauses[0].body);
      var body := CompileBlock(ec, v, c, clauses[0].body);
      if body.Ok? {
        IfClausesFrame(ec, v, body.value.1, clauses[1..]);
      }
    }
  }

  lemma {:induction false} MatchFrame(ec: ExprCompiler, v: L.Variant, c: Compiler, s: A.Stmt)
    requires s.MatchStatementNode?
    ensures var r := CompileStatement(ec, v, c, s); r.Ok? ==> Frame(c, r.value.1)
    decreases s, 1
  {
    assert CompileStatement(ec, v, c, s) == CompileMatch(ec, v, c, s);
    var subject := ec(c, s.subject, Void);
    if subject.Ok? {
      MatchClausesFrame(ec, v, c, subject.value.1, s.cases);
    }
  }

  lemma {:induction false} MatchClausesFrame(ec: ExprCompiler, v: L.Variant, c: Compiler, enumType: VeniceType,
    clauses: seq<A.MatchClause>)
    ensures var r := CompileMatchClauses(ec, v, c, enumType, clauses);
      r.Ok? ==> r.value.1.symbols == c.symbols && FrameRest(c, r.value.1)
    decreases clauses, 0
  {
    if |clauses| > 0 {
      PatternParent(clauses[0].pattern, enumType, SpawnChild(c.symbols));
      var pattern := CompilePattern(clauses[0].pattern, enumType, SpawnChild(c.symbols));
      if pattern.Ok? {
        var scope := pattern.value.1;
        BlockFrame(ec, v, c.(symbols := scope), clauses[0].body);
        var body := CompileBlock(ec, v, c.(symbols := scope), clauses[0].body);
        if body.Ok? {
          MatchClausesFrame(ec, v, body.value.1.(symbols := Parent(body.value.1.symbols)), enumType, clauses[1..]);
        }
      }
    }
  }

  /** Patterns bind into the scope they are given, never beyond it. */
  lemma {:induction false} PatternParent(p: A.Pattern, t: VeniceType, scope: SymbolTable)
    ensures var r := CompilePattern(p, t, scope); r.Ok? ==> r.value.1.parent == scope.parent
    decreases p, 1
  {
    match p
    case SymbolPattern(_) =>
    case CompoundPattern(caseName, patterns) =>
      if t.EnumType? && CaseIndex(t.cases, caseName).Some? {
        var caseTypes := t.cases[CaseIndex(t.cases, caseName).value].types;
        if |patterns| == |caseTypes| {
          SubpatternsParent(patterns, caseTypes, 0, scope);
        }
      }
  }

  lemma {:induction false} SubpatternsParent(patterns: seq<A.Pattern>, types: seq<VeniceType>, i: nat, scope: SymbolTable)
    requires |patterns| <= |types|
    ensures var r := CompileSubpatterns(patterns, types, i, scope); r.Ok? ==> r.value.1.parent == scope.parent
    decreases patterns, 0, |patterns| - i
  {
    if i < |patterns| {
      PatternParent(patterns[i], types[i], scope);
      var first := CompilePattern(patterns[i], types[i], scope);
      if first.Ok? {
        SubpatternsParent(patterns, types, i + 1, first.value.1);
      }
    }
  }

  // ---------------------------------------------------------------------
  // Placeholders

  /** Every placeholder left in `code` is named in `names`. */
  predicate PlaceholdersAmong(code: Code, names: set<string>) {
    forall i :: 0 <= i < |code| && code[i].Placeholder? ==> code[i].name in names
  }

  /** The expression compiler emits no placeholders. */
  ghost predicate CleanExpressions(ec: ExprCompiler) {
    forall c, e, hint :: ec(c, e, hint).Ok? ==> PlaceholdersAmong(ec(c, e, hint).value.0, {})
  }

  const LoopExits: set<string> := {"break", "continue"}

  /** The placeholders a statement may leave for an enclosing loop to
      patch: none outside loops once `for` loops patch their own. */
  function Exits(v: L.Variant, c: Compiler): set<string> {
    if v == L.Corrected && c.nestedLoopCount == 0 then {} else LoopExits
  }

  lemma AmongConcat(a: Code, b: Code, names: set<string>)
    requires PlaceholdersAmong(a, names) && PlaceholdersAmong(b, names)
    ensures PlaceholdersAmong(a + b, names)
  {
  }

  lemma AmongWeaken(a: Code, names: set<string>, more: set<string>)
    requires PlaceholdersAmong(a, names) && names <= more
    ensures PlaceholdersAmong(a, more)
  {
  }

  lemma PatchAmong(code: Code, name: string, target: int, names: set<string>)
    requires PlaceholdersAmong(code, names)
    ensures PlaceholdersAmong(Patch(code, name, target), names - {name})
  {
  }

  lemma PatchPatternAmong(code: Code, target: int, names: set<string>)
    requires PlaceholdersAmong(code, names)
    ensures PlaceholdersAmong(PatchPattern(code, target), names - {"pattern"})
  {
  }

  /** Patching both loop exits leaves no placeholder behind. */
  lemma PatchExits(raw: Code, breakTarget: int, continueTarget: int)
    requires PlaceholdersAmong(raw, LoopExits)
    ensures PlaceholdersAmong(Patch(Patch(raw, "break", breakTarget), "continue", continueTarget), {})
  {
    PatchAmong(raw, "break", breakTarget, LoopExits);
    assert LoopExits - {"break"} == {"continue"};
    PatchAmong(Patch(raw, "break", breakTarget), "continue", continueTarget, {"continue"});
    assert {"continue"} - {"continue"} == {};
  }

  lemma {:induction false} StatementPlaceholders(ec: ExprCompiler, v: L.Variant, c: Compiler, s: A.Stmt)
    requires CleanExpressions(ec)
    ensures var r := CompileStatement(ec, v, c, s); r.Ok? ==> PlaceholdersAmong(r.value.0, Exits(v, c))
    decreases s, 2
  {
    var r := CompileStatement(ec, v, c, s);
    match s
    case ForLoop(_, _, _) => ForPlaceholders(ec, v, c, s);
    case IfStatement(_, _) => IfPlaceholders(ec, v, c, s);
    case MatchStatementNode(_, _, _) => MatchPlaceholders(ec, v, c, s);
    case WhileLoop(_, _) => WhilePlaceholders(ec, v, c, s);
    case AssignStatement(_, _) =>
      AssignPlaceholders(ec, v, c, s);
      if r.Ok? {
        AmongWeaken(r.value.0, {}, Exits(v, c));
      }
    case LetStatement(_, _, _, _) =>
      LetPlaceholders(ec, v, c, s);
      if r.Ok? {
        AmongWeaken(r.value.0, {}, Exits(v, c));
      }
    case ReturnStatement(_) =>
      ReturnPlaceholders(ec, v, c, s);
      if r.Ok? {
        AmongWeaken(r.value.0, {}, Exits(v, c));
      }
    case ExpressionStatement(_) =>
      if r.Ok? {
        AmongWeaken(r.value.0, {}, Exits(v, c));
      }
    case BreakStatement =>
    case ContinueStatement =>
    case ClassDeclaration(_, _, _) =>
    case EnumDeclaration(_, _, _) =>
    case FunctionDeclaration(_, _, _, _) =>
    case ImportStatement(_, _) =>
  }

  lemma AssignPlaceholders(ec: ExprCompiler, v: L.Variant, c: Compiler, s: A.Stmt)
    requires s.AssignStatement? && CleanExpressions(ec)
    ensures var r := CompileStatement(ec, v, c, s); r.Ok? ==> PlaceholdersAmong(r.value.0, {})
  {
    var d := s.destination;
    if d.FieldAccessNode? {
      FieldAssignPlaceholders(ec, v, c, d.target, d.fieldName, s.value);
    } else if d.IndexNode? {
      IndexAssignPlaceholders(ec, v, c, d.container, d.index, s.value);
    } else if d.SymbolNode? {
      SymbolAssignPlaceholders(ec, v, c, d.name, s.value);
    }
  }

  lemma FieldAssignPlaceholders(ec: ExprCompiler, v: L.Variant, c: Compiler, target: A.Expr, name: string, value: A.Expr)
    requires CleanExpressions(ec)
    ensures var r := CompileAssignToField(ec, v, c, target, name, value); r.Ok? ==> PlaceholdersAmong(r.value, {})
  {
  }

  lemma IndexAssignPlaceholders(ec: ExprCompiler, v: L.Variant, c: Compiler, container: A.Expr, index: A.Expr, value: A.Expr)
    requires CleanExpressions(ec)
    ensures var r := CompileAssignToIndex(ec, v, c, container, index, value); r.Ok? ==> PlaceholdersAmong(r.value, {})
  {
  }

  lemma SymbolAssignPlaceholders(ec: ExprCompiler, v: L.Variant, c: Compiler, name: string, value: A.Expr)
    requires CleanExpressions(ec)
    ensures var r := CompileAssignToSymbol(ec, v, c, name, value); r.Ok? ==> PlaceholdersAmong(r.value, {})
  {
  }

  lemma LetPlaceholders(ec: ExprCompiler, v: L.Variant, c: Compiler, s: A.Stmt)
    requires s.LetStatement? && CleanExpressions(ec)
    ensures var r := CompileStatement(ec, v, c, s); r.Ok? ==> PlaceholdersAmong(r.value.0, {})
  {
  }

  lemma ReturnPlaceholders(ec: ExprCompiler, v: L.Variant, c: Compiler, s: A.Stmt)
    requires s.ReturnStatement? && CleanExpressions(ec)
    ensures var r := CompileStatement(ec, v, c, s); r.Ok? ==> PlaceholdersAmong(r.value.0, {})
  {
  }

  lemma {:induction false} BlockPlaceholders(ec: ExprCompiler, v: L.Variant, c: Compiler, block: seq<A.Stmt>)
    requires CleanExpressions(ec)
    ensures var r := CompileBlock(ec, v, c, block); r.Ok? ==> PlaceholdersAmong(r.value.0, Exits(v, c))
    decreases block, 1
  {
    StatementsPlaceholders(ec, v, c.(symbols := SpawnChild(c.symbols)), block);
  }

  lemma {:induction false} StatementsPlaceholders(ec: ExprCompiler, v: L.Variant, c: Compiler, ss: seq<A.Stmt>)
    requires CleanExpressions(ec)
    ensures var r := CompileStatements(ec, v, c, ss); r.Ok? ==> PlaceholdersAmong(r.value.0, Exits(v, c))
    decreases ss, 0
  {
    if |ss| > 0 {
      StatementPlaceholders(ec, v, c, ss[0]);
      StatementFrame(ec, v, c, ss[0]);
      var first := CompileStatement(ec, v, c, ss[0]);
      if first.Ok? {
        StatementsPlaceholders(ec, v, first.value.1, ss[1..]);
        var rest := CompileStatements(ec, v, first.value.1, ss[1..]);
        if rest.Ok? {
          AmongConcat(first.value.0, rest.value.0, Exits(v, c));
        }
      }
    }
  }

  /** The raw loop layout before patching holds only the body's exits. */
  lemma LoopRawAmong(before: Code, body: Code, after: Code)
    requires PlaceholdersAmong(before, {}) && PlaceholdersAmong(body, LoopExits) && PlaceholdersAmong(after, {})
    ensures PlaceholdersAmong(before + body + after, LoopExits)
  {
    AmongWeaken(before, {}, LoopExits);
    AmongWeaken(after, {}, LoopExits);
    AmongConcat(before, body, LoopExits);
    AmongConcat(before + body, after, LoopExits);
  }

  /** The while layout patches both exits of its body. */
  lemma WhileCodeAmong(cond: Code, body: Code)
    requires PlaceholdersAmong(cond, {}) && PlaceholdersAmong(body, LoopExits)
    ensures PlaceholdersAmong(WhileCode(cond, body), {})
  {
    LoopRawAmong(cond + [RelJumpIfFalse(|body| + 2)], body, [RelJump(-(|cond| + |body| + 1))]);
    var raw := cond + [RelJumpIfFalse(|body| + 2)] + body + [RelJump(-(|cond| + |body| + 1))];
    PatchExits(raw, |raw|, 0);
  }

  /** The for layout keeps its body's exits as written, and patches them
      when corrected. */
  lemma ForCodeAmong(v: L.Variant, iterable: Code, variables: seq<string>, body: Code)
    requires PlaceholdersAmong(iterable, {}) && PlaceholdersAmong(body, LoopExits)
    ensures PlaceholdersAmong(ForCode(v, iterable, variables, body), if v == L.Corrected then {} else LoopExits)
  {
    var before := ForHead(iterable, variables, |body|);
    LoopRawAmong(before, body, [RelJump(-ForJump(variables, |body|))]);
    var raw := before + body + [RelJump(-ForJump(variables, |body|))];
    if v == L.Corrected {
      PatchExits(raw, |raw|, |iterable| + 1);
    }
  }

  lemma {:induction false} WhilePlaceholders(ec: ExprCompiler, v: L.Variant, c: Compiler, s: A.Stmt)
    requires s.WhileLoop? && CleanExpressions(ec)
    ensures var r := CompileStatement(ec, v, c, s); r.Ok? ==> PlaceholdersAmong(r.value.0, Exits(v, c))
    decreases s, 1
  {
    assert CompileStatement(ec, v, c, s) == CompileWhile(ec, v, c, s);
    var r := CompileStatement(ec, v, c, s);
    if r.Ok? {
      var cond := ec(c, s.condition, Void).value.0;
      var inner := c.(nestedLoopCount := c.nestedLoopCount + 1);
      BlockPlaceholders(ec, v, inner, s.body);
      var body := CompileBlock(ec, v, inner, s.body).value.0;
      assert Exits(v, inner) == LoopExits;
      WhileCodeAmong(cond, body);
      AmongWeaken(r.value.0, {}, Exits(v, c));
    }
  }

  lemma {:induction false} ForPlaceholders(ec: ExprCompiler, v: L.Variant, c: Compiler, s: A.Stmt)
    requires s.ForLoop? && CleanExpressions(ec)
    ensures var r := CompileStatement(ec, v, c, s); r.Ok? ==> PlaceholdersAmong(r.value.0, Exits(v, c))
    decreases s, 1
  {
    assert CompileStatement(ec, v, c, s) == CompileForLoop(ec, v, c, s);
    var r := CompileStatement(ec, v, c, s);
    if r.Ok? {
      var (iterable, iterableType) := ec(c, s.iterable, Void).value;
      var scope := LoopScope(SpawnChild(c.symbols), s.variables, iterableType).value;
      var inner := c.(symbols := scope, nestedLoopCount := c.nestedLoopCount + 1);
      BlockPlaceholders(ec, v, inner, s.body);
      var body := CompileBlock(ec, v, inner, s.body).value.0;
      assert Exits(v, inner) == LoopExits;
      ForCodeAmong(v, iterable, s.variables, body);
      AmongWeaken(r.value.0, if v == L.Corrected then {} else LoopExits, Exits(v, c));
    }
  }

  lemma {:induction false} IfPlaceholders(ec: ExprCompiler, v: L.Variant, c: Compiler, s: A.Stmt)
    requires s.IfStatement? && CleanExpressions(ec)
    ensures var r := CompileStatement(ec, v, c, s); r.Ok? ==> PlaceholdersAmong(r.value.0, Exits(v, c))
    decreases s, 1
  {
    assert CompileStatement(ec, v, c, s) == CompileIf(ec, v, c, s);
    var r := CompileStatement(ec, v, c, s);
    if r.Ok? {
      IfClausesPlaceholders(ec, v, c, s.clauses);
      IfClausesFrame(ec, v, c, s.clauses);
      var (clauses, c1) := CompileIfClauses(ec, v, c, s.clauses).value;
      BlockPlaceholders(ec, v, c1, s.elseClause);
      var elseCode := CompileBlock(ec, v, c1, s.elseClause).value.0;
      var names := Exits(v, c) + {"if"};
      AmongWeaken(elseCode, Exits(v, c), names);
      AmongConcat(clauses, elseCode, names);
      var raw := clauses + elseCode;
      PatchAmong(raw, "if", |raw|, names);
      assert names - {"if"} <= Exits(v, c);
      AmongWeaken(r.value.0, names - {"if"}, Exits(v, c));
    }
  }

  lemma {:induction false} IfClausesPlaceholders(ec: ExprCompiler, v: L.Variant, c: Compiler, clauses: seq<A.IfClause>)
    requires CleanExpressions(ec)
    ensures var r := CompileIfClauses(ec, v, c, clauses);
      r.Ok? ==> PlaceholdersAmong(r.value.0, Exits(v, c) + {"if"})
    decreases clauses, 0
  {
    var r := CompileIfClauses(ec, v, c, clauses);
    if r.Ok? && |clauses| > 0 {
      var names := Exits(v, c) + {"if"};
      var cond := ec(c, clauses[0].condition, Void).value.0;
      BlockPlaceholders(ec, v, c, clauses[0].body);
      BlockFrame(ec, v, c, clauses[0].body);
      var (body, c1) := CompileBlock(ec, v, c, clauses[0].body).value;
      IfClausesPlaceholders(ec, v, c1, clauses[1..]);
      var rest := CompileIfClauses(ec, v, c1, clauses[1..]).value.0;
      AmongWeaken(cond + [RelJumpIfFalse(|body| + 2)], {}, names);
      AmongWeaken(body, Exits(v, c), names);
      AmongConcat(cond + [RelJumpIfFalse(|body| + 2)], body, names);
      AmongConcat(cond + [RelJumpIfFalse(|body| + 2)] + body, [Placeholder("if")], names);
      AmongConcat(ClauseCode(cond, body), rest, names);
    }
  }

  lemma {:induction false} MatchPlaceholders(ec: ExprCompiler, v: L.Variant, c: Compiler, s: A.Stmt)
    requires s.MatchStatementNode? && CleanExpressions(ec)
    ensures var r := CompileStatement(ec, v, c, s); r.Ok? ==> PlaceholdersAmong(r.value.0, Exits(v, c))
    decreases s, 1
  {
    assert CompileStatement(ec, v, c, s) == CompileMatch(ec, v, c, s);
    var r := CompileStatement(ec, v, c, s);
    if r.Ok? {
      var (subject, subjectType) := ec(c, s.subject, Void).value;
      MatchClausesPlaceholders(ec, v, c, subjectType, s.cases);
      var clauses := CompileMatchClauses(ec, v, c, subjectType, s.cases).value.0;
      var names := Exits(v, c) + {"match"};
      AmongWeaken(subject, {}, names);
      AmongConcat(subject, clauses, names);
      PatchAmong(subject + clauses, "match", |subject + clauses|, names);
      assert names - {"match"} <= Exits(v, c);
      AmongWeaken(r.value.0, names - {"match"}, Exits(v, c));
    }
  }

  lemma {:induction false} MatchClausesPlaceholders(ec: ExprCompiler, v: L.Variant, c: Compiler, enumType: VeniceType,
    clauses: seq<A.MatchClause>)
    requires CleanExpressions(ec)
    ensures var r := CompileMatchClauses(ec, v, c, enumType, clauses);
      r.Ok? ==> PlaceholdersAmong(r.value.0, Exits(v, c) + {"match"})
    decreases clauses, 0
  {
    var r := CompileMatchClauses(ec, v, c, enumType, clauses);
    if r.Ok? && |clauses| > 0 {
      var names := Exits(v, c) + {"match"};
      PatternPlaceholders(clauses[0].pattern, enumType, SpawnChild(c.symbols));
      var (pattern, scope) := CompilePattern(clauses[0].pattern, enumType, SpawnChild(c.symbols)).value;
      var inner := c.(symbols := scope);
      BlockPlaceholders(ec, v, inner, clauses[0].body);
      BlockFrame(ec, v, inner, clauses[0].body);
      var (body, c1) := CompileBlock(ec, v, inner, clauses[0].body).value;
      var next := c1.(symbols := Parent(c1.symbols));
      MatchClausesPlaceholders(ec, v, next, enumType, clauses[1..]);
      var rest := CompileMatchClauses(ec, v, next, enumType, clauses[1..]).value.0;
      assert Exits(v, inner) == Exits(v, c) && Exits(v, next) == Exits(v, c);
      AmongWeaken(pattern + [RelJumpIfFalseOrPop(|body| + 2)], {}, names);
      AmongWeaken(body, Exits(v, c), names);
      AmongConcat(pattern + [RelJumpIfFalseOrPop(|body| + 2)], body, names);
      AmongConcat(pattern + [RelJumpIfFalseOrPop(|body| + 2)] + body, [Placeholder("match")], names);
      AmongConcat(pattern + [RelJumpIfFalseOrPop(|body| + 2)] + body + [Placeholder("match")], rest, names);
    }
  }

  /** A pattern's code resolves its own failure jumps. */
  lemma {:induction false} PatternPlaceholders(p: A.Pattern, t: VeniceType, scope: SymbolTable)
    ensures var r := CompilePattern(p, t, scope); r.Ok? ==> PlaceholdersAmong(r.value.0, {})
    decreases p, 1
  {
    var r := CompilePattern(p, t, scope);
    match p
    case SymbolPattern(_) =>
    case CompoundPattern(caseName, patterns) =>
      if r.Ok? {
        var caseTypes := t.cases[CaseIndex(t.cases, caseName).value].types;
        SubpatternsPlaceholders(patterns, caseTypes, 0, scope);
        var sub := CompileSubpatterns(patterns, caseTypes, 0, scope).value.0;
        var code := [CheckLabel(caseName), Placeholder("pattern")] + sub;
        AmongWeaken(sub, {}, {"pattern"});
        AmongConcat([CheckLabel(caseName), Placeholder("pattern")], sub, {"pattern"});
        PatchPatternAmong(code, |code|, {"pattern"});
        assert {"pattern"} - {"pattern"} == {};
      }
  }

  lemma {:induction false} SubpatternsPlaceholders(patterns: seq<A.Pattern>, types: seq<VeniceType>, i: nat, scope: SymbolTable)
    requires |patterns| <= |types|
    ensures var r := CompileSubpatterns(patterns, types, i, scope); r.Ok? ==> PlaceholdersAmong(r.value.0, {})
    decreases patterns, 0, |patterns| - i
  {
    var r := CompileSubpatterns(patterns, types, i, scope);
    if r.Ok? && i < |patterns| {
      PatternPlaceholders(patterns[i], types[i], scope);
      var (first, scope1) := CompilePattern(patterns[i], types[i], scope).value;
      SubpatternsPlaceholders(patterns, types, i + 1, scope1);
      var rest := CompileSubpatterns(patterns, types, i + 1, scope1).value.0;
      AmongConcat([PushEnumIndex(i)], first, {});
      AmongConcat([PushEnumIndex(i)] + first, rest, {});
    }
  }

  /** With the corrected `for` loop, a statement compiled outside any loop
      leaves no placeholder at all: every jump has its target. */
  lemma TopLevelCodeHasNoPlaceholders(ec: ExprCompiler, c: Compiler, s: A.Stmt)
    requires CleanExpressions(ec) && c.nestedLoopCount == 0
    ensures var r := CompileStatement(ec, L.Corrected, c, s);
      r.Ok? ==> forall i :: 0 <= i < |r.value.0| ==> !r.value.0[i].Placeholder?
  {
    StatementPlaceholders(ec, L.Corrected, c, s);
  }
}

=== FILE: go_lexer.dfy ===
/** The lexer of the Go generation (src/lexer/lexer.go). A Go string is a
    byte sequence and the lexer inspects it byte by byte; here each byte of
    the program is one `char`. The scanner state is the program, the index
    of the next unread byte and the line and column of that byte. */
module GoLexer {
  import opened Wrappers
  import opened Text

  /** Two places where the code evidently does not do what was meant (see
      README, Findings): `AsWritten` follows the code, `Corrected` the
      evident intention. */
  datatype Variant = AsWritten | Corrected

  /** Token types. `Func`, `New` and `RealNumber` belong to the sibling lexer
      package the parser is built against; this lexer never produces them
      (it spells the function keyword `fn`). */
  datatype Kind =
    | And | Arrow | As | Assign | AssignAdd | AssignDiv | AssignMul | AssignSub | Asterisk
    | Break | Case | Character | Class | Colon | Comma | Constructor | Continue | Default
    | Dot | DoubleColon | DoublePlus | Ellipsis | Else | Enum | Equals | Error | False | Fn
    | For | Func | GreaterThan | GreaterThanOrEquals | If | Import | In | Int | Eof
    | LeftCurly | LeftParen | LeftSquare | LessThan | LessThanOrEquals | Let | Match | Minus
    | New | Newline | No | Not | NotEquals | Or | Private | Plus | Public | RealNumber
    | Return | RightCurly | RightParen | RightSquare | Self | Semicolon | Slash | String
    | Symbol | True | Unknown | Var | Void | While

  /** A token: its type, its text (or decoded value, or error message) and
      the line and column of its first byte. */
  datatype Token = Token(kind: Kind, value: string, location: Position)

  /** The type's name as the Go code spells it (`TOKEN_LET` and so on);
      error messages print it. */
  function KindName(k: Kind): string
  {
    match k
    case And => "TOKEN_AND"
    case Arrow => "TOKEN_ARROW"
    case As => "TOKEN_AS"
    case Assign => "TOKEN_ASSIGN"
    case AssignAdd => "TOKEN_ASSIGN_ADD"
    case AssignDiv => "TOKEN_ASSIGN_DIV"
    case AssignMul => "TOKEN_ASSIGN_MUL"
    case AssignSub => "TOKEN_ASSIGN_SUB"
    case Asterisk => "TOKEN_ASTERISK"
    case Break => "TOKEN_BREAK"
    case Case => "TOKEN_CASE"
    case Character => "TOKEN_CHARACTER"
    case Class => "TOKEN_CLASS"
    case Colon => "TOKEN_COLON"
    case Comma => "TOKEN_COMMA"
    case Constructor => "TOKEN_CONSTRUCTOR"
    case Continue => "TOKEN_CONTINUE"
    case Default => "TOKEN_DEFAULT"
    case Dot => "TOKEN_DOT"
    case DoubleColon => "TOKEN_DOUBLE_COLON"
    case DoublePlus => "TOKEN_DOUBLE_PLUS"
    case Ellipsis => "TOKEN_ELLIPSIS"
    case Else => "TOKEN_ELSE"
    case Enum => "TOKEN_ENUM"
    case Equals => "TOKEN_EQUALS"
    case Error => "TOKEN_ERROR"
    case False => "TOKEN_FALSE"
    case Fn => "TOKEN_FN"
    case For => "TOKEN_FOR"
    case Func => "TOKEN_FUNC"
    case GreaterThan => "TOKEN_GREATER_THAN"
    case GreaterThanOrEquals => "TOKEN_GREATER_THAN_OR_EQUALS"
    case If => "TOKEN_IF"
    case Import => "TOKEN_IMPORT"
    case In => "TOKEN_IN"
    case Int => "TOKEN_INT"
    case Eof => "TOKEN_EOF"
    case LeftCurly => "TOKEN_LEFT_CURLY"
    case LeftParen => "TOKEN_LEFT_PAREN"
    case LeftSquare => "TOKEN_LEFT_SQUARE"
    case LessThan => "TOKEN_LESS_THAN"
    case LessThanOrEquals => "TOKEN_LESS_THAN_OR_EQUALS"
    case Let => "TOKEN_LET"
    case Match => "TOKEN_MATCH"
    case Minus => "TOKEN_MINUS"
    case New => "TOKEN_NEW"
    case Newline => "TOKEN_NEWLINE"
    case No => "TOKEN_NO"
    case Not => "TOKEN_NOT"
    case NotEquals => "TOKEN_NOT_EQUALS"
    case Or => "TOKEN_OR"
    case Private => "TOKEN_PRIVATE"
    case Plus => "TOKEN_PLUS"
    case Public => "TOKEN_PUBLIC"
    case RealNumber => "TOKEN_REAL_NUMBER"
    case Return => "TOKEN_RETURN"
    case RightCurly => "TOKEN_RIGHT_CURLY"
    case RightParen => "TOKEN_RIGHT_PAREN"
    case RightSquare => "TOKEN_RIGHT_SQUARE"
    case Self => "TOKEN_SELF"
    case Semicolon => "TOKEN_SEMICOLON"
    case Slash => "TOKEN_SLASH"
    case String => "TOKEN_STRING"
    case Symbol => "TOKEN_SYMBOL"
    case True => "TOKEN_TRUE"
    case Unknown => "TOKEN_UNKNOWN"
    case Var => "TOKEN_VAR"
    case Void => "TOKEN_VOID"
    case While => "TOKEN_WHILE"
  }

  const Keywords: set<string> :=
    {"and", "as", "break", "case", "class", "constructor", "continue", "default", "else",
     "enum", "false", "fn", "for", "if", "import", "in", "let", "match", "no", "not", "or",
     "private", "public", "return", "self", "true", "var", "void", "while"}

  /** The type of a word: its keyword type, or SYMBOL. */
  function WordKind(word: string): (k: Kind)
    ensures Scannable(k) && k != Newline
    ensures word in Keywords ==> k == Keyword(word).value
    ensures word !in Keywords ==> k == Symbol
  {
    match Keyword(word)
    case Some(k) => k
    case None => Symbol
  }

  /** The keyword table. */
  function Keyword(word: string): (r: Option<Kind>)
    ensures r.Some? <==> word in Keywords
  {
    match word
    case "and" => Some(And) case "as" => Some(As) case "break" => Some(Break)
    case "case" => Some(Case) case "class" => Some(Class) case "constructor" => Some(Constructor)
    case "continue" => Some(Continue) case "default" => Some(Default) case "else" => Some(Else)
    case "enum" => Some(Enum) case "false" => Some(False) case "fn" => Some(Fn)
    case "for" => Some(For) case "if" => Some(If) case "import" => Some(Import)
    case "in" => Some(In) case "let" => Some(Let) case "match" => Some(Match)
    case "no" => Some(No) case "not" => Some(Not) case "or" => Some(Or)
    case "private" => Some(Private) case "public" => Some(Public) case "return" => Some(Return)
    case "self" => Some(Self) case "true" => Some(True) case "var" => Some(Var)
    case "void" => Some(Void) case "while" => Some(While)
    case _ => None
  }

  /** The token types this lexer can produce before the end of input. */
  predicate Scannable(k: Kind) {
    !(k.Eof? || k.Func? || k.New? || k.RealNumber?)
  }

  function OneCharToken(c: char): (r: Option<Kind>)
    ensures r.Some? ==> Scannable(r.value) && (r.value == Newline <==> c == '\n')
  {
    match c
    case '=' => Some(Assign) case '*' => Some(Asterisk) case ':' => Some(Colon)
    case ',' => Some(Comma) case '.' => Some(Dot) case '>' => Some(GreaterThan)
    case '{' => Some(LeftCurly) case '(' => Some(LeftParen) case '[' => Some(LeftSquare)
    case '<' => Some(LessThan) case '-' => Some(Minus) case '\n' => Some(Newline)
    case '+' => Some(Plus) case '}' => Some(RightCurly) case ')' => Some(RightParen)
    case ']' => Some(RightSquare) case ';' => Some(Semicolon) case '/' => Some(Slash)
    case _ => None
  }

  function TwoCharToken(a: char, b: char): (r: Option<Kind>)
    ensures r.Some? ==> Scannable(r.value) && r.value != Newline
  {
    if a == '-' && b == '>' then Some(Arrow)
    else if a == '+' && b == '=' then Some(AssignAdd)
    else if a == '/' && b == '=' then Some(AssignDiv)
    else if a == '*' && b == '=' then Some(AssignMul)
    else if a == '-' && b == '=' then Some(AssignSub)
    else if a == ':' && b == ':' then Some(DoubleColon)
    else if a == '+' && b == '+' then Some(DoublePlus)
    else if a == '=' && b == '=' then Some(Equals)
    else if a == '>' && b == '=' then Some(GreaterThanOrEquals)
    else if a == '<' && b == '=' then Some(LessThanOrEquals)
    else if a == '!' && b == '=' then Some(NotEquals)
    else None
  }

  function ThreeCharToken(a: char, b: char, c: char): (r: Option<Kind>)
    ensures r.Some? ==> r.value == Ellipsis
  {
    if a == '.' && b == '.' && c == '.' then Some(Ellipsis) else None
  }

  /** Letters and `_`. As written the upper-case range is `'A' <= ch < 'Z'`,
      which leaves out `Z`. */
  predicate IsSymbolFirstCharacter(v: Variant, c: char) {
    ('a' <= c <= 'z') || (if v == AsWritten then 'A' <= c < 'Z' else 'A' <= c <= 'Z') || c == '_'
  }

  predicate IsSymbolCharacter(v: Variant, c: char) {
    IsSymbolFirstCharacter(v, c) || IsDigit(c)
  }

  predicate IsWhitespace(c: char) {
    c == ' ' || c == '\n' || c == '\t' || c == '\U{B}' || c == '\U{C}' || c == '\r'
  }

  datatype Lexer = Lexer(program: string, index: nat, location: Position) {
    /** The index stays within the program and the tracked location is the
        one obtained by reading the program up to the index. */
    predicate Valid() {
      index <= |program| && location == PositionAfter(program[..index])
    }

    predicate Done()
      requires index <= |program|
    {
      index == |program|
    }

    /** The unread input starts with the two bytes `a`, `b`. */
    predicate StartsWith2(a: char, b: char)
      requires index <= |program|
    {
      index + 1 < |program| && program[index] == a && program[index + 1] == b
    }

    /** The unread input starts with `###`. */
    predicate AtTripleHash()
      requires index <= |program|
    {
      index + 2 < |program| && program[index] == '#' && program[index + 1] == '#' && program[index + 2] == '#'
    }
  }

  function NewLexer(program: string): (lx: Lexer)
    ensures lx.Valid() && lx.index == 0 && lx.location == Start
  {
    Lexer(program, 0, Start)
  }

  /** `advance`: consumes one byte, moving to column 1 of the next line
      after a newline and one column right otherwise; at the end of the
      program it does nothing. */
  function Advance(lx: Lexer): (r: Lexer)
    requires lx.Valid()
    ensures r.Valid() && r.program == lx.program
    ensures r.index == if lx.Done() then lx.index else lx.index + 1
    ensures !lx.Done() ==> r.location == StepPosition(lx.location, lx.program[lx.index])
  {
    if lx.Done() then lx
    else
      PositionAfterPrefix(lx.program, lx.index);
      Lexer(lx.program, lx.index + 1, StepPosition(lx.location, lx.program[lx.index]))
  }

  function Advance3(lx: Lexer): (r: Lexer)
    requires lx.Valid()
    ensures r.Valid() && r.program == lx.program && r.index == if lx.index + 3 <= |lx.program| then lx.index + 3 else |lx.program|
  {
    Advance(Advance(Advance(lx)))
  }

  /** `skipCommentsAndAllWhitespace`: skips blanks, newlines included, and
      `#` comments up to and including their newline. */
  function SkipAll(lx: Lexer, inComment: bool): (r: Lexer)
    requires lx.Valid()
    ensures r.Valid() && r.program == lx.program && lx.index <= r.index
    ensures !r.Done() ==> !IsWhitespace(r.program[r.index]) && r.program[r.index] != '#'
    ensures !inComment && (lx.Done() || (!IsWhitespace(lx.program[lx.index]) && lx.program[lx.index] != '#')) ==> r == lx
    decreases |lx.program| - lx.index
  {
    if lx.Done() then lx
    else
      var ch := lx.program[lx.index];
      if inComment then SkipAll(Advance(lx), ch != '\n')
      else if ch == '#' then SkipAll(Advance(lx), true)
      else if !IsWhitespace(ch) then lx
      else SkipAll(Advance(lx), false)
  }

  datatype CommentState = InCode | InLineComment | InBlockComment

  /** `skipCommentsAndWhitespaceExceptNewlines`: skips blanks other than
      newlines, `#` line comments and `###` ... `###` block comments. As
      written, the newline that ends a line comment is consumed with it. */
  function SkipExceptNewlines(v: Variant, lx: Lexer, st: CommentState): (r: Lexer)
    requires lx.Valid()
    ensures r.Valid() && r.program == lx.program && lx.index <= r.index
    ensures !r.Done() ==> (r.program[r.index] == '\n' || !IsWhitespace(r.program[r.index]))
                          && r.program[r.index] != '#'
    decreases |lx.program| - lx.index
  {
    if lx.Done() then lx
    else
      var ch := lx.program[lx.index];
      match st
      case InLineComment =>
        if ch != '\n' then SkipExceptNewlines(v, Advance(lx), InLineComment)
        else if v == AsWritten then SkipExceptNewlines(v, Advance(lx), InCode)
        else lx
      case InBlockComment =>
        if lx.AtTripleHash() then SkipExceptNewlines(v, Advance3(lx), InCode)
        else SkipExceptNewlines(v, Advance(lx), InBlockComment)
      case InCode =>
        if ch == '#' then
          if lx.AtTripleHash() then SkipExceptNewlines(v, Advance3(lx), InBlockComment)
          else SkipExceptNewlines(v, Advance(lx), InLineComment)
        else if !IsWhitespace(ch) || ch == '\n' then lx
        else SkipExceptNewlines(v, Advance(lx), InCode)
  }

  const BinaryDigits := "01"
  const OctalDigits := "01234567"
  const DecimalDigits := "0123456789"
  const HexadecimalDigits := "0123456789abcdefABCDEF"

  /** Every byte of `p[i..j]` is a symbol byte and a digit of the base. */
  predicate DigitsBetween(v: Variant, p: string, i: nat, j: nat, digits: string)
    requires i <= j <= |p|
  {
    forall k :: i <= k < j ==> p[k] in digits && IsSymbolCharacter(v, p[k])
  }

  /** The message for a symbol byte that is not a digit of the base. */
  function DigitError(base: string, ch: char): string {
    "invalid character in " + base + "integer literal: '" + [ch] + "'"
  }

  /** The digit loop of `readInteger`: reads symbol bytes while they are
      digits of the base; a symbol byte that is not one ends the literal
      with an error naming it (and is consumed). The literal's text starts at
      `start`. */
  function ReadDigits(v: Variant, lx: Lexer, start: nat, digits: string, base: string): (r: (Result<string, string>, Lexer))
    requires lx.Valid() && start <= lx.index
    ensures r.1.Valid() && r.1.program == lx.program && lx.index <= r.1.index
    ensures r.0.Ok? ==> && r.0.value == lx.program[start..(r.1.index)]
                        && DigitsBetween(v, lx.program, lx.index, r.1.index, digits)
                        && (r.1.Done() || !IsSymbolCharacter(v, lx.program[r.1.index]))
    ensures r.0.Err? ==> && lx.index < r.1.index
                         && DigitsBetween(v, lx.program, lx.index, r.1.index - 1, digits)
                         && lx.program[r.1.index - 1] !in digits
                         && IsSymbolCharacter(v, lx.program[r.1.index - 1])
                         && r.0.error == DigitError(base, lx.program[r.1.index - 1])
    decreases |lx.program| - lx.index
  {
    if lx.Done() || !IsSymbolCharacter(v, lx.program[lx.index]) then (Ok(lx.program[start..lx.index]), lx)
    else
      var ch := lx.program[lx.index];
      if ch !in digits then (Err(DigitError(base, ch)), Advance(lx))
      else ReadDigits(v, Advance(lx), start, digits, base)
  }

  /** `readInteger`: an optional `-`, then a `0b`, `0o` or `0x` literal or a
      decimal one; a decimal literal of two or more bytes that starts with
      `0` or `-0` is rejected after it has been read whole. The state after
      the literal is returned with the outcome. */
  function ReadInteger(v: Variant, lx: Lexer): (r: (Result<string, string>, Lexer))
    requires lx.Valid() && !lx.Done()
    ensures r.1.Valid() && r.1.program == lx.program && lx.index < r.1.index
  {
    var s := SkipSign(lx);
    match BasePrefix(s)
    case Some((digits, base)) => ReadDigits(v, Advance(Advance(s)), lx.index, digits, base)
    case None =>
      var (res, e) := ReadDigits(v, Advance(s), lx.index, DecimalDigits, "");
      if res.Ok? && e.index - lx.index > 1
         && (lx.program[lx.index] == '0' || (lx.program[lx.index] == '-' && lx.program[lx.index + 1] == '0'))
      then (Err("integer literal cannot start with '0'"), e)
      else (res, e)
  }

  /** Steps over a leading `-`. */
  function SkipSign(lx: Lexer): (s: Lexer)
    requires lx.Valid() && !lx.Done()
    ensures s.Valid() && s.program == lx.program
    ensures s.index == if lx.program[lx.index] == '-' then lx.index + 1 else lx.index
  {
    if lx.program[lx.index] == '-' then Advance(lx) else lx
  }

  /** The digits and the message word of a `0b`, `0o` or `0x` prefix at the
      current position, tried in that order. */
  function BasePrefix(s: Lexer): (r: Option<(string, string)>)
    requires s.index <= |s.program|
    ensures r.Some? ==> s.index + 1 < |s.program| && s.program[s.index] == '0'
    ensures r.Some? ==> r.value == match s.program[s.index + 1]
                                   case 'b' => (BinaryDigits, "binary ")
                                   case 'o' => (OctalDigits, "octal ")
                                   case _ => (HexadecimalDigits, "hexadecimal ")
    ensures r.None? <==> !(s.StartsWith2('0', 'b') || s.StartsWith2('0', 'o') || s.StartsWith2('0', 'x'))
  {
    if s.StartsWith2('0', 'b') then Some((BinaryDigits, "binary "))
    else if s.StartsWith2('0', 'o') then Some((OctalDigits, "octal "))
    else if s.StartsWith2('0', 'x') then Some((HexadecimalDigits, "hexadecimal "))
    else None
  }

  /** `readSymbol`: the current byte and every symbol byte after it. */
  function ReadSymbol(v: Variant, lx: Lexer): (r: (string, Lexer))
    requires lx.Valid() && !lx.Done()
    ensures r.1.Valid() && r.1.program == lx.program && lx.index < r.1.index
    ensures r.0 == lx.program[lx.index..(r.1.index)]
    ensures forall k :: lx.index < k < r.1.index ==> IsSymbolCharacter(v, lx.program[k])
    ensures r.1.Done() || !IsSymbolCharacter(v, lx.program[r.1.index])
  {
    var e := SymbolRun(v, Advance(lx));
    (lx.program[lx.index..e.index], e)
  }

  function SymbolRun(v: Variant, lx: Lexer): (r: Lexer)
    requires lx.Valid()
    ensures r.Valid() && r.program == lx.program && lx.index <= r.index
    ensures forall k :: lx.index <= k < r.index ==> IsSymbolCharacter(v, lx.program[k])
    ensures r.Done() || !IsSymbolCharacter(v, lx.program[r.index])
    decreases |lx.program| - lx.index
  {
    if lx.Done() || !IsSymbolCharacter(v, lx.program[lx.index]) then lx else SymbolRun(v, Advance(lx))
  }

  /** The scanning loop of `readString`: stops at the delimiter or the end,
      stepping over the byte after each backslash. */
  function ScanQuoted(lx: Lexer, delimiter: char): (r: Lexer)
    requires lx.Valid()
    ensures r.Valid() && r.program == lx.program && lx.index <= r.index
    ensures r.Done() || r.program[r.index] == delimiter
    decreases |lx.program| - lx.index
  {
    if lx.Done() || lx.program[lx.index] == delimiter then lx
    else if lx.program[lx.index] == '\\' then ScanQuoted(Advance(Advance(lx)), delimiter)
    else ScanQuoted(Advance(lx), delimiter)
  }

  /** Go's `strconv.Unquote`, which decodes a quoted literal or fails; it is
      not part of this model and is passed in. */
  type Unquoter = string -> Option<string>

  /** `readString`: the raw literal runs from the opening delimiter to the
      closing one (or to the end of the program) and is decoded by
      `unquote`. */
  function ReadString(unquote: Unquoter, lx: Lexer, delimiter: char): (r: (Option<string>, Lexer))
    requires lx.Valid() && !lx.Done()
    ensures r.1.Valid() && r.1.program == lx.program && lx.index < r.1.index
    ensures r.0 == unquote(lx.program[lx.index..(r.1.index)])
  {
    var e := Advance(ScanQuoted(Advance(lx), delimiter));
    (unquote(lx.program[lx.index..e.index]), e)
  }

  /** Integer and error tokens from `readInteger`. */
  function IntegerToken(v: Variant, lx: Lexer): (r: (Token, Lexer))
    requires lx.Valid() && !lx.Done()
    ensures r.1.Valid() && r.1.program == lx.program && lx.index < r.1.index
    ensures r.0.kind == Int || r.0.kind == Error
  {
    var (res, e) := ReadInteger(v, lx);
    match res
    case Ok(text) => (Token(Int, text, lx.location), e)
    case Err(message) => (Token(Error, message, lx.location), e)
  }

  /** A three-byte token starts at the current position. */
  predicate ThreeCharAt(lx: Lexer)
    requires lx.index <= |lx.program|
  {
    var p, i := lx.program, lx.index;
    i + 2 < |p| && ThreeCharToken(p[i], p[i + 1], p[i + 2]).Some?
  }

  /** A two-byte token starts at the current position. */
  predicate TwoCharAt(lx: Lexer)
    requires lx.index <= |lx.program|
  {
    var p, i := lx.program, lx.index;
    i + 1 < |p| && TwoCharToken(p[i], p[i + 1]).Some?
  }

  /** A `-` followed by a digit starts at the current position. */
  predicate NegativeAt(lx: Lexer)
    requires lx.index < |lx.program|
  {
    var p, i := lx.program, lx.index;
    p[i] == '-' && i + 1 < |p| && IsDigit(p[i + 1])
  }

  /** The token of a word starting at the current position. */
  function WordAt(v: Variant, lx: Lexer): (r: (Token, Lexer))
    requires lx.Valid() && !lx.Done()
    ensures r.1.Valid() && r.1.program == lx.program && lx.index < r.1.index
    ensures Scannable(r.0.kind) && r.0.kind != Newline && r.0.location == lx.location
  {
    var (word, e) := ReadSymbol(v, lx);
    (Token(WordKind(word), word, lx.location), e)
  }

  /** `nextToken`: the token at the current position, which the caller has
      already moved past blanks and comments. */
  function Scan(v: Variant, unquote: Unquoter, lx: Lexer): (r: (Token, Lexer))
    requires lx.Valid()
    ensures r.1.Valid() && r.1.program == lx.program
    ensures r.0.location == lx.location
    ensures r.0.kind == Eof <==> lx.Done()
    ensures r.0.kind == Eof ==> r.0.value == "" && r.1 == lx
    ensures r.0.kind != Eof ==> lx.index < r.1.index
    ensures r.0.kind == Newline ==> lx.program[lx.index] == '\n' && r.0.value == "\n"
    ensures r.0.kind != Eof ==> Scannable(r.0.kind)
  {
    var loc := lx.location;
    var p := lx.program;
    var i := lx.index;
    if lx.Done() then (Token(Eof, "", loc), lx)
    else if ThreeCharAt(lx) then
      (Token(ThreeCharToken(p[i], p[i + 1], p[i + 2]).value, p[i..i + 3], loc), Advance3(lx))
    else if TwoCharAt(lx) then
      (Token(TwoCharToken(p[i], p[i + 1]).value, p[i..i + 2], loc), Advance(Advance(lx)))
    else ScanSingle(v, unquote, lx)
  }

  /** The part of `nextToken` after the three- and two-byte tables: a
      negative integer, a one-byte token, an integer, a word, a string or
      character literal, or an UNKNOWN byte. */
  function ScanSingle(v: Variant, unquote: Unquoter, lx: Lexer): (r: (Token, Lexer))
    requires lx.Valid() && !lx.Done()
    ensures r.1.Valid() && r.1.program == lx.program && lx.index < r.1.index
    ensures r.0.location == lx.location
    ensures r.0.kind == Newline ==> lx.program[lx.index] == '\n' && r.0.value == "\n"
    ensures Scannable(r.0.kind)
  {
    var loc := lx.location;
    var p := lx.program;
    var i := lx.index;
    var ch := p[i];
    if NegativeAt(lx) then IntegerToken(v, lx)
    else if OneCharToken(ch).Some? then (Token(OneCharToken(ch).value, [ch], loc), Advance(lx))
    else if IsDigit(ch) then IntegerToken(v, lx)
    else if IsSymbolFirstCharacter(v, ch) then WordAt(v, lx)
    else if ch == '"' then
      var (value, e) := ReadString(unquote, lx, '"');
      (if value.Some? then Token(String, value.value, loc) else Token(Error, "invalid string literal", loc), e)
    else if ch == '\'' then
      var (value, e) := ReadString(unquote, lx, '\'');
      (if value.Some? then Token(Character, value.value, loc) else Token(Error, "invalid character literal", loc), e)
    else (Token(Unknown, [ch], loc), Advance(lx))
  }

  /** `NextToken`: newlines are tokens. */
  function NextToken(v: Variant, unquote: Unquoter, lx: Lexer): (r: (Token, Lexer))
    requires lx.Valid()
    ensures r.1.Valid() && r.1.program == lx.program && lx.index <= r.1.index
    ensures r.0.kind == Eof <==> SkipExceptNewlines(v, lx, InCode).Done()
    ensures r.0.kind != Eof ==> lx.index < r.1.index
    ensures r.0.location == PositionAfter(lx.program[..SkipExceptNewlines(v, lx, InCode).index])
  {
    Scan(v, unquote, SkipExceptNewlines(v, lx, InCode))
  }

  /** `NextTokenSkipNewlines`: newlines are skipped like other blanks, so
      this never returns a NEWLINE token. */
  function NextTokenSkipNewlines(v: Variant, unquote: Unquoter, lx: Lexer): (r: (Token, Lexer))
    requires lx.Valid()
    ensures r.1.Valid() && r.1.program == lx.program && lx.index <= r.1.index
    ensures r.0.kind != Newline
    ensures r.0.kind == Eof <==> SkipAll(lx, false).Done()
    ensures r.0.kind != Eof ==> lx.index < r.1.index
  {
    Scan(v, unquote, SkipAll(lx, false))
  }

  /** The scanner state at index `k` of `program`. */
  function At(program: string, k: nat): (lx: Lexer)
    requires k <= |program|
    ensures lx.Valid() && lx.program == program && lx.index == k
  {
    Lexer(program, k, PositionAfter(program[..k]))
  }

  /** A valid state is determined by its program and index. */
  lemma ValidIsAt(lx: Lexer)
    requires lx.Valid()
    ensures lx == At(lx.program, lx.index)
  {
  }

  /** Three-byte tokens are tried first: `...` is one ELLIPSIS. */
  lemma EllipsisToken(v: Variant, unquote: Unquoter, lx: Lexer)
    requires lx.Valid() && OccursAt(lx.program, "...", lx.index)
    ensures var r := Scan(v, unquote, lx);
      r.0.kind == Ellipsis && r.0.value == "..." && r.1.index == lx.index + 3
  {
    var p, i := lx.program, lx.index;
    assert p[i..i + 3] == "...";
    assert p[i] == '.' && p[i + 1] == '.' && p[i + 2] == '.';
    assert ThreeCharAt(lx);
  }

  /** Two-byte tokens are tried before one-byte ones: `>=` is one
      GREATER_THAN_OR_EQUALS, `->` one ARROW, `-=` one ASSIGN_SUB. */
  lemma TwoCharBeatsOneChar(v: Variant, unquote: Unquoter, lx: Lexer)
    requires lx.Valid() && TwoCharAt(lx)
    ensures var r, p, i := Scan(v, unquote, lx), lx.program, lx.index;
      r.0.kind == TwoCharToken(p[i], p[i + 1]).value && r.0.value == p[i..i + 2] && r.1.index == i + 2
  {
    var p, i := lx.program, lx.index;
    assert !ThreeCharAt(lx);
  }

  /** A one-byte token is taken when no longer token starts here and the
      byte is not the `-` of a negative integer. */
  lemma OneCharFallback(v: Variant, unquote: Unquoter, lx: Lexer)
    requires lx.Valid() && !lx.Done() && !ThreeCharAt(lx) && !TwoCharAt(lx) && !NegativeAt(lx)
    requires OneCharToken(lx.program[lx.index]).Some?
    ensures var r, ch := Scan(v, unquote, lx), lx.program[lx.index];
      r.0.kind == OneCharToken(ch).value && r.0.value == [ch] && r.1.index == lx.index + 1
  {
    var ch := lx.program[lx.index];
    assert Scan(v, unquote, lx) == ScanSingle(v, unquote, lx);
    assert ScanSingle(v, unquote, lx) == (Token(OneCharToken(ch).value, [ch], lx.location), Advance(lx));
  }

  /** `-` directly followed by a digit starts one integer literal (or one
      error token), never a MINUS token. */
  lemma NegativeInteger(v: Variant, unquote: Unquoter, lx: Lexer)
    requires lx.Valid() && lx.index + 1 < |lx.program|
    requires lx.program[lx.index] == '-' && IsDigit(lx.program[lx.index + 1])
    ensures Scan(v, unquote, lx) == IntegerToken(v, lx)
    ensures Scan(v, unquote, lx).0.kind == Int ==> Scan(v, unquote, lx).0.value[0] == '-'
  {
    assert !ThreeCharAt(lx) && !TwoCharAt(lx) && NegativeAt(lx);
    assert Scan(v, unquote, lx) == ScanSingle(v, unquote, lx);
    var (res, e) := ReadInteger(v, lx);
    if res.Ok? {
      IntegerText(v, lx);
    }
  }

  /** An accepted integer literal is the text it was read from. */
  lemma IntegerText(v: Variant, lx: Lexer)
    requires lx.Valid() && !lx.Done()
    ensures var (res, e) := ReadInteger(v, lx);
      res.Ok? ==> res.value == lx.program[lx.index..e.index]
  {
  }

  /** After a `0b`, `0o` or `0x` prefix the literal is the longest run of
      symbol bytes, accepted when every byte of it is a digit of the base. */
  lemma PrefixedLiteralAccepted(v: Variant, lx: Lexer)
    requires lx.Valid() && !lx.Done() && BasePrefix(SkipSign(lx)).Some?
    ensures var digits, first := BasePrefix(SkipSign(lx)).value.0, SkipSign(lx).index + 2;
            var (res, e) := ReadInteger(v, lx);
      res.Ok? ==> && first <= e.index && res.value == lx.program[lx.index..e.index]
                  && DigitsBetween(v, lx.program, first, e.index, digits)
                  && (e.Done() || !IsSymbolCharacter(v, lx.program[e.index]))
  {
    var s := SkipSign(lx);
    var (digits, base) := BasePrefix(s).value;
    assert ReadInteger(v, lx) == ReadDigits(v, Advance(Advance(s)), lx.index, digits, base);
  }

  /** ... and rejected otherwise, with an error naming the first byte of the
      run that is not a digit of the base. */
  lemma PrefixedLiteralRejected(v: Variant, lx: Lexer)
    requires lx.Valid() && !lx.Done() && BasePrefix(SkipSign(lx)).Some?
    ensures var (digits, base) := BasePrefix(SkipSign(lx)).value;
            var first := SkipSign(lx).index + 2;
            var (res, e) := ReadInteger(v, lx);
      res.Err? ==> && first < e.index
                   && DigitsBetween(v, lx.program, first, e.index - 1, digits)
                   && lx.program[e.index - 1] !in digits && IsSymbolCharacter(v, lx.program[e.index - 1])
                   && res.error == DigitError(base, lx.program[e.index - 1])
  {
    var s := SkipSign(lx);
    var (digits, base) := BasePrefix(s).value;
    assert ReadInteger(v, lx) == ReadDigits(v, Advance(Advance(s)), lx.index, digits, base);
  }

  /** A decimal literal of two or more bytes that starts with `0` or `-0`
      (`-0` itself included) is rejected once it has been read whole. */
  lemma LeadingZero(v: Variant, lx: Lexer, j: nat)
    requires lx.Valid() && lx.index + 2 <= j <= |lx.program|
    requires var p, i := lx.program, lx.index;
      p[i] == '0' || (p[i] == '-' && p[i + 1] == '0')
    requires forall k :: lx.index < k < j ==> IsDigit(lx.program[k])
    requires j == |lx.program| || !IsSymbolCharacter(v, lx.program[j])
    ensures ReadInteger(v, lx) == (Err("integer literal cannot start with '0'"), At(lx.program, j))
  {
    var p, i := lx.program, lx.index;
    var s := SkipSign(lx);
    assert s.index + 1 < |p| ==> IsDigit(p[s.index + 1]) || !IsSymbolCharacter(v, p[s.index + 1]);
    assert BasePrefix(s).None?;
    DecimalRun(v, Advance(s), i, j);
  }

  /** A run of decimal digits followed by a byte that is not a symbol byte
      (or by the end) is read whole. */
  lemma {:induction false} DecimalRun(v: Variant, lx: Lexer, start: nat, j: nat)
    requires lx.Valid() && start <= lx.index <= j <= |lx.program|
    requires forall k :: lx.index <= k < j ==> IsDigit(lx.program[k])
    requires j == |lx.program| || !IsSymbolCharacter(v, lx.program[j])
    ensures ReadDigits(v, lx, start, DecimalDigits, "") == (Ok(lx.program[start..j]), At(lx.program, j))
    decreases j - lx.index
  {
    ValidIsAt(lx);
    if lx.index < j {
      var ch := lx.program[lx.index];
      assert ch == DecimalDigits[(ch as int) - ('0' as int)];
      DecimalRun(v, Advance(lx), start, j);
    }
  }

  /** A word is the longest run of symbol bytes; it takes its keyword type
      when it is in the keyword table and SYMBOL otherwise. */
  lemma WordToken(v: Variant, unquote: Unquoter, lx: Lexer)
    requires lx.Valid() && !lx.Done() && IsSymbolFirstCharacter(v, lx.program[lx.index])
    ensures Scan(v, unquote, lx) == WordAt(v, lx)
  {
    var ch := lx.program[lx.index];
    assert !ThreeCharAt(lx) && !TwoCharAt(lx) && !NegativeAt(lx);
    assert OneCharToken(ch).None? && !IsDigit(ch);
    assert Scan(v, unquote, lx) == ScanSingle(v, unquote, lx);
  }

  /** As written `Z` is not a symbol byte, so a lone `Z` is an UNKNOWN
      token. */
  lemma ZIsUnknownAsWritten(unquote: Unquoter)
    ensures Scan(AsWritten, unquote, NewLexer("Z")).0 == Token(Unknown, "Z", Start)
  {
  }

  /** Corrected, the symbol bytes are exactly the ASCII letters, digits and
      `_`, and `Z` is a word. */
  lemma ZIsSymbolCorrected(unquote: Unquoter, c: char)
    ensures IsSymbolCharacter(Corrected, c) <==> IsAsciiLetter(c) || IsDigit(c) || c == '_'
    ensures Scan(Corrected, unquote, NewLexer("Z")).0 == Token(Symbol, "Z", Start)
  {
    var (word, e) := ReadSymbol(Corrected, NewLexer("Z"));
    assert word == "Z";
    assert "Z" !in Keywords;
  }

  /** `NextToken` returns a newline as a NEWLINE token. */
  lemma NewlineKept(v: Variant, unquote: Unquoter, lx: Lexer)
    requires lx.Valid() && !lx.Done() && lx.program[lx.index] == '\n'
    ensures var (t, e) := NextToken(v, unquote, lx);
      t == Token(Newline, "\n", lx.location) && e.index == lx.index + 1
  {
    assert SkipExceptNewlines(v, lx, InCode) == lx;
    assert !ThreeCharAt(lx) && !TwoCharAt(lx);
  }

  /** Inside a `#` comment `skipCommentsAndAllWhitespace` runs to the next
      newline and consumes it. */
  lemma {:induction false} InCommentSkipAll(p: string, k: nat, j: nat)
    requires k <= j < |p| && p[j] == '\n'
    requires forall m :: k <= m < j ==> p[m] != '\n'
    ensures SkipAll(At(p, k), true) == SkipAll(At(p, j + 1), false)
    decreases j - k
  {
    ValidIsAt(Advance(At(p, k)));
    if k < j {
      InCommentSkipAll(p, k + 1, j);
    }
  }

  /** `NextTokenSkipNewlines` skips a `#` comment together with the newline
      that ends it. */
  lemma LineCommentSkipped(v: Variant, unquote: Unquoter, p: string, i: nat, j: nat)
    requires i < j < |p| && p[i] == '#' && p[j] == '\n'
    requires forall m :: i < m < j ==> p[m] != '\n'
    ensures NextTokenSkipNewlines(v, unquote, At(p, i)) == NextTokenSkipNewlines(v, unquote, At(p, j + 1))
  {
    ValidIsAt(Advance(At(p, i)));
    InCommentSkipAll(p, i + 1, j);
  }

  /** Inside a `#` comment `skipCommentsAndWhitespaceExceptNewlines` runs to
      the next newline; as written it consumes that newline too, corrected
      it stops in front of it. */
  lemma {:induction false} LineCommentRuns(v: Variant, p: string, k: nat, j: nat)
    requires k <= j < |p| && p[j] == '\n'
    requires forall m :: k <= m < j ==> p[m] != '\n'
    ensures SkipExceptNewlines(v, At(p, k), InLineComment)
         == if v == AsWritten then SkipExceptNewlines(v, At(p, j + 1), InCode) else At(p, j)
    decreases j - k
  {
    ValidIsAt(Advance(At(p, k)));
    if k < j {
      LineCommentRuns(v, p, k + 1, j);
    }
  }

  /** A `#` comment seen by `skipCommentsAndWhitespaceExceptNewlines`: as
      written the skipping goes on after the newline that ends it, corrected
      it stops at that newline. */
  lemma LineCommentEnd(v: Variant, p: string, i: nat, j: nat)
    requires i < j < |p| && p[i] == '#' && p[j] == '\n' && !TripleHashAt(p, i)
    requires forall m :: i < m < j ==> p[m] != '\n'
    ensures SkipExceptNewlines(v, At(p, i), InCode)
         == if v == AsWritten then SkipExceptNewlines(v, At(p, j + 1), InCode) else At(p, j)
  {
    ValidIsAt(Advance(At(p, i)));
    LineCommentRuns(v, p, i + 1, j);
  }

  /** As written, the newline that ends a `#` comment never becomes a
      NEWLINE token: `NextToken` continues with the byte after it. */
  lemma CommentEatsNewlineAsWritten(unquote: Unquoter, p: string, i: nat, j: nat)
    requires i < j < |p| && p[i] == '#' && p[j] == '\n' && !TripleHashAt(p, i)
    requires forall m :: i < m < j ==> p[m] != '\n'
    requires j + 1 < |p| && !IsWhitespace(p[j + 1]) && p[j + 1] != '#'
    ensures NextToken(AsWritten, unquote, At(p, i)) == Scan(AsWritten, unquote, At(p, j + 1))
    ensures NextToken(AsWritten, unquote, At(p, i)).0.kind != Newline
  {
    LineCommentEnd(AsWritten, p, i, j);
    assert SkipExceptNewlines(AsWritten, At(p, j + 1), InCode) == At(p, j + 1);
  }

  /** Corrected, a `#` comment is followed by the NEWLINE token of the
      newline that ends it. */
  lemma CommentKeepsNewline(unquote: Unquoter, p: string, i: nat, j: nat)
    requires i < j < |p| && p[i] == '#' && p[j] == '\n' && !TripleHashAt(p, i)
    requires forall m :: i < m < j ==> p[m] != '\n'
    ensures var (t, e) := NextToken(Corrected, unquote, At(p, i));
      t == Token(Newline, "\n", PositionAfter(p[..j])) && e.index == j + 1
  {
    LineCommentEnd(Corrected, p, i, j);
    NewlineKept(Corrected, unquote, At(p, j));
  }

  /** `p` holds `###` at index `k`. */
  predicate TripleHashAt(p: string, k: nat) {
    k + 2 < |p| && p[k] == '#' && p[k + 1] == '#' && p[k + 2] == '#'
  }

  /** Inside a block comment, the first `###` closes it. */
  lemma {:induction false} BlockCommentRuns(v: Variant, p: string, k: nat, j: nat)
    requires k <= j && TripleHashAt(p, j)
    requires forall m :: k <= m < j ==> !TripleHashAt(p, m)
    ensures SkipExceptNewlines(v, At(p, k), InBlockComment) == SkipExceptNewlines(v, At(p, j + 3), InCode)
    decreases j - k
  {
    if k < j {
      assert !TripleHashAt(p, k);
      var lx := At(p, k);
      assert lx.index == k < |p|;
      assert !lx.AtTripleHash();
      ValidIsAt(Advance(At(p, k)));
      BlockCommentRuns(v, p, k + 1, j);
    } else {
      assert At(p, k).AtTripleHash();
      ValidIsAt(Advance3(At(p, k)));
    }
  }

  /** `NextToken` skips a `###` ... `###` block comment, newlines and `#`
      inside it included; the comment ends at the first `###` after the
      opening one. */
  lemma BlockCommentSkipped(v: Variant, unquote: Unquoter, p: string, i: nat, j: nat)
    requires TripleHashAt(p, i) && i + 3 <= j && TripleHashAt(p, j)
    requires forall m :: i + 3 <= m < j ==> !TripleHashAt(p, m)
    ensures NextToken(v, unquote, At(p, i)) == NextToken(v, unquote, At(p, j + 3))
  {
    ValidIsAt(Advance3(At(p, i)));
    BlockCommentRuns(v, p, i + 3, j);
  }
}

=== FILE: go_parser.dfy ===
/** The parser of the Go generation (src/compiler/parser.go): recursive
    descent for statements, precedence climbing for expressions.

    The Go parser pulls tokens from the lexer one at a time, in one of two
    modes: `nextToken` keeps NEWLINE tokens unless the parser is inside
    brackets (its `brackets` counter is positive), and
    `nextTokenSkipNewlines` always drops them. The model reads the
    newline-keeping token sequence and writes the other mode as skipping
    the NEWLINE tokens in it. The parser state is the position of the
    current token and the brackets counter. Past the last token every read
    gives EOF, as the lexer does once its input has run out.

    Two places where the code evidently does not do what was meant are
    modelled both ways (README, Findings): `AsWritten` follows the code,
    `Corrected` the evident intention. */
module GoParser {
  import opened Wrappers
  import opened Text
  import opened GoAst
  import L = GoLexer
  import P = GoPath

  type Token = L.Token
  type Kind = L.Kind
  type Variant = L.Variant

  /** Binding strengths, as the Go constants number them. */
  const PrecedenceLowest: nat := 1
  const PrecedenceTernaryIf: nat := 2
  const PrecedenceOr: nat := 3
  const PrecedenceAnd: nat := 4
  const PrecedenceCmp: nat := 5
  const PrecedenceAddSub: nat := 6
  const PrecedenceMulDiv: nat := 7
  const PrecedencePrefix: nat := 8
  const PrecedenceCallIndex: nat := 9
  const PrecedenceDot: nat := 10

  /** `precedenceMap`: the tokens that continue an expression. */
  function Precedence(k: Kind): (r: Option<nat>)
    ensures r.Some? ==> k != L.Eof && k != L.Newline && PrecedenceTernaryIf <= r.value <= PrecedenceDot
  {
    match k
    case And => Some(PrecedenceAnd)
    case Asterisk => Some(PrecedenceMulDiv)
    case Dot => Some(PrecedenceDot)
    case DoublePlus => Some(PrecedenceAddSub)
    case Equals => Some(PrecedenceCmp)
    case GreaterThan => Some(PrecedenceCmp)
    case GreaterThanOrEquals => Some(PrecedenceCmp)
    case If => Some(PrecedenceTernaryIf)
    case In => Some(PrecedenceCmp)
    case LeftParen => Some(PrecedenceCallIndex)
    case LeftSquare => Some(PrecedenceCallIndex)
    case LessThan => Some(PrecedenceCmp)
    case LessThanOrEquals => Some(PrecedenceCmp)
    case Minus => Some(PrecedenceAddSub)
    case Not => Some(PrecedenceCmp)
    case NotEquals => Some(PrecedenceCmp)
    case Or => Some(PrecedenceOr)
    case Plus => Some(PrecedenceAddSub)
    case Slash => Some(PrecedenceMulDiv)
    case _ => None
  }

  /** `comparisonOperators`: the operators that chain. */
  predicate IsComparison(op: string) {
    op == "<" || op == "<=" || op == ">" || op == ">="
  }

  /** `compoundAssignOperators`: the operator an `op=` token applies. */
  function CompoundOperator(k: Kind): (r: Option<string>)
    ensures r.Some? <==> k in {L.AssignAdd, L.AssignDiv, L.AssignMul, L.AssignSub}
  {
    match k
    case AssignAdd => Some("+")
    case AssignDiv => Some("/")
    case AssignMul => Some("*")
    case AssignSub => Some("-")
    case _ => None
  }

  /** The tokens that may end a simple statement. */
  predicate IsTerminator(k: Kind) {
    k == L.Newline || k == L.Semicolon || k == L.Eof || k == L.RightCurly
  }

  // ---------------------------------------------------------------------
  // Reading tokens

  const EofToken: Token := L.Token(L.Eof, "", Start)

  /** The token at position `p`; EOF past the last one. */
  function At(ts: seq<Token>, p: nat): (t: Token)
    ensures t.kind != L.Eof && p >= |ts| ==> false
  {
    if p < |ts| then ts[p] else EofToken
  }

  /** The position after reading the token at `p`; reading past the end
      does not move. */
  function After(ts: seq<Token>, p: nat): (q: nat)
    requires p <= |ts|
    ensures q <= |ts| && (p < |ts| ==> q == p + 1) && (p == |ts| ==> q == p)
  {
    if p < |ts| then p + 1 else p
  }

  /** The first position at or after `p` that does not hold a NEWLINE. */
  function SkipNewlines(ts: seq<Token>, p: nat): (q: nat)
    requires p <= |ts|
    ensures p <= q <= |ts| && At(ts, q).kind != L.Newline
    ensures forall i :: p <= i < q ==> ts[i].kind == L.Newline
    decreases |ts| - p
  {
    if At(ts, p).kind == L.Newline then SkipNewlines(ts, p + 1) else p
  }

  /** Parser state: the position of the current token and the number of
      brackets the parser is inside. */
  datatype State = State(pos: nat, brackets: int)

  /** `nextToken`: inside brackets newlines are skipped, outside they are
      tokens. */
  function Next(ts: seq<Token>, st: State): (r: State)
    requires st.pos <= |ts|
    ensures r.brackets == st.brackets && r.pos <= |ts|
    ensures st.pos < |ts| ==> st.pos < r.pos
    ensures st.brackets > 0 ==> At(ts, r.pos).kind != L.Newline
    ensures st.brackets <= 0 ==> r.pos == After(ts, st.pos)
  {
    var q := After(ts, st.pos);
    State(if st.brackets > 0 then SkipNewlines(ts, q) else q, st.brackets)
  }

  /** `nextTokenSkipNewlines`: newlines are skipped whatever the counter. */
  function NextSkipNewlines(ts: seq<Token>, st: State): (r: State)
    requires st.pos <= |ts|
    ensures r.brackets == st.brackets && r.pos <= |ts|
    ensures st.pos < |ts| ==> st.pos < r.pos
    ensures At(ts, r.pos).kind != L.Newline
  {
    State(SkipNewlines(ts, After(ts, st.pos)), st.brackets)
  }

  /** The state with the counter moved by `delta`. */
  function Brackets(st: State, delta: int): State {
    State(st.pos, st.brackets + delta)
  }

  // ---------------------------------------------------------------------
  // Errors

  /** A parse error: the message and the location of the current token. */
  datatype ParseError = ParseError(message: string, location: Position)

  type Parsed<T> = Result<(T, State), ParseError>

  const Premature := "premature end of input"

  /** `unexpectedToken`: at EOF the message starts with "premature end of
      input" (the interactive prompt relies on that start to ask for more
      lines); an ERROR token reports the lexer's message; anything else
      says what was expected and what came. */
  function Unexpected(t: Token, expected: string): (e: ParseError)
    ensures e.location == t.location
    ensures t.kind == L.Eof ==> IsPrefix(Premature, e.message)
    ensures t.kind == L.Error ==> e.message == t.value
    ensures t.kind != L.Eof && t.kind != L.Error ==> !IsPrefix(Premature, e.message)
  {
    if t.kind == L.Eof then
      var m := Premature + " (expected " + expected + ")";
      assert m[..|Premature|] == Premature;
      ParseError(m, t.location)
    else if t.kind == L.Error then ParseError(t.value, t.location)
    else
      var m := "expected " + expected + ", got " + L.KindName(t.kind);
      assert m[0] == 'e' != Premature[0];
      ParseError(m, t.location)
  }

  /** `customError`: a fixed message at the current token. */
  function Custom(ts: seq<Token>, st: State, message: string): ParseError {
    ParseError(message, At(ts, st.pos).location)
  }

  // ---------------------------------------------------------------------
  // Integer literals

  /** `strconv.ParseInt(s, base, 64)` for base 0 (`base0`, where the base
      comes from a `0b`, `0o`, `0x` or `0` prefix) and base 10: an optional
      sign, at least one digit of the base, and a value that fits in 64
      bits. `None` is the error. */
  function ParseInt(s: string, base0: bool): (r: Option<int>)
    ensures r.Some? ==> -Power2To63 <= r.value < Power2To63
  {
    if s == [] then None
    else
      var negative := s[0] == '-';
      var body := if s[0] == '-' || s[0] == '+' then s[1..] else s;
      var (base, digits) := if base0 then BaseOf(body) else (10, body);
      if body == [] || !AllInBase(digits, base) then None
      else
        var n: int := BaseValue(digits, base);
        var value := if negative then -n else n;
        if -Power2To63 <= value < Power2To63 then Some(value) else None
  }

  const Power2To63: int := 0x8000_0000_0000_0000

  /** The base a base-0 literal announces, and the digits after the prefix.
      A lone leading `0` announces octal. */
  function BaseOf(body: string): (r: (nat, string))
    ensures r.0 in {2, 8, 10, 16} && |r.1| <= |body|
  {
    if |body| >= 1 && body[0] == '0' then
      if |body| >= 3 && body[1] in "bB" then (2, body[2..])
      else if |body| >= 3 && body[1] in "oO" then (8, body[2..])
      else if |body| >= 3 && body[1] in "xX" then (16, body[2..])
      else (8, body[1..])
    else (10, body)
  }

  /** The value of character `c` as a digit, or 36 when it is none. */
  function DigitValue(c: char): (d: nat)
    ensures d <= 36
  {
    if '0' <= c <= '9' then c as nat - '0' as nat
    else if 'a' <= c <= 'z' then c as nat - 'a' as nat + 10
    else if 'A' <= c <= 'Z' then c as nat - 'A' as nat + 10
    else 36
  }

  predicate AllInBase(s: string, base: nat) {
    forall i :: 0 <= i < |s| ==> DigitValue(s[i]) < base
  }

  /** The value of `s` in `base`, most significant digit first. */
  function BaseValue(s: string, base: nat): nat
    requires AllInBase(s, base)
  {
    if s == [] then 0 else BaseValue(s[..|s| - 1], base) * base + DigitValue(s[|s| - 1])
  }

  // ---------------------------------------------------------------------
  // Expressions

  /** Ok states lie inside the tokens, after the start, with the counter
      never below where it was; the corrected parser restores it exactly. */
  predicate Moved(v: Variant, ts: seq<Token>, st: State, r: State, delta: int) {
    st.pos < r.pos <= |ts| && st.brackets + delta <= r.brackets
    && (v == L.Corrected ==> r.brackets == st.brackets + delta)
  }

  /** `matchExpression`: a prefix expression, then every infix operator
      that binds tighter than `precedence`. */
  function MatchExpression(v: Variant, ts: seq<Token>, st: State, precedence: nat): (r: Parsed<Expr>)
    requires st.pos <= |ts|
    ensures r.Ok? ==> Moved(v, ts, st, r.value.1, 0)
    decreases |ts| - st.pos, 3
  {
    var (left, s1) :- MatchPrefix(v, ts, st);
    InfixLoop(v, ts, s1, precedence, left)
  }

  /** The loop of `matchExpression`. */
  function InfixLoop(v: Variant, ts: seq<Token>, st: State, precedence: nat, left: Expr): (r: Parsed<Expr>)
    requires st.pos <= |ts|
    ensures r.Ok? ==> st.pos <= r.value.1.pos <= |ts| && st.brackets <= r.value.1.brackets
    ensures r.Ok? && v == L.Corrected ==> r.value.1.brackets == st.brackets
    ensures r.Ok? && r.value.1.pos == st.pos ==> r.value == (left, st)
    decreases |ts| - st.pos, 2
  {
    var t := At(ts, st.pos);
    match Precedence(t.kind)
    case None => Ok((left, st))
    case Some(tp) =>
      if precedence >= tp then Ok((left, st))
      else
        var (e, s1) :- InfixStep(v, ts, st, left, tp);
        InfixLoop(v, ts, s1, precedence, e)
  }

  /** One turn of the loop, at an operator of precedence `tp`: a call, an
      index, a field access, a ternary `if`, `not in`, or a binary
      operator. */
  function InfixStep(v: Variant, ts: seq<Token>, st: State, left: Expr, tp: nat): (r: Parsed<Expr>)
    requires st.pos <= |ts| && Precedence(At(ts, st.pos).kind) == Some(tp)
    ensures r.Ok? ==> Moved(v, ts, st, r.value.1, 0)
    decreases |ts| - st.pos, 1
  {
    var t := At(ts, st.pos);
    if t.kind == L.LeftParen then
      var (args, s1) :- MatchArglist(v, ts, st, L.RightParen);
      Ok((CallNode(left, args), s1))
    else if t.kind == L.LeftSquare then IndexSuffix(v, ts, st, left)
    else if t.kind == L.Dot then DotSuffix(ts, st, left)
    else if t.kind == L.If then TernarySuffix(v, ts, st, left)
    else if t.kind == L.Not then NotInSuffix(v, ts, st, left, tp)
    else MatchInfix(v, ts, st, left, tp)
  }

  /** `[index]` after an expression. */
  function IndexSuffix(v: Variant, ts: seq<Token>, st: State, left: Expr): (r: Parsed<Expr>)
    requires st.pos < |ts|
    ensures r.Ok? ==> Moved(v, ts, st, r.value.1, 0)
    decreases |ts| - st.pos, 0
  {
    var (index, s1) :- MatchExpression(v, ts, Next(ts, st), PrecedenceLowest);
    if At(ts, s1.pos).kind != L.RightSquare then Err(Unexpected(At(ts, s1.pos), "right square bracket"))
    else Ok((IndexNode(left, index), Next(ts, s1)))
  }

  /** `.name` or `.position` after an expression; the position is a
      decimal integer. */
  function DotSuffix(ts: seq<Token>, st: State, left: Expr): (r: Parsed<Expr>)
    requires st.pos < |ts|
    ensures r.Ok? ==> st.pos < r.value.1.pos <= |ts| && r.value.1.brackets == st.brackets
  {
    var s1 := Next(ts, st);
    var t1 := At(ts, s1.pos);
    if t1.kind == L.Symbol then Ok((FieldAccessNode(left, t1.value), Next(ts, s1)))
    else if t1.kind == L.Int then
      match ParseInt(t1.value, false)
      case None => Err(Custom(ts, s1, "could not convert integer token"))
      case Some(n) => Ok((TupleFieldAccessNode(left, n), Next(ts, s1)))
    else Err(Custom(ts, s1, "right-hand side of dot must be a symbol"))
  }

  /** `if condition else otherwise` after an expression. */
  function TernarySuffix(v: Variant, ts: seq<Token>, st: State, left: Expr): (r: Parsed<Expr>)
    requires st.pos < |ts|
    ensures r.Ok? ==> Moved(v, ts, st, r.value.1, 0)
    decreases |ts| - st.pos, 0
  {
    var (condition, s1) :- MatchExpression(v, ts, Next(ts, st), PrecedenceLowest);
    if At(ts, s1.pos).kind != L.Else then Err(Custom(ts, s1, "`else`"))
    else
      var (otherwise, s2) :- MatchExpression(v, ts, Next(ts, s1), PrecedenceLowest);
      Ok((TernaryIfNode(condition, left, otherwise), s2))
  }

  /** `not in right` after an expression: the negation of `in`. */
  function NotInSuffix(v: Variant, ts: seq<Token>, st: State, left: Expr, tp: nat): (r: Parsed<Expr>)
    requires st.pos < |ts|
    ensures r.Ok? ==> Moved(v, ts, st, r.value.1, 0)
    decreases |ts| - st.pos, 0
  {
    var s1 := Next(ts, st);
    if At(ts, s1.pos).kind != L.In then Err(Custom(ts, s1, "expected `in` after `not` in infix position"))
    else
      var (right, s2) :- MatchExpression(v, ts, Next(ts, s1), tp);
      Ok((UnaryNode("not", InfixNode("in", left, right)), s2))
  }

  /** `matchInfix`: a binary operator and its right operand, read at the
      operator's own precedence. */
  function MatchInfix(v: Variant, ts: seq<Token>, st: State, left: Expr, tp: nat): (r: Parsed<Expr>)
    requires st.pos < |ts|
    ensures r.Ok? ==> Moved(v, ts, st, r.value.1, 0)
    decreases |ts| - st.pos, 0
  {
    var (right, s1) :- MatchExpression(v, ts, Next(ts, st), tp);
    Ok((Combine(At(ts, st.pos).value, left, right), s1))
  }

  /** The node `matchInfix` builds: a comparison applied to a comparison is
      split into two comparisons joined by `and`, sharing the middle
      operand. */
  function Combine(op: string, left: Expr, right: Expr): (e: Expr)
    ensures e.InfixNode?
  {
    if left.InfixNode? && IsComparison(op) && IsComparison(left.operator) then
      InfixNode("and", left, InfixNode(op, left.right, right))
    else InfixNode(op, left, right)
  }

  /** `matchPrefix`: literals, symbols, bracketed forms, prefix operators
      and constructors. */
  function MatchPrefix(v: Variant, ts: seq<Token>, st: State): (r: Parsed<Expr>)
    requires st.pos <= |ts|
    ensures r.Ok? ==> Moved(v, ts, st, r.value.1, 0)
    ensures At(ts, st.pos).kind == L.Eof ==> r.Err?
    decreases |ts| - st.pos, 1
  {
    var t := At(ts, st.pos);
    var k := t.kind;
    if k == L.Character then Ok((CharacterNode(t.value), Next(ts, st)))
    else if k == L.False then Ok((BooleanNode(false), Next(ts, st)))
    else if k == L.Int then IntegerLiteral(ts, st)
    else if k == L.LeftCurly then
      var (pairs, s1) :- MatchMapPairs(v, ts, Next(ts, Brackets(st, 1)), []);
      Ok((MapNode(pairs), s1))
    else if k == L.LeftParen then
      var (items, s1) :- MatchArglist(v, ts, st, L.RightParen);
      if |items| == 1 then Ok((items[0], s1)) else Ok((TupleNode(items), s1))
    else if k == L.LeftSquare then
      var (items, s1) :- MatchArglist(v, ts, st, L.RightSquare);
      Ok((ListNode(items), s1))
    else if k == L.Minus || k == L.Not then
      var (operand, s1) :- MatchExpression(v, ts, Next(ts, st), PrecedencePrefix);
      Ok((UnaryNode(t.value, operand), s1))
    else if k == L.New then MatchConstructor(v, ts, st)
    else if k == L.RealNumber then Ok((RealNumberNode(t.value), Next(ts, st)))
    else if k == L.Self then Ok((SymbolNode("self"), Next(ts, st)))
    else if k == L.String then Ok((StringNode(t.value), Next(ts, st)))
    else if k == L.Symbol then SymbolPrefix(ts, st)
    else if k == L.True then Ok((BooleanNode(true), Next(ts, st)))
    else Err(Unexpected(t, "start of expression"))
  }

  /** An integer literal: base prefixes as Go writes them, 64-bit range.
      The error names the token after the literal, which the code has
      already read. */
  function IntegerLiteral(ts: seq<Token>, st: State): (r: Parsed<Expr>)
    requires st.pos < |ts|
    ensures r.Ok? ==> r.value.1 == Next(ts, st) && r.value.0.IntegerNode?
    ensures r.Ok? <==> ParseInt(At(ts, st.pos).value, true).Some?
  {
    var s1 := Next(ts, st);
    match ParseInt(At(ts, st.pos).value, true)
    case None => Err(Custom(ts, s1, "invalid integer literal"))
    case Some(n) => Ok((IntegerNode(n), s1))
  }

  /** A symbol, or `Enum::Case`. */
  function SymbolPrefix(ts: seq<Token>, st: State): (r: Parsed<Expr>)
    requires st.pos < |ts|
    ensures r.Ok? ==> st.pos < r.value.1.pos <= |ts| && r.value.1.brackets == st.brackets
    ensures At(ts, Next(ts, st).pos).kind != L.DoubleColon ==> r == Ok((SymbolNode(At(ts, st.pos).value), Next(ts, st)))
  {
    var t := At(ts, st.pos);
    var s1 := Next(ts, st);
    if At(ts, s1.pos).kind == L.DoubleColon then
      var s2 := Next(ts, s1);
      var t2 := At(ts, s2.pos);
      if t2.kind != L.Symbol then Err(Unexpected(t2, "symbol"))
      else Ok((QualifiedSymbolNode(t.value, t2.value), Next(ts, s2)))
    else Ok((SymbolNode(t.value), s1))
  }

  /** `matchArglist`: at an opening bracket, the comma-separated
      expressions up to `terminator`, with the counter raised while inside. */
  function MatchArglist(v: Variant, ts: seq<Token>, st: State, terminator: Kind): (r: Parsed<seq<Expr>>)
    requires st.pos < |ts| && terminator != L.Eof
    ensures r.Ok? ==> Moved(v, ts, st, r.value.1, 0)
    decreases |ts| - st.pos, 0
  {
    ArglistItems(v, ts, Next(ts, Brackets(st, 1)), terminator, [])
  }

  /** The loop of `matchArglist`; `items` are those read so far. */
  function ArglistItems(v: Variant, ts: seq<Token>, st: State, terminator: Kind, items: seq<Expr>): (r: Parsed<seq<Expr>>)
    requires st.pos <= |ts| && terminator != L.Eof
    ensures r.Ok? ==> Moved(v, ts, st, r.value.1, -1)
    ensures r.Ok? ==> items <= r.value.0
    decreases |ts| - st.pos, 4
  {
    var t := At(ts, st.pos);
    if t.kind == terminator then Ok((items, Next(ts, Brackets(st, -1))))
    else
      var (e, s1) :- MatchExpression(v, ts, st, PrecedenceLowest);
      var t1 := At(ts, s1.pos);
      if t1.kind == L.Comma then ArglistItems(v, ts, Next(ts, s1), terminator, items + [e])
      else if t1.kind == terminator then Ok((items + [e], Next(ts, Brackets(s1, -1))))
      else Err(Unexpected(t1, "comma or " + L.KindName(terminator)))
  }

  /** `matchMapPairs`: after `{`, the `key: value` pairs up to `}`. The
      code lowers the counter only at a `}` that follows a pair; at a `}`
      right after `{` or after a trailing comma it leaves the counter
      raised (README, Findings), which the corrected variant lowers. */
  function MatchMapPairs(v: Variant, ts: seq<Token>, st: State, pairs: seq<MapPair>): (r: Parsed<seq<MapPair>>)
    requires st.pos <= |ts|
    ensures r.Ok? ==> Moved(v, ts, st, r.value.1, -1)
    decreases |ts| - st.pos, 5
  {
    var t := At(ts, st.pos);
    if t.kind == L.RightCurly then
      if v == L.Corrected then Ok((pairs, Next(ts, Brackets(st, -1))))
      else Ok((pairs, Next(ts, st)))
    else
      var (pair, s1) :- MatchMapPair(v, ts, st);
      var t1 := At(ts, s1.pos);
      if t1.kind == L.Comma then MatchMapPairs(v, ts, Next(ts, s1), pairs + [pair])
      else if t1.kind == L.RightCurly then Ok((pairs + [pair], Next(ts, Brackets(s1, -1))))
      else Err(Unexpected(t1, "comma or right curly brace"))
  }

  /** One `key: value` pair of a map literal. */
  function MatchMapPair(v: Variant, ts: seq<Token>, st: State): (r: Parsed<MapPair>)
    requires st.pos <= |ts|
    ensures r.Ok? ==> Moved(v, ts, st, r.value.1, 0)
    decreases |ts| - st.pos, 4
  {
    var (key, s1) :- MatchExpression(v, ts, st, PrecedenceLowest);
    if At(ts, s1.pos).kind != L.Colon then Err(Unexpected(At(ts, s1.pos), "colon"))
    else
      var (value, s2) :- MatchExpression(v, ts, Next(ts, s1), PrecedenceLowest);
      Ok((MapPair(key, value), s2))
  }

  /** `matchConstructor`: `new Name { field: value, ... }`. */
  function MatchConstructor(v: Variant, ts: seq<Token>, st: State): (r: Parsed<Expr>)
    requires st.pos <= |ts|
    ensures r.Ok? ==> Moved(v, ts, st, r.value.1, 0)
    decreases |ts| - st.pos, 0
  {
    var s1 := Next(ts, st);
    var t1 := At(ts, s1.pos);
    if t1.kind != L.Symbol then Err(Unexpected(t1, "class name"))
    else
      var s2 := Next(ts, s1);
      if At(ts, s2.pos).kind != L.LeftCurly then Err(Unexpected(At(ts, s2.pos), "left curly brace"))
      else
        var (fields, s3) :- ConstructorFields(v, ts, Next(ts, Brackets(s2, 1)), []);
        Ok((ConstructorNode(t1.value, fields), s3))
  }

  /** The loop of `matchConstructor`, up to and including `}`. */
  function ConstructorFields(v: Variant, ts: seq<Token>, st: State, fields: seq<ConstructorField>): (r: Parsed<seq<ConstructorField>>)
    requires st.pos <= |ts|
    ensures r.Ok? ==> Moved(v, ts, st, r.value.1, -1)
    decreases |ts| - st.pos, 4
  {
    var t := At(ts, st.pos);
    if t.kind == L.RightCurly then Ok((fields, Next(ts, Brackets(st, -1))))
    else if t.kind != L.Symbol then Err(Unexpected(t, "field name"))
    else
      var s1 := Next(ts, st);
      if At(ts, s1.pos).kind != L.Colon then Err(Unexpected(At(ts, s1.pos), "colon"))
      else
        var (value, s2) :- MatchExpression(v, ts, Next(ts, s1), PrecedenceLowest);
        var fields' := fields + [ConstructorField(t.value, value)];
        var t2 := At(ts, s2.pos);
        if t2.kind == L.RightCurly then Ok((fields', Next(ts, Brackets(s2, -1))))
        else if t2.kind != L.Comma then Err(Unexpected(t2, "comma"))
        else ConstructorFields(v, ts, Next(ts, s2), fields')
  }

  // ---------------------------------------------------------------------
  // Types and patterns

  /** `matchTypeNode`: `[T]`, `{K, V}`, `(T, ...)`, `Name` or
      `Name<T, ...>`. Types never touch the counter. */
  function MatchTypeNode(v: Variant, ts: seq<Token>, st: State): (r: Parsed<TypeNode>)
    requires st.pos <= |ts|
    ensures r.Ok? ==> st.pos < r.value.1.pos <= |ts| && r.value.1.brackets == st.brackets
    decreases |ts| - st.pos, 1
  {
    var t := At(ts, st.pos);
    if t.kind == L.LeftSquare then
      var (item, s1) :- MatchTypeNode(v, ts, Next(ts, st));
      if At(ts, s1.pos).kind != L.RightSquare then Err(Unexpected(At(ts, s1.pos), "right square bracket"))
      else Ok((ListTypeNode(item), Next(ts, s1)))
    else if t.kind == L.LeftCurly then MapType(v, ts, st)
    else if t.kind == L.LeftParen then TupleTypes(v, ts, Next(ts, st), [])
    else if t.kind == L.Symbol then
      var s1 := Next(ts, st);
      if At(ts, s1.pos).kind == L.LessThan then
        var (first, s2) :- MatchTypeNode(v, ts, Next(ts, s1));
        var (parameters, s3) :- TypeArguments(v, ts, s2, [first]);
        Ok((ParameterizedTypeNode(t.value, parameters), s3))
      else Ok((SymbolType(t.value), s1))
    else Err(Unexpected(t, "type name"))
  }

  /** `{K, V}`. */
  function MapType(v: Variant, ts: seq<Token>, st: State): (r: Parsed<TypeNode>)
    requires st.pos < |ts|
    ensures r.Ok? ==> st.pos < r.value.1.pos <= |ts| && r.value.1.brackets == st.brackets
    decreases |ts| - st.pos, 0
  {
    var (key, s1) :- MatchTypeNode(v, ts, Next(ts, st));
    if At(ts, s1.pos).kind != L.Comma then Err(Unexpected(At(ts, s1.pos), "comma"))
    else
      var (value, s2) :- MatchTypeNode(v, ts, Next(ts, s1));
      if At(ts, s2.pos).kind != L.RightCurly then Err(Unexpected(At(ts, s2.pos), "right curly bracket"))
      else Ok((MapTypeNode(key, value), Next(ts, s2)))
  }

  /** The items of a tuple type, after `(`. The code stops at `)` without
      reading past it, so whatever follows the type sees the `)` (README,
      Findings); the corrected variant reads past it. */
  function TupleTypes(v: Variant, ts: seq<Token>, st: State, items: seq<TypeNode>): (r: Parsed<TypeNode>)
    requires st.pos <= |ts|
    ensures r.Ok? ==> st.pos <= r.value.1.pos <= |ts| && r.value.1.brackets == st.brackets
    ensures r.Ok? && v == L.Corrected ==> st.pos < r.value.1.pos
    ensures r.Ok? ==> r.value.0.TupleTypeNode?
    decreases |ts| - st.pos, 2
  {
    var t := At(ts, st.pos);
    if t.kind == L.RightParen then
      Ok((TupleTypeNode(items), if v == L.Corrected then Next(ts, st) else st))
    else
      var (item, s1) :- MatchTypeNode(v, ts, st);
      var t1 := At(ts, s1.pos);
      if t1.kind == L.Comma then TupleTypes(v, ts, Next(ts, s1), items + [item])
      else if t1.kind != L.RightParen then Err(Unexpected(t1, "comma or right parenthesis"))
      else TupleTypes(v, ts, s1, items + [item])
  }

  /** The type arguments after `Name<T`, up to and including `>`. */
  function TypeArguments(v: Variant, ts: seq<Token>, st: State, items: seq<TypeNode>): (r: Parsed<seq<TypeNode>>)
    requires st.pos <= |ts|
    ensures r.Ok? ==> st.pos < r.value.1.pos <= |ts| && r.value.1.brackets == st.brackets
    ensures r.Ok? ==> items <= r.value.0
    decreases |ts| - st.pos, 0
  {
    var t := At(ts, st.pos);
    if t.kind == L.GreaterThan then Ok((items, Next(ts, st)))
    else if t.kind != L.Comma then Err(Unexpected(t, "comma or right angle bracket"))
    else
      var (item, s1) :- MatchTypeNode(v, ts, Next(ts, st));
      TypeArguments(v, ts, s1, items + [item])
  }

  /** `matchPatternNode`: `Name` or `Name(P, ...)`, where the list may end
      in `...`. */
  function MatchPatternNode(ts: seq<Token>, st: State): (r: Parsed<Pattern>)
    requires st.pos <= |ts|
    ensures r.Ok? ==> st.pos < r.value.1.pos <= |ts| && r.value.1.brackets == st.brackets
    decreases |ts| - st.pos, 1
  {
    var t := At(ts, st.pos);
    if t.kind != L.Symbol then Err(Unexpected(t, "match pattern"))
    else
      var s1 := Next(ts, st);
      if At(ts, s1.pos).kind != L.LeftParen then Ok((SymbolPattern(t.value), s1))
      else
        var (first, s2) :- MatchPatternNode(ts, Next(ts, s1));
        var (patterns, s3) :- PatternRest(ts, s2, [first]);
        Ok((CompoundPattern(t.value, patterns), s3))
  }

  /** The rest of a compound pattern, up to and including `)`. */
  function PatternRest(ts: seq<Token>, st: State, patterns: seq<Pattern>): (r: Parsed<seq<Pattern>>)
    requires st.pos <= |ts|
    ensures r.Ok? ==> st.pos < r.value.1.pos <= |ts| && r.value.1.brackets == st.brackets
    ensures r.Ok? ==> patterns <= r.value.0
    decreases |ts| - st.pos, 0
  {
    var t := At(ts, st.pos);
    if t.kind == L.Comma then
      var (pattern, s1) :- MatchPatternNode(ts, Next(ts, st));
      PatternRest(ts, s1, patterns + [pattern])
    else if t.kind == L.RightParen then Ok((patterns, Next(ts, st)))
    else if t.kind == L.Ellipsis then
      var s1 := Next(ts, st);
      if At(ts, s1.pos).kind != L.RightParen then Err(Unexpected(At(ts, s1.pos), "right parenthesis"))
      else Ok((patterns, Next(ts, s1)))
    else Err(Unexpected(t, "comma or right parenthesis"))
  }

  // ---------------------------------------------------------------------
  // Statements

  /** `matchStatement`. Declarations, loops and `if` end at their closing
      brace; every other statement must be followed by a newline, `;`, EOF
      or `}`, and a newline or `;` is read past together with any newlines
      after it. */
  function MatchStatement(v: Variant, ts: seq<Token>, st: State): (r: Parsed<Stmt>)
    requires st.pos <= |ts|
    ensures r.Ok? ==> Moved(v, ts, st, r.value.1, 0)
    decreases |ts| - st.pos, 7
  {
    var k := At(ts, st.pos).kind;
    if k in {L.Class, L.Enum, L.Func, L.For, L.If, L.While} then MatchCompoundStatement(v, ts, st)
    else
      var (tree, s1) :- MatchSimpleStatement(v, ts, st);
      Terminated(ts, tree, s1)
  }

  /** The statements that end at their own closing brace. */
  function MatchCompoundStatement(v: Variant, ts: seq<Token>, st: State): (r: Parsed<Stmt>)
    requires st.pos <= |ts| && At(ts, st.pos).kind in {L.Class, L.Enum, L.Func, L.For, L.If, L.While}
    ensures r.Ok? ==> Moved(v, ts, st, r.value.1, 0)
    decreases |ts| - st.pos, 6
  {
    match At(ts, st.pos).kind
    case Class => MatchClassDeclaration(v, ts, st)
    case Enum => MatchEnumDeclaration(v, ts, st)
    case Func => MatchFunctionDeclaration(v, ts, st)
    case For => MatchForLoop(v, ts, st)
    case If => MatchIfStatement(v, ts, st)
    case While => MatchWhileLoop(v, ts, st)
  }

  /** The statements that need a terminator, before the terminator. */
  function MatchSimpleStatement(v: Variant, ts: seq<Token>, st: State): (r: Parsed<Stmt>)
    requires st.pos <= |ts|
    ensures r.Ok? ==> Moved(v, ts, st, r.value.1, 0)
    decreases |ts| - st.pos, 6
  {
    var k := At(ts, st.pos).kind;
    if k == L.Break then Ok((BreakStatement, Next(ts, st)))
    else if k == L.Continue then Ok((ContinueStatement, Next(ts, st)))
    else if k == L.Import then MatchImportStatement(ts, st)
    else if k == L.Let then MatchLetStatement(v, ts, st, false)
    else if k == L.Match then MatchMatchStatement(v, ts, st)
    else if k == L.Return then MatchReturnStatement(v, ts, st)
    else if k == L.Var then MatchLetStatement(v, ts, st, true)
    else MatchExpressionStatement(v, ts, st)
  }

  /** The check that ends a simple statement. */
  function Terminated(ts: seq<Token>, tree: Stmt, st: State): (r: Parsed<Stmt>)
    requires st.pos <= |ts|
    ensures r.Ok? <==> IsTerminator(At(ts, st.pos).kind)
    ensures r.Ok? ==> r.value.0 == tree && st.pos <= r.value.1.pos <= |ts| && r.value.1.brackets == st.brackets
    ensures r.Ok? ==> At(ts, r.value.1.pos).kind in {L.Eof, L.RightCurly} || At(ts, st.pos).kind in {L.Newline, L.Semicolon}
    ensures r.Err? ==> r.error == Custom(ts, st, "statement must be followed by newline or semicolon (got "
      + L.KindName(At(ts, st.pos).kind) + ")")
  {
    var k := At(ts, st.pos).kind;
    if !IsTerminator(k) then
      Err(Custom(ts, st, "statement must be followed by newline or semicolon (got " + L.KindName(k) + ")"))
    else if k == L.Newline || k == L.Semicolon then Ok((tree, NextSkipNewlines(ts, st)))
    else Ok((tree, st))
  }

  /** An expression statement, an assignment, or a compound assignment
      `e op= value`, which assigns `e op value` to `e`. */
  function MatchExpressionStatement(v: Variant, ts: seq<Token>, st: State): (r: Parsed<Stmt>)
    requires st.pos <= |ts|
    ensures r.Ok? ==> Moved(v, ts, st, r.value.1, 0)
    decreases |ts| - st.pos, 5
  {
    var (e, s1) :- MatchExpression(v, ts, st, PrecedenceLowest);
    var t := At(ts, s1.pos);
    if t.kind == L.Assign then
      var (value, s2) :- MatchExpression(v, ts, Next(ts, s1), PrecedenceLowest);
      Ok((AssignStatement(e, value), s2))
    else
      match CompoundOperator(t.kind)
      case Some(op) =>
        var (value, s2) :- MatchExpression(v, ts, Next(ts, s1), PrecedenceLowest);
        Ok((AssignStatement(e, InfixNode(op, e, value)), s2))
      case None => Ok((ExpressionStatement(e), s1))
  }

  /** `matchBlock`: `{`, statements, `}`; newlines after either brace are
      skipped. */
  function MatchBlock(v: Variant, ts: seq<Token>, st: State): (r: Parsed<seq<Stmt>>)
    requires st.pos <= |ts|
    ensures r.Ok? ==> Moved(v, ts, st, r.value.1, 0)
    decreases |ts| - st.pos, 0
  {
    var t := At(ts, st.pos);
    if t.kind != L.LeftCurly then Err(Unexpected(t, "left curly brace"))
    else BlockStatements(v, ts, NextSkipNewlines(ts, st), [])
  }

  /** The loop of `matchBlock`, up to and including `}`. */
  function BlockStatements(v: Variant, ts: seq<Token>, st: State, stmts: seq<Stmt>): (r: Parsed<seq<Stmt>>)
    requires st.pos <= |ts|
    ensures r.Ok? ==> Moved(v, ts, st, r.value.1, 0)
    decreases |ts| - st.pos, 8
  {
    if At(ts, st.pos).kind == L.RightCurly then Ok((stmts, NextSkipNewlines(ts, st)))
    else
      var (stmt, s1) :- MatchStatement(v, ts, st);
      BlockStatements(v, ts, s1, stmts + [stmt])
  }

  /** `matchClassDeclaration`: `class Name [no constructor] { fields }`. */
  function MatchClassDeclaration(v: Variant, ts: seq<Token>, st: State): (r: Parsed<Stmt>)
    requires st.pos < |ts|
    ensures r.Ok? ==> Moved(v, ts, st, r.value.1, 0)
    decreases |ts| - st.pos, 5
  {
    var s1 := Next(ts, st);
    var t1 := At(ts, s1.pos);
    if t1.kind != L.Symbol then Err(Unexpected(t1, "class name"))
    else
      var (noConstructor, s2) :- NoConstructorClause(ts, Next(ts, s1));
      if At(ts, s2.pos).kind != L.LeftCurly then Err(Unexpected(At(ts, s2.pos), "left curly brace"))
      else
        var (fields, s3) :- ClassFields(v, ts, NextSkipNewlines(ts, s2), []);
        Ok((ClassDeclaration(t1.value, noConstructor, fields), s3))
  }

  /** The optional `no constructor` of a class declaration. */
  function NoConstructorClause(ts: seq<Token>, st: State): (r: Parsed<bool>)
    requires st.pos <= |ts|
    ensures r.Ok? ==> st.pos <= r.value.1.pos <= |ts| && r.value.1.brackets == st.brackets
    ensures r.Ok? ==> (r.value.0 <==> At(ts, st.pos).kind == L.No)
  {
    if At(ts, st.pos).kind != L.No then Ok((false, st))
    else
      var s1 := Next(ts, st);
      if At(ts, s1.pos).kind != L.Constructor then Err(Unexpected(At(ts, s1.pos), "keyword `constructor`"))
      else Ok((true, Next(ts, s1)))
  }

  /** The fields of a class, each `public name: T` or `private name: T`,
      up to and including `}`. */
  function ClassFields(v: Variant, ts: seq<Token>, st: State, fields: seq<ClassField>): (r: Parsed<seq<ClassField>>)
    requires st.pos <= |ts|
    ensures r.Ok? ==> st.pos < r.value.1.pos <= |ts| && r.value.1.brackets == st.brackets
    decreases |ts| - st.pos
  {
    var t := At(ts, st.pos);
    if t.kind == L.RightCurly then Ok((fields, NextSkipNewlines(ts, st)))
    else if t.kind != L.Public && t.kind != L.Private then Err(Unexpected(t, "`public` or `private`"))
    else
      var s1 := Next(ts, st);
      var t1 := At(ts, s1.pos);
      if t1.kind != L.Symbol then Err(Unexpected(t1, "symbol"))
      else
        var s2 := Next(ts, s1);
        if At(ts, s2.pos).kind != L.Colon then Err(Unexpected(At(ts, s2.pos), "colon"))
        else
          var (fieldType, s3) :- MatchTypeNode(v, ts, Next(ts, s2));
          var s4 := if At(ts, s3.pos).kind == L.Newline then NextSkipNewlines(ts, s3) else s3;
          ClassFields(v, ts, s4, fields + [ClassField(t1.value, t.kind == L.Public, fieldType)])
  }

  /** `matchEnumDeclaration`: `enum Name [<T>] { cases }`. */
  function MatchEnumDeclaration(v: Variant, ts: seq<Token>, st: State): (r: Parsed<Stmt>)
    requires st.pos < |ts|
    ensures r.Ok? ==> Moved(v, ts, st, r.value.1, 0)
    decreases |ts| - st.pos, 5
  {
    var s1 := Next(ts, st);
    var t1 := At(ts, s1.pos);
    if t1.kind != L.Symbol then Err(Unexpected(t1, "symbol"))
    else
      var (parameter, s2) :- EnumTypeParameter(ts, Next(ts, s1));
      if At(ts, s2.pos).kind != L.LeftCurly then Err(Unexpected(At(ts, s2.pos), "left curly brace"))
      else
        var (cases, s3) :- EnumCases(v, ts, NextSkipNewlines(ts, s2), []);
        Ok((EnumDeclaration(t1.value, parameter, cases), s3))
  }

  /** The optional `<T>` of an enum declaration; `""` when absent. */
  function EnumTypeParameter(ts: seq<Token>, st: State): (r: Parsed<string>)
    requires st.pos <= |ts|
    ensures r.Ok? ==> st.pos <= r.value.1.pos <= |ts| && r.value.1.brackets == st.brackets
    ensures At(ts, st.pos).kind != L.LessThan ==> r == Ok(("", st))
  {
    if At(ts, st.pos).kind != L.LessThan then Ok(("", st))
    else
      var s1 := Next(ts, st);
      var t1 := At(ts, s1.pos);
      if t1.kind != L.Symbol then Err(Unexpected(t1, "type parameter"))
      else
        var s2 := Next(ts, s1);
        if At(ts, s2.pos).kind != L.GreaterThan then Err(Unexpected(At(ts, s2.pos), "right angle bracket"))
        else Ok((t1.value, Next(ts, s2)))
  }

  /** The cases of an enum, up to and including `}`; newlines between
      them are skipped. */
  function EnumCases(v: Variant, ts: seq<Token>, st: State, cases: seq<EnumCase>): (r: Parsed<seq<EnumCase>>)
    requires st.pos <= |ts|
    ensures r.Ok? ==> st.pos < r.value.1.pos <= |ts| && r.value.1.brackets == st.brackets
    decreases |ts| - st.pos
  {
    var t := At(ts, st.pos);
    if t.kind == L.RightCurly then Ok((cases, NextSkipNewlines(ts, st)))
    else if t.kind != L.Symbol then Err(Unexpected(t, "symbol or right curly brace"))
    else
      var (types, s1) :- EnumCaseTypes(v, ts, NextSkipNewlines(ts, st));
      var cases' := cases + [EnumCase(t.value, types)];
      var t1 := At(ts, s1.pos);
      if t1.kind == L.Comma then EnumCases(v, ts, NextSkipNewlines(ts, s1), cases')
      else if t1.kind == L.RightCurly then Ok((cases', NextSkipNewlines(ts, s1)))
      else Err(Unexpected(t1, "comma or right curly brace"))
  }

  /** The parenthesised types of one enum case, if there are parentheses:
      they must hold at least one type. */
  function EnumCaseTypes(v: Variant, ts: seq<Token>, st: State): (r: Parsed<seq<TypeNode>>)
    requires st.pos <= |ts|
    ensures r.Ok? ==> st.pos <= r.value.1.pos <= |ts| && r.value.1.brackets == st.brackets
    ensures r.Ok? && At(ts, st.pos).kind == L.LeftParen ==> r.value.0 != []
    ensures At(ts, st.pos).kind != L.LeftParen ==> r == Ok(([], st))
  {
    if At(ts, st.pos).kind != L.LeftParen then Ok(([], st))
    else
      var (types, s1) :- TypeList(v, ts, NextSkipNewlines(ts, st), []);
      if types == [] then Err(Custom(ts, s1, "enum case with parentheses must include at least one type"))
      else Ok((types, s1))
  }

  /** Comma-separated types up to and including `)`, skipping newlines. */
  function TypeList(v: Variant, ts: seq<Token>, st: State, types: seq<TypeNode>): (r: Parsed<seq<TypeNode>>)
    requires st.pos <= |ts|
    ensures r.Ok? ==> st.pos < r.value.1.pos <= |ts| && r.value.1.brackets == st.brackets
    ensures r.Ok? ==> types <= r.value.0
    decreases |ts| - st.pos
  {
    var t := At(ts, st.pos);
    if t.kind == L.RightParen then Ok((types, NextSkipNewlines(ts, st)))
    else
      var (item, s1) :- MatchTypeNode(v, ts, st);
      var t1 := At(ts, s1.pos);
      if t1.kind == L.Comma then TypeList(v, ts, NextSkipNewlines(ts, s1), types + [item])
      else if t1.kind == L.RightParen then Ok((types + [item], NextSkipNewlines(ts, s1)))
      else Err(Unexpected(t1, "comma or right parenthesis"))
  }

  /** `matchFunctionDeclaration`: `func name(params) [-> T] { body }`. */
  function MatchFunctionDeclaration(v: Variant, ts: seq<Token>, st: State): (r: Parsed<Stmt>)
    requires st.pos < |ts|
    ensures r.Ok? ==> Moved(v, ts, st, r.value.1, 0)
    decreases |ts| - st.pos, 5
  {
    var s1 := Next(ts, st);
    var t1 := At(ts, s1.pos);
    if t1.kind != L.Symbol then Err(Unexpected(t1, "function name"))
    else
      var s2 := Next(ts, s1);
      if At(ts, s2.pos).kind != L.LeftParen then Err(Unexpected(At(ts, s2.pos), "left parenthesis"))
      else
        var (params, s3) :- FunctionParams(v, ts, Next(ts, s2), []);
        if At(ts, s3.pos).kind != L.RightParen then Err(Unexpected(At(ts, s3.pos), "right parenthesis"))
        else
          var (returnType, s4) :- OptionalType(v, ts, Next(ts, s3), L.Arrow);
          var (body, s5) :- MatchBlock(v, ts, s4);
          Ok((FunctionDeclaration(t1.value, params, returnType, body), s5))
  }

  /** A type annotation introduced by `marker` (`->` or `:`), if present. */
  function OptionalType(v: Variant, ts: seq<Token>, st: State, marker: Kind): (r: Parsed<Annotation>)
    requires st.pos <= |ts|
    ensures r.Ok? ==> st.pos <= r.value.1.pos <= |ts| && r.value.1.brackets == st.brackets
    ensures At(ts, st.pos).kind != marker ==> r == Ok((NoType, st))
    ensures r.Ok? && At(ts, st.pos).kind == marker ==> r.value.0.HasType?
  {
    if At(ts, st.pos).kind != marker then Ok((NoType, st))
    else
      var (t, s1) :- MatchTypeNode(v, ts, Next(ts, st));
      Ok((HasType(t), s1))
  }

  /** `matchFunctionParams`: `name: T` pairs separated by commas, stopping
      at (not reading) `)`. */
  function FunctionParams(v: Variant, ts: seq<Token>, st: State, params: seq<Param>): (r: Parsed<seq<Param>>)
    requires st.pos <= |ts|
    ensures r.Ok? ==> st.pos <= r.value.1.pos <= |ts| && r.value.1.brackets == st.brackets
    ensures r.Ok? ==> params <= r.value.0
    decreases |ts| - st.pos
  {
    var t := At(ts, st.pos);
    if t.kind == L.RightParen then Ok((params, st))
    else if t.kind != L.Symbol then Err(Unexpected(t, "function parameter name"))
    else
      var s1 := Next(ts, st);
      if At(ts, s1.pos).kind != L.Colon then Err(Unexpected(At(ts, s1.pos), "colon"))
      else
        var (paramType, s2) :- MatchTypeNode(v, ts, Next(ts, s1));
        var params' := params + [Param(t.value, paramType)];
        var t2 := At(ts, s2.pos);
        if t2.kind == L.RightParen then Ok((params', s2))
        else if t2.kind == L.Comma then FunctionParams(v, ts, Next(ts, s2), params')
        else Err(Unexpected(t2, "comma or right parenthesis"))
  }

  /** `matchForLoop`: `for a, b in iterable { body }`. */
  function MatchForLoop(v: Variant, ts: seq<Token>, st: State): (r: Parsed<Stmt>)
    requires st.pos < |ts|
    ensures r.Ok? ==> Moved(v, ts, st, r.value.1, 0)
    decreases |ts| - st.pos, 5
  {
    var (variables, s1) :- ForVariables(ts, Next(ts, st), []);
    var (iterable, s2) :- MatchExpression(v, ts, Next(ts, s1), PrecedenceLowest);
    var (body, s3) :- MatchBlock(v, ts, s2);
    Ok((ForLoop(variables, iterable, body), s3))
  }

  /** The loop variables of a `for`, stopping at (not reading) `in`. */
  function ForVariables(ts: seq<Token>, st: State, names: seq<string>): (r: Parsed<seq<string>>)
    requires st.pos <= |ts|
    ensures r.Ok? ==> st.pos <= r.value.1.pos < |ts| && r.value.1.brackets == st.brackets
    ensures r.Ok? ==> At(ts, r.value.1.pos).kind == L.In && |r.value.0| > |names|
    decreases |ts| - st.pos
  {
    var t := At(ts, st.pos);
    if t.kind != L.Symbol then Err(Unexpected(t, "symbol"))
    else
      var s1 := Next(ts, st);
      var t1 := At(ts, s1.pos);
      if t1.kind == L.Comma then ForVariables(ts, Next(ts, s1), names + [t.value])
      else if t1.kind == L.In then Ok((names + [t.value], s1))
      else Err(Unexpected(t1, "comma or keyword 'in'"))
  }

  /** `matchIfStatement`: `if c { } else if c { } ... else { }`. */
  function MatchIfStatement(v: Variant, ts: seq<Token>, st: State): (r: Parsed<Stmt>)
    requires st.pos < |ts|
    ensures r.Ok? ==> Moved(v, ts, st, r.value.1, 0)
    ensures r.Ok? ==> r.value.0.IfStatement? && |r.value.0.clauses| >= 1
    decreases |ts| - st.pos, 5
  {
    var (condition, s1) :- MatchExpression(v, ts, Next(ts, st), PrecedenceLowest);
    var (body, s2) :- MatchBlock(v, ts, s1);
    ElseClauses(v, ts, s2, [IfClause(condition, body)])
  }

  /** The `else if` and `else` clauses after the first one; clauses keep
      their order. */
  function ElseClauses(v: Variant, ts: seq<Token>, st: State, clauses: seq<IfClause>): (r: Parsed<Stmt>)
    requires st.pos <= |ts|
    ensures r.Ok? ==> st.pos <= r.value.1.pos <= |ts| && st.brackets <= r.value.1.brackets
    ensures r.Ok? && v == L.Corrected ==> r.value.1.brackets == st.brackets
    ensures r.Ok? ==> r.value.0.IfStatement? && clauses <= r.value.0.clauses
    decreases |ts| - st.pos
  {
    if At(ts, st.pos).kind != L.Else then Ok((IfStatement(clauses, []), st))
    else
      var s1 := Next(ts, st);
      var t1 := At(ts, s1.pos);
      if t1.kind == L.LeftCurly then
        var (body, s2) :- MatchBlock(v, ts, s1);
        Ok((IfStatement(clauses, body), s2))
      else if t1.kind == L.If then
        var (condition, s2) :- MatchExpression(v, ts, Next(ts, s1), PrecedenceLowest);
        var (body, s3) :- MatchBlock(v, ts, s2);
        ElseClauses(v, ts, s3, clauses + [IfClause(condition, body)])
      else Err(Unexpected(t1, "`else if` or `else`"))
  }

  /** The directory library imports are resolved against. */
  const LibraryDirectory := "/usr/lib/venice0.1"

  /** `matchImportStatement`: `import "path" as name`. A path that does not
      start with `./` names a library module. */
  function MatchImportStatement(ts: seq<Token>, st: State): (r: Parsed<Stmt>)
    requires st.pos < |ts|
    ensures r.Ok? ==> st.pos < r.value.1.pos <= |ts| && r.value.1.brackets == st.brackets
    ensures r.Ok? ==> r.value.0.ImportStatement?
  {
    var s1 := Next(ts, st);
    var t1 := At(ts, s1.pos);
    if t1.kind != L.String then Err(Unexpected(t1, "string"))
    else
      var path := ImportPath(t1.value, "");
      var s2 := Next(ts, s1);
      if At(ts, s2.pos).kind != L.As then Err(Unexpected(At(ts, s2.pos), "keyword `as`"))
      else
        var s3 := Next(ts, s2);
        var t3 := At(ts, s3.pos);
        if t3.kind != L.Symbol then Err(Unexpected(t3, "string"))
        else Ok((ImportStatement(path, t3.value), Next(ts, s3)))
  }

  /** The file an import names. A path not starting `./` names a library
      module: it is joined to the library directory and given the `.vn`
      extension. A `./` path is joined to the directory of the importing
      file, or kept as written when that file has no path. */
  function ImportPath(path: string, filePath: string): (r: string)
    ensures !IsPrefix("./", path) ==> P.Rooted(r) && IsSuffix(".vn", r)
    ensures IsPrefix("./", path) && filePath == "" ==> r == path
    ensures IsPrefix("./", path) && filePath != "" ==> P.Rooted(r) == P.Rooted(filePath) && P.Clean(r) == r
  {
    if !IsPrefix("./", path) then
      var r := P.JoinPath(LibraryDirectory, path) + ".vn";
      assert r[|r| - 3..] == ".vn";
      r
    else if filePath != "" then
      P.JoinPathClean(P.Dir(filePath), path);
      P.JoinPath(P.Dir(filePath), path)
    else path
  }

  /** A library module named by a plain name lies directly in the library
      directory. */
  lemma LibraryImport(name: string, filePath: string)
    requires name != "" && name != "." && name != ".." && '/' !in name
    requires !IsPrefix("./", name)
    ensures ImportPath(name, filePath) == LibraryDirectory + "/" + name + ".vn"
  {
    var parts := ["usr", "lib", "venice0.1", name];
    assert P.Canonical(parts, true);
    P.CleanRender(parts, true);
    P.JoinHead(parts, "/");
    P.JoinHead(parts[1..], "/");
    P.JoinHead(parts[2..], "/");
    assert P.Render(parts, true) == LibraryDirectory + "/" + name;
  }

  /** The library directory, as the segments under the root. */
  lemma LibraryDirectorySegments()
    ensures LibraryDirectory == "/" + Join(["usr", "lib", "venice0.1"], "/")
    ensures P.Canonical(["usr", "lib", "venice0.1"], true)
  {
  }

  /** A library path starting `../` climbs out of the library directory:
      `../x` is `/usr/lib/x.vn`. */
  lemma LibraryImportClimbs(name: string, filePath: string)
    requires name != "" && name != "." && name != ".." && '/' !in name
    ensures ImportPath("../" + name, filePath) == "/usr/lib/" + name + ".vn"
  {
    var dirs := ["usr", "lib", "venice0.1"];
    var path := "../" + name;
    assert !IsPrefix("./", path) by { assert path[1] == '.'; }
    assert ImportPath(path, filePath) == P.Clean(LibraryDirectory + "/" + path) + ".vn" by {
      assert LibraryDirectory != "";
    }
    var parts := dirs + ["..", name];
    assert LibraryDirectory + "/" + path == "/" + Join(parts, "/") by {
      LibraryDirectorySegments();
      JoinAppend(dirs, "..", "/");
      JoinAppend(dirs + [".."], name, "/");
      assert dirs + [".."] + [name] == parts;
    }
    assert P.Clean("/" + Join(parts, "/")) == P.Render(P.Resolve(["..", name], true, dirs), true) by {
      LibraryDirectorySegments();
      P.CleanAfterCanonical(dirs, ["..", name]);
    }
    assert P.Resolve(["..", name], true, dirs) == ["usr", "lib", name] by {
      assert ["..", name][1..] == [name] && dirs[..|dirs| - 1] == ["usr", "lib"];
      assert P.Resolve(["..", name], true, dirs) == P.Resolve([name], true, ["usr", "lib"]);
      assert [name][1..] == [];
      assert P.Resolve([name], true, ["usr", "lib"]) == P.Resolve([], true, ["usr", "lib", name]);
    }
    assert P.Render(["usr", "lib", name], true) == "/usr/lib/" + name by {
      P.JoinHead(["usr", "lib", name], "/");
      assert ["usr", "lib", name][1..] == ["lib", name];
      P.JoinHead(["lib", name], "/");
      assert ["lib", name][1..] == [name];
    }
  }

  /** A `./` import names a file in the importing file's directory: with
      the importer at `/d1/.../dn/base`, `./x` is `/d1/.../dn/x`. */
  lemma SiblingImport(dirs: seq<string>, base: string, name: string)
    requires P.Canonical(dirs, true) && dirs != []
    requires '/' !in base
    requires name != "" && name != "." && name != ".." && '/' !in name
    ensures ImportPath("./" + name, "/" + Join(dirs, "/") + "/" + base) == "/" + Join(dirs + [name], "/")
  {
    var dir := "/" + Join(dirs, "/");
    var file := dir + "/" + base;
    var path := "./" + name;
    assert ImportPath(path, file) == P.JoinPath(P.Dir(file), path) by {
      assert IsPrefix("./", path) && file != "";
    }
    assert P.Dir(file) == dir by { DirOfFile(dirs, base); }
    assert P.JoinPath(dir, path) == P.Clean(dir + "/" + path);
    assert P.Clean(dir + "/" + path) == "/" + Join(dirs + [name], "/") by {
      CleanChild(dirs, name);
      assert dir + "/" + path == dir + "/./" + name;
    }
  }

  /** The directory of `/d1/.../dn/base` is `/d1/.../dn`. */
  lemma DirOfFile(dirs: seq<string>, base: string)
    requires P.Canonical(dirs, true) && dirs != []
    requires '/' !in base
    ensures P.Dir("/" + Join(dirs, "/") + "/" + base) == "/" + Join(dirs, "/")
  {
    var dir := "/" + Join(dirs, "/");
    var file := dir + "/" + base;
    assert file[..|dir| + 1] == dir + "/";
    forall j | |dir| + 1 <= j < |file| ensures file[j] != '/' {
      assert file[j] == base[j - |dir| - 1];
    }
    AfterLastSlashAt(file, |dir| + 1);
    JoinAppend(dirs, "", "/");
    assert dir + "/" == "/" + Join(dirs + [""], "/");
    P.RootedClean(dirs + [""]);
    P.ResolveAppend(dirs, [""], true, []);
    P.ResolveCanonical(dirs, true, []);
    assert [] + dirs == dirs;
    assert P.Resolve([""], true, dirs) == P.Resolve([], true, dirs);
  }

  /** Cleaning `/d1/.../dn/./x` gives `/d1/.../dn/x`. */
  lemma CleanChild(dirs: seq<string>, name: string)
    requires P.Canonical(dirs, true) && dirs != []
    requires name != "" && name != "." && name != ".." && '/' !in name
    ensures P.Clean("/" + Join(dirs, "/") + "/./" + name) == "/" + Join(dirs + [name], "/")
  {
    var parts := dirs + [".", name];
    assert "/" + Join(dirs, "/") + "/./" + name == "/" + Join(parts, "/") by {
      JoinAppend(dirs, ".", "/");
      JoinAppend(dirs + ["."], name, "/");
      assert dirs + ["."] + [name] == parts;
    }
    P.CleanAfterCanonical(dirs, [".", name]);
    assert P.Resolve([".", name], true, dirs) == dirs + [name] by {
      assert [".", name][1..] == [name];
      assert P.Resolve([".", name], true, dirs) == P.Resolve([name], true, dirs);
      assert [name][1..] == [];
      assert P.Resolve([name], true, dirs) == P.Resolve([], true, dirs + [name]);
    }
  }

  /** The last slash of `p` is just before `i` when `p[i - 1]` is a slash
      and none follows. */
  lemma {:induction false} AfterLastSlashAt(p: string, i: nat)
    requires 0 < i <= |p| && p[i - 1] == '/'
    requires forall j :: i <= j < |p| ==> p[j] != '/'
    ensures P.AfterLastSlash(p) == i
    decreases |p|
  {
    if i < |p| {
      assert p[..|p| - 1][i - 1] == '/';
      AfterLastSlashAt(p[..|p| - 1], i);
    }
  }

  /** `matchLetStatement`: `let name [: T] = value`, or `var ...`. */
  function MatchLetStatement(v: Variant, ts: seq<Token>, st: State, isVar: bool): (r: Parsed<Stmt>)
    requires st.pos < |ts|
    ensures r.Ok? ==> Moved(v, ts, st, r.value.1, 0)
    ensures r.Ok? ==> r.value.0.LetStatement? && r.value.0.isVar == isVar
    decreases |ts| - st.pos, 5
  {
    var s1 := Next(ts, st);
    var t1 := At(ts, s1.pos);
    if t1.kind != L.Symbol then Err(Unexpected(t1, "symbol"))
    else
      var (declared, s2) :- OptionalType(v, ts, Next(ts, s1), L.Colon);
      if At(ts, s2.pos).kind != L.Assign then Err(Unexpected(At(ts, s2.pos), "equals sign"))
      else
        var (value, s3) :- MatchExpression(v, ts, Next(ts, s2), PrecedenceLowest);
        Ok((LetStatement(t1.value, declared, isVar, value), s3))
  }

  /** `matchMatchStatement`: `match e { case P { } ... default { } }`. */
  function MatchMatchStatement(v: Variant, ts: seq<Token>, st: State): (r: Parsed<Stmt>)
    requires st.pos < |ts|
    ensures r.Ok? ==> Moved(v, ts, st, r.value.1, 0)
    decreases |ts| - st.pos, 5
  {
    var (subject, s1) :- MatchExpression(v, ts, Next(ts, st), PrecedenceLowest);
    if At(ts, s1.pos).kind != L.LeftCurly then Err(Unexpected(At(ts, s1.pos), "left curly brace"))
    else
      var (clauses, s2) :- MatchClauses(v, ts, NextSkipNewlines(ts, s1), []);
      var (defaultBody, s3) :- DefaultClause(v, ts, s2);
      Ok((MatchStatementNode(subject, clauses, defaultBody), s3))
  }

  /** The optional `default { }` of a `match`, and its closing `}`. */
  function DefaultClause(v: Variant, ts: seq<Token>, st: State): (r: Parsed<seq<Stmt>>)
    requires st.pos <= |ts|
    ensures r.Ok? ==> Moved(v, ts, st, r.value.1, 0)
    decreases |ts| - st.pos, 0
  {
    var (body, s1) :- if At(ts, st.pos).kind == L.Default then MatchBlock(v, ts, Next(ts, st)) else Ok(([], st));
    if At(ts, s1.pos).kind != L.RightCurly then Err(Unexpected(At(ts, s1.pos), "right curly brace"))
    else Ok((body, Next(ts, s1)))
  }

  /** The `case` clauses of a `match`, stopping at (not reading) `default`
      or `}`. */
  function MatchClauses(v: Variant, ts: seq<Token>, st: State, clauses: seq<MatchClause>): (r: Parsed<seq<MatchClause>>)
    requires st.pos <= |ts|
    ensures r.Ok? ==> st.pos <= r.value.1.pos <= |ts| && st.brackets <= r.value.1.brackets
    ensures r.Ok? && v == L.Corrected ==> r.value.1.brackets == st.brackets
    ensures r.Ok? ==> At(ts, r.value.1.pos).kind == L.Default || At(ts, r.value.1.pos).kind == L.RightCurly
    decreases |ts| - st.pos
  {
    var t := At(ts, st.pos);
    if t.kind == L.Case then
      var (pattern, s1) :- MatchPatternNode(ts, Next(ts, st));
      var (body, s2) :- MatchBlock(v, ts, s1);
      MatchClauses(v, ts, s2, clauses + [MatchClause(pattern, body)])
    else if t.kind == L.Default || t.kind == L.RightCurly then Ok((clauses, st))
    else Err(Unexpected(t, "`case` keyword, `default` keyword, or right curly brace"))
  }

  /** `matchReturnStatement`: `return` alone before a newline or `;`, else
      `return value`. */
  function MatchReturnStatement(v: Variant, ts: seq<Token>, st: State): (r: Parsed<Stmt>)
    requires st.pos < |ts|
    ensures r.Ok? ==> Moved(v, ts, st, r.value.1, 0)
    decreases |ts| - st.pos, 5
  {
    var s1 := Next(ts, st);
    var k := At(ts, s1.pos).kind;
    if k == L.Newline || k == L.Semicolon then Ok((ReturnStatement(NoValue), s1))
    else
      var (value, s2) :- MatchExpression(v, ts, s1, PrecedenceLowest);
      Ok((ReturnStatement(HasValue(value)), s2))
  }

  /** `matchWhileLoop`: `while condition { body }`. */
  function MatchWhileLoop(v: Variant, ts: seq<Token>, st: State): (r: Parsed<Stmt>)
    requires st.pos < |ts|
    ensures r.Ok? ==> Moved(v, ts, st, r.value.1, 0)
    decreases |ts| - st.pos, 5
  {
    var (condition, s1) :- MatchExpression(v, ts, Next(ts, st), PrecedenceLowest);
    var (body, s2) :- MatchBlock(v, ts, s1);
    Ok((WhileLoop(condition, body), s2))
  }

  // ---------------------------------------------------------------------
  // Programs

  /** `parseGeneric`: leading newlines are skipped, then statements are
      read until one ends at EOF. At least one statement is always read, so
      the code's "empty program" error cannot arise: empty input fails in
      the first statement instead. */
  function ParseProgram(v: Variant, ts: seq<Token>): (r: Result<seq<Stmt>, ParseError>)
    ensures r.Ok? ==> |r.value| >= 1
  {
    ProgramStatements(v, ts, State(SkipNewlines(ts, 0), 0), [])
  }

  /** The loop of `parseGeneric`. */
  function ProgramStatements(v: Variant, ts: seq<Token>, st: State, stmts: seq<Stmt>): (r: Result<seq<Stmt>, ParseError>)
    requires st.pos <= |ts|
    ensures r.Ok? ==> |r.value| > |stmts|
    decreases |ts| - st.pos
  {
    var (stmt, s1) :- MatchStatement(v, ts, st);
    if At(ts, s1.pos).kind == L.Eof then Ok(stmts + [stmt])
    else ProgramStatements(v, ts, s1, stmts + [stmt])
  }
}

=== FILE: go_parser_facts.dfy ===
/** What the Go generation's parser does with particular token shapes:
    precedence and associativity, the syntactic rewrites (chained
    comparisons, `not in`, compound assignment, one-item parentheses),
    statement terminators, end-of-input errors, and the two places where
    the code and the evident intention part ways. All shapes are read
    outside brackets, where reading a token moves to the next position. */
module GoParserFacts {
  import opened Wrappers
  import opened Text
  import opened GoAst
  import opened GoParser
  import L = GoLexer

  /** The token `t` does not continue an expression at `precedence`. */
  predicate Stops(t: Token, precedence: nat) {
    Precedence(t.kind).None? || Precedence(t.kind).value <= precedence
  }

  /** Operators that build an `InfixNode` (no call, index, field access,
      ternary or `not in`). */
  predicate Binary(k: Kind) {
    Precedence(k).Some? && k != L.LeftParen && k != L.LeftSquare && k != L.Dot && k != L.If && k != L.Not
  }

  /** A symbol at `p` that is not the start of `Enum::Case`. */
  predicate PlainSymbol(ts: seq<Token>, p: nat) {
    p + 1 < |ts| && ts[p].kind == L.Symbol && ts[p + 1].kind != L.DoubleColon
  }

  /** The loop ends, leaving the state as it is, at a token that does not
      bind tighter than the current precedence. */
  lemma InfixLoopStops(v: Variant, ts: seq<Token>, st: State, precedence: nat, left: Expr)
    requires st.pos <= |ts| && Stops(At(ts, st.pos), precedence)
    ensures InfixLoop(v, ts, st, precedence, left) == Ok((left, st))
  {
  }

  /** A plain symbol followed by a token that does not continue the
      expression is the whole expression. */
  lemma SymbolExpression(v: Variant, ts: seq<Token>, p: nat, precedence: nat)
    requires PlainSymbol(ts, p) && Stops(ts[p + 1], precedence)
    ensures MatchExpression(v, ts, State(p, 0), precedence) == Ok((SymbolNode(ts[p].value), State(p + 1, 0)))
  {
    assert MatchPrefix(v, ts, State(p, 0)) == SymbolPrefix(ts, State(p, 0));
    InfixLoopStops(v, ts, State(p + 1, 0), precedence, SymbolNode(ts[p].value));
  }

  /** The same inside brackets, where the token after the symbol must not
      be a newline (newlines would be skipped there). */
  lemma BracketedSymbolExpression(v: Variant, ts: seq<Token>, p: nat, b: int, precedence: nat)
    requires PlainSymbol(ts, p) && ts[p + 1].kind != L.Newline && Stops(ts[p + 1], precedence)
    ensures MatchExpression(v, ts, State(p, b), precedence) == Ok((SymbolNode(ts[p].value), State(p + 1, b)))
  {
    assert Next(ts, State(p, b)) == State(p + 1, b);
    assert MatchPrefix(v, ts, State(p, b)) == SymbolPrefix(ts, State(p, b));
    InfixLoopStops(v, ts, State(p + 1, b), precedence, SymbolNode(ts[p].value));
  }

  /** An expression is its prefix part followed by the loop. */
  lemma PrefixThenLoop(v: Variant, ts: seq<Token>, st: State, precedence: nat, e: Expr, after: State)
    requires st.pos <= |ts| && MatchPrefix(v, ts, st) == Ok((e, after))
    ensures after.pos <= |ts| && MatchExpression(v, ts, st, precedence) == InfixLoop(v, ts, after, precedence, e)
  {
  }

  /** A plain symbol starts the loop with itself as the left operand. */
  lemma SymbolThenLoop(v: Variant, ts: seq<Token>, p: nat, precedence: nat)
    requires PlainSymbol(ts, p)
    ensures MatchExpression(v, ts, State(p, 0), precedence)
      == InfixLoop(v, ts, State(p + 1, 0), precedence, SymbolNode(ts[p].value))
  {
    assert MatchPrefix(v, ts, State(p, 0)) == SymbolPrefix(ts, State(p, 0));
  }

  /** A binary operator that binds tighter than the loop's precedence
      combines the left operand with the right operand read at the
      operator's own precedence, and the loop goes on from there. */
  lemma BinaryStep(v: Variant, ts: seq<Token>, q: nat, precedence: nat, left: Expr, right: Expr, after: State)
    requires q < |ts| && Binary(ts[q].kind) && precedence < Precedence(ts[q].kind).value
    requires MatchExpression(v, ts, State(q + 1, 0), Precedence(ts[q].kind).value) == Ok((right, after))
    ensures after.pos <= |ts|
    ensures InfixLoop(v, ts, State(q, 0), precedence, left)
      == InfixLoop(v, ts, after, precedence, Combine(ts[q].value, left, right))
  {
    var tp := Precedence(ts[q].kind).value;
    assert MatchInfix(v, ts, State(q, 0), left, tp) == Ok((Combine(ts[q].value, left, right), after));
    assert InfixStep(v, ts, State(q, 0), left, tp) == Ok((Combine(ts[q].value, left, right), after));
  }

  /** From `p` on: symbol, binary operator, symbol, binary operator,
      symbol, then a token that does not continue any expression. */
  predicate ThreeOperands(ts: seq<Token>, p: nat) {
    p + 6 <= |ts|
    && PlainSymbol(ts, p) && PlainSymbol(ts, p + 2) && PlainSymbol(ts, p + 4)
    && Binary(ts[p + 1].kind) && Binary(ts[p + 3].kind)
    && Precedence(ts[p + 5].kind).None?
  }

  /** Binary operators bind less tightly than prefix operators. */
  lemma BinaryPrecedence(k: Kind)
    requires Binary(k)
    ensures PrecedenceTernaryIf < Precedence(k).value < PrecedencePrefix
  {
  }

  /** `a o1 b o2 c` with `o2` binding tighter nests the second operation on
      the right: `1 + 2 * 3` is `1 + (2 * 3)`. */
  lemma {:induction false} TighterNestsRight(v: Variant, ts: seq<Token>, p: nat)
    requires ThreeOperands(ts, p)
    requires Precedence(ts[p + 1].kind).value < Precedence(ts[p + 3].kind).value
    ensures MatchExpression(v, ts, State(p, 0), PrecedenceLowest)
      == Ok((InfixNode(ts[p + 1].value, SymbolNode(ts[p].value),
               InfixNode(ts[p + 3].value, SymbolNode(ts[p + 2].value), SymbolNode(ts[p + 4].value))),
             State(p + 5, 0)))
  {
    var o1, o2 := ts[p + 1], ts[p + 3];
    BinaryPrecedence(o1.kind);
    var prec1, prec2 := Precedence(o1.kind).value, Precedence(o2.kind).value;
    var ea, eb, ec := SymbolNode(ts[p].value), SymbolNode(ts[p + 2].value), SymbolNode(ts[p + 4].value);
    var inner := InfixNode(o2.value, eb, ec);
    SymbolExpression(v, ts, p + 4, prec2);
    SymbolThenLoop(v, ts, p + 2, prec1);
    BinaryStep(v, ts, p + 3, prec1, eb, ec, State(p + 5, 0));
    InfixLoopStops(v, ts, State(p + 5, 0), prec1, inner);
    SymbolThenLoop(v, ts, p, PrecedenceLowest);
    BinaryStep(v, ts, p + 1, PrecedenceLowest, ea, inner, State(p + 5, 0));
    InfixLoopStops(v, ts, State(p + 5, 0), PrecedenceLowest, InfixNode(o1.value, ea, inner));
  }

  /** `a o1 b o2 c` with `o2` not binding tighter applies `o2` to the
      result of `o1` (equal precedence associates left), through the
      chaining rule for comparisons. */
  lemma {:induction false} OtherwiseNestsLeft(v: Variant, ts: seq<Token>, p: nat)
    requires ThreeOperands(ts, p)
    requires Precedence(ts[p + 3].kind).value <= Precedence(ts[p + 1].kind).value
    ensures MatchExpression(v, ts, State(p, 0), PrecedenceLowest)
      == Ok((Combine(ts[p + 3].value, InfixNode(ts[p + 1].value, SymbolNode(ts[p].value), SymbolNode(ts[p + 2].value)),
               SymbolNode(ts[p + 4].value)),
             State(p + 5, 0)))
  {
    var o1, o2 := ts[p + 1], ts[p + 3];
    BinaryPrecedence(o1.kind);
    BinaryPrecedence(o2.kind);
    var prec1, prec2 := Precedence(o1.kind).value, Precedence(o2.kind).value;
    var ea, eb, ec := SymbolNode(ts[p].value), SymbolNode(ts[p + 2].value), SymbolNode(ts[p + 4].value);
    var left := InfixNode(o1.value, ea, eb);
    SymbolThenLoop(v, ts, p, PrecedenceLowest);
    SymbolExpression(v, ts, p + 2, prec1);
    BinaryStep(v, ts, p + 1, PrecedenceLowest, ea, eb, State(p + 3, 0));
    assert Combine(o1.value, ea, eb) == left;
    SymbolExpression(v, ts, p + 4, prec2);
    BinaryStep(v, ts, p + 3, PrecedenceLowest, left, ec, State(p + 5, 0));
    InfixLoopStops(v, ts, State(p + 5, 0), PrecedenceLowest, Combine(o2.value, left, ec));
  }

  /** The four comparison tokens, spelled as the lexer spells them. */
  predicate ComparisonToken(t: Token) {
    t.kind in {L.LessThan, L.LessThanOrEquals, L.GreaterThan, L.GreaterThanOrEquals}
    && IsComparison(t.value)
  }

  /** `a < b <= c` is `(a < b) and (b <= c)`. */
  lemma ChainedComparison(v: Variant, ts: seq<Token>, p: nat)
    requires ThreeOperands(ts, p) && ComparisonToken(ts[p + 1]) && ComparisonToken(ts[p + 3])
    ensures MatchExpression(v, ts, State(p, 0), PrecedenceLowest)
      == Ok((InfixNode("and",
               InfixNode(ts[p + 1].value, SymbolNode(ts[p].value), SymbolNode(ts[p + 2].value)),
               InfixNode(ts[p + 3].value, SymbolNode(ts[p + 2].value), SymbolNode(ts[p + 4].value))),
             State(p + 5, 0)))
  {
    OtherwiseNestsLeft(v, ts, p);
  }

  /** A comparison whose left operand is no comparison is not split: in
      `a + b < c` only `<` applies to the sum. */
  lemma NoChainAfterNonComparison(op: string, left: Expr, right: Expr)
    requires !IsComparison(op) || !left.InfixNode? || !IsComparison(left.operator)
    ensures Combine(op, left, right) == InfixNode(op, left, right)
  {
  }

  /** Prefix `-` takes only the operand before a binary operator:
      `- a o b` is `(- a) o b`. */
  lemma {:induction false} PrefixBindsTighter(v: Variant, ts: seq<Token>, p: nat)
    requires p + 5 <= |ts| && ts[p].kind == L.Minus && PlainSymbol(ts, p + 1)
    requires Binary(ts[p + 2].kind) && PlainSymbol(ts, p + 3) && Precedence(ts[p + 4].kind).None?
    ensures MatchExpression(v, ts, State(p, 0), PrecedenceLowest)
      == Ok((InfixNode(ts[p + 2].value, UnaryNode(ts[p].value, SymbolNode(ts[p + 1].value)), SymbolNode(ts[p + 3].value)),
             State(p + 4, 0)))
  {
    var o := ts[p + 2];
    BinaryPrecedence(o.kind);
    var prec := Precedence(o.kind).value;
    var ea, eb := SymbolNode(ts[p + 1].value), SymbolNode(ts[p + 3].value);
    SymbolExpression(v, ts, p + 1, PrecedencePrefix);
    var negated := UnaryNode(ts[p].value, ea);
    assert MatchPrefix(v, ts, State(p, 0)) == Ok((negated, State(p + 2, 0)));
    SymbolExpression(v, ts, p + 3, prec);
    var whole := InfixNode(o.value, negated, eb);
    assert InfixStep(v, ts, State(p + 2, 0), negated, prec) == Ok((whole, State(p + 4, 0)));
    InfixLoopStops(v, ts, State(p + 4, 0), PrecedenceLowest, whole);
  }

  /** `a not in b` is `not (a in b)`. */
  lemma {:induction false} NotInRewritten(v: Variant, ts: seq<Token>, p: nat)
    requires p + 5 <= |ts| && PlainSymbol(ts, p) && ts[p + 1].kind == L.Not && ts[p + 2].kind == L.In
    requires PlainSymbol(ts, p + 3) && Precedence(ts[p + 4].kind).None?
    ensures MatchExpression(v, ts, State(p, 0), PrecedenceLowest)
      == Ok((UnaryNode("not", InfixNode("in", SymbolNode(ts[p].value), SymbolNode(ts[p + 3].value))), State(p + 4, 0)))
  {
    var ea, eb := SymbolNode(ts[p].value), SymbolNode(ts[p + 3].value);
    SymbolExpression(v, ts, p + 3, PrecedenceCmp);
    var whole := UnaryNode("not", InfixNode("in", ea, eb));
    assert NotInSuffix(v, ts, State(p + 1, 0), ea, PrecedenceCmp) == Ok((whole, State(p + 4, 0)));
    assert InfixStep(v, ts, State(p + 1, 0), ea, PrecedenceCmp) == Ok((whole, State(p + 4, 0)));
    InfixLoopStops(v, ts, State(p + 4, 0), PrecedenceLowest, whole);
    assert MatchPrefix(v, ts, State(p, 0)) == SymbolPrefix(ts, State(p, 0));
  }

  /** `a op= b` assigns `a op b` to `a`; the operator is the one the
      compound token names. */
  lemma CompoundAssignment(v: Variant, ts: seq<Token>, p: nat)
    requires p + 4 <= |ts| && PlainSymbol(ts, p) && CompoundOperator(ts[p + 1].kind).Some?
    requires PlainSymbol(ts, p + 2) && Precedence(ts[p + 3].kind).None?
    ensures MatchExpressionStatement(v, ts, State(p, 0))
      == Ok((AssignStatement(SymbolNode(ts[p].value),
               InfixNode(CompoundOperator(ts[p + 1].kind).value, SymbolNode(ts[p].value), SymbolNode(ts[p + 2].value))),
             State(p + 3, 0)))
  {
    SymbolExpression(v, ts, p, PrecedenceLowest);
    SymbolExpression(v, ts, p + 2, PrecedenceLowest);
  }

  /** `a = b` is a plain assignment. */
  lemma PlainAssignment(v: Variant, ts: seq<Token>, p: nat)
    requires p + 4 <= |ts| && PlainSymbol(ts, p) && ts[p + 1].kind == L.Assign
    requires PlainSymbol(ts, p + 2) && Precedence(ts[p + 3].kind).None?
    ensures MatchExpressionStatement(v, ts, State(p, 0))
      == Ok((AssignStatement(SymbolNode(ts[p].value), SymbolNode(ts[p + 2].value)), State(p + 3, 0)))
  {
    SymbolExpression(v, ts, p, PrecedenceLowest);
    SymbolExpression(v, ts, p + 2, PrecedenceLowest);
  }

  /** Inside the brackets of an argument list: a last item before the
      closing token ends the list, and the counter drops back. */
  lemma LastArgument(v: Variant, ts: seq<Token>, p: nat, terminator: Kind, items: seq<Expr>)
    requires terminator == L.RightParen || terminator == L.RightSquare
    requires p + 2 <= |ts| && PlainSymbol(ts, p) && ts[p + 1].kind == terminator
    ensures ArglistItems(v, ts, State(p, 1), terminator, items) == Ok((items + [SymbolNode(ts[p].value)], State(p + 2, 0)))
  {
    BracketedSymbolExpression(v, ts, p, 1, PrecedenceLowest);
  }

  /** An item followed by a comma, then the rest of the list. */
  lemma NextArgument(v: Variant, ts: seq<Token>, p: nat, terminator: Kind, items: seq<Expr>)
    requires terminator == L.RightParen || terminator == L.RightSquare
    requires p + 3 <= |ts| && PlainSymbol(ts, p) && ts[p + 1].kind == L.Comma
    requires ts[p + 2].kind != L.Newline
    ensures ArglistItems(v, ts, State(p, 1), terminator, items)
      == ArglistItems(v, ts, State(p + 2, 1), terminator, items + [SymbolNode(ts[p].value)])
  {
    BracketedSymbolExpression(v, ts, p, 1, PrecedenceLowest);
    assert Next(ts, State(p + 1, 1)) == State(p + 2, 1);
  }

  /** The argument list of `(` starts inside a bracket at the next
      token. */
  lemma ArglistStart(v: Variant, ts: seq<Token>, p: nat)
    requires p + 1 < |ts| && ts[p + 1].kind != L.Newline
    ensures MatchArglist(v, ts, State(p, 0), L.RightParen) == ArglistItems(v, ts, State(p + 1, 1), L.RightParen, [])
  {
    assert Next(ts, Brackets(State(p, 0), 1)) == State(p + 1, 1);
  }

  /** A parenthesised list gives its single item, or else a tuple. */
  lemma ParenthesesPrefix(v: Variant, ts: seq<Token>, p: nat, items: seq<Expr>, after: State)
    requires p < |ts| && ts[p].kind == L.LeftParen
    requires MatchArglist(v, ts, State(p, 0), L.RightParen) == Ok((items, after))
    ensures MatchPrefix(v, ts, State(p, 0)) == Ok((if |items| == 1 then items[0] else TupleNode(items), after))
  {
  }

  /** `(a)` is `a` itself, not a one-item tuple. */
  lemma OneItemParentheses(v: Variant, ts: seq<Token>, p: nat)
    requires p + 4 <= |ts| && ts[p].kind == L.LeftParen && PlainSymbol(ts, p + 1) && ts[p + 2].kind == L.RightParen
    requires Precedence(ts[p + 3].kind).None?
    ensures MatchExpression(v, ts, State(p, 0), PrecedenceLowest) == Ok((SymbolNode(ts[p + 1].value), State(p + 3, 0)))
  {
    var ea := SymbolNode(ts[p + 1].value);
    LastArgument(v, ts, p + 1, L.RightParen, []);
    assert [] + [ea] == [ea];
    ArglistStart(v, ts, p);
    ParenthesesPrefix(v, ts, p, [ea], State(p + 3, 0));
    PrefixThenLoop(v, ts, State(p, 0), PrecedenceLowest, ea, State(p + 3, 0));
    InfixLoopStops(v, ts, State(p + 3, 0), PrecedenceLowest, ea);
  }

  /** `()` is the empty tuple. */
  lemma EmptyParentheses(v: Variant, ts: seq<Token>, p: nat)
    requires p + 3 <= |ts| && ts[p].kind == L.LeftParen && ts[p + 1].kind == L.RightParen
    requires Precedence(ts[p + 2].kind).None?
    ensures MatchExpression(v, ts, State(p, 0), PrecedenceLowest) == Ok((TupleNode([]), State(p + 2, 0)))
  {
    assert ArglistItems(v, ts, State(p + 1, 1), L.RightParen, []) == Ok(([], State(p + 2, 0)));
    ArglistStart(v, ts, p);
    ParenthesesPrefix(v, ts, p, [], State(p + 2, 0));
    PrefixThenLoop(v, ts, State(p, 0), PrecedenceLowest, TupleNode([]), State(p + 2, 0));
    InfixLoopStops(v, ts, State(p + 2, 0), PrecedenceLowest, TupleNode([]));
  }

  /** `(a, b)` is a two-item tuple. */
  lemma PairParentheses(v: Variant, ts: seq<Token>, p: nat)
    requires p + 6 <= |ts| && ts[p].kind == L.LeftParen && PlainSymbol(ts, p + 1) && ts[p + 2].kind == L.Comma
    requires PlainSymbol(ts, p + 3) && ts[p + 4].kind == L.RightParen && Precedence(ts[p + 5].kind).None?
    ensures MatchExpression(v, ts, State(p, 0), PrecedenceLowest)
      == Ok((TupleNode([SymbolNode(ts[p + 1].value), SymbolNode(ts[p + 3].value)]), State(p + 5, 0)))
  {
    var ea, eb := SymbolNode(ts[p + 1].value), SymbolNode(ts[p + 3].value);
    NextArgument(v, ts, p + 1, L.RightParen, []);
    assert [] + [ea] == [ea];
    LastArgument(v, ts, p + 3, L.RightParen, [ea]);
    assert [ea] + [eb] == [ea, eb];
    assert ArglistItems(v, ts, State(p + 1, 1), L.RightParen, []) == Ok(([ea, eb], State(p + 5, 0)));
    ArglistStart(v, ts, p);
    ParenthesesPrefix(v, ts, p, [ea, eb], State(p + 5, 0));
    PrefixThenLoop(v, ts, State(p, 0), PrecedenceLowest, TupleNode([ea, eb]), State(p + 5, 0));
    InfixLoopStops(v, ts, State(p + 5, 0), PrecedenceLowest, TupleNode([ea, eb]));
  }

  /** `break` is a statement exactly when a newline, `;`, `}` or the end
      follows it, and the error names what follows otherwise. */
  lemma BreakNeedsTerminator(v: Variant, ts: seq<Token>, p: nat)
    requires p < |ts| && ts[p].kind == L.Break
    ensures MatchStatement(v, ts, State(p, 0)).Ok? <==> IsTerminator(At(ts, p + 1).kind)
    ensures MatchStatement(v, ts, State(p, 0)).Err? ==>
      MatchStatement(v, ts, State(p, 0)).error.message
        == "statement must be followed by newline or semicolon (got " + L.KindName(At(ts, p + 1).kind) + ")"
  {
    assert MatchSimpleStatement(v, ts, State(p, 0)) == Ok((BreakStatement, State(p + 1, 0)));
  }

  /** Every statement at the end of the input fails with the message the
      interactive prompt takes as a request for more input. */
  lemma StatementAtEnd(v: Variant, ts: seq<Token>, st: State)
    requires st.pos <= |ts| && At(ts, st.pos).kind == L.Eof
    ensures MatchStatement(v, ts, st).Err? && IsPrefix(Premature, MatchStatement(v, ts, st).error.message)
  {
    var e := Unexpected(At(ts, st.pos), "start of expression");
    assert MatchPrefix(v, ts, st) == Err(e);
    assert MatchSimpleStatement(v, ts, st) == Err(e);
  }

  /** A program of nothing but newlines fails the same way: there is no
      empty program. */
  lemma BlankProgram(v: Variant, ts: seq<Token>)
    requires forall i :: 0 <= i < |ts| ==> ts[i].kind == L.Newline
    ensures ParseProgram(v, ts).Err? && IsPrefix(Premature, ParseProgram(v, ts).error.message)
  {
    var q := SkipNewlines(ts, 0);
    assert q == |ts|;
    StatementAtEnd(v, ts, State(q, 0));
  }

  /** `Name()` in an enum declaration is an error: parentheses must hold a
      type. */
  lemma EmptyEnumCase(v: Variant, ts: seq<Token>, p: nat, b: int, cases: seq<EnumCase>)
    requires p + 2 < |ts| && ts[p].kind == L.Symbol && ts[p + 1].kind == L.LeftParen && ts[p + 2].kind == L.RightParen
    ensures EnumCases(v, ts, State(p, b), cases).Err?
    ensures EnumCases(v, ts, State(p, b), cases).error.message == "enum case with parentheses must include at least one type"
  {
    assert NextSkipNewlines(ts, State(p, b)) == State(p + 1, b);
    assert NextSkipNewlines(ts, State(p + 1, b)).pos == p + 2;
  }

  /** Decimal digits read in base 10 have their decimal value. */
  lemma {:induction false} DecimalBaseValue(s: string)
    requires AllDigits(s)
    ensures AllInBase(s, 10) && BaseValue(s, 10) == DigitsValue(s)
  {
    if s != [] {
      DecimalBaseValue(s[..|s| - 1]);
    }
  }

  /** A decimal rendering without a superfluous leading zero reads as its
      value in base 10, and also with a prefix base: a lone `0` is an
      octal zero. */
  lemma DecimalRead(digits: string, base0: bool)
    requires |digits| >= 1 && AllDigits(digits) && (|digits| > 1 ==> digits[0] != '0')
    ensures var (base, ds) := if base0 then BaseOf(digits) else (10, digits);
      AllInBase(ds, base) && BaseValue(ds, base) == DigitsValue(digits)
  {
    DecimalBaseValue(digits);
    if base0 && digits[0] == '0' {
      assert digits == "0";
      assert BaseOf(digits) == (8, []);
    }
  }

  /** A decimal rendering reads as its value, when it fits. */
  lemma UnsignedDecimalRead(digits: string, base0: bool)
    requires |digits| >= 1 && AllDigits(digits) && (|digits| > 1 ==> digits[0] != '0')
    ensures ParseInt(digits, base0) == if DigitsValue(digits) < Power2To63 then Some(DigitsValue(digits)) else None
  {
    DecimalRead(digits, base0);
    assert IsDigit(digits[0]) && digits[0] != '-' && digits[0] != '+';
  }

  /** A minus sign and a decimal rendering read as the negated value, when
      it fits. */
  lemma NegativeDecimalRead(digits: string, base0: bool)
    requires |digits| >= 1 && AllDigits(digits) && (|digits| > 1 ==> digits[0] != '0')
    ensures ParseInt("-" + digits, base0)
      == if DigitsValue(digits) <= Power2To63 then Some(-(DigitsValue(digits) as int)) else None
  {
    DecimalRead(digits, base0);
    var s := "-" + digits;
    assert s[0] == '-' && s[1..] == digits;
  }

  /** Reading back a rendered integer gives it back when it fits in 64
      bits and fails otherwise, whether or not the base comes from a
      prefix. */
  lemma IntegerRoundTrip(n: int, base0: bool)
    ensures ParseInt(IntToString(n), base0) == if -Power2To63 <= n < Power2To63 then Some(n) else None
  {
    if n < 0 {
      NatToStringRoundTrip(-n);
      NegativeDecimalRead(NatToString(-n), base0);
    } else {
      NatToStringRoundTrip(n);
      UnsignedDecimalRead(NatToString(n), base0);
    }
  }

  /** The prefixes pick the base: `0x10` is 16, `010` is 8, `-0b11` is
      -3, and a digit outside the base is rejected. */
  lemma BasePrefixes()
    ensures ParseInt("0x10", true) == Some(16)
    ensures ParseInt("010", true) == Some(8)
    ensures ParseInt("-0b11", true) == Some(-3)
    ensures ParseInt("08", true) == None
  {
    assert DigitValue('1') == 1 && DigitValue('0') == 0;
    assert "10"[..1] == "1" && "1"[..0] == "" && "11"[..1] == "1";
    assert BaseValue("1", 16) == 1 && BaseValue("10", 16) == 16;
    assert BaseValue("1", 8) == 1 && BaseValue("10", 8) == 8;
    assert BaseValue("1", 2) == 1 && BaseValue("11", 2) == 3;
    assert BaseOf("0x10") == (16, "10") && BaseOf("010") == (8, "10") && BaseOf("0b11") == (2, "11");
    assert "-0b11"[1..] == "0b11";
    assert BaseOf("08") == (8, "8");
    assert DigitValue("8"[0]) == 8;
  }

  /** Without a prefix base a leading zero is just a digit. */
  lemma LeadingZeroDecimal()
    ensures ParseInt("010", false) == Some(10)
  {
    assert DigitValue('1') == 1 && DigitValue('0') == 0;
    assert "010"[..2] == "01" && "01"[..1] == "0";
    assert BaseValue("0", 10) == 0 && BaseValue("01", 10) == 1 && BaseValue("010", 10) == 10;
  }

  // ---------------------------------------------------------------------
  // The two places where the code departs from its evident intention

  /** From `p` on: `{`, `}`, a newline, then a token that neither is a
      newline nor continues an expression. */
  predicate EmptyMapThenLine(ts: seq<Token>, p: nat) {
    p + 3 < |ts| && ts[p].kind == L.LeftCurly && ts[p + 1].kind == L.RightCurly && ts[p + 2].kind == L.Newline
    && ts[p + 3].kind != L.Newline && Precedence(ts[p + 3].kind).None?
  }

  /** Where `{}` leaves the parser: the code is still inside a bracket,
      so it skips the newline; the corrected parser stops on it. */
  function AfterEmptyMap(v: Variant, p: nat): State {
    if v == L.Corrected then State(p + 2, 0) else State(p + 3, 1)
  }

  /** A `}` ends the pairs of a map literal; only the corrected parser
      lowers the counter there when no pair precedes it. */
  lemma MapPairsClose(v: Variant, ts: seq<Token>, q: nat)
    requires q + 2 < |ts| && ts[q].kind == L.RightCurly && ts[q + 1].kind == L.Newline && ts[q + 2].kind != L.Newline
    ensures MatchMapPairs(v, ts, State(q, 1), []) == Ok(([], if v == L.Corrected then State(q + 1, 0) else State(q + 2, 1)))
  {
    assert SkipNewlines(ts, q + 1) == q + 2;
  }

  /** A map literal is its pairs. */
  lemma MapPrefix(v: Variant, ts: seq<Token>, p: nat, pairs: seq<MapPair>, after: State)
    requires p < |ts| && ts[p].kind == L.LeftCurly
    requires MatchMapPairs(v, ts, Next(ts, State(p, 1)), []) == Ok((pairs, after))
    ensures MatchPrefix(v, ts, State(p, 0)) == Ok((MapNode(pairs), after))
  {
  }

  lemma EmptyMapLiteral(v: Variant, ts: seq<Token>, p: nat)
    requires EmptyMapThenLine(ts, p)
    ensures MatchExpression(v, ts, State(p, 0), PrecedenceLowest) == Ok((MapNode([]), AfterEmptyMap(v, p)))
  {
    MapPairsClose(v, ts, p + 1);
    assert Next(ts, State(p, 1)) == State(p + 1, 1);
    MapPrefix(v, ts, p, [], AfterEmptyMap(v, p));
    PrefixThenLoop(v, ts, State(p, 0), PrecedenceLowest, MapNode([]), AfterEmptyMap(v, p));
    InfixLoopStops(v, ts, AfterEmptyMap(v, p), PrecedenceLowest, MapNode([]));
  }

  /** `let x = {}` at `p`, the map followed by a newline and a line. */
  predicate LetEmptyMap(ts: seq<Token>, p: nat) {
    p + 3 < |ts| && ts[p].kind == L.Let && ts[p + 1].kind == L.Symbol && ts[p + 2].kind == L.Assign
    && EmptyMapThenLine(ts, p + 3)
  }

  /** A statement that does not open a block is its simple part checked
      for a terminator. */
  lemma SimpleStatementThen(v: Variant, ts: seq<Token>, st: State, tree: Stmt, after: State)
    requires st.pos <= |ts| && !(At(ts, st.pos).kind in {L.Class, L.Enum, L.Func, L.For, L.If, L.While})
    requires MatchSimpleStatement(v, ts, st) == Ok((tree, after))
    ensures after.pos <= |ts| && MatchStatement(v, ts, st) == Terminated(ts, tree, after)
  {
  }

  /** ... and it fails as its simple part fails. */
  lemma SimpleStatementFails(v: Variant, ts: seq<Token>, st: State, e: ParseError)
    requires st.pos <= |ts| && !(At(ts, st.pos).kind in {L.Class, L.Enum, L.Func, L.For, L.If, L.While})
    requires MatchSimpleStatement(v, ts, st) == Err(e)
    ensures MatchStatement(v, ts, st) == Err(e)
  {
  }

  /** A statement starting with `let` is a `let` declaration. */
  lemma LetDispatch(v: Variant, ts: seq<Token>, st: State)
    requires st.pos < |ts| && ts[st.pos].kind == L.Let
    ensures MatchSimpleStatement(v, ts, st) == MatchLetStatement(v, ts, st, false)
  {
  }

  /** `let x [: T] = e`, whatever the annotation and `e` read as. */
  lemma LetWithValue(v: Variant, ts: seq<Token>, p: nat, declared: Annotation, s1: State, e: Expr, after: State)
    requires p + 1 < |ts| && ts[p + 1].kind == L.Symbol
    requires OptionalType(v, ts, State(p + 2, 0), L.Colon) == Ok((declared, s1))
    requires s1.pos < |ts| && ts[s1.pos].kind == L.Assign
    requires MatchExpression(v, ts, Next(ts, s1), PrecedenceLowest) == Ok((e, after))
    ensures MatchLetStatement(v, ts, State(p, 0), false) == Ok((LetStatement(ts[p + 1].value, declared, false, e), after))
  {
  }

  /** `let x [: T]` followed by anything but `=`. */
  lemma LetWithoutEquals(v: Variant, ts: seq<Token>, p: nat, declared: Annotation, s1: State)
    requires p + 1 < |ts| && ts[p + 1].kind == L.Symbol
    requires OptionalType(v, ts, State(p + 2, 0), L.Colon) == Ok((declared, s1))
    requires s1.pos <= |ts| && At(ts, s1.pos).kind != L.Assign
    ensures MatchLetStatement(v, ts, State(p, 0), false) == Err(Unexpected(At(ts, s1.pos), "equals sign"))
  {
  }

  /** `let x = e` without a type, whatever `e` reads as. */
  lemma UntypedLet(v: Variant, ts: seq<Token>, p: nat, e: Expr, after: State)
    requires p + 3 <= |ts| && ts[p + 1].kind == L.Symbol && ts[p + 2].kind == L.Assign
    requires MatchExpression(v, ts, State(p + 3, 0), PrecedenceLowest) == Ok((e, after))
    ensures MatchLetStatement(v, ts, State(p, 0), false) == Ok((LetStatement(ts[p + 1].value, NoType, false, e), after))
  {
    assert OptionalType(v, ts, State(p + 2, 0), L.Colon) == Ok((NoType, State(p + 2, 0)));
    LetWithValue(v, ts, p, NoType, State(p + 2, 0), e, after);
  }

  lemma LetDeclaresEmptyMap(v: Variant, ts: seq<Token>, p: nat)
    requires LetEmptyMap(ts, p)
    ensures MatchLetStatement(v, ts, State(p, 0), false)
      == Ok((LetStatement(ts[p + 1].value, NoType, false, MapNode([])), AfterEmptyMap(v, p + 3)))
  {
    EmptyMapLiteral(v, ts, p + 3);
    UntypedLet(v, ts, p, MapNode([]), AfterEmptyMap(v, p + 3));
  }

  lemma LetReadsEmptyMap(v: Variant, ts: seq<Token>, p: nat)
    requires LetEmptyMap(ts, p)
    ensures MatchSimpleStatement(v, ts, State(p, 0))
      == Ok((LetStatement(ts[p + 1].value, NoType, false, MapNode([])), AfterEmptyMap(v, p + 3)))
  {
    LetDeclaresEmptyMap(v, ts, p);
    LetDispatch(v, ts, State(p, 0));
  }

  /** As written: after `let x = {}` the newline is swallowed, and a
      following `let` (or any other non-terminator) is taken for a missing
      terminator. */
  lemma EmptyMapLeaksBracketAsWritten(ts: seq<Token>, p: nat)
    requires LetEmptyMap(ts, p) && ts[p + 6].kind == L.Let
    ensures MatchStatement(L.AsWritten, ts, State(p, 0))
      == Err(ParseError("statement must be followed by newline or semicolon (got " + L.KindName(L.Let) + ")",
               ts[p + 6].location))
  {
    LetReadsEmptyMap(L.AsWritten, ts, p);
    SimpleStatementThen(L.AsWritten, ts, State(p, 0), LetStatement(ts[p + 1].value, NoType, false, MapNode([])),
      State(p + 6, 1));
  }

  /** Corrected: the counter drops at the `}`, so the newline ends the
      statement and the parser stands on the next line. */
  lemma EmptyMapRestoresBracketCorrected(ts: seq<Token>, p: nat)
    requires LetEmptyMap(ts, p)
    ensures MatchStatement(L.Corrected, ts, State(p, 0))
      == Ok((LetStatement(ts[p + 1].value, NoType, false, MapNode([])), State(p + 6, 0)))
  {
    LetReadsEmptyMap(L.Corrected, ts, p);
    SimpleStatementThen(L.Corrected, ts, State(p, 0), LetStatement(ts[p + 1].value, NoType, false, MapNode([])),
      State(p + 5, 0));
    assert NextSkipNewlines(ts, State(p + 5, 0)) == State(p + 6, 0);
  }

  /** `let t: (a) = b` at `p`, then a token that does not continue it. */
  predicate LetTupleType(ts: seq<Token>, p: nat) {
    p + 8 < |ts| && ts[p].kind == L.Let && ts[p + 1].kind == L.Symbol && ts[p + 2].kind == L.Colon
    && ts[p + 3].kind == L.LeftParen && ts[p + 4].kind == L.Symbol && ts[p + 5].kind == L.RightParen
    && ts[p + 6].kind == L.Assign && PlainSymbol(ts, p + 7) && Precedence(ts[p + 8].kind).None?
  }

  /** Where the tuple type leaves the parser: the code stays on `)`. */
  function AfterTupleType(v: Variant, p: nat): State {
    if v == L.Corrected then State(p + 6, 0) else State(p + 5, 0)
  }

  lemma OneItemTupleType(v: Variant, ts: seq<Token>, p: nat)
    requires LetTupleType(ts, p)
    ensures OptionalType(v, ts, State(p + 2, 0), L.Colon)
      == Ok((HasType(TupleTypeNode([SymbolType(ts[p + 4].value)])), AfterTupleType(v, p)))
  {
    var a := SymbolType(ts[p + 4].value);
    assert MatchTypeNode(v, ts, State(p + 4, 0)) == Ok((a, State(p + 5, 0)));
    assert TupleTypes(v, ts, State(p + 5, 0), [a]) == Ok((TupleTypeNode([a]), AfterTupleType(v, p)));
    assert [] + [a] == [a];
    assert TupleTypes(v, ts, State(p + 4, 0), []) == Ok((TupleTypeNode([a]), AfterTupleType(v, p)));
    assert MatchTypeNode(v, ts, State(p + 3, 0)) == Ok((TupleTypeNode([a]), AfterTupleType(v, p)));
  }

  /** As written: the `let` finds the `)` where it expects `=` (the error
      reads "expected equals sign, got TOKEN_RIGHT_PAREN"). */
  lemma TupleTypeKeepsParenAsWritten(ts: seq<Token>, p: nat)
    requires LetTupleType(ts, p)
    ensures MatchStatement(L.AsWritten, ts, State(p, 0))
      == Err(Unexpected(ts[p + 5], "equals sign"))
  {
    TupleTypeLetAsWritten(ts, p);
    LetDispatch(L.AsWritten, ts, State(p, 0));
    SimpleStatementFails(L.AsWritten, ts, State(p, 0), Unexpected(ts[p + 5], "equals sign"));
  }

  lemma TupleTypeLetAsWritten(ts: seq<Token>, p: nat)
    requires LetTupleType(ts, p)
    ensures MatchLetStatement(L.AsWritten, ts, State(p, 0), false) == Err(Unexpected(ts[p + 5], "equals sign"))
  {
    OneItemTupleType(L.AsWritten, ts, p);
    LetWithoutEquals(L.AsWritten, ts, p, HasType(TupleTypeNode([SymbolType(ts[p + 4].value)])), State(p + 5, 0));
  }

  /** Corrected: the declaration reads as a one-item tuple type. */
  lemma TupleTypeReadsParenCorrected(ts: seq<Token>, p: nat)
    requires LetTupleType(ts, p)
    ensures MatchSimpleStatement(L.Corrected, ts, State(p, 0))
      == Ok((LetStatement(ts[p + 1].value, HasType(TupleTypeNode([SymbolType(ts[p + 4].value)])), false,
               SymbolNode(ts[p + 7].value)),
             State(p + 8, 0)))
  {
    var declared := HasType(TupleTypeNode([SymbolType(ts[p + 4].value)]));
    OneItemTupleType(L.Corrected, ts, p);
    SymbolExpression(L.Corrected, ts, p + 7, PrecedenceLowest);
    LetWithValue(L.Corrected, ts, p, declared, State(p + 6, 0), SymbolNode(ts[p + 7].value), State(p + 8, 0));
    LetDispatch(L.Corrected, ts, State(p, 0));
  }
}

=== FILE: go_path.dfy ===
/** The lexical path operations of Go's `path` package that the Go parser
    uses to resolve imports: `Clean`, `Join` of two elements, and `Dir`.
    They look at the text alone, never at a file system.

    `Clean` reads a path as its slash-separated segments and rebuilds it
    from a stack: empty and `.` segments vanish, `..` removes the segment
    before it, a `..` at the root is dropped, and a `..` with nothing left
    to remove is kept at the front. */
module GoPath {
  import opened Text

  /** The pieces of `s` between slashes: `a//b/` gives `a`, ``, `b`, ``. */
  function Segments(s: string): (r: seq<string>)
    ensures |r| >= 1
    ensures forall i :: 0 <= i < |r| ==> '/' !in r[i]
    decreases |s|
  {
    if s == [] then [""]
    else
      var rest := Segments(s[1..]);
      if s[0] == '/' then [""] + rest
      else [[s[0]] + rest[0]] + rest[1..]
  }

  /** A path that starts at the root. */
  predicate Rooted(p: string) {
    p != [] && p[0] == '/'
  }

  /** The shape of a cleaned path's segments: none empty, none `.`, none
      holding a slash; every `..` before every other segment, and no `..`
      at all under the root. */
  predicate Canonical(stack: seq<string>, rooted: bool) {
    && (forall i :: 0 <= i < |stack| ==> stack[i] != "" && stack[i] != "." && '/' !in stack[i])
    && (forall i, j :: 0 <= i < j < |stack| && stack[j] == ".." ==> stack[i] == "..")
    && (rooted ==> forall i :: 0 <= i < |stack| ==> stack[i] != "..")
  }

  /** The segment loop of `Clean`, with `stack` the segments kept so far. */
  function Resolve(segs: seq<string>, rooted: bool, stack: seq<string>): (r: seq<string>)
    requires forall i :: 0 <= i < |segs| ==> '/' !in segs[i]
    requires Canonical(stack, rooted)
    ensures Canonical(r, rooted)
    decreases |segs|
  {
    if segs == [] then stack
    else
      var x := segs[0];
      if x == "" || x == "." then Resolve(segs[1..], rooted, stack)
      else if x == ".." then
        if stack != [] && stack[|stack| - 1] != ".." then Resolve(segs[1..], rooted, stack[..|stack| - 1])
        else if rooted then Resolve(segs[1..], rooted, stack)
        else Resolve(segs[1..], rooted, stack + [".."])
      else Resolve(segs[1..], rooted, stack + [x])
  }

  /** The text of a cleaned path: its segments joined by slashes, after a
      slash when rooted; nothing left of a relative path is `.`. */
  function Render(stack: seq<string>, rooted: bool): string {
    if rooted then "/" + Join(stack, "/")
    else if stack == [] then "."
    else Join(stack, "/")
  }

  /** `path.Clean`: the shortest path naming the same place by lexical
      processing alone. */
  function Clean(p: string): (r: string)
    ensures r != []
    ensures Rooted(r) <==> Rooted(p)
  {
    var stack := Resolve(Segments(p), Rooted(p), []);
    JoinNoLeadingSlash(stack);
    Render(stack, Rooted(p))
  }

  /** `path.Join` of two elements: empty elements are ignored, and the
      result is cleaned unless both are empty. */
  function JoinPath(a: string, b: string): (r: string)
    ensures r == [] <==> a == [] && b == []
    ensures Rooted(r) <==> Rooted(a) || (a == [] && Rooted(b))
  {
    if a == [] then (if b == [] then [] else Clean(b))
    else Clean(a + "/" + b)
  }

  /** The length of `p` up to and including its last slash; 0 without one. */
  function AfterLastSlash(p: string): (i: nat)
    ensures i <= |p|
    ensures i > 0 ==> p[i - 1] == '/'
    ensures forall j :: i <= j < |p| ==> p[j] != '/'
  {
    if p == [] then 0
    else if p[|p| - 1] == '/' then |p|
    else AfterLastSlash(p[..|p| - 1])
  }

  /** `path.Dir`: everything up to the last slash, cleaned. */
  function Dir(p: string): (r: string)
    ensures r != []
    ensures Rooted(r) <==> Rooted(p)
  {
    var i := AfterLastSlash(p);
    assert Rooted(p[..i]) <==> Rooted(p);
    Clean(p[..i])
  }

  // ---------------------------------------------------------------------
  // Properties

  /** `parts` joined by `sep`, split at its first part. */
  lemma JoinHead(parts: seq<string>, sep: string)
    requires |parts| >= 2
    ensures Join(parts, sep) == parts[0] + sep + Join(parts[1..], sep)
  {
  }

  /** A joined canonical stack does not start with a slash. */
  lemma JoinNoLeadingSlash(stack: seq<string>)
    requires forall i :: 0 <= i < |stack| ==> stack[i] != "" && '/' !in stack[i]
    ensures !Rooted(Join(stack, "/"))
  {
    if |stack| >= 2 {
      JoinHead(stack, "/");
      assert Join(stack, "/")[0] == stack[0][0];
    } else if |stack| == 1 {
      assert stack[0][0] in stack[0];
    }
  }

  /** Splitting and joining at slashes are inverse: the segments of a path
      joined by slashes give the path back. */
  lemma {:induction false} JoinSegments(s: string)
    ensures Join(Segments(s), "/") == s
    decreases |s|
  {
    if s != [] {
      var rest := Segments(s[1..]);
      JoinSegments(s[1..]);
      if s[0] == '/' {
        JoinHead([""] + rest, "/");
        assert ([""] + rest)[1..] == rest;
      } else {
        var r := Segments(s);
        assert r == [[s[0]] + rest[0]] + rest[1..];
        if |rest| >= 2 {
          JoinHead(r, "/");
          JoinHead(rest, "/");
          assert r[1..] == rest[1..];
        }
        assert s == [s[0]] + s[1..];
      }
    }
  }

  /** The segments of a text without slashes, followed by more text. */
  lemma {:induction false} SegmentsPrefix(a: string, s: string)
    requires '/' !in a
    ensures Segments(a + s) == [a + Segments(s)[0]] + Segments(s)[1..]
    decreases |a|
  {
    if a != [] {
      assert (a + s)[0] == a[0] && (a + s)[1..] == a[1..] + s;
      assert forall k :: 0 <= k < |a[1..]| ==> a[1..][k] == a[k + 1];
      SegmentsPrefix(a[1..], s);
      assert a[0] in a;
      assert a == [a[0]] + a[1..];
      assert [a[0]] + (a[1..] + Segments(s)[0]) == a + Segments(s)[0];
    } else {
      assert a + s == s;
      assert a + Segments(s)[0] == Segments(s)[0];
      assert Segments(s) == [Segments(s)[0]] + Segments(s)[1..];
    }
  }

  /** Joining segments without slashes and splitting again gives them back. */
  lemma {:induction false} SegmentsOfJoin(parts: seq<string>)
    requires |parts| >= 1
    requires forall i :: 0 <= i < |parts| ==> '/' !in parts[i]
    ensures Segments(Join(parts, "/")) == parts
    decreases |parts|
  {
    if |parts| == 1 {
      SegmentsPrefix(parts[0], "");
      assert parts[0] + "" == parts[0];
    } else {
      JoinHead(parts, "/");
      var tail := Join(parts[1..], "/");
      SegmentsOfJoin(parts[1..]);
      assert parts[0] + "/" + tail == parts[0] + ("/" + tail);
      SegmentsPrefix(parts[0], "/" + tail);
      assert ("/" + tail)[0] == '/' && ("/" + tail)[1..] == tail;
      assert Segments("/" + tail) == [""] + parts[1..];
      assert parts[0] + "" == parts[0];
      assert parts == [parts[0]] + parts[1..];
    }
  }

  /** Canonical segments pass through the loop of `Clean` unchanged. */
  lemma {:induction false} ResolveCanonical(segs: seq<string>, rooted: bool, acc: seq<string>)
    requires Canonical(acc + segs, rooted)
    ensures forall i :: 0 <= i < |segs| ==> '/' !in segs[i]
    ensures Canonical(acc, rooted)
    ensures Resolve(segs, rooted, acc) == acc + segs
    decreases |segs|
  {
    forall i | 0 <= i < |segs| ensures '/' !in segs[i] {
      assert segs[i] == (acc + segs)[|acc| + i];
    }
    forall i | 0 <= i < |acc| ensures acc[i] == (acc + segs)[i] { }
    if segs == [] {
      assert acc + segs == acc;
    } else {
      var x := segs[0];
      assert x == (acc + segs)[|acc|];
      if x == ".." {
        assert !rooted;
        if acc != [] {
          assert acc[|acc| - 1] == (acc + segs)[|acc| - 1];
        }
      }
      var acc2 := acc + [x];
      assert acc2 + segs[1..] == acc + segs;
      ResolveCanonical(segs[1..], rooted, acc2);
    }
  }

  /** A path already clean is its own cleaning. */
  lemma CleanRender(stack: seq<string>, rooted: bool)
    requires Canonical(stack, rooted)
    ensures Clean(Render(stack, rooted)) == Render(stack, rooted)
  {
    var p := Render(stack, rooted);
    ResolveCanonical(stack, rooted, []);
    assert [] + stack == stack;
    if stack == [] {
      if rooted {
        assert p == "/";
        assert Segments(p) == [""] + Segments([]);
      } else {
        assert p == "." && !Rooted(p);
        assert Segments(p) == [['.'] + Segments([])[0]];
        assert Resolve(Segments(p), false, []) == Resolve([], false, []);
      }
    } else {
      SegmentsOfJoin(stack);
      JoinNoLeadingSlash(stack);
      assert Rooted(p) == rooted;
      if rooted {
        assert p[0] == '/' && p[1..] == Join(stack, "/");
        assert Segments(p) == [""] + stack;
        assert ([""] + stack)[1..] == stack;
      }
    }
  }

  /** The loop of `Clean` over two runs of segments is the loop over the
      second, starting from what the first left. */
  lemma {:induction false} ResolveAppend(a: seq<string>, b: seq<string>, rooted: bool, acc: seq<string>)
    requires forall i :: 0 <= i < |a| ==> '/' !in a[i]
    requires forall i :: 0 <= i < |b| ==> '/' !in b[i]
    requires Canonical(acc, rooted)
    ensures Resolve(a + b, rooted, acc) == Resolve(b, rooted, Resolve(a, rooted, acc))
    decreases |a|
  {
    if a == [] {
      assert a + b == b;
    } else {
      assert (a + b)[0] == a[0] && (a + b)[1..] == a[1..] + b;
      var x := a[0];
      var acc2 :=
        if x == "" || x == "." then acc
        else if x == ".." then
          (if acc != [] && acc[|acc| - 1] != ".." then acc[..|acc| - 1] else if rooted then acc else acc + [".."])
        else acc + [x];
      assert Resolve(a + b, rooted, acc) == Resolve(a[1..] + b, rooted, acc2);
      assert Resolve(a, rooted, acc) == Resolve(a[1..], rooted, acc2);
      ResolveAppend(a[1..], b, rooted, acc2);
    }
  }

  /** Cleaning a rooted path is running the loop over its segments after
      the root. */
  lemma RootedClean(parts: seq<string>)
    requires |parts| >= 1
    requires forall i :: 0 <= i < |parts| ==> '/' !in parts[i]
    ensures Clean("/" + Join(parts, "/")) == Render(Resolve(parts, true, []), true)
  {
    var p := "/" + Join(parts, "/");
    SegmentsOfJoin(parts);
    assert p[0] == '/' && p[1..] == Join(parts, "/");
    assert Segments(p) == [""] + parts;
    assert ([""] + parts)[1..] == parts;
  }

  /** Cleaning a rooted path whose leading segments are already clean is
      running the loop over the rest, starting from those segments. */
  lemma CleanAfterCanonical(dirs: seq<string>, tail: seq<string>)
    requires Canonical(dirs, true)
    requires |dirs + tail| >= 1
    requires forall i :: 0 <= i < |tail| ==> '/' !in tail[i]
    ensures Clean("/" + Join(dirs + tail, "/")) == Render(Resolve(tail, true, dirs), true)
  {
    assert forall i :: 0 <= i < |dirs + tail| ==> (dirs + tail)[i] == if i < |dirs| then dirs[i] else tail[i - |dirs|];
    RootedClean(dirs + tail);
    ResolveAppend(dirs, tail, true, []);
    ResolveCanonical(dirs, true, []);
    assert [] + dirs == dirs;
  }

  /** Cleaning twice is cleaning once. */
  lemma CleanIdempotent(p: string)
    ensures Clean(Clean(p)) == Clean(p)
  {
    CleanRender(Resolve(Segments(p), Rooted(p), []), Rooted(p));
  }

  /** A joined path is clean, whatever was joined. */
  lemma JoinPathClean(a: string, b: string)
    requires a != [] || b != []
    ensures Clean(JoinPath(a, b)) == JoinPath(a, b)
  {
    if a == [] { CleanIdempotent(b); } else { CleanIdempotent(a + "/" + b); }
  }
}

=== FILE: go_symbols.dfy ===
/** The Go generation's scoped symbol tables (src/compiler/symbol_table.go):
    a chain of scopes, each mapping names to const or var bindings, and the
    builtin tables the compiler starts from.

    In Go a table is a mutable object that its children point to; here a
    table is a value, and an operation returns the updated table. The
    compiler only ever writes to its innermost table, so the two agree. */
module GoSymbols {
  import opened Wrappers
  import opened GoTypes

  datatype Binding = Binding(isVar: bool, bindingType: VeniceType)

  /** A scope: its own bindings and the enclosing scope, if any. */
  datatype SymbolTable = SymbolTable(parent: Option<SymbolTable>, symbols: map<string, Binding>)

  /** The scopes of a table, innermost first. */
  function Scopes(t: SymbolTable): (r: seq<map<string, Binding>>)
    ensures |r| >= 1 && r[0] == t.symbols
    decreases t
  {
    match t.parent
    case None => [t.symbols]
    case Some(p) => [t.symbols] + Scopes(p)
  }

  /** A new, empty scope inside `t` (SpawnChild). */
  function SpawnChild(t: SymbolTable): (c: SymbolTable)
    ensures Scopes(c) == [map[]] + Scopes(t)
  {
    SymbolTable(Some(t), map[])
  }

  /** The innermost binding of `name` (GetBinding). */
  function GetBinding(t: SymbolTable, name: string): Option<Binding>
    decreases t
  {
    if name in t.symbols then Some(t.symbols[name])
    else match t.parent
      case None => None
      case Some(p) => GetBinding(p, name)
  }

  /** The type of the innermost binding of `name` (Get). The Go code walks
      the chain a second time instead of calling GetBinding. */
  function Get(t: SymbolTable, name: string): Option<VeniceType>
    decreases t
  {
    if name in t.symbols then Some(t.symbols[name].bindingType)
    else match t.parent
      case None => None
      case Some(p) => Get(p, name)
  }

  /** Binds `name` as a constant in this scope only (Put). */
  function Put(t: SymbolTable, name: string, vtype: VeniceType): (r: SymbolTable)
    ensures Scopes(r) == [t.symbols[name := Binding(false, vtype)]] + Scopes(t)[1..]
  {
    t.(symbols := t.symbols[name := Binding(false, vtype)])
  }

  /** Binds `name` as a variable in this scope only (PutVar). */
  function PutVar(t: SymbolTable, name: string, vtype: VeniceType): (r: SymbolTable)
    ensures Scopes(r) == [t.symbols[name := Binding(true, vtype)]] + Scopes(t)[1..]
  {
    t.(symbols := t.symbols[name := Binding(true, vtype)])
  }

  /** `name` is bound to `b` in scope `i` and in no scope inside it. */
  predicate InnermostAt(scopes: seq<map<string, Binding>>, name: string, i: int, b: Binding) {
    0 <= i < |scopes| && name in scopes[i] && scopes[i][name] == b
    && forall j :: 0 <= j < i ==> name !in scopes[j]
  }

  /** GetBinding finds the innermost scope binding the name, and fails
      exactly when no scope of the chain binds it. */
  lemma {:induction false} GetBindingSearchesScopes(t: SymbolTable, name: string)
    ensures GetBinding(t, name).None? <==> forall i :: 0 <= i < |Scopes(t)| ==> name !in Scopes(t)[i]
    ensures GetBinding(t, name).Some? ==>
      exists i :: InnermostAt(Scopes(t), name, i, GetBinding(t, name).value)
    decreases t
  {
    var scopes := Scopes(t);
    if name in t.symbols {
      assert InnermostAt(scopes, name, 0, t.symbols[name]);
    } else if t.parent.Some? {
      var p := t.parent.value;
      GetBindingSearchesScopes(p, name);
      assert scopes == [t.symbols] + Scopes(p);
      assert GetBinding(t, name) == GetBinding(p, name);
      if GetBinding(p, name).Some? {
        var i :| InnermostAt(Scopes(p), name, i, GetBinding(p, name).value);
        assert scopes[i + 1] == Scopes(p)[i];
        assert InnermostAt(scopes, name, i + 1, GetBinding(t, name).value);
        assert 0 <= i + 1 < |Scopes(t)| && name in Scopes(t)[i + 1];
        assert GetBinding(t, name).Some?;
        assert !(forall j :: 0 <= j < |Scopes(t)| ==> name !in Scopes(t)[j]);
        assert GetBinding(t, name).None? <==> forall j :: 0 <= j < |Scopes(t)| ==> name !in Scopes(t)[j];
      } else {
        forall i | 0 <= i < |Scopes(t)| ensures name !in Scopes(t)[i] {
          if i == 0 {
            assert scopes[i] == t.symbols;
          } else {
            assert scopes[i] == Scopes(p)[i - 1];
            assert name !in Scopes(p)[i - 1];
          }
        }
      }
    } else {
      assert scopes == [t.symbols];
    }
  }

  /** Get returns the type of the binding GetBinding finds. */
  lemma {:induction false} GetAgreesWithGetBinding(t: SymbolTable, name: string)
    ensures Get(t, name) == if GetBinding(t, name).Some? then Some(GetBinding(t, name).value.bindingType) else None
    decreases t
  {
    if name !in t.symbols && t.parent.Some? {
      GetAgreesWithGetBinding(t.parent.value, name);
    }
  }

  /** A fresh child scope sees exactly what its parent sees. */
  lemma ChildSeesParent(t: SymbolTable, name: string)
    ensures GetBinding(SpawnChild(t), name) == GetBinding(t, name)
    ensures Get(SpawnChild(t), name) == Get(t, name)
  {
  }

  /** After Put or PutVar, the name is found with the new type and the
      binding kind of the operation, whatever enclosing scopes say. */
  lemma PutThenGet(t: SymbolTable, name: string, vtype: VeniceType)
    ensures GetBinding(Put(t, name, vtype), name) == Some(Binding(false, vtype))
    ensures GetBinding(PutVar(t, name, vtype), name) == Some(Binding(true, vtype))
    ensures Get(Put(t, name, vtype), name) == Some(vtype)
  {
  }

  /** Put and PutVar leave every other name as it was. */
  lemma PutKeepsOthers(t: SymbolTable, name: string, vtype: VeniceType, other: string)
    requires other != name
    ensures GetBinding(Put(t, name, vtype), other) == GetBinding(t, other)
    ensures GetBinding(PutVar(t, name, vtype), other) == GetBinding(t, other)
  {
  }

  /** A binding in a child scope shadows the parent's binding, and popping
      the child restores the parent's view. */
  lemma ShadowInChild(t: SymbolTable, name: string, vtype: VeniceType)
    ensures GetBinding(Put(SpawnChild(t), name, vtype), name) == Some(Binding(false, vtype))
    ensures Put(SpawnChild(t), name, vtype).parent == Some(t)
  {
  }

  // ---------------------------------------------------------------------
  // Builtin tables
  // ---------------------------------------------------------------------

  function BuiltinFunction(name: string, params: seq<VeniceType>, ret: VeniceType): VeniceType {
    FunctionType(name, false, [], params, ret, true)
  }

  /** The parameter types of the builtins `length` and `string`. */
  const LengthParameter := UnionType([StringType, ListType(AnyType), MapType(AnyType, AnyType)])
  const StringParameter := UnionType([BooleanType, CharacterType, IntegerType, StringType])

  /** The root table of every compilation: six builtin functions, all
      bound as constants. Every builtin is a function type named after its
      key. */
  function BuiltinSymbolTable(): (t: SymbolTable)
    ensures t.parent == None
    ensures t.symbols.Keys == {"int", "length", "print", "range", "real", "string"}
    ensures forall k :: k in t.symbols ==>
      !t.symbols[k].isVar && t.symbols[k].bindingType.FunctionType?
      && t.symbols[k].bindingType.isBuiltin && t.symbols[k].bindingType.name == k
      && |t.symbols[k].bindingType.paramTypes| >= 1
  {
    SymbolTable(None, map[
      "int" := Binding(false, BuiltinFunction("int", [RealNumberType], IntegerType)),
      "length" := Binding(false, BuiltinFunction("length", [LengthParameter], IntegerType)),
      "print" := Binding(false, BuiltinFunction("print", [AnyType], Void)),
      "range" := Binding(false, BuiltinFunction("range", [IntegerType, IntegerType], ListType(IntegerType))),
      "real" := Binding(false, BuiltinFunction("real", [IntegerType], RealNumberType)),
      "string" := Binding(false, BuiltinFunction("string", [StringParameter], StringType))
    ])
  }

  /** The root type table: the primitive type names and `Optional`. There
      is no type name for characters. */
  function BuiltinTypeTable(): (t: SymbolTable)
    ensures t.parent == None
    ensures t.symbols.Keys == {"bool", "int", "real", "string", "Optional"}
    ensures forall k :: k in t.symbols ==> !t.symbols[k].isVar
    ensures "char" !in t.symbols
  {
    SymbolTable(None, map[
      "bool" := Binding(false, BooleanType),
      "int" := Binding(false, IntegerType),
      "real" := Binding(false, RealNumberType),
      "string" := Binding(false, StringType),
      "Optional" := Binding(false, Optional)
    ])
  }

  /** Every method table binds builtin function types whose first
      parameter is the receiver. */
  predicate MethodsTakeReceiver(methods: map<string, VeniceType>, receiver: VeniceType -> bool) {
    forall k :: k in methods ==>
      methods[k].FunctionType? && methods[k].isBuiltin && methods[k].name == k
      && |methods[k].paramTypes| >= 1 && receiver(methods[k].paramTypes[0])
  }

  /** The list methods; `T` stands for the item type. */
  function ListBuiltins(): (m: map<string, VeniceType>)
    ensures m.Keys == {"append", "extend", "length", "remove", "slice"}
    ensures MethodsTakeReceiver(m, (p: VeniceType) => p.ListType?)
  {
    var t := SymbolType("T");
    map[
      "append" := FunctionType("append", false, ["T"], [ListType(t), t], Void, true),
      "extend" := FunctionType("extend", false, ["T"], [ListType(t), ListType(t)], Void, true),
      "length" := BuiltinFunction("length", [ListType(AnyType)], IntegerType),
      "remove" := BuiltinFunction("remove", [ListType(AnyType), IntegerType], Void),
      "slice" := BuiltinFunction("slice", [ListType(t), IntegerType, IntegerType], ListType(t))
    ]
  }

  /** The map methods; `K` and `V` stand for the key and value types (and
      `remove` names its key type `T`). */
  function MapBuiltins(): (m: map<string, VeniceType>)
    ensures m.Keys == {"entries", "keys", "remove", "values"}
    ensures MethodsTakeReceiver(m, (p: VeniceType) => p.MapType?)
  {
    var k := SymbolType("K");
    var v := SymbolType("V");
    map[
      "entries" := BuiltinFunction("entries", [MapType(k, v)], ListType(TupleType([k, v]))),
      "keys" := BuiltinFunction("keys", [MapType(k, AnyType)], ListType(k)),
      "remove" := BuiltinFunction("remove", [MapType(SymbolType("T"), AnyType), SymbolType("T")], Void),
      "values" := BuiltinFunction("values", [MapType(AnyType, v)], ListType(v))
    ]
  }

  /** The string methods. `find` and `find_last` return an optional
      integer. */
  function StringBuiltins(): (m: map<string, VeniceType>)
    ensures m.Keys == {"find", "find_last", "length", "slice", "split", "split_space", "to_lower", "to_upper"}
    ensures MethodsTakeReceiver(m, (p: VeniceType) => p == StringType)
    ensures m["find"].returnType == OptionalOf(IntegerType) == m["find_last"].returnType
  {
    map[
      "find" := BuiltinFunction("find", [StringType, StringType], OptionalOf(IntegerType)),
      "find_last" := BuiltinFunction("find_last", [StringType, StringType], OptionalOf(IntegerType)),
      "length" := BuiltinFunction("length", [StringType], IntegerType),
      "slice" := BuiltinFunction("slice", [StringType, IntegerType, IntegerType], StringType),
      "split" := BuiltinFunction("split", [StringType, StringType], ListType(StringType)),
      "split_space" := BuiltinFunction("split_space", [StringType], ListType(StringType)),
      "to_lower" := BuiltinFunction("to_lower", [StringType], StringType),
      "to_upper" := BuiltinFunction("to_upper", [StringType], StringType)
    ]
  }

  /** `length` takes strings, lists and maps. */
  lemma LengthParameterAccepts(x: VeniceType, k: VeniceType, v: VeniceType)
    ensures Accepts(LengthParameter, StringType) && Accepts(LengthParameter, ListType(x))
      && Accepts(LengthParameter, MapType(k, v))
  {
    var ts := LengthParameter.types;
    UnionAcceptsMember(ts, 0, StringType);
    UnionAcceptsMember(ts, 1, ListType(x));
    UnionAcceptsMember(ts, 2, MapType(k, v));
  }

  /** `length` rejects numbers. */
  lemma LengthParameterRejects(n: VeniceType)
    requires n == IntegerType || n == RealNumberType
    ensures !Accepts(LengthParameter, n)
  {
    var ts := LengthParameter.types;
    assert !Accepts(ts[0], n) && !Accepts(ts[1], n) && !Accepts(ts[2], n);
    UnionRejects(ts, n);
  }

  /** `string` takes booleans, characters, integers and strings. */
  lemma StringParameterAccepts()
    ensures Accepts(StringParameter, BooleanType) && Accepts(StringParameter, CharacterType)
      && Accepts(StringParameter, IntegerType) && Accepts(StringParameter, StringType)
  {
    var ts := StringParameter.types;
    UnionAcceptsMember(ts, 0, BooleanType);
    UnionAcceptsMember(ts, 1, CharacterType);
    UnionAcceptsMember(ts, 2, IntegerType);
    UnionAcceptsMember(ts, 3, StringType);
  }

  /** `string` rejects real numbers. */
  lemma StringParameterRejects()
    ensures !Accepts(StringParameter, RealNumberType)
  {
    var ts := StringParameter.types;
    assert !Accepts(ts[0], RealNumberType) && !Accepts(ts[1], RealNumberType);
    assert !Accepts(ts[2], RealNumberType) && !Accepts(ts[3], RealNumberType);
    UnionRejects(ts, RealNumberType);
  }
}

=== FILE: go_types.dfy ===
/** The static types of the Go generation (src/compiler/vtype.go) and the
    two operations the compiler performs on them: the compatibility check
    (`checkType`) and the substitution of generic parameters
    (`substituteGenerics`), both in src/compiler/compiler.go.

    Go compares class, function and module types by pointer; here two types
    are identical when they are structurally equal. Go's nil type, which the
    compiler uses for "no value" (a function without a return type), is
    `Void`. */
module GoTypes {
  import opened Wrappers

  datatype VeniceType =
    | Void
    | AnyType
    | BooleanType
    | CharacterType
    | ClassType(name: string, genericParameters: seq<string>, fields: seq<ClassField>, methods: seq<VeniceType>)
    | EnumType(name: string, genericParameters: seq<string>, cases: seq<CaseType>)
    | FunctionType(name: string, public: bool, genericParameters: seq<string>,
                   paramTypes: seq<VeniceType>, returnType: VeniceType, isBuiltin: bool)
    | IntegerType
    | ListType(itemType: VeniceType)
    | MapType(keyType: VeniceType, valueType: VeniceType)
    | ModuleType(name: string, members: map<string, VeniceType>)
    | RealNumberType
    | StringType
    | SymbolType(symbol: string)
    | TupleType(itemTypes: seq<VeniceType>)
    | UnionType(types: seq<VeniceType>)

  datatype ClassField = ClassField(name: string, public: bool, fieldType: VeniceType)

  datatype CaseType = CaseType(caseName: string, types: seq<VeniceType>)

  /** The generic `Optional<T>` enum of the type table. */
  const Optional: VeniceType :=
    EnumType("Optional", ["T"], [CaseType("Some", [SymbolType("T")]), CaseType("None", [])])

  /** `Optional` instantiated at a concrete type (VeniceOptionalTypeOf). */
  function OptionalOf(t: VeniceType): (r: VeniceType)
    ensures r.EnumType? && r.name == "Optional" && r.genericParameters == []
    ensures |r.cases| == 2 && r.cases[0] == CaseType("Some", [t]) && r.cases[1].types == []
  {
    EnumType("Optional", [], [CaseType("Some", [t]), CaseType("None", [])])
  }

  /** The text of a type in error messages. `Void` has no text in Go (a nil
      receiver); it is written "void" here. */
  function TypeString(t: VeniceType): string {
    match t
    case Void => "void"
    case AnyType => "any"
    case BooleanType => "boolean"
    case CharacterType => "char"
    case ClassType(name, _, _, _) => name
    case EnumType(name, _, _) => name
    case FunctionType(_, _, _, params, ret, _) =>
      "func(" + TypeList(params) + ")" + (if ret == Void then "" else " -> " + TypeString(ret))
    case IntegerType => "int"
    case ListType(item) => "[" + TypeString(item) + "]"
    case MapType(k, v) => "{" + TypeString(k) + ": " + TypeString(v) + "}"
    case ModuleType(name, _) => name
    case RealNumberType => "real"
    case StringType => "string"
    case SymbolType(sym) => sym
    case TupleType(items) => "(" + TypeList(items) + ")"
    case UnionType(types) => "union<" + TypeList(types) + ">"
  }

  /** Types separated by ", ". */
  function TypeList(ts: seq<VeniceType>): string
    decreases ts
  {
    if |ts| == 0 then ""
    else if |ts| == 1 then TypeString(ts[0])
    else TypeString(ts[0]) + ", " + TypeList(ts[1..])
  }

  /** The text Go's String methods produce, or None where one of them is
      called on the nil type (a nil-interface method call, which panics).
      A function type without a return type is printed without one. */
  function TypeText(t: VeniceType): Option<string> {
    match t
    case Void => None
    case FunctionType(_, _, _, params, ret, _) =>
      (match TypeListText(params)
       case None => None
       case Some(ps) =>
         if ret == Void then Some("func(" + ps + ")" + "")
         else (match TypeText(ret)
               case None => None
               case Some(r) => Some("func(" + ps + ")" + (" -> " + r))))
    case ListType(item) =>
      (match TypeText(item) case None => None case Some(i) => Some("[" + i + "]"))
    case MapType(k, v) =>
      (match TypeText(k)
       case None => None
       case Some(ks) => (match TypeText(v) case None => None case Some(vs) => Some("{" + ks + ": " + vs + "}")))
    case TupleType(items) =>
      (match TypeListText(items) case None => None case Some(its) => Some("(" + its + ")"))
    case UnionType(types) =>
      (match TypeListText(types) case None => None case Some(ts) => Some("union<" + ts + ">"))
    case _ => Some(TypeString(t))
  }

  function TypeListText(ts: seq<VeniceType>): Option<string>
    decreases ts
  {
    if |ts| == 0 then Some("")
    else if |ts| == 1 then TypeText(ts[0])
    else match TypeText(ts[0])
      case None => None
      case Some(first) => (match TypeListText(ts[1..]) case None => None case Some(rest) => Some(first + ", " + rest))
  }

  /** No printed position of `t` holds the nil type. */
  predicate Printable(t: VeniceType)
    decreases t
  {
    match t
    case Void => false
    case FunctionType(_, _, _, params, ret, _) =>
      (forall i :: 0 <= i < |params| ==> Printable(params[i])) && (ret == Void || Printable(ret))
    case ListType(item) => Printable(item)
    case MapType(k, v) => Printable(k) && Printable(v)
    case TupleType(items) => forall i :: 0 <= i < |items| ==> Printable(items[i])
    case UnionType(types) => forall i :: 0 <= i < |types| ==> Printable(types[i])
    case _ => true
  }

  /** Go's String methods succeed exactly on printable types, and then
      agree with TypeString. */
  lemma {:induction false} TypeTextAgrees(t: VeniceType)
    ensures TypeText(t) == if Printable(t) then Some(TypeString(t)) else None
    decreases t, 1
  {
    match t
    case FunctionType(_, _, _, params, ret, _) =>
      TypeListTextAgrees(params);
      if ret != Void {
        TypeTextAgrees(ret);
      }
    case ListType(item) =>
      TypeTextAgrees(item);
    case MapType(k, v) =>
      TypeTextAgrees(k);
      TypeTextAgrees(v);
    case TupleType(items) =>
      TypeListTextAgrees(items);
    case UnionType(types) =>
      TypeListTextAgrees(types);
    case _ =>
  }

  lemma {:induction false} TypeListTextAgrees(ts: seq<VeniceType>)
    ensures TypeListText(ts) ==
      if forall i :: 0 <= i < |ts| ==> Printable(ts[i]) then Some(TypeList(ts)) else None
    decreases ts, 0
  {
    if |ts| == 1 {
      TypeTextAgrees(ts[0]);
    } else if |ts| > 1 {
      TypeTextAgrees(ts[0]);
      TypeListTextAgrees(ts[1..]);
      assert forall i :: 1 <= i < |ts| ==> ts[1..][i - 1] == ts[i];
      if !Printable(ts[0]) {
      } else if !(forall i :: 0 <= i < |ts[1..]| ==> Printable(ts[1..][i])) {
        var i :| 0 <= i < |ts[1..]| && !Printable(ts[1..][i]);
        assert !Printable(ts[i + 1]);
      }
    }
  }

  // ---------------------------------------------------------------------
  // Compatibility (checkTypeCore without generic substitution)
  // ---------------------------------------------------------------------

  /** Whether a value of type `actual` may be used where `expected` is
      required. `any` accepts everything; enums, lists, maps and tuples are
      compared component by component; a union accepts what one of its
      members accepts; a type symbol accepts nothing (outside substitution
      mode); every other type accepts only itself. */
  predicate Accepts(expected: VeniceType, actual: VeniceType)
    decreases expected
  {
    if expected.AnyType? then true
    else if expected.EnumType? then
      actual.EnumType? && actual.name == expected.name && |expected.cases| == |actual.cases|
      && forall i :: 0 <= i < |expected.cases| ==> CaseAccepts(expected.cases[i], actual.cases[i])
    else if expected.ListType? then actual.ListType? && Accepts(expected.itemType, actual.itemType)
    else if expected.MapType? then
      actual.MapType? && Accepts(expected.keyType, actual.keyType) && Accepts(expected.valueType, actual.valueType)
    else if expected.SymbolType? then false
    else if expected.TupleType? then
      actual.TupleType? && |expected.itemTypes| == |actual.itemTypes|
      && forall i :: 0 <= i < |expected.itemTypes| ==> Accepts(expected.itemTypes[i], actual.itemTypes[i])
    else if expected.UnionType? then
      exists i :: 0 <= i < |expected.types| && Accepts(expected.types[i], actual)
    else expected == actual
  }

  /** One enum case against another: same label, same arity, and each
      payload type accepted. */
  predicate CaseAccepts(expected: CaseType, actual: CaseType)
    decreases expected
  {
    expected.caseName == actual.caseName && |expected.types| == |actual.types|
    && forall j :: 0 <= j < |expected.types| ==> Accepts(expected.types[j], actual.types[j])
  }

  /** A union accepts whatever one of its members accepts. */
  lemma UnionAcceptsMember(types: seq<VeniceType>, i: int, actual: VeniceType)
    requires 0 <= i < |types| && Accepts(types[i], actual)
    ensures Accepts(UnionType(types), actual)
  {
  }

  /** A union rejects a type that none of its members accepts. */
  lemma UnionRejects(types: seq<VeniceType>, actual: VeniceType)
    requires forall i :: 0 <= i < |types| ==> !Accepts(types[i], actual)
    ensures !Accepts(UnionType(types), actual)
  {
  }

  /** The types that accept every type: `any`, and unions with such a
      member somewhere. */
  predicate AcceptsEverything(t: VeniceType)
    decreases t
  {
    t == AnyType || (t.UnionType? && exists i :: 0 <= i < |t.types| && AcceptsEverything(t.types[i]))
  }

  /** The types that accept themselves: no type symbol in a compared
      position, and every union among the compared positions accepts
      everything. */
  predicate SelfAccepting(t: VeniceType)
    decreases t
  {
    match t
    case SymbolType(_) => false
    case UnionType(_) => AcceptsEverything(t)
    case ListType(item) => SelfAccepting(item)
    case MapType(k, v) => SelfAccepting(k) && SelfAccepting(v)
    case TupleType(items) => forall i :: 0 <= i < |items| ==> SelfAccepting(items[i])
    case EnumType(_, _, cases) =>
      forall i, j :: 0 <= i < |cases| && 0 <= j < |cases[i].types| ==> SelfAccepting(cases[i].types[j])
    case _ => true
  }

  lemma {:induction false} EverythingAccepted(t: VeniceType, actual: VeniceType)
    requires AcceptsEverything(t)
    ensures Accepts(t, actual)
    decreases t
  {
    if t != AnyType {
      var i :| 0 <= i < |t.types| && AcceptsEverything(t.types[i]);
      EverythingAccepted(t.types[i], actual);
    }
  }

  /** A union is accepted only by the types that accept everything: no
      union member is compared with the union itself. */
  lemma {:induction false} UnionAcceptedOnlyByEverything(t: VeniceType, u: VeniceType)
    requires u.UnionType?
    ensures Accepts(t, u) <==> AcceptsEverything(t)
    decreases t
  {
    if t.UnionType? {
      if Accepts(t, u) {
        var i :| 0 <= i < |t.types| && Accepts(t.types[i], u);
        UnionAcceptedOnlyByEverything(t.types[i], u);
      }
      if AcceptsEverything(t) {
        var i :| 0 <= i < |t.types| && AcceptsEverything(t.types[i]);
        UnionAcceptedOnlyByEverything(t.types[i], u);
      }
    }
  }

  /** Exactly the self-accepting types accept themselves; in particular
      `union<int, string>` does not accept `union<int, string>`. */
  lemma {:induction false} AcceptsItself(t: VeniceType)
    ensures Accepts(t, t) <==> SelfAccepting(t)
    decreases t
  {
    match t
    case UnionType(types) =>
      UnionAcceptedOnlyByEverything(t, t);
    case ListType(item) =>
      AcceptsItself(item);
    case MapType(k, v) =>
      AcceptsItself(k);
      AcceptsItself(v);
    case TupleType(items) =>
      forall i | 0 <= i < |items| ensures Accepts(items[i], items[i]) <==> SelfAccepting(items[i]) {
        AcceptsItself(items[i]);
      }
    case EnumType(_, _, cases) =>
      forall i, j | 0 <= i < |cases| && 0 <= j < |cases[i].types|
        ensures Accepts(cases[i].types[j], cases[i].types[j]) <==> SelfAccepting(cases[i].types[j])
      {
        AcceptsItself(cases[i].types[j]);
      }
      assert (forall i :: 0 <= i < |cases| ==> CaseAccepts(cases[i], cases[i]))
        <==> (forall i, j :: 0 <= i < |cases| && 0 <= j < |cases[i].types| ==> SelfAccepting(cases[i].types[j]));
    case _ =>
  }

  /** Compatibility is transitive. */
  lemma {:induction false} AcceptsTransitive(a: VeniceType, b: VeniceType, c: VeniceType)
    requires Accepts(a, b) && Accepts(b, c)
    ensures Accepts(a, c)
    decreases a
  {
    match a
    case AnyType =>
    case SymbolType(_) =>
    case UnionType(types) =>
      var i :| 0 <= i < |types| && Accepts(types[i], b);
      AcceptsTransitive(types[i], b, c);
    case ListType(item) =>
      if b.UnionType? {
        UnionAcceptedOnlyByEverything(a, b);
      } else {
        AcceptsTransitive(item, b.itemType, c.itemType);
      }
    case MapType(k, v) =>
      AcceptsTransitive(k, b.keyType, c.keyType);
      AcceptsTransitive(v, b.valueType, c.valueType);
    case TupleType(items) =>
      forall i | 0 <= i < |items| ensures Accepts(items[i], c.itemTypes[i]) {
        AcceptsTransitive(items[i], b.itemTypes[i], c.itemTypes[i]);
      }
    case EnumType(_, _, cases) =>
      forall i | 0 <= i < |cases| ensures CaseAccepts(cases[i], c.cases[i]) {
        assert CaseAccepts(cases[i], b.cases[i]) && CaseAccepts(b.cases[i], c.cases[i]);
        forall j | 0 <= j < |cases[i].types| ensures Accepts(cases[i].types[j], c.cases[i].types[j]) {
          AcceptsTransitive(cases[i].types[j], b.cases[i].types[j], c.cases[i].types[j]);
        }
      }
    case _ =>
  }

  // ---------------------------------------------------------------------
  // Generic substitution (substituteGenerics)
  // ---------------------------------------------------------------------

  /** Replaces each type symbol bound in `m` by its binding, inside enum
      cases, function signatures, lists, maps and tuples. Rebuilt enum and
      function types lose their generic parameter lists; unions, classes and
      modules are returned unchanged. The Go function's error result is never
      set, so the model is total. */
  function Substitute(m: map<string, VeniceType>, t: VeniceType): VeniceType
    decreases t
  {
    match t
    case EnumType(name, _, cases) =>
      EnumType(name, [], seq(|cases|, i requires 0 <= i < |cases| =>
        CaseType(cases[i].caseName, seq(|cases[i].types|, j requires 0 <= j < |cases[i].types| =>
          Substitute(m, cases[i].types[j])))))
    case FunctionType(name, public, _, params, ret, builtin) =>
      FunctionType(name, public, [],
                   seq(|params|, i requires 0 <= i < |params| => Substitute(m, params[i])),
                   Substitute(m, ret), builtin)
    case ListType(item) => ListType(Substitute(m, item))
    case MapType(k, v) => MapType(Substitute(m, k), Substitute(m, v))
    case SymbolType(sym) => if sym in m then m[sym] else t
    case TupleType(items) =>
      TupleType(seq(|items|, i requires 0 <= i < |items| => Substitute(m, items[i])))
    case _ => t
  }

  /** Whether the symbol `sym` occurs in `t` at a position substitution
      visits. */
  predicate Occurs(sym: string, t: VeniceType)
    decreases t
  {
    match t
    case EnumType(_, _, cases) =>
      exists i, j :: 0 <= i < |cases| && 0 <= j < |cases[i].types| && Occurs(sym, cases[i].types[j])
    case FunctionType(_, _, _, params, ret, _) =>
      (exists i :: 0 <= i < |params| && Occurs(sym, params[i])) || Occurs(sym, ret)
    case ListType(item) => Occurs(sym, item)
    case MapType(k, v) => Occurs(sym, k) || Occurs(sym, v)
    case SymbolType(l) => l == sym
    case TupleType(items) => exists i :: 0 <= i < |items| && Occurs(sym, items[i])
    case _ => false
  }

  /** After a substitution, a symbol occurs exactly where it occurred
      unbound before, or inside the binding of a symbol that occurred. */
  predicate OccursAfter(m: map<string, VeniceType>, t: VeniceType, s: string) {
    (Occurs(s, t) && s !in m) || exists l :: l in m && Occurs(l, t) && Occurs(s, m[l])
  }

  lemma {:induction false} SubstituteOccurs(m: map<string, VeniceType>, t: VeniceType, s: string)
    ensures Occurs(s, Substitute(m, t)) <==> OccursAfter(m, t, s)
    decreases t
  {
    match t
    case SymbolType(sym) =>
      if sym in m {
        if OccursAfter(m, t, s) {
          var l :| l in m && Occurs(l, t) && Occurs(s, m[l]);
          assert l == sym;
        }
      }
    case ListType(item) =>
      SubstituteOccurs(m, item, s);
      OccursAfterList(m, item, s);
    case MapType(k, v) =>
      SubstituteOccurs(m, k, s);
      SubstituteOccurs(m, v, s);
      OccursAfterPair(m, t, k, v, s);
    case TupleType(items) =>
      forall i | 0 <= i < |items| ensures Occurs(s, Substitute(m, items[i])) <==> OccursAfter(m, items[i], s) {
        SubstituteOccurs(m, items[i], s);
      }
      TupleOccurs(m, t, s);
    case FunctionType(_, _, _, params, ret, _) =>
      forall i | 0 <= i < |params| ensures Occurs(s, Substitute(m, params[i])) <==> OccursAfter(m, params[i], s) {
        SubstituteOccurs(m, params[i], s);
      }
      SubstituteOccurs(m, ret, s);
      FunctionOccurs(m, t, s);
    case EnumType(_, _, cases) =>
      forall i, j | 0 <= i < |cases| && 0 <= j < |cases[i].types|
        ensures Occurs(s, Substitute(m, cases[i].types[j])) <==> OccursAfter(m, cases[i].types[j], s)
      {
        SubstituteOccurs(m, cases[i].types[j], s);
      }
      EnumOccurs(m, t, s);
    case _ =>
  }

  /** The tuple step of SubstituteOccurs, given the facts for the items. */
  lemma TupleOccurs(m: map<string, VeniceType>, t: VeniceType, s: string)
    requires t.TupleType?
    requires forall i :: 0 <= i < |t.itemTypes| ==>
      (Occurs(s, Substitute(m, t.itemTypes[i])) <==> OccursAfter(m, t.itemTypes[i], s))
    ensures Occurs(s, Substitute(m, t)) <==> OccursAfter(m, t, s)
  {
    var r := Substitute(m, t);
    assert forall i :: 0 <= i < |t.itemTypes| ==> r.itemTypes[i] == Substitute(m, t.itemTypes[i]);
    OccursAfterSeq(m, t, t.itemTypes, s);
  }

  /** The function step of SubstituteOccurs, given the facts for the
      signature's parts. */
  lemma FunctionOccurs(m: map<string, VeniceType>, t: VeniceType, s: string)
    requires t.FunctionType?
    requires forall i :: 0 <= i < |t.paramTypes| ==>
      (Occurs(s, Substitute(m, t.paramTypes[i])) <==> OccursAfter(m, t.paramTypes[i], s))
    requires Occurs(s, Substitute(m, t.returnType)) <==> OccursAfter(m, t.returnType, s)
    ensures Occurs(s, Substitute(m, t)) <==> OccursAfter(m, t, s)
  {
    var r := Substitute(m, t);
    assert forall i :: 0 <= i < |t.paramTypes| ==> r.paramTypes[i] == Substitute(m, t.paramTypes[i]);
    OccursAfterFunction(m, t, s);
  }

  /** The enum step of SubstituteOccurs, given the facts for the payload
      types. */
  lemma EnumOccurs(m: map<string, VeniceType>, t: VeniceType, s: string)
    requires t.EnumType?
    requires forall i, j :: 0 <= i < |t.cases| && 0 <= j < |t.cases[i].types| ==>
      (Occurs(s, Substitute(m, t.cases[i].types[j])) <==> OccursAfter(m, t.cases[i].types[j], s))
    ensures Occurs(s, Substitute(m, t)) <==> OccursAfter(m, t, s)
  {
    var r := Substitute(m, t);
    assert forall i, j :: 0 <= i < |t.cases| && 0 <= j < |t.cases[i].types| ==>
      r.cases[i].types[j] == Substitute(m, t.cases[i].types[j]);
    OccursAfterEnum(m, t, s);
  }

  lemma OccursAfterList(m: map<string, VeniceType>, item: VeniceType, s: string)
    ensures OccursAfter(m, ListType(item), s) <==> OccursAfter(m, item, s)
  {
    if OccursAfter(m, ListType(item), s) && !(Occurs(s, item) && s !in m) {
      var l :| l in m && Occurs(l, ListType(item)) && Occurs(s, m[l]);
      assert Occurs(l, item);
    }
  }

  lemma OccursAfterPair(m: map<string, VeniceType>, t: VeniceType, k: VeniceType, v: VeniceType, s: string)
    requires t == MapType(k, v)
    ensures OccursAfter(m, t, s) <==> OccursAfter(m, k, s) || OccursAfter(m, v, s)
  {
    if OccursAfter(m, t, s) && !(Occurs(s, t) && s !in m) {
      var l :| l in m && Occurs(l, t) && Occurs(s, m[l]);
      assert Occurs(l, k) || Occurs(l, v);
    }
  }

  lemma OccursAfterSeq(m: map<string, VeniceType>, t: VeniceType, items: seq<VeniceType>, s: string)
    requires t == TupleType(items)
    ensures OccursAfter(m, t, s) <==> exists i :: 0 <= i < |items| && OccursAfter(m, items[i], s)
  {
    if OccursAfter(m, t, s) {
      if Occurs(s, t) && s !in m {
        var i :| 0 <= i < |items| && Occurs(s, items[i]);
        assert OccursAfter(m, items[i], s);
      } else {
        var l :| l in m && Occurs(l, t) && Occurs(s, m[l]);
        var i :| 0 <= i < |items| && Occurs(l, items[i]);
        assert OccursAfter(m, items[i], s);
      }
    }
    if exists i :: 0 <= i < |items| && OccursAfter(m, items[i], s) {
      var i :| 0 <= i < |items| && OccursAfter(m, items[i], s);
      if !(Occurs(s, items[i]) && s !in m) {
        var l :| l in m && Occurs(l, items[i]) && Occurs(s, m[l]);
        assert Occurs(l, t);
      }
    }
  }

  lemma OccursAfterFunction(m: map<string, VeniceType>, t: VeniceType, s: string)
    requires t.FunctionType?
    ensures OccursAfter(m, t, s) <==>
      (exists i :: 0 <= i < |t.paramTypes| && OccursAfter(m, t.paramTypes[i], s)) || OccursAfter(m, t.returnType, s)
  {
    var params := t.paramTypes;
    if OccursAfter(m, t, s) {
      if Occurs(s, t) && s !in m {
        if !Occurs(s, t.returnType) {
          var i :| 0 <= i < |params| && Occurs(s, params[i]);
          assert OccursAfter(m, params[i], s);
        }
      } else {
        var l :| l in m && Occurs(l, t) && Occurs(s, m[l]);
        if !Occurs(l, t.returnType) {
          var i :| 0 <= i < |params| && Occurs(l, params[i]);
          assert OccursAfter(m, params[i], s);
        }
      }
    }
    if exists i :: 0 <= i < |params| && OccursAfter(m, params[i], s) {
      var i :| 0 <= i < |params| && OccursAfter(m, params[i], s);
      if !(Occurs(s, params[i]) && s !in m) {
        var l :| l in m && Occurs(l, params[i]) && Occurs(s, m[l]);
        assert Occurs(l, t);
      }
    }
    if OccursAfter(m, t.returnType, s) && !(Occurs(s, t.returnType) && s !in m) {
      var l :| l in m && Occurs(l, t.returnType) && Occurs(s, m[l]);
      assert Occurs(l, t);
    }
  }

  lemma OccursAfterEnum(m: map<string, VeniceType>, t: VeniceType, s: string)
    requires t.EnumType?
    ensures OccursAfter(m, t, s) <==>
      exists i, j :: 0 <= i < |t.cases| && 0 <= j < |t.cases[i].types| && OccursAfter(m, t.cases[i].types[j], s)
  {
    var cases := t.cases;
    if OccursAfter(m, t, s) {
      if Occurs(s, t) && s !in m {
        var i, j :| 0 <= i < |cases| && 0 <= j < |cases[i].types| && Occurs(s, cases[i].types[j]);
        assert OccursAfter(m, cases[i].types[j], s);
      } else {
        var l :| l in m && Occurs(l, t) && Occurs(s, m[l]);
        var i, j :| 0 <= i < |cases| && 0 <= j < |cases[i].types| && Occurs(l, cases[i].types[j]);
        assert OccursAfter(m, cases[i].types[j], s);
      }
    }
    if exists i, j :: 0 <= i < |cases| && 0 <= j < |cases[i].types| && OccursAfter(m, cases[i].types[j], s) {
      var i, j :| 0 <= i < |cases| && 0 <= j < |cases[i].types| && OccursAfter(m, cases[i].types[j], s);
      if !(Occurs(s, cases[i].types[j]) && s !in m) {
        var l :| l in m && Occurs(l, cases[i].types[j]) && Occurs(s, m[l]);
        assert Occurs(l, t);
      }
    }
  }

  /** With bindings that mention no symbols, substitution removes every
      bound symbol and keeps every unbound one. */
  lemma SubstituteEliminates(m: map<string, VeniceType>, t: VeniceType, s: string)
    requires forall l :: l in m ==> !Occurs(s, m[l])
    ensures Occurs(s, Substitute(m, t)) <==> Occurs(s, t) && s !in m
  {
    SubstituteOccurs(m, t, s);
  }

  /** A type that mentions no bound symbol and carries no generic parameter
      list is left unchanged. */
  lemma {:induction false} SubstituteUnbound(m: map<string, VeniceType>, t: VeniceType)
    requires forall l :: l in m ==> !Occurs(l, t)
    requires NoParameterLists(t)
    ensures Substitute(m, t) == t
    decreases t
  {
    match t
    case ListType(item) =>
      SubstituteUnbound(m, item);
    case MapType(k, v) =>
      SubstituteUnbound(m, k);
      SubstituteUnbound(m, v);
    case TupleType(items) =>
      forall i | 0 <= i < |items| ensures Substitute(m, items[i]) == items[i] {
        SubstituteUnbound(m, items[i]);
      }
      assert Substitute(m, t).itemTypes == items;
    case FunctionType(_, _, _, params, ret, _) =>
      forall i | 0 <= i < |params| ensures Substitute(m, params[i]) == params[i] {
        SubstituteUnbound(m, params[i]);
      }
      SubstituteUnbound(m, ret);
      assert Substitute(m, t).paramTypes == params;
    case EnumType(_, _, cases) =>
      forall i | 0 <= i < |cases| ensures Substitute(m, t).cases[i] == cases[i] {
        forall j | 0 <= j < |cases[i].types| ensures Substitute(m, cases[i].types[j]) == cases[i].types[j] {
          SubstituteUnbound(m, cases[i].types[j]);
        }
        assert Substitute(m, t).cases[i].types == cases[i].types;
      }
      assert Substitute(m, t).cases == cases;
    case SymbolType(sym) =>
      assert !Occurs(sym, t) || sym !in m;
    case _ =>
  }

  /** No enum or function type in a substituted position declares generic
      parameters. */
  predicate NoParameterLists(t: VeniceType)
    decreases t
  {
    match t
    case EnumType(_, gp, cases) =>
      gp == [] && forall i, j :: 0 <= i < |cases| && 0 <= j < |cases[i].types| ==> NoParameterLists(cases[i].types[j])
    case FunctionType(_, _, gp, params, ret, _) =>
      gp == [] && (forall i :: 0 <= i < |params| ==> NoParameterLists(params[i])) && NoParameterLists(ret)
    case ListType(item) => NoParameterLists(item)
    case MapType(k, v) => NoParameterLists(k) && NoParameterLists(v)
    case TupleType(items) => forall i :: 0 <= i < |items| ==> NoParameterLists(items[i])
    case _ => true
  }
}

=== FILE: py_analyzer.dfy ===
/** The type checker of the first Python generation (pycompiler/analyzer.py
    over the types of pycompiler/types.py).

    Four places where the code evidently departs from its intent are
    modelled both ways, selected by a `Variant`: parameters entered in the
    enclosing table, blocks nested in a function checked as if outside one,
    a struct-argument message missing its `f` prefix, and an unknown
    parameterised type name reaching `type_to_string` with a plain string. */
module PyAnalyzer {
  import opened Wrappers
  import opened Text
  import opened PyAst

  /** The checker's types. The source uses named tuples; their equality is
      tuple equality, which on the values the checker builds coincides with
      the structural equality of this datatype. */
  datatype VType =
    | Atomic(atom: string)
    | ListType(item: VType)
    | FunctionType(parameters: seq<Labeled>, returnType: VType)
    | StructType(name: string, fields: seq<Labeled>)
    | MapType(key: VType, value: VType)

  /** `VeniceKeywordArgumentType`: a parameter or a struct field. */
  datatype Labeled = Labeled(name: string, vtype: VType)

  const Boolean := Atomic("boolean")
  const Integer := Atomic("integer")
  const StringType := Atomic("string")
  const Void := Atomic("void")
  const Any := Atomic("any")

  /** A `VeniceError`, or a Python exception the checker lets escape. */
  datatype CheckError = VeniceError(message: string) | PythonException(name: string)

  /** The code as written, or with the four evident slips corrected. */
  datatype Variant = AsWritten | Corrected

  // ---------------------------------------------------------------------
  // Symbol tables

  /** `SymbolTable`: own symbols and an optional parent. */
  datatype SymbolTable = SymbolTable(symbols: map<string, VType>, parent: Option<SymbolTable>)

  /** An empty table whose parent is `t`. */
  function Child(t: SymbolTable): (c: SymbolTable)
    ensures c.symbols == map[] && c.parent == Some(t)
  {
    SymbolTable(map[], Some(t))
  }

  /** `get`: the innermost binding of `x`, or None. */
  function Get(t: SymbolTable, x: string): (r: Option<VType>)
    ensures x in t.symbols ==> r == Some(t.symbols[x])
    ensures x !in t.symbols && t.parent.None? ==> r.None?
    ensures x !in t.symbols && t.parent.Some? ==> r == Get(t.parent.value, x)
    decreases t
  {
    if x in t.symbols then Some(t.symbols[x])
    else match t.parent
      case Some(p) => Get(p, x)
      case None => None
  }

  /** `has`. */
  predicate Has(t: SymbolTable, x: string)
    decreases t
  {
    x in t.symbols || (t.parent.Some? && Has(t.parent.value, x))
  }

  /** `put`: bind `x` in this table, replacing any binding it had here. */
  function Put(t: SymbolTable, x: string, ty: VType): (r: SymbolTable)
    ensures r.parent == t.parent && x in r.symbols
  {
    SymbolTable(t.symbols[x := ty], t.parent)
  }

  /** `SymbolTable.with_globals()`: a root table holding `print(x: any)`. */
  function Globals(): (t: SymbolTable)
    ensures t.parent.None? && t.symbols.Keys == {"print"}
  {
    SymbolTable(map["print" := FunctionType([Labeled("x", Any)], Void)], None)
  }

  /** `has` answers whether `get` finds a binding. */
  lemma {:induction false} HasIffGet(t: SymbolTable, x: string)
    ensures Has(t, x) <==> Get(t, x).Some?
    decreases t
  {
    if x !in t.symbols && t.parent.Some? {
      HasIffGet(t.parent.value, x);
    }
  }

  /** After `put`, `get` finds the new binding, and every other name is
      looked up as before. */
  lemma PutThenGet(t: SymbolTable, x: string, ty: VType, y: string)
    ensures Get(Put(t, x, ty), y) == if y == x then Some(ty) else Get(t, y)
  {
  }

  /** Lookup in a fresh child is lookup in its parent. */
  lemma ChildGet(t: SymbolTable, x: string)
    ensures Get(Child(t), x) == Get(t, x)
  {
  }

  /** The global table resolves `print` and nothing else. */
  lemma GlobalsGet(x: string)
    ensures Get(Globals(), x) == if x == "print" then Some(FunctionType([Labeled("x", Any)], Void)) else None
  {
  }

  // ---------------------------------------------------------------------
  // Types

  /** `are_types_compatible`: `any` accepts every type, anything else only
      itself. */
  predicate Compatible(expected: VType, actual: VType) {
    expected == Any || expected == actual
  }

  /** Compatibility is a preorder with `any` on top. */
  lemma CompatiblePreorder(a: VType, b: VType, c: VType)
    ensures Compatible(a, a)
    ensures Compatible(a, b) && Compatible(b, c) ==> Compatible(a, c)
    ensures Compatible(Any, a)
    ensures Compatible(a, b) && Compatible(b, a) ==> a == b
    ensures a != Any ==> (Compatible(a, b) <==> a == b)
  {
  }

  /** `type_to_string`. */
  function TypeToString(t: VType): (s: string)
    decreases t, 1
  {
    match t
    case Atomic(atom) => atom
    case ListType(item) => "list<" + TypeToString(item) + ">"
    case FunctionType(ps, rt) =>
      if ps == [] then "fn<" + TypeToString(rt) + ">"
      else "fn<" + Join(LabeledStrings(ps), ", ") + ", " + TypeToString(rt) + ">"
    case MapType(k, v) => "map<" + TypeToString(k) + ", " + TypeToString(v) + ">"
    case StructType(name, _) => name
  }

  /** The parameter types of a function, each shown by its type alone. */
  function LabeledStrings(ps: seq<Labeled>): (r: seq<string>)
    ensures |r| == |ps|
    decreases ps
  {
    if ps == [] then [] else [TypeToString(ps[0].vtype)] + LabeledStrings(ps[1..])
  }

  /** A type's string starts with a marker of its kind, so types of
      different kinds never print alike unless one is a struct or atomic
      name that mimics the other. */
  lemma TypeToStringShapes(t: VType)
    ensures t.ListType? ==> IsPrefix("list<", TypeToString(t))
    ensures t.MapType? ==> IsPrefix("map<", TypeToString(t))
    ensures t.FunctionType? ==> IsPrefix("fn<", TypeToString(t))
    ensures !t.Atomic? && !t.StructType? ==> TypeToString(t)[|TypeToString(t)| - 1] == '>'
  {
  }

  /** `resolve_type`: `boolean`, `integer` and `string` by name;
      `map<K, V>` and `list<T>` with their parameter counts checked. */
  function ResolveType(te: TypeExpr, v: Variant): (r: Result<VType, CheckError>)
    ensures te.TypeName? ==> (r.Ok? <==> te.name in {"boolean", "integer", "string"})
    ensures r.Ok? ==> !r.value.FunctionType? && !r.value.StructType? && r.value != Any && r.value != Void
    decreases te
  {
    match te
    case TypeName(name) =>
      if name in {"boolean", "integer", "string"} then Ok(Atomic(name))
      else Err(VeniceError("unknown type: " + name))
    case ParameterizedType(name, ps) =>
      if name == "map" then
        if |ps| != 2 then Err(VeniceError("map type requires exactly 2 parameters"))
        else
          var k :- ResolveType(ps[0], v);
          var val :- ResolveType(ps[1], v);
          Ok(MapType(k, val))
      else if name == "list" then
        if |ps| != 1 then Err(VeniceError("list type requires exactly 1 parameter"))
        else
          var item :- ResolveType(ps[0], v);
          Ok(ListType(item))
      else if v == AsWritten then Err(PythonException("ValueError"))
      else Err(VeniceError(name + " cannot be parameterized"))
  }

  /** Resolved types are exactly the type expressions the grammar of types
      names: resolving the printed form gives the type back. */
  function TypeSyntax(t: VType): (te: TypeExpr)
    requires Resolvable(t)
    decreases t
  {
    match t
    case Atomic(atom) => TypeName(atom)
    case ListType(item) => ParameterizedType("list", [TypeSyntax(item)])
    case MapType(k, v) => ParameterizedType("map", [TypeSyntax(k), TypeSyntax(v)])
  }

  /** The types `resolve_type` can produce. */
  predicate Resolvable(t: VType)
    decreases t
  {
    match t
    case Atomic(atom) => atom in {"boolean", "integer", "string"}
    case ListType(item) => Resolvable(item)
    case MapType(k, v) => Resolvable(k) && Resolvable(v)
    case _ => false
  }

  lemma {:induction false} ResolveTypeSyntax(t: VType, v: Variant)
    requires Resolvable(t)
    ensures ResolveType(TypeSyntax(t), v) == Ok(t)
    decreases t
  {
    match t
    case Atomic(_) =>
    case ListType(item) => ResolveTypeSyntax(item, v);
    case MapType(k, val) => ResolveTypeSyntax(k, v); ResolveTypeSyntax(val, v);
  }

  lemma {:induction false} ResolvedIsResolvable(te: TypeExpr, v: Variant)
    ensures ResolveType(te, v).Ok? ==> Resolvable(ResolveType(te, v).value)
    decreases te
  {
    match te
    case TypeName(_) =>
    case ParameterizedType(name, ps) =>
      if |ps| == 2 { ResolvedIsResolvable(ps[0], v); ResolvedIsResolvable(ps[1], v); }
      if |ps| == 1 { ResolvedIsResolvable(ps[0], v); }
  }

  /** The types of a parameter or field list, in order; the first failure
      is the result. */
  function ResolveParams(ps: seq<Param>, v: Variant): (r: Result<seq<Labeled>, CheckError>)
    ensures r.Ok? ==> |r.value| == |ps|
    ensures r.Ok? ==> forall i :: 0 <= i < |ps| ==> r.value[i].name == ps[i].name
    ensures r.Ok? <==> forall i :: 0 <= i < |ps| ==> ResolveType(ps[i].paramType, v).Ok?
  {
    if ps == [] then Ok([])
    else
      var t :- ResolveType(ps[0].paramType, v);
      var rest :- ResolveParams(ps[1..], v);
      assert forall i :: 1 <= i < |ps| ==> ps[i] == ps[1..][i - 1];
      Ok([Labeled(ps[0].name, t)] + rest)
  }

  // ---------------------------------------------------------------------
  // Expressions

  /** The operators whose result is boolean. */
  const Comparisons: set<string> := {">=", "<=", ">", "<", "==", "!="}

  /** `vassert`: the expression checks, with a type `expected` accepts. */
  function CheckAgainst(e: Expr, t: SymbolTable, expected: VType, v: Variant): (r: Result<VType, CheckError>)
    ensures r.Ok? <==> CheckExpr(e, t, v).Ok? && Compatible(expected, CheckExpr(e, t, v).value)
    ensures r.Ok? ==> r.value == CheckExpr(e, t, v).value
    decreases e, 2
  {
    var actual :- CheckExpr(e, t, v);
    if Compatible(expected, actual) then Ok(actual)
    else Err(VeniceError("expected " + TypeToString(expected) + ", got " + TypeToString(actual)))
  }

  /** `vcheck_expression`: the type of `e` in `t`. */
  function CheckExpr(e: Expr, t: SymbolTable, v: Variant): (r: Result<VType, CheckError>)
    ensures e.Symbol? ==> (r.Ok? <==> Has(t, e.name))
    ensures r.Ok? && (e.Infix? || e.Prefix?) ==> r.value == Integer || r.value == Boolean
    ensures r.Ok? && e.List? ==> e.values != [] && r.value.ListType?
    ensures r.Ok? && e.Map? ==> e.pairs != [] && r.value.MapType?
    ensures e.KeywordArgument? || e.Assign? ==> r.Err?
    decreases e, 1
  {
    match e
    case Symbol(x) =>
      HasIffGet(t, x);
      if Get(t, x).Some? then Ok(Get(t, x).value) else Err(VeniceError("undefined symbol: " + x))
    case Infix(op, left, right) =>
      var _ :- CheckAgainst(left, t, Integer, v);
      var _ :- CheckAgainst(right, t, Integer, v);
      Ok(if op in Comparisons then Boolean else Integer)
    case Prefix(op, operand) =>
      if op == "not" then
        var _ :- CheckAgainst(operand, t, Boolean, v);
        Ok(Boolean)
      else
        var _ :- CheckAgainst(operand, t, Integer, v);
        Ok(Integer)
    case Call(callee, arguments) =>
      var ft :- CheckExpr(callee, t, v);
      if ft.FunctionType? then
        if |ft.parameters| != |arguments| then
          Err(VeniceError("expected " + NatToString(|ft.parameters|) + " arguments, got " + NatToString(|arguments|)))
        else
          var _ :- CheckArguments(ft.parameters, arguments, t, v);
          Ok(ft.returnType)
      else if ft.StructType? then
        var _ :- CheckFieldArguments(ft.fields, arguments, t, v);
        Ok(ft)
      else Err(VeniceError(TypeToString(ft) + " is not a function type"))
    case List(values) =>
      if values == [] then Err(PythonException("IndexError"))
      else
        var item :- CheckExpr(values[0], t, v);
        var _ :- CheckItems(item, values[1..], t, v);
        Ok(ListType(item))
    case Literal(value) =>
      LiteralType(value)
    case Index(list, index) =>
      var lt :- CheckExpr(list, t, v);
      var it :- CheckExpr(index, t, v);
      IndexType(lt, it)
    case Map(pairs) =>
      if pairs == [] then Err(PythonException("IndexError"))
      else
        var kt :- CheckExpr(pairs[0].key, t, v);
        var vt :- CheckExpr(pairs[0].value, t, v);
        var _ :- CheckPairs(kt, vt, pairs[1..], t, v);
        Ok(MapType(kt, vt))
    case FieldAccess(record, field) =>
      var st :- CheckExpr(record, t, v);
      FieldType(st, field)
    case KeywordArgument(_, _) => Err(VeniceError("unknown AST expression type: KeywordArgument"))
    case Assign(_, _) => Err(VeniceError("unknown AST expression type: Assign"))
  }

  /** The type of a literal: by the Python class of its value. */
  function LiteralType(value: LiteralValue): (r: Result<VType, CheckError>)
    ensures r.Ok? <==> !value.UnclosedValue?
  {
    match value
    case StrValue(_) => Ok(StringType)
    case BoolValue(_) => Ok(Boolean)
    case IntValue(_) => Ok(Integer)
    case UnclosedValue(_) => Err(VeniceError("unknown ast.Literal type: Token"))
  }

  /** The type of indexing a value of type `lt` with one of type `it`. */
  function IndexType(lt: VType, it: VType): (r: Result<VType, CheckError>)
    ensures r.Ok? <==> (lt.ListType? && it == Integer) || (lt.MapType? && Compatible(lt.key, it))
    ensures r.Ok? ==> r.value == if lt.ListType? then lt.item else lt.value
  {
    if lt.ListType? then
      if it != Integer then Err(VeniceError("index expression must be of integer type, not " + TypeToString(it)))
      else Ok(lt.item)
    else if lt.MapType? then
      if !Compatible(lt.key, it) then
        Err(VeniceError("expected " + TypeToString(lt.key) + " for map key, got " + TypeToString(it)))
      else Ok(lt.value)
    else Err(VeniceError(TypeToString(lt) + " is not a list type"))
  }

  /** The type of field `f` of a value of type `st`: the first field of
      that label. */
  function FieldType(st: VType, f: string): (r: Result<VType, CheckError>)
    ensures r.Ok? <==> st.StructType? && exists i :: 0 <= i < |st.fields| && st.fields[i].name == f
    ensures r.Ok? ==> exists i :: 0 <= i < |st.fields| && st.fields[i] == Labeled(f, r.value)
  {
    if !st.StructType? then Err(VeniceError("expected struct type, got " + TypeToString(st)))
    else match FirstField(st.fields, f)
      case Some(ty) => Ok(ty)
      case None => Err(VeniceError(TypeToString(st) + " does not have field: " + f))
  }

  /** The type of the first field labelled `f`. */
  function FirstField(fields: seq<Labeled>, f: string): (r: Option<VType>)
    ensures r.Some? <==> exists i :: 0 <= i < |fields| && fields[i].name == f
    ensures r.Some? ==> exists i :: 0 <= i < |fields| && fields[i] == Labeled(f, r.value) && (forall j :: 0 <= j < i ==> fields[j].name != f)
  {
    if fields == [] then None
    else if fields[0].name == f then Some(fields[0].vtype)
    else
      var r := FirstField(fields[1..], f);
      assert forall i :: 1 <= i < |fields| ==> fields[i] == fields[1..][i - 1];
      if r.Some? then
        var i :| 0 <= i < |fields[1..]| && fields[1..][i] == Labeled(f, r.value) && (forall j :: 0 <= j < i ==> fields[1..][j].name != f);
        assert fields[i + 1] == Labeled(f, r.value);
        r
      else r
  }

  /** The arguments of a call to a function: each, or the value of a
      keyword argument (its label is not looked at), against the parameter
      in the same position. */
  function CheckArguments(ps: seq<Labeled>, args: seq<Expr>, t: SymbolTable, v: Variant): (r: Result<(), CheckError>)
    requires |ps| == |args|
    decreases args, 0
  {
    if args == [] then Ok(())
    else
      var _ :- CheckAgainst(if args[0].KeywordArgument? then args[0].value else args[0], t, ps[0].vtype, v);
      CheckArguments(ps[1..], args[1..], t, v)
  }

  /** The arguments of a struct constructor, paired with the fields as
      `zip` pairs them: up to the shorter of the two. */
  function CheckFieldArguments(fields: seq<Labeled>, args: seq<Expr>, t: SymbolTable, v: Variant): (r: Result<(), CheckError>)
    decreases args, 0
  {
    if args == [] || fields == [] then Ok(())
    else if !args[0].KeywordArgument? then Err(VeniceError("struct constructor only accepts keyword arguments"))
    else if args[0].keyword != fields[0].name then
      Err(VeniceError(LabelMismatch(fields[0].name, args[0].keyword, v)))
    else
      var _ :- CheckAgainst(args[0].value, t, fields[0].vtype, v);
      CheckFieldArguments(fields[1..], args[1..], t, v)
  }

  /** The message for a keyword argument of the wrong label. As written the
      second half is a plain string, so it shows the braces, not the label. */
  function LabelMismatch(expected: string, actual: string, v: Variant): (m: string)
    ensures IsPrefix("expected keyword argument " + expected + ", got ", m)
  {
    var head := "expected keyword argument " + expected + ", got ";
    if v == AsWritten then head + "{argument.label}" else head + actual
  }

  /** The items of a list literal after the first, against the first's type. */
  function CheckItems(item: VType, values: seq<Expr>, t: SymbolTable, v: Variant): (r: Result<(), CheckError>)
    decreases values, 0
  {
    if values == [] then Ok(())
    else
      var another :- CheckExpr(values[0], t, v);
      if !Compatible(item, another) then
        Err(VeniceError("list contains items of multiple types: " + TypeToString(item) + " and " + TypeToString(another)))
      else CheckItems(item, values[1..], t, v)
  }

  /** The pairs of a map literal after the first: both halves are checked
      before either is compared. */
  function CheckPairs(kt: VType, vt: VType, pairs: seq<Pair>, t: SymbolTable, v: Variant): (r: Result<(), CheckError>)
    decreases pairs, 0
  {
    if pairs == [] then Ok(())
    else
      var pair := pairs[0];
      assert pair.key < pair && pair.value < pair;
      var k :- CheckExpr(pair.key, t, v);
      var val :- CheckExpr(pair.value, t, v);
      if !Compatible(kt, k) then
        Err(VeniceError("map contains keys of multiple types: " + TypeToString(kt) + " and " + TypeToString(k)))
      else if !Compatible(vt, val) then
        Err(VeniceError("map contains values of multiple types: " + TypeToString(vt) + " and " + TypeToString(val)))
      else CheckPairs(kt, vt, pairs[1..], t, v)
  }

  // ---------------------------------------------------------------------
  // Statements

  /** The return type handed to the blocks of `if`, `while` and `for`: as
      written none, so a `return` there is outside any function. */
  function NestedReturn(ret: Option<VType>, v: Variant): Option<VType> {
    if v == AsWritten then None else ret
  }

  /** The table a function body is checked in, and the table the
      statements after the function see. As written the parameters go into
      the enclosing table, which is also the body's parent. */
  function FunctionTables(t: SymbolTable, name: string, ps: seq<Labeled>, ret: VType, v: Variant): (r: (SymbolTable, SymbolTable))
  {
    var declared := Put(t, name, FunctionType(ps, ret));
    if v == AsWritten then
      var outer := PutAll(declared, ps);
      (Child(outer), outer)
    else (PutAll(Child(declared), ps), declared)
  }

  /** Binds every label to its type, in order. */
  function PutAll(t: SymbolTable, ps: seq<Labeled>): (r: SymbolTable)
    ensures r.parent == t.parent && t.symbols.Keys <= r.symbols.Keys
    decreases |ps|
  {
    if ps == [] then t else PutAll(Put(t, ps[0].name, ps[0].vtype), ps[1..])
  }

  /** `vcheck_statement`: the table after `s`, with `ret` the enclosing
      function's return type. */
  function CheckStmt(s: Stmt, t: SymbolTable, ret: Option<VType>, v: Variant): (r: Result<SymbolTable, CheckError>)
    ensures r.Ok? ==> r.value.parent == t.parent && t.symbols.Keys <= r.value.symbols.Keys
    decreases s, 1
  {
    match s
    case Function(name, params, returnType, body) =>
      var ps :- ResolveParams(params, v);
      var rt :- ResolveType(returnType, v);
      var (inner, outer) := FunctionTables(t, name, ps, rt, v);
      var _ :- CheckBlock(body, inner, Some(rt), v);
      Ok(outer)
    case Return(value) =>
      if ret.None? then Err(VeniceError("return statement outside of function"))
      else
        var actual :- CheckExpr(value, t, v);
        if !Compatible(ret.value, actual) then
          Err(VeniceError("expected return type of " + TypeToString(ret.value) + ", got " + TypeToString(actual)))
        else Ok(t)
    case If(clauses, elseClause) =>
      var t1 :- CheckClauses(clauses, t, NestedReturn(ret, v), v);
      (match elseClause
       case Else(block) => CheckBlock(block, t1, NestedReturn(ret, v), v)
       case NoElse => Ok(t1))
    case Let(name, value) =>
      var ty :- CheckExpr(value, t, v);
      Ok(Put(t, name, ty))
    case Assignment(target, value) =>
      var key :- AssignmentKey(target);
      if Get(t, key).None? then Err(VeniceError("assignment to undefined variable: " + ExprRepr(target)))
      else
        var _ :- CheckAgainst(value, t, Get(t, key).value, v);
        Ok(t)
    case While(condition, body) =>
      var _ :- CheckAgainst(condition, t, Boolean, v);
      CheckBlock(body, t, NestedReturn(ret, v), v)
    case For(x, iterable, body) =>
      var it :- CheckExpr(iterable, t, v);
      if !it.ListType? then Err(VeniceError("loop iterator must be list"))
      else
        var _ :- CheckBlock(body, Put(Child(t), x, it.item), NestedReturn(ret, v), v);
        Ok(t)
    case ExpressionStatement(value) =>
      var _ :- CheckExpr(value, t, v);
      Ok(t)
    case StructDeclaration(name, fields) =>
      var fs :- ResolveParams(fields, v);
      Ok(Put(t, name, StructType(name, fs)))
  }

  /** The name an assignment looks up: the `label` of its target. A symbol
      and a keyword argument have a string label; an assignment's label is
      a node, which cannot be a dictionary key; other nodes have none. */
  function AssignmentKey(target: Expr): (r: Result<string, CheckError>)
    ensures target.Symbol? ==> r == Ok(target.name)
    ensures r.Ok? <==> target.Symbol? || target.KeywordArgument?
  {
    match target
    case Symbol(x) => Ok(x)
    case KeywordArgument(k, _) => Ok(k)
    case Assign(_, _) => Err(PythonException("TypeError"))
    case _ => Err(PythonException("AttributeError"))
  }

  /** The clauses of an `if`: each condition boolean, each block checked in
      the same table. */
  function CheckClauses(clauses: seq<IfClause>, t: SymbolTable, ret: Option<VType>, v: Variant): (r: Result<SymbolTable, CheckError>)
    ensures r.Ok? ==> r.value.parent == t.parent && t.symbols.Keys <= r.value.symbols.Keys
    decreases clauses, 0
  {
    if clauses == [] then Ok(t)
    else
      var _ :- CheckAgainst(clauses[0].condition, t, Boolean, v);
      var t1 :- CheckBlock(clauses[0].statements, t, ret, v);
      CheckClauses(clauses[1..], t1, ret, v)
  }

  /** `vcheck_block`: the statements in order, each seeing the table the
      one before left. */
  function CheckBlock(ss: seq<Stmt>, t: SymbolTable, ret: Option<VType>, v: Variant): (r: Result<SymbolTable, CheckError>)
    ensures r.Ok? ==> r.value.parent == t.parent && t.symbols.Keys <= r.value.symbols.Keys
    decreases ss, 0
  {
    if ss == [] then Ok(t)
    else
      var t1 :- CheckStmt(ss[0], t, ret, v);
      CheckBlock(ss[1..], t1, ret, v)
  }

  /** `vcheck`: a program checks in the global table. */
  function Check(p: Program, v: Variant): (r: Result<SymbolTable, CheckError>)
    ensures r.Ok? ==> r.value.parent.None? && "print" in r.value.symbols
  {
    CheckBlock(p.statements, Globals(), None, v)
  }

  // ---------------------------------------------------------------------
  // Properties

  /** Labels of a parameter list. */
  function Names(ps: seq<Labeled>): (r: set<string>)
    ensures forall i :: 0 <= i < |ps| ==> ps[i].name in r
    ensures forall x :: x in r ==> exists i :: 0 <= i < |ps| && ps[i].name == x
  {
    set i | 0 <= i < |ps| :: ps[i].name
  }

  /** Binding a list leaves every name outside it as it was. */
  lemma {:induction false} PutAllOther(t: SymbolTable, ps: seq<Labeled>, x: string)
    requires x !in Names(ps)
    ensures Get(PutAll(t, ps), x) == Get(t, x)
    decreases |ps|
  {
    if ps != [] {
      assert forall i :: 1 <= i < |ps| ==> ps[1..][i - 1] == ps[i];
      PutAllOther(Put(t, ps[0].name, ps[0].vtype), ps[1..], x);
      PutThenGet(t, ps[0].name, ps[0].vtype, x);
    }
  }

  /** With distinct labels, each label is bound to its own type. */
  lemma {:induction false} PutAllBinds(t: SymbolTable, ps: seq<Labeled>, i: nat)
    requires i < |ps|
    requires forall j, k :: 0 <= j < k < |ps| ==> ps[j].name != ps[k].name
    ensures Get(PutAll(t, ps), ps[i].name) == Some(ps[i].vtype)
    decreases |ps|
  {
    var t1 := Put(t, ps[0].name, ps[0].vtype);
    assert forall j :: 1 <= j < |ps| ==> ps[1..][j - 1] == ps[j];
    if i == 0 {
      assert ps[0].name !in Names(ps[1..]);
      PutAllOther(t1, ps[1..], ps[0].name);
      PutThenGet(t, ps[0].name, ps[0].vtype, ps[0].name);
    } else {
      PutAllBinds(t1, ps[1..], i - 1);
    }
  }

  /** A function is bound before its body is checked, so the body can call
      it (unless a parameter of the same name hides it). */
  lemma FunctionVisibleInBody(t: SymbolTable, name: string, ps: seq<Labeled>, rt: VType, v: Variant)
    requires name !in Names(ps)
    ensures Get(FunctionTables(t, name, ps, rt, v).0, name) == Some(FunctionType(ps, rt))
  {
    var declared := Put(t, name, FunctionType(ps, rt));
    PutThenGet(t, name, FunctionType(ps, rt), name);
    if v == AsWritten {
      PutAllOther(declared, ps, name);
      ChildGet(PutAll(declared, ps), name);
    } else {
      PutAllOther(Child(declared), ps, name);
      ChildGet(declared, name);
    }
  }

  /** The body sees each parameter at its declared type. */
  lemma ParametersVisibleInBody(t: SymbolTable, name: string, ps: seq<Labeled>, rt: VType, v: Variant, i: nat)
    requires i < |ps|
    requires forall j, k :: 0 <= j < k < |ps| ==> ps[j].name != ps[k].name
    ensures Get(FunctionTables(t, name, ps, rt, v).0, ps[i].name) == Some(ps[i].vtype)
  {
    var declared := Put(t, name, FunctionType(ps, rt));
    if v == AsWritten {
      PutAllBinds(declared, ps, i);
      ChildGet(PutAll(declared, ps), ps[i].name);
    } else {
      PutAllBinds(Child(declared), ps, i);
    }
  }

  /** As written, a parameter stays bound after its function: the code
      after the declaration sees it. */
  lemma ParametersLeakAsWritten(t: SymbolTable, name: string, ps: seq<Labeled>, rt: VType, i: nat)
    requires i < |ps|
    requires forall j, k :: 0 <= j < k < |ps| ==> ps[j].name != ps[k].name
    ensures Get(FunctionTables(t, name, ps, rt, AsWritten).1, ps[i].name) == Some(ps[i].vtype)
  {
    PutAllBinds(Put(t, name, FunctionType(ps, rt)), ps, i);
  }

  /** Corrected, a function declaration binds its name and changes nothing
      else the following statements can see. */
  lemma FunctionDeclarationScoped(t: SymbolTable, name: string, ps: seq<Labeled>, rt: VType, x: string)
    ensures Get(FunctionTables(t, name, ps, rt, Corrected).1, x)
      == if x == name then Some(FunctionType(ps, rt)) else Get(t, x)
  {
    PutThenGet(t, name, FunctionType(ps, rt), x);
  }

  /** A checked function declaration leaves its name bound to its type
      when no parameter shares that name. */
  lemma FunctionStatement(s: Stmt, t: SymbolTable, ret: Option<VType>, v: Variant)
    requires s.Function? && CheckStmt(s, t, ret, v).Ok?
    ensures ResolveParams(s.parameters, v).Ok? && ResolveType(s.returnType, v).Ok?
    ensures var ps := ResolveParams(s.parameters, v).value;
      s.name !in Names(ps) ==>
        Get(CheckStmt(s, t, ret, v).value, s.name) == Some(FunctionType(ps, ResolveType(s.returnType, v).value))
  {
    var ps := ResolveParams(s.parameters, v).value;
    var rt := ResolveType(s.returnType, v).value;
    if s.name !in Names(ps) {
      PutThenGet(t, s.name, FunctionType(ps, rt), s.name);
      if v == AsWritten {
        PutAllOther(Put(t, s.name, FunctionType(ps, rt)), ps, s.name);
      }
    }
  }

  /** `return` outside a function is an error, whatever it returns. */
  lemma ReturnOutsideFunction(e: Expr, t: SymbolTable, v: Variant)
    ensures CheckStmt(Return(e), t, None, v) == Err(VeniceError("return statement outside of function"))
  {
  }

  /** Inside a function, `return e` checks exactly when `e` does, with a
      type the return type accepts; it binds nothing. */
  lemma ReturnInsideFunction(e: Expr, t: SymbolTable, rt: VType, v: Variant)
    ensures CheckStmt(Return(e), t, Some(rt), v).Ok?
      <==> CheckExpr(e, t, v).Ok? && Compatible(rt, CheckExpr(e, t, v).value)
    ensures CheckStmt(Return(e), t, Some(rt), v).Ok? ==> CheckStmt(Return(e), t, Some(rt), v).value == t
  {
  }

  /** As written, a `return` inside an `if` in a function is reported as
      outside any function. */
  lemma NestedReturnRejectedAsWritten(c: Expr, e: Expr, t: SymbolTable, rt: VType)
    requires CheckExpr(c, t, AsWritten) == Ok(Boolean)
    ensures CheckStmt(If([IfClause(c, [Return(e)])], NoElse), t, Some(rt), AsWritten)
      == Err(VeniceError("return statement outside of function"))
  {
    var s := If([IfClause(c, [Return(e)])], NoElse);
    assert CheckBlock([Return(e)], t, None, AsWritten) == Err(VeniceError("return statement outside of function"));
    assert CheckClauses([IfClause(c, [Return(e)])], t, None, AsWritten) == Err(VeniceError("return statement outside of function"));
  }

  /** Corrected, the same `return` is checked against the function's
      return type. */
  lemma NestedReturnChecked(c: Expr, e: Expr, t: SymbolTable, rt: VType)
    requires CheckExpr(c, t, Corrected) == Ok(Boolean)
    ensures CheckStmt(If([IfClause(c, [Return(e)])], NoElse), t, Some(rt), Corrected).Ok?
      <==> CheckExpr(e, t, Corrected).Ok? && Compatible(rt, CheckExpr(e, t, Corrected).value)
  {
    ReturnInsideFunction(e, t, rt, Corrected);
    assert CheckBlock([Return(e)], t, Some(rt), Corrected) == CheckStmt(Return(e), t, Some(rt), Corrected);
    assert CheckClauses([IfClause(c, [Return(e)])], t, Some(rt), Corrected)
      == CheckBlock([Return(e)], t, Some(rt), Corrected);
  }

  /** Assigning to a name no table binds is an error naming the target. */
  lemma AssignUndefined(x: string, value: Expr, t: SymbolTable, v: Variant)
    requires Get(t, x).None?
    ensures CheckStmt(Assignment(Symbol(x), value), t, None, v)
      == Err(VeniceError("assignment to undefined variable: " + ExprRepr(Symbol(x))))
  {
  }

  /** Assigning to a bound name checks the value against the name's type
      and binds nothing. */
  lemma AssignBound(x: string, value: Expr, t: SymbolTable, ret: Option<VType>, v: Variant)
    requires Get(t, x).Some?
    ensures CheckStmt(Assignment(Symbol(x), value), t, ret, v).Ok?
      <==> CheckExpr(value, t, v).Ok? && Compatible(Get(t, x).value, CheckExpr(value, t, v).value)
    ensures CheckStmt(Assignment(Symbol(x), value), t, ret, v).Ok? ==> CheckStmt(Assignment(Symbol(x), value), t, ret, v).value == t
  {
  }

  /** `let` binds the name to the value's type in the current table. */
  lemma LetBinds(x: string, value: Expr, t: SymbolTable, ret: Option<VType>, v: Variant, y: string)
    ensures CheckStmt(Let(x, value), t, ret, v).Ok? <==> CheckExpr(value, t, v).Ok?
    ensures CheckStmt(Let(x, value), t, ret, v).Ok? ==>
      Get(CheckStmt(Let(x, value), t, ret, v).value, y) == if y == x then Some(CheckExpr(value, t, v).value) else Get(t, y)
  {
    if CheckExpr(value, t, v).Ok? {
      PutThenGet(t, x, CheckExpr(value, t, v).value, y);
    }
  }

  /** A `for` needs a list; its body is checked in a child table that binds
      the loop variable to the item type, and nothing it binds survives. */
  lemma ForLoop(x: string, iterable: Expr, body: seq<Stmt>, t: SymbolTable, ret: Option<VType>, v: Variant)
    ensures var r := CheckStmt(For(x, iterable, body), t, ret, v);
      && (CheckExpr(iterable, t, v).Ok? && !CheckExpr(iterable, t, v).value.ListType? ==> r == Err(VeniceError("loop iterator must be list")))
      && (r.Ok? <==> (CheckExpr(iterable, t, v).Ok? && CheckExpr(iterable, t, v).value.ListType?
                      && CheckBlock(body, Put(Child(t), x, CheckExpr(iterable, t, v).value.item), NestedReturn(ret, v), v).Ok?))
      && (r.Ok? ==> r.value == t)
  {
  }

  /** The loop variable is bound to the item type in the loop's table. */
  lemma LoopVariableBound(x: string, item: VType, t: SymbolTable, y: string)
    ensures Get(Put(Child(t), x, item), y) == if y == x then Some(item) else Get(t, y)
  {
    PutThenGet(Child(t), x, item, y);
    ChildGet(t, y);
  }

  /** Infix operands must both be integers; comparisons give a boolean,
      every other operator an integer. */
  lemma InfixRule(op: string, left: Expr, right: Expr, t: SymbolTable, v: Variant)
    ensures var r := CheckExpr(Infix(op, left, right), t, v);
      && (r.Ok? <==> CheckExpr(left, t, v) == Ok(Integer) && CheckExpr(right, t, v) == Ok(Integer))
      && (r.Ok? ==> r.value == if op in Comparisons then Boolean else Integer)
  {
  }

  /** Prefix `not` needs a boolean and gives one; any other prefix needs
      and gives an integer. */
  lemma PrefixRule(op: string, operand: Expr, t: SymbolTable, v: Variant)
    ensures var want := if op == "not" then Boolean else Integer;
      var r := CheckExpr(Prefix(op, operand), t, v);
      (r.Ok? <==> CheckExpr(operand, t, v) == Ok(want)) && (r.Ok? ==> r.value == want)
  {
  }

  /** A function call with the wrong number of arguments is reported with
      both counts. */
  lemma CallArity(callee: Expr, args: seq<Expr>, t: SymbolTable, v: Variant)
    requires CheckExpr(callee, t, v).Ok? && CheckExpr(callee, t, v).value.FunctionType?
    requires |CheckExpr(callee, t, v).value.parameters| != |args|
    ensures CheckExpr(Call(callee, args), t, v) == Err(VeniceError(
      "expected " + NatToString(|CheckExpr(callee, t, v).value.parameters|) + " arguments, got " + NatToString(|args|)))
  {
  }

  /** Every argument of a checked call has a type its parameter accepts. */
  lemma {:induction false} ArgumentsCompatible(ps: seq<Labeled>, args: seq<Expr>, t: SymbolTable, v: Variant, i: nat)
    requires |ps| == |args| && i < |args|
    requires CheckArguments(ps, args, t, v).Ok?
    ensures var a := if args[i].KeywordArgument? then args[i].value else args[i];
      CheckExpr(a, t, v).Ok? && Compatible(ps[i].vtype, CheckExpr(a, t, v).value)
    decreases |args|
  {
    if i > 0 {
      ArgumentsCompatible(ps[1..], args[1..], t, v, i - 1);
    }
  }

  /** A checked struct construction names the fields position by position,
      up to the shorter of the two lists, each value of the field's type. */
  lemma {:induction false} StructArgumentsByPosition(fields: seq<Labeled>, args: seq<Expr>, t: SymbolTable, v: Variant, i: nat)
    requires i < |fields| && i < |args|
    requires CheckFieldArguments(fields, args, t, v).Ok?
    ensures args[i].KeywordArgument? && args[i].keyword == fields[i].name
    ensures CheckExpr(args[i].value, t, v).Ok? && Compatible(fields[i].vtype, CheckExpr(args[i].value, t, v).value)
    decreases |args|
  {
    if i > 0 {
      StructArgumentsByPosition(fields[1..], args[1..], t, v, i - 1);
    }
  }

  /** A call of a struct type builds that struct; extra arguments beyond the
      fields, or missing ones, go unnoticed. */
  lemma StructCallType(callee: Expr, args: seq<Expr>, t: SymbolTable, v: Variant)
    requires CheckExpr(callee, t, v).Ok? && CheckExpr(callee, t, v).value.StructType?
    ensures CheckExpr(Call(callee, args), t, v).Ok?
      <==> CheckFieldArguments(CheckExpr(callee, t, v).value.fields, args, t, v).Ok?
    ensures CheckExpr(Call(callee, args), t, v).Ok? ==> CheckExpr(Call(callee, args), t, v).value == CheckExpr(callee, t, v).value
  {
  }

  /** As written the label message does not depend on the label given. */
  lemma LabelMessageAsWritten(expected: string, a: string, b: string)
    ensures LabelMismatch(expected, a, AsWritten) == LabelMismatch(expected, b, AsWritten)
    ensures IsSuffix("{argument.label}", LabelMismatch(expected, a, AsWritten))
  {
    var head := "expected keyword argument " + expected + ", got ";
    var m := head + "{argument.label}";
    assert LabelMismatch(expected, a, AsWritten) == m;
    assert m[|head|..] == "{argument.label}";
  }

  /** Corrected, the message ends with the label given, so different
      labels give different messages. */
  lemma LabelMessageCorrected(expected: string, a: string, b: string)
    ensures IsSuffix(a, LabelMismatch(expected, a, Corrected))
    ensures a != b ==> LabelMismatch(expected, a, Corrected) != LabelMismatch(expected, b, Corrected)
  {
  }

  /** As written, parameters on a name other than `map` or `list` escape
      as a Python `ValueError`. */
  lemma UnknownParameterizedAsWritten(name: string, ps: seq<TypeExpr>)
    requires name != "map" && name != "list"
    ensures ResolveType(ParameterizedType(name, ps), AsWritten) == Err(PythonException("ValueError"))
  {
  }

  /** Corrected, they are a checker error naming the type. */
  lemma UnknownParameterizedCorrected(name: string, ps: seq<TypeExpr>)
    requires name != "map" && name != "list"
    ensures ResolveType(ParameterizedType(name, ps), Corrected) == Err(VeniceError(name + " cannot be parameterized"))
  {
  }

  /** Indexing: a list by an integer gives its item type, a map by a key
      its key type accepts gives its value type. */
  lemma IndexRule(list: Expr, index: Expr, t: SymbolTable, v: Variant)
    ensures var r := CheckExpr(Index(list, index), t, v);
      var lt := CheckExpr(list, t, v);
      var it := CheckExpr(index, t, v);
      && (r.Ok? <==> (lt.Ok? && it.Ok? &&
                      ((lt.value.ListType? && it.value == Integer) || (lt.value.MapType? && Compatible(lt.value.key, it.value)))))
      && (r.Ok? ==> r.value == if lt.value.ListType? then lt.value.item else lt.value.value)
  {
  }

  /** A checked list literal's items all have a type the first one's
      accepts, and the literal has the list type of the first. */
  lemma {:induction false} ItemsCompatible(item: VType, values: seq<Expr>, t: SymbolTable, v: Variant, i: nat)
    requires i < |values| && CheckItems(item, values, t, v).Ok?
    ensures CheckExpr(values[i], t, v).Ok? && Compatible(item, CheckExpr(values[i], t, v).value)
    decreases |values|
  {
    if i > 0 {
      ItemsCompatible(item, values[1..], t, v, i - 1);
    }
  }

  /** A checked list literal is not empty, has the list type of its first
      item, and every later item has a type the first one's accepts. */
  lemma ListLiteral(values: seq<Expr>, t: SymbolTable, v: Variant)
    requires CheckExpr(List(values), t, v).Ok?
    ensures values != [] && CheckExpr(values[0], t, v).Ok?
    ensures CheckExpr(List(values), t, v).value == ListType(CheckExpr(values[0], t, v).value)
    ensures forall i :: 1 <= i < |values| ==>
      CheckExpr(values[i], t, v).Ok? && Compatible(CheckExpr(values[0], t, v).value, CheckExpr(values[i], t, v).value)
  {
    var item := CheckExpr(values[0], t, v).value;
    forall i | 1 <= i < |values|
      ensures CheckExpr(values[i], t, v).Ok? && Compatible(item, CheckExpr(values[i], t, v).value)
    {
      ItemsCompatible(item, values[1..], t, v, i - 1);
      assert values[1..][i - 1] == values[i];
    }
  }

  /** An empty list or map literal escapes as a Python `IndexError`. */
  lemma EmptyLiterals(t: SymbolTable, v: Variant)
    ensures CheckExpr(List([]), t, v) == Err(PythonException("IndexError"))
    ensures CheckExpr(Map([]), t, v) == Err(PythonException("IndexError"))
  {
  }

  /** A block is checked statement by statement: checking `a + b` is
      checking `a`, then `b` in the table `a` left. */
  lemma {:induction false} CheckBlockAppend(a: seq<Stmt>, b: seq<Stmt>, t: SymbolTable, ret: Option<VType>, v: Variant)
    ensures CheckBlock(a + b, t, ret, v)
      == match CheckBlock(a, t, ret, v) case Ok(t1) => CheckBlock(b, t1, ret, v) case Err(e) => Err(e)
    decreases |a|
  {
    if a != [] {
      assert (a + b)[0] == a[0] && (a + b)[1..] == a[1..] + b;
      match CheckStmt(a[0], t, ret, v)
      case Ok(t1) =>
        assert CheckBlock(a, t, ret, v) == CheckBlock(a[1..], t1, ret, v);
        assert CheckBlock(a + b, t, ret, v) == CheckBlock(a[1..] + b, t1, ret, v);
        CheckBlockAppend(a[1..], b, t1, ret, v);
      case Err(e) =>
        assert CheckBlock(a, t, ret, v) == Err(e);
        assert CheckBlock(a + b, t, ret, v) == Err(e);
    } else {
      assert a + b == b;
    }
  }
}

=== FILE: py_ast.dfy ===
/** The syntax tree of the first Python generation (pycompiler/ast.py), as
    its parser builds it and its analyzer and generator read it. The class
    names follow the analyzer and generator (`Symbol`, `Infix`, ...); the
    `repr()` of a node is the `attrs` one, used in one analyzer message. */
module PyAst {
  import opened Wrappers
  import opened Text
  import PyRepr

  /** The value of a literal node: a Python int, bool or str, or, for an
      unterminated string literal, the UNKNOWN token the lexer put there. */
  datatype LiteralValue = IntValue(i: int) | BoolValue(b: bool) | StrValue(s: string) | UnclosedValue(text: string)

  datatype Expr =
    | Symbol(name: string)
    | Infix(operator: string, left: Expr, right: Expr)
    | Prefix(operator: string, operand: Expr)
    | Call(callee: Expr, arguments: seq<Expr>)
    | KeywordArgument(keyword: string, value: Expr)
    | List(values: seq<Expr>)
    | Literal(literal: LiteralValue)
    | Index(list: Expr, index: Expr)
    | Map(pairs: seq<Pair>)
    | FieldAccess(record: Expr, field: string)
    | Assign(target: Expr, value: Expr)

  /** A `key: value` entry of a map literal. */
  datatype Pair = Pair(key: Expr, value: Expr)

  /** Type syntax: a name, or a name with type parameters (`map<string, integer>`). */
  datatype TypeExpr = TypeName(name: string) | ParameterizedType(name: string, parameters: seq<TypeExpr>)

  /** A function parameter or a struct field: a label and its type. */
  datatype Param = Param(name: string, paramType: TypeExpr)

  datatype IfClause = IfClause(condition: Expr, statements: seq<Stmt>)

  /** The `else` block of an `if`, when there is one. */
  datatype ElseClause = NoElse | Else(statements: seq<Stmt>)

  datatype Stmt =
    | Function(name: string, parameters: seq<Param>, returnType: TypeExpr, statements: seq<Stmt>)
    | Return(value: Expr)
    | If(clauses: seq<IfClause>, elseClause: ElseClause)
    | Let(name: string, value: Expr)
    | Assignment(target: Expr, value: Expr)
    | While(condition: Expr, statements: seq<Stmt>)
    | For(loopVariable: string, iterable: Expr, statements: seq<Stmt>)
    | ExpressionStatement(value: Expr)
    | StructDeclaration(name: string, fields: seq<Param>)

  datatype Program = Program(statements: seq<Stmt>)

  /** The class name of an expression node. */
  function ClassName(e: Expr): string {
    match e
    case Symbol(_) => "Symbol" case Infix(_, _, _) => "Infix" case Prefix(_, _) => "Prefix"
    case Call(_, _) => "Call" case KeywordArgument(_, _) => "KeywordArgument" case List(_) => "List"
    case Literal(_) => "Literal" case Index(_, _) => "Index" case Map(_) => "Map"
    case FieldAccess(_, _) => "FieldAccess" case Assign(_, _) => "Assign"
  }

  /** `repr()` of a literal's Python value. */
  function LiteralRepr(v: LiteralValue): string {
    match v
    case IntValue(i) => IntToString(i)
    case BoolValue(b) => PyRepr.BoolRepr(b)
    case StrValue(s) => PyRepr.StrRepr(s)
    case UnclosedValue(t) => "Token(type='TOKEN_UNKNOWN', value=" + PyRepr.StrRepr(t) + ")"
  }

  /** The `attrs` repr of an expression node, e.g. `Symbol(label='x')`. */
  function ExprRepr(e: Expr): (r: string)
    ensures |r| > 0
  {
    match e
    case Symbol(x) => "Symbol(label=" + PyRepr.StrRepr(x) + ")"
    case Infix(op, l, rt) => "Infix(operator=" + PyRepr.StrRepr(op) + ", left=" + ExprRepr(l) + ", right=" + ExprRepr(rt) + ")"
    case Prefix(op, v) => "Prefix(operator=" + PyRepr.StrRepr(op) + ", value=" + ExprRepr(v) + ")"
    case Call(f, args) => "Call(function=" + ExprRepr(f) + ", arguments=[" + Join(ExprReprs(e, args), ", ") + "])"
    case KeywordArgument(x, v) => "KeywordArgument(label=" + PyRepr.StrRepr(x) + ", value=" + ExprRepr(v) + ")"
    case List(vs) => "List(values=[" + Join(ExprReprs(e, vs), ", ") + "])"
    case Literal(v) => "Literal(value=" + LiteralRepr(v) + ")"
    case Index(l, i) => "Index(list=" + ExprRepr(l) + ", index=" + ExprRepr(i) + ")"
    case Map(ps) => "Map(pairs=[" + Join(PairReprs(e, ps), ", ") + "])"
    case FieldAccess(v, f) => "FieldAccess(value=" + ExprRepr(v) + ", field=Token(type='TOKEN_SYMBOL', value=" + PyRepr.StrRepr(f) + "))"
    case Assign(t, v) => "Assign(label=" + ExprRepr(t) + ", value=" + ExprRepr(v) + ")"
  }

  function ExprReprs(parent: Expr, es: seq<Expr>): (r: seq<string>)
    requires forall i :: 0 <= i < |es| ==> es[i] < parent
    ensures |r| == |es|
    decreases parent, |es|
  {
    if es == [] then [] else [ExprRepr(es[0])] + ExprReprs(parent, es[1..])
  }

  function PairReprs(parent: Expr, ps: seq<Pair>): (r: seq<string>)
    requires forall i :: 0 <= i < |ps| ==> ps[i] < parent
    ensures |r| == |ps|
    decreases parent, |ps|
  {
    if ps == [] then []
    else ["MapLiteralPair(key=" + ExprRepr(ps[0].key) + ", value=" + ExprRepr(ps[0].value) + ")"] + PairReprs(parent, ps[1..])
  }
}

=== FILE: py_generator.dfy ===
/** The Python back end of the first Python generation
    (pycompiler/generator_python.py): a checked tree back to Python text.

    The output is a sequence of lines, each an indentation depth (two spaces
    per level) and its text; `Render` writes them out. An expression kind
    the generator does not know ends generation with an error. */
module PyGenerator {
  import opened Wrappers
  import opened Text
  import opened PyAst
  import PyRepr

  datatype Line = Line(depth: nat, text: string)

  /** Two spaces per level. */
  function Indentation(depth: nat): (s: string)
    ensures |s| == 2 * depth && forall i :: 0 <= i < |s| ==> s[i] == ' '
  {
    if depth == 0 then [] else "  " + Indentation(depth - 1)
  }

  /** The text the lines stand for. */
  function Render(lines: seq<Line>): string {
    if lines == [] then [] else Indentation(lines[0].depth) + lines[0].text + "\n" + Render(lines[1..])
  }

  /** Rendering distributes over concatenation of line sequences. */
  lemma {:induction false} RenderAppend(a: seq<Line>, b: seq<Line>)
    ensures Render(a + b) == Render(a) + Render(b)
    decreases |a|
  {
    if a == [] {
      assert a + b == b;
    } else {
      assert (a + b)[0] == a[0] && (a + b)[1..] == a[1..] + b;
      RenderAppend(a[1..], b);
    }
  }

  /** Every line that is not blank sits at least `depth` levels deep. */
  predicate AtLeast(lines: seq<Line>, depth: nat) {
    forall i :: 0 <= i < |lines| ==> lines[i].text == [] || lines[i].depth >= depth
  }

  // ---------------------------------------------------------------------
  // Expressions

  /** `vgenerate_expression`: infix and prefix operations are wrapped in
      parentheses when `bracketed`, and their operands are always generated
      bracketed. */
  function GenExpr(e: Expr, bracketed: bool): (r: Result<string, string>)
    decreases e, 1
  {
    match e
    case Symbol(x) => Ok(x)
    case Infix(op, left, right) =>
      var l :- GenExpr(left, true);
      var rt :- GenExpr(right, true);
      Ok(Wrap(l + " " + op + " " + rt, bracketed))
    case Prefix(op, operand) =>
      var o :- GenExpr(operand, true);
      Ok(Wrap(op + " " + o, bracketed))
    case Call(callee, arguments) =>
      var f :- GenExpr(callee, true);
      var args :- GenArguments(arguments);
      Ok(f + "(" + Join(args, ", ") + ")")
    case List(values) =>
      var items :- GenItems(values);
      Ok("[" + Join(items, ", ") + "]")
    case Literal(value) => Ok(LiteralRepr(value))
    case Index(list, index) =>
      var l :- GenExpr(list, true);
      var i :- GenExpr(index, false);
      Ok(l + "[" + i + "]")
    case Map(pairs) =>
      var ps :- GenPairs(pairs);
      Ok("{" + Join(ps, ", ") + "}")
    case FieldAccess(record, field) =>
      var r :- GenExpr(record, true);
      Ok(r + "." + field)
    case KeywordArgument(_, _) => Err("unknown AST expression type: KeywordArgument")
    case Assign(_, _) => Err("unknown AST expression type: Assign")
  }

  /** `s` in parentheses when `bracketed`. */
  function Wrap(s: string, bracketed: bool): (r: string)
    ensures bracketed ==> |r| == |s| + 2 && r[0] == '(' && r[|r| - 1] == ')' && r[1..|r| - 1] == s
    ensures !bracketed ==> r == s
  {
    if bracketed then "(" + s + ")" else s
  }

  /** The arguments of a call: a keyword argument as `label=value`, each
      value bracketed. */
  function GenArguments(args: seq<Expr>): (r: Result<seq<string>, string>)
    ensures r.Ok? ==> |r.value| == |args|
    decreases args, 0
  {
    if args == [] then Ok([])
    else
      var a :- if args[0].KeywordArgument? then GenKeywordArgument(args[0].keyword, args[0].value) else GenExpr(args[0], true);
      var rest :- GenArguments(args[1..]);
      Ok([a] + rest)
  }

  function GenKeywordArgument(keyword: string, value: Expr): (r: Result<string, string>)
    decreases value, 2
  {
    var v :- GenExpr(value, true);
    Ok(keyword + "=" + v)
  }

  /** The items of a list literal, unbracketed. */
  function GenItems(values: seq<Expr>): (r: Result<seq<string>, string>)
    ensures r.Ok? ==> |r.value| == |values|
    decreases values, 0
  {
    if values == [] then Ok([])
    else
      var v :- GenExpr(values[0], false);
      var rest :- GenItems(values[1..]);
      Ok([v] + rest)
  }

  /** The entries of a map literal as `key: value`, unbracketed. */
  function GenPairs(pairs: seq<Pair>): (r: Result<seq<string>, string>)
    ensures r.Ok? ==> |r.value| == |pairs|
    decreases pairs, 0
  {
    if pairs == [] then Ok([])
    else
      var pair := pairs[0];
      assert pair.key < pair && pair.value < pair;
      var k :- GenExpr(pair.key, false);
      var v :- GenExpr(pair.value, false);
      var rest :- GenPairs(pairs[1..]);
      Ok([k + ": " + v] + rest)
  }

  // ---------------------------------------------------------------------
  // Statements

  /** `vgenerate_statement` at `indent` levels. A statement starts with a
      line at its own level, and nothing it writes is shallower. */
  function GenStmt(s: Stmt, indent: nat): (r: Result<seq<Line>, string>)
    ensures r.Ok? && r.value != [] ==> r.value[0].depth == indent
    ensures r.Ok? ==> AtLeast(r.value, indent)
    decreases s, 1
  {
    match s
    case Function(name, params, _, body) =>
      var b :- GenBlock(body, indent + 1);
      Ok([Line(indent, "def " + name + "(" + Join(ParamNames(params), ", ") + "):")] + b)
    case Return(value) =>
      var v :- GenExpr(value, false);
      Ok([Line(indent, "return " + v)])
    case If(clauses, elseClause) =>
      var cs :- GenClauses(clauses, indent, true);
      var els :- GenElse(elseClause, indent);
      Ok(cs + els)
    case Let(name, value) =>
      var v :- GenExpr(value, false);
      Ok([Line(indent, name + " = " + v)])
    case Assignment(target, value) =>
      var t :- GenExpr(target, false);
      var v :- GenExpr(value, false);
      Ok([Line(indent, t + " = " + v)])
    case While(condition, body) =>
      var c :- GenExpr(condition, false);
      var b :- GenBlock(body, indent + 1);
      Ok([Line(indent, "while " + c + ":")] + b)
    case For(x, iterable, body) =>
      var it :- GenExpr(iterable, false);
      var b :- GenBlock(body, indent + 1);
      Ok([Line(indent, "for " + x + " in " + it + ":")] + b)
    case ExpressionStatement(value) =>
      var v :- GenExpr(value, false);
      Ok([Line(indent, v)])
    case StructDeclaration(name, fields) => Ok(GenStruct(name, fields, indent))
  }

  /** The `else` part: written only when the block is there and not empty. */
  function GenElse(elseClause: ElseClause, indent: nat): (r: Result<seq<Line>, string>)
    ensures r.Ok? ==> AtLeast(r.value, indent)
    ensures r.Ok? && r.value != [] ==> r.value[0] == Line(indent, "else:")
    decreases elseClause, 0
  {
    match elseClause
    case NoElse => Ok([])
    case Else(block) =>
      if block == [] then Ok([])
      else
        var b :- GenBlock(block, indent + 1);
        Ok([Line(indent, "else:")] + b)
  }

  /** The clauses of an `if`: `if` for the first, `elif` for the rest, each
      header followed by its block one level deeper. */
  function GenClauses(clauses: seq<IfClause>, indent: nat, first: bool): (r: Result<seq<Line>, string>)
    ensures r.Ok? ==> AtLeast(r.value, indent)
    ensures r.Ok? && clauses != [] ==> |r.value| >= 1 && r.value[0].depth == indent
    decreases clauses, 0
  {
    if clauses == [] then Ok([])
    else
      var c :- GenExpr(clauses[0].condition, false);
      var b :- GenBlock(clauses[0].statements, indent + 1);
      var rest :- GenClauses(clauses[1..], indent, false);
      Ok([Line(indent, (if first then "if " else "elif ") + c + ":")] + b + rest)
  }

  /** `vgenerate_block`: the statements in order. */
  function GenBlock(ss: seq<Stmt>, indent: nat): (r: Result<seq<Line>, string>)
    ensures r.Ok? ==> AtLeast(r.value, indent)
    decreases ss, 0
  {
    if ss == [] then Ok([])
    else
      var first :- GenStmt(ss[0], indent);
      var rest :- GenBlock(ss[1..], indent);
      Ok(first + rest)
  }

  function ParamNames(ps: seq<Param>): (r: seq<string>)
    ensures |r| == |ps| && forall i :: 0 <= i < |ps| ==> r[i] == ps[i].name
  {
    if ps == [] then [] else [ps[0].name] + ParamNames(ps[1..])
  }

  /** `self.f = f` for each field, in order. */
  function FieldAssignments(names: seq<string>, depth: nat): (r: seq<Line>)
    ensures |r| == |names|
    ensures forall i :: 0 <= i < |names| ==> r[i] == Line(depth, "self." + names[i] + " = " + names[i])
  {
    if names == [] then [] else [Line(depth, "self." + names[0] + " = " + names[0])] + FieldAssignments(names[1..], depth)
  }

  /** `STRUCT_STR_TEMPLATE` with the field list filled in, one line per
      template line. */
  function StrMethod(fieldList: string, depth: nat): (r: seq<Line>)
    ensures |r| == 10 && r[2] == Line(depth, "    fields = " + fieldList)
    ensures forall i :: 0 <= i < |r| ==> r[i].depth == depth
  {
    [ Line(depth, "def __str__(self):"),
      Line(depth, "    builder = [self.__class__.__name__, \"(\"]"),
      Line(depth, "    fields = " + fieldList),
      Line(depth, "    for i, field in enumerate(fields):"),
      Line(depth, "        builder.append(field + \": \")"),
      Line(depth, "        builder.append(repr(getattr(self, field)))"),
      Line(depth, "        if i != len(fields) - 1:"),
      Line(depth, "            builder.append(\", \")"),
      Line(depth, "    builder.append(\")\")"),
      Line(depth, "    return \"\".join(builder)") ]
  }

  /** `vgenerate_struct_declaration`: a class with a keyword-only
      constructor that stores every field, a blank line, and a `__str__`. */
  function GenStruct(name: string, fields: seq<Param>, indent: nat): (r: seq<Line>)
    ensures |r| == 13 + |fields| && r[0] == Line(indent, "class " + name + ":") && AtLeast(r, indent)
  {
    var names := ParamNames(fields);
    [Line(indent, "class " + name + ":"),
     Line(indent + 1, "def __init__(self, *, " + Join(names, ", ") + "):")]
    + FieldAssignments(names, indent + 2)
    + [Line(0, "")]
    + StrMethod(PyRepr.StrListRepr(names), indent + 1)
  }

  /** `vgenerate_python`. */
  function Generate(p: Program): Result<string, string> {
    var lines :- GenBlock(p.statements, 0);
    Ok(Render(lines))
  }

  // ---------------------------------------------------------------------
  // Properties

  /** Parentheses appear exactly when `bracketed`: a bracketed operation is
      its unbracketed text in parentheses, and every other expression is
      written the same either way. */
  lemma BracketedParenthesises(e: Expr)
    ensures (e.Infix? || e.Prefix?) && GenExpr(e, false).Ok? ==>
      GenExpr(e, true) == Ok("(" + GenExpr(e, false).value + ")")
    ensures !e.Infix? && !e.Prefix? ==> GenExpr(e, true) == GenExpr(e, false)
    ensures GenExpr(e, true).Ok? <==> GenExpr(e, false).Ok?
  {
  }

  /** An infix operation is its bracketed operands around the operator. */
  lemma InfixText(op: string, left: Expr, right: Expr)
    requires GenExpr(left, true).Ok? && GenExpr(right, true).Ok?
    ensures GenExpr(Infix(op, left, right), false) == Ok(GenExpr(left, true).value + " " + op + " " + GenExpr(right, true).value)
  {
  }

  /** A keyword argument is written `label=value`. */
  lemma KeywordArgumentText(callee: Expr, keyword: string, value: Expr)
    requires GenExpr(callee, true).Ok? && GenExpr(value, true).Ok?
    ensures GenExpr(Call(callee, [KeywordArgument(keyword, value)]), false)
      == Ok(GenExpr(callee, true).value + "(" + keyword + "=" + GenExpr(value, true).value + ")")
  {
    var args := [KeywordArgument(keyword, value)];
    var text := keyword + "=" + GenExpr(value, true).value;
    assert GenKeywordArgument(keyword, value) == Ok(text);
    assert args[1..] == [];
    assert GenArguments(args[1..]) == Ok([]);
    assert [text] + [] == [text];
    assert GenArguments(args) == Ok([text]);
    assert Join([text], ", ") == text;
    var f := GenExpr(callee, true).value;
    assert GenExpr(Call(callee, args), false) == Ok(f + "(" + Join([text], ", ") + ")");
    assert f + "(" + text + ")" == f + "(" + keyword + "=" + GenExpr(value, true).value + ")";
  }

  /** Outside a call, a keyword argument cannot be written. */
  lemma KeywordArgumentAlone(keyword: string, value: Expr, bracketed: bool)
    ensures GenExpr(KeywordArgument(keyword, value), bracketed).Err?
  {
  }

  /** A function body sits one level deeper than its `def` line. */
  lemma FunctionBodyIndented(s: Stmt, indent: nat)
    requires s.Function? && GenStmt(s, indent).Ok?
    ensures GenBlock(s.statements, indent + 1).Ok?
    ensures GenStmt(s, indent).value == [GenStmt(s, indent).value[0]] + GenBlock(s.statements, indent + 1).value
    ensures AtLeast(GenStmt(s, indent).value[1..], indent + 1)
  {
    var b := GenBlock(s.statements, indent + 1).value;
    assert GenStmt(s, indent).value[1..] == b;
  }

  /** `if a {A} elif b {B} else {C}` is written as the `if` header and its
      block, then the `elif` header and its block, then `else:` and its
      block, in that order. */
  lemma IfElifElse(a: Expr, ba: seq<Stmt>, b: Expr, bb: seq<Stmt>, bc: seq<Stmt>, indent: nat)
    requires GenExpr(a, false).Ok? && GenExpr(b, false).Ok? && bc != []
    requires GenBlock(ba, indent + 1).Ok? && GenBlock(bb, indent + 1).Ok? && GenBlock(bc, indent + 1).Ok?
    ensures GenStmt(If([IfClause(a, ba), IfClause(b, bb)], Else(bc)), indent) == Ok(
      [Line(indent, "if " + GenExpr(a, false).value + ":")] + GenBlock(ba, indent + 1).value
      + [Line(indent, "elif " + GenExpr(b, false).value + ":")] + GenBlock(bb, indent + 1).value
      + [Line(indent, "else:")] + GenBlock(bc, indent + 1).value)
  {
    var clauses := [IfClause(a, ba), IfClause(b, bb)];
    var x1, x2 := [Line(indent, "if " + GenExpr(a, false).value + ":")], GenBlock(ba, indent + 1).value;
    var x3, x4 := [Line(indent, "elif " + GenExpr(b, false).value + ":")], GenBlock(bb, indent + 1).value;
    var x5, x6 := [Line(indent, "else:")], GenBlock(bc, indent + 1).value;
    TwoClauses(a, ba, b, bb, indent);
    assert GenElse(Else(bc), indent) == Ok(x5 + x6);
    IfStatement(clauses, Else(bc), indent);
    assert (x1 + x2 + (x3 + x4)) + (x5 + x6) == x1 + x2 + x3 + x4 + x5 + x6;
  }

  /** An `if` statement is its clauses followed by its `else` part. */
  lemma IfStatement(clauses: seq<IfClause>, elseClause: ElseClause, indent: nat)
    requires GenClauses(clauses, indent, true).Ok? && GenElse(elseClause, indent).Ok?
    ensures GenStmt(If(clauses, elseClause), indent)
      == Ok(GenClauses(clauses, indent, true).value + GenElse(elseClause, indent).value)
  {
  }

  /** Two clauses: the `if` header and block, then the `elif` header and
      block. */
  lemma TwoClauses(a: Expr, ba: seq<Stmt>, b: Expr, bb: seq<Stmt>, indent: nat)
    requires GenExpr(a, false).Ok? && GenExpr(b, false).Ok?
    requires GenBlock(ba, indent + 1).Ok? && GenBlock(bb, indent + 1).Ok?
    ensures GenClauses([IfClause(a, ba), IfClause(b, bb)], indent, true) == Ok(
      [Line(indent, "if " + GenExpr(a, false).value + ":")] + GenBlock(ba, indent + 1).value
      + ([Line(indent, "elif " + GenExpr(b, false).value + ":")] + GenBlock(bb, indent + 1).value))
  {
    var clauses := [IfClause(a, ba), IfClause(b, bb)];
    var lb := [Line(indent, "elif " + GenExpr(b, false).value + ":")] + GenBlock(bb, indent + 1).value;
    assert clauses[1..] == [IfClause(b, bb)];
    LastClause(b, bb, indent);
    assert GenClauses([IfClause(b, bb)], indent, false) == Ok(lb);
  }

  /** A single `elif` clause: its header and its block. */
  lemma LastClause(b: Expr, bb: seq<Stmt>, indent: nat)
    requires GenExpr(b, false).Ok? && GenBlock(bb, indent + 1).Ok?
    ensures GenClauses([IfClause(b, bb)], indent, false) == Ok(
      [Line(indent, "elif " + GenExpr(b, false).value + ":")] + GenBlock(bb, indent + 1).value)
  {
    var lb := [Line(indent, "elif " + GenExpr(b, false).value + ":")] + GenBlock(bb, indent + 1).value;
    assert [IfClause(b, bb)][1..] == [];
    assert GenClauses([IfClause(b, bb)], indent, false) == Ok(lb + []);
    assert lb + [] == lb;
  }

  /** An empty `else` block writes nothing, as if there were none. */
  lemma EmptyElse(clauses: seq<IfClause>, indent: nat)
    ensures GenStmt(If(clauses, Else([])), indent) == GenStmt(If(clauses, NoElse), indent)
  {
  }

  /** The constructor of a struct takes every field by keyword, in
      declaration order. */
  lemma StructConstructor(name: string, fields: seq<Param>, indent: nat)
    ensures GenStruct(name, fields, indent)[1]
      == Line(indent + 1, "def __init__(self, *, " + Join(ParamNames(fields), ", ") + "):")
  {
    var names := ParamNames(fields);
    var head := [Line(indent, "class " + name + ":"), Line(indent + 1, "def __init__(self, *, " + Join(names, ", ") + "):")];
    var front := head + FieldAssignments(names, indent + 2) + [Line(0, "")];
    assert GenStruct(name, fields, indent) == front + StrMethod(PyRepr.StrListRepr(names), indent + 1);
    assert front[1] == head[1];
  }

  /** The constructor stores field `i` in line `2 + i`, so every field is
      stored, in declaration order. */
  lemma StructStoresField(name: string, fields: seq<Param>, indent: nat, i: nat)
    requires i < |fields|
    ensures GenStruct(name, fields, indent)[2 + i]
      == Line(indent + 2, "self." + fields[i].name + " = " + fields[i].name)
  {
    var names := ParamNames(fields);
    var head := [Line(indent, "class " + name + ":"), Line(indent + 1, "def __init__(self, *, " + Join(names, ", ") + "):")];
    var assigns := FieldAssignments(names, indent + 2);
    var front := head + assigns + [Line(0, "")];
    assert GenStruct(name, fields, indent) == front + StrMethod(PyRepr.StrListRepr(names), indent + 1);
    assert front[2 + i] == assigns[i];
  }

  /** `__str__` lists the fields in declaration order, as a Python list of
      their names. */
  lemma StructStrFields(name: string, fields: seq<Param>, indent: nat)
    ensures var r := GenStruct(name, fields, indent);
      r[2 + |fields|] == Line(0, "")
      && r[5 + |fields|] == Line(indent + 1, "    fields = " + PyRepr.StrListRepr(ParamNames(fields)))
  {
    var names := ParamNames(fields);
    var head := [Line(indent, "class " + name + ":"), Line(indent + 1, "def __init__(self, *, " + Join(names, ", ") + "):")];
    var front := head + FieldAssignments(names, indent + 2) + [Line(0, "")];
    var str := StrMethod(PyRepr.StrListRepr(names), indent + 1);
    assert GenStruct(name, fields, indent) == front + str;
    assert |front| == 3 + |fields| && front[2 + |fields|] == Line(0, "");
    assert (front + str)[5 + |fields|] == str[2];
  }

}

=== FILE: py_lexer.dfy ===
/** The lexer of the first Python generation (pycompiler/parser.py, class
    `Lexer`): a character reader with a stack of pushed-back characters,
    whitespace and `//` comment skipping, one- and two-character operators,
    words, integers and string literals with backslash escapes.

    Python's `read()` returns `""` at the end of the input and sets the
    `done` flag; the model writes that empty string as `None`. */
module PyLexer {
  import opened Wrappers
  import opened Text
  import PyRepr

  datatype Kind =
    | Eof | Symbol | Int | String | Not | Unknown
    | Elif | Else | False | Fn | For | If | In | Let | Return | Struct | True | While
    | Gte | Rangle | Lte | Langle | Eq | Assign
    | Lparen | Rparen | Lcurly | Rcurly | Comma | Plus | Minus | Asterisk | Slash
    | Colon | Newline | Lsquare | Rsquare | Period
  {
    /** The token type string, e.g. `TOKEN_EOF`. */
    function Name(): string {
      match this
      case Eof => "TOKEN_EOF" case Symbol => "TOKEN_SYMBOL" case Int => "TOKEN_INT"
      case String => "TOKEN_STRING" case Not => "TOKEN_NOT" case Unknown => "TOKEN_UNKNOWN"
      case Elif => "TOKEN_ELIF" case Else => "TOKEN_ELSE" case False => "TOKEN_FALSE"
      case Fn => "TOKEN_FN" case For => "TOKEN_FOR" case If => "TOKEN_IF" case In => "TOKEN_IN"
      case Let => "TOKEN_LET" case Return => "TOKEN_RETURN" case Struct => "TOKEN_STRUCT"
      case True => "TOKEN_TRUE" case While => "TOKEN_WHILE"
      case Gte => "TOKEN_GTE" case Rangle => "TOKEN_RANGLE" case Lte => "TOKEN_LTE"
      case Langle => "TOKEN_LANGLE" case Eq => "TOKEN_EQ" case Assign => "TOKEN_ASSIGN"
      case Lparen => "TOKEN_LPAREN" case Rparen => "TOKEN_RPAREN" case Lcurly => "TOKEN_LCURLY"
      case Rcurly => "TOKEN_RCURLY" case Comma => "TOKEN_COMMA" case Plus => "TOKEN_PLUS"
      case Minus => "TOKEN_MINUS" case Asterisk => "TOKEN_ASTERISK" case Slash => "TOKEN_SLASH"
      case Colon => "TOKEN_COLON" case Newline => "TOKEN_NEWLINE" case Lsquare => "TOKEN_LSQUARE"
      case Rsquare => "TOKEN_RSQUARE" case Period => "TOKEN_PERIOD"
    }
  }

  const Keywords: set<string> :=
    {"elif", "else", "false", "fn", "for", "if", "in", "let", "return", "struct", "true", "while"}

  /** The `keywords` set; each keyword's token type is `TOKEN_` and the
      word in upper case. */
  function Keyword(word: string): (r: Option<Kind>)
    ensures r.Some? <==> word in Keywords
    ensures r.Some? ==> r.value !in {Eof, Symbol, Int, String, Not, Unknown}
  {
    match word
    case "elif" => Some(Elif) case "else" => Some(Else) case "false" => Some(False)
    case "fn" => Some(Fn) case "for" => Some(For) case "if" => Some(If) case "in" => Some(In)
    case "let" => Some(Let) case "return" => Some(Return) case "struct" => Some(Struct)
    case "true" => Some(True) case "while" => Some(While)
    case _ => None
  }

  /** The `special` table of one-character tokens. */
  function Special(c: char): Option<Kind> {
    match c
    case '(' => Some(Lparen) case ')' => Some(Rparen) case '{' => Some(Lcurly)
    case '}' => Some(Rcurly) case ',' => Some(Comma) case '+' => Some(Plus)
    case '-' => Some(Minus) case '*' => Some(Asterisk) case '/' => Some(Slash)
    case ':' => Some(Colon) case '\n' => Some(Newline) case '[' => Some(Lsquare)
    case ']' => Some(Rsquare) case '.' => Some(Period)
    case _ => None
  }

  /** The `escapes` table: the character a backslash escape stands for. */
  function EscapeTable(c: char): Option<char> {
    match c
    case '"' => Some('"') case '\'' => Some('\'') case 'n' => Some('\n')
    case 'r' => Some('\r') case '\\' => Some('\\') case 't' => Some('\t')
    case 'b' => Some('\U{8}') case 'f' => Some('\U{C}') case 'v' => Some('\U{B}')
    case '0' => Some('\U{0}')
    case _ => None
  }

  /** `get_backslash_escape`: a known escape decodes to one character; an
      unknown one keeps its backslash. */
  function Escape(c: char): (r: string)
    ensures EscapeTable(c).Some? ==> r == [EscapeTable(c).value]
    ensures EscapeTable(c).None? ==> r == ['\\', c]
  {
    match EscapeTable(c)
    case Some(d) => [d]
    case None => ['\\', c]
  }

  /** A token value is a string, except that an unterminated string
      literal yields a STRING token whose value is itself the token
      `Token("TOKEN_UNKNOWN", text)`. */
  datatype TokenValue = Text(text: string) | Unclosed(text: string)

  datatype Token = Token(kind: Kind, value: TokenValue)

  /** The `attrs` repr of a token, used in syntax errors. */
  function TokenRepr(t: Token): string {
    "Token(type=" + PyRepr.StrRepr(t.kind.Name()) + ", value=" + ValueRepr(t.value) + ")"
  }

  function ValueRepr(v: TokenValue): string {
    match v
    case Text(s) => PyRepr.StrRepr(s)
    case Unclosed(s) => "Token(type='TOKEN_UNKNOWN', value=" + PyRepr.StrRepr(s) + ")"
  }

  /** Lexer state: the text still to be read and the `done` flag. The source
      keeps a stack of pushed-back characters in front of the unread input
      and `read` takes the top of the stack first, so the pushed-back
      characters followed by the unread input are exactly the text still to
      be read. A pushed-back end marker is only pushed when nothing else is
      pending, and reading it gives the end marker, as reading past the end
      does. */
  datatype Lexer = Lexer(rest: string, done: bool)

  function NewLexer(input: string): (l: Lexer)
    ensures l.rest == input && !l.done
  {
    Lexer(input, false)
  }

  /** `read`: the next character, or the end marker, which also sets
      `done`. */
  function Read(l: Lexer): (r: (Option<char>, Lexer))
    ensures l.rest != [] ==> r.0 == Some(l.rest[0]) && r.1.rest == l.rest[1..] && r.1.done == l.done
    ensures l.rest == [] ==> r.0.None? && r.1.rest == [] && r.1.done
  {
    if l.rest != [] then (Some(l.rest[0]), l.(rest := l.rest[1..]))
    else (None, l.(done := true))
  }

  /** `push_back`. */
  function PushBack(l: Lexer, c: Option<char>): (r: Lexer)
    ensures r.done == l.done
    ensures r.rest == (match c case Some(x) => [x] case None => []) + l.rest
  {
    match c
    case Some(x) => l.(rest := [x] + l.rest)
    case None => l
  }

  /** The character classes `read_while` is used with. `NotNewline` is the
      comment predicate as written, which also accepts the end marker. */
  datatype CharClass = SymbolChar | Digit | InlineSpace | NotNewline | CommentChar

  predicate IsSymbolChar(c: char) {
    IsDigit(c) || IsAsciiLetter(c) || c == '_'
  }

  /** Whether the class accepts a character or the end marker. */
  predicate Accepts(cls: CharClass, c: Option<char>) {
    match cls
    case SymbolChar => c.Some? && IsSymbolChar(c.value)
    case Digit => c.Some? && IsDigit(c.value)
    case InlineSpace => c.Some? && PyIsSpace(c.value) && c.value != '\n'
    case NotNewline => c != Some('\n')
    case CommentChar => c.Some? && c.value != '\n'
  }

  /** The longest prefix of `s` whose characters the class accepts. */
  function LongestRun(cls: CharClass, s: string): (n: nat)
    ensures n <= |s|
    ensures forall i :: 0 <= i < n ==> Accepts(cls, Some(s[i]))
    ensures n < |s| ==> !Accepts(cls, Some(s[n]))
  {
    if s == [] || !Accepts(cls, Some(s[0])) then 0 else 1 + LongestRun(cls, s[1..])
  }

  /** `read_while`: reads characters while the class accepts them and pushes
      back the first one it does not. `None` means the loop never ends,
      which happens when the class accepts the end marker and the input
      runs out. */
  function ReadWhile(l: Lexer, cls: CharClass): (r: Option<(string, Lexer)>)
    ensures !Accepts(cls, None) ==> r.Some?
    ensures r.Some? ==> (l.done ==> r.value.1.done)
    ensures r.Some? ==> Stopped(cls, l.rest, r.value.0, r.value.1.rest)
    ensures r.None? <==> Accepts(cls, None) && LongestRun(cls, l.rest) == |l.rest|
    ensures r.Some? && LongestRun(cls, l.rest) < |l.rest| ==> r.value.1.done == l.done
    decreases |l.rest|
  {
    var (c, l1) := Read(l);
    if Accepts(cls, c) then
      if c.None? then None
      else
        match ReadWhile(l1, cls)
        case None => None
        case Some((s, l2)) =>
          StoppedStep(cls, l.rest, s, l2.rest);
          Some(([c.value] + s, l2))
    else
      var l2 := PushBack(l1, c);
      assert l2.rest == l.rest;
      Some(([], l2))
  }

  /** `w` is the longest accepted prefix of `before`, and `after` is what
      follows it. */
  predicate Stopped(cls: CharClass, before: string, w: string, after: string) {
    var n := LongestRun(cls, before);
    w == before[..n] && after == before[n..]
  }

  lemma StoppedStep(cls: CharClass, before: string, w: string, after: string)
    requires before != [] && Accepts(cls, Some(before[0]))
    requires Stopped(cls, before[1..], w, after)
    ensures Stopped(cls, before, [before[0]] + w, after)
  {
    var n := LongestRun(cls, before[1..]);
    assert before[..n + 1] == [before[0]] + before[1..][..n];
  }

  /** What `skip_whitespace_and_comments` does after a `/` that does not
      start a comment, as the source writes it: it pushes `/` back twice,
      so the character read after the `/` is lost. */
  function SlashFallbackAsWritten(l: Lexer, c2: Option<char>): (r: Lexer)
    ensures r.rest == "//" + l.rest
  {
    PushBack(PushBack(l, Some('/')), Some('/'))
  }

  /** The evidently intended fallback: push back the character read after
      the `/` and then the `/`, so nothing is lost. */
  function SlashFallback(l: Lexer, c2: Option<char>): (r: Lexer)
    ensures r.done == l.done
    ensures r.rest == "/" + (match c2 case Some(x) => [x] case None => []) + l.rest
  {
    PushBack(PushBack(l, c2), Some('/'))
  }

  /** One round of `skip_whitespace_and_comments`: `More` after a run of
      spaces or a comment, when it loops again; `Stop` with the state in
      which the next token starts. */
  datatype Skip = More(after: Lexer) | Stop(at: Lexer)

  function TriviaStep(l: Lexer): (r: Skip)
    ensures match r
      case More(l1) => (l.done ==> l1.done) && |l1.rest| < |l.rest|
      case Stop(l1) => (l.done ==> l1.done) && |l1.rest| <= |l.rest|
  {
    var (c, l1) := Read(l);
    if c.Some? && PyIsSpace(c.value) && c.value != '\n' then
      More(ReadWhile(l1, InlineSpace).value.1)
    else if c == Some('/') then AfterSlash(l1)
    else Stop(PushBack(l1, c))
  }

  /** The rest of a round after a `/`: a comment, or the `/` pushed back. */
  function AfterSlash(l: Lexer): (r: Skip)
    ensures match r
      case More(l1) => (l.done ==> l1.done) && |l1.rest| <= |l.rest|
      case Stop(l1) => (l.done ==> l1.done) && |l1.rest| <= |l.rest| + 1
  {
    var (c2, l2) := Read(l);
    if c2 == Some('/') then More(ReadWhile(l2, CommentChar).value.1)
    else Stop(SlashFallback(l2, c2))
  }

  /** `skip_whitespace_and_comments`, with the two corrections: the
      character after a lone `/` is pushed back, and a comment ends at the
      end of the input as well as at a newline. */
  function SkipTrivia(l: Lexer): (r: Lexer)
    ensures (l.done ==> r.done)
    ensures |r.rest| <= |l.rest|
    decreases |l.rest|
  {
    match TriviaStep(l)
    case More(l1) => SkipTrivia(l1)
    case Stop(l1) => l1
  }

  /** How `read_string` ends: at the closing quote, or at the end of the
      input. */
  datatype StringEnd = Closed(text: string) | Unterminated(text: string)

  /** `read_string`, entered after the opening quote. */
  function ReadString(l: Lexer): (r: (StringEnd, Lexer))
    ensures |r.1.rest| <= |l.rest|
    ensures r.0.Closed? ==> r.1.done == l.done && |r.1.rest| < |l.rest|
    ensures r.0.Unterminated? ==> r.1.done
    decreases |l.rest|
  {
    var (c, l1) := Read(l);
    if l1.done then (Unterminated([]), l1)
    else if c == Some('"') then (Closed([]), l1)
    else if c == Some('\\') then
      var (c2, l2) := Read(l1);
      if l2.done then (Unterminated([]), l2)
      else
        var (rest, l3) := ReadString(l2);
        (Prepend(Escape(c2.value), rest), l3)
    else
      var (rest, l2) := ReadString(l1);
      (Prepend([c.value], rest), l2)
  }

  function Prepend(s: string, e: StringEnd): (r: StringEnd)
    ensures r.Closed? == e.Closed? && r.text == s + e.text
  {
    match e
    case Closed(t) => Closed(s + t)
    case Unterminated(t) => Unterminated(s + t)
  }

  /** The two-character operator `c=`. */
  function LongOperator(c: char): Token {
    if c == '>' then Token(Gte, Text(">=")) else if c == '<' then Token(Lte, Text("<=")) else Token(Eq, Text("=="))
  }

  /** The one-character operator `c`. */
  function ShortOperator(c: char): Token {
    if c == '>' then Token(Rangle, Text(">")) else if c == '<' then Token(Langle, Text("<")) else Token(Assign, Text("="))
  }

  /** The token for one of `>`, `<` and `=`: the two-character operator
      when `=` follows, otherwise the one-character one with the lookahead
      pushed back. */
  function Comparison(c: char, l: Lexer): (r: (Token, Lexer))
    requires c == '>' || c == '<' || c == '='
    ensures |r.1.rest| <= |l.rest|
    ensures StartsWithEq(l.rest) ==> r.0 == LongOperator(c) && r.1.rest == l.rest[1..]
    ensures !StartsWithEq(l.rest) ==> r.0 == ShortOperator(c) && r.1.rest == l.rest
  {
    var (c2, l1) := Read(l);
    if c2 == Some('=') then
      assert StartsWithEq(l.rest);
      (LongOperator(c), l1)
    else
      assert !StartsWithEq(l.rest);
      (ShortOperator(c), PushBack(l1, c2))
  }

  predicate StartsWithEq(s: string) {
    s != [] && s[0] == '='
  }

  /** The type of a word: `not`, a keyword, or a symbol. */
  function WordKind(w: string): (k: Kind)
    ensures w == "not" ==> k == Not
    ensures w != "not" && Keyword(w).Some? ==> k == Keyword(w).value
    ensures w != "not" && Keyword(w).None? ==> k == Symbol
  {
    if w == "not" then Not else match Keyword(w) case Some(k) => k case None => Symbol
  }

  /** `read_symbol` and `read_int`: push back the first character, then
      read the run of the class. */
  function ReadRun(ch: char, l: Lexer, cls: CharClass): (r: (string, Lexer))
    requires Accepts(cls, Some(ch)) && !Accepts(cls, None)
    ensures Stopped(cls, [ch] + l.rest, r.0, r.1.rest)
    ensures |r.1.rest| <= |l.rest|
  {
    var l1 := PushBack(l, Some(ch));
    var (w, l2) := ReadWhile(l1, cls).value;
    assert LongestRun(cls, l1.rest) > 0;
    (w, l2)
  }

  /** `next`: skips trivia, then reads one token; END once the input has run
      out. */
  function Next(l: Lexer): (r: (Token, Lexer))
    ensures r.0.kind != Eof ==> |r.1.rest| < |l.rest|
    ensures l.done ==> r.0 == Token(Eof, Text("")) && r.1.done
  {
    var l1 := SkipTrivia(l);
    if l1.done then (Token(Eof, Text("")), l1)
    else
      var (c, l2) := Read(l1);
      match c
      case None => (Token(Unknown, Text("")), l2)
      case Some(ch) => TokenStartingWith(ch, l2)
  }

  /** The token that starts with `ch`, the rest of it read from `l`. The
      unterminated string literal yields what the source yields: a STRING
      token wrapping an UNKNOWN token. */
  function TokenStartingWith(ch: char, l: Lexer): (r: (Token, Lexer))
    ensures r.0.kind != Eof && |r.1.rest| <= |l.rest|
  {
    if IsAsciiLetter(ch) || ch == '_' then
      var (w, l1) := ReadRun(ch, l, SymbolChar);
      (Token(WordKind(w), Text(w)), l1)
    else if IsDigit(ch) then
      var (w, l1) := ReadRun(ch, l, Digit);
      (Token(Int, Text(w)), l1)
    else if ch == '"' then
      var (s, l1) := ReadString(l);
      (Token(String, match s case Closed(t) => Text(t) case Unterminated(t) => Unclosed(t)), l1)
    else if ch == '>' || ch == '<' || ch == '=' then Comparison(ch, l)
    else (Token(match Special(ch) case Some(k) => k case None => Unknown, Text([ch])), l)
  }

  /** The tokens of the input up to the end marker. */
  function Tokenize(l: Lexer): (ts: seq<Token>)
    ensures forall i :: 0 <= i < |ts| ==> ts[i].kind != Eof
    decreases |l.rest|
  {
    var (t, l1) := Next(l);
    if t.kind == Eof then [] else [t] + Tokenize(l1)
  }

  function Lex(input: string): seq<Token> {
    Tokenize(NewLexer(input))
  }

  /** Whether the pending text starts with a character that is neither
      whitespace on a line nor a `/`, so that no trivia is skipped. */
  predicate StartsToken(s: string) {
    s != [] && !(PyIsSpace(s[0]) && s[0] != '\n') && s[0] != '/'
  }

  /** With no trivia in front, `next` reads the first pending character and
      dispatches on it. */
  lemma NextAfterNoTrivia(l: Lexer) returns (l2: Lexer)
    requires !l.done && StartsToken(l.rest)
    ensures l2 == Lexer(l.rest[1..], false)
    ensures Next(l) == TokenStartingWith(l.rest[0], l2)
  {
    var (c, l1) := Read(l);
    assert TriviaStep(l) == Stop(PushBack(l1, c));
    var l3 := SkipTrivia(l);
    assert l3 == PushBack(l1, c);
    l2 := Read(l3).1;
  }

  /** The class accepts all of `w` and not the first character after it. */
  predicate MaximalRun(cls: CharClass, w: string, rest: string) {
    (forall i :: 0 <= i < |w| ==> Accepts(cls, Some(w[i])))
    && (rest == [] || !Accepts(cls, Some(rest[0])))
  }

  lemma {:induction false} RunOfPrefix(cls: CharClass, w: string, rest: string)
    requires MaximalRun(cls, w, rest)
    ensures LongestRun(cls, w + rest) == |w|
    decreases |w|
  {
    if w == [] {
      assert w + rest == rest;
    } else {
      assert (w + rest)[1..] == w[1..] + rest;
      RunOfPrefix(cls, w[1..], rest);
    }
  }

  /** A word is read whole: the keyword `not`, one of the keywords, or a
      symbol, and reading stops at the first character that cannot be
      part of a symbol. */
  lemma WordToken(l: Lexer, w: string, rest: string)
    requires !l.done && l.rest == w + rest
    requires w != [] && (IsAsciiLetter(w[0]) || w[0] == '_') && MaximalRun(SymbolChar, w, rest)
    ensures Next(l).0 == Token(WordKind(w), Text(w))
    ensures Next(l).1.rest == rest && (rest != [] ==> !Next(l).1.done)
  {
    var l2 := NextAfterNoTrivia(l);
    assert [w[0]] + l2.rest == w + rest;
    RunOfPrefix(SymbolChar, w, rest);
  }

  /** Digits are read whole into one INT token. */
  lemma IntToken(l: Lexer, w: string, rest: string)
    requires !l.done && l.rest == w + rest
    requires w != [] && MaximalRun(Digit, w, rest)
    ensures Next(l).0 == Token(Int, Text(w))
    ensures (Next(l).1).rest == rest
  {
    assert Accepts(Digit, Some(w[0]));
    var l2 := NextAfterNoTrivia(l);
    assert [w[0]] + l2.rest == w + rest;
    RunOfPrefix(Digit, w, rest);
  }

  /** `>=`, `<=` and `==` are recognised by one character of lookahead; a
      lone `>`, `<` or `=` leaves the following text untouched. */
  lemma ComparisonToken(l: Lexer, c: char, rest: string)
    requires !l.done && l.rest == [c] + rest
    requires c == '>' || c == '<' || c == '='
    ensures StartsWithEq(rest) ==> Next(l).0 == LongOperator(c) && (Next(l).1).rest == rest[1..]
    ensures !StartsWithEq(rest) ==> Next(l).0 == ShortOperator(c) && (Next(l).1).rest == rest
  {
    var l2 := NextAfterNoTrivia(l);
    assert l.rest[0] == c && l2.rest == rest;
    assert TokenStartingWith(c, l2) == Comparison(c, l2);
  }

  /** The source text of a string literal's body: quotes and backslashes
      escaped, every other character as itself. */
  function Quote(s: string): (r: string)
    ensures |r| >= |s|
  {
    if s == [] then []
    else (if s[0] == '"' || s[0] == '\\' then ['\\', s[0]] else [s[0]]) + Quote(s[1..])
  }

  lemma {:induction false} ReadQuoted(l: Lexer, s: string, rest: string)
    requires !l.done && l.rest == Quote(s) + "\"" + rest
    ensures ReadString(l).0 == Closed(s) && (ReadString(l).1).rest == rest
    decreases |s|
  {
    var (c, l1) := Read(l);
    if s == [] {
      assert l.rest[0] == '"';
    } else if s[0] == '"' || s[0] == '\\' {
      assert l.rest[0] == '\\';
      var (c2, l2) := Read(l1);
      assert l1.rest[0] == s[0];
      assert l2.rest == Quote(s[1..]) + "\"" + rest;
      ReadQuoted(l2, s[1..], rest);
      assert [s[0]] + s[1..] == s;
    } else {
      assert l.rest[0] == s[0];
      assert l1.rest == Quote(s[1..]) + "\"" + rest;
      ReadQuoted(l1, s[1..], rest);
      assert [s[0]] + s[1..] == s;
    }
  }

  /** A quoted string literal reads back to the string it quotes. */
  lemma StringToken(l: Lexer, s: string, rest: string)
    requires !l.done && l.rest == "\"" + Quote(s) + "\"" + rest
    ensures Next(l).0 == Token(String, Text(s)) && (Next(l).1).rest == rest
  {
    var tail := Quote(s) + "\"" + rest;
    assert l.rest == "\"" + tail;
    var l2 := NextAfterNoTrivia(l);
    assert l2 == Lexer(tail, false);
    ReadQuoted(l2, s, rest);
    QuoteStartsString(l2);
  }

  /** A `"` starts a string literal, whose text the string reader returns. */
  lemma QuoteStartsString(l: Lexer)
    ensures ReadString(l).0.Closed? ==> TokenStartingWith('"', l) == (Token(String, Text(ReadString(l).0.text)), ReadString(l).1)
  {
    assert !IsAsciiLetter('"') && !IsDigit('"') && '"' != '_';
  }

  lemma {:induction false} NoNewlineRun(cls: CharClass, s: string)
    requires cls == NotNewline || cls == CommentChar
    requires '\n' !in s
    ensures LongestRun(cls, s) == |s|
    decreases |s|
  {
    if s != [] {
      assert '\n' !in s[1..];
      NoNewlineRun(cls, s[1..]);
    }
  }

  /** The comment predicate as written accepts the end marker, so skipping
      a comment with no newline after it never returns. */
  lemma CommentAtEndHangsAsWritten(l: Lexer)
    requires '\n' !in l.rest
    ensures ReadWhile(l, NotNewline).None?
  {
    NoNewlineRun(NotNewline, l.rest);
  }

  /** The corrected comment predicate: a comment runs to the end of the
      input when no newline follows. */
  lemma CommentAtEnd(l: Lexer)
    requires '\n' !in l.rest
    ensures ReadWhile(l, CommentChar).Some?
    ensures ReadWhile(l, CommentChar).value.0 == l.rest
    ensures (ReadWhile(l, CommentChar).value.1).rest == []
  {
    NoNewlineRun(CommentChar, l.rest);
  }

  lemma CommentSkipped(l: Lexer, text: string, rest: string)
    requires !l.done && l.rest == "//" + text + "\n" + rest
    requires '\n' !in text
    ensures TriviaStep(l) == More(Lexer("\n" + rest, false))
  {
    var l2 := Lexer(text + ("\n" + rest), false);
    assert Read(Read(l).1).1 == l2;
    assert MaximalRun(CommentChar, text, "\n" + rest);
    RunOfPrefix(CommentChar, text, "\n" + rest);
    assert ReadWhile(l2, CommentChar).value.1.rest == "\n" + rest;
  }

  /** A comment produces no token: the newline that ends it comes next. */
  lemma CommentToken(l: Lexer, text: string, rest: string)
    requires !l.done && l.rest == "//" + text + "\n" + rest
    requires '\n' !in text
    ensures Next(l).0 == Token(Newline, Text("\n")) && (Next(l).1).rest == rest
  {
    var l3 := Lexer("\n" + rest, false);
    CommentSkipped(l, text, rest);
    TriviaSkipped(l, l3);
    NewlineToken(l3, rest);
  }

  /** A newline is a NEWLINE token of its own. */
  lemma NewlineToken(l: Lexer, rest: string)
    requires l == Lexer("\n" + rest, false)
    ensures Next(l).0 == Token(Newline, Text("\n")) && (Next(l).1).rest == rest
  {
    assert l.rest[1..] == rest;
    var l1 := NextAfterNoTrivia(l);
    assert Special('\n') == Some(Newline);
    OneCharToken('\n', l1);
  }

  /** Trivia that `next` skips makes no difference to the token it
      returns. */
  lemma TriviaSkipped(l: Lexer, l1: Lexer)
    requires TriviaStep(l) == More(l1)
    ensures Next(l) == Next(l1)
  {
    assert SkipTrivia(l) == SkipTrivia(l1);
  }

  /** A character of the `special` table is a token of its own. */
  lemma OneCharToken(ch: char, l: Lexer)
    requires Special(ch).Some? && ch != '>' && ch != '<' && ch != '='
    ensures TokenStartingWith(ch, l) == (Token(Special(ch).value, Text([ch])), l)
  {
    SpecialIsPunctuation(ch);
  }

  /** No character of the `special` table starts a word, a number or a
      string. */
  lemma SpecialIsPunctuation(ch: char)
    requires Special(ch).Some?
    ensures !IsAsciiLetter(ch) && ch != '_' && !IsDigit(ch) && ch != '"'
  {
  }

  /** The input `a/b` as written: after the lone `/` and the `b` read
      behind it, the text left to read is `//`, not `/b`. */
  lemma SlashLosesCharacterAsWritten()
    ensures var l := Lexer("", false);
      SlashFallbackAsWritten(l, Some('b')).rest == "//"
      && SlashFallback(l, Some('b')).rest == "/b"
  {
  }

  /** With the correction, a lone `/` is a SLASH token and the character
      after it is still to be read. */
  lemma SlashToken(l: Lexer, rest: string)
    requires !l.done && l.rest == "/" + rest
    requires rest != [] && rest[0] != '/'
    ensures Next(l).0 == Token(Slash, Text("/")) && Next(l).1 == Lexer(rest, false)
  {
    var (c, l1) := Read(l);
    var (c2, l2) := Read(l1);
    var l3 := SlashFallback(l2, c2);
    assert l3.rest == "/" + rest;
    assert TriviaStep(l) == Stop(l3);
    var l4 := Read(l3).1;
    assert Next(l) == TokenStartingWith('/', l4);
  }

  /** At the end of the input `next` returns END. */
  lemma EndToken(l: Lexer)
    requires l.rest == []
    ensures Next(l).0 == Token(Eof, Text(""))
  {
    var (c, l1) := Read(l);
    assert TriviaStep(l) == Stop(PushBack(l1, c));
  }

  /** A word: a letter or underscore, then symbol characters. */
  predicate IsWord(w: string) {
    w != [] && (IsAsciiLetter(w[0]) || w[0] == '_') && forall i :: 0 <= i < |w| ==> IsSymbolChar(w[i])
  }

  lemma SlashThenWord(l: Lexer, w: string)
    requires IsWord(w) && l == Lexer("/" + w, false)
    ensures Tokenize(l) == [Token(Slash, Text("/")), Token(WordKind(w), Text(w))]
  {
    SlashToken(l, w);
    TokenizeStep(l);
    var l2 := Next(l).1;
    assert l2.rest == w + [];
    WordToken(l2, w, []);
    TokenizeStep(l2);
    EndToken(Next(l2).1);
    TokenizeAtEnd(Next(l2).1);
  }

  /** A token other than the end marker is followed by the tokens after it. */
  lemma TokenizeStep(l: Lexer)
    requires Next(l).0.kind != Eof
    ensures Tokenize(l) == [Next(l).0] + Tokenize(Next(l).1)
  {
  }

  /** At the end marker the tokens stop. */
  lemma TokenizeAtEnd(l: Lexer)
    requires Next(l).0.kind == Eof
    ensures Tokenize(l) == []
  {
  }

  /** A division between two words lexes as the word, the slash and the
      word (as written, the second word is lost). */
  lemma SlashBetweenWords(w1: string, w2: string)
    requires IsWord(w1) && IsWord(w2)
    ensures Lex(w1 + "/" + w2) == [Token(WordKind(w1), Text(w1)), Token(Slash, Text("/")), Token(WordKind(w2), Text(w2))]
  {
    var l0 := NewLexer(w1 + "/" + w2);
    assert l0.rest == w1 + ("/" + w2);
    WordToken(l0, w1, "/" + w2);
    SlashThenWord(Next(l0).1, w2);
  }
}

=== FILE: py_parser.dfy ===
/** The parser of the first Python generation (pycompiler/parser.py, class
    `Parser`): precedence climbing over the lexer's tokens.

    The parser reads its tokens one at a time and pushes back at most one,
    and every `push_back` hands back the token the previous `next` returned.
    Pushing back therefore restores the state from before that `next`, and
    the model writes the parser state as a position in the token sequence:
    reading advances it, pushing back is not advancing it. Past the last
    token every read gives END, as the lexer does once its input has run
    out. */
module PyParser {
  import opened Wrappers
  import opened Text
  import opened PyAst
  import PyLexer

  type Token = PyLexer.Token
  type Kind = PyLexer.Kind

  /** Binding strengths: higher binds tighter. */
  const PrecedenceLowest: nat := 0
  const PrecedenceAssign: nat := 1
  const PrecedenceCmp: nat := 2
  const PrecedenceAddSub: nat := 3
  const PrecedenceMulDiv: nat := 4
  const PrecedencePrefix: nat := 5
  const PrecedenceCall: nat := 6

  /** `PRECEDENCE_MAP`: the tokens that continue an expression. */
  function Precedence(k: Kind): (r: Option<nat>)
    ensures r.Some? ==> k != PyLexer.Eof && PrecedenceAssign <= r.value <= PrecedenceCall
  {
    match k
    case Assign => Some(PrecedenceAssign)
    case Lte => Some(PrecedenceCmp) case Gte => Some(PrecedenceCmp)
    case Langle => Some(PrecedenceCmp) case Rangle => Some(PrecedenceCmp) case Eq => Some(PrecedenceCmp)
    case Plus => Some(PrecedenceAddSub) case Minus => Some(PrecedenceAddSub)
    case Asterisk => Some(PrecedenceMulDiv) case Slash => Some(PrecedenceMulDiv)
    case Lparen => Some(PrecedenceCall) case Lsquare => Some(PrecedenceCall) case Period => Some(PrecedenceCall)
    case _ => None
  }

  const EndToken: Token := PyLexer.Token(PyLexer.Eof, PyLexer.Text(""))

  /** The token at position `p`; END past the last one. */
  function At(ts: seq<Token>, p: nat): (t: Token)
    ensures t.kind != PyLexer.Eof && p >= |ts| ==> false
  {
    if p < |ts| then ts[p] else EndToken
  }

  /** The position after reading the token at `p`: reading END does not
      move. */
  function After(ts: seq<Token>, p: nat): (q: nat)
    requires p <= |ts|
    ensures q <= |ts| && (p < |ts| ==> q == p + 1) && (p == |ts| ==> q == p)
  {
    if p < |ts| then p + 1 else p
  }

  /** `p < q`, both positions in the token sequence. */
  predicate Advanced(ts: seq<Token>, p: nat, q: nat) {
    p < q <= |ts|
  }

  /** The message for a token that is not the one wanted. */
  function Unexpected(t: Token): (m: string)
    ensures t.kind == PyLexer.Eof <==> m == "premature end of input"
  {
    if t.kind == PyLexer.Eof then "premature end of input"
    else
      var m := "unexpected token " + PyLexer.TokenRepr(t);
      assert m[0] == 'u';
      m
  }

  /** `expect`: the next token if its type is one of `kinds`, else an error
      naming what was found. */
  function Expect(ts: seq<Token>, p: nat, kinds: set<Kind>): (r: Result<(Token, nat), string>)
    requires p <= |ts|
    ensures r.Ok? <==> At(ts, p).kind in kinds
    ensures r.Ok? ==> r.value.0 == At(ts, p) && r.value.1 == After(ts, p)
    ensures r.Err? ==> r.error == Unexpected(At(ts, p))
  {
    var t := At(ts, p);
    if t.kind in kinds then Ok((t, After(ts, p))) else Err(Unexpected(t))
  }

  /** `skip_newlines`: the first position at or after `p` that does not
      hold a NEWLINE token. */
  function SkipNewlines(ts: seq<Token>, p: nat): (q: nat)
    requires p <= |ts|
    ensures p <= q <= |ts| && At(ts, q).kind != PyLexer.Newline
    ensures forall i :: p <= i < q ==> ts[i].kind == PyLexer.Newline
    decreases |ts| - p
  {
    if At(ts, p).kind == PyLexer.Newline then SkipNewlines(ts, p + 1) else p
  }

  /** `int()` of an INT token's text. The lexer only makes INT tokens of
      digit runs; other text (which `int()` would reject) reads as 0. */
  function IntLiteral(s: string): nat {
    if AllDigits(s) then DigitsValue(s) else 0
  }

  /** The text of a token's value (a symbol's name, an operator). */
  function TextOf(t: Token): string {
    t.value.text
  }

  // ---------------------------------------------------------------------
  // Expressions

  /** `match_expression`: a prefix expression, then every infix operator
      that binds tighter than `precedence`. */
  function MatchExpression(ts: seq<Token>, p: nat, precedence: nat): (r: Result<(Expr, nat), string>)
    requires p <= |ts|
    ensures r.Ok? ==> Advanced(ts, p, r.value.1)
    decreases |ts| - p, 3
  {
    var (left, q) :- MatchPrefix(ts, p);
    InfixLoop(ts, q, precedence, left)
  }

  /** The loop of `match_expression`: `left` so far, and the next token
      decides whether an operator extends it. */
  function InfixLoop(ts: seq<Token>, p: nat, precedence: nat, left: Expr): (r: Result<(Expr, nat), string>)
    requires p <= |ts|
    ensures r.Ok? ==> p <= r.value.1 <= |ts|
    ensures r.Ok? && r.value.1 == p ==> r.value.0 == left
    decreases |ts| - p, 0
  {
    var t := At(ts, p);
    match Precedence(t.kind)
    case Some(tp) =>
      if precedence < tp then
        var (left', q) :- MatchInfix(ts, p + 1, left, t, tp);
        InfixLoop(ts, q, precedence, left')
      else Ok((left, p))
    case None => Ok((left, p))
  }

  /** `match_prefix`: a literal, a symbol, a parenthesised expression, a
      prefix operator applied at `PRECEDENCE_PREFIX`, a list or a map. */
  function MatchPrefix(ts: seq<Token>, p: nat): (r: Result<(Expr, nat), string>)
    requires p <= |ts|
    ensures r.Ok? ==> Advanced(ts, p, r.value.1)
    decreases |ts| - p, 2
  {
    var t := At(ts, p);
    var q := After(ts, p);
    match t.kind
    case Int => Ok((Literal(IntValue(IntLiteral(TextOf(t)))), q))
    case True => Ok((Literal(BoolValue(true)), q))
    case False => Ok((Literal(BoolValue(false)), q))
    case Symbol => Ok((Symbol(TextOf(t)), q))
    case String =>
      Ok((Literal(match t.value case Text(s) => StrValue(s) case Unclosed(s) => UnclosedValue(s)), q))
    case Lparen =>
      var (e, q2) :- MatchExpression(ts, q, PrecedenceLowest);
      var (_, q3) :- Expect(ts, q2, {PyLexer.Rparen});
      Ok((e, q3))
    case Minus =>
      var (e, q2) :- MatchExpression(ts, q, PrecedencePrefix);
      Ok((Prefix("-", e), q2))
    case Not =>
      var (e, q2) :- MatchExpression(ts, q, PrecedencePrefix);
      Ok((Prefix("not", e), q2))
    case Lsquare =>
      var (values, q2) :- ExpressionList(ts, q, []);
      var (_, q3) :- Expect(ts, q2, {PyLexer.Rsquare});
      Ok((List(values), q3))
    case Lcurly =>
      var (pairs, q2) :- PairList(ts, q, []);
      var (_, q3) :- Expect(ts, q2, {PyLexer.Rcurly});
      Ok((Map(pairs), q3))
    case _ => Err(Unexpected(t))
  }

  /** `match_infix`: the operator token `t` has been read; `p` is just after
      it. */
  function MatchInfix(ts: seq<Token>, p: nat, left: Expr, t: Token, precedence: nat): (r: Result<(Expr, nat), string>)
    requires p <= |ts|
    ensures r.Ok? ==> Advanced(ts, p, r.value.1)
    decreases |ts| - p, 6
  {
    match t.kind
    case Lparen =>
      var (args, q) :- ArgumentList(ts, p, []);
      var (_, q2) :- Expect(ts, q, {PyLexer.Rparen});
      Ok((Call(left, args), q2))
    case Lsquare =>
      var (index, q) :- MatchExpression(ts, p, PrecedenceLowest);
      var (_, q2) :- Expect(ts, q, {PyLexer.Rsquare});
      Ok((Index(left, index), q2))
    case Assign =>
      var (right, q) :- MatchExpression(ts, p, precedence);
      Ok((Assign(left, right), q))
    case Period =>
      var (symbol, q) :- Expect(ts, p, {PyLexer.Symbol});
      Ok((FieldAccess(left, TextOf(symbol)), q))
    case _ =>
      var (right, q) :- MatchExpression(ts, p, precedence);
      Ok((Infix(TextOf(t), left, right), q))
  }

  /** `match_comma_separated(match_expression, "TOKEN_RSQUARE")`, with the
      items read so far in `acc`; a trailing comma is allowed. */
  function ExpressionList(ts: seq<Token>, p: nat, acc: seq<Expr>): (r: Result<(seq<Expr>, nat), string>)
    requires p <= |ts|
    ensures r.Ok? ==> p <= r.value.1 <= |ts| && acc <= r.value.0
    decreases |ts| - p, 4
  {
    if At(ts, p).kind == PyLexer.Rsquare then Ok((acc, p))
    else
      var (v, q) :- MatchExpression(ts, p, PrecedenceLowest);
      if At(ts, q).kind == PyLexer.Comma then ExpressionList(ts, q + 1, acc + [v])
      else Ok((acc + [v], q))
  }

  /** `match_argument`: an expression, or `label: expression` when the
      expression is a bare symbol followed by a colon. */
  function MatchArgument(ts: seq<Token>, p: nat): (r: Result<(Expr, nat), string>)
    requires p <= |ts|
    ensures r.Ok? ==> Advanced(ts, p, r.value.1)
    decreases |ts| - p, 4
  {
    var (argument, q) :- MatchExpression(ts, p, PrecedenceLowest);
    if argument.Symbol? && At(ts, q).kind == PyLexer.Colon then
      var (value, q2) :- MatchExpression(ts, q + 1, PrecedenceLowest);
      Ok((KeywordArgument(argument.name, value), q2))
    else Ok((argument, q))
  }

  /** The arguments of a call, up to the closing parenthesis. */
  function ArgumentList(ts: seq<Token>, p: nat, acc: seq<Expr>): (r: Result<(seq<Expr>, nat), string>)
    requires p <= |ts|
    ensures r.Ok? ==> p <= r.value.1 <= |ts| && acc <= r.value.0
    decreases |ts| - p, 5
  {
    if At(ts, p).kind == PyLexer.Rparen then Ok((acc, p))
    else
      var (v, q) :- MatchArgument(ts, p);
      if At(ts, q).kind == PyLexer.Comma then ArgumentList(ts, q + 1, acc + [v])
      else Ok((acc + [v], q))
  }

  /** `match_key_value_pair`. */
  function MatchPair(ts: seq<Token>, p: nat): (r: Result<(Pair, nat), string>)
    requires p <= |ts|
    ensures r.Ok? ==> Advanced(ts, p, r.value.1)
    decreases |ts| - p, 4
  {
    var (key, q) :- MatchExpression(ts, p, PrecedenceLowest);
    var (_, q2) :- Expect(ts, q, {PyLexer.Colon});
    var (value, q3) :- MatchExpression(ts, q2, PrecedenceLowest);
    Ok((Pair(key, value), q3))
  }

  /** The entries of a map literal, up to the closing brace. */
  function PairList(ts: seq<Token>, p: nat, acc: seq<Pair>): (r: Result<(seq<Pair>, nat), string>)
    requires p <= |ts|
    ensures r.Ok? ==> p <= r.value.1 <= |ts| && acc <= r.value.0
    decreases |ts| - p, 5
  {
    if At(ts, p).kind == PyLexer.Rcurly then Ok((acc, p))
    else
      var (v, q) :- MatchPair(ts, p);
      if At(ts, q).kind == PyLexer.Comma then PairList(ts, q + 1, acc + [v])
      else Ok((acc + [v], q))
  }

  // ---------------------------------------------------------------------
  // Types and parameters

  /** `match_type`: a name, optionally followed by `<` type parameters `>`. */
  function MatchType(ts: seq<Token>, p: nat): (r: Result<(TypeExpr, nat), string>)
    requires p <= |ts|
    ensures r.Ok? ==> Advanced(ts, p, r.value.1)
    decreases |ts| - p, 1
  {
    var (symbol, q) :- Expect(ts, p, {PyLexer.Symbol});
    if At(ts, q).kind == PyLexer.Langle then
      var (inner, q2) :- TypeList(ts, q + 1, []);
      var (_, q3) :- Expect(ts, q2, {PyLexer.Rangle});
      Ok((ParameterizedType(TextOf(symbol), inner), q3))
    else Ok((TypeName(TextOf(symbol)), q))
  }

  function TypeList(ts: seq<Token>, p: nat, acc: seq<TypeExpr>): (r: Result<(seq<TypeExpr>, nat), string>)
    requires p <= |ts|
    ensures r.Ok? ==> p <= r.value.1 <= |ts| && acc <= r.value.0
    decreases |ts| - p, 2
  {
    if At(ts, p).kind == PyLexer.Rangle then Ok((acc, p))
    else
      var (v, q) :- MatchType(ts, p);
      if At(ts, q).kind == PyLexer.Comma then TypeList(ts, q + 1, acc + [v])
      else Ok((acc + [v], q))
  }

  /** `match_parameter`: `name: type`. */
  function MatchParameter(ts: seq<Token>, p: nat): (r: Result<(Param, nat), string>)
    requires p <= |ts|
    ensures r.Ok? ==> Advanced(ts, p, r.value.1)
    decreases |ts| - p, 1
  {
    var (symbol, q) :- Expect(ts, p, {PyLexer.Symbol});
    var (_, q2) :- Expect(ts, q, {PyLexer.Colon});
    var (ty, q3) :- MatchType(ts, q2);
    Ok((Param(TextOf(symbol), ty), q3))
  }

  function ParameterList(ts: seq<Token>, p: nat, acc: seq<Param>): (r: Result<(seq<Param>, nat), string>)
    requires p <= |ts|
    ensures r.Ok? ==> p <= r.value.1 <= |ts| && acc <= r.value.0
    decreases |ts| - p, 2
  {
    if At(ts, p).kind == PyLexer.Rparen then Ok((acc, p))
    else
      var (v, q) :- MatchParameter(ts, p);
      if At(ts, q).kind == PyLexer.Comma then ParameterList(ts, q + 1, acc + [v])
      else Ok((acc + [v], q))
  }

  // ---------------------------------------------------------------------
  // Statements

  /** `match_statement`: a keyword statement, or an expression followed by
      a newline; an assignment expression is its own statement. */
  function MatchStatement(ts: seq<Token>, p: nat): (r: Result<(Stmt, nat), string>)
    requires p <= |ts|
    ensures r.Ok? ==> Advanced(ts, p, r.value.1)
    decreases |ts| - p, 8
  {
    var t := At(ts, p);
    var q := After(ts, p);
    match t.kind
    case Let => MatchLet(ts, q)
    case Return => MatchReturn(ts, q)
    case If => MatchIf(ts, q)
    case While => MatchWhile(ts, q)
    case For => MatchFor(ts, q)
    case Struct => MatchStruct(ts, q)
    case _ =>
      var (value, q2) :- MatchExpression(ts, p, PrecedenceLowest);
      var (_, q3) :- Expect(ts, q2, {PyLexer.Newline});
      Ok((if value.Assign? then Assignment(value.target, value.value) else ExpressionStatement(value), q3))
  }

  /** `let name = expression` and a newline. */
  function MatchLet(ts: seq<Token>, p: nat): (r: Result<(Stmt, nat), string>)
    requires p <= |ts|
    ensures r.Ok? ==> Advanced(ts, p, r.value.1)
    decreases |ts| - p, 7
  {
    var (symbol, q) :- Expect(ts, p, {PyLexer.Symbol});
    var (_, q2) :- Expect(ts, q, {PyLexer.Assign});
    var (value, q3) :- MatchExpression(ts, q2, PrecedenceLowest);
    var (_, q4) :- Expect(ts, q3, {PyLexer.Newline});
    Ok((Let(TextOf(symbol), value), q4))
  }

  function MatchReturn(ts: seq<Token>, p: nat): (r: Result<(Stmt, nat), string>)
    requires p <= |ts|
    ensures r.Ok? ==> Advanced(ts, p, r.value.1)
    decreases |ts| - p, 7
  {
    var (value, q) :- MatchExpression(ts, p, PrecedenceLowest);
    var (_, q2) :- Expect(ts, q, {PyLexer.Newline});
    Ok((Return(value), q2))
  }

  /** `match_if`: the first clause, then `IfLoop` for the rest. */
  function MatchIf(ts: seq<Token>, p: nat): (r: Result<(Stmt, nat), string>)
    requires p <= |ts|
    ensures r.Ok? ==> Advanced(ts, p, r.value.1) && r.value.0.If? && |r.value.0.clauses| >= 1
    decreases |ts| - p, 7
  {
    var (condition, q) :- MatchExpression(ts, p, PrecedenceLowest);
    var (body, q2) :- MatchBlock(ts, q);
    IfLoop(ts, q2, [IfClause(condition, body)], NoElse)
  }

  /** After a clause: `elif` adds a clause, `else` sets (or replaces) the
      else block, and a newline or the end of input ends the statement. */
  function IfLoop(ts: seq<Token>, p: nat, clauses: seq<IfClause>, elseClause: ElseClause): (r: Result<(Stmt, nat), string>)
    requires p <= |ts|
    ensures r.Ok? ==> p <= r.value.1 <= |ts| && r.value.0.If? && clauses <= r.value.0.clauses
    decreases |ts| - p, 7
  {
    var (t, q) :- Expect(ts, p, {PyLexer.Elif, PyLexer.Else, PyLexer.Newline, PyLexer.Eof});
    if t.kind == PyLexer.Elif then
      var (condition, q2) :- MatchExpression(ts, q, PrecedenceLowest);
      var (body, q3) :- MatchBlock(ts, q2);
      IfLoop(ts, q3, clauses + [IfClause(condition, body)], elseClause)
    else if t.kind == PyLexer.Else then
      var (body, q2) :- MatchBlock(ts, q);
      IfLoop(ts, q2, clauses, Else(body))
    else Ok((If(clauses, elseClause), q))
  }

  function MatchWhile(ts: seq<Token>, p: nat): (r: Result<(Stmt, nat), string>)
    requires p <= |ts|
    ensures r.Ok? ==> Advanced(ts, p, r.value.1)
    decreases |ts| - p, 7
  {
    var (condition, q) :- MatchExpression(ts, p, PrecedenceLowest);
    var (body, q2) :- MatchBlock(ts, q);
    Ok((While(condition, body), q2))
  }

  /** `for name in expression { ... }`. */
  function MatchFor(ts: seq<Token>, p: nat): (r: Result<(Stmt, nat), string>)
    requires p <= |ts|
    ensures r.Ok? ==> Advanced(ts, p, r.value.1)
    decreases |ts| - p, 7
  {
    var (symbol, q) :- Expect(ts, p, {PyLexer.Symbol});
    var (_, q2) :- Expect(ts, q, {PyLexer.In});
    var (iterable, q3) :- MatchExpression(ts, q2, PrecedenceLowest);
    var (body, q4) :- MatchBlock(ts, q3);
    Ok((For(TextOf(symbol), iterable, body), q4))
  }

  /** `struct Name { field: type, ... }` and a newline: at least one field,
      separated by commas, no trailing comma. */
  function MatchStruct(ts: seq<Token>, p: nat): (r: Result<(Stmt, nat), string>)
    requires p <= |ts|
    ensures r.Ok? ==> Advanced(ts, p, r.value.1) && r.value.0.StructDeclaration? && |r.value.0.fields| >= 1
    decreases |ts| - p, 7
  {
    var (symbol, q) :- Expect(ts, p, {PyLexer.Symbol});
    var (_, q2) :- Expect(ts, q, {PyLexer.Lcurly});
    var (fields, q3) :- FieldList(ts, q2, []);
    var (_, q4) :- Expect(ts, q3, {PyLexer.Newline});
    Ok((StructDeclaration(TextOf(symbol), fields), q4))
  }

  function FieldList(ts: seq<Token>, p: nat, acc: seq<Param>): (r: Result<(seq<Param>, nat), string>)
    requires p <= |ts|
    ensures r.Ok? ==> Advanced(ts, p, r.value.1) && |r.value.0| > |acc| && acc <= r.value.0
    decreases |ts| - p, 7
  {
    var (field, q) :- MatchParameter(ts, p);
    var (t, q2) :- Expect(ts, q, {PyLexer.Comma, PyLexer.Rcurly});
    if t.kind == PyLexer.Comma then FieldList(ts, q2, acc + [field])
    else Ok((acc + [field], q2))
  }

  /** `match_block`: `{`, a newline, then statements (blank lines skipped)
      up to `}`. */
  function MatchBlock(ts: seq<Token>, p: nat): (r: Result<(seq<Stmt>, nat), string>)
    requires p <= |ts|
    ensures r.Ok? ==> Advanced(ts, p, r.value.1)
    decreases |ts| - p, 7
  {
    var (_, q) :- Expect(ts, p, {PyLexer.Lcurly});
    var (_, q2) :- Expect(ts, q, {PyLexer.Newline});
    BlockLoop(ts, q2, [])
  }

  function BlockLoop(ts: seq<Token>, p: nat, acc: seq<Stmt>): (r: Result<(seq<Stmt>, nat), string>)
    requires p <= |ts|
    ensures r.Ok? ==> Advanced(ts, p, r.value.1) && acc <= r.value.0
    decreases |ts| - p, 9
  {
    var q := SkipNewlines(ts, p);
    if At(ts, q).kind == PyLexer.Rcurly then Ok((acc, q + 1))
    else
      var (s, q2) :- MatchStatement(ts, q);
      BlockLoop(ts, q2, acc + [s])
  }

  /** `match_function`, after `fn`: name, parameters, return type, body. */
  function MatchFunction(ts: seq<Token>, p: nat): (r: Result<(Stmt, nat), string>)
    requires p <= |ts|
    ensures r.Ok? ==> Advanced(ts, p, r.value.1) && r.value.0.Function?
    decreases |ts| - p, 7
  {
    var (symbol, q) :- Expect(ts, p, {PyLexer.Symbol});
    var (_, q2) :- Expect(ts, q, {PyLexer.Lparen});
    var (parameters, q3) :- ParameterList(ts, q2, []);
    var (_, q4) :- Expect(ts, q3, {PyLexer.Rparen});
    var (_, q5) :- Expect(ts, q4, {PyLexer.Colon});
    var (returnType, q6) :- MatchType(ts, q5);
    var (body, q7) :- MatchBlock(ts, q6);
    Ok((Function(TextOf(symbol), parameters, returnType, body), q7))
  }

  /** The loop of `parse`: functions and statements, blank lines skipped,
      up to the end of input. */
  function ParseLoop(ts: seq<Token>, p: nat, acc: seq<Stmt>): (r: Result<seq<Stmt>, string>)
    requires p <= |ts|
    ensures r.Ok? ==> acc <= r.value
    decreases |ts| - p, 9
  {
    var q := SkipNewlines(ts, p);
    var t := At(ts, q);
    if t.kind == PyLexer.Eof then Ok(acc)
    else if t.kind == PyLexer.Fn then
      var (f, q2) :- MatchFunction(ts, q + 1);
      ParseLoop(ts, q2, acc + [f])
    else
      var (s, q2) :- MatchStatement(ts, q);
      ParseLoop(ts, q2, acc + [s])
  }

  /** `parse` over a token sequence. */
  function ParseTokens(ts: seq<Token>): Result<Program, string> {
    var statements :- ParseLoop(ts, 0, []);
    Ok(Program(statements))
  }

  /** `vparse`: lex, then parse. */
  function Parse(input: string): Result<Program, string> {
    ParseTokens(PyLexer.Lex(input))
  }

  // ---------------------------------------------------------------------
  // Properties

  /** `expect` at the end of input reports a premature end, unless END is
      what it expects. */
  lemma ExpectAtEnd(ts: seq<Token>, kinds: set<Kind>)
    requires PyLexer.Eof !in kinds
    ensures Expect(ts, |ts|, kinds) == Err("premature end of input")
  {
  }

  /** `expect` on a token of a kind not wanted names that token. */
  lemma ExpectUnexpected(ts: seq<Token>, p: nat, kinds: set<Kind>)
    requires p < |ts| && ts[p].kind !in kinds && ts[p].kind != PyLexer.Eof
    ensures Expect(ts, p, kinds) == Err("unexpected token " + PyLexer.TokenRepr(ts[p]))
  {
  }

  /** The operators that build an `Infix` node. */
  predicate Binary(k: Kind) {
    k in {PyLexer.Lte, PyLexer.Gte, PyLexer.Langle, PyLexer.Rangle, PyLexer.Eq,
          PyLexer.Plus, PyLexer.Minus, PyLexer.Asterisk, PyLexer.Slash}
  }

  /** A token that does not continue an expression at `precedence`. */
  predicate Stops(t: Token, precedence: nat) {
    Precedence(t.kind).None? || Precedence(t.kind).value <= precedence
  }

  /** The loop ends, leaving the token in place, at a token that does not
      bind tighter than the current precedence. */
  lemma InfixLoopStops(ts: seq<Token>, p: nat, precedence: nat, left: Expr)
    requires p <= |ts| && Stops(At(ts, p), precedence)
    ensures InfixLoop(ts, p, precedence, left) == Ok((left, p))
  {
  }

  /** A symbol followed by a token that does not continue the expression is
      the whole expression. */
  lemma SymbolExpression(ts: seq<Token>, p: nat, precedence: nat)
    requires p < |ts| && ts[p].kind == PyLexer.Symbol && Stops(At(ts, p + 1), precedence)
    ensures MatchExpression(ts, p, precedence) == Ok((Symbol(TextOf(ts[p])), p + 1))
  {
    assert MatchPrefix(ts, p) == Ok((Symbol(TextOf(ts[p])), p + 1));
    InfixLoopStops(ts, p + 1, precedence, Symbol(TextOf(ts[p])));
  }

  /** From `p` on: symbol, binary operator, symbol, binary operator, symbol,
      then a token that does not continue an expression. */
  predicate ThreeOperands(ts: seq<Token>, p: nat) {
    p + 5 <= |ts|
    && ts[p].kind == PyLexer.Symbol && ts[p + 2].kind == PyLexer.Symbol && ts[p + 4].kind == PyLexer.Symbol
    && Binary(ts[p + 1].kind) && Binary(ts[p + 3].kind)
    && Precedence(At(ts, p + 5).kind).None?
  }

  /** Binary operators all have a precedence between comparison and
      multiplication. */
  lemma BinaryPrecedence(k: Kind)
    requires Binary(k)
    ensures Precedence(k).Some? && PrecedenceCmp <= Precedence(k).value <= PrecedenceMulDiv
  {
  }

  /** `a o1 b o2 c` with `o2` binding tighter nests the second operation on
      the right: `a o1 (b o2 c)`. */
  lemma {:induction false} TighterNestsRight(ts: seq<Token>, p: nat)
    requires ThreeOperands(ts, p)
    requires Precedence(ts[p + 1].kind).value < Precedence(ts[p + 3].kind).value
    ensures MatchExpression(ts, p, PrecedenceLowest)
      == Ok((Infix(TextOf(ts[p + 1]), Symbol(TextOf(ts[p])), Infix(TextOf(ts[p + 3]), Symbol(TextOf(ts[p + 2])), Symbol(TextOf(ts[p + 4])))), p + 5))
  {
    var o1, o2 := ts[p + 1], ts[p + 3];
    BinaryPrecedence(o1.kind);
    BinaryPrecedence(o2.kind);
    var prec1, prec2 := Precedence(o1.kind).value, Precedence(o2.kind).value;
    var ea, eb, ec := Symbol(TextOf(ts[p])), Symbol(TextOf(ts[p + 2])), Symbol(TextOf(ts[p + 4]));
    SymbolExpression(ts, p + 4, prec2);
    assert MatchInfix(ts, p + 4, eb, o2, prec2) == Ok((Infix(TextOf(o2), eb, ec), p + 5));
    InfixLoopStops(ts, p + 5, prec1, Infix(TextOf(o2), eb, ec));
    assert InfixLoop(ts, p + 3, prec1, eb) == Ok((Infix(TextOf(o2), eb, ec), p + 5));
    assert MatchPrefix(ts, p + 2) == Ok((eb, p + 3));
    assert MatchExpression(ts, p + 2, prec1) == Ok((Infix(TextOf(o2), eb, ec), p + 5));
    var whole := Infix(TextOf(o1), ea, Infix(TextOf(o2), eb, ec));
    assert MatchInfix(ts, p + 2, ea, o1, prec1) == Ok((whole, p + 5));
    InfixLoopStops(ts, p + 5, PrecedenceLowest, whole);
    assert MatchPrefix(ts, p) == Ok((ea, p + 1));
  }

  /** `a o1 b o2 c` with `o2` not binding tighter nests the first operation
      on the left: `(a o1 b) o2 c`, so equal precedence associates left. */
  lemma {:induction false} OtherwiseNestsLeft(ts: seq<Token>, p: nat)
    requires ThreeOperands(ts, p)
    requires Precedence(ts[p + 3].kind).value <= Precedence(ts[p + 1].kind).value
    ensures MatchExpression(ts, p, PrecedenceLowest)
      == Ok((Infix(TextOf(ts[p + 3]), Infix(TextOf(ts[p + 1]), Symbol(TextOf(ts[p])), Symbol(TextOf(ts[p + 2]))), Symbol(TextOf(ts[p + 4]))), p + 5))
  {
    var o1, o2 := ts[p + 1], ts[p + 3];
    BinaryPrecedence(o1.kind);
    BinaryPrecedence(o2.kind);
    var prec1, prec2 := Precedence(o1.kind).value, Precedence(o2.kind).value;
    var ea, eb, ec := Symbol(TextOf(ts[p])), Symbol(TextOf(ts[p + 2])), Symbol(TextOf(ts[p + 4]));
    SymbolExpression(ts, p + 2, prec1);
    var left := Infix(TextOf(o1), ea, eb);
    assert MatchInfix(ts, p + 2, ea, o1, prec1) == Ok((left, p + 3));
    SymbolExpression(ts, p + 4, prec2);
    var whole := Infix(TextOf(o2), left, ec);
    assert MatchInfix(ts, p + 4, left, o2, prec2) == Ok((whole, p + 5));
    InfixLoopStops(ts, p + 5, PrecedenceLowest, whole);
    assert InfixLoop(ts, p + 3, PrecedenceLowest, left) == Ok((whole, p + 5));
    assert MatchPrefix(ts, p) == Ok((ea, p + 1));
  }

  /** Prefix `-` takes only the operand before any binary operator: `- a o b`
      is `(- a) o b`. */
  lemma {:induction false} PrefixBindsTighter(ts: seq<Token>, p: nat)
    requires p + 4 <= |ts| && ts[p].kind == PyLexer.Minus
    requires ts[p + 1].kind == PyLexer.Symbol && Binary(ts[p + 2].kind) && ts[p + 3].kind == PyLexer.Symbol
    requires Precedence(At(ts, p + 4).kind).None?
    ensures MatchExpression(ts, p, PrecedenceLowest)
      == Ok((Infix(TextOf(ts[p + 2]), Prefix("-", Symbol(TextOf(ts[p + 1]))), Symbol(TextOf(ts[p + 3]))), p + 4))
  {
    var o := ts[p + 2];
    BinaryPrecedence(o.kind);
    var prec := Precedence(o.kind).value;
    var ea, eb := Symbol(TextOf(ts[p + 1])), Symbol(TextOf(ts[p + 3]));
    SymbolExpression(ts, p + 1, PrecedencePrefix);
    assert MatchPrefix(ts, p) == Ok((Prefix("-", ea), p + 2));
    SymbolExpression(ts, p + 3, prec);
    var whole := Infix(TextOf(o), Prefix("-", ea), eb);
    assert MatchInfix(ts, p + 3, Prefix("-", ea), o, prec) == Ok((whole, p + 4));
    InfixLoopStops(ts, p + 4, PrecedenceLowest, whole);
  }

  /** A bare symbol, a colon and an expression form a keyword argument. */
  lemma KeywordArgumentParsed(ts: seq<Token>, p: nat)
    requires p + 3 <= |ts| && ts[p].kind == PyLexer.Symbol && ts[p + 1].kind == PyLexer.Colon
    requires ts[p + 2].kind == PyLexer.Symbol && Stops(At(ts, p + 3), PrecedenceLowest)
    ensures MatchArgument(ts, p) == Ok((KeywordArgument(TextOf(ts[p]), Symbol(TextOf(ts[p + 2]))), p + 3))
  {
    SymbolExpression(ts, p, PrecedenceLowest);
    SymbolExpression(ts, p + 2, PrecedenceLowest);
  }

  /** Without the colon, the symbol is a positional argument. */
  lemma PositionalArgument(ts: seq<Token>, p: nat)
    requires p + 1 <= |ts| && ts[p].kind == PyLexer.Symbol
    requires Stops(At(ts, p + 1), PrecedenceLowest) && At(ts, p + 1).kind != PyLexer.Colon
    ensures MatchArgument(ts, p) == Ok((Symbol(TextOf(ts[p])), p + 1))
  {
    SymbolExpression(ts, p, PrecedenceLowest);
  }

  /** A list literal may end with a comma: `[a, ]` is the list of `a`. */
  lemma TrailingComma(ts: seq<Token>, p: nat)
    requires p + 4 <= |ts| && ts[p].kind == PyLexer.Lsquare && ts[p + 1].kind == PyLexer.Symbol
    requires ts[p + 2].kind == PyLexer.Comma && ts[p + 3].kind == PyLexer.Rsquare
    ensures MatchPrefix(ts, p) == Ok((List([Symbol(TextOf(ts[p + 1]))]), p + 4))
  {
    SymbolExpression(ts, p + 1, PrecedenceLowest);
    var a: seq<Expr> := [Symbol(TextOf(ts[p + 1]))];
    assert [] + a == a;
    assert ExpressionList(ts, p + 3, [Symbol(TextOf(ts[p + 1]))]) == Ok(([Symbol(TextOf(ts[p + 1]))], p + 3));
    assert ExpressionList(ts, p + 1, []) == Ok(([Symbol(TextOf(ts[p + 1]))], p + 3));
  }

  /** `x = y` on a line of its own is an assignment statement. */
  lemma AssignmentStatement(ts: seq<Token>, p: nat)
    requires p + 4 <= |ts| && ts[p].kind == PyLexer.Symbol && ts[p + 1].kind == PyLexer.Assign
    requires ts[p + 2].kind == PyLexer.Symbol && ts[p + 3].kind == PyLexer.Newline
    ensures MatchStatement(ts, p) == Ok((Assignment(Symbol(TextOf(ts[p])), Symbol(TextOf(ts[p + 2]))), p + 4))
  {
    var ex, ey := Symbol(TextOf(ts[p])), Symbol(TextOf(ts[p + 2]));
    SymbolExpression(ts, p + 2, PrecedenceAssign);
    assert MatchInfix(ts, p + 2, ex, ts[p + 1], PrecedenceAssign) == Ok((Assign(ex, ey), p + 3));
    InfixLoopStops(ts, p + 3, PrecedenceLowest, Assign(ex, ey));
    assert MatchPrefix(ts, p) == Ok((ex, p + 1));
    assert MatchExpression(ts, p, PrecedenceLowest) == Ok((Assign(ex, ey), p + 3));
  }

  /** Blank lines before a statement or function are skipped, and a token
      sequence of only newlines is the empty program. */
  lemma {:induction false} OnlyNewlines(ts: seq<Token>)
    requires forall i :: 0 <= i < |ts| ==> ts[i].kind == PyLexer.Newline
    ensures ParseTokens(ts) == Ok(Program([]))
  {
    assert SkipNewlines(ts, 0) == |ts|;
  }
}

=== FILE: py_repr.dfy ===
/** Python's `repr()` on the values the Python generations print: strings,
    integers, booleans and lists of strings. */
module PyRepr {
  import opened Wrappers
  import opened Text

  /** The quote `repr()` puts around `s`: a double quote only when `s`
      contains a single quote and no double quote. */
  function QuoteFor(s: string): (q: char)
    ensures q == '\'' || q == '"'
    ensures q == '"' <==> ('\'' in s && '"' !in s)
  {
    if '\'' in s && '"' !in s then '"' else '\''
  }

  function HexDigit(d: nat): (c: char)
    requires d < 16
  {
    if d < 10 then DigitChar(d) else ((d - 10) + 'a' as int) as char
  }

  function HexValue(c: char): (r: Option<nat>)
    ensures r.Some? ==> r.value < 16
  {
    if '0' <= c <= '9' then Some(c as int - '0' as int)
    else if 'a' <= c <= 'f' then Some(c as int - 'a' as int + 10)
    else None
  }

  /** Control characters that `repr()` writes as `\xNN`. */
  predicate IsHexEscaped(c: char) {
    (c < ' ' && c != '\n' && c != '\r' && c != '\t') || c == '\U{7F}'
  }

  /** The text `repr()` writes for one character inside quotes `q`. */
  function EscapeChar(c: char, q: char): (r: string)
    ensures |r| >= 1
    ensures r[0] == '\\' <==> (c == '\\' || c == q || c == '\n' || c == '\r' || c == '\t' || IsHexEscaped(c))
  {
    if c == '\\' then "\\\\"
    else if c == q then ['\\', q]
    else if c == '\n' then "\\n"
    else if c == '\r' then "\\r"
    else if c == '\t' then "\\t"
    else if IsHexEscaped(c) then ['\\', 'x', HexDigit(c as int / 16), HexDigit(c as int % 16)]
    else [c]
  }

  function EscapeBody(s: string, q: char): (r: string)
    ensures |r| >= |s|
  {
    if s == [] then [] else EscapeChar(s[0], q) + EscapeBody(s[1..], q)
  }

  /** `repr(s)` for a string whose characters are all ASCII or printable. */
  function StrRepr(s: string): (r: string)
    ensures |r| >= 2 && r[0] == r[|r| - 1] == QuoteFor(s)
  {
    var q := QuoteFor(s);
    [q] + EscapeBody(s, q) + [q]
  }

  function BoolRepr(b: bool): string {
    if b then "True" else "False"
  }

  /** `repr()` of a list of strings: `['a', 'b']`. */
  function StrListRepr(items: seq<string>): (r: string)
    ensures |r| >= 2 && r[0] == '[' && r[|r| - 1] == ']'
  {
    "[" + Join(Map(items), ", ") + "]"
  }

  function Map(items: seq<string>): (r: seq<string>)
    ensures |r| == |items|
    ensures forall i :: 0 <= i < |items| ==> r[i] == StrRepr(items[i])
  {
    if items == [] then [] else [StrRepr(items[0])] + Map(items[1..])
  }

  /** Reads back the body of a quoted string: the inverse of `EscapeBody`. */
  function Unescape(t: string, q: char): Option<string>
    decreases |t|
  {
    if t == [] then Some([])
    else if t[0] != '\\' then
      if t[0] == q then None
      else match Unescape(t[1..], q) { case None => None case Some(rest) => Some([t[0]] + rest) }
    else if |t| < 2 then None
    else
      var e := t[1];
      if e == '\\' || e == q || e == 'n' || e == 'r' || e == 't' then
        var c := if e == 'n' then '\n' else if e == 'r' then '\r' else if e == 't' then '\t' else e;
        match Unescape(t[2..], q) { case None => None case Some(rest) => Some([c] + rest) }
      else if e == 'x' && |t| >= 4 && HexValue(t[2]).Some? && HexValue(t[3]).Some? then
        var c := (HexValue(t[2]).value * 16 + HexValue(t[3]).value) as char;
        match Unescape(t[4..], q) { case None => None case Some(rest) => Some([c] + rest) }
      else None
  }

  lemma HexRoundTrip(d: nat)
    requires d < 16
    ensures HexValue(HexDigit(d)) == Some(d)
  {
  }

  lemma {:induction false} UnescapeEscapeChar(c: char, q: char, rest: string)
    requires q == '\'' || q == '"'
    ensures Unescape(EscapeChar(c, q) + rest, q).Some? <==> Unescape(rest, q).Some?
    ensures Unescape(rest, q).Some? ==> Unescape(EscapeChar(c, q) + rest, q) == Some([c] + Unescape(rest, q).value)
  {
    var t := EscapeChar(c, q) + rest;
    if c == '\\' || c == q || c == '\n' || c == '\r' || c == '\t' {
      assert t[2..] == rest;
    } else if IsHexEscaped(c) {
      HexRoundTrip(c as int / 16);
      HexRoundTrip(c as int % 16);
      assert t[4..] == rest;
    } else {
      assert t[1..] == rest;
    }
  }

  /** `repr()` loses nothing: the quoted body reads back to the original string. */
  lemma {:induction false} StrReprRoundTrip(s: string)
    ensures var r := StrRepr(s); Unescape(r[1..|r| - 1], QuoteFor(s)) == Some(s)
  {
    var q := QuoteFor(s);
    var r := StrRepr(s);
    assert r[1..|r| - 1] == EscapeBody(s, q);
    EscapeBodyRoundTrip(s, q);
  }

  lemma {:induction false} EscapeBodyRoundTrip(s: string, q: char)
    requires q == '\'' || q == '"'
    ensures Unescape(EscapeBody(s, q), q) == Some(s)
  {
    if s != [] {
      EscapeBodyRoundTrip(s[1..], q);
      UnescapeEscapeChar(s[0], q, EscapeBody(s[1..], q));
      assert [s[0]] + s[1..] == s;
    }
  }
}

=== FILE: rust_analyzer.dfy ===
/** The analyzer of the Rust generation (src/analyzer.rs): it turns the
    parse tree into the typed tree, resolving names through a chain of
    scopes, giving every declared symbol a unique name and a stack slot,
    and recording an error for every rule a program breaks. It never
    stops at an error: the rejected node becomes an error node and the
    analysis goes on, so that `Analyze` reports every error at once.

    The analyzer's mutable fields become the `Analyzer` state, which
    every step takes and returns. The table of type names is the fixed
    `BuiltinTypes` (the analyzer never adds to it). */
module RustAnalyzer {
  import opened Wrappers
  import opened Text
  import A = RustAst
  import P = RustParseTree
  import L = GoLexer

  // ---------------------------------------------------------------------
  // Errors

  /** An error message. The messages that print a type are kept as the
      types they print; formatting a type is not modelled. */
  datatype Message =
    | Plain(text: string)
    | TypeMismatch(expected: A.Type, actual: A.Type)   // "expected {}, got {}"
    | CannotConcatenate(operand: A.Type)               // "cannot concatenate value of type {}"
    | CannotCall(callee: A.Type)                       // "cannot call non-function type {}"
    | CannotIndex(indexed: A.Type)                     // "cannot index non-list, non-map type {}"
    | CannotIndexTuple(tuple: A.Type)                  // "cannot index non-tuple type {}"

  datatype VeniceError = VeniceError(message: Message, location: Position)

  const NotImplemented: Message := Plain("not implemented")

  // ---------------------------------------------------------------------
  // The symbol table

  type Scope = map<string, A.SymbolEntry>

  /** A chain of scopes, outermost first. */
  type SymbolTable = seq<Scope>

  /** SymbolTable::get: the entry in the innermost scope that defines the
      name. */
  function Get(table: SymbolTable, key: string): (r: Option<A.SymbolEntry>)
    ensures r.Some? <==> exists i :: 0 <= i < |table| && key in table[i]
    ensures r.Some? ==> exists i :: 0 <= i < |table| && key in table[i] && r.value == table[i][key]
                                    && forall j :: i < j < |table| ==> key !in table[j]
    decreases |table|
  {
    if |table| == 0 then None
    else if key in table[|table| - 1] then Some(table[|table| - 1][key])
    else Get(table[..|table| - 1], key)
  }

  /** SymbolTable::insert: define (or redefine) a name in the innermost
      scope. */
  function Insert(table: SymbolTable, key: string, entry: A.SymbolEntry): SymbolTable
    requires |table| > 0
  {
    table[..|table| - 1] + [table[|table| - 1][key := entry]]
  }

  /** SymbolTable::remove: drop a name from the innermost scope. */
  function Remove(table: SymbolTable, key: string): SymbolTable
    requires |table| > 0
  {
    table[..|table| - 1] + [table[|table| - 1] - {key}]
  }

  /** SymbolTable::push_scope. */
  function PushScope(table: SymbolTable): SymbolTable {
    table + [map[]]
  }

  /** SymbolTable::pop_scope: drops the innermost scope, if any. */
  function PopScope(table: SymbolTable): SymbolTable {
    if |table| == 0 then table else table[..|table| - 1]
  }

  /** SymbolTable::builtin_types: the type names every program knows. */
  const BuiltinTypes: SymbolTable := [map[
    "i64" := A.TypeEntry(A.I64),
    "bool" := A.TypeEntry(A.Boolean),
    "string" := A.TypeEntry(A.String),
    "void" := A.TypeEntry(A.Void)]]

  /** SymbolTable::builtin_globals: the runtime's printing functions. */
  const BuiltinGlobals: SymbolTable := [map[
    "println" := A.ExternalEntry("venice_println", A.Function([A.String], A.Void)),
    "printint" := A.ExternalEntry("venice_printint", A.Function([A.I64], A.Void))]]

  // ---------------------------------------------------------------------
  // The analyzer's state

  /** The analyzer's fields. `frameSize` is the current function's stack
      frame size: the source keeps it in an Option that is set before the
      first statement of the first function, and statements occur only in
      function bodies, so it is always present where it is read. */
  datatype Analyzer = Analyzer(
    symbols: SymbolTable,
    returnType: Option<A.Type>,
    frameSize: int,
    errors: seq<VeniceError>,
    counter: nat,
    stackOffset: int)

  /** Analyzer::new. */
  const Initial: Analyzer := Analyzer(BuiltinGlobals, None, 0, [], 0, 0)

  /** Analyzer::error: record an error and carry on. */
  function Fail(st: Analyzer, message: Message, location: Position): Analyzer {
    st.(errors := st.errors + [VeniceError(message, location)])
  }

  /** Analyzer::assert_type: a mismatch error unless `actual` matches
      `expected`. */
  function AssertType(st: Analyzer, actual: A.Type, expected: A.Type, location: Position): Analyzer {
    if A.Matches(actual, expected) then st else Fail(st, TypeMismatch(expected, actual), location)
  }

  /** The name `claim_unique_name` makes from a prefix and a counter. */
  function UniqueName(prefix: string, n: nat): string {
    prefix + "__" + NatToString(n)
  }

  /** Analyzer::claim_unique_name: the next unique name for a prefix. */
  function ClaimUniqueName(st: Analyzer, prefix: string): (r: (string, Analyzer))
    ensures r.0 == UniqueName(prefix, st.counter)
    ensures r.1 == st.(counter := st.counter + 1)
  {
    (prefix + "__" + NatToString(st.counter), st.(counter := st.counter + 1))
  }

  /** An expression step changes nothing but the error list, and that only
      by appending. */
  predicate OnlyErrorsAdded(st: Analyzer, st': Analyzer) {
    st' == st.(errors := st'.errors) && st.errors <= st'.errors
  }

  /** What a statement may change: it defines names only in the innermost
      scope, claims names only forward, appends errors, and hands out
      stack slots only by growing the frame by what it takes from the
      stack offset. */
  predicate StatementStep(st: Analyzer, st': Analyzer) {
    1 <= |st.symbols| && |st'.symbols| == |st.symbols|
    && st'.symbols[..|st.symbols| - 1] == st.symbols[..|st.symbols| - 1]
    && st.errors <= st'.errors
    && st.counter <= st'.counter
    && st'.returnType == st.returnType
    && st'.frameSize + st'.stackOffset == st.frameSize + st.stackOffset
    && st'.stackOffset <= st.stackOffset
  }

  // ---------------------------------------------------------------------
  // Types

  /** Analyzer::resolve_type: a type name is looked up among the built-in
      types; `list<T>` takes exactly one parameter; anything else is an
      unknown type. */
  function ResolveType(st: Analyzer, t: P.Type): (r: (A.Type, Analyzer))
    ensures OnlyErrorsAdded(st, r.1)
    ensures r.0.Error? ==> |r.1.errors| > |st.errors|
    decreases t
  {
    match t.kind
    case Literal(name) =>
      (match Get(BuiltinTypes, name)
       case Some(entry) => (entry.typ, st)
       case None => (A.Error, Fail(st, Plain("unknown type " + name), t.location)))
    case Parameterized(symbol, parameters) =>
      if symbol == "list" then
        if |parameters| == 1 then
          var (item, st1) := ResolveType(st, parameters[0]);
          (A.List(item), st1)
        else (A.Error, Fail(st, Plain("expected 1 type parameter to 'list'"), t.location))
      else (A.Error, Fail(st, Plain("unknown type " + symbol), t.location))
  }

  // ---------------------------------------------------------------------
  // Expressions

  /** Analyzer::analyze_expression: the typed expression. A rejected
      expression becomes the error expression, and then an error has been
      recorded. */
  function AnalyzeExpression(v: L.Variant, st: Analyzer, e: P.Expression): (r: (A.Expression, Analyzer))
    ensures OnlyErrorsAdded(st, r.1)
    ensures r.0.kind.ErrorKind? ==> |r.1.errors| > |st.errors|
    decreases e, 2
  {
    match e.kind
    case BooleanLiteral(b) => (A.Expression(A.BooleanLiteral(b), A.Boolean), st)
    case IntegerLiteral(i) => (A.Expression(A.IntegerLiteral(i), A.I64), st)
    case StringLiteral(s) => (A.Expression(A.StringLiteral(s), A.String), st)
    case Symbol(name) => AnalyzeSymbol(st, name, e.location)
    case Binary(_, _, _) => AnalyzeBinary(v, st, e)
    case Comparison(_, _, _) => AnalyzeComparison(v, st, e)
    case Unary(_, _) => AnalyzeUnary(v, st, e)
    case Call(_, _) => AnalyzeCall(v, st, e)
    case Index(_, _) => AnalyzeIndex(v, st, e)
    case TupleIndex(_, _) => AnalyzeTupleIndex(v, st, e)
    case Attribute(_, _) => (A.ErrorExpression, Fail(st, NotImplemented, e.location))
    case ListLiteral(_) => AnalyzeList(v, st, e)
    case TupleLiteral(_) => AnalyzeTuple(v, st, e)
    case MapLiteral(_) => AnalyzeMap(v, st, e)
    case RecordLiteral(_, _) => (A.ErrorExpression, Fail(st, NotImplemented, e.location))
  }

  /** Analyzer::analyze_symbol: a name takes the type of its innermost
      definition. */
  function AnalyzeSymbol(st: Analyzer, name: string, location: Position): (r: (A.Expression, Analyzer))
    ensures OnlyErrorsAdded(st, r.1)
    ensures Get(st.symbols, name).Some? ==> r == (A.Expression(A.Symbol(Get(st.symbols, name).value), Get(st.symbols, name).value.typ), st)
    ensures Get(st.symbols, name).None? ==> r.0 == A.ErrorExpression && |r.1.errors| == |st.errors| + 1
  {
    match Get(st.symbols, name)
    case Some(entry) => (A.Expression(A.Symbol(entry), entry.typ), st)
    case None => (A.ErrorExpression, Fail(st, Plain("unknown symbol"), location))
  }

  /** Analyzer::analyze_binary_expression. `++` concatenates two strings
      or two matching lists; `and`/`or` take booleans; the arithmetic
      operators take integers. */
  function AnalyzeBinary(v: L.Variant, st: Analyzer, e: P.Expression): (r: (A.Expression, Analyzer))
    requires e.kind.Binary?
    ensures OnlyErrorsAdded(st, r.1)
    ensures r.0.kind.ErrorKind? ==> |r.1.errors| > |st.errors|
    ensures !r.0.kind.ErrorKind? ==> r.0.kind.Binary? && r.0.typ == (match e.kind.bop
                                                 case Concat => r.0.kind.left.typ
                                                 case And => A.Boolean
                                                 case Or => A.Boolean
                                                 case _ => A.I64)
    ensures !r.0.kind.ErrorKind? && e.kind.bop.Concat? ==> r.0.typ.String? || r.0.typ.List?
    ensures r.0.kind.Binary? && !e.kind.bop.Concat?
      && (var t := if e.kind.bop.And? || e.kind.bop.Or? then A.Boolean else A.I64;
          !A.Matches(r.0.kind.left.typ, t) || !A.Matches(r.0.kind.right.typ, t))
      ==> |r.1.errors| > |st.errors|
    decreases e, 1
  {
    var (left, st1) := AnalyzeExpression(v, st, e.kind.left);
    var (right, st2) := AnalyzeExpression(v, st1, e.kind.right);
    var op := e.kind.bop;
    match op
    case Concat =>
      if left.typ.String? then
        if !A.Matches(right.typ, A.String) then
          (A.ErrorExpression, Fail(st2, TypeMismatch(A.String, right.typ), e.kind.right.location))
        else (A.Expression(A.Binary(op, left, right), A.String), st2)
      else if left.typ.List? then
        if !A.Matches(left.typ, right.typ) then
          (A.ErrorExpression, Fail(st2, TypeMismatch(left.typ, right.typ), e.kind.right.location))
        else (A.Expression(A.Binary(op, left, right), left.typ), st2)
      else (A.ErrorExpression, Fail(st2, CannotConcatenate(left.typ), e.kind.left.location))
    case Or =>
      var st3 := AssertType(st2, left.typ, A.Boolean, e.kind.left.location);
      (A.Expression(A.Binary(op, left, right), A.Boolean), AssertType(st3, right.typ, A.Boolean, e.kind.right.location))
    case And =>
      var st3 := AssertType(st2, left.typ, A.Boolean, e.kind.left.location);
      (A.Expression(A.Binary(op, left, right), A.Boolean), AssertType(st3, right.typ, A.Boolean, e.kind.right.location))
    case _ =>
      var st3 := AssertType(st2, left.typ, A.I64, e.kind.left.location);
      (A.Expression(A.Binary(op, left, right), A.I64), AssertType(st3, right.typ, A.I64, e.kind.right.location))
  }

  /** Analyzer::analyze_comparison_expression: `==` and `!=` need operands
      that match each other, the orderings need integers; every comparison
      is a boolean. */
  function AnalyzeComparison(v: L.Variant, st: Analyzer, e: P.Expression): (r: (A.Expression, Analyzer))
    requires e.kind.Comparison?
    ensures OnlyErrorsAdded(st, r.1)
    ensures r.0.typ == A.Boolean && r.0.kind.Comparison?
    ensures (e.kind.cop == A.Equals || e.kind.cop == A.NotEquals)
      && !A.Matches(r.0.kind.cleft.typ, r.0.kind.cright.typ)
      ==> |r.1.errors| > |st.errors|
    ensures e.kind.cop != A.Equals && e.kind.cop != A.NotEquals
      && (!A.Matches(r.0.kind.cleft.typ, A.I64) || !A.Matches(r.0.kind.cright.typ, A.I64))
      ==> |r.1.errors| > |st.errors|
    decreases e, 1
  {
    var (left, st1) := AnalyzeExpression(v, st, e.kind.cleft);
    var (right, st2) := AnalyzeExpression(v, st1, e.kind.cright);
    var op := e.kind.cop;
    var node := A.Expression(A.Comparison(op, left, right), A.Boolean);
    if op == A.Equals || op == A.NotEquals then
      (node, AssertType(st2, left.typ, right.typ, e.kind.cleft.location))
    else
      var st3 := AssertType(st2, left.typ, A.I64, e.kind.cleft.location);
      (node, AssertType(st3, right.typ, A.I64, e.kind.cright.location))
  }

  /** Analyzer::analyze_unary_expression: negation takes and gives an
      integer; `not` takes a boolean. As written `not` gives an integer;
      corrected, a boolean. */
  function AnalyzeUnary(v: L.Variant, st: Analyzer, e: P.Expression): (r: (A.Expression, Analyzer))
    requires e.kind.Unary?
    ensures OnlyErrorsAdded(st, r.1)
    ensures r.0.kind.Unary? && r.0.kind.uop == e.kind.uop
    ensures e.kind.uop == A.Negate ==> r.0.typ == A.I64
    ensures e.kind.uop == A.Not ==> r.0.typ == (if v == L.AsWritten then A.I64 else A.Boolean)
    ensures !A.Matches(r.0.kind.operand.typ, if e.kind.uop == A.Negate then A.I64 else A.Boolean)
      ==> |r.1.errors| > |st.errors|
    decreases e, 1
  {
    var (operand, st1) := AnalyzeExpression(v, st, e.kind.operand);
    match e.kind.uop
    case Negate =>
      (A.Expression(A.Unary(A.Negate, operand), A.I64),
       AssertType(st1, operand.typ, A.I64, e.kind.operand.location))
    case Not =>
      (A.Expression(A.Unary(A.Not, operand), if v == L.AsWritten then A.I64 else A.Boolean),
       AssertType(st1, operand.typ, A.Boolean, e.kind.operand.location))
  }

  /** Analyzer::analyze_call_expression: the callee must be a function; an
      argument count that differs from the parameter count is an error,
      and only the arguments that pair with a parameter are analyzed. The
      call has the callee's return type. */
  function AnalyzeCall(v: L.Variant, st: Analyzer, e: P.Expression): (r: (A.Expression, Analyzer))
    requires e.kind.Call?
    ensures OnlyErrorsAdded(st, r.1)
    ensures r.0.kind.ErrorKind? ==> |r.1.errors| > |st.errors|
    ensures r.0.kind.Call? ==> (var entry := Get(st.symbols, e.kind.callee);
      entry.Some? && entry.value.typ.Function? && r.0.typ == entry.value.typ.returnType
      && |r.0.kind.arguments| == Min(|entry.value.typ.parameters|, |e.kind.arguments|)
      && (|entry.value.typ.parameters| != |e.kind.arguments| ==> |r.1.errors| > |st.errors|))
    ensures r.0.kind.Call? && (var parameters := Get(st.symbols, e.kind.callee).value.typ.parameters;
      exists k :: 0 <= k < |r.0.kind.arguments| && !A.Matches(parameters[k], r.0.kind.arguments[k].typ))
      ==> |r.1.errors| > |st.errors|
    decreases e, 1
  {
    var args := e.kind.arguments;
    match Get(st.symbols, e.kind.callee)
    case None =>
      (A.ErrorExpression, Fail(st, Plain("unknown symbol " + e.kind.callee), e.location))
    case Some(entry) =>
      if !entry.typ.Function? then
        (A.ErrorExpression, Fail(st, CannotCall(entry.typ), e.location))
      else
        var parameters := entry.typ.parameters;
        var st1 := if |parameters| != |args| then
          Fail(st, Plain("expected " + NatToString(|parameters|) + " parameter(s), got " + NatToString(|args|)), e.location)
        else st;
        var (typed, st2) := AnalyzeArguments(v, st1, parameters, args, Min(|parameters|, |args|), 0);
        (A.Expression(A.Call(entry, typed, false), entry.typ.returnType), st2)
  }

  function Min(a: nat, b: nat): nat {
    if a < b then a else b
  }

  /** The argument loop of a call: the first `n` arguments, each checked
      against its parameter. */
  function AnalyzeArguments(v: L.Variant, st: Analyzer, parameters: seq<A.Type>, args: seq<P.Expression>,
                            n: nat, i: nat): (r: (seq<A.Expression>, Analyzer))
    requires n <= |parameters| && n <= |args| && i <= n
    ensures OnlyErrorsAdded(st, r.1)
    ensures |r.0| == n - i
    ensures (exists k :: 0 <= k < |r.0| && !A.Matches(parameters[i + k], r.0[k].typ)) ==> |r.1.errors| > |st.errors|
    decreases args, 0, n - i
  {
    if i == n then ([], st)
    else
      var (typed, st1) := AnalyzeExpression(v, st, args[i]);
      var st2 := AssertType(st1, parameters[i], typed.typ, args[i].location);
      var (rest, st3) := AnalyzeArguments(v, st2, parameters, args, n, i + 1);
      ([typed] + rest, st3)
  }

  /** Analyzer::analyze_index_expression: a list takes an integer index
      (a call of the runtime's `venice_list_index`) and gives an element;
      a map takes a key and gives a value; nothing else can be indexed. */
  function AnalyzeIndex(v: L.Variant, st: Analyzer, e: P.Expression): (r: (A.Expression, Analyzer))
    requires e.kind.Index?
    ensures OnlyErrorsAdded(st, r.1)
    ensures r.0.kind.ErrorKind? ==> |r.1.errors| > |st.errors|
    ensures r.0.kind.Call? ==> (r.0.kind.callee.uniqueName == "venice_list_index" && |r.0.kind.arguments| == 2
      && r.0.kind.arguments[0].typ == A.List(r.0.typ))
    ensures r.0.kind.Index? ==> r.0.kind.indexed.typ.Map? && r.0.typ == r.0.kind.indexed.typ.value
    ensures r.0.kind.Call? && !A.Matches(r.0.kind.arguments[1].typ, A.I64) ==> |r.1.errors| > |st.errors|
    ensures r.0.kind.Index? && !A.Matches(r.0.kind.index.typ, r.0.kind.indexed.typ.key)
      ==> |r.1.errors| > |st.errors|
    decreases e, 1
  {
    var (value, st1) := AnalyzeExpression(v, st, e.kind.indexed);
    var (index, st2) := AnalyzeExpression(v, st1, e.kind.index);
    match value.typ
    case List(t) =>
      (A.Expression(A.Call(A.ExternalEntry("venice_list_index", A.Error), [value, index], false), t),
       AssertType(st2, index.typ, A.I64, e.kind.index.location))
    case Map(k, t) =>
      (A.Expression(A.Index(value, index), t), AssertType(st2, index.typ, k, e.kind.index.location))
    case _ =>
      (A.ErrorExpression, Fail(st2, CannotIndex(value.typ), e.kind.indexed.location))
  }

  /** Analyzer::analyze_tuple_index_expression: `t.k` needs a tuple with
      more than `k` components and has the type of component `k`. */
  function AnalyzeTupleIndex(v: L.Variant, st: Analyzer, e: P.Expression): (r: (A.Expression, Analyzer))
    requires e.kind.TupleIndex?
    ensures OnlyErrorsAdded(st, r.1)
    ensures r.0.kind.ErrorKind? ==> |r.1.errors| > |st.errors|
    ensures r.0.kind.TupleIndex? ==> (var t := r.0.kind.tuple.typ;
      t.Tuple? && e.kind.position < |t.items| && r.0.typ == t.items[e.kind.position])
    ensures !r.0.kind.TupleIndex? ==> r.0 == A.ErrorExpression
    decreases e, 1
  {
    var (value, st1) := AnalyzeExpression(v, st, e.kind.tuple);
    if value.typ.Tuple? then
      if e.kind.position >= |value.typ.items| then
        (A.ErrorExpression, Fail(st1, Plain("tuple index out of range"), e.location))
      else
        (A.Expression(A.TupleIndex(value, e.kind.position), value.typ.items[e.kind.position]), st1)
    else (A.ErrorExpression, Fail(st1, CannotIndexTuple(value.typ), e.location))
  }

  /** Analyzer::analyze_list_literal: a non-empty list whose items match
      the first item's type, built by the runtime's variadic
      `venice_list_new` from the item count and the items. An empty list
      literal cannot be typed. */
  function AnalyzeList(v: L.Variant, st: Analyzer, e: P.Expression): (r: (A.Expression, Analyzer))
    requires e.kind.ListLiteral?
    ensures OnlyErrorsAdded(st, r.1)
    ensures |e.kind.items| == 0 <==> r.0.kind.ErrorKind?
    ensures |e.kind.items| == 0 ==> |r.1.errors| == |st.errors| + 1
    ensures |e.kind.items| > 0 ==> (r.0.kind.Call? && r.0.kind.variadic
      && r.0.kind.callee.uniqueName == "venice_list_new"
      && |r.0.kind.arguments| == |e.kind.items| + 1
      && r.0.kind.arguments[0] == A.Expression(A.IntegerLiteral(|e.kind.items|), A.I64)
      && r.0.typ == A.List(r.0.kind.arguments[1].typ))
    ensures r.0.kind.Call? && |r.0.kind.arguments| >= 2
      && (exists k :: 2 <= k < |r.0.kind.arguments| && !A.Matches(r.0.kind.arguments[k].typ, r.0.kind.arguments[1].typ))
      ==> |r.1.errors| > |st.errors|
    decreases e, 1
  {
    var items := e.kind.items;
    if |items| == 0 then
      (A.ErrorExpression, Fail(st, Plain("cannot type-check empty list literal"), e.location))
    else
      var (first, st1) := AnalyzeExpression(v, st, items[0]);
      var (rest, st2) := AnalyzeListItems(v, st1, items, first.typ, 1);
      var count := A.Expression(A.IntegerLiteral(|items|), A.I64);
      (A.Expression(A.Call(A.ExternalEntry("venice_list_new", A.Error), [count, first] + rest, true), A.List(first.typ)), st2)
  }

  /** The items of a list literal after the first, each checked against
      the first item's type. */
  function AnalyzeListItems(v: L.Variant, st: Analyzer, items: seq<P.Expression>, itemType: A.Type, i: nat): (r: (seq<A.Expression>, Analyzer))
    requires i <= |items|
    ensures OnlyErrorsAdded(st, r.1)
    ensures |r.0| == |items| - i
    ensures (exists k :: 0 <= k < |r.0| && !A.Matches(r.0[k].typ, itemType)) ==> |r.1.errors| > |st.errors|
    decreases items, 0, |items| - i
  {
    if i == |items| then ([], st)
    else
      var (typed, st1) := AnalyzeExpression(v, st, items[i]);
      var st2 := AssertType(st1, typed.typ, itemType, items[i].location);
      var (rest, st3) := AnalyzeListItems(v, st2, items, itemType, i + 1);
      ([typed] + rest, st3)
  }

  /** Analyzer::analyze_tuple_literal: a tuple's type lists its items'
      types. */
  function AnalyzeTuple(v: L.Variant, st: Analyzer, e: P.Expression): (r: (A.Expression, Analyzer))
    requires e.kind.TupleLiteral?
    ensures OnlyErrorsAdded(st, r.1)
    ensures r.0.kind.TupleLiteral? && r.0.typ.Tuple?
    ensures |r.0.kind.elements| == |r.0.typ.items| == |e.kind.elements|
    ensures forall k :: 0 <= k < |r.0.typ.items| ==> r.0.typ.items[k] == r.0.kind.elements[k].typ
    decreases e, 1
  {
    var (items, st1) := AnalyzeItems(v, st, e.kind.elements, 0);
    (A.Expression(A.TupleLiteral(items), A.Tuple(seq(|items|, k requires 0 <= k < |items| => items[k].typ))), st1)
  }

  /** Every item from `i` on, in order. */
  function AnalyzeItems(v: L.Variant, st: Analyzer, items: seq<P.Expression>, i: nat): (r: (seq<A.Expression>, Analyzer))
    requires i <= |items|
    ensures OnlyErrorsAdded(st, r.1)
    ensures |r.0| == |items| - i
    decreases items, 0, |items| - i
  {
    if i == |items| then ([], st)
    else
      var (typed, st1) := AnalyzeExpression(v, st, items[i]);
      var (rest, st2) := AnalyzeItems(v, st1, items, i + 1);
      ([typed] + rest, st2)
  }

  /** Analyzer::analyze_map_literal: a non-empty map whose keys and values
      match the first entry's key and value types. An empty map literal
      cannot be typed. As written the typed literal leaves out the first
      entry (it is analyzed, but never added to the entries); corrected,
      it keeps every entry. */
  function AnalyzeMap(v: L.Variant, st: Analyzer, e: P.Expression): (r: (A.Expression, Analyzer))
    requires e.kind.MapLiteral?
    ensures OnlyErrorsAdded(st, r.1)
    ensures |e.kind.pairs| == 0 <==> r.0.kind.ErrorKind?
    ensures |e.kind.pairs| == 0 ==> |r.1.errors| == |st.errors| + 1
    ensures |e.kind.pairs| > 0 ==> (r.0.kind.MapLiteral? && r.0.typ.Map?
      && |r.0.kind.pairs| == (if v == L.AsWritten then |e.kind.pairs| - 1 else |e.kind.pairs|))
    ensures r.0.kind.MapLiteral? && r.0.typ.Map?
      && (var later := if v == L.AsWritten then 0 else 1;
          exists k :: later <= k < |r.0.kind.pairs|
            && (!A.Matches(r.0.kind.pairs[k].0.typ, r.0.typ.key) || !A.Matches(r.0.kind.pairs[k].1.typ, r.0.typ.value)))
      ==> |r.1.errors| > |st.errors|
    decreases e, 1
  {
    var pairs := e.kind.pairs;
    if |pairs| == 0 then
      (A.ErrorExpression, Fail(st, Plain("cannot type-check empty map literal"), e.location))
    else
      var (firstKey, st1) := AnalyzeExpression(v, st, pairs[0].key);
      var (firstValue, st2) := AnalyzeExpression(v, st1, pairs[0].value);
      var (rest, st3) := AnalyzeMapPairs(v, st2, pairs, firstKey.typ, firstValue.typ, 1);
      var entries := if v == L.AsWritten then rest else [(firstKey, firstValue)] + rest;
      (A.Expression(A.MapLiteral(entries), A.Map(firstKey.typ, firstValue.typ)), st3)
  }

  /** The entries of a map literal after the first, each key and value
      checked against the first entry's. */
  function AnalyzeMapPairs(v: L.Variant, st: Analyzer, pairs: seq<P.MapEntry>,
                           keyType: A.Type, valueType: A.Type, i: nat): (r: (seq<(A.Expression, A.Expression)>, Analyzer))
    requires i <= |pairs|
    ensures OnlyErrorsAdded(st, r.1)
    ensures |r.0| == |pairs| - i
    ensures (exists k :: 0 <= k < |r.0| && (!A.Matches(r.0[k].0.typ, keyType) || !A.Matches(r.0[k].1.typ, valueType)))
      ==> |r.1.errors| > |st.errors|
    decreases pairs, 0, |pairs| - i
  {
    if i == |pairs| then ([], st)
    else
      var (typed, st1) := AnalyzeEntry(v, st, pairs[i], keyType, valueType);
      var (rest, st2) := AnalyzeMapPairs(v, st1, pairs, keyType, valueType, i + 1);
      ([typed] + rest, st2)
  }

  /** One entry after the first: its key and value, each checked against
      the first entry's. */
  function AnalyzeEntry(v: L.Variant, st: Analyzer, entry: P.MapEntry, keyType: A.Type, valueType: A.Type): (r: ((A.Expression, A.Expression), Analyzer))
    ensures OnlyErrorsAdded(st, r.1)
    ensures !A.Matches(r.0.0.typ, keyType) || !A.Matches(r.0.1.typ, valueType) ==> |r.1.errors| > |st.errors|
    decreases entry, 1
  {
    var (key, st1) := AnalyzeExpression(v, st, entry.key);
    var st2 := AssertType(st1, key.typ, keyType, entry.key.location);
    var (value, st3) := AnalyzeExpression(v, st2, entry.value);
    ((key, value), AssertType(st3, value.typ, valueType, entry.value.location))
  }

  // ---------------------------------------------------------------------
  // Statements

  /** Analyzer::analyze_statement. */
  function AnalyzeStatement(v: L.Variant, st: Analyzer, s: P.Statement): (r: (A.Statement, Analyzer))
    requires |st.symbols| >= 1
    ensures StatementStep(st, r.1)
    ensures s.Assert? ==> r.0.Assert?
    ensures s.Assert? && r.0.Assert? && !A.Matches(r.0.asserted.typ, A.Boolean) ==> |r.1.errors| > |st.errors|
    decreases s, 1
  {
    match s
    case Let(_, _, _, _) => AnalyzeLet(v, st, s)
    case Assign(_, _, _) => AnalyzeAssign(v, st, s)
    case If(_, _, _, _) => AnalyzeIf(v, st, s)
    case While(_, _, _) => AnalyzeWhile(v, st, s)
    case For(_, _, _, _, location) => (A.ErrorStatement, Fail(st, NotImplemented, location))
    case Return(_, _) => AnalyzeReturn(v, st, s)
    case Assert(condition, _) =>
      var (typed, st1) := AnalyzeExpression(v, st, condition);
      (A.Assert(typed), AssertType(st1, typed.typ, A.Boolean, condition.location))
    case ExpressionStatement(e) =>
      var (typed, st1) := AnalyzeExpression(v, st, e);
      (A.ExpressionStatement(typed), st1)
  }

  /** Analyzer::analyze_assign_statement: the target must be defined, and
      the value must match its type. */
  function AnalyzeAssign(v: L.Variant, st: Analyzer, s: P.Statement): (r: (A.Statement, Analyzer))
    requires s.Assign? && |st.symbols| >= 1
    ensures OnlyErrorsAdded(st, r.1)
    ensures Get(st.symbols, s.target).None? ==> r.0.ErrorStatement? && |r.1.errors| > |st.errors|
    ensures Get(st.symbols, s.target).Some? ==>
      (r.0.Assign? && r.0.target == Get(st.symbols, s.target).value
       && (A.Matches(r.0.target.typ, r.0.newValue.typ) || |r.1.errors| > |st.errors|))
    decreases s, 0
  {
    var (typed, st1) := AnalyzeExpression(v, st, s.newValue);
    match Get(st1.symbols, s.target)
    case Some(entry) =>
      var st2 := if A.Matches(entry.typ, typed.typ) then st1
                 else Fail(st1, TypeMismatch(entry.typ, typed.typ), s.location);
      (A.Assign(entry, typed), st2)
    case None =>
      (A.ErrorStatement, Fail(st1, Plain("assignment to unknown symbol " + s.target), s.location))
  }

  /** Analyzer::analyze_if_statement: a boolean condition, then the body
      and the else body; `elif` clauses are not implemented (the rest of
      the statement is still analyzed first). */
  function AnalyzeIf(v: L.Variant, st: Analyzer, s: P.Statement): (r: (A.Statement, Analyzer))
    requires s.If? && |st.symbols| >= 1
    ensures StatementStep(st, r.1)
    ensures |s.elifClauses| > 0 ==> r.0.ErrorStatement? && |r.1.errors| > |st.errors|
    ensures |s.elifClauses| == 0 ==> r.0.If?
    ensures r.0.If? && !A.Matches(r.0.condition.typ, A.Boolean) ==> |r.1.errors| > |st.errors|
    decreases s, 0
  {
    var clause := s.ifClause;
    var (condition, st1) := AnalyzeExpression(v, st, clause.condition);
    var st2 := AssertType(st1, condition.typ, A.Boolean, clause.condition.location);
    var (body, st3) := AnalyzeBlock(v, st2, clause.body, 0);
    var (elseTyped, st4) := AnalyzeBlock(v, st3, s.elseBody, 0);
    if |s.elifClauses| > 0 then (A.ErrorStatement, Fail(st4, NotImplemented, s.elifClauses[0].condition.location))
    else (A.If(condition, body, elseTyped), st4)
  }

  /** Analyzer::analyze_while_statement: a boolean condition and a body. */
  function AnalyzeWhile(v: L.Variant, st: Analyzer, s: P.Statement): (r: (A.Statement, Analyzer))
    requires s.While? && |st.symbols| >= 1
    ensures StatementStep(st, r.1)
    ensures r.0.While? && |r.0.loopBody| == |s.loopBody|
    ensures !A.Matches(r.0.loopCondition.typ, A.Boolean) ==> |r.1.errors| > |st.errors|
    decreases s, 0
  {
    var (typed, st1) := AnalyzeExpression(v, st, s.loopCondition);
    var st2 := AssertType(st1, typed.typ, A.Boolean, s.loopCondition.location);
    var (body, st3) := AnalyzeBlock(v, st2, s.loopBody, 0);
    (A.While(typed, body), st3)
  }

  /** Analyzer::analyze_return_statement: inside a function the value must
      match the declared return type; outside one, a return is an error. */
  function AnalyzeReturn(v: L.Variant, st: Analyzer, s: P.Statement): (r: (A.Statement, Analyzer))
    requires s.Return? && |st.symbols| >= 1
    ensures OnlyErrorsAdded(st, r.1) && r.0.Return?
    ensures st.returnType.None? ==> |r.1.errors| > |st.errors|
    ensures st.returnType.Some? ==> A.Matches(st.returnType.value, r.0.returned.typ) || |r.1.errors| > |st.errors|
    decreases s, 0
  {
    var (typed, st1) := AnalyzeExpression(v, st, s.returned);
    var st2 := match st1.returnType
      case Some(expected) =>
        if A.Matches(expected, typed.typ) then st1 else Fail(st1, TypeMismatch(expected, typed.typ), s.location)
      case None => Fail(st1, Plain("return statement outside of function"), s.location);
    (A.Return(typed), st2)
  }

  /** Analyzer::analyze_let_statement: the value must match the declared
      type; the symbol gets a fresh unique name and the next stack slot
      of the current function, and is defined in the innermost scope. */
  function AnalyzeLet(v: L.Variant, st: Analyzer, s: P.Statement): (r: (A.Statement, Analyzer))
    requires s.Let? && |st.symbols| >= 1
    ensures StatementStep(st, r.1)
    ensures r.0.Let? && r.0.symbol.uniqueName == UniqueName(s.symbol, st.counter)
    ensures r.0.symbol.stackOffset == st.stackOffset && !r.0.symbol.constant
    ensures r.1.counter == st.counter + 1
    ensures Get(r.1.symbols, s.symbol) == Some(r.0.symbol)
    ensures r.0.symbol.typ == r.0.declared
    ensures !A.Matches(r.0.declared, r.0.value.typ) ==> |r.1.errors| > |st.errors|
    decreases s, 0
  {
    var (value, st1) := AnalyzeExpression(v, st, s.value);
    var (declared, st2) := ResolveType(st1, s.declared);
    var st3 := if A.Matches(declared, value.typ) then st2
               else Fail(st2, TypeMismatch(declared, value.typ), s.location);
    var (name, st4) := ClaimUniqueName(st3, s.symbol);
    var entry := A.SymbolEntry(name, declared, false, false, st4.stackOffset);
    var size := A.StorageSize(declared);
    var st5 := st4.(symbols := Insert(st4.symbols, s.symbol, entry),
                    frameSize := st4.frameSize + size,
                    stackOffset := st4.stackOffset - size);
    assert Get(st5.symbols, s.symbol) == Some(entry) by {
      GetAfterInsert(st4.symbols, s.symbol, entry, s.symbol);
    }
    (A.Let(entry, declared, value), st5)
  }

  /** Analyzer::analyze_block: the statements in order, in the current
      scope (a block does not open a scope of its own). */
  function AnalyzeBlock(v: L.Variant, st: Analyzer, stmts: seq<P.Statement>, i: nat): (r: (seq<A.Statement>, Analyzer))
    requires i <= |stmts| && |st.symbols| >= 1
    ensures StatementStep(st, r.1)
    ensures |r.0| == |stmts| - i
    decreases stmts, 0, |stmts| - i
  {
    if i == |stmts| then ([], st)
    else
      var (typed, st1) := AnalyzeStatement(v, st, stmts[i]);
      var (rest, st2) := AnalyzeBlock(v, st1, stmts, i + 1);
      ([typed] + rest, st2)
  }

  // ---------------------------------------------------------------------
  // Declarations

  datatype Parameters = Parameters(params: seq<A.Parameter>, st: Analyzer, frameSize: int, stackOffset: int)

  /** The parameter loop of a function declaration, from parameter `i`:
      each parameter's type is resolved, it claims a unique name and takes
      the next stack slot below the return address. */
  function AnalyzeParameters(st: Analyzer, ps: seq<P.Parameter>, i: nat, frameSize: int, stackOffset: int): (r: Parameters)
    requires i <= |ps|
    requires frameSize + stackOffset == -8 && stackOffset <= -8
    ensures |r.params| == |ps| - i
    ensures r.frameSize + r.stackOffset == -8 && r.stackOffset <= stackOffset && r.frameSize >= frameSize
    ensures forall k :: 0 <= k < |r.params| ==>
      (r.stackOffset <= r.params[k].entry.stackOffset <= stackOffset
       && r.params[k].entry.uniqueName == UniqueName(ps[i + k].name, st.counter + k)
       && r.params[k].entry.typ == r.params[k].typ)
    ensures r.st.counter == st.counter + |ps| - i
    ensures r.st == st.(counter := r.st.counter, errors := r.st.errors) && st.errors <= r.st.errors
    decreases |ps| - i
  {
    if i == |ps| then Parameters([], st, frameSize, stackOffset)
    else
      var (t, st1) := ResolveType(st, ps[i].typ);
      var (name, st2) := ClaimUniqueName(st1, ps[i].name);
      var size := A.StorageSize(t);
      var entry := A.SymbolEntry(name, t, false, false, stackOffset);
      var rest := AnalyzeParameters(st2, ps, i + 1, frameSize + size, stackOffset - size);
      Parameters([A.Parameter(entry, t)] + rest.params, rest.st, rest.frameSize, rest.stackOffset)
  }

  /** Define each parameter's name in the innermost scope. */
  function DefineParameters(table: SymbolTable, ps: seq<P.Parameter>, entries: seq<A.Parameter>, i: nat): (r: SymbolTable)
    requires |table| >= 1 && |ps| == |entries| && i <= |ps|
    ensures |r| == |table| && r[..|table| - 1] == table[..|table| - 1]
    decreases |ps| - i
  {
    if i == |ps| then table
    else DefineParameters(Insert(table, ps[i].name, entries[i].entry), ps, entries, i + 1)
  }

  /** What analyze_function_declaration settles before the body: the
      return type, the parameters, and the function's own entry. */
  datatype Header = Header(returnType: A.Type, ps: Parameters, entry: A.SymbolEntry, st: Analyzer)

  /** The first half of analyze_function_declaration. The parameters claim
      their unique names first; then the function claims one, except that
      `main` keeps its name for the linker. */
  function FunctionHeader(st: Analyzer, d: P.Declaration): (h: Header)
    requires d.FunctionDeclaration?
    ensures d.name == "main" ==> h.entry.uniqueName == "main"
    ensures d.name != "main" ==> h.entry.uniqueName == UniqueName(d.name, st.counter + |d.parameters|)
    ensures h.entry.constant && !h.entry.external && h.entry.typ.Function?
    ensures |h.ps.params| == |d.parameters|
    ensures forall k :: 0 <= k < |h.ps.params| ==>
      h.ps.params[k].entry.uniqueName == UniqueName(d.parameters[k].name, st.counter + k)
    ensures h.st == st.(counter := h.st.counter, errors := h.st.errors)
    ensures st.errors <= h.st.errors && st.counter <= h.st.counter
    ensures h.ps.frameSize + h.ps.stackOffset == -8 && h.ps.stackOffset <= -8 && h.ps.frameSize >= 0
    ensures forall k :: 0 <= k < |h.ps.params| ==>
      h.ps.stackOffset <= h.ps.params[k].entry.stackOffset <= -8
  {
    var (returnType, st1) := ResolveType(st, d.returnType);
    var ps := AnalyzeParameters(st1, d.parameters, 0, 0, -8);
    var (uniqueName, st2) := if d.name == "main" then ("main", ps.st) else ClaimUniqueName(ps.st, d.name);
    var types := seq(|ps.params|, k requires 0 <= k < |ps.params| => ps.params[k].typ);
    Header(returnType, ps, A.SymbolEntry(uniqueName, A.Function(types, returnType), true, false, 0), st2)
  }

  /** Analyzer::analyze_function_declaration. The function is defined in
      the current scope before its body is analyzed, so it can call itself.
      The parameters and the body live in a scope of their own that is
      popped afterwards, so afterwards the symbol table is the one before
      with just the function added. The frame covers every parameter's
      slot. */
  function AnalyzeFunction(v: L.Variant, st: Analyzer, d: P.Declaration): (r: (A.Declaration, Analyzer))
    requires d.FunctionDeclaration? && |st.symbols| >= 1
    ensures r.0.FunctionDeclaration?
    ensures r.0.name == FunctionHeader(st, d).entry && r.0.parameters == FunctionHeader(st, d).ps.params
    ensures r.1.symbols == Insert(st.symbols, d.name, r.0.name)
    ensures r.1.returnType.None? && r.1.stackOffset == -8
    ensures st.errors <= r.1.errors && st.counter <= r.1.counter
    ensures r.0.stackFrameSize >= 0
    ensures forall k :: 0 <= k < |r.0.parameters| ==>
      -8 - r.0.stackFrameSize <= r.0.parameters[k].entry.stackOffset <= -8
  {
    var h := FunctionHeader(st, d);
    var outer := Insert(h.st.symbols, d.name, h.entry);
    var inner := DefineParameters(PushScope(outer), d.parameters, h.ps.params, 0);
    var st1 := h.st.(symbols := inner, frameSize := h.ps.frameSize, returnType := Some(h.returnType),
                     stackOffset := h.ps.stackOffset);
    var (body, st2) := AnalyzeBlock(v, st1, d.body, 0);
    var st3 := st2.(returnType := None, stackOffset := -8, symbols := PopScope(st2.symbols));
    assert st3.symbols == outer by {
      assert |inner| == |outer| + 1;
      assert st2.symbols[..|outer|] == inner[..|outer|] == PushScope(outer)[..|outer|];
    }
    (A.FunctionDeclaration(h.entry, h.ps.params, h.returnType, body, st2.frameSize), st3)
  }

  /** Analyzer::analyze_const_declaration: the value must match the
      declared type; the constant gets a unique name in the current
      scope. */
  function AnalyzeConst(v: L.Variant, st: Analyzer, d: P.Declaration): (r: (A.Declaration, Analyzer))
    requires d.ConstDeclaration? && |st.symbols| >= 1
    ensures r.0.ConstDeclaration? && r.0.symbol.constant
    ensures r.0.symbol.uniqueName == UniqueName(d.symbol, st.counter)
    ensures r.1.symbols == Insert(st.symbols, d.symbol, r.0.symbol)
    ensures r.1.counter == st.counter + 1 && st.errors <= r.1.errors
    ensures A.Matches(r.0.typ, r.0.value.typ) || |r.1.errors| > |st.errors|
  {
    var (value, st1) := AnalyzeExpression(v, st, d.value);
    var (declared, st2) := ResolveType(st1, d.typ);
    var st3 := if A.Matches(declared, value.typ) then st2
               else Fail(st2, TypeMismatch(declared, value.typ), d.location);
    var (name, st4) := ClaimUniqueName(st3, d.symbol);
    var entry := A.SymbolEntry(name, declared, true, false, 0);
    (A.ConstDeclaration(entry, declared, value), st4.(symbols := Insert(st4.symbols, d.symbol, entry)))
  }

  /** Analyzer::analyze_declaration. Records are not implemented. */
  function AnalyzeDeclaration(v: L.Variant, st: Analyzer, d: P.Declaration): (r: (A.Declaration, Analyzer))
    requires |st.symbols| >= 1
    ensures |r.1.symbols| == |st.symbols|
    ensures st.errors <= r.1.errors && st.counter <= r.1.counter
    ensures d.RecordDeclaration? ==> r.0.ErrorDeclaration? && |r.1.errors| == |st.errors| + 1
  {
    match d
    case FunctionDeclaration(_, _, _, _, _) => AnalyzeFunction(v, st, d)
    case ConstDeclaration(_, _, _, _) => AnalyzeConst(v, st, d)
    case RecordDeclaration(_, _, location) => (A.ErrorDeclaration, Fail(st, NotImplemented, location))
  }

  /** Analyzer::analyze_program: the declarations from `i` on, in order. */
  function AnalyzeDeclarations(v: L.Variant, st: Analyzer, decls: seq<P.Declaration>, i: nat): (r: (seq<A.Declaration>, Analyzer))
    requires i <= |decls| && |st.symbols| >= 1
    ensures |r.0| == |decls| - i && |r.1.symbols| == |st.symbols|
    ensures st.errors <= r.1.errors
    decreases |decls| - i
  {
    if i == |decls| then ([], st)
    else
      var (typed, st1) := AnalyzeDeclaration(v, st, decls[i]);
      var (rest, st2) := AnalyzeDeclarations(v, st1, decls, i + 1);
      ([typed] + rest, st2)
  }

  /** analyze: the typed program, or every error recorded on the way. */
  function Analyze(v: L.Variant, program: P.Program): (r: Result<A.Program, seq<VeniceError>>)
    ensures r.Err? ==> |r.error| > 0
    ensures r.Ok? ==> |r.value.declarations| == |program.declarations|
  {
    var (typed, st) := AnalyzeDeclarations(v, Initial, program.declarations, 0);
    if |st.errors| > 0 then Err(st.errors) else Ok(A.Program(typed))
  }

  // ---------------------------------------------------------------------
  // Lemmas: the symbol table

  /** A name just inserted is found with its new entry; other names are
      looked up as before. */
  lemma GetAfterInsert(table: SymbolTable, key: string, entry: A.SymbolEntry, query: string)
    requires |table| > 0
    ensures Get(Insert(table, key, entry), query) == if query == key then Some(entry) else Get(table, query)
  {
    var t := Insert(table, key, entry);
    var n := |table| - 1;
    assert t[..n] == table[..n];
    if query != key && query !in table[n] {
      assert query !in t[n];
    }
  }

  /** A name removed from the innermost scope is looked up in the
      enclosing scopes again. */
  lemma GetAfterRemove(table: SymbolTable, key: string, query: string)
    requires |table| > 0
    ensures Get(Remove(table, key), key) == Get(table[..|table| - 1], key)
    ensures query != key ==> Get(Remove(table, key), query) == Get(table, query)
  {
    var t := Remove(table, key);
    var n := |table| - 1;
    assert t[..n] == table[..n];
    if query != key && query !in table[n] {
      assert query !in t[n];
    }
  }

  /** Pushing a scope adds one level and hides nothing; popping it again
      restores the table; popping removes one level. */
  lemma PushAndPop(table: SymbolTable, query: string)
    ensures |PushScope(table)| == |table| + 1
    ensures Get(PushScope(table), query) == Get(table, query)
    ensures PopScope(PushScope(table)) == table
    ensures |table| > 0 ==> |PopScope(table)| == |table| - 1
  {
    assert PushScope(table)[..|table|] == table;
  }

  /** A name defined in an inner scope shadows an outer definition until
      the inner scope is popped. */
  lemma Shadowing(table: SymbolTable, key: string, entry: A.SymbolEntry)
    ensures Get(Insert(PushScope(table), key, entry), key) == Some(entry)
    ensures PopScope(Insert(PushScope(table), key, entry)) == table
  {
    GetAfterInsert(PushScope(table), key, entry, key);
    assert Insert(PushScope(table), key, entry)[..|table|] == table;
  }

  // ---------------------------------------------------------------------
  // Lemmas: unique names

  /** The digits after the last "__" determine the counter. */
  lemma DigitSuffix(p1: string, d1: string, p2: string, d2: string)
    requires AllDigits(d1) && AllDigits(d2)
    requires p1 + "__" + d1 == p2 + "__" + d2
    ensures d1 == d2
  {
    var s := p1 + "__" + d1;
    DigitTail(p1, d1);
    DigitTail(p2, d2);
    assert |d1| == |d2|;
    assert d1 == s[|s| - |d1|..] == d2;
  }

  /** In a unique name the digits end the string and an underscore comes
      right before them. */
  lemma DigitTail(p: string, d: string)
    requires AllDigits(d)
    ensures var s := p + "__" + d;
      s[|s| - |d| - 1] == '_' && s[|s| - |d|..] == d
      && forall j :: |s| - |d| <= j < |s| ==> IsDigit(s[j])
  {
    var s := p + "__" + d;
    assert s[|s| - |d|..] == d;
    forall j | |s| - |d| <= j < |s|
      ensures IsDigit(s[j])
    {
      assert s[j] == d[j - (|s| - |d|)];
    }
  }

  /** Names claimed at different counter values differ, whatever their
      prefixes: claimed names never collide. */
  lemma UniqueNamesDistinct(p1: string, n1: nat, p2: string, n2: nat)
    ensures UniqueName(p1, n1) == UniqueName(p2, n2) ==> n1 == n2
  {
    if UniqueName(p1, n1) == UniqueName(p2, n2) {
      DigitSuffix(p1, NatToString(n1), p2, NatToString(n2));
      NatToStringInjective(n1, n2);
    }
  }

  /** Two names claimed at different counter values differ. */
  lemma ClaimedNamesDiffer(a: string, p1: string, n1: nat, b: string, p2: string, n2: nat)
    requires a == UniqueName(p1, n1) && b == UniqueName(p2, n2) && n1 != n2
    ensures a != b
  {
    UniqueNamesDistinct(p1, n1, p2, n2);
  }

  /** A unique name ends in a digit. */
  lemma UniqueNameEndsInDigit(prefix: string, n: nat)
    ensures var s := UniqueName(prefix, n); |s| > 0 && IsDigit(s[|s| - 1])
  {
    var d := NatToString(n);
    var s := UniqueName(prefix, n);
    assert s[|s| - 1] == d[|d| - 1];
  }

  /** Within one function declaration the parameters' unique names differ
      from each other and from the function's own name, `main` included. */
  lemma FunctionNamesDistinct(st: Analyzer, d: P.Declaration)
    requires d.FunctionDeclaration?
    ensures var h := FunctionHeader(st, d);
      (forall j, k :: 0 <= j < k < |h.ps.params| ==>
         h.ps.params[j].entry.uniqueName != h.ps.params[k].entry.uniqueName)
      && forall k :: 0 <= k < |h.ps.params| ==> h.ps.params[k].entry.uniqueName != h.entry.uniqueName
  {
    HeaderNamesDistinct(FunctionHeader(st, d), d.parameters, d.name, st.counter);
  }

  /** The naming argument behind FunctionNamesDistinct: parameter `k`
      was named at counter `c + k` and the function, unless it is `main`,
      at `c + |ps|`. */
  lemma HeaderNamesDistinct(h: Header, ps: seq<P.Parameter>, name: string, c: nat)
    requires |h.ps.params| == |ps|
    requires forall k :: 0 <= k < |h.ps.params| ==>
      h.ps.params[k].entry.uniqueName == UniqueName(ps[k].name, c + k)
    requires name == "main" ==> h.entry.uniqueName == "main"
    requires name != "main" ==> h.entry.uniqueName == UniqueName(name, c + |ps|)
    ensures forall j, k :: 0 <= j < k < |h.ps.params| ==>
      h.ps.params[j].entry.uniqueName != h.ps.params[k].entry.uniqueName
    ensures forall k :: 0 <= k < |h.ps.params| ==> h.ps.params[k].entry.uniqueName != h.entry.uniqueName
  {
    forall j, k | 0 <= j < k < |h.ps.params|
      ensures h.ps.params[j].entry.uniqueName != h.ps.params[k].entry.uniqueName
    {
      ClaimedNamesDiffer(h.ps.params[j].entry.uniqueName, ps[j].name, c + j,
                         h.ps.params[k].entry.uniqueName, ps[k].name, c + k);
    }
    forall k | 0 <= k < |h.ps.params|
      ensures h.ps.params[k].entry.uniqueName != h.entry.uniqueName
    {
      if name == "main" {
        UniqueNameEndsInDigit(ps[k].name, c + k);
      } else {
        ClaimedNamesDiffer(h.ps.params[k].entry.uniqueName, ps[k].name, c + k,
                           h.entry.uniqueName, name, c + |ps|);
      }
    }
  }

  // ---------------------------------------------------------------------
  // Lemmas: errors

  /** Errors are never taken back: an error recorded by the first
      declaration makes the whole program rejected. */
  lemma FirstDeclarationErrorRejects(v: L.Variant, program: P.Program)
    requires |program.declarations| > 0
    requires |AnalyzeDeclaration(v, Initial, program.declarations[0]).1.errors| > 0
    ensures Analyze(v, program).Err?
  {
    var decls := program.declarations;
    var (_, st1) := AnalyzeDeclaration(v, Initial, decls[0]);
    var (_, st2) := AnalyzeDeclarations(v, st1, decls, 1);
    assert AnalyzeDeclarations(v, Initial, decls, 0).1 == st2;
  }

  /** An empty list or map literal as a constant's value is an error, so
      a program starting with one is rejected. */
  lemma EmptyLiteralRejects(v: L.Variant, program: P.Program)
    requires |program.declarations| > 0 && program.declarations[0].ConstDeclaration?
    requires var value := program.declarations[0].value.kind;
      (value.ListLiteral? && value.items == []) || (value.MapLiteral? && value.pairs == [])
    ensures Analyze(v, program).Err?
  {
    var d := program.declarations[0];
    var (_, st1) := AnalyzeExpression(v, Initial, d.value);
    assert |st1.errors| == 1;
    FirstDeclarationErrorRejects(v, program);
  }

  /** A program without declarations is accepted. */
  lemma EmptyProgramAccepted(v: L.Variant)
    ensures Analyze(v, P.Program([])) == Ok(A.Program([]))
  {
  }

  // ---------------------------------------------------------------------
  // Findings

  /** `not true`, analyzed as written: the operand is checked to be a
      boolean, but the result is typed as an integer, so asserting it is
      reported as a mismatch. */
  lemma NotTypedIntegerAsWritten(st: Analyzer, l1: Position, l2: Position, l3: Position)
    requires |st.symbols| >= 1
    ensures var notTrue := P.Expression(P.Unary(A.Not, P.Expression(P.BooleanLiteral(true), l1)), l2);
      AnalyzeStatement(L.AsWritten, st, P.Assert(notTrue, l3)).1.errors
        == st.errors + [VeniceError(TypeMismatch(A.Boolean, A.I64), l2)]
  {
    var notTrue := P.Expression(P.Unary(A.Not, P.Expression(P.BooleanLiteral(true), l1)), l2);
    var r := AnalyzeExpression(L.AsWritten, st, notTrue);
    assert r == AnalyzeUnary(L.AsWritten, st, notTrue);
    assert r.0.typ == A.I64 && r.1 == st;
  }

  /** Corrected, `not` gives a boolean and the same assertion is
      accepted. */
  lemma NotTypedBooleanCorrected(st: Analyzer, l1: Position, l2: Position, l3: Position)
    requires |st.symbols| >= 1
    ensures var notTrue := P.Expression(P.Unary(A.Not, P.Expression(P.BooleanLiteral(true), l1)), l2);
      AnalyzeStatement(L.Corrected, st, P.Assert(notTrue, l3)).1.errors == st.errors
  {
    var notTrue := P.Expression(P.Unary(A.Not, P.Expression(P.BooleanLiteral(true), l1)), l2);
    var r := AnalyzeExpression(L.Corrected, st, notTrue);
    assert r == AnalyzeUnary(L.Corrected, st, notTrue);
    assert r.0.typ == A.Boolean && r.1 == st;
  }

  /** A one-entry map literal, analyzed as written, yields a typed map
      literal with no entries. */
  lemma MapLiteralLosesFirstAsWritten(st: Analyzer, key: P.Expression, value: P.Expression, location: Position)
    ensures var r := AnalyzeExpression(L.AsWritten, st, P.Expression(P.MapLiteral([P.MapEntry(key, value)]), location));
      r.0.kind.MapLiteral? && r.0.kind.pairs == []
  {
  }

  /** Corrected, the typed literal keeps its one entry. */
  lemma MapLiteralKeepsEntriesCorrected(st: Analyzer, key: P.Expression, value: P.Expression, location: Position)
    ensures var r := AnalyzeExpression(L.Corrected, st, P.Expression(P.MapLiteral([P.MapEntry(key, value)]), location));
      r.0.kind.MapLiteral? && |r.0.kind.pairs| == 1
      && r.0.kind.pairs[0] == (AnalyzeExpression(L.Corrected, st, key).0,
                               AnalyzeExpression(L.Corrected, AnalyzeExpression(L.Corrected, st, key).1, value).0)
  {
  }
}

=== FILE: rust_ast.dfy ===
/** The abstract syntax tree of the Rust generation (src/ast.rs): the
    types the analyzer computes, their compatibility relation `matches`
    and their storage size, the symbol-table entries, and the typed tree
    the analyzer builds. The register and stack-placement fields the code
    generator fills in later are not part of this model. */
module RustAst {
  import opened Wrappers

  datatype Type =
    | Boolean
    | I64
    | String
    | File
    | Void
    | Any
    | Tuple(items: seq<Type>)
    | List(item: Type)
    | Map(key: Type, value: Type)
    | Function(parameters: seq<Type>, returnType: Type)
    | Record(name: string)
    | Error

  /** What the analyzer knows about a named symbol. */
  datatype SymbolEntry = SymbolEntry(
    uniqueName: string,
    typ: Type,
    constant: bool,
    external: bool,
    stackOffset: int)

  /** SymbolEntry::type_: the entry of a built-in type name. */
  function TypeEntry(t: Type): SymbolEntry {
    SymbolEntry("", t, true, false, 0)
  }

  /** SymbolEntry::external: a runtime function the program links against. */
  function ExternalEntry(uniqueName: string, t: Type): SymbolEntry {
    SymbolEntry(uniqueName, t, true, true, 0)
  }

  // ---------------------------------------------------------------------
  // Type compatibility

  /** Type::matches. `Any` on either side is compatible with everything;
      otherwise the four atomic types match only themselves, and tuples,
      lists and maps match component by component. Nothing else matches,
      not even `Void` with `Void`, a function type with itself or a record
      with itself. */
  function Matches(a: Type, b: Type): bool
    decreases a, 1
  {
    if a.Any? || b.Any? then true
    else match a
      case Boolean => b.Boolean?
      case I64 => b.I64?
      case String => b.String?
      case File => b.File?
      case Tuple(ts) => b.Tuple? && |ts| == |b.items| && ItemsMatch(ts, b.items, 0)
      case List(t) => b.List? && Matches(t, b.item)
      case Map(k, v) => b.Map? && Matches(k, b.key) && Matches(v, b.value)
      case _ => false
  }

  /** The tuple loop of `matches`: the components from `i` on match
      pairwise, stopping at the first pair that does not. */
  function ItemsMatch(ts1: seq<Type>, ts2: seq<Type>, i: nat): bool
    requires |ts1| == |ts2|
    decreases ts1, 0, |ts1| - i
  {
    if i >= |ts1| then true
    else Matches(ts1[i], ts2[i]) && ItemsMatch(ts1, ts2, i + 1)
  }

  /** The types a value can actually have: those matching themselves. */
  predicate Inhabited(t: Type) {
    match t
    case Boolean => true
    case I64 => true
    case String => true
    case File => true
    case Any => true
    case Tuple(ts) => forall k :: 0 <= k < |ts| ==> Inhabited(ts[k])
    case List(x) => Inhabited(x)
    case Map(k, v) => Inhabited(k) && Inhabited(v)
    case _ => false
  }

  /** Type::storage_size: bytes to store a value of the type. Every value
      is a primitive or a pointer, one 8-byte word; `Void` and the error
      type take no room. */
  function StorageSize(t: Type): (n: int)
    ensures n == 0 || n == 8
  {
    match t
    case Void => 0
    case Error => 0
    case _ => 8
  }

  // ---------------------------------------------------------------------
  // The typed tree

  datatype BinaryOp = Add | And | Concat | Divide | Modulo | Multiply | Or | Subtract
  datatype ComparisonOp = Equals | GreaterThan | GreaterThanEquals | LessThan | LessThanEquals | NotEquals
  datatype UnaryOp = Negate | Not

  datatype Expression = Expression(kind: ExpressionKind, typ: Type)

  /** The expression forms the analyzer produces. A list literal becomes
      a call of the runtime's `venice_list_new`, and indexing a list a
      call of `venice_list_index`. */
  datatype ExpressionKind =
    | BooleanLiteral(b: bool)
    | IntegerLiteral(i: int)
    | StringLiteral(s: string)
    | Symbol(entry: SymbolEntry)
    | Binary(bop: BinaryOp, left: Expression, right: Expression)
    | Comparison(cop: ComparisonOp, cleft: Expression, cright: Expression)
    | Unary(uop: UnaryOp, operand: Expression)
    | Call(callee: SymbolEntry, arguments: seq<Expression>, variadic: bool)
    | Index(indexed: Expression, index: Expression)
    | TupleIndex(tuple: Expression, position: nat)
    | TupleLiteral(elements: seq<Expression>)
    | MapLiteral(pairs: seq<(Expression, Expression)>)
    | ErrorKind

  /** ast::EXPRESSION_ERROR: what a rejected expression becomes. */
  const ErrorExpression: Expression := Expression(ErrorKind, Error)

  datatype Statement =
    | Let(symbol: SymbolEntry, declared: Type, value: Expression)
    | Assign(target: SymbolEntry, newValue: Expression)
    | If(condition: Expression, body: seq<Statement>, elseBody: seq<Statement>)
    | While(loopCondition: Expression, loopBody: seq<Statement>)
    | Return(returned: Expression)
    | Assert(asserted: Expression)
    | ExpressionStatement(e: Expression)
    | ErrorStatement

  datatype Parameter = Parameter(entry: SymbolEntry, typ: Type)

  datatype Declaration =
    | FunctionDeclaration(name: SymbolEntry, parameters: seq<Parameter>, returnType: Type,
                          body: seq<Statement>, stackFrameSize: int)
    | ConstDeclaration(symbol: SymbolEntry, typ: Type, value: Expression)
    | ErrorDeclaration

  datatype Program = Program(declarations: seq<Declaration>)

  // ---------------------------------------------------------------------
  // Lemmas

  /** The tuple loop compares every pair of components. */
  lemma {:induction false} ItemsMatchMeans(ts1: seq<Type>, ts2: seq<Type>, i: nat)
    requires |ts1| == |ts2|
    ensures ItemsMatch(ts1, ts2, i) <==> forall k :: i <= k < |ts1| ==> Matches(ts1[k], ts2[k])
    decreases |ts1| - i
  {
    if i < |ts1| {
      ItemsMatchMeans(ts1, ts2, i + 1);
    }
  }

  /** `Any` matches every type, on either side. */
  lemma AnyMatchesEverything(t: Type)
    ensures Matches(Any, t) && Matches(t, Any)
  {
  }

  /** Boolean, I64, String and File match only themselves (and `Any`). */
  lemma AtomicMatchesOnlyItself(a: Type, b: Type)
    requires a.Boolean? || a.I64? || a.String? || a.File?
    ensures Matches(a, b) <==> a == b || b.Any?
    ensures Matches(b, a) <==> a == b || b.Any?
  {
  }

  /** Compound types match component by component; tuples must have the
      same number of components. */
  lemma CompoundMatchesByComponent(xs: seq<Type>, ys: seq<Type>, x: Type, y: Type, k1: Type, k2: Type)
    ensures Matches(Tuple(xs), Tuple(ys))
      <==> |xs| == |ys| && forall k :: 0 <= k < |xs| ==> Matches(xs[k], ys[k])
    ensures Matches(List(x), List(y)) <==> Matches(x, y)
    ensures Matches(Map(k1, x), Map(k2, y)) <==> Matches(k1, k2) && Matches(x, y)
  {
    if |xs| == |ys| {
      ItemsMatchMeans(xs, ys, 0);
    }
  }

  /** Without `Any`, a type matches only a type of the same form, and
      void, function, record and error types match nothing at all. */
  lemma OtherPairsFail(a: Type, b: Type)
    requires !a.Any? && !b.Any?
    requires a.Void? || a.Function? || a.Record? || a.Error? || !SameForm(a, b)
    ensures !Matches(a, b) && !Matches(b, a)
  {
  }

  predicate SameForm(a: Type, b: Type) {
    (a.Boolean? && b.Boolean?) || (a.I64? && b.I64?) || (a.String? && b.String?)
    || (a.File? && b.File?) || (a.Tuple? && b.Tuple?) || (a.List? && b.List?)
    || (a.Map? && b.Map?)
  }

  /** Compatibility is symmetric. */
  lemma {:induction false} MatchesSymmetric(a: Type, b: Type)
    ensures Matches(a, b) == Matches(b, a)
    decreases a
  {
    match a {
      case Tuple(xs) =>
        if b.Tuple? && |xs| == |b.items| {
          var ys := b.items;
          forall k | 0 <= k < |xs|
            ensures Matches(xs[k], ys[k]) == Matches(ys[k], xs[k])
          {
            MatchesSymmetric(xs[k], ys[k]);
          }
          ItemsMatchMeans(xs, ys, 0);
          ItemsMatchMeans(ys, xs, 0);
        }
      case List(x) =>
        if b.List? {
          MatchesSymmetric(x, b.item);
        }
      case Map(k, v) =>
        if b.Map? {
          MatchesSymmetric(k, b.key);
          MatchesSymmetric(v, b.value);
        }
      case _ =>
    }
  }

  /** A type matches itself exactly when it can hold a value: `Void`,
      function, record and error types, and compounds built from them,
      do not. */
  lemma {:induction false} MatchesReflexive(t: Type)
    ensures Matches(t, t) <==> Inhabited(t)
    decreases t
  {
    match t {
      case Tuple(xs) =>
        forall k | 0 <= k < |xs|
          ensures Matches(xs[k], xs[k]) <==> Inhabited(xs[k])
        {
          MatchesReflexive(xs[k]);
        }
        ItemsMatchMeans(xs, xs, 0);
      case List(x) =>
        MatchesReflexive(x);
      case Map(k, v) =>
        MatchesReflexive(k);
        MatchesReflexive(v);
      case _ =>
    }
  }

  /** Compatibility is not transitive: `Any` bridges unrelated types. */
  lemma MatchesNotTransitive()
    ensures Matches(I64, Any) && Matches(Any, Boolean) && !Matches(I64, Boolean)
  {
  }

  /** Every type that can hold a value takes one word; only `Void` and
      the error type take none. */
  lemma StorageOfInhabited(t: Type)
    ensures Inhabited(t) ==> StorageSize(t) == 8
    ensures StorageSize(t) == 0 <==> t == Void || t == Error
  {
  }
}

=== FILE: rust_lexer.dfy ===
/** The lexer of the Rust generation (src/lexer.rs). The program is a
    vector of Unicode scalar values, as here. The scanner state is the
    index of the next unread character: every token ends by setting the
    token start to that index, so a call to `next` always starts from a
    state whose start and index agree. A token's location is the line and
    column of the character `next` began at. */
module RustLexer {
  import opened Wrappers
  import opened Text
  import L = GoLexer

  datatype TokenType =
    // Literals
    | Integer | String | Symbol | True | False
    // Operators
    | Assign | Concat | GreaterThan | GreaterThanEquals | Equals | LessThan | LessThanEquals
    | Minus | NotEquals | Percent | Plus | Slash | Star
    // Punctuation
    | Arrow | Colon | Comma | CurlyClose | CurlyOpen | Dot | ParenClose | ParenOpen
    | SquareClose | Semicolon | SquareOpen
    // Keywords
    | And | Assert | Const | Else | For | Func | If | In | Let | New | Not | Or | Record
    | Return | While
    // Miscellaneous
    | End | Unknown

  datatype Token = Token(kind: TokenType, value: string, location: Position)

  /** Token equality ignores the location. */
  predicate SameToken(a: Token, b: Token) {
    a.kind == b.kind && a.value == b.value
  }

  /** A lexer failure: Rust's index-out-of-bounds panic. */
  datatype Fault = IndexOutOfBounds

  /** ONE_CHAR_TOKENS. */
  function OneCharToken(c: char): Option<TokenType> {
    match c
    case '=' => Some(Assign)
    case ':' => Some(Colon)
    case ',' => Some(Comma)
    case '}' => Some(CurlyClose)
    case '{' => Some(CurlyOpen)
    case '.' => Some(Dot)
    case '>' => Some(GreaterThan)
    case '<' => Some(LessThan)
    case '-' => Some(Minus)
    case ')' => Some(ParenClose)
    case '(' => Some(ParenOpen)
    case '%' => Some(Percent)
    case '+' => Some(Plus)
    case ';' => Some(Semicolon)
    case '/' => Some(Slash)
    case ']' => Some(SquareClose)
    case '[' => Some(SquareOpen)
    case '*' => Some(Star)
    case _ => None
  }

  /** TWO_CHAR_TOKENS. */
  function TwoCharToken(c: char, c2: char): Option<TokenType> {
    if c == '-' && c2 == '>' then Some(Arrow)
    else if c == '=' && c2 == '=' then Some(Equals)
    else if c == '>' && c2 == '=' then Some(GreaterThanEquals)
    else if c == '<' && c2 == '=' then Some(LessThanEquals)
    else if c == '!' && c2 == '=' then Some(NotEquals)
    else if c == '+' && c2 == '+' then Some(Concat)
    else None
  }

  /** KEYWORDS. */
  function Keyword(word: string): Option<TokenType> {
    match word
    case "and" => Some(And)
    case "assert" => Some(Assert)
    case "const" => Some(Const)
    case "else" => Some(Else)
    case "false" => Some(False)
    case "for" => Some(For)
    case "func" => Some(Func)
    case "if" => Some(If)
    case "in" => Some(In)
    case "let" => Some(Let)
    case "new" => Some(New)
    case "not" => Some(Not)
    case "or" => Some(Or)
    case "record" => Some(Record)
    case "return" => Some(Return)
    case "true" => Some(True)
    case "while" => Some(While)
    case _ => None
  }

  /** `char::is_whitespace`: the Unicode White_Space property. */
  predicate IsWhitespace(c: char) {
    ('\t' <= c <= '\r') || c == ' ' || c == 0x85 as char || c == 0xA0 as char
    || c == 0x1680 as char || (0x2000 as char <= c <= 0x200A as char)
    || c == 0x2028 as char || c == 0x2029 as char || c == 0x202F as char
    || c == 0x205F as char || c == 0x3000 as char
  }

  /** `char::is_numeric`, restricted to the ASCII digits. */
  predicate IsNumeric(c: char) {
    '0' <= c <= '9'
  }

  predicate IsSymbolFirstCharacter(c: char) {
    IsAsciiLetter(c) || c == '_'
  }

  predicate IsSymbolCharacter(c: char) {
    IsAsciiLetter(c) || IsDigit(c) || c == '_'
  }

  /** The line and column of the character at `i`. */
  function Location(chars: string, i: nat): Position
    requires i <= |chars|
  {
    PositionAfter(chars[..i])
  }

  /** The index of the first newline at or after `i`, or the end. */
  function LineEnd(chars: string, i: nat): (e: nat)
    requires i <= |chars|
    ensures i <= e <= |chars|
    ensures e == |chars| || chars[e] == '\n'
    ensures forall k :: i <= k < e ==> chars[k] != '\n'
    decreases |chars| - i
  {
    if i == |chars| || chars[i] == '\n' then i else LineEnd(chars, i + 1)
  }

  /** skip_whitespace_and_comments: whitespace, and `//` up to the end of
      the line. As written, `/` as the last character makes `peek(1)` read
      past the end. */
  function SkipTrivia(v: L.Variant, chars: string, i: nat): (r: Result<nat, Fault>)
    requires i <= |chars|
    ensures v == L.Corrected ==> r.Ok?
    ensures r.Ok? ==> i <= r.value <= |chars|
    ensures r.Ok? && r.value < |chars| ==>
      !IsWhitespace(chars[r.value])
      && !(chars[r.value] == '/' && r.value + 1 < |chars| && chars[r.value + 1] == '/')
    decreases |chars| - i
  {
    if i == |chars| then Ok(i)
    else if IsWhitespace(chars[i]) then SkipTrivia(v, chars, i + 1)
    else if chars[i] == '/' then
      if i + 1 == |chars| then
        (if v == L.AsWritten then Err(IndexOutOfBounds) else Ok(i))
      else if chars[i + 1] == '/' then SkipTrivia(v, chars, LineEnd(chars, i))
      else Ok(i)
    else Ok(i)
  }

  /** The end of the run of characters satisfying `p` from `i` on. */
  function ReadWhile(chars: string, i: nat, p: char -> bool): (e: nat)
    requires i <= |chars|
    ensures i <= e <= |chars|
    ensures forall k :: i <= k < e ==> p(chars[k])
    ensures e == |chars| || !p(chars[e])
    decreases |chars| - i
  {
    if i == |chars| || !p(chars[i]) then i else ReadWhile(chars, i + 1, p)
  }

  /** read_string after the opening quote: up to and including the closing
      quote, stepping over the character after each backslash; the end of
      the program if the string is not closed. */
  function StringEnd(chars: string, j: nat): (e: nat)
    requires j <= |chars|
    ensures j <= e <= |chars|
    ensures e == |chars| || (j < e && chars[e - 1] == '"')
    decreases |chars| - j
  {
    if j == |chars| then j
    else if chars[j] == '"' then j + 1
    else if chars[j] == '\\' then StringEnd(chars, if j + 2 <= |chars| then j + 2 else |chars|)
    else StringEnd(chars, j + 1)
  }

  /** The token of `chars[i..e]`, which `next` leaves the lexer at `e` after. */
  function MakeToken(kind: TokenType, chars: string, i: nat, e: nat): (r: (Token, nat))
    requires i <= e <= |chars|
    ensures r.0.kind == kind && r.0.value == chars[i..e] && r.1 == e
  {
    (Token(kind, chars[i..e], Location(chars, i)), e)
  }

  /** The token starting at `i`, which is not trivia: two-character
      tokens first, then one-character tokens, numbers, strings and words.
      As written, an unknown character is not consumed and yields an empty
      token; corrected, it is consumed and is the token's text. */
  function Scan(v: L.Variant, chars: string, i: nat): (r: (Token, nat))
    requires i < |chars|
    ensures i <= r.1 <= |chars| && r.0.value == chars[i..(r.1)]
    ensures r.0.location == Location(chars, i) && r.0.kind != End
    ensures v == L.Corrected ==> r.1 > i
  {
    var c := chars[i];
    if i + 1 < |chars| && TwoCharToken(c, chars[i + 1]).Some? then
      MakeToken(TwoCharToken(c, chars[i + 1]).value, chars, i, i + 2)
    else if OneCharToken(c).Some? then MakeToken(OneCharToken(c).value, chars, i, i + 1)
    else if IsDigit(c) then MakeToken(Integer, chars, i, ReadWhile(chars, i, IsNumeric))
    else if c == '"' then MakeToken(String, chars, i, StringEnd(chars, i + 1))
    else if IsSymbolFirstCharacter(c) then
      var e := ReadWhile(chars, i, IsSymbolCharacter);
      MakeToken(Keyword(chars[i..e]).GetOr(Symbol), chars, i, e)
    else if v == L.AsWritten then MakeToken(Unknown, chars, i, i)
    else MakeToken(Unknown, chars, i, i + 1)
  }

  /** `next`: skip trivia, then End at the end of the program or the
      scanned token. The End token's text is whatever trivia was skipped
      since the previous token, and its location is where that began. */
  function Next(v: L.Variant, chars: string, index: nat): (r: Result<(Token, nat), Fault>)
    requires index <= |chars|
    ensures v == L.Corrected ==> r.Ok?
    ensures r.Ok? ==> index <= r.value.1 <= |chars|
    ensures r.Ok? && r.value.0.kind == End ==> r.value.1 == |chars|
    ensures v == L.Corrected && r.Ok? && r.value.0.kind != End ==> r.value.1 > index
  {
    var i :- SkipTrivia(v, chars, index);
    if i == |chars| then Ok(MakeToken(End, chars, index, i))
    else Ok(Scan(v, chars, i))
  }

  /** Lexes the whole program with the corrected lexer: every token up to
      and including End. */
  function Tokens(chars: string, index: nat): (r: seq<Token>)
    requires index <= |chars|
    ensures |r| > 0 && r[|r| - 1].kind == End
    ensures forall k :: 0 <= k < |r| - 1 ==> r[k].kind != End
    decreases |chars| - index
  {
    var (t, next) := Next(L.Corrected, chars, index).value;
    if t.kind == End then [t] else [t] + Tokens(chars, next)
  }

  // ---------------------------------------------------------------------
  // Lemmas

  /** Once the program is used up, `next` keeps returning an empty End
      token and stays put. */
  lemma EndRepeats(v: L.Variant, chars: string)
    ensures Next(v, chars, |chars|) == Ok((Token(End, "", Location(chars, |chars|)), |chars|))
  {
  }

  /** A two-character token wins over the one-character token of its first
      character. */
  lemma TwoCharFirst(v: L.Variant, chars: string, i: nat)
    requires i + 1 < |chars| && TwoCharToken(chars[i], chars[i + 1]).Some?
    ensures Scan(v, chars, i).0.kind == TwoCharToken(chars[i], chars[i + 1]).value
    ensures Scan(v, chars, i).1 == i + 2
  {
  }

  /** Without a two-character match, a one-character token is that
      character alone. */
  lemma OneCharOtherwise(v: L.Variant, chars: string, i: nat)
    requires i < |chars| && OneCharToken(chars[i]).Some?
    requires i + 1 == |chars| || TwoCharToken(chars[i], chars[i + 1]).None?
    ensures Scan(v, chars, i).0.kind == OneCharToken(chars[i]).value
    ensures Scan(v, chars, i).0.value == [chars[i]]
  {
  }

  /** "->" is one Arrow, not a Minus then a GreaterThan. */
  lemma ArrowNotMinus(v: L.Variant)
    ensures Scan(v, "->", 0).0.kind == Arrow
    ensures Scan(v, "->", 0).1 == 2
  {
  }

  /** A word is the longest run of symbol characters; it is a keyword
      exactly when KEYWORDS has it, and a Symbol otherwise. */
  lemma WordToken(v: L.Variant, chars: string, i: nat)
    requires i < |chars| && IsSymbolFirstCharacter(chars[i])
    ensures var (t, e) := Scan(v, chars, i);
      e > i
      && (forall k :: i <= k < e ==> IsSymbolCharacter(chars[k]))
      && (e == |chars| || !IsSymbolCharacter(chars[e]))
      && (t.kind == Symbol <==> Keyword(t.value).None?)
      && (Keyword(t.value).Some? ==> t.kind == Keyword(t.value).value)
  {
    var c := chars[i];
    assert OneCharToken(c).None? && !IsDigit(c) && c != '"';
    assert i + 1 < |chars| ==> TwoCharToken(c, chars[i + 1]).None?;
  }

  /** A string token keeps its quotes: it starts with the opening quote
      and ends with the closing one, or runs to the end of an unclosed
      program. */
  lemma StringToken(v: L.Variant, chars: string, i: nat)
    requires i < |chars| && chars[i] == '"'
    ensures Scan(v, chars, i).0.kind == String
    ensures Scan(v, chars, i).1 == StringEnd(chars, i + 1)
    ensures Scan(v, chars, i).0.value[0] == '"'
    ensures StringEnd(chars, i + 1) < |chars| ==>
      |Scan(v, chars, i).0.value| >= 2 && Scan(v, chars, i).0.value[|Scan(v, chars, i).0.value| - 1] == '"'
  {
    var e := StringEnd(chars, i + 1);
    ScanString(v, chars, i);
    var r := Scan(v, chars, i);
    var value := chars[i..e];
    assert r.0.value == value && r.1 == e;
    assert |value| == e - i && value[0] == '"';
    if e < |chars| {
      assert value[|value| - 1] == chars[e - 1];
    }
  }

  /** A quote starts a string token, whatever follows. */
  lemma ScanString(v: L.Variant, chars: string, i: nat)
    requires i < |chars| && chars[i] == '"'
    ensures Scan(v, chars, i) == MakeToken(String, chars, i, StringEnd(chars, i + 1))
  {
    assert i + 1 < |chars| ==> TwoCharToken(chars[i], chars[i + 1]).None?;
    assert OneCharToken(chars[i]).None? && !IsDigit(chars[i]);
  }

  /** A backslash hides the quote after it: `"""` is one string token. */
  lemma EscapedQuote(v: L.Variant)
    ensures Scan(v, ['"', '\\', '"', '"'], 0) == (Token(String, ['"', '\\', '"', '"'], Start), 4)
  {
    var chars := ['"', '\\', '"', '"'];
    assert StringEnd(chars, 3) == 4;
    assert StringEnd(chars, 1) == StringEnd(chars, 3);
    assert chars[..0] == [];
    assert chars[0..4] == chars;
  }

  /** A `//` comment is skipped through the end of its line: the next
      token starts after the newline. */
  lemma CommentSkipped(v: L.Variant, chars: string, i: nat)
    requires i + 1 < |chars| && chars[i] == '/' && chars[i + 1] == '/'
    requires SkipTrivia(v, chars, i).Ok?
    ensures var e := SkipTrivia(v, chars, i).value;
      e == |chars| || e > LineEnd(chars, i)
  {
    var n := LineEnd(chars, i);
    if n < |chars| {
      assert SkipTrivia(v, chars, n) == SkipTrivia(v, chars, n + 1);
    }
  }

  /** As written, an unknown character yields an empty Unknown token and
      the lexer does not move: every later `next` returns the same. */
  lemma UnknownStallsAsWritten(chars: string, index: nat)
    requires index <= |chars|
    requires Next(L.AsWritten, chars, index).Ok?
    requires Next(L.AsWritten, chars, index).value.0.kind == Unknown
    ensures var (t, j) := Next(L.AsWritten, chars, index).value;
      t.value == "" && Next(L.AsWritten, chars, j) == Ok((t, j))
  {
    var i := SkipTrivia(L.AsWritten, chars, index).value;
    assert SkipTrivia(L.AsWritten, chars, i) == Ok(i);
  }

  /** Corrected, an unknown character is consumed and is the token's
      text. */
  lemma UnknownConsumedCorrected(chars: string, index: nat)
    requires index <= |chars|
    requires Next(L.Corrected, chars, index).value.0.kind == Unknown
    ensures var (t, j) := Next(L.Corrected, chars, index).value;
      |t.value| == 1 && j > index
  {
  }

  /** As written, a program whose last character is `/` makes the lexer
      read past the end when it reaches that character. */
  lemma TrailingSlashAsWritten(chars: string)
    requires |chars| > 0 && chars[|chars| - 1] == '/'
    ensures Next(L.AsWritten, chars, |chars| - 1) == Err(IndexOutOfBounds)
  {
  }

  /** Corrected, it is a Slash token. */
  lemma TrailingSlashCorrected(chars: string)
    requires |chars| > 0 && chars[|chars| - 1] == '/'
    ensures Next(L.Corrected, chars, |chars| - 1).value.0.kind == Slash
    ensures Next(L.Corrected, chars, |chars| - 1).value.1 == |chars|
  {
  }
}

=== FILE: rust_parse_tree.dfy ===
/** The parse tree of the Rust generation (src/ptree.rs): the analyzer's
    input, as the parser leaves it. Every node carries the location of
    its first token; where the source keeps a location both on an
    expression and on the structure inside it, the model keeps one. */
module RustParseTree {
  import opened Wrappers
  import opened Text
  import A = RustAst

  datatype Type = Type(kind: TypeKind, location: Position)

  /** A type name (`i64`), or a name with type parameters (`list<i64>`). */
  datatype TypeKind =
    | Literal(name: string)
    | Parameterized(symbol: string, parameters: seq<Type>)

  datatype Expression = Expression(kind: ExpressionKind, location: Position)

  datatype ExpressionKind =
    | BooleanLiteral(b: bool)
    | IntegerLiteral(i: int)
    | StringLiteral(s: string)
    | Symbol(name: string)
    | Binary(bop: A.BinaryOp, left: Expression, right: Expression)
    | Comparison(cop: A.ComparisonOp, cleft: Expression, cright: Expression)
    | Unary(uop: A.UnaryOp, operand: Expression)
    | Call(callee: string, arguments: seq<Expression>)
    | Index(indexed: Expression, index: Expression)
    | TupleIndex(tuple: Expression, position: nat)
    | Attribute(object: Expression, attribute: string)
    | ListLiteral(items: seq<Expression>)
    | TupleLiteral(elements: seq<Expression>)
    | MapLiteral(pairs: seq<MapEntry>)
    | RecordLiteral(recordName: string, fieldValues: seq<(string, Expression)>)

  datatype MapEntry = MapEntry(key: Expression, value: Expression)

  datatype IfClause = IfClause(condition: Expression, body: seq<Statement>)

  datatype Statement =
    | Let(symbol: string, declared: Type, value: Expression, location: Position)
    | Assign(target: string, newValue: Expression, location: Position)
    | If(ifClause: IfClause, elifClauses: seq<IfClause>, elseBody: seq<Statement>, location: Position)
    | While(loopCondition: Expression, loopBody: seq<Statement>, location: Position)
    | For(variable: string, variable2: Option<string>, iterated: Expression,
          forBody: seq<Statement>, location: Position)
    | Return(returned: Expression, location: Position)
    | Assert(asserted: Expression, location: Position)
    | ExpressionStatement(e: Expression)

  datatype Parameter = Parameter(name: string, typ: Type)

  datatype Declaration =
    | FunctionDeclaration(name: string, parameters: seq<Parameter>, returnType: Type,
                          body: seq<Statement>, location: Position)
    | ConstDeclaration(symbol: string, typ: Type, value: Expression, location: Position)
    | RecordDeclaration(recordName: string, fields: seq<Parameter>, location: Position)

  datatype Program = Program(declarations: seq<Declaration>)
}

=== FILE: text.dfy ===
/** String helpers shared by every generation: the line/column position that
    all three lexers track, decimal conversion of integers, and joining. */
module Text {

  /** A source position; lines and columns both start at 1. */
  datatype Position = Position(line: nat, column: nat)

  const Start := Position(1, 1)

  /** The position reached after reading character `c` at position `p`:
      a newline moves to column 1 of the next line, anything else one column right. */
  function StepPosition(p: Position, c: char): Position {
    if c == '\n' then Position(p.line + 1, 1) else Position(p.line, p.column + 1)
  }

  /** Number of newline characters in `s`. */
  function CountNewlines(s: string): nat {
    if s == [] then 0 else CountNewlines(s[..|s| - 1]) + (if s[|s| - 1] == '\n' then 1 else 0)
  }

  /** Number of characters after the last newline of `s`. */
  function CharsSinceNewline(s: string): nat {
    if s == [] then 0 else if s[|s| - 1] == '\n' then 0 else CharsSinceNewline(s[..|s| - 1]) + 1
  }

  /** The position of the character that follows the text `s`, computed from
      scratch: the reference definition every lexer's bookkeeping is held to. */
  function PositionAfter(s: string): (p: Position)
    ensures p.line >= 1 && p.column >= 1
  {
    Position(1 + CountNewlines(s), 1 + CharsSinceNewline(s))
  }

  /** Incremental tracking agrees with the reference definition. */
  lemma {:induction false} PositionAfterStep(s: string, c: char)
    ensures PositionAfter(s + [c]) == StepPosition(PositionAfter(s), c)
  {
    assert (s + [c])[..|s + [c]| - 1] == s;
  }

  /** Extending a prefix of `text` by the next character of `text`. */
  lemma PositionAfterPrefix(text: string, i: nat)
    requires i < |text|
    ensures PositionAfter(text[..i + 1]) == StepPosition(PositionAfter(text[..i]), text[i])
  {
    assert text[..i + 1] == text[..i] + [text[i]];
    PositionAfterStep(text[..i], text[i]);
  }

  predicate IsDigit(c: char) {
    '0' <= c <= '9'
  }

  predicate IsAsciiLetter(c: char) {
    ('a' <= c <= 'z') || ('A' <= c <= 'Z')
  }

  /** Python's str.isspace() on one character: the ASCII blanks and separators
      plus the Unicode space separators and line/paragraph separators. */
  predicate PyIsSpace(c: char) {
    ('\t' <= c <= '\r') || ('\U{1C}' <= c <= ' ') || c == '\U{85}' || c == '\U{A0}'
    || c == '\U{1680}' || ('\U{2000}' <= c <= '\U{200A}') || c == '\U{2028}' || c == '\U{2029}'
    || c == '\U{202F}' || c == '\U{205F}' || c == '\U{3000}'
  }

  predicate AllDigits(s: string) {
    forall i :: 0 <= i < |s| ==> IsDigit(s[i])
  }

  function DigitChar(d: nat): (c: char)
    requires d < 10
    ensures IsDigit(c) && c as int - '0' as int == d
  {
    (d + '0' as int) as char
  }

  /** Decimal digits of `n`, without leading zeros. */
  function NatToString(n: nat): (r: string)
    ensures |r| >= 1 && AllDigits(r)
    ensures |r| > 1 ==> r[0] != '0'
    decreases n
  {
    if n < 10 then [DigitChar(n)] else NatToString(n / 10) + [DigitChar(n % 10)]
  }

  /** Value of a run of decimal digits, most significant first. */
  function DigitsValue(s: string): nat
    requires AllDigits(s)
  {
    if s == [] then 0 else DigitsValue(s[..|s| - 1]) * 10 + (s[|s| - 1] as int - '0' as int)
  }

  /** Decimal rendering round-trips, so distinct numbers get distinct strings. */
  lemma {:induction false} NatToStringRoundTrip(n: nat)
    ensures DigitsValue(NatToString(n)) == n
    decreases n
  {
    var r := NatToString(n);
    if n >= 10 {
      NatToStringRoundTrip(n / 10);
      assert r[..|r| - 1] == NatToString(n / 10);
    }
  }

  lemma NatToStringInjective(a: nat, b: nat)
    ensures NatToString(a) == NatToString(b) <==> a == b
  {
    if NatToString(a) == NatToString(b) {
      NatToStringRoundTrip(a);
      NatToStringRoundTrip(b);
    }
  }

  /** Decimal rendering of an integer, with a leading '-' when negative
      (Python's str(), Go's strconv.Itoa and Rust's Display agree on it). */
  function IntToString(i: int): (r: string)
    ensures |r| >= 1
    ensures i < 0 <==> r[0] == '-'
  {
    if i < 0 then "-" + NatToString(-i) else NatToString(i)
  }

  /** `parts` separated by `sep`. */
  function Join(parts: seq<string>, sep: string): (r: string)
    ensures |parts| == 1 ==> r == parts[0]
    ensures parts == [] ==> r == []
  {
    if parts == [] then []
    else if |parts| == 1 then parts[0]
    else parts[0] + sep + Join(parts[1..], sep)
  }

  lemma JoinAppend(parts: seq<string>, last: string, sep: string)
    requires parts != []
    ensures Join(parts + [last], sep) == Join(parts, sep) + sep + last
  {
    if |parts| == 1 {
      assert parts + [last] == [parts[0], last];
    } else {
      assert (parts + [last])[1..] == parts[1..] + [last];
      JoinAppend(parts[1..], last, sep);
    }
  }

  predicate IsPrefix(p: string, s: string) {
    |p| <= |s| && s[..|p|] == p
  }

  predicate IsSuffix(p: string, s: string) {
    |p| <= |s| && s[|s| - |p|..] == p
  }

  /** `needle` occurs in `s` starting at index `i`. */
  predicate OccursAt(s: string, needle: string, i: int) {
    0 <= i && i + |needle| <= |s| && s[i..i + |needle|] == needle
  }
}

=== FILE: venice_ast.dfy ===
/** The syntax tree of the `venice` Python package, shared by its parser and
    its C code generator, with the dataclass `repr()` that error messages use. */
module VeniceAst {
  import opened Wrappers
  import opened Text
  import PyRepr

  datatype Expr =
    | FunctionCall(callee: string, arguments: seq<Expr>)
    | Infix(operator: string, left: Expr, right: Expr)
    | Integer(value: int)
    | String(literal: string)
    | Symbol(name: string)

  /** The only type syntax: a type name. */
  datatype TypeNode = SymbolType(value: string)

  datatype Stmt =
    | ExpressionStatement(expression: Expr)
    | Let(symbol: string, value: Expr)
    | Return(result: Option<Expr>)

  datatype Parameter = Parameter(name: string, paramType: TypeNode)

  datatype Function = Function(name: string, parameters: seq<Parameter>, body: seq<Stmt>, returnType: Option<TypeNode>)

  datatype Module = Module(functions: seq<Function>)

  /** Any node the code generator can be handed. */
  datatype Node =
    | ModuleNode(moduleNode: Module)
    | FunctionNode(functionNode: Function)
    | ParameterNode(parameter: Parameter)
    | StmtNode(stmt: Stmt)
    | ExprNode(expr: Expr)
    | TypeNodeNode(typeNode: TypeNode)

  /** The dataclass `repr()` of an expression, e.g. `Infix(operator='+', left=Integer(value=1), right=Symbol(value='x'))`. */
  function ExprRepr(e: Expr): (r: string)
    ensures |r| > 0
  {
    match e
    case FunctionCall(f, args) =>
      "FunctionCall(function=" + PyRepr.StrRepr(f) + ", arguments=[" + Join(ArgsRepr(args), ", ") + "])"
    case Infix(op, l, rt) =>
      "Infix(operator=" + PyRepr.StrRepr(op) + ", left=" + ExprRepr(l) + ", right=" + ExprRepr(rt) + ")"
    case Integer(v) => "Integer(value=" + IntToString(v) + ")"
    case String(v) => "String(value=" + PyRepr.StrRepr(v) + ")"
    case Symbol(v) => "Symbol(value=" + PyRepr.StrRepr(v) + ")"
  }

  function ArgsRepr(args: seq<Expr>): (r: seq<string>)
    ensures |r| == |args|
  {
    if args == [] then [] else [ExprRepr(args[0])] + ArgsRepr(args[1..])
  }
}

=== FILE: venice_codegen.dfy ===
/** The C code generator of the `venice` Python package (venice/codegen.py):
    Venice types and their C names, the chain of symbol tables, and the
    `visit_*` methods that turn a syntax tree into C text.

    The generator's mutable state (the typedef list and the current symbol
    table) is threaded through the functions as a `Gen` value. A visitor
    method the generator does not define fails in Python with an
    AttributeError; the model returns that as an error value. */
module VeniceCodegen {
  import opened Wrappers
  import opened Text
  import opened VeniceAst
  import PyRepr

  /** VeniceAtomicType and VeniceFunctionType. */
  datatype VeniceType =
    | Atomic(name: string)
    | FunctionType(parameterTypes: seq<VeniceType>, returnType: VeniceType)

  const BoolType := Atomic("venice_bool_t")
  const IntType := Atomic("venice_int_t")
  const VoidType := Atomic("void")
  const StringType := Atomic("venice_string_t")

  /** The two ways code generation fails: VeniceTypeError, and the
      AttributeError raised when no `visit_` method exists for a node. */
  datatype CodegenError = TypeError(message: string) | AttributeError(message: string)

  /** `match`: atomic types by name, function types by arity, return type
      and parameter types position by position. */
  function Matches(a: VeniceType, b: VeniceType): bool {
    match a
    case Atomic(n) => b.Atomic? && n == b.name
    case FunctionType(ps, r) =>
      b.FunctionType? && |ps| == |b.parameterTypes| && Matches(r, b.returnType) && MatchesAll(ps, b.parameterTypes)
  }

  function MatchesAll(xs: seq<VeniceType>, ys: seq<VeniceType>): bool
    requires |xs| == |ys|
  {
    xs == [] || (Matches(xs[0], ys[0]) && MatchesAll(xs[1..], ys[1..]))
  }

  /** `match` is exactly structural equality. */
  lemma {:induction false} MatchesIsEquality(a: VeniceType, b: VeniceType)
    ensures Matches(a, b) <==> a == b
    decreases a
  {
    match a
    case Atomic(_) =>
    case FunctionType(ps, r) =>
      if b.FunctionType? && |ps| == |b.parameterTypes| {
        MatchesIsEquality(r, b.returnType);
        MatchesAllIsEquality(a, ps, b.parameterTypes);
      }
  }

  lemma {:induction false} MatchesAllIsEquality(parent: VeniceType, xs: seq<VeniceType>, ys: seq<VeniceType>)
    requires |xs| == |ys|
    requires forall i :: 0 <= i < |xs| ==> xs[i] < parent
    ensures MatchesAll(xs, ys) <==> xs == ys
    decreases parent, |xs|
  {
    if xs != [] {
      MatchesIsEquality(xs[0], ys[0]);
      MatchesAllIsEquality(parent, xs[1..], ys[1..]);
      if xs[0] == ys[0] && xs[1..] == ys[1..] {
        assert xs == [xs[0]] + xs[1..] && ys == [ys[0]] + ys[1..];
      }
    }
  }

  /** `c_type`: an atomic type is its name; a function type is named after
      its parameter types and return type, joined by `__`. */
  function CType(t: VeniceType): (r: string)
    ensures t.Atomic? ==> r == t.name
  {
    match t
    case Atomic(n) => n
    case FunctionType(ps, ret) => Join(CTypes(t, ps) + [CType(ret)], "__")
  }

  function CTypes(parent: VeniceType, ts: seq<VeniceType>): (r: seq<string>)
    requires forall i :: 0 <= i < |ts| ==> ts[i] < parent
    ensures |r| == |ts|
    ensures forall i :: 0 <= i < |ts| ==> r[i] == CType(ts[i])
    decreases parent, |ts|
  {
    if ts == [] then [] else [CType(ts[0])] + CTypes(parent, ts[1..])
  }

  /** The C names of a list of types. */
  function CTypeList(ts: seq<VeniceType>): (r: seq<string>)
    ensures |r| == |ts|
    ensures forall i :: 0 <= i < |ts| ==> r[i] == CType(ts[i])
  {
    if ts == [] then [] else [CType(ts[0])] + CTypeList(ts[1..])
  }

  /** `to_typedef`: `typedef R NAME(P1, P2);` where NAME is the type's C name. */
  function ToTypedef(t: VeniceType): (r: string)
    requires t.FunctionType?
    ensures IsPrefix("typedef " + CType(t.returnType) + " " + CType(t) + "(", r)
    ensures IsSuffix(");", r)
  {
    var head := "typedef " + CType(t.returnType) + " " + CType(t) + "(";
    var params := Join(CTypeList(t.parameterTypes), ", ");
    assert (head + params + ");")[..|head|] == head;
    head + params + ");"
  }

  /** The four atomic types the generator can produce. */
  predicate IsBuiltinAtomic(t: VeniceType) {
    t == BoolType || t == IntType || t == VoidType || t == StringType
  }

  /** A function type over the builtin atomic types: every type the
      generator builds for a function has this shape. */
  predicate IsSimpleFunctionType(t: VeniceType) {
    t.FunctionType? && IsBuiltinAtomic(t.returnType)
    && forall i :: 0 <= i < |t.parameterTypes| ==> IsBuiltinAtomic(t.parameterTypes[i])
  }

  /** Index of the first `__` in `s`, or `|s|` when there is none. */
  function FirstSeparator(s: string): (i: nat)
    ensures i <= |s|
    ensures i < |s| ==> i + 2 <= |s| && s[i] == '_' && s[i + 1] == '_'
    ensures forall j :: 0 <= j < i && j + 1 < |s| ==> !(s[j] == '_' && s[j + 1] == '_')
  {
    if |s| < 2 then |s|
    else if s[0] == '_' && s[1] == '_' then 0
    else 1 + FirstSeparator(s[1..])
  }

  /** Splits a C type name back at its `__` separators: the inverse of the
      naming scheme of `c_type` for function types. */
  function Segments(s: string): (r: seq<string>)
    ensures |r| >= 1
    decreases |s|
  {
    var i := FirstSeparator(s);
    if i == |s| then [s] else [s[..i]] + Segments(s[i + 2..])
  }

  /** A name `__` cannot cut: non-empty, no `_` at either end and no `__`. */
  predicate CleanName(n: string) {
    n != [] && n[0] != '_' && n[|n| - 1] != '_'
    && forall j :: 0 <= j < |n| - 1 ==> !(n[j] == '_' && n[j + 1] == '_')
  }

  lemma BuiltinNamesClean(t: VeniceType)
    requires IsBuiltinAtomic(t)
    ensures CleanName(CType(t))
  {
  }

  lemma FirstSeparatorAfterName(n: string, rest: string)
    requires CleanName(n) && (rest == [] || rest[0] != '_')
    ensures FirstSeparator(n + "__" + rest) == |n|
  {
    var s := n + "__" + rest;
    assert s[|n|] == '_' && s[|n| + 1] == '_';
  }

  lemma FirstSeparatorOfName(n: string)
    requires CleanName(n)
    ensures FirstSeparator(n) == |n|
  {
  }

  /** Splitting a `__`-joined list of clean names gives the names back. */
  lemma {:induction false} SegmentsOfJoin(parts: seq<string>)
    requires parts != []
    requires forall i :: 0 <= i < |parts| ==> CleanName(parts[i])
    ensures Segments(Join(parts, "__")) == parts
    decreases |parts|
  {
    if |parts| == 1 {
      FirstSeparatorOfName(parts[0]);
    } else {
      var rest := Join(parts[1..], "__");
      SegmentsOfJoin(parts[1..]);
      assert rest != [] && rest[0] == parts[1][0] by { JoinHead(parts[1..]); }
      FirstSeparatorAfterName(parts[0], rest);
      var s := parts[0] + "__" + rest;
      assert s[..|parts[0]|] == parts[0];
      assert s[|parts[0]| + 2..] == rest;
    }
  }

  lemma {:induction false} JoinHead(parts: seq<string>)
    requires parts != [] && parts[0] != []
    ensures Join(parts, "__") != [] && Join(parts, "__")[0] == parts[0][0]
  {
  }

  /** The typedef name of a function type over the builtin types lists the
      parameters' C names and then the return type's. */
  lemma TypedefNameSegments(t: VeniceType)
    requires IsSimpleFunctionType(t)
    ensures Segments(CType(t)) == CTypeList(t.parameterTypes) + [CType(t.returnType)]
  {
    var parts := CTypeList(t.parameterTypes) + [CType(t.returnType)];
    assert CTypes(t, t.parameterTypes) == CTypeList(t.parameterTypes);
    forall i | 0 <= i < |parts| ensures CleanName(parts[i]) {
      if i < |t.parameterTypes| {
        BuiltinNamesClean(t.parameterTypes[i]);
      } else {
        BuiltinNamesClean(t.returnType);
      }
    }
    SegmentsOfJoin(parts);
  }

  /** Distinct function signatures over the builtin types get distinct
      typedef names. */
  lemma TypedefNamesDistinct(a: VeniceType, b: VeniceType)
    requires IsSimpleFunctionType(a) && IsSimpleFunctionType(b)
    ensures CType(a) == CType(b) <==> a == b
  {
    if CType(a) == CType(b) {
      TypedefNameSegments(a);
      TypedefNameSegments(b);
      var sa := CTypeList(a.parameterTypes) + [CType(a.returnType)];
      var sb := CTypeList(b.parameterTypes) + [CType(b.returnType)];
      assert sa == sb;
      assert |a.parameterTypes| == |b.parameterTypes|;
      assert CType(a.returnType) == sa[|sa| - 1];
      assert a.returnType == b.returnType;
      forall i | 0 <= i < |a.parameterTypes| ensures a.parameterTypes[i] == b.parameterTypes[i] {
        assert sa[i] == CType(a.parameterTypes[i]);
      }
    }
  }

  /** The dataclass `repr()` of a type, used in type error messages. */
  function TypeRepr(t: VeniceType): (r: string)
    ensures |r| > 0
  {
    match t
    case Atomic(n) => "VeniceAtomicType(name=" + PyRepr.StrRepr(n) + ")"
    case FunctionType(ps, ret) =>
      "VeniceFunctionType(parameter_types=[" + Join(TypeReprs(t, ps), ", ") + "], return_type=" + TypeRepr(ret) + ")"
  }

  function TypeReprs(parent: VeniceType, ts: seq<VeniceType>): (r: seq<string>)
    requires forall i :: 0 <= i < |ts| ==> ts[i] < parent
    ensures |r| == |ts|
    decreases parent, |ts|
  {
    if ts == [] then [] else [TypeRepr(ts[0])] + TypeReprs(parent, ts[1..])
  }

  /** A symbol table and the chain of tables that enclose it. */
  datatype SymbolTable = SymbolTable(symbols: map<string, VeniceType>, enclosing: Option<SymbolTable>)

  const EmptyTable := SymbolTable(map[], None)

  /** The maps of `t` and of every table enclosing it, innermost first. */
  function Chain(t: SymbolTable): (r: seq<map<string, VeniceType>>)
    ensures r != [] && r[0] == t.symbols
  {
    match t.enclosing
    case None => [t.symbols]
    case Some(e) => [t.symbols] + Chain(e)
  }

  /** The reference lookup: the binding in the first map of the chain that
      has one. */
  function FindInChain(chain: seq<map<string, VeniceType>>, name: string): Option<VeniceType> {
    if chain == [] then None
    else if name in chain[0] then Some(chain[0][name])
    else FindInChain(chain[1..], name)
  }

  /** `SymbolTable.get`: this table, then the enclosing ones, failing with
      "undefined symbol" at the root. */
  function Get(t: SymbolTable, name: string): (r: Result<VeniceType, CodegenError>)
    ensures name in t.symbols ==> r == Ok(t.symbols[name])
    ensures r.Err? ==> r.error == TypeError("undefined symbol: " + name)
  {
    if name in t.symbols then Ok(t.symbols[name])
    else match t.enclosing
      case None => Err(TypeError("undefined symbol: " + name))
      case Some(e) => Get(e, name)
  }

  /** `get` finds exactly what the reference lookup over the chain finds. */
  lemma {:induction false} GetFollowsChain(t: SymbolTable, name: string)
    ensures Get(t, name).Ok? <==> FindInChain(Chain(t), name).Some?
    ensures Get(t, name).Ok? ==> Get(t, name).value == FindInChain(Chain(t), name).value
  {
    if name !in t.symbols && t.enclosing.Some? {
      GetFollowsChain(t.enclosing.value, name);
      assert Chain(t)[1..] == Chain(t.enclosing.value);
    }
  }

  /** `SymbolTable.put`: a name may be bound once per table; enclosing
      tables are not consulted, so shadowing is allowed. */
  function Put(t: SymbolTable, name: string, ty: VeniceType): (r: Result<SymbolTable, CodegenError>)
    ensures r.Err? <==> name in t.symbols
    ensures r.Err? ==> r.error == TypeError("redefinition of symbol: " + name)
    ensures r.Ok? ==> r.value.enclosing == t.enclosing
  {
    if name in t.symbols then Err(TypeError("redefinition of symbol: " + name))
    else Ok(SymbolTable(t.symbols[name := ty], t.enclosing))
  }

  /** After a successful `put`, `get` finds the new binding and every other
      name resolves as before. */
  lemma GetAfterPut(t: SymbolTable, name: string, ty: VeniceType, other: string)
    requires Put(t, name, ty).Ok?
    ensures Get(Put(t, name, ty).value, name) == Ok(ty)
    ensures other != name ==> Get(Put(t, name, ty).value, other) == Get(t, other)
  {
  }

  /** `resolve_ast_type`: the three type names the language knows. */
  function ResolveType(node: TypeNode): (r: Result<VeniceType, CodegenError>)
    ensures r.Ok? ==> IsBuiltinAtomic(r.value) && r.value != VoidType
    ensures r.Ok? <==> node.value in {"bool", "int", "str"}
    ensures r.Err? ==> r.error == TypeError("unknown type name: " + PyRepr.StrRepr(node.value))
  {
    if node.value == "bool" then Ok(BoolType)
    else if node.value == "int" then Ok(IntType)
    else if node.value == "str" then Ok(StringType)
    else Err(TypeError("unknown type name: " + PyRepr.StrRepr(node.value)))
  }

  /** `compute_type`: literals have their own types, a symbol has the type
      it is bound to, and an infix expression needs two int operands and is
      an int. A call has no type rule. */
  function ComputeType(table: SymbolTable, e: Expr): (r: Result<VeniceType, CodegenError>)
    ensures e.Integer? ==> r == Ok(IntType)
    ensures e.String? ==> r == Ok(StringType)
    ensures e.Symbol? ==> r == Get(table, e.name)
    ensures e.FunctionCall? ==> r == Err(TypeError("unknown expression type: " + ExprRepr(e)))
    ensures e.Infix? && r.Ok? ==> r.value == IntType
    ensures r.Err? ==> r.error.TypeError?
    decreases e, 1
  {
    match e
    case Infix(_, l, rt) =>
      var _ :- AssertType(table, l, IntType);
      var _ :- AssertType(table, rt, IntType);
      Ok(IntType)
    case Integer(_) => Ok(IntType)
    case String(_) => Ok(StringType)
    case Symbol(n) => Get(table, n)
    case FunctionCall(_, _) => Err(TypeError("unknown expression type: " + ExprRepr(e)))
  }

  /** `assert_type`: the computed type must match the expected one. */
  function AssertType(table: SymbolTable, e: Expr, expected: VeniceType): (r: Result<VeniceType, CodegenError>)
    ensures r.Ok? ==> r.value == expected && ComputeType(table, e) == Ok(expected)
    ensures r.Err? && ComputeType(table, e).Ok? ==> (ComputeType(table, e).value != expected
      && r.error == TypeError("expected " + TypeRepr(expected) + ", got " + TypeRepr(ComputeType(table, e).value) + " for " + ExprRepr(e)))
    ensures r.Err? ==> r.error.TypeError?
    decreases e, 2
  {
    var actual :- ComputeType(table, e);
    MatchesIsEquality(expected, actual);
    if !Matches(expected, actual) then
      Err(TypeError("expected " + TypeRepr(expected) + ", got " + TypeRepr(actual) + " for " + ExprRepr(e)))
    else Ok(actual)
  }

  /** An infix expression type-checks exactly when both operands are ints. */
  lemma InfixTyping(table: SymbolTable, op: string, l: Expr, rt: Expr)
    ensures ComputeType(table, Infix(op, l, rt)).Ok?
      <==> ComputeType(table, l) == Ok(IntType) && ComputeType(table, rt) == Ok(IntType)
  {
    if ComputeType(table, l) == Ok(IntType) && ComputeType(table, rt) == Ok(IntType) {
      MatchesIsEquality(IntType, IntType);
    }
  }

  /** The AttributeError for a node type without a `visit_` method. */
  function NoVisitor(nodeType: string): CodegenError {
    AttributeError("'CodeGenerator' object has no attribute 'visit_" + nodeType + "'")
  }

  /** `visit_Infix`, `visit_Integer`, `visit_Symbol`, `visit_String`: C text
      for an expression, with spaces around each operator and no
      parentheses. */
  function GenerateExpr(e: Expr): (r: Result<string, CodegenError>)
    ensures r.Ok? <==> NoCalls(e)
    ensures r.Err? ==> r.error == NoVisitor("FunctionCall")
  {
    match e
    case Infix(op, l, rt) =>
      var left :- GenerateExpr(l);
      var right :- GenerateExpr(rt);
      Ok(left + " " + op + " " + right)
    case Integer(v) => Ok(IntToString(v))
    case Symbol(n) => Ok(n)
    case String(s) => Ok(PyRepr.StrRepr(s))
    case FunctionCall(_, _) => Err(NoVisitor("FunctionCall"))
  }

  /** An expression without calls, the only kind the generator can emit. */
  predicate NoCalls(e: Expr) {
    match e
    case Infix(_, l, rt) => NoCalls(l) && NoCalls(rt)
    case FunctionCall(_, _) => false
    case _ => true
  }

  /** The generator's state: the typedefs collected so far and the current
      symbol table. */
  datatype Gen = Gen(typedefs: seq<VeniceType>, table: SymbolTable)

  const NewGen := Gen([], EmptyTable)

  /** `visit_Let`: computes the value's type, binds the name in the current
      table, and emits `<ctype> <name> = <value>;`. Return and expression
      statements have no visitor. */
  function GenerateStmt(table: SymbolTable, s: Stmt): (r: Result<(string, SymbolTable), CodegenError>)
    ensures r.Ok? ==> s.Let? && NoCalls(s.value) && ComputeType(table, s.value).Ok?
    ensures r.Ok? ==> (Put(table, s.symbol, ComputeType(table, s.value).value) == Ok(r.value.1)
      && IsPrefix(CType(ComputeType(table, s.value).value) + " " + s.symbol + " = ", r.value.0)
      && IsSuffix(";", r.value.0))
    ensures s.Return? ==> r == Err(NoVisitor("Return"))
    ensures s.ExpressionStatement? ==> r == Err(NoVisitor("ExpressionStatement"))
  {
    match s
    case Let(name, value) =>
      var ty :- ComputeType(table, value);
      var table1 :- Put(table, name, ty);
      var code :- GenerateExpr(value);
      var head := CType(ty) + " " + name + " = ";
      assert (head + code + ";")[..|head|] == head;
      Ok((head + code + ";", table1))
    case Return(_) => Err(NoVisitor("Return"))
    case ExpressionStatement(_) => Err(NoVisitor("ExpressionStatement"))
  }

  /** The statement loop of `visit_Function`: each statement's code on its
      own line, indented by two spaces. */
  function GenerateBody(table: SymbolTable, body: seq<Stmt>): (r: Result<(string, SymbolTable), CodegenError>)
    ensures r.Ok? ==> r.value.1.enclosing == table.enclosing
    ensures r.Ok? ==> forall i :: 0 <= i < |body| ==> body[i].Let?
    decreases |body|
  {
    if body == [] then Ok(([], table))
    else
      var (code, table1) :- GenerateStmt(table, body[0]);
      var (rest, table2) :- GenerateBody(table1, body[1..]);
      Ok(("  " + code + "\n" + rest, table2))
  }

  /** The parameter loop of `visit_Function`: resolves each parameter's
      type, binds it in the function's own table, and writes the C
      parameter list. */
  function GenerateParameters(params: seq<Parameter>, symbols: map<string, VeniceType>): (r: Result<(seq<VeniceType>, map<string, VeniceType>, seq<string>), CodegenError>)
    ensures r.Ok? ==> |r.value.0| == |params| && |r.value.2| == |params|
    ensures r.Ok? ==> forall i :: 0 <= i < |params| ==> ResolveType(params[i].paramType) == Ok(r.value.0[i])
    ensures r.Ok? ==> forall i :: 0 <= i < |params| ==> r.value.2[i] == CType(r.value.0[i]) + " " + params[i].name
    ensures r.Ok? ==> symbols.Keys <= r.value.1.Keys
    ensures r.Ok? ==> forall i :: 0 <= i < |params| ==> params[i].name in r.value.1 && params[i].name !in symbols
    ensures r.Ok? ==> forall i :: 0 <= i < |params| ==> r.value.1[params[i].name] == r.value.0[i]
    ensures r.Ok? ==> forall n :: n in r.value.1 && n in symbols ==> r.value.1[n] == symbols[n]
  {
    if params == [] then Ok(([], symbols, []))
    else
      var ty :- ResolveType(params[0].paramType);
      var table :- Put(SymbolTable(symbols, None), params[0].name, ty);
      var (types, symbols1, texts) :- GenerateParameters(params[1..], table.symbols);
      Ok(([ty] + types, symbols1, [CType(ty) + " " + params[0].name] + texts))
  }

  /** The function's own table: its parameters, enclosed by the outer table
      in which the function's name is already bound. */
  function FunctionScope(paramSymbols: map<string, VeniceType>, outer: SymbolTable): (t: SymbolTable)
    ensures t.symbols == paramSymbols && t.enclosing == Some(outer)
  {
    SymbolTable(paramSymbols, Some(outer))
  }

  /** `visit_Function`: one typedef for the function's type, the name bound
      in the enclosing table before the body is generated, and the C
      definition. */
  function GenerateFunction(gen: Gen, f: Function): (r: Result<(string, Gen), CodegenError>)
    ensures r.Ok? ==> (|r.value.1.typedefs| == |gen.typedefs| + 1
      && r.value.1.typedefs[..|gen.typedefs|] == gen.typedefs
      && IsSimpleFunctionType(r.value.1.typedefs[|gen.typedefs|])
      && |r.value.1.typedefs[|gen.typedefs|].parameterTypes| == |f.parameters|)
    ensures r.Ok? ==> (Put(gen.table, f.name, r.value.1.typedefs[|gen.typedefs|]) == Ok(r.value.1.table))
    ensures r.Ok? ==> (f.returnType.None? <==> r.value.1.typedefs[|gen.typedefs|].returnType == VoidType)
    ensures r.Ok? ==> (IsPrefix(CType(r.value.1.typedefs[|gen.typedefs|].returnType) + " " + f.name + "(", r.value.0)
      && IsSuffix("}\n", r.value.0))
  {
    var ret :- if f.returnType.None? then Ok(VoidType) else ResolveType(f.returnType.value);
    var (ptypes, psymbols, ptexts) :- GenerateParameters(f.parameters, map[]);
    var ft := FunctionType(ptypes, ret);
    var outer :- Put(gen.table, f.name, ft);
    var (body, _) :- GenerateBody(FunctionScope(psymbols, outer), f.body);
    var head := CType(ret) + " " + f.name + "(";
    var code := head + Join(ptexts, ", ") + ") {\n" + body + "}\n";
    assert code[..|head|] == head;
    Ok((code, Gen(gen.typedefs + [ft], outer)))
  }

  /** A function's name is visible in its own body, so it can call itself,
      unless a parameter of the same name shadows it. */
  lemma FunctionNameInScope(gen: Gen, f: Function, paramSymbols: map<string, VeniceType>, ft: VeniceType)
    requires Put(gen.table, f.name, ft).Ok?
    requires f.name !in paramSymbols
    ensures Get(FunctionScope(paramSymbols, Put(gen.table, f.name, ft).value), f.name) == Ok(ft)
  {
  }

  /** The function loop of `visit_Module`. */
  function GenerateFunctions(gen: Gen, fs: seq<Function>): (r: Result<(seq<string>, Gen), CodegenError>)
    ensures r.Ok? ==> |r.value.0| == |fs|
    ensures r.Ok? ==> (|r.value.1.typedefs| == |gen.typedefs| + |fs|
      && r.value.1.typedefs[..|gen.typedefs|] == gen.typedefs)
    decreases |fs|
  {
    if fs == [] then Ok(([], gen))
    else
      var (code, gen1) :- GenerateFunction(gen, fs[0]);
      var (rest, gen2) :- GenerateFunctions(gen1, fs[1..]);
      assert gen2.typedefs[..|gen.typedefs|] == gen1.typedefs[..|gen1.typedefs|][..|gen.typedefs|];
      Ok(([code] + rest, gen2))
  }

  function TypedefLines(ts: seq<VeniceType>): (r: seq<string>)
    requires forall i :: 0 <= i < |ts| ==> ts[i].FunctionType?
    ensures |r| == |ts|
  {
    if ts == [] then [] else [ToTypedef(ts[0])] + TypedefLines(ts[1..])
  }

  /** `visit_Module`: the header include, one typedef line per function,
      then the functions separated by blank lines. */
  function GenerateModule(gen: Gen, m: Module): (r: Result<(string, Gen), CodegenError>)
    requires forall i :: 0 <= i < |gen.typedefs| ==> gen.typedefs[i].FunctionType?
    ensures r.Ok? ==> IsPrefix("#include <venice.h>\n\n", r.value.0)
    ensures r.Ok? ==> |r.value.1.typedefs| == |gen.typedefs| + |m.functions|
  {
    var (codes, gen1) :- GenerateFunctions(gen, m.functions);
    TypedefsStayFunctions(gen, m.functions);
    var header := "#include <venice.h>\n\n";
    var text := header + Join(TypedefLines(gen1.typedefs), "\n") + "\n\n" + Join(codes, "\n\n");
    assert text[..|header|] == header;
    Ok((text, gen1))
  }

  lemma {:induction false} TypedefsStayFunctions(gen: Gen, fs: seq<Function>)
    requires forall i :: 0 <= i < |gen.typedefs| ==> gen.typedefs[i].FunctionType?
    requires GenerateFunctions(gen, fs).Ok?
    ensures var g := GenerateFunctions(gen, fs).value.1;
      forall i :: 0 <= i < |g.typedefs| ==> g.typedefs[i].FunctionType?
    decreases |fs|
  {
    if fs != [] {
      var gen1 := GenerateFunction(gen, fs[0]).value.1;
      assert gen1.typedefs == gen.typedefs + [gen1.typedefs[|gen.typedefs|]];
      TypedefsStayFunctions(gen1, fs[1..]);
    }
  }

  /** `codegen`: a fresh generator visits the tree. Nodes without a
      visitor fail with an AttributeError. */
  function Codegen(tree: Node): (r: Result<string, CodegenError>)
    ensures tree.ExprNode? ==> r == GenerateExpr(tree.expr)
    ensures tree.ParameterNode? ==> r == Err(NoVisitor("Parameter"))
    ensures tree.TypeNodeNode? ==> r == Err(NoVisitor("SymbolType"))
  {
    match tree
    case ModuleNode(m) => var (text, _) :- GenerateModule(NewGen, m); Ok(text)
    case FunctionNode(f) => var (text, _) :- GenerateFunction(NewGen, f); Ok(text)
    case StmtNode(s) => var (text, _) :- GenerateStmt(NewGen.table, s); Ok(text)
    case ExprNode(e) => GenerateExpr(e)
    case ParameterNode(_) => Err(NoVisitor("Parameter"))
    case TypeNodeNode(_) => Err(NoVisitor("SymbolType"))
  }

  /** A let of an integer literal, on its own. */
  lemma LetExample()
    ensures Codegen(StmtNode(Let("x", Integer(42)))) == Ok("venice_int_t x = 42;")
  {
    assert IntToString(42) == "42";
    assert GenerateExpr(Integer(42)) == Ok("42");
    assert ComputeType(EmptyTable, Integer(42)) == Ok(IntType);
    assert CType(IntType) + " " + "x" + " = " + "42" + ";" == "venice_int_t x = 42;";
  }

  /** A function with no parameters and no return type is given the C type
      name `void`, so its typedef line reads `typedef void void();`. */
  lemma NullaryVoidName()
    ensures CType(FunctionType([], VoidType)) == "void"
    ensures ToTypedef(FunctionType([], VoidType)) == "typedef void void();"
  {
    assert CTypes(FunctionType([], VoidType), []) == [];
    assert CTypeList([]) == [];
  }
}

=== FILE: venice_lexer.dfy ===
/** The lexer of the `venice` Python package: a position-based scanner that
    skips blanks and `//` comments and returns one token per call. */
module VeniceLexer {
  import opened Wrappers
  import opened Text

  datatype TokenType =
    | Integer | String | Symbol
    | Arrow | Colon | Comma | Dot | LeftCurly | LeftParen | LeftSquare
    | RightCurly | RightParen | RightSquare | Semicolon
    | Assign | Minus | Plus | Slash | Star
    | Func | Let | Return
    | End | Unknown
  {
    /** The enum member's name, as printed in syntax errors. */
    function Name(): string {
      match this
      case Integer => "INTEGER"
      case String => "STRING"
      case Symbol => "SYMBOL"
      case Arrow => "ARROW"
      case Colon => "COLON"
      case Comma => "COMMA"
      case Dot => "DOT"
      case LeftCurly => "LEFT_CURLY"
      case LeftParen => "LEFT_PAREN"
      case LeftSquare => "LEFT_SQUARE"
      case RightCurly => "RIGHT_CURLY"
      case RightParen => "RIGHT_PAREN"
      case RightSquare => "RIGHT_SQUARE"
      case Semicolon => "SEMICOLON"
      case Assign => "ASSIGN"
      case Minus => "MINUS"
      case Plus => "PLUS"
      case Slash => "SLASH"
      case Star => "STAR"
      case Func => "FUNC"
      case Let => "LET"
      case Return => "RETURN"
      case End => "END"
      case Unknown => "UNKNOWN"
    }
  }

  /** A token with the position of its first character (the file is always "<string>"). */
  datatype Token = Token(kind: TokenType, value: string, loc: Position)

  /** The keyword table. */
  function Keyword(word: string): Option<TokenType> {
    if word == "func" then Some(Func)
    else if word == "let" then Some(Let)
    else if word == "return" then Some(Return)
    else None
  }

  /** The single-character token table. */
  function SingleChar(c: char): Option<TokenType> {
    match c
    case '=' => Some(Assign)
    case ':' => Some(Colon)
    case ',' => Some(Comma)
    case '.' => Some(Dot)
    case '{' => Some(LeftCurly)
    case '(' => Some(LeftParen)
    case '[' => Some(LeftSquare)
    case '-' => Some(Minus)
    case '+' => Some(Plus)
    case '}' => Some(RightCurly)
    case ')' => Some(RightParen)
    case ']' => Some(RightSquare)
    case ';' => Some(Semicolon)
    case '/' => Some(Slash)
    case '*' => Some(Star)
    case _ => None
  }

  predicate IsSymbolFirst(c: char) {
    IsAsciiLetter(c) || c == '_'
  }

  predicate IsSymbolChar(c: char) {
    IsSymbolFirst(c) || IsDigit(c)
  }

  /** Scanner state: the program, the index of the next unread character and
      the line and column of that character. */
  datatype Lexer = Lexer(program: string, index: nat, pos: Position) {
    /** The index stays within the program and the tracked position is the
        one obtained by reading the program up to the index. */
    predicate Valid() {
      index <= |program| && pos == PositionAfter(program[..index])
    }

    predicate Done()
      requires index <= |program|
    {
      index == |program|
    }
  }

  function NewLexer(program: string): (lx: Lexer)
    ensures lx.Valid() && lx.index == 0
  {
    Lexer(program, 0, Start)
  }

  /** Consumes one character, keeping the line and column up to date; does
      nothing at the end of the program. */
  function Advance(lx: Lexer): (r: Lexer)
    requires lx.Valid()
    ensures r.Valid() && r.program == lx.program
    ensures r.index == if lx.Done() then lx.index else lx.index + 1
  {
    if lx.Done() then lx
    else
      PositionAfterPrefix(lx.program, lx.index);
      Lexer(lx.program, lx.index + 1, StepPosition(lx.pos, lx.program[lx.index]))
  }

  /** The character after the current one, or "" when there is none. */
  function Peek(lx: Lexer): string
    requires lx.Valid()
  {
    if lx.index + 1 < |lx.program| then [lx.program[lx.index + 1]] else ""
  }

  /** Advances over the longest run of characters satisfying `p`. */
  function AdvanceWhile(lx: Lexer, p: char -> bool): (r: Lexer)
    requires lx.Valid()
    ensures r.Valid() && r.program == lx.program && lx.index <= r.index
    ensures forall k :: lx.index <= k < r.index ==> p(lx.program[k])
    ensures r.Done() || !p(r.program[r.index])
    decreases |lx.program| - lx.index
  {
    if lx.Done() || !p(lx.program[lx.index]) then lx else AdvanceWhile(Advance(lx), p)
  }

  /** Skips blanks and `//` line comments. */
  function SkipTrivia(lx: Lexer): (r: Lexer)
    requires lx.Valid()
    ensures r.Valid() && r.program == lx.program && lx.index <= r.index
    ensures !r.Done() ==> !PyIsSpace(r.program[r.index])
    ensures !r.Done() ==> !(r.program[r.index] == '/' && Peek(r) == "/")
    decreases |lx.program| - lx.index
  {
    var a := AdvanceWhile(lx, PyIsSpace);
    if a.Done() then a
    else if a.program[a.index] == '/' && Peek(a) == "/" then
      SkipTrivia(AdvanceWhile(a, c => c != '\n'))
    else a
  }

  /** Reads a string literal whose opening quote is the current character. */
  function ConsumeString(lx: Lexer): (r: Result<(string, Lexer), string>)
    requires lx.Valid() && !lx.Done() && lx.program[lx.index] == '"'
    ensures r.Ok? ==> r.value.1.Valid() && r.value.1.program == lx.program
    ensures r.Ok? ==> lx.index + 2 <= r.value.1.index
                      && r.value.0 == lx.program[lx.index + 1..(r.value.1.index - 1)]
                      && lx.program[r.value.1.index - 1] == '"'
                      && '"' !in r.value.0
    ensures r.Err? <==> '"' !in lx.program[lx.index + 1..]
    ensures r.Err? ==> r.error == "unclosed string literal"
  {
    var open := Advance(lx);
    var close := AdvanceWhile(open, c => c != '"');
    assert lx.program[lx.index + 1..close.index] == lx.program[open.index..close.index];
    if close.Done() then
      assert lx.program[lx.index + 1..] == lx.program[open.index..close.index];
      Err("unclosed string literal")
    else
      assert lx.program[close.index] in lx.program[lx.index + 1..];
      Ok((lx.program[open.index..close.index], Advance(close)))
  }

  /** Scans one token starting at the current, non-blank character. */
  function LexToken(s: Lexer): (r: Result<(Token, Lexer), string>)
    requires s.Valid() && !s.Done()
    ensures r.Ok? ==> r.value.1.Valid() && r.value.1.program == s.program
    ensures r.Ok? ==> s.index < r.value.1.index && r.value.0.loc == s.pos && r.value.0.kind != End
    ensures r.Ok? && r.value.0.kind != String ==> r.value.0.value == s.program[s.index..(r.value.1.index)]
    ensures r.Ok? && r.value.0.kind == Integer ==> r.value.0.value != [] && AllDigits(r.value.0.value)
    ensures r.Err? ==> s.program[s.index] == '"'
  {
    var c := s.program[s.index];
    if c == '-' && Peek(s) == ">" then
      Ok((Token(Arrow, "->", s.pos), Advance(Advance(s))))
    else if SingleChar(c).Some? then
      Ok((Token(SingleChar(c).value, [c], s.pos), Advance(s)))
    else if IsSymbolFirst(c) then
      var e := AdvanceWhile(s, IsSymbolChar);
      var word := s.program[s.index..e.index];
      Ok((Token(Keyword(word).GetOr(Symbol), word, s.pos), e))
    else if IsDigit(c) then
      var e := AdvanceWhile(s, IsDigit);
      Ok((Token(Integer, s.program[s.index..e.index], s.pos), e))
    else if c == '"' then
      var (value, e) :- ConsumeString(s);
      Ok((Token(String, value, s.pos), e))
    else
      Ok((Token(Unknown, [c], s.pos), Advance(s)))
  }

  /** Returns the next token and the state after it, or the syntax error of
      an unclosed string literal. The token's location is the line and column
      of its first character. */
  function Next(lx: Lexer): (r: Result<(Token, Lexer), string>)
    requires lx.Valid()
    ensures r.Ok? ==> r.value.1.Valid() && r.value.1.program == lx.program
    ensures r.Ok? ==> r.value.0.loc == PositionAfter(lx.program[..SkipTrivia(lx).index])
    ensures r.Ok? ==> (r.value.0.kind == End <==> SkipTrivia(lx).Done())
    ensures r.Ok? && r.value.0.kind == End ==> r.value.0.value == "" && r.value.1.Done()
    ensures r.Ok? && r.value.0.kind != End ==> SkipTrivia(lx).index < r.value.1.index
    ensures r.Err? ==> !SkipTrivia(lx).Done() && lx.program[SkipTrivia(lx).index] == '"'
    ensures r.Ok? && !lx.Done() ==> lx.index < r.value.1.index
    ensures r.Ok? && r.value.0.kind == Integer ==> r.value.0.value != [] && AllDigits(r.value.0.value)
    ensures r.Err? ==> r.error == "unclosed string literal"
  {
    var s := SkipTrivia(lx);
    if s.Done() then Ok((Token(End, "", s.pos), s)) else LexToken(s)
  }

  /** `debug()`: the (type, value) pairs of the tokens returned while the
      lexer is not done. */
  function Debug(program: string): Result<seq<(TokenType, string)>, string> {
    DebugFrom(NewLexer(program))
  }

  function DebugFrom(lx: Lexer): (r: Result<seq<(TokenType, string)>, string>)
    requires lx.Valid()
    ensures r.Ok? && lx.Done() ==> r.value == []
    decreases |lx.program| - lx.index
  {
    if lx.Done() then Ok([])
    else
      var (tok, rest) :- Next(lx);
      var pairs :- DebugFrom(rest);
      Ok([(tok.kind, tok.value)] + pairs)
  }

  /** `->` is one ARROW token; a `-` not followed by `>` is MINUS. */
  lemma ArrowBeatsMinus(s: Lexer)
    requires s.Valid() && !s.Done() && s.program[s.index] == '-'
    ensures s.index + 1 < |s.program| && s.program[s.index + 1] == '>' ==>
      LexToken(s).Ok? && LexToken(s).value.0.kind == Arrow && LexToken(s).value.0.value == "->"
      && LexToken(s).value.1.index == s.index + 2
    ensures !(s.index + 1 < |s.program| && s.program[s.index + 1] == '>') ==>
      LexToken(s).Ok? && LexToken(s).value.0.kind == Minus && LexToken(s).value.0.value == "-"
      && LexToken(s).value.1.index == s.index + 1
  {
  }

  /** A word is the longest run of symbol characters; it takes its keyword
      type when it is in the keyword table and SYMBOL otherwise. */
  lemma WordToken(s: Lexer)
    requires s.Valid() && !s.Done() && IsSymbolFirst(s.program[s.index])
    ensures LexToken(s).Ok?
    ensures var (tok, e) := LexToken(s).value;
      && tok.value == s.program[s.index..e.index]
      && (forall k :: s.index <= k < e.index ==> IsSymbolChar(s.program[k]))
      && (e.Done() || !IsSymbolChar(e.program[e.index]))
      && (tok.value in {"func", "let", "return"} ==> tok.kind == Keyword(tok.value).value)
      && (tok.value !in {"func", "let", "return"} ==> tok.kind == Symbol)
  {
    assert SingleChar(s.program[s.index]).None?;
  }

  /** An integer token is the maximal run of digits. */
  lemma IntegerToken(s: Lexer)
    requires s.Valid() && !s.Done() && IsDigit(s.program[s.index])
    ensures LexToken(s).Ok?
    ensures var (tok, e) := LexToken(s).value;
      && tok.kind == Integer && tok.value != [] && AllDigits(tok.value)
      && tok.value == s.program[s.index..e.index]
      && (e.Done() || !IsDigit(e.program[e.index]))
  {
    assert SingleChar(s.program[s.index]).None?;
  }

  /** A string literal without a closing quote is an error; otherwise the
      token's value is the text between the quotes. */
  lemma StringToken(s: Lexer)
    requires s.Valid() && !s.Done() && s.program[s.index] == '"'
    ensures '"' !in s.program[s.index + 1..] ==> LexToken(s) == Err("unclosed string literal")
    ensures '"' in s.program[s.index + 1..] ==>
      LexToken(s).Ok? && LexToken(s).value.0.kind == String
      && var e := LexToken(s).value.1;
      && LexToken(s).value.0.value == s.program[s.index + 1..e.index - 1]
      && '"' !in LexToken(s).value.0.value
  {
    assert SingleChar(s.program[s.index]).None?;
  }

  /** Once the input is exhausted every call returns END with an empty value. */
  lemma EndRepeats(lx: Lexer)
    requires lx.Valid()
    requires Next(lx).Ok? && Next(lx).value.0.kind == End
    ensures var after := Next(lx).value.1;
      Next(after).Ok? && Next(after).value.0.kind == End && Next(after).value.0.value == ""
      && Next(after).value.1 == after
  {
  }

  /** At a character that is neither blank nor the start of a comment there
      is nothing to skip; after a single blank there is nothing more. */
  lemma SkipAtMostOneBlank(lx: Lexer)
    requires lx.Valid() && lx.index + 1 < |lx.program|
    requires !PyIsSpace(lx.program[lx.index + 1]) && lx.program[lx.index + 1] != '/'
    ensures lx.program[lx.index] == ' ' ==> SkipTrivia(lx).index == lx.index + 1
  {
    if lx.program[lx.index] == ' ' {
      var a := AdvanceWhile(lx, PyIsSpace);
      assert AdvanceWhile(Advance(lx), PyIsSpace) == Advance(lx);
      assert a.index == lx.index + 1;
    }
  }

  lemma SkipNothing(lx: Lexer)
    requires lx.Valid() && !lx.Done()
    requires !PyIsSpace(lx.program[lx.index]) && lx.program[lx.index] != '/'
    ensures SkipTrivia(lx) == lx
  {
  }

  /** A word of symbol characters ending at `j`. */
  lemma WordEndsAt(s: Lexer, j: nat)
    requires s.Valid() && !s.Done() && IsSymbolFirst(s.program[s.index])
    requires s.index < j <= |s.program|
    requires forall k :: s.index <= k < j ==> IsSymbolChar(s.program[k])
    requires j == |s.program| || !IsSymbolChar(s.program[j])
    ensures LexToken(s).Ok? && LexToken(s).value.1.index == j
    ensures LexToken(s).value.0.value == s.program[s.index..j]
    ensures LexToken(s).value.0.kind == Keyword(s.program[s.index..j]).GetOr(Symbol)
  {
    WordToken(s);
    var e := LexToken(s).value.1;
  }

  /** A single-character token other than the `-` of an arrow. */
  lemma SingleCharAt(s: Lexer)
    requires s.Valid() && !s.Done() && SingleChar(s.program[s.index]).Some?
    requires !(s.program[s.index] == '-' && Peek(s) == ">")
    ensures LexToken(s).Ok? && LexToken(s).value.1.index == s.index + 1
    ensures LexToken(s).value.0 == Token(SingleChar(s.program[s.index]).value, [s.program[s.index]], s.pos)
  {
  }

  /** The lexer positioned at index `i` of `p`; every valid state is one of these. */
  function At(p: string, i: nat): (lx: Lexer)
    requires i <= |p|
    ensures lx.Valid() && lx.program == p && lx.index == i
  {
    Lexer(p, i, PositionAfter(p[..i]))
  }

  /** One step of `debug()`: a token followed by the tokens after it. */
  lemma DebugStep(p: string, i: nat, j: nat, kind: TokenType, value: string, rest: seq<(TokenType, string)>)
    requires i < |p| && Next(At(p, i)).Ok? && Next(At(p, i)).value.1.index == j
    requires Next(At(p, i)).value.0.kind == kind && Next(At(p, i)).value.0.value == value
    requires j <= |p| && DebugFrom(At(p, j)) == Ok(rest)
    ensures DebugFrom(At(p, i)) == Ok([(kind, value)] + rest)
  {
    assert Next(At(p, i)).value.1 == At(p, j);
  }
}

=== FILE: venice_parser.dfy ===
/** The recursive-descent parser of the `venice` Python package
    (venice/frontend/parser.py): precedence climbing over the lexer's tokens
    with a single push-back slot.

    The parser reads tokens one at a time from the lexer, and the lexer takes
    no input from the parser, so the model lexes the whole program first
    (`Tokenize`) and lets the parser walk that stream: a position in the
    stream plus the push-back slot is exactly the state of the lazy lexer plus
    the slot. Once the tokens run out the stream answers with the END token
    for ever, or with the lexer's syntax error if lexing stopped at an
    unclosed string literal, which is what the lazy lexer would do. */
module VeniceParser {
  import opened Wrappers
  import opened Text
  import opened VeniceAst
  import Lex = VeniceLexer

  /** VeniceSyntaxError and VeniceInternalError. */
  datatype ParseError = SyntaxError(message: string) | InternalError(message: string)

  /** Binding strength of the infix operators; call parentheses bind tightest. */
  const PrecedenceLowest: nat := 0
  const PrecedenceAddition: nat := 1
  const PrecedenceMultiplication: nat := 2
  const PrecedenceCall: nat := 3

  /** The precedence table; `None` for tokens that are not infix operators. */
  function Precedence(kind: Lex.TokenType): Option<nat> {
    match kind
    case Minus => Some(PrecedenceAddition)
    case Plus => Some(PrecedenceAddition)
    case Slash => Some(PrecedenceMultiplication)
    case Star => Some(PrecedenceMultiplication)
    case LeftParen => Some(PrecedenceCall)
    case _ => None
  }

  /** The `repr()` of a token's location dataclass. */
  function LocationRepr(p: Position): string {
    "Location(file='<string>', line=" + IntToString(p.line) + ", column=" + IntToString(p.column) + ")"
  }

  /** The syntax error for an unexpected token. */
  function ErrorMessage(expected: string, tok: Lex.Token): string {
    "expected " + expected + ", got " + tok.kind.Name() + " at " + LocationRepr(tok.loc)
  }

  /** Every token the lexer returns before END, followed by what the lexer
      returns from then on: the END token, or the error that stopped it. */
  datatype TokenStream = TokenStream(tokens: seq<Lex.Token>, end: Result<Lex.Token, string>)

  /** An INTEGER token is a non-empty run of digits, so `int()` accepts it. */
  predicate WellFormedToken(t: Lex.Token) {
    t.kind == Lex.Integer ==> t.value != [] && AllDigits(t.value)
  }

  predicate ValidStream(ts: TokenStream) {
    && (forall i :: 0 <= i < |ts.tokens| ==> ts.tokens[i].kind != Lex.End && WellFormedToken(ts.tokens[i]))
    && (ts.end.Ok? ==> ts.end.value.kind == Lex.End)
  }

  /** Lexes from `lx` until END or the first lexical error. */
  function Tokenize(lx: Lex.Lexer): (ts: TokenStream)
    requires lx.Valid()
    ensures ValidStream(ts)
    ensures ts.end.Err? ==> ts.end.error == "unclosed string literal"
    decreases |lx.program| - lx.index
  {
    match Lex.Next(lx)
    case Err(m) => TokenStream([], Err(m))
    case Ok((t, rest)) =>
      if t.kind == Lex.End then TokenStream([], Ok(t))
      else
        var ts := Tokenize(rest);
        TokenStream([t] + ts.tokens, ts.end)
  }

  /** The stream starts with what the lexer returns first: its first
      token, or, when that is END or an error, the stream's end. */
  lemma TokenizeStartsWithNext(lx: Lex.Lexer)
    requires lx.Valid()
    ensures var ts := Tokenize(lx);
      && (ts.tokens == [] ==> ts.end == (match Lex.Next(lx) case Ok((t, _)) => Ok(t) case Err(m) => Err(m)))
      && (ts.tokens != [] ==> Lex.Next(lx).Ok? && ts.tokens[0] == Lex.Next(lx).value.0)
  {
  }

  /** Parser state: the stream, the index of the first token not yet
      consumed, and the push-back slot. The lexer of the source stands one
      token further on while the slot holds a token other than END. */
  datatype Parser = Parser(stream: TokenStream, next: nat, pushed: Option<Lex.Token>) {
    /** What the stream yields at index `i`: a token, the END token, or the
        lexer's error. */
    function TokenAt(i: nat): Result<Lex.Token, string> {
      if i < |stream.tokens| then Ok(stream.tokens[i]) else stream.end
    }

    /** The slot only ever holds the first unconsumed token. */
    predicate Valid() {
      && next <= |stream.tokens|
      && (pushed.Some? ==> TokenAt(next) == Ok(pushed.value))
    }

    /** `t` is the token most recently read. */
    predicate JustRead(t: Lex.Token) {
      if t.kind == Lex.End then TokenAt(next) == Ok(t) else 0 < next && TokenAt(next - 1) == Ok(t)
    }

    function Remaining(): nat
      requires Valid()
    {
      |stream.tokens| - next
    }
  }

  /** Reading `t` consumes it unless it is END, which repeats for ever. */
  function Step(t: Lex.Token): nat {
    if t.kind == Lex.End then 0 else 1
  }

  /** Reading `t` from `p` leads to `q`: `t` is the first unconsumed token,
      the slot is empty afterwards, and `t` is consumed unless it is END. */
  predicate Reads(p: Parser, t: Lex.Token, q: Parser)
    requires p.Valid() && ValidStream(p.stream)
  {
    && p.TokenAt(p.next) == Ok(t)
    && q.Valid() && q.stream == p.stream && q.pushed.None? && q.JustRead(t) && WellFormedToken(t)
    && q.next == p.next + Step(t)
  }

  /** `_next`: the pushed-back token if there is one, otherwise the next
      token from the lexer. Either way it is the first unconsumed token. */
  function NextToken(p: Parser): (r: Result<(Lex.Token, Parser), ParseError>)
    requires p.Valid() && ValidStream(p.stream)
    ensures r.Ok? <==> p.TokenAt(p.next).Ok?
    ensures r.Ok? ==> Reads(p, r.value.0, r.value.1)
    ensures r.Err? ==> r.error == SyntaxError(p.TokenAt(p.next).error)
  {
    var t :- if p.pushed.Some? then Ok(p.pushed.value) else p.TokenAt(p.next).MapFailure(m => SyntaxError(m));
    Ok((t, Parser(p.stream, p.next + Step(t), None)))
  }

  /** `_push_back`: fills the slot, or fails with an internal error when it is
      already full. The parser only pushes back the token it has just read. */
  function PushBack(p: Parser, t: Lex.Token): (r: Result<Parser, ParseError>)
    requires p.Valid() && ValidStream(p.stream) && p.JustRead(t)
    ensures r.Err? <==> p.pushed.Some?
    ensures r.Err? ==> r.error == InternalError("cannot push back multiple tokens")
    ensures r.Ok? ==> r.value.Valid() && r.value.stream == p.stream && r.value.next + Step(t) == p.next
  {
    if p.pushed.Some? then Err(InternalError("cannot push back multiple tokens"))
    else Ok(Parser(p.stream, p.next - Step(t), Some(t)))
  }

  /** A pushed-back token is the next one read, and reading it restores the
      state the parser was in before the push. */
  lemma PushBackThenNext(p: Parser, t: Lex.Token)
    requires p.Valid() && ValidStream(p.stream) && p.JustRead(t) && p.pushed.None?
    ensures PushBack(p, t).Ok?
    ensures NextToken(PushBack(p, t).value) == Ok((t, p))
  {
  }

  /** `_expect`: the next token when it has the given type, a syntax error
      naming the type otherwise. */
  function Expect(p: Parser, kind: Lex.TokenType): (r: Result<(Lex.Token, Parser), ParseError>)
    requires p.Valid() && ValidStream(p.stream)
    ensures r.Ok? ==> Reads(p, r.value.0, r.value.1) && r.value.0.kind == kind
    ensures r.Err? && p.TokenAt(p.next).Ok? ==>
      p.TokenAt(p.next).value.kind != kind && r.error == SyntaxError(ErrorMessage(kind.Name(), p.TokenAt(p.next).value))
    ensures r.Err? ==> r.error.SyntaxError?
  {
    var (tok, q) :- NextToken(p);
    if tok.kind != kind then Err(SyntaxError(ErrorMessage(kind.Name(), tok))) else Ok((tok, q))
  }

  /** Facts every successful parse function establishes: the state stays
      valid, the stream is the same, and at least one token is consumed. */
  predicate Progress(p: Parser, q: Parser)
    requires p.Valid() && ValidStream(p.stream)
  {
    q.Valid() && q.stream == p.stream && q.next > p.next
  }

  /** The last token consumed has the given type and nothing is pushed back:
      how the list, block and statement rules end. */
  predicate Consumed(q: Parser, kind: Lex.TokenType)
    requires q.Valid()
  {
    q.pushed.None? && 0 < q.next && q.stream.tokens[q.next - 1].kind == kind
  }

  /** `match_prefix`: a literal or a symbol. */
  function MatchPrefix(p: Parser): (r: Result<(Expr, Parser), ParseError>)
    requires p.Valid() && ValidStream(p.stream)
    ensures r.Ok? ==> Progress(p, r.value.1)
    ensures r.Ok? ==> r.value.0.Integer? || r.value.0.String? || r.value.0.Symbol?
    ensures r.Err? ==> r.error.SyntaxError?
  {
    var (tok, q) :- NextToken(p);
    match tok.kind
    case Integer => Ok((Integer(DigitsValue(tok.value)), q))
    case String => Ok((String(tok.value), q))
    case Symbol => Ok((Symbol(tok.value), q))
    case _ => Err(SyntaxError(ErrorMessage("start of expression", tok)))
  }

  /** `match_expression(precedence)`: a prefix followed by the infix operators
      and calls that bind tighter than `precedence`. */
  function MatchExpression(p: Parser, precedence: nat): (r: Result<(Expr, Parser), ParseError>)
    requires p.Valid() && ValidStream(p.stream)
    ensures r.Ok? ==> Progress(p, r.value.1)
    ensures r.Err? ==> r.error.SyntaxError?
    decreases p.Remaining(), 0
  {
    var (e, q) :- MatchPrefix(p);
    var (tok, q2) :- NextToken(q);
    InfixLoop(q2, precedence, e, tok)
  }

  /** Whether `tok` continues an expression parsed at `precedence`: an
      operator binding tighter than it. */
  predicate Binds(tok: Lex.Token, precedence: nat) {
    Precedence(tok.kind).Some? && precedence < Precedence(tok.kind).value
  }

  /** The `while` loop of `match_expression`: `tok` has just been read. */
  function InfixLoop(p: Parser, precedence: nat, expr: Expr, tok: Lex.Token): (r: Result<(Expr, Parser), ParseError>)
    requires p.Valid() && ValidStream(p.stream) && p.pushed.None? && p.JustRead(tok)
    ensures r.Ok? ==> (r.value.1.Valid() && r.value.1.stream == p.stream
      && r.value.1.next + Step(tok) >= p.next)
    ensures r.Err? ==> r.error.SyntaxError?
    decreases p.Remaining(), 2
  {
    if Binds(tok, precedence) then
      if tok.kind == Lex.LeftParen then
        var (arguments, q) :- MatchArgumentList(p);
        if !expr.Symbol? then Err(SyntaxError("function must be symbol"))
        else
          var (t2, q2) :- NextToken(q);
          InfixLoop(q2, precedence, FunctionCall(expr.name, arguments), t2)
      else
        var (right, q) :- MatchExpression(p, Precedence(tok.kind).value);
        var (t2, q2) :- NextToken(q);
        InfixLoop(q2, precedence, Infix(tok.value, expr, right), t2)
    else
      match PushBack(p, tok)
      case Ok(q) => Ok((expr, q))
      case Err(e) => Err(e)
  }

  /** `match_argument_list`, entered after the opening parenthesis: each
      call reads the remaining arguments of the loop. */
  function MatchArgumentList(p: Parser): (r: Result<(seq<Expr>, Parser), ParseError>)
    requires p.Valid() && ValidStream(p.stream)
    ensures r.Ok? ==> Progress(p, r.value.1)
    ensures r.Ok? ==> Consumed(r.value.1, Lex.RightParen)
    ensures r.Err? ==> r.error.SyntaxError?
    decreases p.Remaining(), 1
  {
    var (tok, q) :- NextToken(p);
    if tok.kind == Lex.RightParen then Ok(([], q))
    else
      match PushBack(q, tok)
      case Err(e) => Err(e)
      case Ok(q1) =>
        var (argument, q2) :- MatchExpression(q1, PrecedenceLowest);
        var (t2, q3) :- NextToken(q2);
        if t2.kind == Lex.Comma then
          var (rest, q4) :- MatchArgumentList(q3);
          Ok(([argument] + rest, q4))
        else if t2.kind == Lex.RightParen then Ok(([argument], q3))
        else Err(SyntaxError(ErrorMessage("comma or right parenthesis", t2)))
  }

  /** `match_type`: a type name. */
  function MatchType(p: Parser): (r: Result<(TypeNode, Parser), ParseError>)
    requires p.Valid() && ValidStream(p.stream)
    ensures r.Ok? ==> Progress(p, r.value.1) && r.value.1.pushed.None?
    ensures r.Ok? <==> p.TokenAt(p.next).Ok? && p.TokenAt(p.next).value.kind == Lex.Symbol
    ensures r.Ok? ==> r.value.0 == SymbolType(p.TokenAt(p.next).value.value)
    ensures r.Err? ==> r.error.SyntaxError?
  {
    var (tok, q) :- NextToken(p);
    if tok.kind == Lex.Symbol then Ok((SymbolType(tok.value), q))
    else Err(SyntaxError(ErrorMessage("Venice type", tok)))
  }

  /** `match_parameter_list`, entered after the opening parenthesis. */
  function MatchParameterList(p: Parser): (r: Result<(seq<Parameter>, Parser), ParseError>)
    requires p.Valid() && ValidStream(p.stream)
    ensures r.Ok? ==> Progress(p, r.value.1)
    ensures r.Ok? ==> Consumed(r.value.1, Lex.RightParen)
    ensures r.Err? ==> r.error.SyntaxError?
    decreases p.Remaining()
  {
    var (tok, q) :- NextToken(p);
    if tok.kind == Lex.RightParen then Ok(([], q))
    else if tok.kind == Lex.Symbol then
      var (_, q1) :- Expect(q, Lex.Colon);
      var (typeNode, q2) :- MatchType(q1);
      var param := Parameter(tok.value, typeNode);
      var (t2, q3) :- NextToken(q2);
      if t2.kind == Lex.Comma then
        var (rest, q4) :- MatchParameterList(q3);
        Ok(([param] + rest, q4))
      else if t2.kind == Lex.RightParen then Ok(([param], q3))
      else Err(SyntaxError(ErrorMessage("comma or right parenthesis", t2)))
    else Err(SyntaxError(ErrorMessage("parameter", tok)))
  }

  /** `match_let`, entered after `let`. */
  function MatchLet(p: Parser): (r: Result<(Stmt, Parser), ParseError>)
    requires p.Valid() && ValidStream(p.stream)
    ensures r.Ok? ==> Progress(p, r.value.1) && Consumed(r.value.1, Lex.Semicolon) && r.value.0.Let?
    ensures r.Err? ==> r.error.SyntaxError?
  {
    var (sym, q) :- Expect(p, Lex.Symbol);
    var (_, q1) :- Expect(q, Lex.Assign);
    MatchLetValue(q1, sym.value)
  }

  /** The rest of `match_let`, after `let name =`: the value and the `;`. */
  function MatchLetValue(p: Parser, name: string): (r: Result<(Stmt, Parser), ParseError>)
    requires p.Valid() && ValidStream(p.stream)
    ensures r.Ok? ==> Progress(p, r.value.1) && Consumed(r.value.1, Lex.Semicolon)
    ensures r.Ok? ==> r.value.0.Let? && r.value.0.symbol == name
    ensures r.Err? ==> r.error.SyntaxError?
  {
    var (value, q) :- MatchExpression(p, PrecedenceLowest);
    var (_, q1) :- Expect(q, Lex.Semicolon);
    Ok((Let(name, value), q1))
  }

  /** `match_return`, entered after `return`: a value is always parsed. */
  function MatchReturn(p: Parser): (r: Result<(Stmt, Parser), ParseError>)
    requires p.Valid() && ValidStream(p.stream)
    ensures r.Ok? ==> (Progress(p, r.value.1) && Consumed(r.value.1, Lex.Semicolon)
      && r.value.0.Return? && r.value.0.result.Some?)
    ensures r.Err? ==> r.error.SyntaxError?
  {
    var (value, q) :- MatchExpression(p, PrecedenceLowest);
    var (_, q1) :- Expect(q, Lex.Semicolon);
    Ok((Return(Some(value)), q1))
  }

  /** `match_statement`: a let, a return, or an expression followed by `;`. */
  function MatchStatement(p: Parser): (r: Result<(Stmt, Parser), ParseError>)
    requires p.Valid() && ValidStream(p.stream)
    ensures r.Ok? ==> Progress(p, r.value.1) && Consumed(r.value.1, Lex.Semicolon)
    ensures r.Ok? ==> (p.TokenAt(p.next).Ok?
      && (r.value.0.Let? <==> p.TokenAt(p.next).value.kind == Lex.Let)
      && (r.value.0.Return? <==> p.TokenAt(p.next).value.kind == Lex.Return))
    ensures r.Err? ==> r.error.SyntaxError?
  {
    var (tok, q) :- NextToken(p);
    if tok.kind == Lex.Let then MatchLet(q)
    else if tok.kind == Lex.Return then MatchReturn(q)
    else
      match PushBack(q, tok)
      case Err(e) => Err(e)
      case Ok(q1) =>
        var (e, q2) :- MatchExpression(q1, PrecedenceLowest);
        var (_, q3) :- Expect(q2, Lex.Semicolon);
        Ok((ExpressionStatement(e), q3))
  }

  /** The loop of `match_body`, after the opening brace. */
  function MatchBodyLoop(p: Parser): (r: Result<(seq<Stmt>, Parser), ParseError>)
    requires p.Valid() && ValidStream(p.stream)
    ensures r.Ok? ==> Progress(p, r.value.1)
    ensures r.Ok? ==> Consumed(r.value.1, Lex.RightCurly)
    ensures r.Err? ==> r.error.SyntaxError?
    decreases p.Remaining()
  {
    var (tok, q) :- NextToken(p);
    if tok.kind == Lex.RightCurly then Ok(([], q))
    else
      match PushBack(q, tok)
      case Err(e) => Err(e)
      case Ok(q1) =>
        var (stmt, q2) :- MatchStatement(q1);
        var (rest, q3) :- MatchBodyLoop(q2);
        Ok(([stmt] + rest, q3))
  }

  /** `match_body`: `{`, statements, `}`. */
  function MatchBody(p: Parser): (r: Result<(seq<Stmt>, Parser), ParseError>)
    requires p.Valid() && ValidStream(p.stream)
    ensures r.Ok? ==> Progress(p, r.value.1) && Consumed(r.value.1, Lex.RightCurly)
    ensures r.Err? ==> r.error.SyntaxError?
  {
    var (_, q) :- Expect(p, Lex.LeftCurly);
    MatchBodyLoop(q)
  }

  /** The return-type part of `match_function`, after the parameter list:
      `-> type`, or nothing when the body's `{` follows directly, in which
      case the `{` is pushed back for `match_body`. */
  function MatchReturnType(p: Parser): (r: Result<(Option<TypeNode>, Parser), ParseError>)
    requires p.Valid() && ValidStream(p.stream) && p.pushed.None?
    ensures r.Ok? ==> r.value.1.Valid() && r.value.1.stream == p.stream && r.value.1.next >= p.next
    ensures r.Ok? ==> (p.TokenAt(p.next).Ok?
      && (r.value.0.None? <==> p.TokenAt(p.next).value.kind == Lex.LeftCurly)
      && (r.value.0.Some? <==> p.TokenAt(p.next).value.kind == Lex.Arrow))
    ensures r.Ok? && r.value.0.None? ==> r.value.1.next == p.next && r.value.1.pushed == Some(p.TokenAt(p.next).value)
    ensures r.Err? ==> r.error.SyntaxError?
  {
    var (tok, q) :- NextToken(p);
    if tok.kind == Lex.Arrow then
      var (t, q1) :- MatchType(q);
      Ok((Some(t), q1))
    else if tok.kind == Lex.LeftCurly then
      match PushBack(q, tok)
      case Err(e) => Err(e)
      case Ok(q1) => Ok((None, q1))
    else Err(SyntaxError(ErrorMessage("arrow or start of block", tok)))
  }

  /** `match_function`, entered after `func`. */
  function MatchFunction(p: Parser): (r: Result<(Function, Parser), ParseError>)
    requires p.Valid() && ValidStream(p.stream)
    ensures r.Ok? ==> Progress(p, r.value.1) && Consumed(r.value.1, Lex.RightCurly)
    ensures r.Err? ==> r.error.SyntaxError?
  {
    var (name, q) :- Expect(p, Lex.Symbol);
    var (_, q1) :- Expect(q, Lex.LeftParen);
    var (parameters, q2) :- MatchParameterList(q1);
    var (returnType, q3) :- MatchReturnType(q2);
    var (body, q4) :- MatchBody(q3);
    Ok((Function(name.value, parameters, body, returnType), q4))
  }

  /** The loop of `match_module`: functions until END. */
  function MatchModuleLoop(p: Parser): (r: Result<(seq<Function>, Parser), ParseError>)
    requires p.Valid() && ValidStream(p.stream)
    ensures r.Ok? ==> r.value.1.Valid() && r.value.1.stream == p.stream
    ensures r.Ok? ==> r.value.1.next == |p.stream.tokens| && p.stream.end.Ok?
    ensures r.Err? ==> r.error.SyntaxError?
    decreases p.Remaining()
  {
    var (tok, q) :- NextToken(p);
    if tok.kind == Lex.Func then
      var (fn, q1) :- MatchFunction(q);
      var (rest, q2) :- MatchModuleLoop(q1);
      Ok(([fn] + rest, q2))
    else if tok.kind == Lex.End then Ok(([], q))
    else Err(SyntaxError(ErrorMessage("function declaration", tok)))
  }

  function NewParser(program: string): (p: Parser)
    ensures p.Valid() && ValidStream(p.stream) && p.next == 0
  {
    Parser(Tokenize(Lex.NewLexer(program)), 0, None)
  }

  /** `parse_module`: a successful parse reads the whole program. */
  function ParseModule(program: string): (r: Result<Module, ParseError>)
    ensures r.Err? ==> r.error.SyntaxError?
    ensures r.Ok? ==> Tokenize(Lex.NewLexer(program)).end.Ok?
  {
    var (functions, _) :- MatchModuleLoop(NewParser(program));
    Ok(Module(functions))
  }

  /** The binary operators: the tokens with an infix precedence other than the call's. */
  predicate IsBinaryOperator(kind: Lex.TokenType) {
    kind == Lex.Plus || kind == Lex.Minus || kind == Lex.Star || kind == Lex.Slash
  }

  /** The infix loop stops at a token that is not an operator binding tighter
      than the current precedence, and pushes it back untouched. */
  lemma InfixLoopStops(p: Parser, precedence: nat, expr: Expr, tok: Lex.Token)
    requires p.Valid() && ValidStream(p.stream) && p.pushed.None? && p.JustRead(tok)
    requires Precedence(tok.kind).None? || Precedence(tok.kind).value <= precedence
    ensures InfixLoop(p, precedence, expr, tok) == Ok((expr, Parser(p.stream, p.next - Step(tok), Some(tok))))
  {
  }

  /** However the operator loop ends, it has pushed back a token that does
      not continue the expression. */
  lemma {:induction false} InfixLoopEndsAtStop(p: Parser, precedence: nat, expr: Expr, tok: Lex.Token)
    requires p.Valid() && ValidStream(p.stream) && p.pushed.None? && p.JustRead(tok)
    requires InfixLoop(p, precedence, expr, tok).Ok?
    ensures var q := InfixLoop(p, precedence, expr, tok).value.1;
      q.pushed.Some? && !Binds(q.pushed.value, precedence)
    decreases p.Remaining()
  {
    if Binds(tok, precedence) {
      if tok.kind == Lex.LeftParen {
        var (arguments, q) := MatchArgumentList(p).value;
        var (t2, q2) := NextToken(q).value;
        InfixLoopEndsAtStop(q2, precedence, FunctionCall(expr.name, arguments), t2);
      } else {
        var (right, q) := MatchExpression(p, Precedence(tok.kind).value).value;
        var (t2, q2) := NextToken(q).value;
        InfixLoopEndsAtStop(q2, precedence, Infix(tok.value, expr, right), t2);
      }
    }
  }

  /** A symbol followed by a token that does not continue the expression is
      the whole expression; the following token is left in the slot. */
  lemma SymbolExpression(p: Parser, precedence: nat, a: Lex.Token, t: Lex.Token)
    requires p.Valid() && ValidStream(p.stream) && p.pushed.None?
    requires p.TokenAt(p.next) == Ok(a) && a.kind == Lex.Symbol
    requires p.TokenAt(p.next + 1) == Ok(t)
    requires Precedence(t.kind).None? || Precedence(t.kind).value <= precedence
    ensures MatchExpression(p, precedence) == Ok((Symbol(a.value), Parser(p.stream, p.next + 1, Some(t))))
  {
    var q := Parser(p.stream, p.next + 1, None);
    assert MatchPrefix(p) == Ok((Symbol(a.value), q));
    assert NextToken(q) == Ok((t, Parser(p.stream, p.next + 1 + Step(t), None)));
    InfixLoopStops(Parser(p.stream, p.next + 1 + Step(t), None), precedence, Symbol(a.value), t);
  }

  /** The stream holds `a o1 b o2 c t` from the first unconsumed token on:
      three symbols joined by binary operators, then a token that does not
      continue an expression. */
  predicate ThreeOperands(p: Parser, a: Lex.Token, o1: Lex.Token, b: Lex.Token, o2: Lex.Token, c: Lex.Token, t: Lex.Token) {
    && p.TokenAt(p.next) == Ok(a) && p.TokenAt(p.next + 1) == Ok(o1) && p.TokenAt(p.next + 2) == Ok(b)
    && p.TokenAt(p.next + 3) == Ok(o2) && p.TokenAt(p.next + 4) == Ok(c) && p.TokenAt(p.next + 5) == Ok(t)
    && a.kind == Lex.Symbol && b.kind == Lex.Symbol && c.kind == Lex.Symbol
    && IsBinaryOperator(o1.kind) && IsBinaryOperator(o2.kind) && Precedence(t.kind).None?
  }

  /** `a o1 b o2 c` where `o2` binds tighter: `a + b * c` is `a + (b * c)`. */
  lemma {:induction false} TighterNestsRight(p: Parser, a: Lex.Token, o1: Lex.Token, b: Lex.Token, o2: Lex.Token, c: Lex.Token, t: Lex.Token)
    requires p.Valid() && ValidStream(p.stream) && p.pushed.None?
    requires ThreeOperands(p, a, o1, b, o2, c, t)
    requires Precedence(o1.kind).value < Precedence(o2.kind).value
    ensures MatchExpression(p, PrecedenceLowest)
      == Ok((Infix(o1.value, Symbol(a.value), Infix(o2.value, Symbol(b.value), Symbol(c.value))), Parser(p.stream, p.next + 5, Some(t))))
  {
    var s, i := p.stream, p.next;
    var p1, p2, p3, p4 := Parser(s, i + 1, None), Parser(s, i + 2, None), Parser(s, i + 3, None), Parser(s, i + 4, None);
    var p5, p6 := Parser(s, i + 5, Some(t)), Parser(s, i + 5 + Step(t), None);
    var prec1, prec2 := Precedence(o1.kind).value, Precedence(o2.kind).value;
    var ea, eb, ec := Symbol(a.value), Symbol(b.value), Symbol(c.value);
    assert MatchPrefix(p) == Ok((ea, p1));
    assert NextToken(p1) == Ok((o1, p2));
    assert NextToken(p5) == Ok((t, p6));
    SymbolExpression(p4, prec2, c, t);
    assert MatchPrefix(p2) == Ok((eb, p3));
    assert NextToken(p3) == Ok((o2, p4));
    InfixLoopStops(p6, prec1, Infix(o2.value, eb, ec), t);
    assert InfixLoop(p4, prec1, eb, o2) == Ok((Infix(o2.value, eb, ec), p5));
    assert MatchExpression(p2, prec1) == Ok((Infix(o2.value, eb, ec), p5));
    InfixLoopStops(p6, PrecedenceLowest, Infix(o1.value, ea, Infix(o2.value, eb, ec)), t);
  }

  /** `a o1 b o2 c` where `o2` does not bind tighter: equal precedence
      associates to the left, so `a - b - c` is `(a - b) - c`. */
  lemma {:induction false} OtherwiseNestsLeft(p: Parser, a: Lex.Token, o1: Lex.Token, b: Lex.Token, o2: Lex.Token, c: Lex.Token, t: Lex.Token)
    requires p.Valid() && ValidStream(p.stream) && p.pushed.None?
    requires ThreeOperands(p, a, o1, b, o2, c, t)
    requires Precedence(o2.kind).value <= Precedence(o1.kind).value
    ensures MatchExpression(p, PrecedenceLowest)
      == Ok((Infix(o2.value, Infix(o1.value, Symbol(a.value), Symbol(b.value)), Symbol(c.value)), Parser(p.stream, p.next + 5, Some(t))))
  {
    var s, i := p.stream, p.next;
    var p1, p2, p3, p4 := Parser(s, i + 1, None), Parser(s, i + 2, None), Parser(s, i + 3, Some(o2)), Parser(s, i + 4, None);
    var p5, p6 := Parser(s, i + 5, Some(t)), Parser(s, i + 5 + Step(t), None);
    var prec1, prec2 := Precedence(o1.kind).value, Precedence(o2.kind).value;
    var ea, eb, ec := Symbol(a.value), Symbol(b.value), Symbol(c.value);
    assert MatchPrefix(p) == Ok((ea, p1));
    assert NextToken(p1) == Ok((o1, p2));
    assert NextToken(p5) == Ok((t, p6));
    SymbolExpression(p4, prec2, c, t);
    SymbolExpression(p2, prec1, b, o2);
    assert NextToken(p3) == Ok((o2, p4));
    InfixLoopStops(p6, PrecedenceLowest, Infix(o2.value, Infix(o1.value, ea, eb), ec), t);
    assert InfixLoop(p4, PrecedenceLowest, Infix(o1.value, ea, eb), o2) == Ok((Infix(o2.value, Infix(o1.value, ea, eb), ec), p5));
  }

  /** Call syntax after anything but a symbol is rejected once the argument
      list has been read: `1()` is a syntax error. */
  lemma CallOnNonSymbol(p: Parser, n: Lex.Token, open: Lex.Token, close: Lex.Token)
    requires p.Valid() && ValidStream(p.stream) && p.pushed.None?
    requires p.TokenAt(p.next) == Ok(n) && n.kind == Lex.Integer
    requires p.TokenAt(p.next + 1) == Ok(open) && open.kind == Lex.LeftParen
    requires p.TokenAt(p.next + 2) == Ok(close) && close.kind == Lex.RightParen
    ensures MatchExpression(p, PrecedenceLowest) == Err(SyntaxError("function must be symbol"))
  {
    var s, i := p.stream, p.next;
    assert MatchPrefix(p) == Ok((Integer(DigitsValue(n.value)), Parser(s, i + 1, None)));
    assert NextToken(Parser(s, i + 1, None)) == Ok((open, Parser(s, i + 2, None)));
    assert MatchArgumentList(Parser(s, i + 2, None)) == Ok(([], Parser(s, i + 3, None)));
  }
}

=== FILE: vm_builtins.dfy ===
/** The virtual machine's pure list and string builtins
    (src/vm/builtins.go). A builtin that changes its list argument in
    place returns the changed list here; one that reports a Venice panic
    returns `Err(PanicError(message))`, and one where Go itself would
    crash (a slice expression out of range) returns `Err(RuntimeFault)`.

    Strings are sequences of code points. Go strings are UTF-8 bytes:
    where a builtin measures a string with `len`, the byte count
    `Utf8Length` stands in for it. */
module VmBuiltins {
  import opened Wrappers
  import opened Text
  import opened VmValues
  import L = GoLexer

  datatype Failure =
    | PanicError(message: string)
    /** Go's own "slice bounds out of range" runtime panic. */
    | RuntimeFault

  const OutOfBounds: string := "index out of bounds"

  // ---------------------------------------------------------------------
  // range

  /** builtinRange: the integers a, a+1, ..., b-1, appended one by one;
      empty when b <= a. */
  method Range(a: int, b: int) returns (r: seq<Value>)
    ensures |r| == if b <= a then 0 else b - a
    ensures forall k :: 0 <= k < |r| ==> r[k] == Integer(a + k)
  {
    r := [];
    if b - a <= 0 {
      return;
    }
    var i := a;
    while i < b
      invariant a <= i <= b
      invariant |r| == i - a
      invariant forall k :: 0 <= k < |r| ==> r[k] == Integer(a + k)
    {
      r := r + [Integer(i)];
      i := i + 1;
    }
  }

  // ---------------------------------------------------------------------
  // find and find_last

  /** builtinListFind: the first index whose element the needle equals,
      scanning forwards. */
  method Find(items: seq<Value>, needle: Value) returns (r: Option<nat>)
    ensures r.Some? ==>
      r.value < |items| && Equals(needle, items[r.value])
      && forall k :: 0 <= k < r.value ==> !Equals(needle, items[k])
    ensures r.None? ==> forall k :: 0 <= k < |items| ==> !Equals(needle, items[k])
  {
    var i := 0;
    while i < |items|
      invariant 0 <= i <= |items|
      invariant forall k :: 0 <= k < i ==> !Equals(needle, items[k])
    {
      if Equals(needle, items[i]) {
        return Some(i);
      }
      i := i + 1;
    }
    return None;
  }

  /** builtinListFindLast: the last index whose element the needle
      equals, scanning backwards. */
  method FindLast(items: seq<Value>, needle: Value) returns (r: Option<nat>)
    ensures r.Some? ==>
      r.value < |items| && Equals(needle, items[r.value])
      && forall k :: r.value < k < |items| ==> !Equals(needle, items[k])
    ensures r.None? ==> forall k :: 0 <= k < |items| ==> !Equals(needle, items[k])
  {
    var i := |items| - 1;
    while i >= 0
      invariant -1 <= i < |items|
      invariant forall k :: i < k < |items| ==> !Equals(needle, items[k])
    {
      if Equals(needle, items[i]) {
        return Some(i);
      }
      i := i - 1;
    }
    return None;
  }

  /** The wrapping both return to Venice code: Some(index) or None. */
  function FoundValue(r: Option<nat>): (v: Value)
    ensures r.Some? ==> v == OptionalOf(Integer(r.value))
    ensures r.None? ==> v == OptionalNone
  {
    match r
    case Some(i) => OptionalOf(Integer(i))
    case None => OptionalNone
  }

  // ---------------------------------------------------------------------
  // pop, remove, slice

  /** builtinListPop: the last element and the shortened list. */
  function Pop(items: seq<Value>): (r: Result<(Value, seq<Value>), Failure>)
    ensures r.Err? <==> |items| == 0
    ensures r.Err? ==> r.error == PanicError(OutOfBounds)
    ensures r.Ok? ==> r.value.1 + [r.value.0] == items
  {
    if |items| == 0 then Err(PanicError(OutOfBounds))
    else Ok((items[|items| - 1], items[..|items| - 1]))
  }

  /** builtinListRemove: the list without the element at `index`. */
  function RemoveAt(items: seq<Value>, index: int): (r: Result<seq<Value>, Failure>)
    ensures r.Err? <==> index < 0 || index >= |items|
    ensures r.Err? ==> r.error == PanicError(OutOfBounds)
    ensures r.Ok? ==>
      |r.value| == |items| - 1
      && (forall k :: 0 <= k < index ==> r.value[k] == items[k])
      && (forall k :: index <= k < |r.value| ==> r.value[k] == items[k + 1])
  {
    if index < 0 || index >= |items| then Err(PanicError(OutOfBounds))
    else Ok(items[..index] + items[index + 1..])
  }

  /** builtinListSlice: `start` must index an element and `end` may be one
      past the last. As written, nothing checks start <= end, and Go's
      slice expression then crashes the virtual machine; the corrected
      variant reports the Venice panic. */
  function Slice(v: L.Variant, items: seq<Value>, start: int, end: int): (r: Result<seq<Value>, Failure>)
    ensures r.Ok? <==> 0 <= start < |items| && 0 <= end <= |items| && start <= end
    ensures r.Ok? ==> r.value == items[start..end]
    ensures r.Err? && v == L.Corrected ==> r.error == PanicError(OutOfBounds)
  {
    if start < 0 || start >= |items| then Err(PanicError(OutOfBounds))
    else if end < 0 || end > |items| then Err(PanicError(OutOfBounds))
    else if start > end then
      (if v == L.AsWritten then Err(RuntimeFault) else Err(PanicError(OutOfBounds)))
    else Ok(items[start..end])
  }

  // ---------------------------------------------------------------------
  // reverse and sort

  /** The list read backwards. */
  function Reverse(items: seq<Value>): (r: seq<Value>)
    ensures |r| == |items|
    ensures forall k :: 0 <= k < |items| ==> r[k] == items[|items| - 1 - k]
  {
    seq(|items|, k requires 0 <= k < |items| => items[|items| - 1 - k])
  }

  /** builtinListReverseInPlace: swap the ends inwards. builtinListReversed
      does the same to a copy, so its argument keeps its order. */
  method ReverseInPlace(items: seq<Value>) returns (r: seq<Value>)
    ensures r == Reverse(items)
  {
    r := items;
    var i, j := 0, |items| - 1;
    while i < j
      invariant 0 <= i <= |items| && j == |items| - 1 - i
      invariant |r| == |items|
      invariant forall k :: 0 <= k < i ==> r[k] == items[|items| - 1 - k]
      invariant forall k :: j < k < |r| ==> r[k] == items[|items| - 1 - k]
      invariant forall k :: i <= k <= j ==> r[k] == items[k]
    {
      var front, back := r[i], r[j];
      r := r[i := back][j := front];
      i, j := i + 1, j - 1;
    }
  }

  /** The order `sort.Slice` sorts by: a value's `Compare`. Booleans put
      false first, integers and strings compare as usual, and no other
      value is less than anything. */
  predicate Less(a: Value, b: Value) {
    match a
    case Boolean(x) => b.Boolean? && !x && b.b
    case Integer(x) => b.Integer? && x < b.i
    case Str(x) => b.Str? && StringLess(x, b.s)
    case _ => false
  }

  /** Go's `<` on strings: byte order of UTF-8, which is code-point
      order. */
  predicate StringLess(a: string, b: string) {
    if |a| == 0 then |b| > 0
    else if |b| == 0 then false
    else if a[0] != b[0] then a[0] < b[0]
    else StringLess(a[1..], b[1..])
  }

  /** Inserts `x` before the first element it does not follow. */
  function Insert(x: Value, sorted: seq<Value>): (r: seq<Value>)
    ensures multiset(r) == multiset(sorted) + multiset{x}
  {
    if |sorted| == 0 then [x]
    else if Less(sorted[0], x) then
      assert sorted == [sorted[0]] + sorted[1..];
      [sorted[0]] + Insert(x, sorted[1..])
    else [x] + sorted
  }

  /** builtinListSortInPlace: a sort by `Less`. Go's `sort.Slice` is not
      stable, so the order it leaves equivalent values in is not modelled;
      this sort keeps it. builtinListSorted sorts a copy, so its argument
      keeps its order. */
  function Sort(items: seq<Value>): (r: seq<Value>)
    ensures multiset(r) == multiset(items)
  {
    if |items| == 0 then []
    else
      assert items == [items[0]] + items[1..];
      Insert(items[0], Sort(items[1..]))
  }

  // ---------------------------------------------------------------------
  // Strings

  /** strings.HasPrefix, then the rest after the prefix; otherwise the
      argument itself (builtinStringRemovePrefix). */
  function RemovePrefix(s: string, prefix: string): (r: string)
    ensures IsPrefix(prefix, s) ==> prefix + r == s
    ensures !IsPrefix(prefix, s) ==> r == s
  {
    if IsPrefix(prefix, s) then s[|prefix|..] else s
  }

  /** builtinStringRemoveSuffix: the part before a present suffix. */
  function RemoveSuffix(s: string, suffix: string): (r: string)
    ensures IsSuffix(suffix, s) ==> r + suffix == s
    ensures !IsSuffix(suffix, s) ==> r == s
  {
    if IsSuffix(suffix, s) then s[..|s| - |suffix|] else s
  }

  /** strings.LastIndex: the last position `needle` occurs at, -1 if none.
      An empty needle occurs at the end. */
  function LastIndex(s: string, needle: string): (r: int)
    ensures r == -1 || OccursAt(s, needle, r)
    ensures forall k :: r < k <= |s| ==> !OccursAt(s, needle, k)
  {
    LastIndexFrom(s, needle, |s|)
  }

  function LastIndexFrom(s: string, needle: string, i: int): (r: int)
    requires i <= |s|
    ensures r == -1 || (OccursAt(s, needle, r) && r <= i)
    ensures forall k :: r < k <= i ==> !OccursAt(s, needle, k)
    decreases i + 1
  {
    if i < 0 then -1
    else if OccursAt(s, needle, i) then i
    else LastIndexFrom(s, needle, i - 1)
  }

  /** builtinStringReplaceLast: the last occurrence replaced, or the
      argument itself when there is none. */
  function ReplaceLast(s: string, before: string, after: string): (r: string)
    ensures LastIndex(s, before) == -1 ==> r == s
    ensures LastIndex(s, before) != -1 ==>
      var i := LastIndex(s, before);
      r == s[..i] + after + s[i + |before|..]
  {
    var index := LastIndex(s, before);
    if index == -1 then s
    else s[..index] + after + s[index + |before|..]
  }

  // ---------------------------------------------------------------------
  // String slicing

  /** The number of UTF-8 bytes that encode a code point. */
  function Utf8Size(c: char): (n: nat)
    ensures 1 <= n <= 4
  {
    if c < 0x80 as char then 1
    else if c < 0x800 as char then 2
    else if c < 0x1_0000 as char then 3
    else 4
  }

  /** Go's `len` of a string: its UTF-8 byte count. */
  function Utf8Length(s: string): (n: nat)
    ensures n >= |s|
  {
    if |s| == 0 then 0 else Utf8Length(s[..|s| - 1]) + Utf8Size(s[|s| - 1])
  }

  /** What utf8.DecodeRuneInString yields at code point `i`: past the end
      of the string it decodes nothing and yields U+FFFD. */
  function CharAt(s: string, i: nat): char {
    if i < |s| then s[i] else 0xFFFD as char
  }

  /** getUtf8Slice: skips `start` code points, then writes one decoded
      code point for each of start, ..., end - 1. */
  function Utf8Slice(s: string, start: nat, end: nat): (r: string)
    ensures |r| == if start < end then end - start else 0
    decreases end - start
  {
    if start >= end then "" else [CharAt(s, start)] + Utf8Slice(s, start + 1, end)
  }

  /** builtinStringSlice. As written, the bounds are checked against the
      byte length, so a string with a non-ASCII character admits indexes
      past its last code point; the corrected variant checks them against
      the code-point count that `size` reports. */
  function StringSlice(v: L.Variant, s: string, start: int, end: int): (r: Result<string, Failure>)
    ensures var bound := if v == L.AsWritten then Utf8Length(s) else |s|;
      r.Ok? <==> 0 <= start < bound && 0 <= end <= bound
    ensures r.Err? ==> r.error == PanicError(OutOfBounds)
  {
    var bound := if v == L.AsWritten then Utf8Length(s) else |s|;
    if start < 0 || start >= bound then Err(PanicError(OutOfBounds))
    else if end < 0 || end > bound then Err(PanicError(OutOfBounds))
    else Ok(Utf8Slice(s, start, end))
  }

  // ---------------------------------------------------------------------
  // Lemmas: lists

  /** Popping after an append gives back the appended value and the list. */
  lemma PopAfterAppend(items: seq<Value>, x: Value)
    ensures Pop(items + [x]) == Ok((x, items))
  {
    assert (items + [x])[..|items|] == items;
  }

  /** remove drops exactly the element at the index. */
  lemma RemoveAtDropsOne(items: seq<Value>, index: int)
    requires 0 <= index < |items|
    ensures RemoveAt(items, index).Ok?
    ensures multiset(RemoveAt(items, index).value) + multiset{items[index]} == multiset(items)
  {
    assert items == items[..index] + [items[index]] + items[index + 1..];
  }

  /** Slicing a non-empty list from 0 to its length copies it. */
  lemma SliceWhole(v: L.Variant, items: seq<Value>)
    requires |items| > 0
    ensures Slice(v, items, 0, |items|) == Ok(items)
  {
    assert items[0..|items|] == items;
  }

  /** As written, a start past the end crashes the virtual machine. */
  lemma SliceBackwardsAsWritten(items: seq<Value>, start: int, end: int)
    requires 0 <= end < start < |items|
    ensures Slice(L.AsWritten, items, start, end) == Err(RuntimeFault)
  {
  }

  /** Corrected, a start past the end is the Venice panic. */
  lemma SliceBackwardsCorrected(items: seq<Value>, start: int, end: int)
    requires 0 <= end < start < |items|
    ensures Slice(L.Corrected, items, start, end) == Err(PanicError(OutOfBounds))
  {
  }

  /** Reversing twice restores the list. */
  lemma ReverseInvolutive(items: seq<Value>)
    ensures Reverse(Reverse(items)) == items
  {
  }

  // ---------------------------------------------------------------------
  // Lemmas: sorting

  /** No element is less than one before it. */
  ghost predicate Ordered(r: seq<Value>) {
    forall i, j :: 0 <= i < j < |r| ==> !Less(r[j], r[i])
  }

  /** Two values of one kind `Compare` orders totally. */
  predicate Comparable(a: Value, b: Value) {
    (a.Boolean? && b.Boolean?) || (a.Integer? && b.Integer?) || (a.Str? && b.Str?)
  }

  /** Every pair of elements is comparable: a list of booleans, of
      integers or of strings. */
  ghost predicate OneKind(items: seq<Value>) {
    forall a, b :: a in items && b in items ==> Comparable(a, b)
  }

  lemma {:induction false} StringLessAsymmetric(a: string, b: string)
    ensures StringLess(a, b) ==> !StringLess(b, a)
    decreases |a|
  {
    if |a| > 0 && |b| > 0 && a[0] == b[0] {
      StringLessAsymmetric(a[1..], b[1..]);
    }
  }

  lemma {:induction false} StringLessTotal(a: string, b: string)
    ensures a == b || StringLess(a, b) || StringLess(b, a)
    decreases |a|
  {
    if |a| > 0 && |b| > 0 && a[0] == b[0] {
      StringLessTotal(a[1..], b[1..]);
      if a[1..] == b[1..] {
        assert a == [a[0]] + a[1..] && b == [b[0]] + b[1..];
      }
    }
  }

  lemma {:induction false} StringLessTransitive(a: string, b: string, c: string)
    requires StringLess(a, b) && StringLess(b, c)
    ensures StringLess(a, c)
    decreases |a|
  {
    if |a| > 0 && a[0] == b[0] && b[0] == c[0] {
      StringLessTransitive(a[1..], b[1..], c[1..]);
    }
  }

  /** Among comparable values, not being less is transitive: what sorting
      by `Less` relies on. */
  lemma NotLessTransitive(a: Value, b: Value, c: Value)
    requires Comparable(a, b) && Comparable(b, c)
    requires !Less(a, b) && !Less(b, c)
    ensures !Less(a, c)
  {
    if a.Str? {
      StringLessTotal(a.s, b.s);
      StringLessTotal(b.s, c.s);
      if StringLess(c.s, b.s) && StringLess(b.s, a.s) {
        StringLessTransitive(c.s, b.s, a.s);
      }
      StringLessAsymmetric(c.s, a.s);
    }
  }

  lemma LessAsymmetric(a: Value, b: Value)
    ensures Less(a, b) ==> !Less(b, a)
  {
    if a.Str? && b.Str? {
      StringLessAsymmetric(a.s, b.s);
    }
  }

  /** A value no later element is less than, put before an ordered list,
      keeps it ordered. */
  lemma OrderedCons(head: Value, rest: seq<Value>)
    requires Ordered(rest)
    requires forall y :: y in rest ==> !Less(y, head)
    ensures Ordered([head] + rest)
  {
    var r := [head] + rest;
    forall i, j | 0 <= i < j < |r|
      ensures !Less(r[j], r[i])
    {
      if i == 0 {
        assert r[j] == rest[j - 1];
      } else {
        assert r[i] == rest[i - 1] && r[j] == rest[j - 1];
      }
    }
  }

  /** Inserting into an ordered list keeps it ordered. */
  lemma {:induction false} InsertOrdered(x: Value, sorted: seq<Value>)
    requires Ordered(sorted) && OneKind(sorted + [x])
    ensures Ordered(Insert(x, sorted))
    decreases |sorted|
  {
    if |sorted| > 0 {
      var head := sorted[0];
      if Less(head, x) {
        InsertAfterHead(x, sorted);
      } else {
        assert head in sorted + [x] && x in sorted + [x];
        forall y | y in sorted
          ensures !Less(y, head) && !Less(y, x)
        {
          var k :| 0 <= k < |sorted| && sorted[k] == y;
          assert y in sorted + [x];
          if k > 0 {
            assert !Less(sorted[k], sorted[0]);
            NotLessTransitive(y, head, x);
          } else {
            LessAsymmetric(head, head);
          }
        }
        OrderedCons(x, sorted);
      }
    }
  }

  /** The recursive case of InsertOrdered: `x` goes after the head. */
  lemma {:induction false} InsertAfterHead(x: Value, sorted: seq<Value>)
    requires |sorted| > 0 && Less(sorted[0], x)
    requires Ordered(sorted) && OneKind(sorted + [x])
    ensures Ordered(Insert(x, sorted))
    decreases |sorted|, 0
  {
    var head, tail := sorted[0], sorted[1..];
    assert forall y :: y in tail + [x] ==> y in sorted + [x];
    InsertOrdered(x, tail);
    var rest := Insert(x, tail);
    forall y | y in rest
      ensures !Less(y, head)
    {
      assert y in multiset(rest);
      if y == x {
        LessAsymmetric(head, x);
      } else {
        assert y in multiset(tail);
        var k :| 0 <= k < |tail| && tail[k] == y;
        assert sorted[k + 1] == y;
      }
    }
    OrderedCons(head, rest);
  }

  /** Sorting a list of one kind orders it; it always permutes it. */
  lemma {:induction false} SortOrdered(items: seq<Value>)
    requires OneKind(items)
    ensures Ordered(Sort(items))
    decreases |items|
  {
    if |items| > 0 {
      var tail := items[1..];
      assert items == [items[0]] + tail;
      assert forall y :: y in tail ==> y in items;
      SortOrdered(tail);
      var sortedTail := Sort(tail);
      forall a, b | a in sortedTail + [items[0]] && b in sortedTail + [items[0]]
        ensures Comparable(a, b)
      {
        assert a in multiset(sortedTail + [items[0]]) && b in multiset(sortedTail + [items[0]]);
        assert multiset(sortedTail + [items[0]]) == multiset(items);
        assert a in items && b in items;
      }
      InsertOrdered(items[0], sortedTail);
    }
  }

  // ---------------------------------------------------------------------
  // Lemmas: strings

  /** remove_prefix undoes prepending the prefix. */
  lemma RemovePrefixRoundTrip(prefix: string, s: string)
    ensures RemovePrefix(prefix + s, prefix) == s
  {
    assert (prefix + s)[..|prefix|] == prefix;
  }

  /** remove_suffix undoes appending the suffix. */
  lemma RemoveSuffixRoundTrip(s: string, suffix: string)
    ensures RemoveSuffix(s + suffix, suffix) == s
  {
    assert (s + suffix)[|s|..] == suffix;
  }

  /** Replacing the last occurrence with itself changes nothing. */
  lemma ReplaceLastSame(s: string, needle: string)
    ensures ReplaceLast(s, needle, needle) == s
  {
    var i := LastIndex(s, needle);
    if i != -1 {
      assert s == s[..i] + s[i..i + |needle|] + s[i + |needle|..];
    }
  }

  /** An ASCII string has as many bytes as code points. */
  lemma {:induction false} AsciiLength(s: string)
    requires forall k :: 0 <= k < |s| ==> s[k] < 0x80 as char
    ensures Utf8Length(s) == |s|
  {
    if |s| > 0 {
      AsciiLength(s[..|s| - 1]);
    }
  }

  /** Within the string, the slice is the code points in [start, end). */
  lemma {:induction false} Utf8SliceInside(s: string, start: nat, end: nat)
    requires start <= end <= |s|
    ensures Utf8Slice(s, start, end) == s[start..end]
    decreases end - start
  {
    if start < end {
      Utf8SliceInside(s, start + 1, end);
      assert s[start..end] == [s[start]] + s[start + 1..end];
    }
  }

  /** Corrected, a slice that succeeds is the code points in [start, end),
      empty when start is past end. */
  lemma StringSliceCorrected(s: string, start: int, end: int)
    requires StringSlice(L.Corrected, s, start, end).Ok?
    ensures StringSlice(L.Corrected, s, start, end).value
      == if start <= end then s[start..end] else ""
  {
    if start <= end {
      Utf8SliceInside(s, start, end);
    }
  }

  /** On ASCII strings the byte-length check is the code-point check. */
  lemma StringSliceAscii(s: string, start: int, end: int)
    requires forall k :: 0 <= k < |s| ==> s[k] < 0x80 as char
    ensures StringSlice(L.AsWritten, s, start, end) == StringSlice(L.Corrected, s, start, end)
  {
    AsciiLength(s);
  }

  /** As written, slicing "é" (two bytes, one code point) from 1 to 2
      passes the check and decodes past the end: U+FFFD. Corrected, it is
      out of bounds. */
  lemma StringSlicePastEndAsWritten()
    ensures StringSlice(L.AsWritten, [0xE9 as char], 1, 2) == Ok([0xFFFD as char])
    ensures StringSlice(L.Corrected, [0xE9 as char], 1, 2) == Err(PanicError(OutOfBounds))
  {
    var s := [0xE9 as char];
    assert s[..0] == [];
    assert Utf8Length(s) == 2;
    assert Utf8Slice(s, 2, 2) == "";
    assert Utf8Slice(s, 1, 2) == [CharAt(s, 1)] + Utf8Slice(s, 2, 2);
    assert CharAt(s, 1) == 0xFFFD as char;
    assert Utf8Slice(s, 1, 2) == [0xFFFD as char];
    assert StringSlice(L.AsWritten, s, 1, 2) == Ok(Utf8Slice(s, 1, 2));
  }
}

=== FILE: vm_map.dfy ===
/** The virtual machine's hash map (VeniceMap in src/vm/vval.go): 256
    buckets, each a chain of entries searched with the keys' `Equals`, and
    a `Size` field the operations keep up to date.

    The map is modelled over any key and value type: key equality and the
    hash are parameters (`eq(stored, query)` is Go's
    `stored.Equals(query)`). A key's bucket is its hash masked to the table
    size. */
module VmMap {
  import opened Wrappers
  import L = GoLexer

  /** The number of buckets: the table is a `[256]` array. */
  const Slots: nat := 256

  datatype Entry<K, V> = Entry(key: K, value: V)

  type Chain<K, V> = seq<Entry<K, V>>

  datatype VeniceMap<K, V> = VeniceMap(table: seq<Chain<K, V>>, size: int)

  /** `hash & (256 - 1)`, the same as `hash % 256` for an unsigned hash. */
  function Slot(hash: nat): (s: nat)
    ensures s < Slots
  {
    hash % Slots
  }

  /** The total number of entries in the chains. */
  function Count<K, V>(table: seq<Chain<K, V>>): nat {
    if |table| == 0 then 0 else Count(table[..|table| - 1]) + |table[|table| - 1]|
  }

  /** All entries, bucket by bucket and along each chain (Entries). */
  function Flatten<K, V>(table: seq<Chain<K, V>>): (r: Chain<K, V>)
    ensures |r| == Count(table)
  {
    if |table| == 0 then [] else Flatten(table[..|table| - 1]) + table[|table| - 1]
  }

  function Entries<K, V>(m: VeniceMap<K, V>): Chain<K, V> {
    Flatten(m.table)
  }

  function Keys<K, V>(m: VeniceMap<K, V>): (r: seq<K>)
    ensures |r| == |Entries(m)| && forall i :: 0 <= i < |r| ==> r[i] == Entries(m)[i].key
  {
    var es := Entries(m);
    seq(|es|, i requires 0 <= i < |es| => es[i].key)
  }

  function Values<K, V>(m: VeniceMap<K, V>): (r: seq<V>)
    ensures |r| == |Entries(m)| && forall i :: 0 <= i < |r| ==> r[i] == Entries(m)[i].value
  {
    var es := Entries(m);
    seq(|es|, i requires 0 <= i < |es| => es[i].value)
  }

  /** An empty map (NewVeniceMap). */
  function NewMap<K, V>(): VeniceMap<K, V> {
    VeniceMap(seq(Slots, _ => []), 0)
  }

  /** A new map has every one of its buckets empty and size 0. */
  lemma NewMapEmpty<K, V>()
    ensures |NewMap<K, V>().table| == Slots && NewMap<K, V>().size == 0
    ensures forall s :: 0 <= s < Slots ==> NewMap<K, V>().table[s] == []
  {
  }

  /** The position of the first entry of the chain whose key equals `key`. */
  function Find<K, V>(chain: Chain<K, V>, key: K, eq: (K, K) -> bool): (r: Option<nat>)
    ensures r.Some? ==>
      r.value < |chain| && eq(chain[r.value].key, key)
      && forall j :: 0 <= j < r.value ==> !eq(chain[j].key, key)
    ensures r.None? ==> forall j :: 0 <= j < |chain| ==> !eq(chain[j].key, key)
  {
    if |chain| == 0 then None
    else if eq(chain[0].key, key) then Some(0)
    else match Find(chain[1..], key, eq)
      case None => None
      case Some(i) => Some(i + 1)
  }

  /** VeniceMap.Get: the value stored under the first equal key of the key's bucket;
      None stands for Go's nil. */
  function Lookup<K, V>(m: VeniceMap<K, V>, key: K, eq: (K, K) -> bool, hash: K -> nat): Option<V>
    requires |m.table| == Slots
  {
    var chain := m.table[Slot(hash(key))];
    match Find(chain, key, eq)
    case None => None
    case Some(i) => Some(chain[i].value)
  }

  /** Replaces the value of an equal key, keeping the stored key, or
      appends a new entry to the bucket's chain and counts it. */
  function Put<K, V>(m: VeniceMap<K, V>, key: K, value: V, eq: (K, K) -> bool, hash: K -> nat): (r: VeniceMap<K, V>)
    requires |m.table| == Slots
    ensures |r.table| == Slots
  {
    var s := Slot(hash(key));
    var chain := m.table[s];
    match Find(chain, key, eq)
    case Some(i) => m.(table := m.table[s := chain[i := Entry(chain[i].key, value)]])
    case None => m.(table := m.table[s := chain + [Entry(key, value)]], size := m.size + 1)
  }

  /** Unlinks the first entry with an equal key and uncounts it. As
      written, unlinking the head of a chain empties the whole bucket. */
  function Remove<K, V>(v: L.Variant, m: VeniceMap<K, V>, key: K, eq: (K, K) -> bool, hash: K -> nat): (r: VeniceMap<K, V>)
    requires |m.table| == Slots
    ensures |r.table| == Slots
  {
    var s := Slot(hash(key));
    var chain := m.table[s];
    match Find(chain, key, eq)
    case None => m
    case Some(i) =>
      var rest := if v == L.AsWritten && i == 0 then [] else chain[..i] + chain[i + 1..];
      m.(table := m.table[s := rest], size := m.size - 1)
  }

  /** Empties every bucket and sets the size to 0. */
  function Clear<K, V>(m: VeniceMap<K, V>): (r: VeniceMap<K, V>)
    ensures |r.table| == Slots && r.size == 0
    ensures forall s :: 0 <= s < Slots ==> r.table[s] == []
  {
    VeniceMap(seq(Slots, _ => []), 0)
  }

  // ---------------------------------------------------------------------
  // The map iterator

  /** VeniceMapIterator: the bucket being walked and the position in its
      chain. */
  datatype MapIterator = MapIterator(tableIndex: nat, chainIndex: nat)

  /** VeniceMapIterator.Next: the next entry, moving to the following buckets when this chain is
      exhausted; None (nil) once every bucket has been walked. */
  function IteratorNext<K, V>(m: VeniceMap<K, V>, it: MapIterator): Option<(Entry<K, V>, MapIterator)>
    requires |m.table| == Slots
    decreases Slots - it.tableIndex
  {
    if it.tableIndex >= Slots then None
    else
      var chain := m.table[it.tableIndex];
      if it.chainIndex < |chain| then
        Some((chain[it.chainIndex], MapIterator(it.tableIndex, it.chainIndex + 1)))
      else IteratorNext(m, MapIterator(it.tableIndex + 1, 0))
  }

  // ---------------------------------------------------------------------
  // Map equality

  /** Equal sizes, and each entry's key found in the other map with a value
      equal to the entry's. As written, a key missing from the other map
      dereferences the nil Lookup returns (None here). */
  function MapEquals<K, V>(v: L.Variant, m1: VeniceMap<K, V>, m2: VeniceMap<K, V>,
    eq: (K, K) -> bool, hash: K -> nat, valueEq: (V, V) -> bool): Option<bool>
    requires |m2.table| == Slots
  {
    if m1.size != m2.size then Some(false)
    else EntriesFound(v, Entries(m1), m2, eq, hash, valueEq)
  }

  function EntriesFound<K, V>(v: L.Variant, es: Chain<K, V>, m2: VeniceMap<K, V>,
    eq: (K, K) -> bool, hash: K -> nat, valueEq: (V, V) -> bool): Option<bool>
    requires |m2.table| == Slots
  {
    if |es| == 0 then Some(true)
    else match Lookup(m2, es[0].key, eq, hash)
      case None => if v == L.AsWritten then None else Some(false)
      case Some(other) =>
        if !valueEq(other, es[0].value) then Some(false)
        else EntriesFound(v, es[1..], m2, eq, hash, valueEq)
  }
}

=== FILE: vm_map_facts.dfy ===
/** Properties of the virtual machine's hash map: the size invariant each
    operation keeps, what Lookup returns after Put and Remove, the order the
    iterator yields the entries in, and map equality. */
module VmMapFacts {
  import opened Wrappers
  import opened VmMap
  import L = GoLexer

  /** Key equality that is symmetric and transitive. It need not be
      reflexive: a function value equals nothing, itself included. */
  ghost predicate PartialEquivalence<K(!new)>(eq: (K, K) -> bool) {
    (forall a, b :: eq(a, b) ==> eq(b, a))
    && (forall a, b, c :: eq(a, b) && eq(b, c) ==> eq(a, c))
  }

  /** Equal keys hash alike, so they share a bucket. */
  ghost predicate HashRespects<K(!new)>(eq: (K, K) -> bool, hash: K -> nat) {
    forall a, b :: eq(a, b) ==> hash(a) == hash(b)
  }

  /** No two keys of a chain are equal. */
  ghost predicate DistinctKeys<K, V>(chain: Chain<K, V>, eq: (K, K) -> bool) {
    forall i, j :: 0 <= i < j < |chain| ==> !eq(chain[i].key, chain[j].key)
  }

  /** The map's invariant: 256 buckets, every key in its own bucket, no
      two equal keys in a chain, and `Size` counting the entries. */
  ghost predicate Valid<K, V>(m: VeniceMap<K, V>, eq: (K, K) -> bool, hash: K -> nat) {
    |m.table| == Slots
    && (forall s, j :: 0 <= s < Slots && 0 <= j < |m.table[s]| ==> Slot(hash(m.table[s][j].key)) == s)
    && (forall s :: 0 <= s < Slots ==> DistinctKeys(m.table[s], eq))
    && m.size == Count(m.table)
  }

  // ---------------------------------------------------------------------
  // Counting

  lemma {:induction false} CountUpdate<K, V>(table: seq<Chain<K, V>>, s: nat, c: Chain<K, V>)
    requires s < |table|
    ensures Count(table[s := c]) == Count(table) - |table[s]| + |c|
    decreases |table|
  {
    var n := |table| - 1;
    if s < n {
      CountUpdate(table[..n], s, c);
      assert table[s := c][..n] == table[..n][s := c];
    } else {
      assert table[s := c][..n] == table[..n];
    }
  }

  lemma {:induction false} CountEmpty<K, V>(table: seq<Chain<K, V>>)
    requires forall s :: 0 <= s < |table| ==> table[s] == []
    ensures Count(table) == 0
    decreases |table|
  {
    if |table| > 0 {
      CountEmpty(table[..|table| - 1]);
    }
  }

  /** The map's size is the number of entries Entries lists. */
  lemma EntriesCounted<K, V>(m: VeniceMap<K, V>, eq: (K, K) -> bool, hash: K -> nat)
    requires Valid(m, eq, hash)
    ensures |Entries(m)| == m.size
  {
  }

  // ---------------------------------------------------------------------
  // Empty maps

  /** A new map and a cleared map are valid, empty and find nothing. */
  lemma EmptyMaps<K, V>(m: VeniceMap<K, V>, eq: (K, K) -> bool, hash: K -> nat, key: K)
    ensures Valid(NewMap<K, V>(), eq, hash) && Lookup(NewMap<K, V>(), key, eq, hash).None?
    ensures Valid(Clear(m), eq, hash) && Clear(m).size == 0 && Lookup(Clear(m), key, eq, hash).None?
  {
    CountEmpty(NewMap<K, V>().table);
    CountEmpty(Clear(m).table);
  }

  // ---------------------------------------------------------------------
  // Put

  /** Put keeps the invariant, and counts one more entry exactly when no
      equal key was present. */
  lemma PutValid<K, V>(m: VeniceMap<K, V>, key: K, value: V, eq: (K, K) -> bool, hash: K -> nat)
    requires Valid(m, eq, hash)
    ensures Valid(Put(m, key, value, eq, hash), eq, hash)
    ensures Put(m, key, value, eq, hash).size == m.size + (if Lookup(m, key, eq, hash).None? then 1 else 0)
  {
    var s := Slot(hash(key));
    var chain := m.table[s];
    var r := Put(m, key, value, eq, hash);
    match Find(chain, key, eq)
    case Some(i) =>
      CountUpdate(m.table, s, chain[i := Entry(chain[i].key, value)]);
      assert r.table[s] == chain[i := Entry(chain[i].key, value)];
    case None =>
      CountUpdate(m.table, s, chain + [Entry(key, value)]);
      assert r.table[s] == chain + [Entry(key, value)];
  }

  /** After Put, a key equal to the one put finds the new value; any other
      key finds what it found before. */
  lemma GetAfterPut<K(!new), V>(m: VeniceMap<K, V>, key: K, value: V, query: K, eq: (K, K) -> bool, hash: K -> nat)
    requires |m.table| == Slots
    requires PartialEquivalence(eq) && HashRespects(eq, hash)
    ensures Lookup(Put(m, key, value, eq, hash), query, eq, hash)
      == if eq(key, query) then Some(value) else Lookup(m, query, eq, hash)
  {
    var s := Slot(hash(key));
    var chain := m.table[s];
    var r := Put(m, key, value, eq, hash);
    if Slot(hash(query)) == s {
      var c2 := r.table[s];
      match Find(chain, key, eq)
      case Some(i) =>
        assert c2 == chain[i := Entry(chain[i].key, value)];
        assert forall j :: 0 <= j < |chain| ==> c2[j].key == chain[j].key;
        FindSameKeys(chain, c2, query, eq);
        if eq(key, query) {
          assert eq(query, key);
        } else {
          assert eq(key, chain[i].key);
        }
      case None =>
        assert c2 == chain + [Entry(key, value)];
        FindAppend(chain, Entry(key, value), query, eq);
        if eq(key, query) {
          assert eq(query, key);
        }
    } else {
      assert !eq(key, query);
    }
  }

  /** Chains with the same keys in the same order find the same position. */
  lemma {:induction false} FindSameKeys<K, V>(c1: Chain<K, V>, c2: Chain<K, V>, key: K, eq: (K, K) -> bool)
    requires |c1| == |c2| && forall j :: 0 <= j < |c1| ==> c1[j].key == c2[j].key
    ensures Find(c1, key, eq) == Find(c2, key, eq)
    decreases |c1|
  {
    if |c1| > 0 {
      FindSameKeys(c1[1..], c2[1..], key, eq);
    }
  }

  /** Appending an entry only matters when nothing before it matches. */
  lemma {:induction false} FindAppend<K, V>(chain: Chain<K, V>, e: Entry<K, V>, key: K, eq: (K, K) -> bool)
    ensures Find(chain + [e], key, eq)
      == if Find(chain, key, eq).Some? then Find(chain, key, eq)
         else if eq(e.key, key) then Some(|chain|) else None
  {
    if |chain| == 0 {
      assert chain + [e] == [e];
    } else if !eq(chain[0].key, key) {
      FindAppend(chain[1..], e, key, eq);
      assert (chain + [e])[1..] == chain[1..] + [e];
    }
  }

  // ---------------------------------------------------------------------
  // Remove

  /** Corrected Remove keeps the invariant and uncounts exactly the entry
      it removes. */
  lemma RemoveValid<K, V>(m: VeniceMap<K, V>, key: K, eq: (K, K) -> bool, hash: K -> nat)
    requires Valid(m, eq, hash)
    ensures Valid(Remove(L.Corrected, m, key, eq, hash), eq, hash)
    ensures Remove(L.Corrected, m, key, eq, hash).size == m.size - (if Lookup(m, key, eq, hash).Some? then 1 else 0)
  {
    var s := Slot(hash(key));
    var chain := m.table[s];
    match Find(chain, key, eq)
    case None =>
    case Some(i) =>
      var rest := chain[..i] + chain[i + 1..];
      CountUpdate(m.table, s, rest);
      var r := Remove(L.Corrected, m, key, eq, hash);
      assert r.table == m.table[s := rest];
      Unlinked(chain, i, eq);
      forall t, j | 0 <= t < Slots && 0 <= j < |r.table[t]|
        ensures Slot(hash(r.table[t][j].key)) == t
      {
        if t == s {
          assert r.table[t][j] == chain[if j < i then j else j + 1];
        }
      }
  }

  /** A chain with one entry unlinked keeps the others, in order, and
      their distinctness. */
  lemma Unlinked<K, V>(chain: Chain<K, V>, i: nat, eq: (K, K) -> bool)
    requires i < |chain|
    ensures var rest := chain[..i] + chain[i + 1..];
      |rest| == |chain| - 1
      && (forall j :: 0 <= j < |rest| ==> rest[j] == chain[if j < i then j else j + 1])
      && (DistinctKeys(chain, eq) ==> DistinctKeys(rest, eq))
  {
    var rest := chain[..i] + chain[i + 1..];
    assert forall j :: 0 <= j < |rest| ==> rest[j] == chain[if j < i then j else j + 1];
  }

  /** After the corrected Remove, keys equal to the removed one find
      nothing and all other keys find what they found before. */
  lemma GetAfterRemove<K(!new), V>(m: VeniceMap<K, V>, key: K, query: K, eq: (K, K) -> bool, hash: K -> nat)
    requires Valid(m, eq, hash) && PartialEquivalence(eq) && HashRespects(eq, hash)
    ensures Lookup(Remove(L.Corrected, m, key, eq, hash), query, eq, hash)
      == if eq(key, query) then None else Lookup(m, query, eq, hash)
  {
    var s := Slot(hash(key));
    var chain := m.table[s];
    if Slot(hash(query)) != s {
      assert !eq(key, query);
    } else {
      match Find(chain, key, eq)
      case None =>
        if eq(key, query) {
          assert eq(query, key);
        }
      case Some(i) =>
        var rest := chain[..i] + chain[i + 1..];
        assert forall j :: 0 <= j < |rest| ==> rest[j] == chain[if j < i then j else j + 1];
        if eq(key, query) {
          assert eq(query, key);
          assert forall j :: 0 <= j < |rest| ==> !eq(rest[j].key, key);
        } else {
          FindRemoved(chain, i, query, eq);
          assert eq(key, chain[i].key);
        }
    }
  }

  /** Removing a position whose key does not match leaves the same entry
      found. */
  lemma FindRemoved<K, V>(chain: Chain<K, V>, i: nat, key: K, eq: (K, K) -> bool)
    requires i < |chain| && !eq(chain[i].key, key)
    ensures var rest := chain[..i] + chain[i + 1..];
      match Find(chain, key, eq)
      case None => Find(rest, key, eq).None?
      case Some(k) => Find(rest, key, eq).Some? && rest[Find(rest, key, eq).value] == chain[k]
  {
    var rest := chain[..i] + chain[i + 1..];
    assert forall j :: 0 <= j < |rest| ==> rest[j] == chain[if j < i then j else j + 1];
    match Find(chain, key, eq)
    case None =>
      assert forall j :: 0 <= j < |rest| ==> !eq(rest[j].key, key);
    case Some(k) =>
      var p := if k < i then k else k - 1;
      assert rest[p] == chain[k];
      assert forall j :: 0 <= j < p ==> !eq(rest[j].key, key);
  }

  /** As written, removing the key at the head of a longer chain loses
      every entry behind it: their keys are no longer found, and the size
      no longer counts the entries. */
  lemma RemoveHeadLosesChain<K(!new), V>(m: VeniceMap<K, V>, key: K, eq: (K, K) -> bool, hash: K -> nat)
    requires Valid(m, eq, hash) && PartialEquivalence(eq)
    requires var chain := m.table[Slot(hash(key))]; |chain| >= 2 && eq(chain[0].key, key)
    ensures var chain := m.table[Slot(hash(key))];
      var r := Remove(L.AsWritten, m, key, eq, hash);
      (forall j :: 1 <= j < |chain| ==> Lookup(m, chain[j].key, eq, hash).Some? || !eq(chain[j].key, chain[j].key))
      && (forall j :: 1 <= j < |chain| ==> Lookup(r, chain[j].key, eq, hash).None?)
      && !Valid(r, eq, hash)
  {
    var s := Slot(hash(key));
    var chain := m.table[s];
    var r := Remove(L.AsWritten, m, key, eq, hash);
    assert r.table[s] == [];
    CountUpdate(m.table, s, []);
    forall j | 1 <= j < |chain|
      ensures Lookup(r, chain[j].key, eq, hash).None?
    {
      assert Slot(hash(chain[j].key)) == s;
    }
    forall j | 1 <= j < |chain| && eq(chain[j].key, chain[j].key)
      ensures Lookup(m, chain[j].key, eq, hash).Some?
    {
      assert Slot(hash(chain[j].key)) == s;
    }
  }

  /** The counterexample with integer keys hashed to themselves: after
      putting 24 and 280 (both in bucket 24) and removing 24, 280 is gone. */
  lemma RemoveHeadExample()
    ensures var eq := (a: int, b: int) => a == b;
      var hash := (a: int) => a % 0x1_0000_0000_0000_0000;
      var m := Put(Put(NewMap<int, int>(), 24, 25, eq, hash), 280, 281, eq, hash);
      Lookup(m, 280, eq, hash) == Some(281)
      && Lookup(Remove(L.AsWritten, m, 24, eq, hash), 280, eq, hash).None?
      && Lookup(Remove(L.Corrected, m, 24, eq, hash), 280, eq, hash) == Some(281)
  {
    var eq := (a: int, b: int) => a == b;
    var hash := (a: int) => a % 0x1_0000_0000_0000_0000;
    var m1 := Put(NewMap<int, int>(), 24, 25, eq, hash);
    assert m1.table[24] == [Entry(24, 25)];
    var m := Put(m1, 280, 281, eq, hash);
    assert m.table[24] == [Entry(24, 25), Entry(280, 281)];
    assert [Entry(24, 25), Entry(280, 281)][..0] + [Entry(24, 25), Entry(280, 281)][1..] == [Entry(280, 281)];
  }

  // ---------------------------------------------------------------------
  // The iterator

  /** Flattening a table split in two. */
  lemma {:induction false} FlattenAppend<K, V>(a: seq<Chain<K, V>>, b: seq<Chain<K, V>>)
    ensures Flatten(a + b) == Flatten(a) + Flatten(b)
    decreases |b|
  {
    if |b| == 0 {
      assert a + b == a;
    } else {
      var n := |b| - 1;
      var ab := a + b;
      assert ab[..|ab| - 1] == a + b[..n];
      assert ab[|ab| - 1] == b[n];
      calc {
        Flatten(ab);
        Flatten(a + b[..n]) + b[n];
        { FlattenAppend(a, b[..n]); }
        (Flatten(a) + Flatten(b[..n])) + b[n];
        Flatten(a) + (Flatten(b[..n]) + b[n]);
      }
    }
  }

  /** Flattening from bucket t on: bucket t's chain, then the rest. */
  lemma FlattenFront<K, V>(table: seq<Chain<K, V>>, t: nat)
    requires t < |table|
    ensures Flatten(table[t..]) == table[t] + Flatten(table[t + 1..])
  {
    FlattenAppend([table[t]], table[t + 1..]);
    assert [table[t]] + table[t + 1..] == table[t..];
    assert [table[t]][..0] == [];
  }

  /** What an iterator has still to yield: the rest of its chain, then the
      following buckets in order. */
  function Remaining<K, V>(m: VeniceMap<K, V>, it: MapIterator): Chain<K, V>
    requires |m.table| == Slots
  {
    if it.tableIndex >= Slots then []
    else
      var chain := m.table[it.tableIndex];
      (if it.chainIndex < |chain| then chain[it.chainIndex..] else []) + Flatten(m.table[it.tableIndex + 1..])
  }

  /** A fresh iterator has every entry still to yield. */
  lemma StartRemainsAll<K, V>(m: VeniceMap<K, V>)
    requires |m.table| == Slots
    ensures Remaining(m, MapIterator(0, 0)) == Entries(m)
  {
    FlattenFront(m.table, 0);
    assert m.table[0..] == m.table;
  }

  /** An iterator past the end of its chain has what the start of the next
      bucket has. */
  lemma ChainEndRemaining<K, V>(m: VeniceMap<K, V>, it: MapIterator)
    requires |m.table| == Slots && it.tableIndex < Slots && it.chainIndex >= |m.table[it.tableIndex]|
    ensures Remaining(m, it) == Remaining(m, MapIterator(it.tableIndex + 1, 0))
  {
    var t := it.tableIndex;
    assert Remaining(m, it) == [] + Flatten(m.table[t + 1..]);
    if t + 1 < Slots {
      FlattenFront(m.table, t + 1);
    }
  }

  /** Each step yields the first remaining entry; the iterator returns nil
      exactly when nothing remains. */
  lemma {:induction false} NextYieldsRemaining<K, V>(m: VeniceMap<K, V>, it: MapIterator)
    requires |m.table| == Slots
    ensures IteratorNext(m, it).None? <==> Remaining(m, it) == []
    ensures IteratorNext(m, it).Some? ==> Remaining(m, it) == [IteratorNext(m, it).value.0] + Remaining(m, IteratorNext(m, it).value.1)
    decreases Slots - it.tableIndex
  {
    if it.tableIndex < Slots {
      var chain := m.table[it.tableIndex];
      if it.chainIndex < |chain| {
        assert chain[it.chainIndex..] == [chain[it.chainIndex]] + chain[it.chainIndex + 1..];
      } else {
        ChainEndRemaining(m, it);
        NextYieldsRemaining(m, MapIterator(it.tableIndex + 1, 0));
      }
    }
  }

  // ---------------------------------------------------------------------
  // Equality

  /** Corrected, the entries are all found, with equal values, exactly
      when the check answers true; it always answers. */
  lemma {:induction false} EntriesFoundMeans<K, V>(es: Chain<K, V>, m2: VeniceMap<K, V>,
    eq: (K, K) -> bool, hash: K -> nat, valueEq: (V, V) -> bool)
    requires |m2.table| == Slots
    ensures var r := EntriesFound(L.Corrected, es, m2, eq, hash, valueEq);
      r.Some?
      && (r.value <==> forall i :: 0 <= i < |es| ==>
            Lookup(m2, es[i].key, eq, hash).Some? && valueEq(Lookup(m2, es[i].key, eq, hash).value, es[i].value))
    decreases |es|
  {
    if |es| > 0 {
      EntriesFoundMeans(es[1..], m2, eq, hash, valueEq);
      assert forall i :: 1 <= i < |es| ==> es[1..][i - 1] == es[i];
    }
  }

  /** As written, the check agrees with the corrected one whenever it does
      not dereference nil. */
  lemma {:induction false} EntriesFoundAgree<K, V>(es: Chain<K, V>, m2: VeniceMap<K, V>,
    eq: (K, K) -> bool, hash: K -> nat, valueEq: (V, V) -> bool)
    requires |m2.table| == Slots
    ensures var r := EntriesFound(L.AsWritten, es, m2, eq, hash, valueEq);
      r.Some? ==> r == EntriesFound(L.Corrected, es, m2, eq, hash, valueEq)
    decreases |es|
  {
    if |es| > 0 {
      EntriesFoundAgree(es[1..], m2, eq, hash, valueEq);
    }
  }

  /** Map equality, corrected: equal sizes and every entry of the first map
      found in the second with an equal value. */
  lemma MapEqualsMeans<K, V>(m1: VeniceMap<K, V>, m2: VeniceMap<K, V>,
    eq: (K, K) -> bool, hash: K -> nat, valueEq: (V, V) -> bool)
    requires |m2.table| == Slots
    ensures var r := MapEquals(L.Corrected, m1, m2, eq, hash, valueEq);
      var es := Entries(m1);
      r.Some?
      && (r.value <==> m1.size == m2.size && forall i :: 0 <= i < |es| ==>
            Lookup(m2, es[i].key, eq, hash).Some? && valueEq(Lookup(m2, es[i].key, eq, hash).value, es[i].value))
  {
    EntriesFoundMeans(Entries(m1), m2, eq, hash, valueEq);
  }

  /** As written, comparing two maps of one size whose first entry's key
      the other map lacks dereferences nil; corrected, the answer is false. */
  lemma MapEqualsMissingKey<K, V>(m1: VeniceMap<K, V>, m2: VeniceMap<K, V>,
    eq: (K, K) -> bool, hash: K -> nat, valueEq: (V, V) -> bool)
    requires |m2.table| == Slots && m1.size == m2.size
    requires |Entries(m1)| > 0 && Lookup(m2, Entries(m1)[0].key, eq, hash).None?
    ensures MapEquals(L.AsWritten, m1, m2, eq, hash, valueEq).None?
    ensures MapEquals(L.Corrected, m1, m2, eq, hash, valueEq) == Some(false)
  {
  }

  /** As written, map equality answers as corrected whenever it answers. */
  lemma MapEqualsAgree<K, V>(m1: VeniceMap<K, V>, m2: VeniceMap<K, V>,
    eq: (K, K) -> bool, hash: K -> nat, valueEq: (V, V) -> bool)
    requires |m2.table| == Slots
    ensures var r := MapEquals(L.AsWritten, m1, m2, eq, hash, valueEq);
      r.Some? ==> r == MapEquals(L.Corrected, m1, m2, eq, hash, valueEq)
  {
    EntriesFoundAgree(Entries(m1), m2, eq, hash, valueEq);
  }
}

=== FILE: vm_values.dfy ===
/** The virtual machine's values (src/vm/vval.go): booleans, integers,
    strings, lists, tuples, enum and class objects and function objects,
    with the `Equals` and `Hash` every value implements, and the list
    iterator.

    Values are immutable here: a Go list is a shared pointer whose
    contents builtins may change in place, and a builtin here returns the
    changed list instead. */
module VmValues {
  import opened Wrappers
  import VmMap
  import VmMapFacts

  datatype Value =
    | Boolean(b: bool)
    | Integer(i: int)
    | Str(s: string)
    | ListValue(items: seq<Value>)
    | TupleValue(items: seq<Value>)
    | EnumObject(caseName: string, fields: seq<Value>)
    | ClassObject(className: string, fields: seq<Value>)
    | FunctionObject(name: string, isBuiltin: bool)

  /** VeniceOptionalOf: `Some` wrapping one value. */
  function OptionalOf(v: Value): (r: Value)
    ensures r.EnumObject? && r.caseName == "Some" && r.fields == [v]
  {
    EnumObject("Some", [v])
  }

  /** VENICE_OPTIONAL_NONE. */
  const OptionalNone: Value := EnumObject("None", [])

  // ---------------------------------------------------------------------
  // Equality

  /** Value equality as each type's `Equals` defines it: same kind, and
      for compound values the same label (a class's name is not compared)
      and pairwise equal components. A function object equals nothing. */
  function Equals(a: Value, b: Value): bool
    decreases a, 1
  {
    match a
    case Boolean(x) => b.Boolean? && b.b == x
    case Integer(x) => b.Integer? && b.i == x
    case Str(x) => b.Str? && b.s == x
    case ListValue(xs) => b.ListValue? && |xs| == |b.items| && ElementsEqual(xs, b.items, 0)
    case TupleValue(xs) => b.TupleValue? && |xs| == |b.items| && ElementsEqual(xs, b.items, 0)
    case EnumObject(l, xs) => b.EnumObject? && b.caseName == l && |xs| == |b.fields| && ElementsEqual(xs, b.fields, 0)
    case ClassObject(_, xs) => b.ClassObject? && |xs| == |b.fields| && ElementsEqual(xs, b.fields, 0)
    case FunctionObject(_, _) => false
  }

  /** The loop shared by the compound `Equals`: components from `i` on
      are pairwise equal, stopping at the first that is not. */
  function ElementsEqual(xs: seq<Value>, ys: seq<Value>, i: nat): bool
    requires |xs| == |ys|
    decreases xs, 0, |xs| - i
  {
    if i >= |xs| then true
    else Equals(xs[i], ys[i]) && ElementsEqual(xs, ys, i + 1)
  }

  /** Whether a function object occurs anywhere inside the value. */
  predicate HoldsFunction(v: Value) {
    match v
    case FunctionObject(_, _) => true
    case ListValue(xs) => exists i :: 0 <= i < |xs| && HoldsFunction(xs[i])
    case TupleValue(xs) => exists i :: 0 <= i < |xs| && HoldsFunction(xs[i])
    case EnumObject(_, xs) => exists i :: 0 <= i < |xs| && HoldsFunction(xs[i])
    case ClassObject(_, xs) => exists i :: 0 <= i < |xs| && HoldsFunction(xs[i])
    case _ => false
  }

  /** The components a compound value compares. */
  function Components(v: Value): seq<Value> {
    match v
    case ListValue(xs) => xs
    case TupleValue(xs) => xs
    case EnumObject(_, xs) => xs
    case ClassObject(_, xs) => xs
    case _ => []
  }

  // ---------------------------------------------------------------------
  // Hashing

  /** 2^64: Go converts an int to uint64 by wrapping. */
  const TwoTo64: int := 0x1_0000_0000_0000_0000

  /** A value's `Hash`. `digest(bytes)` stands for the sum of a fresh
      maphash.Hash after writing `bytes` (maphash is not modelled). A list
      or tuple passes the hasher by value to its elements, so the elements
      write into copies and the sum is that of nothing written. Class,
      enum and function objects hash to 0. */
  function Hash(digest: string -> nat, v: Value): (h: nat)
    ensures v.Integer? ==> h < TwoTo64 && (h - v.i) % TwoTo64 == 0
  {
    match v
    case Boolean(x) => digest(if x then [1 as char] else [0 as char])
    case Integer(x) => x % TwoTo64
    case Str(x) => digest(x)
    case ListValue(_) => digest([])
    case TupleValue(_) => digest([])
    case _ => 0
  }

  // ---------------------------------------------------------------------
  // The list iterator

  /** VeniceListIterator.Next: the element at `index` and the advanced
      index, or None (nil) once the index reaches the end. */
  function ListNext(items: seq<Value>, index: nat): (r: Option<(Value, nat)>)
    requires index <= |items|
    ensures r.None? <==> index == |items|
    ensures r.Some? ==> r.value == (items[index], index + 1)
  {
    if index == |items| then None else Some((items[index], index + 1))
  }

  /** What repeated calls of Next yield from `index` until nil. */
  function Drain(items: seq<Value>, index: nat): seq<Value>
    requires index <= |items|
    decreases |items| - index
  {
    match ListNext(items, index)
    case None => []
    case Some((x, next)) => [x] + Drain(items, next)
  }

  // ---------------------------------------------------------------------
  // Lemmas

  /** Compound equality compares lengths and then every pair of
      components. */
  lemma {:induction false} ElementsEqualMeans(xs: seq<Value>, ys: seq<Value>, i: nat)
    requires |xs| == |ys|
    ensures ElementsEqual(xs, ys, i) <==> forall k :: i <= k < |xs| ==> Equals(xs[k], ys[k])
    decreases |xs| - i
  {
    if i < |xs| {
      ElementsEqualMeans(xs, ys, i + 1);
    }
  }

  /** List and tuple equality: equal lengths and pairwise `Equals`. */
  lemma SequenceEquality(xs: seq<Value>, ys: seq<Value>)
    ensures Equals(ListValue(xs), ListValue(ys))
      <==> |xs| == |ys| && forall k :: 0 <= k < |xs| ==> Equals(xs[k], ys[k])
    ensures Equals(TupleValue(xs), TupleValue(ys))
      <==> |xs| == |ys| && forall k :: 0 <= k < |xs| ==> Equals(xs[k], ys[k])
    ensures !Equals(ListValue(xs), TupleValue(ys))
  {
    if |xs| == |ys| {
      ElementsEqualMeans(xs, ys, 0);
    }
  }

  /** Two class objects with the same components are equal whatever their
      class names, since only the type checker tells classes apart. */
  lemma ClassNameIgnored(n1: string, n2: string, xs: seq<Value>)
    ensures Equals(ClassObject(n1, xs), ClassObject(n2, xs)) == Equals(ClassObject(n1, xs), ClassObject(n1, xs))
  {
  }

  /** Equality is symmetric. */
  lemma {:induction false} EqualsSymmetric(a: Value, b: Value)
    ensures Equals(a, b) == Equals(b, a)
    decreases a
  {
    var xs, ys := Components(a), Components(b);
    if |xs| == |ys| && !a.FunctionObject? && !b.FunctionObject? {
      forall k | 0 <= k < |xs|
        ensures Equals(xs[k], ys[k]) == Equals(ys[k], xs[k])
      {
        EqualsSymmetric(xs[k], ys[k]);
      }
      ElementsEqualMeans(xs, ys, 0);
      ElementsEqualMeans(ys, xs, 0);
    }
  }

  /** Equality is transitive. */
  lemma {:induction false} EqualsTransitive(a: Value, b: Value, c: Value)
    requires Equals(a, b) && Equals(b, c)
    ensures Equals(a, c)
    decreases a
  {
    var xs, ys, zs := Components(a), Components(b), Components(c);
    if !a.Boolean? && !a.Integer? && !a.Str? {
      ElementsEqualMeans(xs, ys, 0);
      ElementsEqualMeans(ys, zs, 0);
      forall k | 0 <= k < |xs|
        ensures Equals(xs[k], zs[k])
      {
        EqualsTransitive(xs[k], ys[k], zs[k]);
      }
      ElementsEqualMeans(xs, zs, 0);
    }
  }

  /** A value equals itself exactly when no function object occurs in it. */
  lemma {:induction false} EqualsReflexive(a: Value)
    ensures Equals(a, a) <==> !HoldsFunction(a)
    decreases a
  {
    var xs := Components(a);
    if !a.Boolean? && !a.Integer? && !a.Str? && !a.FunctionObject? {
      forall k | 0 <= k < |xs|
        ensures Equals(xs[k], xs[k]) <==> !HoldsFunction(xs[k])
      {
        EqualsReflexive(xs[k]);
      }
      ElementsEqualMeans(xs, xs, 0);
    }
  }

  /** Equal values hash alike, whatever the digest: values can be keys of
      the map. */
  lemma HashRespectsEquals(digest: string -> nat, a: Value, b: Value)
    requires Equals(a, b)
    ensures Hash(digest, a) == Hash(digest, b)
  {
  }

  /** Hence Equals and Hash meet what the map's lemmas ask of keys. */
  lemma ValuesAreKeys(digest: string -> nat)
    ensures VmMapFacts.PartialEquivalence(Equals)
    ensures VmMapFacts.HashRespects(Equals, v => Hash(digest, v))
  {
    forall a, b | Equals(a, b)
      ensures Equals(b, a)
    {
      EqualsSymmetric(a, b);
    }
    forall a, b, c | Equals(a, b) && Equals(b, c)
      ensures Equals(a, c)
    {
      EqualsTransitive(a, b, c);
    }
  }

  /** The list iterator yields each element once, in order, then nil. */
  lemma {:induction false} DrainYieldsRest(items: seq<Value>, index: nat)
    requires index <= |items|
    ensures Drain(items, index) == items[index..]
    decreases |items| - index
  {
    if index < |items| {
      DrainYieldsRest(items, index + 1);
      assert items[index..] == [items[index]] + items[index + 1..];
    }
  }

  /** A fresh iterator yields the whole list. */
  lemma ListIteratorYieldsAll(items: seq<Value>)
    ensures Drain(items, 0) == items
    ensures ListNext(items, |items|).None?
  {
    DrainYieldsRest(items, 0);
  }
}

=== FILE: wrappers.dfy ===
/** Failure-compatible wrappers shared by every generation of the compiler.
    `Result` stands for an exception or an error return of the source, `Option`
    for a value that may be absent (Python's None, Go's nil, Rust's Option). */
module Wrappers {

  datatype Option<+T> = None | Some(value: T) {
    predicate IsFailure() {
      None?
    }

    function PropagateFailure<U>(): Option<U>
      requires None?
    {
      None
    }

    function Extract(): T
      requires Some?
    {
      value
    }

    function GetOr(default: T): T {
      match this
      case Some(v) => v
      case None => default
    }
  }

  datatype Result<+T, +E> = Ok(value: T) | Err(error: E) {
    predicate IsFailure() {
      Err?
    }

    function PropagateFailure<U>(): Result<U, E>
      requires Err?
    {
      Err(error)
    }

    function Extract(): T
      requires Ok?
    {
      value
    }

    /** The same outcome with the error converted by `f`. */
    function MapFailure<F>(f: E -> F): (r: Result<T, F>)
      ensures r.Ok? <==> Ok?
      ensures Ok? ==> r.value == value
      ensures Err? ==> r.error == f(error)
    {
      match this
      case Ok(v) => Ok(v)
      case Err(e) => Err(f(e))
    }
  }
}
